=== FILE: README.md ===
# A geometry deduction engine, modelled in Dafny

The modelled program proves facts of plane geometry by forward chaining.
A problem is a list of predicates over named points: `coll` (collinear),
`para`, `perp`, `midp`, `cong` (equal segments), `eqangle`, `eqratio`,
`cyclic`, `simtri`, `contri`.  A database groups what is known into named
lines and congruence classes, groups of parallel lines, of equal angles and
of equal ratios, and midpoint triples.  A prover queues the hypotheses,
pops one predicate at a time, records it, fires the deduction rules
(D01-D75 and X1-X4) for its kind, and queues every conclusion the database
does not already hold, until the queue is empty or an iteration cap is
reached.  The repository carries several revisions of this loop, and the
model covers each:

- `src/primitives.py`, `src/predicate.py`, `src/fact.py`, `src/util.py`:
  modules `Primitives`, `Predicates`, `Facts` and `Util`, with `Text` and
  `Order` for the few Python string operations and orders they rely on.
- `src/database_.py`, the set-based store whose names the point-level
  rule bodies read, and over which the model runs them: `GroupStore`, built on `Groups` (the lists of groups) and `Merge` (the
  greedy merge pass).  `AsWritten` keeps the handlers whose code as written
  mixes lists and sets.
- `src/database.py`, the earlier list-based store: `ListStore`.  The
  point-level prover imports this store (src/prover.py:15, 23), which
  lacks most of the names its rules read; `ListProver` is that run as
  written.
- `src/prover.py`, the point-level prover: `Snapshot` (the database as a
  rule sees it), `PointQuery` (`prove` and `_predicate_all_forms`), the rule
  bodies in `PointRules`, `PointGuards`, `PointSearch`, `GroupSearch`,
  `MidSearch`, `CongSearch` and `SimSearch`, and the loop in `PointProver`.
- `src/rules.py`, the fact-level rules `FC`: `FcKit`, `FcRules`, `FcSearch`
  and `FC.deduct` in `FcDeduct`.
- `src/newprover.py`, the fact-queue prover: `NpProver` and the rule
  bodies that differ from `src/rules.py` in `NpRules`.
- `src/newrules.py`, a prover whose rules call a store API that the store
  it imports does not have: `NrProver` and `NrRules`.
- `src/inference.py`: `Inference` (`sort` and `inference_update`).

Every operation is a pure function from the old state to the new one.
Python sets become duplicate-free sequences and dictionaries become
association lists, so that the iteration order a run happens to use is an
explicit argument.  A Python exception is a `Fail` result naming its
cause: `NameExhausted` when the nineteen generated names run out,
`KeyMissing` for a `KeyError`, `IndexOutOfRange`, `MalformedArity` when a
predicate has the wrong number of points to unpack, `TypeMismatch` for a
`TypeError` or `AttributeError`, `InvalidKind` for the `ValueError` of
`prove` on an unknown kind, `AssertionFailed` for a failing `assert`, and
`UndefinedName` for a `NameError`.  `src/newdatabase.py` is not part of
this model.  The four calls the fact-level rules make into it
(`containsFact`, `lineIntersection`, `_predicate_to_fact` and
`_predicate_all_forms`) and its `version` counter are the function fields
of `Snapshot.Api`, so every property proved about those rules holds for
any database that answers them.

## Model

| member | source | states |
|---|---|---|
| AsWritten.MatchLineAsWritten | src/database_.py:83-95 | `matchLine` as written: a line it creates is a list. |
| AsWritten.SharingTwo | src/database_.py:83-95 | The first line sharing at least two of the points, or `\|lines\|`. |
| AsWritten.CollHandlerAsWritten | src/database_.py:62-81 | `collHandler` as written: growing a line still held as a list fails; otherwise it behaves as intended, and a merge pass leaves every line a set. |
| AsWritten.ListLineCrashes | src/database_.py:62-81 | A line made by `matchLine` (for instance by `para(P, Q, ...)`) and then extended by `coll(P, Q, X)` makes the handler fail. |
| AsWritten.NewListLineCrashes | src/database_.py:62-81 | A line `matchLine` had to create, and that is the first to share two of the points, is still a list when `coll` grows it. |
| AsWritten.ListLineFails | src/database_.py:62-81 | Growing a line still held as a list fails. |
| AsWritten.PairLineGrows | src/database_.py:62-81 | In the same situation the intended handler succeeds and, by `GroupStore.CollCovers`, puts X on a line with P and Q. |
| AsWritten.NewPairLine | src/database_.py:83-95 | With no line sharing two of the points, `matchLine` appends a line through `p` and `q`, and it is the first to share two of them. |
| AsWritten.PrintedWith | src/database_.py:97-111 | The first class with a member printed like segment `pq`, or `\|congs\|`. |
| AsWritten.MatchCongAsWritten | src/database_.py:97-111 | `matchCong` as written: classes are searched by printed text, and a class it creates is the list `[Segment(p, q)]`. |
| AsWritten.PrintedMatchWrong | src/database_.py:97-111 | With two-character names the printed search picks a class that does not hold the segment: `AB`-`C` prints like `A`-`BC`. |
| AsWritten.AddCongPairAsWritten | src/database_.py:37-60 | The class-growing step of `congHandler` as written: growing a class still held as a list fails; otherwise it behaves as intended, and the merge pass leaves every class a set. |
| AsWritten.ListClassCrashes | src/database_.py:37-60 | A class made by `matchCong` (for instance by `eqratio(P, Q, ...)`) and then given `cong(P, Q, ...)` makes the handler fail. |
| AsWritten.NewPairClass | src/database_.py:97-111 | When no class prints like `pq` or holds the other segment, the as-written `matchCong` appends a list class for `pq`, and it is the class the handler grows. |
| AsWritten.NoClassPrinted | src/database_.py:97-111 | When no class prints like `pq`, none holds segment `pq`. |
| AsWritten.PrintedIfHeld | src/database_.py:97-111 | A class holding a segment equal to `s` has a member printed like `s`. |
| CongSearch.HasSegJoins | src/prover.py:879-900 | A class holds a segment equal to A-X exactly when one of its segments joins A to X. |
| CongSearch.FarEnd | src/prover.py:879-900 | The ends other than A of one segment that has A as an end. |
| CongSearch.Far | src/prover.py:879-900 | The far ends from A of the class's segments that have A as an end. |
| CongSearch.D56Class | src/prover.py:879-900 | One class against the premise cong(A,P,B,P): perp(A,B,P,Q) for every far end Q, other than P, that the class reaches from both A and B. |
| CongSearch.FarBoth | src/prover.py:879-900 | The far ends a class reaches from both A and B are the points it links them to. |
| CongSearch.D56Classes | src/prover.py:879-900 | D56Class over every class, in order. |
| CongSearch.D56 | src/prover.py:879-900 | D56: cong(A,P,B,P) & cong(A,Q,B,Q) => perp(A,B,P,Q), for every point Q other than P, A and B with A-Q and B-Q in one class. |
| CongSearch.D56BothWays | src/prover.py:879-900 | D56 works both ways round: when P itself is recorded equidistant from A and B, a conclusion perp(A,B,P,Q) from cong(A,P,B,P) is matched by perp(A,B,Q,P) from cong(A,Q,B,Q). |
| CongSearch.EquatedSound | src/prover.py:1172-1223 | The equations are sound: under any positive lengths for the classes that give the hub classes one length and make the two ratios equal, every pair of classes equated has equal lengths. |
| CongSearch.SegCross | src/prover.py:1172-1223 | cong(A,B,C,D) for every segment A-B of the first list and C-D of the second. |
| CongSearch.JoinStep | src/prover.py:1172-1223 | Every segment of one class paired with every segment of the other. |
| CongSearch.PairStep | src/prover.py:1172-1223 | One pair of equal ratios of a recorded group. |
| CongSearch.PairSteps | src/prover.py:1172-1223 | Each pair of equal ratios of `prs` in turn. |
| CongSearch.Hub | src/prover.py:1172-1223 | The classes of the premise's two segments, matched in order. |
| CongSearch.D75Cong | src/prover.py:1172-1223 | D75 (cong form): cong(P,Q,U,V) & eqratio(A,B,C,D,P,Q,U,V) => cong(A,B,C,D): with the classes of P-Q and U-V as the hub, every pair of equal ratios of every recorded group equates the classes it equates, and each pairing of their segments is concluded congruent. |
| CongSearch.MeasuredMember | src/prover.py:1172-1223 | A segment read from a class has that class's length. |
| CongSearch.EquatesSound | src/prover.py:1172-1223 | A conclusion drawn from one pair of equal ratios is sound under any lengths that agree with the store, give the hub classes one length and make the two ratios equal. |
| CongSearch.D75CongFrom | src/prover.py:1172-1223 | The recorded pair of equal ratios a D75 conclusion comes from. |
| CongSearch.GroupPairSound | src/prover.py:1172-1223 | A conclusion drawn from two ratios of one recorded group is sound when every group's ratios are equal and the two hub classes agree. |
| CongSearch.GroupProportional | src/prover.py:1172-1223 | Two ratios of one group are equal when every group's ratios are. |
| CongSearch.HubOneLength | src/prover.py:1172-1223 | Two classes of one length give every pair of hub classes one length. |
| CongSearch.D75CongSound | src/prover.py:1172-1223 | D75 (cong form) is sound: under positive lengths that agree with the store after the premise's classes are matched, give those two classes one length (the premise) and make every recorded group's ratios equal, every conclusion relates two segments of equal length. |
| Facts.KindOf | src/fact.py:25-46 | The kind a name denotes, if any. |
| Facts.KindNameRoundTrip | src/fact.py:12-15 | Every kind name reads back as its kind and holds no space, so the rendering starts with it. |
| Facts.KindNameInjective | src/fact.py:12-15 | Different kinds have different names. |
| Facts.Priority | src/fact.py:25-46 | The position of a kind in the priority list coll, cong, midp, para, perp, eqangle, eqratio, simtri, contri, cyclic, circle. |
| Facts.PriorityInjective | src/fact.py:25-46 | Different kinds have different positions in the priority list. |
| Facts.KeyLtStrictTotal | src/fact.py:12-15 | The order `sorted` uses on a fact's objects is a strict total order. |
| Facts.OrderedKeys | src/fact.py:12-15 | The objects' keys in rendering order. |
| Facts.EqualFactsHashAlike | src/fact.py:17-23 | Equal facts hash alike, as a dict or set needs. |
| Facts.RenderFirstSpace | src/fact.py:12-15 | The first space of a rendering ends the kind name. |
| Facts.RenderDeterminesKind | src/fact.py:12-15 | The rendered text determines the kind. |
| Facts.SortedKindIgnoresOrder | src/fact.py:12-15 | For the sorted kinds, reordering the objects gives an equal fact. |
| Facts.RenderNames | src/fact.py:12-15 | Render of a fact over names is exactly Python's: the names, sorted by string order for the sorted kinds, each quoted by `repr`. |
| Facts.QuotedJoinInjective | src/fact.py:12-15 | Quoted plain names joined by ", " can be split back unambiguously. |
| Facts.RenderedListsEqual | src/fact.py:12-15 | Two renderings of one kind agree exactly when their joined item texts agree. |
| Facts.SortKeepsPlain | src/fact.py:12-15 | Sorting keeps plain names plain. |
| Facts.NamesFactEq | src/fact.py:20-23 | Equality of facts over plain names: same kind, and the same names in the same order -- or, for the sorted kinds, the same names in any order. |
| Facts.CollFactsCompare | tests/test_fact.py:4-11 | The fact test, for any names: coll(a, b, c) equals itself rebuilt and differs from coll(a, d, e) when b and d differ. |
| Facts.FactLtStrictOrder | src/fact.py:25-46 | `__lt__` is a strict order that puts every fact of an earlier kind first. |
| Facts.FactLtIgnoresEquality | src/fact.py:42-46 | `__lt__` does not respect equality: para(x, y) and para(y, x) are equal facts, yet one is strictly less than the other. |
| Facts.CommaPairsDiffer | src/fact.py:42-46 | Two different comma-free names joined with a comma in the two orders give different texts. |
| Facts.SortByPriority | src/inference.py:9-23 | `sorted(facts, key=priority)`: a stable sort on kind priority. |
| Facts.InsertByPrioritySorted | src/inference.py:9-23 | Inserting into a list sorted by kind priority keeps it sorted. |
| Facts.InsertByPriorityOfKind | src/inference.py:9-23 | Inserting a fact puts it ahead of the facts of its own kind, leaving every other kind's facts as they were. |
| Facts.SortAppended | src/inference.py:9-23 | Sorting a list with facts appended keeps the list's facts of each kind ahead of the appended ones, in their order. |
| Facts.SortByPriorityStable | src/inference.py:9-23 | The priority sort orders facts by kind priority, keeps every fact, and keeps the facts of each kind in their original order. |
| Facts.RenderAsWritten | src/fact.py:12-15 | `Fact.__repr__` as written: `sorted` on a list of two or more objects that are not all names compares objects that define no order, which raises TypeError; otherwise the text is the same as `Render`. |
| Facts.TrianglePairRenderFails | src/fact.py:12-15 | Rendering `simtri` or `contri` of two triangles raises, as `sorted` cannot order two `Triangle`s. |
| FcDeduct.RulesFire | src/rules.py:18-62 | The kinds that fire rules are exactly the ones `deduct` lists, and each kind fires each rule once. |
| FcDeduct.Fire | src/rules.py:18-62 | `facts += self._ruleX(p)` for every rule of the premise's kind; the first rule that raises ends `deduct`. |
| FcDeduct.Distinct | src/rules.py:64-64 | `list(set(facts))`: one fact for each rendering, each taken from `facts`. |
| FcDeduct.DistinctCoversOne | src/rules.py:64-64 | A fact of the list is represented in `Distinct` by one rendered alike. |
| FcDeduct.DistinctCovers | src/rules.py:64-64 | Every fact of the list is represented in `Distinct` by one rendered alike. |
| FcDeduct.Deduct | src/rules.py:17-64 | `deduct(p)`: it raises exactly when a fired rule does; every fact it returns was concluded by a fired rule, and no two returned facts render alike. |
| FcDeduct.DeductCovers | src/rules.py:17-64 | Every concluded fact is returned by `deduct` up to rendering. |
| FcDeduct.DeductSettled | src/rules.py:17-64 | Deducing twice from the same database and premise gives nothing new: putting the result through the set again changes nothing. |
| FcDeduct.SetAsWritten | src/rules.py:64-64 | `set(facts)` as written: hashing a fact renders it, so one whose rendering sorts objects that define no order raises TypeError. |
| FcDeduct.DeductAsWritten | src/rules.py:17-64 | `deduct` as written: a conclusion whose rendering sorts triangles raises TypeError before anything is returned. |
| FcDeduct.D58Similarity | src/rules.py:503-508 | A D58 conclusion is a similarity of two triangles. |
| FcDeduct.SimilarityBreaksSet | src/rules.py:503-508 | Gathered conclusions holding a similarity of two triangles, such as every D58 conclusion: as written the set raises TypeError, while the corrected rendering keeps that similarity, or one rendered alike. |
| FcDeduct.SetFailsOn | src/rules.py:64-64 | One fact whose rendering raises makes the whole set raise. |
| FcKit.OnInjective | src/fact.py:8-10 | A fact over names determines its names. |
| FcKit.Match | src/rules.py:115-116 | `matchLine` on each pair in turn: the keys, and the lines once every call has run. |
| FcKit.TwoLines | src/rules.py:115-116 | The first two keys of a four-point premise: `matchLine([A, B])`, then `matchLine([C, D])`. |
| FcKit.PartnerStep | src/rules.py:119-126 | One group of a loop `for lines in groups: if l not in lines: continue; e = partner; if e in skip: continue`. |
| FcKit.Partners | src/rules.py:119-126 | The partner of `l` in every group holding it, unless `skip` names it; a group holding `l` alone is the IndexError of `list(lines)[1]`. |
| FcKit.Hit | src/rules.py:289-292 | `lineIntersection(la, lb)[0]`: the chosen point is one the intersection callback reported. |
| FcKit.Settle | src/rules.py:316-322 | The drafts of a loop, their lines named one `matchLine` call after another in the order the loop makes them: the facts, and the lines once every call has run. |
| FcKit.SettledFromDrafts | src/rules.py:316-322 | Settling keeps the order of the drafts: a fact of kind `k` at position `j` comes from the draft at `j`, so every fact has a draft. |
| FcRules.PerpLines | src/rules.py:66-87 | The two lines of a perp premise for X2: its own keys when it carries two, otherwise `matchLine` on A-B and C-D. |
| FcRules.X2Step | src/rules.py:66-87 | One recorded pair of `for [lPQ, lUV] in perpFacts`; a record that is not a pair fails to unpack. |
| FcRules.X2 | src/rules.py:66-87 | X2: perp(A,B,C,D) & perp(P,Q,U,V) => eqangle(A,B,C,D,P,Q,U,V): the premise's angle equals every other recorded right angle, in both orientations; the premise's own pair, either way round, is skipped. |
| FcRules.X2BothOrientations | src/rules.py:66-87 | Each eqangle of X2 comes with its mirror image: the recorded pair taken the other way round. |
| FcRules.X3 | src/rules.py:89-97 | X3: perp(A,B,C,D) => eqangle(A,B,C,D,C,D,A,B): the angle from A-B to C-D equals the angle back. |
| FcRules.X4 | src/rules.py:99-108 | X4: cong(M,A,M,B) & coll(M,A,B) => midp(M,A,B): only when both segments start at the same point and the database holds the collinearity. |
| FcRules.D09 | src/rules.py:110-127 | D09: perp(A,B,C,D) & perp(C,D,E,F) => para(A,B,E,F), for each line E-F recorded perpendicular to C-D other than A-B and C-D. |
| FcRules.Joined | src/rules.py:110-127 | `[Fact(k, [l, e]) for e in es]`: one fact `k(l, e)` exactly for each `e` of `es`, and nothing else. |
| FcRules.D10Para | src/rules.py:129-147 | D10 (para form): para(A,B,C,D) & perp(C,D,E,F) => perp(A,B,E,F), for each line E-F recorded perpendicular to C-D other than A-B and C-D. |
| FcRules.D10Perp | src/rules.py:149-166 | D10 (perp form): perp(C,D,E,F) & para(A,B,C,D) => perp(A,B,E,F), for each line A-B recorded parallel to C-D other than C-D and E-F. |
| FcRules.Fronted | src/rules.py:149-166 | `[Fact(k, [a, l]) for a in es]`: one fact `k(a, l)` exactly for each `a` of `es`, and nothing else. |
| FcRules.D39 | src/rules.py:219-239 | D39: eqangle(A,B,P,Q,C,D,P,Q) => para(A,B,C,D). Line form: the two angles share their second line, and the three lines differ. |
| FcRules.D40 | src/rules.py:241-257 | D40: para(A,B,C,D) => eqangle(A,B,P,Q,C,D,P,Q): two distinct parallel lines make equal angles with every line P-Q that is neither of them nor known parallel to either. |
| FcRules.Transversals | src/rules.py:241-257 | `for lPQ in lines: if lPQ in [lAB, lCD] or para(lPQ, lAB) or para(lPQ, lCD): continue`, writing the eqangle for the rest. |
| FcRules.Cut | src/rules.py:241-257 | The body of that loop for one line. |
| FcRules.D40ThenD39 | src/rules.py:219-257 | Every eqangle D40 writes, read back in its line form by D39, gives the parallel D40 started from. |
| FcRules.D39OnLines | src/rules.py:219-239 | D39 on two lines cut by one transversal concludes they are parallel. |
| FcRules.D41 | src/rules.py:259-270 | D41: cyclic(A,B,P,Q) => eqangle(P,A,P,B,Q,A,Q,B): the angles A and B subtend at P and at Q are equal, when neither is between one line. |
| FcRules.D42a | src/rules.py:272-296 | D42a: eqangle(P,A,P,B,Q,A,Q,B) & not coll(P,Q,A) => cyclic(A,B,P,Q), line form only: A, B, P, Q are read off as intersections of the four lines. The test checks `lineIntersection(l1, l3)` but reads P from `lineIntersection(l3, l1)`, an IndexError when the database answers the two orders differently. A premise without four keys falls off the end of the body, and the `None` it returns makes the caller's `facts += None` a TypeError. |
| FcRules.D46 | src/rules.py:335-348 | D46: cong(O,A,O,B) => eqangle(O,A,A,B,A,B,O,B): the base angles of an isosceles triangle, when O, A, B are a genuine triangle as far as the database knows. |
| FcRules.D47 | src/rules.py:350-382 | D47: eqangle(O,A,A,B,A,B,O,B) => cong(O,A,O,B). Line form: the two angles share the base line, and O, A, B are the three intersections, pairwise distinct. Point form: the points repeat as the pattern says and O, A, B are not known collinear; the collinearity is asked of `containsFact` with a predicate, which the model converts with the database's `_predicate_to_fact`. |
| FcRules.D46ThenD47 | src/rules.py:335-382 | D46 and D47 undo each other: the base-angle eqangle D46 writes for cong(O,A,O,B), read back in its line form by D47 with the database placing O, A, B at the intersections of those lines, gives back the congruence of O-A and O-B (when B is not O itself). |
| FcRules.D46Shape | src/rules.py:335-348 | What D46 concludes from cong(O,A,O,B) when it concludes anything. |
| FcRules.D47OnCorners | src/rules.py:350-382 | D47 on the lines of an isosceles corner pattern with apex O. |
| FcRules.D59 | src/rules.py:511-522 | D59: simtri(A,B,C,P,Q,R) => eqratio(A,B,A,C,P,Q,P,R): similar triangles have proportional sides at corresponding vertices. |
| FcRules.D60 | src/rules.py:524-537 | D60: simtri(A,B,C,P,Q,R) => eqangle(A,B,A,C,P,Q,P,R): the angles at corresponding vertices are equal; nothing is written when the two angles are the same angle. |
| FcRules.D62 | src/rules.py:549-554 | D62: contri(A,B,C,P,Q,R) => cong(A,B,P,Q): congruent triangles have equal corresponding sides. |
| FcRules.D68 | src/rules.py:627-632 | D68: midp(A,B,C) => cong(A,B,A,C): the midpoint is as far from both ends. |
| FcRules.D69 | src/rules.py:634-639 | D69: midp(A,B,C) => coll(A,B,C): the midpoint lies on its segment. |
| FcRules.MidpRoundTrip | src/rules.py:627-639 | D68 and D69 split a midpoint into its two halves, and X4 puts it back together: once the database holds the collinearity D69 writes, the congruence D68 writes, as the premise cong(M,A,M,B), gives midp(M,A,B) again. |
| FcRules.D71 | src/rules.py:661-682 | D71: eqangle(A,B,C,D,C,D,A,B) & not para(A,B,C,D) => perp(A,B,C,D). Line form: the angle from l1 to l2 equals the angle back, and the two lines are not known parallel. The point form asks `self.prove`, which `FC` does not define: an AttributeError once the points unpack. |
| FcRules.X3ThenD71 | src/rules.py:89-97 | X3 and D71 undo each other: the self-symmetric eqangle X3 writes for perp(A,B,C,D), read back in its line form by D71, gives the perpendicular again unless the two lines are known parallel. |
| FcRules.D72 | src/rules.py:684-700 | D72: eqangle(A,B,C,D,C,D,A,B) & not perp(A,B,C,D) => para(A,B,C,D) is switched off in this revision: its body is commented out. |
| FcRules.D73 | src/rules.py:702-719 | D73: eqangle(A,B,C,D,P,Q,U,V) & para(P,Q,U,V) => para(A,B,C,D). Line form: when the second angle's lines are known parallel, so are the first angle's, unless they are one line. The point form asks the undefined `self.prove`. |
| FcRules.D74 | src/rules.py:721-738 | D74: eqangle(A,B,C,D,P,Q,U,V) & perp(P,Q,U,V) => perp(A,B,C,D). Line form: when the second angle's lines are known perpendicular, so are the first angle's. The point form asks the undefined `self.prove`. |
| FcRules.TransferOnItself | src/rules.py:702-738 | D73 and D74 pass a relation between the second angle's lines on to the first angle's: applied to an angle and itself, they give back whatever the database holds about its lines (for para, when they are two lines). |
| FcSearch.Drawn | src/rules.py:316-322 | The facts once the drafts' lines are matched, in draft order. |
| FcSearch.DraftedKinds | src/rules.py:316-322 | As many facts as drafts, each of the draft's kind. |
| FcSearch.D12 | src/rules.py:168-187 | D12: cong(O,A,O,B) & cong(O,A,O,C) => circle(O,A,B,C), for every segment of the class of O-A that has O as an end and a far end C that is neither A nor B. |
| FcSearch.D12Equidistant | src/rules.py:168-187 | Every circle D12 concludes has its fourth point as far from O as A is: the class that holds O-A holds O-C too. |
| FcSearch.CircleThrough | src/rules.py:168-187 | A circle drawn from a segment at O names that segment's far end. |
| FcSearch.D22Group | src/rules.py:189-217 | One recorded group of equal angles against the premise's angles `x` and `y`: a group holding `x` pairs `y` with each of its other angles; failing that, a group holding `y` pairs `x` with them. |
| FcSearch.D22 | src/rules.py:189-217 | D22: eqangle(AB,CD,PQ,UV) & eqangle(PQ,UV,EF,GH) => eqangle(AB,CD,EF,GH), over line keys: every angle of a group that holds one premise angle, other than the two premise angles, is equal to the other premise angle. |
| FcSearch.D22GroupChains | src/rules.py:189-217 | Every fact drawn from one group chains the premise's angles through a recorded angle of that group. |
| FcSearch.D22Chains | src/rules.py:189-217 | Each D22 conclusion chains through one recorded group: it starts with one premise angle and ends with an angle, neither premise angle, that shares a group with the other premise angle. |
| FcSearch.LinkedExactly | src/rules.py:298-324 | When the triple passes both tests, exactly one draft links it. |
| FcSearch.D44Step | src/rules.py:298-324 | One midpoint triple F-A2-C against the premise midp(E, A1, B). |
| FcSearch.D44Drafts | src/rules.py:298-324 | The drafts of D44, every triple checked against the premise's own ends. |
| FcSearch.D44 | src/rules.py:298-324 | D44: midp(E,A,B) & midp(F,A,C) => para(EF, BC) over line keys, for every recorded triple sharing exactly one end with A-B. |
| FcSearch.D44Loop | src/rules.py:298-324 | The loop of D44 as written, `B` carried from one triple to the next. |
| FcSearch.D44DraftsAsWritten | src/rules.py:298-324 | The drafts of D44 as `src/rules.py` writes it: the loop rebinds `B`, so after the first triple that shares an end with A-B the later triples are checked against the wrong segment. |
| FcSearch.D44AsWritten | src/rules.py:298-324 | D44 as written: the rebinding drafts, then their lines. |
| FcSearch.D44ExampleSteps | src/rules.py:298-324 | The three steps the example below takes. |
| FcSearch.D44RebindingLosesConclusion | src/rules.py:298-324 | With E the midpoint of A-B, F of B-C and G of A-D, and no collinear triple known, both F and G give a parallel; as written, the first triple rebinds B to A and the second is then skipped. |
| FcSearch.D52Perp | src/rules.py:384-398 | D52 (perp form): perp(A,B,B,C) & midp(M,A,C) => cong(A,M,B,M), for every recorded midpoint M of A-C. |
| FcSearch.D52SeesNewMidpoint | src/rules.py:384-398 | Once `midp(M, A, C)` is recorded, every right angle at B over A-C gives cong(A,M,B,M). |
| FcSearch.Sided | src/rules.py:428-509 | The angles of `e` with `l` as a side, each flagged with whether `l` is its first side. |
| FcSearch.SimFact | src/rules.py:428-509 | simtri(A,B,C,P,Q,R): A on the far side of the first angle and the premise's first line, C the first angle's vertex; P and R likewise for the second angle. |
| FcSearch.Pick | src/rules.py:428-509 | The conclusion of one pair of flagged angles, if they fire. |
| FcSearch.D58Row | src/rules.py:428-509 | The angles of `ys` against one angle `x`. |
| FcSearch.D58Rows | src/rules.py:428-509 | Every angle of `xs` against every angle of `ys`. |
| FcSearch.D58Group | src/rules.py:428-509 | One recorded group of equal angles against the premise. |
| FcSearch.D58 | src/rules.py:428-509 | D58: eqangle(AB,BC,PQ,QR) & eqangle(AC,BC,PR,QR) => simtri(A,B,C,P,Q,R), over line keys: with B where the premise's first two lines meet and Q where its last two meet, every recorded group that holds neither premise angle offers pairs of known-equal angles to close the two triangles. The source checks the two intersections twice over (src/rules.py:438-447 and 448-457); the second loop repeats the first on the same store and returns at the same point, so one check is the same rule. |
| FcSearch.FiredCloses | src/rules.py:428-509 | The conclusion of two fired angles closes through their group. |
| FcSearch.D58Sound | src/rules.py:428-509 | Every D58 conclusion is two proper, different triangles that close through one recorded group of equal angles. |
| FcSearch.ClassWithBoth | src/rules.py:539-547 | The first class holding both segments, or `\|congs\|`. |
| FcSearch.D61Simtri | src/rules.py:539-547 | D61: simtri(A,B,C,P,Q,R) & cong(A,B,P,Q) => contri(A,B,C,P,Q,R), once one class holds both A-B and P-Q. |
| FcSearch.D61AfterCong | src/rules.py:539-547 | Once the store records cong(A,B,P,Q), similar triangles over those sides are concluded congruent. |
| FcSearch.D63Step | src/rules.py:556-573 | One recorded fact against the premise midp(M, A, B) of D63: another segment C-D with the same midpoint drafts para(AC, BD). |
| FcSearch.D63Drafts | src/rules.py:556-573 | The drafts of D63, one per other recorded segment around M. |
| FcSearch.D63 | src/rules.py:556-573 | D63: midp(M,A,B) & midp(M,C,D) => para(AC, BD) over line keys. |
| FcSearch.D63OtherSegment | src/rules.py:556-573 | With the facts in the store's own form, D63 never pairs the premise's segment with itself: each drafted parallel joins A and B to the ends of another segment. |
| FcSearch.D64 | src/rules.py:575-600 | D64: para(A,C,B,D) & para(A,D,B,C) & midp(M,A,B) => midp(M,C,D): when the lines A-D and B-C share a parallel group, the first recorded midpoint M of A-B is also the midpoint of C-D. |
| FcSearch.D64StoredForm | src/rules.py:575-600 | D64's conclusion is already in the form the store records, so the midpoint handler would keep its ends as they are. |
| FcSearch.StoredTriple | src/rules.py:575-600 | A triple written by the midpoint handler's rule is in stored form. |
| FcSearch.Cuts | src/rules.py:602-625 | The loop over the points of line A-C. |
| FcSearch.D65 | src/rules.py:602-625 | D65: para(A,B,C,D) & coll(O,A,C) & coll(O,B,D) => eqratio(O,A,A,C,O,B,B,D), for every point O other than A and B on both line A-C and line B-D. |
| FcSearch.D65Collinear | src/rules.py:602-625 | With distinct line names in the store, every O of a D65 conclusion is read from the line the rule matched through A and C, which also holds A and C, and from the one through B and D. |
| FcSearch.D70Step | src/rules.py:641-659 | One recorded fact against the premise midp(M, A, B) of D70. |
| FcSearch.D70 | src/rules.py:641-659 | D70: midp(M,A,B) & midp(N,C,D) => eqratio(M,A,A,B,N,C,C,D), for every other recorded midpoint triple. |
| FcSearch.D70BothWays | src/rules.py:641-659 | With every fact in the store's own form, D70 relates any two recorded midpoints both ways. |
| FcSearch.Pairings | src/rules.py:740-758 | Every pairing of a segment of `s1` with one of `s2`, as a congruence. |
| FcSearch.Transfer | src/rules.py:740-758 | One ratio of a group that holds the premise's ratio. |
| FcSearch.D75Group | src/rules.py:740-758 | One recorded group of equal ratios against the premise's ratio. |
| FcSearch.D75CongWith | src/rules.py:740-758 | D75 (cong form) with the ratio comparison `same` as a parameter: cong(P,Q,U,V) & eqratio(A,B,C,D,P,Q,U,V) => cong(A,B,C,D). The classes of P-Q and U-V are matched first; every recorded group that holds their ratio makes every other ratio's two classes congruent, segment by segment. |
| FcSearch.D75Groups | src/rules.py:740-758 | D75's loop over the recorded groups of equal ratios. |
| FcSearch.D75CongAsWritten | src/rules.py:740-758 | D75 (cong form) as `src/rules.py` writes it. `Ratio` defines no equality, so `Ratio(cPQ, cUV) in ratios` compares a freshly built object by identity and never holds: after matching the two classes the rule concludes nothing. |
| FcSearch.D75Cong | src/rules.py:740-758 | D75 (cong form) with ratios compared by their classes. |
| FcSearch.HoldsByClasses | src/rules.py:740-758 | Compared by their classes, a group holds a ratio when it is one of its members. |
| FcSearch.D75CongIdentityLosesConclusions | src/rules.py:740-758 | A recorded group holding the premise's ratio and another ratio over classes with segments S1 and S2: compared by their classes, the rule concludes cong(S1, S2); as written it concludes nothing. |
| FcSearch.D75Eqratio | src/rules.py:760-769 | D75 (eqratio form): eqratio(A,B,C,D,P,Q,U,V) & cong(P,Q,U,V) => cong(A,B,C,D), once for every class that holds both P-Q and U-V. |
| FcSearch.D75EqratioAfterCong | src/rules.py:760-769 | Once the store records cong(P,Q,U,V), an eqratio ending in P-Q and U-V gives cong(A,B,C,D). |
| Groups.AddBoth | src/database_.py:113-136 | `g.union({a, b})`: the result holds exactly the old members and `a` and `b`, and no duplicates when `g` had none. |
| Groups.AddBothAppends | src/database_.py:113-136 | The old members of `g.union({a, b})` stay first and in place, followed by at most two new entries, and by at most one when `a == b` or either is already held. |
| Groups.FirstTouching | src/database_.py:113-136 | The first group holding `a` or `b`, or `\|gs\|`. |
| Groups.AddPair | src/database_.py:113-136 | `paraHandler` / `eqangleHandler` after the names are matched: the first group holding either value takes both (the search stops there); otherwise `{a, b}` is appended as a new group. |
| Groups.AddPairElems | src/database_.py:113-136 | Adding a pair keeps every group's values and brings in no value but `a` and `b`. |
| Groups.HitsFrom | src/database_.py:160-167 | `contains_idx`: the positions, from `from` on and in increasing order, of the groups holding either value. |
| Groups.Hits | src/database_.py:160-167 | `contains_idx`: exactly the positions of the groups holding either value, in increasing order. |
| Groups.MergePair | src/database_.py:160-181 | `eqratioHandler` after the names are matched, with the evident intent of the one-hit branch: no hit appends `{a, b}`; one hit grows that group; two hits fold the second group and the pair into the first and delete the second; more than two fails the handler's `assert`. |
| Groups.FoldInto | src/database_.py:160-181 | Two hits: the second group and the pair are folded into the first, and the second is deleted. |
| Groups.MergePairAsWritten | src/database_.py:160-181 | `eqratioHandler` as written: after the search loop `idx` equals the number of groups, so the one-hit branch indexes past the end. |
| Groups.OneHitCrashes | src/database_.py:160-181 | A store of ratio groups holding `Ratio(c1, c2)` and `Ratio(c3, c4)`: recording that the second equals a third ratio crashes as written, where the evident intent is to grow the group. |
| Groups.HoldingAtMostOne | src/database_.py:160-181 | In disjoint groups a value is held by at most one group. |
| Groups.HitsCount | src/database_.py:160-167 | There are no more hits than groups holding the first value plus groups holding the second. |
| Groups.AtMostTwoHits | src/database_.py:160-181 | In disjoint groups at most two groups hold `a` or `b`: the handler's `assert` holds. |
| Groups.MergePairDisjoint | src/database_.py:160-181 | The intended handler keeps groups disjoint, never trips its `assert`, and leaves `a` and `b` in one group. |
| Groups.NoHitDisjoint | src/database_.py:160-181 | With no hit the pair becomes a new group, and the groups stay disjoint. |
| Groups.OneHitDisjoint | src/database_.py:160-181 | With one hit that group takes the pair, and the groups stay disjoint. |
| Groups.TwoHitsDisjoint | src/database_.py:160-181 | With two hits the merge succeeds, keeps the groups disjoint, and leaves both values in the first hit group. |
| Groups.TwoHitsOnly | src/database_.py:160-181 | With hits exactly at `f` and `s`, the merge folds group `s` into group `f` and deletes it, and no other group touches the pair. |
| Groups.TwoHitsJoined | src/database_.py:160-181 | Folding the second hit group and the pair into the first keeps the groups disjoint. |
| GroupSearch.MatchCongsKeys | src/prover.py:556-570 | `matchCong` on each pair keeps the class names distinct. |
| GroupSearch.SecondClass | src/prover.py:556-570 | `congs[cCD]` once both classes are matched: the segments of the class holding C-D. |
| GroupSearch.D25AsWritten | src/prover.py:556-570 | D25 as `src/prover.py` writes it: cong(A,B,C,D) & cong(C,D,E,F) => cong(A,B,E,F) for every segment E-F of C-D's class. Its skip test compares each segment with the two class names, and a segment never equals a name, so no segment is skipped. |
| GroupSearch.D25 | src/prover.py:556-570 | D25: cong(A,B,C,D) & cong(C,D,E,F) => cong(A,B,E,F), for every segment E-F of C-D's class other than A-B and C-D themselves. |
| GroupSearch.Onward | src/prover.py:556-570 | D25's loop over C-D's class, skipping A-B and C-D. |
| GroupSearch.D25AsWrittenRestates | src/prover.py:556-570 | As written, D25 always gives back its own premise: in a store whose class names are distinct, C-D's class holds C-D, so one conclusion is cong(A,B) with a segment equal to C-D. |
| GroupSearch.ChainHolds | src/prover.py:556-570 | A class holding C-D yields, among its unfiltered conclusions, one ending with a segment equal to C-D. |
| GroupSearch.D25NeverRestates | src/prover.py:556-570 | D25 never gives back its premise, nor a segment's congruence with itself: no conclusion ends with A-B or C-D. |
| GroupSearch.SegPairs | src/prover.py:600-627 | Two nested loops over the segments of two classes. |
| GroupSearch.RatioStep | src/prover.py:600-627 | One ratio's step fails exactly when its first class is missing, or it has a segment and the second class is missing; it concludes exactly the pairs of one segment from each class. |
| GroupSearch.D30 | src/prover.py:600-627 | D30 with ratios compared by their two classes: it concludes eqratio(A,B,C,D,E,F,G,H) for exactly the segments E-F, G-H of the classes of every ratio grouped with PQ/UV other than PQ/UV and AB/CD; it fails on a wrong number of points, when names run out, or on a missing class. As written it concludes nothing (`GroupSearch.D30AsWritten`). |
| GroupSearch.D30AsWritten | src/prover.py:600-627 | D30 as written: `Ratio(cPQ, cUV) not in ratios` compares by identity, so after matching the four segments the rule concludes nothing; it fails on a wrong number of points or when names run out. |
| GroupSearch.D30LosesChain | src/prover.py:600-627 | Whenever D30 with ratios compared by their classes concludes something, D30 as written concludes nothing. |
| GroupSearch.OverRatios | src/prover.py:600-627 | The loop over the ratios grouped with the hub succeeds exactly when each ratio's step does, and concludes exactly what some ratio's classes give. |
| GroupSearch.TriStep | src/prover.py:650-703 | One group of the loop: nothing unless it holds E-F-G. |
| GroupSearch.TriChain | src/prover.py:650-703 | The loop shared by D34 (similar triangles) and D38 (congruent ones): every triangle of a group holding E-F-G, other than A-B-C and E-F-G, gives `kind(A,B,C,P,Q,R)`. |
| GroupSearch.TriChainMembers | src/prover.py:650-703 | The loop concludes exactly one predicate for each triangle grouped with E-F-G that is neither premise triangle. |
| GroupSearch.D34 | src/prover.py:650-665 | D34 with triangles compared by their vertex sets: it is the shared triangle chain over the similar-triangle groups, and every conclusion keeps A-B-C in front. As written it concludes nothing (`GroupSearch.D34AsWritten`). |
| GroupSearch.D38 | src/prover.py:688-703 | D38 with triangles compared by their vertex sets: the shared triangle chain over the congruent-triangle groups, every conclusion keeping A-B-C in front. As written it concludes nothing (`GroupSearch.D38AsWritten`). |
| GroupSearch.D34AsWritten | src/prover.py:650-665 | D34 as written: `tEFG not in triangles` compares a fresh `Triangle` by identity, so on six points the rule concludes nothing; otherwise it fails to unpack. |
| GroupSearch.D38AsWritten | src/prover.py:688-703 | D38 as written: the same identity test, so on six points the rule concludes nothing; otherwise it fails to unpack. |
| GroupSearch.TriChainByIdentity | src/prover.py:650-703 | The triangle chain with a comparison that never holds concludes nothing on six points and fails to unpack otherwise. |
| GroupSearch.D34LosesChain | src/prover.py:650-665 | Whenever a similar-triangle group holds E-F-G and a triangle T that is neither premise triangle, D34 with vertex comparison concludes simtri(A,B,C,T) while D34 as written concludes nothing. |
| GroupSearch.D38LosesChain | src/prover.py:688-703 | Whenever a congruent-triangle group holds E-F-G and a triangle T that is neither premise triangle, D38 with vertex comparison concludes contri(A,B,C,T) while D38 as written concludes nothing. |
| GroupSearch.TriChainKeepsFront | src/prover.py:650-703 | Every conclusion keeps the premise's first triangle and names, as its second, a triangle of the group that is neither premise triangle. |
| GroupSearch.D40 | src/prover.py:722-743 | D40: para(A,B,C,D) => eqangle(A,B,P,Q,C,D,P,Q), for every two points P, Q of every line other than A-B and C-D; nothing when A-B and C-D are one line. |
| GroupSearch.D40Shape | src/prover.py:722-743 | Every D40 conclusion has the shape D39 reads back, eqangle(A,B,P,Q,C,D,P,Q). |
| GroupSearch.AcrossShape | src/prover.py:722-743 | Every D40 conclusion is the equal-angle predicate of A-B and C-D against one line P-Q. |
| GroupSearch.D40ThenD39 | src/prover.py:705-743 | D40 followed by D39 gives back the parallel premise or nothing. |
| GroupSearch.D39Back | src/prover.py:705-720 | A D40 conclusion run back through D39 gives the D40 premise, exactly when its three lines are distinct. |
| Inference.Sort | src/inference.py:9-23 | `sort(facts)`: the facts ordered by the priority of their kinds, stably, so each kind keeps its order. |
| Inference.Seed | src/inference.py:48-52 | `for fact in facts_to_add: if db.containsFact(fact): continue; db.addFact(fact); increased_facts.append(fact)`: the new database and the facts added. The database grew by exactly the facts added, each absent from it when added; they are facts of the list; and each fact of the list was added unless the database held it when its turn came. |
| Inference.GrewHolds | src/inference.py:48-52 | Under `Keeps`, a database that grew by `fs` holds what it held and every fact of `fs`. |
| Inference.GrewNew | src/inference.py:48-52 | Under `Keeps`, a database grows by distinct facts it did not hold. |
| Inference.SeedHolds | src/inference.py:48-52 | Under `Keeps`, seeding leaves every fact of the list, and every fact the database held, in the database. |
| Inference.Derive | src/inference.py:76-79 | `FC(database=db).deduct(p)` over every form of the popped fact, with `FC` imported: it raises exactly when a deduction from one of the forms raises, and then with that error; each conclusion is one a rule fired on some form draws. |
| Inference.DeriveAsWritten | src/inference.py:3-79 | The same loop as written: the import of `FC` is commented out, so the first form reaches an unbound name and raises `NameError`; only a fact without forms gets through. |
| Inference.Conclude | src/inference.py:76-79 | What deducing from `fact` yields: `Derive` over its forms, or the same loop as written when `corrected` does not hold. Every conclusion is one a rule fired on some form draws. |
| Inference.Deduced | src/inference.py:81-87 | The queue after deducing from `fact`: the conclusions the database lacks join `rest`, which is sorted again. |
| Inference.GrewOne | src/inference.py:97-100 | Adding one absent fact with a version update is growing by it. |
| Inference.Visit | src/inference.py:72-100 | The turn of a fact not skipped: the memo records the version, the conclusions the database lacks join the queue, which is sorted again, and the fact, when new, is added, recorded and followed by a version update. |
| Inference.Absorb | src/inference.py:97-100 | The end of a turn: the fact, when new, is added, recorded and followed by a version update. |
| Inference.Step | src/inference.py:65-100 | One turn of `while facts_to_add`, with `FC` imported when `corrected` holds: a fact already deduced from at this version only leaves the queue, and any other is visited. |
| Inference.StepMoves | src/inference.py:65-100 | Every turn of the loop is a move. |
| Inference.MovesChain | src/inference.py:65-100 | A move is transitive. |
| Inference.Drive | src/inference.py:60-100 | `while facts_to_add`, for at most `fuel` turns of `turn`; the fuel left over is returned. The loop stops with the queue empty unless the fuel ran out, and the end follows from the start when every turn is a move; an error is one a turn raised. |
| Inference.Run | src/inference.py:60-100 | The loop of `inference_update`, for at most `fuel` turns: it ends where `Drive` says, and as written the only error is the unbound `FC`. |
| Inference.Update | src/inference.py:42-104 | The body of `inference_update` once the input is converted: `facts` seeded into the database, then the loop from an empty memo; the result is the database and the facts it gained, sorted. When the database keeps what it holds, every fact reported was new to the database and is held at the end, none is reported twice, and every seeded fact is held at the end. |
| Inference.InferenceUpdate | src/inference.py:26-104 | `inference_update(db, predicates_to_add)` with at most `fuel` turns of the loop: the input predicates are converted, deduplicated and sorted, and then updated into the database. |
| Inference.Reported | src/inference.py:42-104 | The facts the update reports, before sorting, when the database keeps what it holds: each new to it and held at the end, none twice, and every seeded fact held at the end. |
| Inference.ReportedKept | src/inference.py:42-104 | Every reported fact was new to the input database and is held at the end, none is reported twice, and every seeded fact is held at the end. |
| Inference.SeedKept | src/inference.py:48-52 | Under `Keeps`, the premises seeded into a database are still held after it grows further. |
| Inference.Batches | src/inference.py:42-104 | Under `Keeps`, the facts of two growths in a row were each new to the first database, are held by the last, and are distinct. |
| Inference.AsWrittenFails | src/inference.py:3-79 | As written, the first fact off the queue whose database has forms for it raises `NameError`: `FC` is never imported. |
| Snapshot.LineThrough | src/database_.py:83-95 | `matchLine([p, q])` from inside a rule: the line `matchLine` finds or creates, as an entry. The rule sees its key and its points; the store the call would extend is not carried into the rule's later reads. |
| Snapshot.LineOf | src/database_.py:83-95 | The key `matchLine([p, q])` returns. |
| Snapshot.CongThrough | src/database_.py:97-111 | `matchCong([p, q])` from inside a rule: the congruence class found or created, as an entry. |
| Snapshot.PointsOf | src/database_.py:16 | `lines[key]`: the points of a line named by a stored fact. |
| Snapshot.SegsOf | src/database_.py:17 | `congs[key]`: the segments of a congruence class. |
| Snapshot.Pairs | src/prover.py:321-323 | `itertools.combinations(s, 2)`: every pair of positions `i < j`, in order. |
| Snapshot.PairsComplete | src/prover.py:321-323 | Each pair of positions is among the pairs with the first element and the pairs of the rest. |
| Snapshot.PairsSound | src/prover.py:321-323 | Each pair with the first element or of the rest is a pair of positions. |
| Snapshot.Partner | src/prover.py:353 | `list(pair)[0] if list(pair)[1] == l else list(pair)[1]`: the other line of a two-line group; fewer than two lines is an IndexError. |
| ListProver.Fire | src/prover.py:36-115 | Firing the rules over `src/database.py`'s list store gives nothing for a kind without rules and raises for every kind with rules: on a wrong number of points the unpacking error, otherwise the AttributeError of the first read of a name the list store lacks. |
| ListProver.Loop | src/prover.py:30-132 | The loop over the list store runs to its end exactly when no predicate it pops has a kind with rules and each can be added again; it then concludes nothing, and the store is the popped predicates added in turn. |
| ListProver.Fixedpoint | src/prover.py:15-132 | `Prover(hypotheses).fixedpoint()` as imported, over `src/database.py`: it succeeds exactly when none of the first ten hypotheses has a kind with rules and every addition succeeds, and then it concludes nothing and the queue only loses its first ten. |
| ListProver.FirstFires | src/prover.py:15-132 | A problem whose first hypothesis has a kind with rules cannot be run over the list store. |
| ListProver.CollProblemFails | src/prover.py:15-132 | The one-line problem `coll(A,B,C)` cannot be run over the list store. |
| ListStore.NewNameOrNone | src/database.py:188-192 | `newLineName` / `newCongName` here: the smallest free `prefix{n}` with `1 <= n <= 19`, or `None` when all are taken. |
| ListStore.FreshName | src/database.py:188-192 | A name to store a new entry under; the model stops where the source would go on with the key `None`. |
| ListStore.AddLineAsWritten | src/database.py:177-192 | `_addLine([p, q])` as written: a new line goes under `None` once the nineteen names are taken. Wherever names remain it is `AddLine`. |
| ListStore.AsWrittenAgrees | src/database.py:177-192 | Wherever a name remains, the code as written is `AddLine`. |
| ListStore.NoneKeyOverwrites | src/database.py:177-192 | The discrepancy: with the nineteen names taken, two new lines in a row share the key `None`, and the second overwrites the first, so the line through `p` and `q` is lost. |
| ListStore.AppendsUnderNone | src/database.py:177-192 | Once the names are taken, a new line is put under `None`. |
| ListStore.StillNew | src/database.py:177-185 | A line through two points not both on the `None` line is still new. |
| ListStore.PutReplacesLast | src/database.py:177-185 | Writing an existing last key replaces that entry in place. |
| ListStore.LookupFirst | src/database.py:177-185 | `d[k]` reads the first entry under `k`. |
| ListStore.AddLine | src/database.py:177-185 | `_addLine([p, q])`: the first line through both points, or a new line holding the list `[p, q]`. |
| ListStore.AddLines | src/database.py:177-185 | `_addLine` on each pair in order. |
| ListStore.SortedPair | src/database.py:119-120 | `sorted([a, b])`: the two points, smaller name first. |
| ListStore.SortedPairSymmetric | src/database.py:119-120 | The pair does not depend on the order its names are given in. |
| ListStore.GrownLine | src/database.py:140-157 | `sorted(deduplicate(line + points))`: exactly the points of both, each once, in name order. |
| ListStore.RenameName | src/database.py:224-235 | The name a line goes by once the group `g` is merged: its surviving name if the group absorbed it. |
| ListStore.RenameList | src/database.py:224-235 | One parallel group after the rewrite for `g`, deduplicated. |
| ListStore.RenameGroup | src/database.py:224-235 | The `line in to_merge[1:]` rewrite of one merged group, applied to every parallel group. |
| ListStore.RenameAll | src/database.py:224-235 | One rewritten parallel group per old group, in order. |
| ListStore.LineMerge | src/database.py:201-241 | `_lineMerge`: lines sharing at least two points with the first line of a round are folded into it (points concatenated and deduplicated), and the parallel groups are rewritten to the surviving names. |
| ListStore.LineMergeDropsAbsorbed | src/database.py:201-241 | After the rewrite no parallel group names a line that was merged away. |
| ListStore.RenameAllDrops | src/database.py:224-235 | After the rewrites of all merged groups no parallel group names a line a merge absorbed. |
| ListStore.RenameAllKeeps | src/database.py:224-235 | A name that is no group's surviving name, once gone, stays gone. |
| ListStore.RenameGroupDrops | src/database.py:224-235 | The rewrite of one merged group removes every name that group absorbed. |
| ListStore.RenameGroupKeeps | src/database.py:224-235 | The rewrite of a group never brings back a name that is not its surviving name. |
| ListStore.LineMergeKeepsNamesValid | src/database.py:201-241 | If every parallel group names some line, it still does after the merge: a merged-away name is replaced by the name that survived. |
| ListStore.HeadKey | src/database.py:201-241 | Each merged line keeps the name of its group's first line. |
| ListStore.RenameAllResolves | src/database.py:224-235 | After the rewrites every parallel group names only surviving lines. |
| ListStore.RenameListResolves | src/database.py:224-235 | Rewriting one parallel group leaves only surviving names and names outside the merge. |
| ListStore.LineMergeDropsRemoved | src/database.py:201-241 | A name the merge removed from the lines is gone from the parallel groups too. |
| ListStore.LineSharingTwo | src/database.py:140-157 | The first line sharing at least two of the points. |
| ListStore.CollHandler | src/database.py:140-157 | `collHandler`: the first line sharing at least two of the points takes them all (deduplicated and sorted) and the lines are merged; otherwise the points, as given, become a new line. |
| ListStore.Grown | src/database.py:140-157 | The lines with line `i` grown by the points. |
| ListStore.IsCollinear | src/database.py:328-332 | `isCollinear`: some line holds every one of the points. |
| ListStore.IsParallelLine | src/database.py:334-338 | `isParallelLine`: some parallel group holds every one of the names. |
| ListStore.CollMakesCollinear | src/database.py:140-157 | After `coll(points)` the points are collinear in the store. |
| ListStore.CollKeysDistinct | src/database.py:140-157 | Line names stay distinct. |
| ListStore.CollDropsMergedNames | src/database.py:140-157 | A line `coll` merged away is no longer named by any parallel group. |
| ListStore.CollKeepsNamesValid | src/database.py:140-157 | `coll` keeps every parallel group naming an existing line. |
| ListStore.CollKeepsOldNames | src/database.py:140-157 | When `coll` creates a line every old name stays. |
| ListStore.ParaAddAll | src/database.py:159-175 | The `paraHandler` loop: EVERY group holding either name takes both (deduplicated); if none does, the pair becomes a new group. |
| ListStore.ParaAddAllParallel | src/database.py:159-175 | After `para` the two lines are parallel in the store. |
| ListStore.ParaAddAllIdempotent | src/database.py:159-175 | Stating a parallel pair twice changes no group's lines. |
| ListStore.ParaAddAllSettled | src/database.py:159-175 | Once some group holds both names and every group touching them holds both, `ParaAddAll` changes no group's lines. |
| ListStore.ParaAddAllAt | src/database.py:159-175 | One group after `ParaAddAll` when some group touches the pair. |
| ListStore.ParaAddAllHolds | src/database.py:159-175 | After `ParaAddAll` every group touching the pair holds both names. |
| ListStore.ParaHandler | src/database.py:159-175 | `paraHandler`: both lines are found or created, then joined in the parallel groups. |
| ListStore.EqangleStep | src/database.py:70-101 | The `eqangleHandler` steps after the four lines are named: nothing when either angle's lines are already parallel, otherwise the sorted pairs join the first group holding either. When the two sorted pairs are equal and no group holds them, the new group holds the pair once, where the source appends the two-element list `[x, x]`; every membership test the store makes reads the two alike. |
| ListStore.EqangleStepSymmetric | src/database.py:70-101 | An angle is the same whichever of its lines comes first. |
| ListStore.ParallelPairSymmetric | src/database.py:70-101 | Whether two lines are parallel does not depend on their order. |
| ListStore.Quads | src/database.py:70-101 | The four `(p1, p2) ... (p7, p8)` lines of an eight-point predicate. |
| ListStore.EqangleHandler | src/database.py:70-101 | `eqangleHandler`. The lines are added even when the angle is then skipped. |
| ListStore.MidpAdd | src/database.py:103-111 | The `midpHandler` check: the triple is stored unless it, or the one with the two endpoints swapped, already is. |
| ListStore.MidpAddOrderFree | src/database.py:103-111 | Stating a midpoint with its endpoints in either order stores it once. |
| ListStore.MidpHandler | src/database.py:103-111 | `midpHandler`: `coll(M, A, B)` first, then the triple. |
| ListStore.MidpCollinear | src/database.py:103-111 | After `midp(M, A, B)` the three points are collinear. |
| ListStore.ClassWithEither | src/database.py:113-138 | The first congruence class holding either pair. |
| ListStore.AddCong | src/database.py:113-138 | The `congHandler` loop: the first class holding either sorted pair takes the other and the classes are merged (`_congMerge`: classes sharing a pair with a round's first class join it); otherwise the two pairs become a new class. |
| ListStore.AddCongCovers | src/database.py:113-138 | After `cong` one class holds both pairs. |
| ListStore.MergedHoldsBoth | src/database.py:243-282 | Merging keeps two pairs of one class together in one class. |
| ListStore.AddCongKeysDistinct | src/database.py:113-138 | Class names stay distinct. |
| ListStore.CongHandler | src/database.py:113-138 | `congHandler`: both segments' lines are found or created (their names are not used), then the sorted pairs are recorded. |
| ListStore.Add | src/database.py:58-68 | `add(predicate)`: each kind goes to its handler; any other kind (`eqratio` among them) leaves the store as it is. |
| Merge.Absorbed | src/database_.py:293-312 | The entries of `xs` the round opened by `first` absorbs, in order. |
| Merge.Remaining | src/database_.py:293-312 | The entries of `xs` left for later rounds, in order. |
| Merge.AbsorbedIff | src/database_.py:293-312 | An entry is absorbed exactly when it overlaps the round's first entry enough. |
| Merge.RemainingIff | src/database_.py:293-312 | An entry is left for later exactly when it does not overlap enough. |
| Merge.RoundSplits | src/database_.py:293-312 | A round splits its entries in two without losing or copying any. |
| Merge.RemainingKeysNoDup | src/database_.py:293-312 | Setting entries aside keeps distinct keys distinct. |
| Merge.Groups | src/database_.py:293-312 | The `while unmerged` loop: overlap is always measured against the first entry of the round, never against what it has absorbed so far. |
| Merge.MergeBy | src/database_.py:293-322 | The whole merge pass. |
| Merge.GroupJoinedOverlap | src/database_.py:293-322 | Every absorbed entry overlaps the head of its group enough. |
| Merge.GroupHeadsApart | src/database_.py:293-322 | A later group's head did not overlap an earlier group's head enough: otherwise it would have been absorbed. |
| Merge.GroupHeadFrom | src/database_.py:293-322 | Every group's head and members come from the input. |
| Merge.GroupsPartition | src/database_.py:293-322 | The groups split the input: every entry lies in exactly one group. |
| Merge.MergeUnfold | src/database_.py:293-322 | One round of the merge: the first entry absorbs its overlapping entries, and the rest are merged in later rounds. |
| Merge.MergeKeyOld | src/database_.py:293-322 | The surviving keys are old keys. |
| Merge.SurvivorKept | src/database_.py:293-322 | Every old key answers, after the merge, to a key the merge keeps, so a group renamed through the merge names only surviving lines or classes. |
| Merge.MergeKeys | src/database_.py:293-322 | Surviving keys stay distinct. |
| Merge.MergeAbsorbs | src/database_.py:293-322 | Each input entry is absorbed: its members all appear in the entry its group became. |
| Merge.MergeKeepsTogether | src/database_.py:293-322 | Two keys held by one input entry end up in one merged entry. |
| Merge.MergeFromInput | src/database_.py:293-322 | Nothing is invented: every member of a merged entry is a member of some input entry. |
| MidSearch.Shared | src/prover.py:765-788 | `[p for p in [a1, b] if p in [a2, c]]`: exactly the points among `a1`, `b` that are also among `a2`, `c`, at most two. |
| MidSearch.OtherEndUnique | src/prover.py:765-788 | Given one end, the other end is the one point that completes the pair. |
| MidSearch.LinksExactly | src/prover.py:765-788 | When the triple passes both tests, exactly one conclusion links it. |
| MidSearch.D44Step | src/prover.py:765-788 | One midpoint triple F-A2-C against the premise midp(E, A1, B). |
| MidSearch.D44 | src/prover.py:765-788 | D44: midp(E,A,B) & midp(F,A,C) => para(E,F,B,C), for every recorded triple F-A2-C sharing exactly one end with A-B, each triple checked against the premise's own ends. |
| MidSearch.D44Loop | src/prover.py:765-788 | The loop of D44 as written, `B` carried from one triple to the next. |
| MidSearch.D44AsWritten | src/prover.py:765-788 | D44 as `src/prover.py` writes it: the loop rebinds `B`, so after the first triple that shares an end with A-B the later triples are checked against the wrong segment. |
| MidSearch.D44RebindingLosesConclusion | src/prover.py:765-788 | With E the midpoint of A-B, F of B-C and G of A-D, and no lines known, both F and G give a conclusion; as written, the first triple rebinds B to A and the second is then skipped. |
| MidSearch.OverIsTriple | src/prover.py:765-788 | A fact passes the tail test exactly when it is the stored triple of its own first point. |
| MidSearch.Midpoints | src/prover.py:826-840 | The midpoints of `a`-`c` the facts record, in recorded order. |
| MidSearch.Centred | src/prover.py:826-840 | cong(A, M, B, M) for each M of `ms`. |
| MidSearch.D52Perp | src/prover.py:826-840 | D52 (perp form): perp(A,B,B,C) & midp(M,A,C) => cong(A,M,B,M), for each recorded midpoint M of A-C; a premise that is not a right angle at B between two distinct sides gives nothing. |
| MidSearch.D55Perp | src/prover.py:865-877 | D55 (perp form): perp(O,M,A,B) & midp(M,A,B) => cong(O,A,O,B), once for each copy of the triple of M and A-B. |
| MidSearch.D52SeesMidpoint | src/prover.py:826-840 | With the triple of M and A-C recorded, the right angle at B over A-C gives cong(A,M,B,M). |
| MidSearch.D55SeesMidpoint | src/prover.py:865-877 | With the triple of M and A-B recorded, perp(O,M,A,B) gives something. |
| MidSearch.D52SeesNewMidpoint | src/prover.py:826-840 | Once `midp(M, A, C)` is recorded, every right angle at B over A-C gives cong(A,M,B,M). |
| MidSearch.D55SeesNewMidpoint | src/prover.py:865-877 | Once `midp(M, A, B)` is recorded, perp(O,M,A,B) gives cong(O,A,O,B). |
| MidSearch.Both | src/prover.py:842-863 | The points both lists hold, one copy each. |
| MidSearch.Meet | src/prover.py:842-863 | `ptsl1.intersection(ptsl2)` when it holds exactly one point. |
| MidSearch.MeetSymmetric | src/prover.py:842-863 | Which of two lines comes first does not change where they meet. |
| MidSearch.FootConclusions | src/prover.py:842-863 | cong(A, M, X, M) for the foot X of lines `l1` and `l2`, when there is one. |
| MidSearch.D52Step | src/prover.py:842-863 | One recorded perpendicular pair of lines against the premise midp(M, A, C). |
| MidSearch.FootConclusionsSymmetric | src/prover.py:842-863 | The foot does not depend on which line is read first. |
| MidSearch.D52StepOrderFree | src/prover.py:842-863 | A recorded pair of perpendicular lines is a set: read in either order, it gives the same conclusions. |
| MidSearch.D52Midp | src/prover.py:842-863 | D52 (midpoint form): midp(M,A,C) & perp(A,B,B,C) => cong(A,M,B,M), for each recorded perpendicular pair with A on one line and C on the other, B being the one point the two lines share. |
| MidSearch.TripleCanonical | src/database_.py:210-216 | Writing a triple's sorted ends again changes nothing. |
| MidSearch.MidpHandlerCanonical | src/database_.py:210-216 | Recording a midpoint keeps every fact in the form the store writes. |
| MidSearch.SameTriple | src/database_.py:210-216 | Two ends give the same stored triple exactly when they are the same two points. |
| MidSearch.D63Step | src/prover.py:997-1013 | One recorded fact against the premise midp(M, A, B) of D63. |
| MidSearch.D63 | src/prover.py:997-1013 | D63: midp(M,A,B) & midp(M,C,D) => para(A,C,B,D), for every other recorded segment C-D with the same midpoint M. |
| MidSearch.D63OtherSegment | src/prover.py:997-1013 | With the facts in the store's own form, D63 never pairs the premise's segment with itself: the other segment has other ends. |
| MidSearch.OtherEnds | src/prover.py:997-1013 | Another canonical triple around M has other ends. |
| MidSearch.D64 | src/prover.py:1015-1039 | D64: para(A,C,B,D) & para(A,D,B,C) & midp(M,A,B) => midp(M,C,D): when A-D and B-C are known parallel, the first recorded midpoint M of A-B is also the midpoint of C-D. |
| MidSearch.D65 | src/prover.py:1041-1057 | D65: para(A,B,C,D) & coll(O,A,C) & coll(O,B,D) => eqratio(O,A,A,C,O,B,B,D), for every point O on both line A-C and line B-D. |
| MidSearch.Ratios | src/prover.py:1041-1057 | eqratio(O,A,A,C,O,B,B,D) for each O of `pac` that `pbd` also holds. |
| MidSearch.D67Cong | src/prover.py:1081-1094 | D67 (cong form): cong(A,B,A,C) & coll(A,B,C) => midp(A,B,C), once for each known line through A, B and C. |
| MidSearch.PerLine | src/prover.py:1081-1094 | One copy of `c` for every recorded line through the three points. |
| MidSearch.MidpCongRoundTrip | src/prover.py:1081-1101 | D68 then D67: the congruence a midpoint gives leads back to the midpoint, once some line holds the three points. |
| MidSearch.D70Step | src/prover.py:1103-1116 | One recorded fact against the premise midp(M, A, B) of D70. |
| MidSearch.D70 | src/prover.py:1103-1116 | D70: midp(M,A,B) & midp(N,C,D) => eqratio(M,A,A,B,N,C,C,D), for every other recorded midpoint triple. |
| MidSearch.D70Reaches | src/prover.py:1103-1116 | Every other well-formed recorded triple gives D70 a conclusion. |
| MidSearch.OtherTriple | src/prover.py:1103-1116 | Two distinct recorded triples in the store's own form: each is not the other's triple. |
| MidSearch.D70BothWays | src/prover.py:1103-1116 | With every fact in the store's own form, D70 relates any two recorded midpoints both ways: the premise of either reaches the other's triple. |
| NpProver.RulesFire | src/newprover.py:94-138 | This revision fires rules for the same kinds `FC.deduct` does; it drops D22 and X3, X4, and adds X1 for angle equalities. |
| NpProver.RulesDistinct | src/newprover.py:94-138 | Each kind fires each rule once. |
| NpProver.AngleRules | src/newprover.py:94-138 | X1 fires for exactly the kinds for which the forward-chaining `deduct` fires D22. |
| NpProver.Fire | src/newprover.py:94-138 | `facts += self._ruleX(p)` for every rule of the form's kind; the first rule that raises ends `_rules`. |
| NpProver.RulesOf | src/newprover.py:138-138 | `_rules(p)`: the conclusions of `Fire` through `list(set(...))`. |
| NpProver.RulesOfCovers | src/newprover.py:138-138 | Every fact the rules fire is returned by `_rules(p)` up to rendering. |
| NpProver.Derive | src/newprover.py:71-75 | `newFacts += self._rules(predicate)` over every form of the popped fact: it raises when a form's rules do, and otherwise holds exactly what the forms' rules conclude. |
| NpProver.Admitted | src/newprover.py:77-81 | `for fact in set(newFacts): if containsFact(fact): continue; append`: one fact per rendering, those the database does not hold. The queue itself is not consulted. |
| NpProver.FilterHeld | src/newprover.py:77-81 | The deduplicated facts the database does not hold, as `Filter` keeps them. |
| NpProver.FilterAbsent | src/newprover.py:77-81 | A fact survives the filter exactly when the database does not hold it. |
| NpProver.Seed | src/newprover.py:27-54 | The constructor, once every hypothesis is in the database `kb`: each hypothesis is turned into a fact and queued unless a fact rendered alike is queued already, and the queue is sorted by kind priority. The queue is sorted, keeps the hypotheses' order within each kind, holds a fact for every hypothesis, and no two of its facts render alike. |
| NpProver.SeedFromHypotheses | src/newprover.py:27-54 | Every fact a rearrangement of the deduplicated hypotheses holds is the fact of a hypothesis. |
| NpProver.SeedCoversHypotheses | src/newprover.py:27-54 | A rearrangement of the deduplicated hypotheses holds, for every hypothesis, a fact rendered like the hypothesis's fact. |
| NpProver.Requeue | src/newprover.py:77-87 | The rest of the queue `rest` with the conclusions `facts` admitted and appended, sorted again: the queue comes out sorted, keeps every fact it held in their order within each kind, and each fact it gains is one of `facts` the database `kb` does not hold. |
| NpProver.Pop | src/newprover.py:63-87 | The body of the `while` loop once the popped fact `d` is in the database `kb`: it raises exactly when a form's rules do, and each fact the queue gains is concluded from `d` and not held by the database. |
| NpProver.Advance | src/newprover.py:63-87 | `Pop`, with only what the loop needs of it: the queue stays sorted by priority. |
| NpProver.Run | src/newprover.py:61-87 | The `while self.newFactsList and i > 0` loop with `fuel` iterations left. |
| NpProver.Fixedpoint | src/newprover.py:60-92 | `Prover(hypotheses).fixedpoint()`: the seeded queue is drained for at most `Upper` iterations, stopping early only on an empty queue; the database ends as the hypotheses and then the popped facts added in turn; the queue stays sorted, and the first fact popped is the first seeded. |
| NpProver.RulesOfAsWritten | src/newprover.py:138-138 | `_rules(p)` as written: `list(set(facts))` renders every conclusion, so it raises exactly when a rule raises or some conclusion is a similarity or congruence of triangles that cannot be rendered; wherever it returns, it returns what `NpProver.RulesOf` does. |
| NpProver.DeriveAsWritten | src/newprover.py:71-75 | The loop over the forms with `_rules` as written raises exactly when the rules of some form raise, and wherever it returns it gathers what `NpProver.Derive` does. |
| NpProver.PopAsWritten | src/newprover.py:63-81 | One pass of the loop as written: `print(d)` raises TypeError when the popped fact cannot be rendered, and the pass raises exactly then or when the rules of one of its forms raise; wherever it returns, it queues what `NpProver.Pop` does. |
| NpProver.RunAsWritten | src/newprover.py:61-87 | The driver loop as written reaches the state `NpProver.Run` does wherever it does not raise, and raises TypeError when the fact it pops cannot be rendered. |
| NpProver.FixedpointAsWritten | src/newprover.py:60-92 | `fixedpoint()` as written returns what `NpProver.Fixedpoint` does wherever it returns, and raises TypeError at once when the first seeded fact cannot be rendered. |
| NpProver.TriangleBreaksPop | src/newprover.py:63-81 | When a form of the popped fact has rules that conclude `simtri` or `contri` of two triangles (D58, X1, D61simtri), the pass as written raises, where the corrected `_rules` keeps that conclusion (`NpProver.RulesOfCovers`). |
| NpProver.QueuedTwice | src/newprover.py:77-81 | The queue is not consulted when conclusions are admitted: a fact already waiting and concluded again is queued a second time. |
| NpRules.CollView | src/newprover.py:334-360 | The database as the older rule bodies would see it if each of their collinearity tests `containsFact(Fact("coll", [A, B, C]))` were `prove(Predicate("coll", [A, B, C]))`; every other fact is asked as before. |
| NpRules.X1 | src/newprover.py:140-154 | X1: eqangle(A,B,B,C,P,Q,Q,R) & cong(A,B,P,Q) & cong(B,C,Q,R) => contri(A,B,C,P,Q,R), side-angle-side: the two angles at B and Q are equal, the sides around them are provably congruent, and neither triangle is provably flat. |
| NpRules.X1ThenD62 | src/newprover.py:140-154 | The congruence X1 concludes gives back, through D62, the congruence of A-B and P-Q it required: firing the pair adds nothing the database could not already prove. |
| NpRules.X2Step | src/newprover.py:156-168 | One recorded pair of `for [lPQ, lUV] in perpFacts`: skipped only when it is the premise's own pair in the same orientation. |
| NpRules.X2 | src/newprover.py:156-168 | X2: perp(A,B,C,D) & perp(P,Q,U,V) => eqangle(A,B,C,D,P,Q,U,V): the premise's right angle equals every recorded right angle, each in the orientation it is recorded in. |
| NpRules.X2AgainstRules | src/newprover.py:156-168 | Against `src/rules.py`'s X2 this revision writes one orientation only, and no longer skips the premise's own pair recorded the other way round: each of its eqangles is one the older X2 writes, or the angle from A-B to C-D equated with the angle back. |
| NpRules.D42a | src/newprover.py:319-332 | D42a: eqangle(P,A,P,B,Q,A,Q,B) & not coll(P,Q,A) => cyclic(A,B,P,Q), point form: A and B subtend equal angles at P and at Q, and P, Q, A are not provably collinear. |
| NpRules.D42aThenD41 | src/newprover.py:306-332 | D41 reads the cyclic D42a concludes back into the eqangle D42a started from: the lines it matches are the four point pairs of the premise, in order. |
| NpRules.LinkedAsOlder | src/newprover.py:334-360 | The point-form link test of D44 agrees with the older one read through the collinearity view. |
| NpRules.D44Drafts | src/newprover.py:334-360 | The drafts of D44: for every recorded triple, the para it links. |
| NpRules.D44 | src/newprover.py:334-360 | D44: midp(E,A,B) & midp(F,A,C) => para(EF, BC) over line keys, with the collinearity of A, B, C asked of `prove`. This revision rebinds `B` inside its loop just as `src/rules.py` does; the model keeps the premise's own ends. |
| NpRules.D44AsOlder | src/newprover.py:334-360 | Where `prove` answers a collinearity as `containsFact` does, this revision's D44 is the corrected one of `src/rules.py`. |
| NpRules.D44StepAsOlder | src/newprover.py:334-360 | Where the database and `prove` agree on collinearity, the D44 step of this revision equals the older one. |
| NpRules.D46 | src/newprover.py:371-384 | D46: cong(O,A,O,B) => eqangle(O,A,A,B,A,B,O,B): the base angles of an isosceles triangle, unless O, A, B are provably collinear. |
| NpRules.D46AsOlder | src/newprover.py:371-384 | Where `prove` answers a collinearity as `containsFact` does, this revision's D46 is that of `src/rules.py`. |
| NpRules.D58With | src/newprover.py:416-431 | D58, point form: eqangle(A,B,B,C,P,Q,Q,R) & eqangle(A,C,B,C,P,R,Q,R) & not coll(A,B,C) => simtri(A,B,C,P,Q,R); with `apart`, only when the two triangles differ. |
| NpRules.D58AsWritten | src/newprover.py:416-431 | Concludes `simtri` of A-B-D and E-F-H exactly when the pattern B = C and F = G holds, `coll(A,B,D)` is not provable and the second eqangle is; the two triangles are never compared, so one triangle can be called similar to itself (`NpRules.D58SelfSimilar`). Fails only on a wrong number of points. |
| NpRules.D58 | src/newprover.py:416-431 | D58 with the evident intent: a triangle is not declared similar to itself, under the vertex-set equality of triangles; otherwise it concludes what the rule as written does. |
| NpRules.D58SelfSimilar | src/newprover.py:416-431 | As written, an eqangle of a triangle with itself makes it similar to itself; the corrected rule concludes nothing from it. |
| NpRules.D71 | src/newprover.py:583-597 | D71, point form: eqangle(A,B,C,D,C,D,A,B) & not para(A,B,C,D) => perp(A,B,C,D): the angle from A-B to C-D equals the angle back, the lines are not provably parallel, and they are two lines. |
| NpRules.D71AsLineForm | src/newprover.py:583-597 | Where `_predicate_to_fact` names the premise's own lines, the point form of D71 is the line form of `src/rules.py` on the eqangle from A-B to C-D and back. |
| NpRules.Transfer | src/newprover.py:617-641 | The form D73 and D74 share: when `prove` holds the relation of the second angle's lines P-Q and U-V, the first angle's lines A-B and C-D get it too, unless they are one line. |
| NpRules.D73 | src/newprover.py:617-628 | Concludes `para` of the lines A-B and C-D exactly when `prove(para(P,Q,U,V))` holds and the two lines are different; when the para query holds but matching the lines runs out of names the rule fails, and otherwise it concludes nothing. |
| NpRules.D74 | src/newprover.py:630-641 | Concludes `perp` of the lines A-B and C-D exactly when `prove(perp(P,Q,U,V))` holds and the two lines are different; when the perp query holds but matching the lines runs out of names the rule fails, and otherwise it concludes nothing. |
| NpRules.TransferAsLineForm | src/newprover.py:617-641 | Where `_predicate_to_fact` names the second angle's lines `l3`, `l4`, the point forms of D73 and D74 are the line forms of `src/rules.py` on the matched lines; the older D74 alone also writes a line perpendicular to itself. |
| NrProver.RulesFire | src/newrules.py:24-65 | The same kinds fire as in the newer prover, with the same rules except X1, X2 and D69. |
| NrProver.RulesAgreeOnArity | src/newrules.py:24-65 | The rules of one kind unpack as many points as a predicate of that kind has. |
| NrProver.Against | src/newrules.py:24-65 | One rule against `src/database.py`: unpacking the points is its first statement (ValueError on the wrong number), `_ruleD45para` returns at once, and a rule that touches a missing name raises AttributeError. No rule gets as far as returning a conclusion. |
| NrProver.RaiserRaises | src/newrules.py:24-65 | Every kind that has rules has one that raises whatever the premise. |
| NrProver.Fire | src/newrules.py:24-65 | `predicates += self._ruleX(d)` for each rule of `d`'s kind: every kind that has rules raises, ValueError when the predicate has the wrong number of points and AttributeError otherwise, and any other kind gives no predicates. |
| NrProver.Enqueue | src/newrules.py:74-80 | The loop over the new predicates: its first statement calls `self._predicate_all_forms`, which the class does not define. |
| NrProver.Loop | src/newrules.py:18-82 | The `while` loop with `iters` passes left: pop, add, fire the rules. It runs to the end exactly when none of the predicates it pops has a kind with rules and each can be added again; then the queue never grows, and the loop has only added the popped predicates once more. |
| NrProver.Fixedpoint | src/newrules.py:10-82 | `Prover(hypotheses).fixedpoint()`: the constructor adds every hypothesis and queues it, and the loop runs at most ten passes. As written it succeeds exactly when none of the first ten hypotheses has a kind with rules and all the additions succeed; the queue then loses its first ten predicates and gains nothing. |
| NrProver.AddAgain | src/newrules.py:18-82 | The loop's additions continue the constructor's. |
| NrProver.FirstFires | src/newrules.py:10-82 | A first hypothesis of a kind that has rules ends the run with an error, whatever the store holds. |
| NrRules.D39 | src/newrules.py:163-178 | D39: eqangle(A,B,P,Q,C,D,P,Q) => para(A,B,C,D): two lines that make the same angle with a third line are parallel, unless two of the three are one line. |
| NrRules.D39AsOlder | src/newrules.py:163-178 | This D39 is the point form of the D39 of `src/rules.py`. |
| NrRules.Crossings | src/newrules.py:180-194 | `for lPQ in lines: if lPQ in [lAB, lCD]: continue`, writing the eqangle for the rest. |
| NrRules.D40 | src/newrules.py:180-194 | D40: para(A,B,C,D) => eqangle(A,B,P,Q,C,D,P,Q) for every recorded line P-Q other than the two; unlike the older D40, nothing excludes a line known parallel to them. |
| NrRules.D40CoversOlder | src/newrules.py:180-194 | Everything the older D40 concludes this one concludes too; the older one leaves out the lines known parallel to the premise's lines. |
| NrRules.D41 | src/newrules.py:196-205 | D41: cyclic(A,B,P,Q) => eqangle(P,A,P,B,Q,A,Q,B): the angles A-P-B and A-Q-B subtend the same chord; written whatever the four keys are. |
| NrRules.D41AgainstOlder | src/newrules.py:196-205 | The older D41 writes the same angle equality, but only when neither angle is made by a line with itself. |
| NrRules.D47AsWritten | src/newrules.py:272-285 | D47 as written: eqangle(O,A,A,B,A,B,O',B) => cong(O,A,O,B), the classes of O-A and O-B matched in turn. |
| NrRules.D47 | src/newrules.py:272-285 | D47 with the two centres required to be one point, as the older D47 requires: the equal base angles at A and B then make O-A and O-B congruent. |
| NrRules.D47SecondCentre | src/newrules.py:272-285 | The as-written D47 concludes cong(O,A,O,B) from an angle pattern whose second centre is another point O', which does not make O-A and O-B congruent; the corrected D47 concludes nothing there. |
| NrRules.D47AsOlder | src/newrules.py:272-285 | With `prove` asking the database, the corrected D47 concludes exactly when the older D47 does, and the classes it equates hold the segments O-A and O-B the older one equates. |
| NrRules.D59 | src/newrules.py:319-330 | D59: simtri(A,B,C,P,Q,R) => eqratio(A,B,A,C,P,Q,P,R), written as the equality of two ratios of classes, the classes of A-B, A-C, P-Q and P-R matched in turn. |
| NrRules.D59AsOlder | src/newrules.py:319-330 | The older D59 writes the same proportion over the four segments A-B, A-C, P-Q and P-R; each class this one writes holds the matching segment. |
| NrRules.ParaOf | src/newrules.py:474-486 | para(A,B,C,D) over the keys `matchLine` gives A-B and C-D. |
| NrRules.D72AsWritten | src/newrules.py:474-486 | D72 as written: eqangle(A,B,C,D,C,D,A,B) => para(A,B,C,D) unless perp(A1,B1,A2,B2) is provable; with the pattern matched, A2-B2 is A-B itself, so the test asks whether A-B is perpendicular to itself. |
| NrRules.D72 | src/newrules.py:474-486 | D72 as its rule states it: eqangle(A,B,C,D,C,D,A,B) and not perp(A,B,C,D) => para(A,B,C,D). The angle from A-B to C-D equals the angle back, so the lines are parallel or perpendicular; a conclusion is written only when they are not provably perpendicular. |
| NrRules.D72IgnoresPerp | src/newrules.py:474-486 | With A-B provably perpendicular to C-D, but no line perpendicular to itself, the as-written D72 still concludes that A-B and C-D are parallel; the corrected D72 concludes nothing. |
| NrRules.Others | src/newrules.py:510-526 | `for ratio in ratios: if ratio == x: continue`, writing the cong of each other ratio's classes. |
| NrRules.Cousins | src/newrules.py:510-526 | The loop over the recorded groups of equal ratios. |
| NrRules.D75CongWith | src/newrules.py:510-526 | D75 (cong form) with the ratio comparison `same` as a parameter: cong(P,Q,U,V) & eqratio(A,B,C,D,P,Q,U,V) => cong(A,B,C,D), over the classes of P-Q and U-V. |
| NrRules.D75CongAsWritten | src/newrules.py:510-526 | D75 (cong form) as written: `Ratio` defines no equality, so the new `Ratio(cPQ, cUV)` is in no recorded group and the rule concludes nothing. |
| NrRules.CousinsNone | src/newrules.py:510-526 | A comparison that holds for no two ratios finds no group holding the premise's ratio, so nothing is concluded. |
| NrRules.D75Cong | src/newrules.py:510-526 | D75 (cong form) with ratios compared by their classes: every other ratio of a group holding the premise's ratio has equal classes. |
| NrRules.D75CongIdentity | src/newrules.py:510-526 | A group of equal ratios holding the premise's ratio and one more: the corrected rule equates that other ratio's classes, while the as-written rule concludes nothing. |
| Order.CharLtStrictTotal | src/fact.py:45-46 | Code-point order on characters is a strict total order. |
| Order.LexIrreflexive | src/fact.py:45-46 | No sequence is lexicographically smaller than itself. |
| Order.LexTransitive | src/fact.py:45-46 | Lexicographic order is transitive. |
| Order.LexTotal | src/fact.py:45-46 | Of two different sequences one is lexicographically smaller. |
| Order.LexStrictTotal | src/fact.py:45-46 | The lexicographic extension of a strict total order is a strict total order. |
| Order.StrLtStrictTotal | src/fact.py:45-46 | Python's string order is a strict total order. |
| Order.StrLtAsymmetric | src/fact.py:45-46 | A smaller name is never also larger. |
| Order.InsertBy | src/fact.py:13-14 | Put `x` in front of the first element that is not smaller than it. |
| Order.InsertBySorted | src/fact.py:13-14 | Inserting into a sorted list keeps it sorted. |
| Order.SortBy | src/fact.py:13-14 | `sorted(s)`: a stable insertion sort that returns a permutation of its input. |
| Order.SortBySorted | src/fact.py:13-14 | The insertion sort returns a sorted list. |
| Order.SortedHeadMinimal | src/fact.py:13-14 | No element of a sorted sequence is smaller than its head. |
| Order.SortedUnique | src/fact.py:13-14 | Under a strict total order there is only one sorted arrangement of a multiset: any two sorted permutations of each other are equal. |
| Order.SortByPermutationInvariant | src/fact.py:13-14 | Sorting depends only on the multiset of its input. |
| Order.InsertByMap | src/fact.py:13-14 | Sorting commutes with a map that carries one order onto the other. |
| Order.SortByMap | src/fact.py:13-14 | Sorting commutes with a map that carries one order exactly onto the other. |
| PointGuards.SwapMiddle | src/prover.py:500-508 | A B C D P Q U V => A B P Q C D U V: the second and third point pairs change places. |
| PointGuards.D21 | src/prover.py:500-508 | D21: eqangle(A,B,C,D,P,Q,U,V) => eqangle(A,B,P,Q,C,D,U,V), unless one of the swapped-in angles would have the same segment on both sides. |
| PointGuards.D21Undoes | src/prover.py:500-508 | Where D21 fires on its own conclusion, it gives back the premise. |
| PointGuards.D39 | src/prover.py:705-720 | D39: eqangle(A,B,P,Q,C,D,P,Q) => para(A,B,C,D), when A-B, P-Q and C-D are three different lines. |
| PointGuards.D41 | src/prover.py:745-750 | D41: cyclic(A,B,P,Q) => eqangle(P,A,P,B,Q,A,Q,B). |
| PointGuards.D42a | src/prover.py:752-763 | D42a: eqangle(P,A,P,B,Q,A,Q,B) & not coll(P,Q,A) => cyclic(A,B,P,Q). |
| PointGuards.D41ThenD42a | src/prover.py:745-763 | A concyclic premise whose first three points are not on one line goes through D41 and comes back unchanged through D42a. |
| PointGuards.D42aThenD41 | src/prover.py:745-763 | Whatever D42a concludes, D41 turns back into the premise. |
| PointGuards.D46 | src/prover.py:799-809 | D46: cong(O,A,O,B) => eqangle(O,A,A,B,A,B,O,B), for a proper isosceles triangle O A B. |
| PointGuards.D47AsWritten | src/prover.py:811-824 | D47 as `src/prover.py` writes it: the apex named at the seventh position is never compared with the first. |
| PointGuards.D47 | src/prover.py:811-824 | D47: eqangle(O,A,A,B,A,B,O,B) & not coll(O,A,B) => cong(O,A,O,B), with the apex checked at both of its positions. |
| PointGuards.D47AsWrittenLeaks | src/prover.py:811-824 | As written, D47 concludes that O A and O B are congruent from angles whose second side runs through some other point X. |
| PointGuards.D46ThenD47 | src/prover.py:799-824 | Every conclusion of D46 goes back through D47 to the premise. |
| PointGuards.D47ThenD46 | src/prover.py:799-824 | Every conclusion of D47 whose legs differ goes back through D46 to the premise. |
| PointGuards.D59 | src/prover.py:956-963 | D59: simtri(A,B,C,P,Q,R) => eqratio(A,B,A,C,P,Q,P,R). |
| PointGuards.D60 | src/prover.py:965-972 | D60: simtri(A,B,C,P,Q,R) => eqangle(A,B,B,C,P,Q,Q,R). (The rule's comment names the angles at A instead; the body compares those at B.) |
| PointGuards.D62 | src/prover.py:986-995 | D62: contri(A,B,C,P,Q,R) => cong(A,B,P,Q), cong(A,C,P,R), cong(B,C,Q,R): each side of the first triangle with the matching side of the second. |
| PointGuards.D66 | src/prover.py:1059-1066 | D66: para(A,B,A,C) => coll(A,B,C). |
| PointGuards.D68 | src/prover.py:1096-1101 | D68: midp(A,B,C) => cong(A,B,A,C). |
| PointGuards.D71 | src/prover.py:1130-1140 | D71 (the second of its two identical definitions, which is the one in effect): eqangle(A,B,C,D,C,D,A,B) & not para => perp(A,B,C,D). The guard list is built in full before `all` reads it, so the `para` query, which names the second copy of A-B, runs on every premise of the right size. |
| PointGuards.D72 | src/prover.py:1142-1152 | D72: eqangle(A,B,C,D,C,D,A,B) & not perp => para(A,B,C,D), its `perp` query likewise always run. |
| PointGuards.D73 | src/prover.py:1154-1161 | D73: eqangle(A,B,C,D,P,Q,U,V) & para(P,Q,U,V) => para(A,B,C,D). |
| PointGuards.D74 | src/prover.py:1163-1170 | D74: eqangle(A,B,C,D,P,Q,U,V) & perp(P,Q,U,V) => perp(A,B,C,D). |
| PointGuards.D61Simtri | src/prover.py:974-984 | D61 (simtri form): simtri(A,B,C,P,Q,R) & cong(A,B,P,Q) => contri(A,B,C,P,Q,R). |
| PointGuards.D67Coll | src/prover.py:1068-1079 | D67 (coll form): coll(A,B,C) & cong(A,B,A,C) => midp(A,B,C). |
| PointGuards.D75Eqratio | src/prover.py:1225-1245 | D75 (eqratio form): AB/CD = PQ/UV with two of the four segments in one class => the other two are congruent. The first equal pair found, in the order AB~PQ, AB~CD, CD~UV, PQ~UV, decides the conclusion. |
| PointGuards.Opposite | src/prover.py:1225-1245 | The two segments of AB/CD = PQ/UV other than segments `i` and `j`. |
| PointProver.RulesFire | src/prover.py:36-115 | The kinds that fire rules are exactly the ten `fixedpoint` lists. |
| PointProver.Fire | src/prover.py:36-115 | The `predicates += ...` block of one step: every registered rule in order, the first exception ending the step. |
| PointProver.FireAll | src/prover.py:36-115 | The rules of `rules` in order on `d`, their conclusions appended. |
| PointProver.Admit | src/prover.py:124-130 | `ppredicate in self.newFactsList or self.prove(ppredicate)`, then the append. Without `strict` the membership test never holds, as in the source; the proof query is made only when the test fails. |
| PointProver.AdmitAll | src/prover.py:124-130 | The inner loop over the forms of one conclusion. |
| PointProver.FreshNoDup | src/prover.py:124-130 | A strict run keeps a duplicate-free queue duplicate-free. |
| PointProver.Enqueue | src/prover.py:124-130 | The `for predicate in predicates` loop of one step: each conclusion is expanded into its forms and each form offered to the queue. What is appended is a form of some conclusion, is unprovable and, under `strict`, is not queued already; every form of every conclusion ends up queued or is provable. |
| PointProver.EnqueueFrom | src/prover.py:124-130 | What a run of `Enqueue` appends is a form of one of its conclusions. |
| PointProver.EnqueueCovers | src/prover.py:124-130 | The forms of the first conclusion stay settled as the queue grows. |
| PointProver.Step | src/prover.py:32-130 | One iteration of the loop on a non-empty queue: the head is recorded in the store, and only fresh forms of the rules' conclusions are queued. |
| PointProver.Advance | src/prover.py:32-130 | `Step`, with only what the loop needs of it: the new queue holds only forms not already pending or proved. |
| PointProver.Run | src/prover.py:30-132 | The `while self.newFactsList and iters > 0` loop with `fuel` iterations left. |
| PointProver.KeepsNoDup | src/prover.py:32-130 | A strict step turns a duplicate-free queue into a duplicate-free one. |
| PointProver.Fixedpoint | src/prover.py:22-132 | `Prover(hypotheses).fixedpoint()` over the group store: at most `Cap` predicates are popped and the loop stops early only on an empty queue; a strict run started on distinct hypotheses leaves no predicate queued twice; the first hypothesis is the first predicate popped. |
| PointProver.IdentityTestRequeues | src/prover.py:124-130 | The discrepancy: a form equal to one already queued and not yet provable is queued a second time by the source's identity test, and left alone by the value test. |
| PointProver.UnprovableWhileQueued | src/prover.py:124-130 | Such a form exists: a collinearity queued while no line is stored. |
| PointQuery.ProveColl | src/prover.py:159-163 | `prove(coll(ps))`: some line holds every point. |
| PointQuery.ParaWitnessHolds | src/prover.py:170-178 | On the store with lines {A,B}, {C,D}, {E,F} under any three names and one parallel group naming the second and third, `prove(para(C,D,E,F))` holds. |
| PointQuery.CollLosesPara | src/database_.py:62-81 | As written, adding `coll(A,B,C,D)` to the store of `PointQuery.ParaWitnessHolds`, its first name unlike the other two, succeeds and `prove(para(C,D,E,F))` then answers false: C-D is now the first line, and the group still names the second, which no longer exists. |
| PointQuery.CollRenamedKeepsPara | src/database_.py:62-81 | With the rewrite, the same `coll(A,B,C,D)` on that store, its third name unlike the other two, keeps `prove(para(C,D,E,F))` true: the group now names the first and third lines. |
| PointQuery.ProveCircle | src/prover.py:248-255 | `prove(circle(O, ...))`: a circle centred at O holds the other points. |
| PointQuery.ProveCyclic | src/prover.py:257-261 | `prove(cyclic(...))`: some circle holds every point. |
| PointQuery.Prove | src/prover.py:158-263 | `prove(predicate)`. A wrong number of points is the unpacking error, `circle` with no points is the `IndexError` of `points[0]`, and only the kinds that match lines or classes can run out of names. |
| PointQuery.ProveCollOrderFree | src/prover.py:159-163 | Whether points are collinear does not depend on how they are listed: only the set of points is looked up. |
| PointQuery.ProveMidpSymmetric | src/prover.py:165-168 | The endpoints of a midpoint query are sorted before the lookup. |
| PointQuery.Alternate | src/prover.py:206-221 | The middle two segments of an eight-point predicate swapped. |
| PointQuery.EqratioAlternation | src/prover.py:206-221 | When the four segments already have classes, swapping the middle two (alternation) does not change the answer: the four accepted pairings are closed under it. |
| PointQuery.FirstClassAt | src/database_.py:97-111 | `FirstClass` is the key at the index `matchCong` searches for. |
| PointQuery.MatchCongsKnown | src/database_.py:97-111 | Matching segments that all have classes creates nothing, and each name is the first class holding its own pair. |
| PointQuery.MatchCongKnown | src/database_.py:97-111 | A segment that already has a class is matched to the first class holding it, and the store is unchanged. |
| PointQuery.LineWithExtends | src/database_.py:83-95 | The first line through two points keeps its place when lines are appended. |
| PointQuery.MatchLineStable | src/database_.py:83-95 | Matching again after a match changes nothing: the line found or made for `p, q` is still the first line through both in any extension. |
| PointQuery.MatchLinesStable | src/database_.py:83-95 | Matching the same pairs again in any store that extends the result finds the same names and creates nothing. |
| PointQuery.MatchCongStable | src/database_.py:97-111 | Matching a segment again in any store that extends the result finds the same class and creates nothing. |
| PointQuery.MatchCongsStable | src/database_.py:97-111 | Matching the same segments again in any store that extends the result finds the same classes and creates nothing. |
| PointQuery.ProveAfterColl | src/prover.py:159-163 | What `collHandler` records, `prove(coll)` confirms. |
| PointQuery.ProveAfterMidp | src/prover.py:165-168 | What `midpHandler` records, `prove(midp)` confirms, with the endpoints in either order. |
| PointQuery.ProveAfterCong | src/prover.py:196-204 | What `congHandler` records, `prove(cong)` confirms. |
| PointQuery.ProveAfterPara | src/prover.py:170-178 | What `paraHandler` records, `prove(para)` confirms: the query matches the two lines the handler matched. |
| PointQuery.ProveAfterEqangle | src/prover.py:180-194 | What `eqangleHandler` records, `prove(eqangle)` confirms, in the pairing it was given. |
| PointQuery.ProveAfterEqratio | src/prover.py:206-221 | What `eqratioHandler` records, `prove(eqratio)` confirms, with ratios compared by their two classes; as written the query never confirms it (`PointQuery.EqratioDenied`). |
| PointQuery.ProveEqratioHeld | src/prover.py:206-221 | When the four segments already have classes and one group holds both ratios, `prove(eqratio)` answers true, with ratios compared by their two classes; as written it answers false (`PointQuery.ProveEqratioAsWritten`). |
| PointQuery.ProveEqratioAsWritten | src/prover.py:206-221 | `prove(eqratio)` as written fails exactly when the class-comparing query does (names running out while matching the four segments), and otherwise always answers false. |
| PointQuery.EqratioDenied | src/prover.py:206-221 | Right after `eqratioHandler` records a ratio equality, the query with ratios compared by their classes confirms it and the query as written denies it. |
| PointQuery.MatchLinesKeysDistinct | src/database_.py:83-95 | Line names stay distinct through a run of `matchLine` calls. |
| PointQuery.ThroughMembers | src/prover.py:137-145 | Under distinct names, the points read back for a line through `p, q` include `p` and `q`. |
| PointQuery.FormLines | src/prover.py:137-145 | The points of the four lines `_predicate_all_forms` matches for an eight-point predicate, read after all four matches. |
| PointQuery.FormLinesHold | src/prover.py:137-145 | Under distinct names, the k-th line read back holds the k-th pair. |
| PointQuery.Cross | src/prover.py:146-153 | Every pairing of an element of `xs` with one of `ys`, `xs` outermost. |
| PointQuery.CrossHas | src/prover.py:146-153 | Every pairing appears in `Cross`. |
| PointQuery.CrossFrom | src/prover.py:146-153 | Only pairings appear in `Cross`. |
| PointQuery.Forms | src/prover.py:146-153 | The four nested `combinations` loops. |
| PointQuery.FormsSound | src/prover.py:146-153 | Every predicate the four nested loops spell picks each of its point pairs, in stored order, from the matching line. |
| PointQuery.SpellPairs | src/prover.py:146-153 | The four point pairs of a spelled predicate are the chosen ones. |
| PointQuery.FormsComplete | src/prover.py:146-153 | Every predicate that picks its point pairs in stored order from the four lines is spelled by the loops. |
| PointQuery.SpellOf | src/prover.py:146-153 | An equal-angle predicate is the spelling of its own four pairs. |
| PointQuery.AllForms | src/prover.py:134-156 | `_predicate_all_forms(predicate)`: an equal-angle predicate becomes every predicate that picks two points, in stored order, from each of the four lines it names; any other predicate is its own only form. |
| PointQuery.OwnForm | src/prover.py:134-156 | Under distinct line names, a predicate whose point pairs each appear in stored order on their lines is among its own forms. |
| PointRules.D01 | src/prover.py:265-270 | D01: coll(A, B, C) => coll(A, C, B). |
| PointRules.D02 | src/prover.py:272-277 | D02: coll(A, B, C) => coll(B, A, C). |
| PointRules.D04 | src/prover.py:291-296 | D04: para(A, B, C, D) => para(A, B, D, C). |
| PointRules.D05 | src/prover.py:298-303 | D05: para(A, B, C, D) => para(C, D, A, B). |
| PointRules.D07 | src/prover.py:326-331 | D07: perp(A, B, C, D) => perp(A, B, D, C). |
| PointRules.D08 | src/prover.py:333-338 | D08: perp(A, B, C, D) => perp(C, D, A, B). |
| PointRules.D11 | src/prover.py:412-417 | D11: midp(M, A, B) => midp(M, B, A). |
| PointRules.D14 | src/prover.py:442-447 | D14: cyclic(A, B, C, D) => cyclic(A, B, D, C). |
| PointRules.D15 | src/prover.py:449-454 | D15: cyclic(A, B, C, D) => cyclic(A, C, B, D). |
| PointRules.D16 | src/prover.py:456-461 | D16: cyclic(A, B, C, D) => cyclic(B, A, C, D). |
| PointRules.D18 | src/prover.py:479-484 | D18: eqangle(A, B, C, D, P, Q, U, V) => eqangle(B, A, C, D, P, Q, U, V). |
| PointRules.D19 | src/prover.py:486-491 | D19: eqangle(A, B, C, D, P, Q, U, V) => eqangle(C, D, A, B, U, V, P, Q). |
| PointRules.D20 | src/prover.py:493-498 | D20: eqangle(A, B, C, D, P, Q, U, V) => eqangle(P, Q, U, V, A, B, C, D). |
| PointRules.D23 | src/prover.py:542-547 | D23: cong(A, B, C, D) => cong(A, B, D, C). |
| PointRules.D24 | src/prover.py:549-554 | D24: cong(A, B, C, D) => cong(C, D, A, B). |
| PointRules.D26 | src/prover.py:572-577 | D26: eqratio(A, B, C, D, P, Q, U, V) => eqratio(B, A, C, D, P, Q, U, V). |
| PointRules.D27 | src/prover.py:579-584 | D27: eqratio(A, B, C, D, P, Q, U, V) => eqratio(C, D, A, B, U, V, P, Q). |
| PointRules.D28 | src/prover.py:586-591 | D28: eqratio(A, B, C, D, P, Q, U, V) => eqratio(P, Q, U, V, A, B, C, D). |
| PointRules.D29 | src/prover.py:593-598 | D29: eqratio(A, B, C, D, P, Q, U, V) => eqratio(A, B, P, Q, C, D, U, V). |
| PointRules.D31 | src/prover.py:629-634 | D31: simtri(A, B, C, P, Q, R) => simtri(A, C, B, P, R, Q). |
| PointRules.D32 | src/prover.py:636-641 | D32: simtri(A, B, C, P, Q, R) => simtri(B, A, C, Q, P, R). |
| PointRules.D33 | src/prover.py:643-648 | D33: simtri(A, B, C, P, Q, R) => simtri(P, Q, R, A, B, C). |
| PointRules.D35 | src/prover.py:667-672 | D35: contri(A, B, C, P, Q, R) => contri(A, C, B, P, R, Q). |
| PointRules.D36 | src/prover.py:674-679 | D36: contri(A, B, C, P, Q, R) => contri(B, A, C, Q, P, R). |
| PointRules.D37 | src/prover.py:681-686 | D37: contri(A, B, C, P, Q, R) => contri(P, Q, R, A, B, C). |
| PointRules.CollSwapsUndo | src/prover.py:265-277 | Each of the collinearity swaps applied to its own conclusion gives back the premise. |
| PointRules.ParaSwapsUndo | src/prover.py:298-303 | Each of the parallel swaps applied to its own conclusion gives back the premise. |
| PointRules.PerpSwapsUndo | src/prover.py:326-338 | Each of the perpendicular swaps applied to its own conclusion gives back the premise. |
| PointRules.MidpSwapUndoes | src/prover.py:412-417 | Each of the midpoint swap applied to its own conclusion gives back the premise. |
| PointRules.CyclicSwapsUndo | src/prover.py:442-461 | Each of the concyclic swaps applied to its own conclusion gives back the premise. |
| PointRules.EqangleSwapsUndo | src/prover.py:479-498 | Each of the equal-angle swaps applied to its own conclusion gives back the premise. |
| PointRules.CongSwapsUndo | src/prover.py:542-554 | Each of the congruence swaps applied to its own conclusion gives back the premise. |
| PointRules.EqratioSwapsUndo | src/prover.py:572-598 | Each of the equal-ratio swaps applied to its own conclusion gives back the premise. |
| PointRules.SimtriSwapsUndo | src/prover.py:629-648 | Each of the similar-triangle swaps applied to its own conclusion gives back the premise. |
| PointRules.ContriSwapsUndo | src/prover.py:667-686 | Each of the congruent-triangle swaps applied to its own conclusion gives back the premise. |
| PointSearch.OnLine | src/prover.py:321-323 | `for (E, F) in itertools.combinations(lines[l], 2)`. |
| PointSearch.OnLines | src/prover.py:305-324 | The same over several lines, in order; the first unknown line raises. |
| PointSearch.Mates | src/prover.py:305-324 | The lines grouped with `hub`, other than those in `skip`, group by group. |
| PointSearch.D03 | src/prover.py:279-289 | D03: coll(A,B,C) & coll(A,B,D) => coll(C,D,A), one conclusion per point D of line A-B other than A, B and C. |
| PointSearch.D06 | src/prover.py:305-324 | D06: para(A,B,C,D) & para(C,D,E,F) => para(A,B,E,F), for every line grouped as parallel with C-D other than A-B and C-D, and every two of its points E, F. |
| PointSearch.OnMates | src/prover.py:305-324 | The points of every line grouped with `hub`, other than those of `skip`, paired by `mk`. |
| PointSearch.PartnerStep | src/prover.py:340-362 | One group of the loop: skip it unless it holds `hub`, pick the other line, skip that when it is one of `skip`, otherwise pair its points. |
| PointSearch.PartnerPairs | src/prover.py:340-362 | The loop over every group. |
| PointSearch.D09 | src/prover.py:340-362 | D09: perp(A,B,C,D) & perp(C,D,E,F) => para(A,B,E,F), for the line E-F recorded perpendicular to C-D, when it is neither A-B nor C-D. |
| PointSearch.D10Para | src/prover.py:364-386 | D10 (para form): para(A,B,C,D) & perp(C,D,E,F) => perp(A,B,E,F). |
| PointSearch.D10Perp | src/prover.py:388-410 | D10 (perp form): perp(C,D,E,F) & para(A,B,C,D) => perp(A,B,E,F), for the line A-B a parallel group pairs with C-D, when it is neither C-D nor E-F. |
| PointSearch.D12 | src/prover.py:419-438 | D12: cong(O,A,O,B) & cong(O,A,O,C) => circle(O,A,B,C), for every segment O-C of the class of O-A with C neither A nor B. |
| PointSearch.D17 | src/prover.py:463-477 | D17: cyclic(A,B,C,D) & cyclic(A,B,C,E) => cyclic(B,C,D,E), for every recorded circle through at least three of the premise's positions and every point E of it that the premise does not name. |
| PointSearch.PairsAt | src/prover.py:510-540 | `Pairs(xs)` lists exactly the pairs `xs` holds in order. |
| PointSearch.AnglePairs | src/prover.py:510-540 | Two nested `itertools.combinations(_, 2)` loops over the point lists of an angle's two lines. |
| PointSearch.AngleStep | src/prover.py:510-540 | The nested loops over the two lines of a stored angle. The second line is read only once the first has a pair of points to offer. |
| PointSearch.D22With | src/prover.py:510-540 | The body of D22, writing `front` before each pair of found lines' points. |
| PointSearch.D22AsWritten | src/prover.py:510-540 | D22 as `src/prover.py` writes it: eqangle(A,B,C,D,P,Q,U,V) & eqangle(P,Q,U,V,E,F,G,H) gives eqangle(P,Q,U,V,E,F,G,H), the second premise over again, where the rule's comment promises eqangle(A,B,C,D,E,F,G,H). |
| PointSearch.D22 | src/prover.py:510-540 | D22: eqangle(A,B,C,D,P,Q,U,V) & eqangle(P,Q,U,V,E,F,G,H) => eqangle(A,B,C,D,E,F,G,H), for every angle recorded equal to P-Q/U-V other than the premise's two. |
| Predicates.ParseShape | src/predicate.py:17-24 | Parsing text of the shape `kind(body)` yields the kind and the stripped comma-separated pieces of the body. |
| Predicates.CleanShaped | src/predicate.py:17-24 | A line that ends in `)` and starts with no whitespace is already clean. |
| Predicates.FromLineParses | src/predicate.py:17-24 | Parsing a line of the expected shape recovers the kind and the stripped points. |
| Predicates.FromLinePadding | src/predicate.py:17-24 | Whitespace around a line and dots after it do not change what it parses to. |
| Predicates.CleanPadding | src/predicate.py:17-24 | `rstrip(".").strip()` removes leading whitespace, trailing whitespace and trailing dots. |
| Predicates.StripRightDrops | src/predicate.py:17-24 | `rstrip` removes a suffix made only of dropped characters, and stops at the first kept one. |
| Predicates.StripLeftDrops | src/predicate.py:17-24 | `lstrip` removes exactly a whitespace prefix. |
| Predicates.FromLineRoundTrip | src/predicate.py:17-24 | A predicate written in the line shape parses back to itself. |
| Predicates.FormatInjective | src/predicate.py:26-27 | `repr` loses nothing for predicates whose kind holds no comma and whose points hold no comma or parenthesis: the text determines the predicate. |
| Predicates.ParsesTestLines | src/predicate.py:30-36 | The predicate test, for any kind such as `coll`, any three point names and any run of whitespace: `coll(A,B,C).`, `coll(A, B,C)`, `coll( A,B, C)` and ` coll(A,B,C) .` all parse to the same predicate, printed `(coll, points(A,B,C))`. |
| Predicates.TestLinesPadded | src/predicate.py:30-36 | Surrounding whitespace and a trailing dot do not change what a test line parses to. |
| Predicates.TestLinesSpaced | src/predicate.py:30-36 | Whitespace inside the parentheses does not change what a test line parses to. |
| Predicates.PaddedLines | src/predicate.py:17-24 | A trimmed line with a trailing dot, or padded and dotted, parses like the line alone. |
| Primitives.AngleHashText | src/primitives.py:24-25 | The text an angle is hashed by. |
| Primitives.Ends | src/primitives.py:34-37 | `sorted([p1, p2])`: the two names swap only when the second is smaller. |
| Primitives.Canon | src/primitives.py:34-37 | The segment written with its endpoints in sorted order. |
| Primitives.SegRepr | src/primitives.py:39-43 | `repr(segment)`: the sorted endpoint names run together, as long as both names together. |
| Primitives.SegEqIffSameEnds | src/primitives.py:34-37 | Segment equality means "same two endpoints, in either order". |
| Primitives.SegEqIffCanon | src/primitives.py:34-37 | Equal segments have the same canonical form, and conversely. |
| Primitives.CanonEquivalent | src/primitives.py:34-37 | A segment is equal to its canonical form, which is its own canonical form. |
| Primitives.SegEqSameRepr | src/primitives.py:39-43 | Equal segments print alike, so hashing by `repr` agrees with equality. |
| Primitives.SegReprCollision | src/primitives.py:39-43 | The converse fails once names have more than one character. |
| Primitives.Vertices | src/primitives.py:53-58 | `sorted([p1, p2, p3])`: the three vertices, each as often as the triangle names it. |
| Primitives.TriEqIffSameVertices | tests/test_primitives.py:4-12 | Two triangles are equal, in the sense the primitives test expects, exactly when they have the same three vertices counted with multiplicity. |
| Primitives.TriangleReorderedEqual | tests/test_primitives.py:4-12 | The first primitives test: triangle ABC equals triangle ACB. |
| Primitives.TriangleOtherVertexDiffers | tests/test_primitives.py:4-12 | ... and differs from triangle ABD. |
| SimSearch.Except | src/prover.py:902-954 | `[p for p in s if p != b]`: exactly the elements of `s` other than `b`. |
| SimSearch.Row | src/prover.py:902-954 | The innermost loop: every R of `rs` for fixed A, C and P. |
| SimSearch.Plane | src/prover.py:902-954 | The two inner loops, over P and R. |
| SimSearch.Block | src/prover.py:902-954 | The three inner loops, over C, P and R. |
| SimSearch.Grid | src/prover.py:902-954 | The four nested loops, over A, C, P and R in that order. |
| SimSearch.Held | src/prover.py:902-954 | `prove` of the D58 witness eqangle(A,C,B,C,P,R,Q,R): the only way the query fails is by running out of line names. |
| SimSearch.SameTriangleIsTriEq | src/prover.py:902-954 | The corner comparison of a candidate is vertex equality of its two triangles. |
| SimSearch.Check | src/prover.py:902-954 | One candidate. With `strict` the triangles are compared by their vertices; without it the test always passes, as the source's comparison of two fresh `Triangle` objects does. |
| SimSearch.Choices | src/prover.py:902-954 | The vertex choices of the four loops, over the matched lines with the corners taken out. |
| SimSearch.Search | src/prover.py:902-954 | D58: eqangle(A,B,B,C,P,Q,Q,R) & eqangle(A,C,B,C,P,R,Q,R) => simtri(A,B,C,P,Q,R), the triangle test chosen by `strict`. |
| SimSearch.D58Holds | src/prover.py:902-954 | The matched lines run through the premise's four pairs. |
| SimSearch.D58Exactly | src/prover.py:902-954 | The gathered candidates are exactly the conclusions `Derives` names. |
| SimSearch.D58FailExactly | src/prover.py:902-954 | The D58 search raises exactly when the proof query of some candidate raises, and then only because names ran out. |
| SimSearch.D58Sound | src/prover.py:902-954 | Every conclusion of the search comes from a candidate whose two witnessing angles `prove` confirms and, under the vertex test, whose two triangles differ. |
| SimSearch.D58Complete | src/prover.py:902-954 | Every candidate whose witnessing angles `prove` confirms, and that the triangle test passes, is concluded. |
| SimSearch.ConclusionOf | src/prover.py:902-954 | A simtri conclusion through B and Q is the one its corners make. |
| SimSearch.D58 | src/prover.py:902-954 | D58 with the triangle test the source evidently intends. |
| SimSearch.StrictNotSelfSimilar | src/prover.py:902-954 | Under the vertex test no conclusion names one triangle twice. |
| SimSearch.D58AsWritten | src/prover.py:902-954 | D58 as written: the same search with the always-passing triangle test. It fails exactly when `D58` fails and draws what `D58` draws plus the conclusions that name one triangle twice. |
| SimSearch.LooseAddsSelfSimilar | src/prover.py:902-954 | The always-passing test fails exactly when the vertex test does, and adds only conclusions that name one triangle twice. |
| SimSearch.StrictIsLoose | src/prover.py:902-954 | The two triangle tests differ only on conclusions that name one triangle twice. |
| SimSearch.AsWrittenSelfSimilar | src/prover.py:902-954 | The discrepancy: whenever a candidate's two triangles coincide and its witnessing angles are known equal, the source concludes that the triangle is similar to itself, and `D58` does not. |
| GroupStore.FreeIndex | src/database_.py:219-230 | The first `n >= from` below the limit whose name is not taken, or the limit when every one is. |
| GroupStore.NewName | src/database_.py:219-230 | `newLineName` / `newCongName`: the smallest free `prefix{n}` with `1 <= n <= 19`; all nineteen taken is an error. |
| GroupStore.SetOf | src/database_.py:83-95 | `set(points)`: one copy of each point, in order of first occurrence. |
| GroupStore.LineWith | src/database_.py:83-95 | The first line holding both points, or `\|lines\|`. |
| GroupStore.MatchLine | src/database_.py:83-95 | `matchLine([p, q])`: the name of the first line through both points; otherwise a fresh line holding exactly the two points. |
| GroupStore.ThroughExtends | src/database_.py:83-95 | Appending lines keeps every old line where it was. |
| GroupStore.MatchLines | src/database_.py:83-95 | `matchLine` on each pair in order, each call seeing the lines the earlier ones created. |
| GroupStore.CongWith | src/database_.py:97-111 | The first class holding a segment equal to `s`, or `\|congs\|`. |
| GroupStore.MatchCongs | src/database_.py:97-111 | `matchCong` on each pair in order. |
| GroupStore.MatchCong | src/database_.py:97-111 | The returned name is of a class holding segment P-Q, and the store only grows. When some class already holds the segment, the store is unchanged and an existing name is returned; otherwise the store gains exactly one new class, holding only P-Q, under a fresh name. It fails only when names run out. |
| GroupStore.CollHandler | src/database_.py:62-81 | `collHandler(coll(points))`: the first line sharing at least two of the points takes them all and the lines are merged (`_lineMerge`: lines sharing at least two points with the first line of a round are folded into it); otherwise the points become a new line. |
| GroupStore.LineMergeAbsorbs | src/database_.py:293-322 | With plain values as keys, "absorbed" is inclusion of point sets. |
| GroupStore.CollCovers | src/database_.py:62-81 | After `coll(points)` one line holds every point. |
| GroupStore.MergedCovers | src/database_.py:293-322 | A line that took in every point is absorbed whole by the merge. |
| GroupStore.CollKeepsLines | src/database_.py:62-81 | No line loses a point: every old line lies inside some new line. |
| GroupStore.CollKeysDistinct | src/database_.py:62-81 | Line names stay distinct. |
| GroupStore.CollFromInput | src/database_.py:62-81 | Nothing is invented: a point on a new line was given or was on an old line. |
| GroupStore.SegUnion | src/database_.py:37-60 | `a.union(b)` for sets of segments: a segment equal to one already present is not added again. |
| GroupStore.SegUnionHas | src/database_.py:37-60 | A segment is in the union exactly when it is in one of the parts. |
| GroupStore.CongWithEither | src/database_.py:37-60 | The first class holding a segment equal to `s1` or to `s2`. |
| GroupStore.AddCongPair | src/database_.py:37-60 | The store after `congHandler` has grown or created the class of the two segments (the two lines are already matched). |
| GroupStore.CongHandler | src/database_.py:37-60 | `congHandler(cong(A, B, C, D))`: lines AB and CD are matched, then the class of segment AB or CD takes both segments and the classes are merged; otherwise the two segments form a new class. |
| GroupStore.CongCovers | src/database_.py:37-60 | After `cong(A, B, C, D)` one class holds both segment AB and segment CD. |
| GroupStore.CongMergeKeepsPair | src/database_.py:324-353 | Two segments of one class before the merge pass share a class after it. |
| GroupStore.PairInUnion | src/database_.py:37-60 | The union with a pair holds both segments of the pair. |
| GroupStore.CongKeepsClasses | src/database_.py:37-60 | No class loses a segment: every old class lies inside some new class. |
| GroupStore.UnionKeeps | src/database_.py:37-60 | A union loses no segment of its left part. |
| GroupStore.CongKeysDistinct | src/database_.py:37-60 | Class names stay distinct. |
| GroupStore.ParaHandler | src/database_.py:113-136 | `paraHandler(para(A, B, C, D))`: lines AB and CD are matched, then the first group holding either name takes both, or the pair becomes a new group. |
| GroupStore.EqangleHandler | src/database_.py:183-208 | `eqangleHandler(eqangle(A, B, C, D, E, F, G, H))`: the four lines are matched, then the first group holding either angle takes both, or the two angles become a new group. |
| GroupStore.Pairs4 | src/database_.py:191-195 | The four point pairs of an eight-point predicate. |
| GroupStore.EqratioHandler | src/database_.py:138-181 | `eqratioHandler(eqratio(A, B, C, D, E, F, G, H))` as intended: the four congruence classes are matched, then the groups holding either ratio are merged with the pair (see `MergePair`). |
| GroupStore.RatiosHeld | src/database_.py:138-181 | The four classes matched for an eight-point predicate, spelled out. |
| GroupStore.LinesHeld | src/database_.py:183-208 | The four lines matched for an eight-point predicate, spelled out. |
| GroupStore.EqratioHandlerAsWritten | src/database_.py:138-181 | `eqratioHandler` as written, where one matching group makes it index the list at its length. Ratios are compared by their two class names here; `Ratio` defines no `__eq__`, so the shipped program compares a freshly built ratio by identity, finds no group and always appends. |
| GroupStore.EqratioKeepsDisjoint | src/database_.py:138-181 | With ratio groups kept disjoint, the intended handler never trips its `assert` and keeps them disjoint. |
| GroupStore.EqratioOneGroupCrashes | src/database_.py:138-181 | As written, a ratio already present in exactly one group makes the handler fail where the intended one succeeds. "Present" compares ratios by value, which is what the handler evidently intends; with the identity comparison the shipped program uses, no group is ever found and this branch is not reached. |
| GroupStore.MidpTriple | src/database_.py:210-216 | The triple a midpoint fact is stored as: `[M] + sorted([A, B])`. |
| GroupStore.MidpHandler | src/database_.py:210-216 | `midpHandler(midp(M, A, B))`: `coll(M, A, B)` is added, then the triple is recorded unless it already is. |
| GroupStore.MidpEndsUnordered | src/database_.py:210-216 | The endpoints' order does not matter to the recorded triples. |
| GroupStore.MidpCollinear | src/database_.py:210-216 | After `midp(M, A, B)` some line holds M, A and B. |
| GroupStore.Add | src/database_.py:23-35 | `add(predicate)` with the merges rewriting the names they absorb: it fails exactly when `add` as written fails, gives the same lines and classes, and differs only in the names the groups hold; an unhandled kind leaves the store as it is and each kind touches only the groups its rewrite concerns. |
| GroupStore.CollRenamed | src/database_.py:293-322 | `collHandler` followed by the rewrite of every absorbed line name in the parallel groups and angles: it fails exactly when `collHandler` does, gives the same lines, keeps the number of groups and changes nothing but the lines and those groups. |
| GroupStore.MidpRenamed | src/database_.py:210-216 | `midpHandler` with its `coll` through the rewrite: it fails exactly when `midpHandler` does, gives the same lines and midpoint triples, and leaves the classes and ratios alone. |
| GroupStore.CongRenamed | src/database_.py:324-353 | `congHandler` followed by the rewrite of every absorbed class name in the ratios: it fails exactly when `congHandler` does, gives the same lines and classes, keeps the number of ratio groups and changes nothing else. |
| GroupStore.CollKeepsNamesValid | src/database_.py:293-322 | After `coll` with the rewrite every parallel group and angle still names only existing lines: each absorbed line name is replaced by the name of the line that absorbed it. |
| GroupStore.CongKeepsNamesValid | src/database_.py:324-353 | After `cong` with the rewrite every ratio still names only existing classes, and the groups of lines stay valid as `matchLine` only adds lines. |
| GroupStore.MidpKeepsNamesValid | src/database_.py:210-216 | `midp` keeps every name valid, through its `coll` with the rewrite. |
| GroupStore.ParaKeepsNamesValid | src/database_.py:113-136 | `para` keeps every name valid: the two names it files are the lines `matchLine` has just found or made. |
| GroupStore.EqangleKeepsNamesValid | src/database_.py:183-208 | `eqangle` keeps every name valid: the angles it files are made of the lines `matchLine` has just found or made. |
| GroupStore.EqratioKeepsNamesValid | src/database_.py:138-181 | `eqratio` keeps every name valid: the ratios it files are made of the classes `matchCong` has just found or made. |
| GroupStore.AddKeepsNamesValid | src/database_.py:23-35 | With the rewrite, no predicate leaves a parallel group or angle naming a line that does not exist, nor a ratio naming a class that does not exist: the invariant `_lineMerge` and `_congMerge` are meant to keep. |
| GroupStore.AddAsWritten | src/database_.py:23-35 | `add(predicate)` as written: a kind that is not handled leaves the store as it is, and each handler changes only its own part of the store (`coll` only the lines, `para` only the lines and parallel groups, and so on); in particular `coll` and `cong` leave the parallel, angle and ratio groups untouched even when the merge has deleted names they hold. |
| Text.StripLeft | src/predicate.py:18-21 | `s.lstrip()`: no longer than `s`, and empty or starting with a non-space character. |
| Text.StripLeftSuffix | src/predicate.py:18-21 | `lstrip` removes a prefix made only of whitespace. |
| Text.StripRight | src/predicate.py:18-21 | `s.rstrip(chars)` where `drop` says which characters are in `chars`. |
| Text.StripRightPrefix | src/predicate.py:18-21 | `rstrip` removes a suffix made only of dropped characters. |
| Text.Strip | src/predicate.py:18-21 | `s.strip()`: empty, or starting and ending with a non-space character. |
| Text.StripTrimmed | src/predicate.py:18-21 | A string with no surrounding whitespace is its own `strip()`. |
| Text.StripSlice | src/predicate.py:18-21 | `strip()` removes only surrounding whitespace: its result is a slice of its argument with whitespace on both sides. |
| Text.StripIdempotent | src/predicate.py:18-21 | Stripping twice is stripping once. |
| Text.Find | src/predicate.py:18-21 | `s.find(c)`: -1 exactly when `c` does not occur; otherwise the index of the first `c`. |
| Text.SliceBound | src/predicate.py:18-21 | Python's normalisation of a slice bound: negative counts from the end, then clamp into `[0, n]`. |
| Text.Slice | src/predicate.py:18-21 | `s[i:j]`: Python slicing, which is the plain subsequence whenever `0 <= i <= j <= len(s)`. |
| Text.Split | src/predicate.py:22-22 | `s.split(c)` for a one-character separator: at least one piece, and no piece holds the separator. |
| Text.JoinSplit | src/predicate.py:22-22 | Joining the pieces of a split with the separator gives back the string. |
| Text.SplitJoin | src/predicate.py:22-22 | Splitting a join of separator-free pieces gives back the pieces. |
| Text.Digit | src/database_.py:219-223 | One decimal digit. |
| Text.Decimal | src/database_.py:219-223 | `str(n)` for a natural number: a non-empty run of digits, of two or more digits exactly when `n >= 10`. |
| Text.DecimalInjective | src/database_.py:219-223 | Different numbers are written differently. |
| Text.NumberedName | src/database_.py:219-223 | `prefix + str(n)`, the shape of the store's generated names. |
| Text.NumberedNameInjective | src/database_.py:219-223 | Different numbers give different generated names. |
| Text.Repr | src/fact.py:12-15 | `repr(s)` for a string: single quotes unless the text holds a single quote and no double quote. |
| Text.PlainEscape | src/fact.py:12-15 | A name of plain characters needs no escaping inside single quotes. |
| Util.ParsePredicates | src/util.py:4-10 | `parse_predicates_from_file`, given the lines the file holds: one predicate per line, in order. |
| Util.ParseIgnoresTail | src/util.py:4-10 | Text after the closing parenthesis, such as the dot and newline that end each line of a problem file, does not change the parse. |
| Util.ParseProblemFile | src/util.py:4-10 | A problem file whose lines read `kind(p1,...,pn).` followed by a newline gives the predicates those lines name, in order. |
| Util.FileLineParses | src/util.py:4-10 | A file line `kind(p1,...,pn).` followed by a newline parses back to its predicate. |
| Util.LineTextShape | src/util.py:4-10 | A hypothesis line is its own cleaned text, and its first `(` comes before its first `)`. |
| Util.DottedLine | src/util.py:4-10 | A dotted line followed by a newline parses like the line itself: the dot stays, since `rstrip(".")` meets the newline first. |
| Util.FirstByKey | src/util.py:13-18 | The reference meaning of `deduplicate`: an element is kept exactly when no earlier element has the same key. Python's `e not in res` compares with `==`; `key` names what that equality looks at (the value itself for names, the rendering for facts). |
| Util.Deduplicate | src/util.py:13-18 | `deduplicate(a_list)`: the loop returns the first element of each key, in order (see `Util.FirstByKey*`). |
| Util.FirstByKeyKeys | src/util.py:13-18 | Deduplicating loses no key and invents none. |
| Util.FirstByKeyDistinct | src/util.py:13-18 | No two kept elements share a key. |
| Util.FirstByKeyDistinctUnchanged | src/util.py:13-18 | A list whose keys are already distinct is left as it is. |
| Util.FirstByKeyIdempotent | src/util.py:13-18 | Deduplicating twice is deduplicating once. |
| Util.FirstByKeyPrefix | src/util.py:13-18 | Order is kept: what survives from a prefix comes first, in the same order. |
| Util.FirstByKeyFromInput | src/util.py:13-18 | Every kept element is an element of the input. |
| Util.FirstByKeyCovers | src/util.py:13-18 | Deduplicating keeps only input elements, and no two of them share a key. |
| Util.FirstByKeyCover | src/util.py:13-18 | Deduplicating keeps, for every element of the input, one element with its key: `y`. |
| Util.DedupValues | src/util.py:13-18 | On plain values (names, line keys) deduplicating keeps one copy of each value, so the result is duplicate-free and holds the same values. |

## Left out

- `PointProver.Fixedpoint`: `matchLine` and `matchCong` (src/database_.py:83-111) write the lines and classes they create into the store for good.  `prove` and the rule bodies call them at src/prover.py:138-141, 172-173, 182-185, 208-211, 226-227, 284, 310-311 and 345.  The model lets one query or rule body see what it creates and then drops it.  So the contract of the run promises only its shape: at most `Cap` predicates popped, an early stop only on an empty queue, no predicate queued twice in a strict run, and the first hypothesis popped first.  It promises nothing about the store the run ends with: the source's store also holds those lines and classes, its later generated names differ and `NameExhausted` can come earlier.  A line stored as a list can also make a later `collHandler` fail inside a run (`AsWritten.NewListLineCrashes`), which the model's run never does.
- `PointQuery.Prove`: for the same reason, the lines and classes a query creates are not kept after it answers; two queries in a row each start from the store as it was.  Its `eqratio` branch compares ratios by their two classes; as written (src/prover.py:214-221) `Ratio` has no `__eq__` and the branch always answers False, which is `PointQuery.ProveEqratioAsWritten` (see "## Findings").
- `PointQuery.ProveAfterEqratio`: holds for the query that compares ratios by their classes; the query as written denies every `eqratio` (`PointQuery.EqratioDenied`).
- `PointQuery.ProveEqratioHeld`: the same; as written the answer is False.
- `GroupSearch.D30`: compares ratios by their classes; as written (src/prover.py:613) every group is skipped and the rule concludes nothing (`GroupSearch.D30AsWritten`).
- `NpProver.Fixedpoint`: as written the run raises wherever a pass renders a triangle fact (`NpProver.FixedpointAsWritten`, which otherwise returns what `Fixedpoint` does).  Also, the ensures that the final store is the hypotheses and popped facts added in turn covers only what the database's `add` records.  The fact-level rule bodies call `matchLine` (modelled by `FcKit.Match`), which in the source also writes the lines it creates into the store; the model drops them, so the source's store after a run can hold more lines than the contract names, and its later generated names differ.
- `SimSearch.D58FailExactly`: over the model's store every line is a set.  In the source a line created by `matchLine` is a list (src/database_.py:93-94), `eqangleHandler` can create such lines (src/database_.py:192-195), and D58's `ptsAB.intersection` (src/prover.py:928-929) then raises AttributeError; D52midp (src/prover.py:853, 858) likewise.  The model's D58 fails only when names run out; the list-line crash is the one of the `src/database_.py:74` finding.
- `Snapshot.Kb`: `perpFacts`, `simtriFacts`, `contriFacts` and `circles`, which the point-level rules read (src/prover.py:228, 234, 243, 250, 258, 350, 374, 469, 657, 695), are kept by neither `src/database.py` nor `src/database_.py`, so in the source every read of them raises AttributeError.  The model keeps them as extra fields of `Kb`, given with the store, so that those rules can be stated at all.
- `ListStore.FreshName`: once `line1`-`line19` (or `cong1`-`cong19`) are taken, `newLineName` and `newCongName` of src/database.py:188-199 return `None`.  `_addLine` then stores under the key `None`; the model has this as `ListStore.AddLineAsWritten`.  `collHandler` (src/database.py:154-155) and `congHandler` (src/database.py:135-136) store under `None` the same way, but the model's handlers fail with `NameExhausted` at that point.
- `GroupStore.EqratioHandlerAsWritten`: compares ratios by their two class names.  `Ratio` (src/primitives.py:46-50) defines no `__eq__`, so the shipped handler compares a freshly built ratio by identity, finds no group and always appends a new one.
- `GroupStore.EqratioOneGroupCrashes`: the index error it exhibits needs a ratio found in exactly one group.  That only happens under the value comparison the handler evidently intends; under the shipped identity comparison the branch is never reached.
- `Facts.ObjStr`: renders a ratio as `Ratio(c1,c2)` and a triangle by its sorted vertices.  In the source, `Ratio` and `Triangle` define no `__repr__`, so `str()` prints the object's address.  `Fact.__eq__` and `__hash__` (src/fact.py:17-23) compare those strings, so the source's facts over ratios or triangles are equal only when they hold the very same objects.  The model's facts over equal ratios or triangles are equal.
- `Primitives.TriEq`: equality of the vertex multisets, as tests/test_primitives.py:4-12 expects.  src/primitives.py:53-58 defines no `__eq__`, so in the source two separately built triangles are never equal.  `Snapshot.HasTri` uses `TriEq` the same way.  Every rule that compares triangles is modelled both ways: as written (`SimSearch.D58AsWritten`, `NpRules.D58AsWritten`, `GroupSearch.D34AsWritten`, `GroupSearch.D38AsWritten`) and with vertex equality (`SimSearch.D58`, `NpRules.D58`, `GroupSearch.D34`, `GroupSearch.D38`).
- `GroupSearch.D34`: compares triangles by their vertices; as written (src/prover.py:658) `tEFG not in triangles` tests identity and the rule concludes nothing (`GroupSearch.D34AsWritten`).
- `GroupSearch.D38`: the same at src/prover.py:696 (`GroupSearch.D38AsWritten`).
- `PointProver.Admit`: `Predicate` (src/predicate.py) defines no `__eq__`, so the source's `p not in self.newFactsList` compares identities.  The `strict` flag chooses between that test (`false`, as written) and value equality (`true`, as intended); see "## Findings".
- `SimSearch.D58`: compares the two triangles by their vertices.  The source's `!=` on two fresh `Triangle` objects is always true; that is `SimSearch.D58AsWritten`.
- `NpRules.D58`: the same vertex comparison, where src/newprover.py:428 compares identities (`NpRules.D58AsWritten`).
- `FcSearch.D75CongAsWritten`: models the identity comparison of `Ratio` at src/rules.py:750 and 753 as "never equal".  `FcSearch.D75Cong`, which the rest of the model uses, compares ratios by their classes.
- `NrProver.Fixedpoint`: whether a `newrules` rule body raises depends on whether its loop over `midpFacts` reaches the call the store lacks (src/newrules.py:220-242, 287-303, 365-382, 440-458).  The model leaves that to the parameter `reach`, and every `NrProver` ensures holds for every `reach`.  It is not derived from the store.
- `Groups.AddBoth`: the order in which new members follow the old ones is fixed (first `a`, then `b`); Python's set order is hash-dependent, and no property of the model depends on it.
- `Text.Repr`: pinned down only for names of printable ASCII without quotes or backslashes (`Text.PlainName`), which covers the point names of the problems and the generated key names.  Python's escaping of control characters and of characters at or above 0x80 is not modelled.
- `Inference.InferenceUpdate`: the `while facts_to_add` loop of src/inference.py:60-100 has no bound; the model runs it for at most `fuel` turns and reports the fuel left over, so a result with no fuel left may stop short of the source's.  The iteration caps of the provers (10 in src/prover.py and src/newrules.py, 20000 in src/newprover.py) are the source's own.
- `NpProver.RulesOf`: renders facts with the corrected `Facts.Render`.  As written, `list(set(facts))` (src/newprover.py:138) renders every conclusion through `Fact.__repr__`, which raises TypeError on the two triangles of a `simtri` or `contri` fact; X1, D58 and D61simtri conclude such facts.  That is `NpProver.RulesOfAsWritten`, which agrees with `RulesOf` wherever it returns (see "## Findings").
- `NpProver.Admitted`: the same; `for fact in set(newFacts)` (src/newprover.py:77) renders again, but only conclusions `_rules` has already rendered, so as written it adds no failure of its own.
- `NpProver.Pop`: the corrected pass; as written `print(d)` (src/newprover.py:67) also renders the popped fact and raises on a triangle fact, which is `NpProver.PopAsWritten` (`NpProver.TriangleBreaksPop`).
- `NpProver.Run`: the same, for the loop as a whole (`NpProver.RunAsWritten`).
- Printing: the text printed in every loop, and the timing in src/inference.py, have no effect on the results, with one exception.  Printing a fact renders it, and rendering a triangle fact raises; src/newprover.py:67 is modelled for that in `NpProver.PopAsWritten`.  The prints of facts in src/inference.py:46, 68 and 74 are not modelled: the inference loop as written fails earlier, at its first deduction (`Inference.AsWrittenFails`).  Reading problem files from disk is left out; `Util` parses the text of a problem file given as a string.
- `GroupStore.Add`: the point-level prover adds its facts through this corrected `add`, which rewrites the names a merge absorbs (see "## Findings"); where a `coll`, `midp` or `cong` merges two lines or classes that a group names, its groups differ from the source's, which `GroupStore.AddAsWritten` keeps.
- Iteration over Python sets: the model iterates in the stored order.  The source's order is hash-dependent, so the model describes one of the runs the source can make.
- The functions of `src/newdatabase.py`: not part of this model, see above; the properties of the fact-level rules hold for every `Snapshot.Api`.

## Findings

| source | as written | input that shows it | evidently intended | confidence | as-written member | corrected member |
|---|---|---|---|---|---|---|
| src/prover.py:536-538 | D22 appends `eqangle(P,Q,U,V,E,F,G,H)`, its second premise's angle again, instead of the first premise's | any store with a third angle E-F/G-H recorded equal to P-Q/U-V | `eqangle(A,B,C,D,E,F,G,H)`, as the rule's docstring states | high; not executed | PointSearch.D22AsWritten | PointSearch.D22 |
| src/prover.py:564-566 | `segment in [cAB, cCD]` compares a segment with two class names, which is never true, so nothing is skipped | any `cong(A,B,C,D)`: C-D's class holds C-D, so the premise itself is concluded again | skip A-B and C-D themselves | high; not executed | GroupSearch.D25AsWritten (GroupSearch.D25AsWrittenRestates) | GroupSearch.D25 (GroupSearch.D25NeverRestates) |
| src/prover.py:781 | D44 rebinds the premise's `B` inside its loop over midpoint facts, so later facts are checked against another segment (also src/rules.py:314, src/newprover.py:350, src/newrules.py:236) | `midp(E,A,B)` with `midp(F,B,C)` and `midp(G,A,D)` recorded and no lines known: the conclusion for G is lost | check each recorded midpoint against the premise's own ends | high; not executed | MidSearch.D44AsWritten (MidSearch.D44RebindingLosesConclusion) | MidSearch.D44 |
| src/rules.py:314 | the same rebinding in the fact-level D44 | the same three midpoints, no collinear triple known | as above | high; not executed | FcSearch.D44AsWritten (FcSearch.D44RebindingLosesConclusion) | FcSearch.D44 (NpRules.D44AsOlder) |
| src/prover.py:816-819 | the D47 guard never compares the seventh point with the first | `eqangle(O,A,A,B,A,B,X,B)` with X not O and O, A, B not collinear gives `cong(O,A,O,B)` | require the apex at both of its positions | high; not executed | PointGuards.D47AsWritten (PointGuards.D47AsWrittenLeaks) | PointGuards.D47 |
| src/newrules.py:276-280 | the same missing comparison of the two centres `O1` and `O2`; in this revision the class defines no `prove`, so the body raises AttributeError at the guard before the comparison matters (`NrProver.RaiserRaises`) | the same angle pattern with a second centre O' other than O | require `O1 == O2`, as the older D47 does | high; not executed | NrRules.D47AsWritten (NrRules.D47SecondCentre) | NrRules.D47 (NrRules.D47AsOlder) |
| src/prover.py:947-951 | `Triangle(A, B, C) != Triangle(P, Q, R)`: `Triangle` defines no `__eq__`, so two fresh objects always differ | a candidate whose two triangles coincide and whose angles are known equal: `simtri(A,B,C,A,B,C)` is concluded | never call a triangle similar to itself | high; not executed | SimSearch.D58AsWritten (SimSearch.AsWrittenSelfSimilar) | SimSearch.D58 (SimSearch.StrictNotSelfSimilar) |
| src/newprover.py:428 | the same identity comparison of two fresh triangles | an eqangle of a triangle with itself | as above | high; not executed | NpRules.D58AsWritten (NpRules.D58SelfSimilar) | NpRules.D58 |
| src/newrules.py:481 | D72's guard asks `perp(A1,B1,A2,B2)`; once the pattern matched, A2-B2 is A-B, so it asks whether A-B is perpendicular to itself (also src/prover.py:1137 and 1149, D71 and D72 of the point-level prover, modelled as written by `PointGuards.D71` and `PointGuards.D72`); in src/newrules.py the class defines no `prove`, so the body raises AttributeError at the guard first (`NrProver.RaiserRaises`) | `eqangle(A,B,C,D,C,D,A,B)` with `perp(A,B,C,D)` provable: `para(A,B,C,D)` is still concluded | ask `perp(A,B,C,D)` | medium; not executed | NrRules.D72AsWritten (NrRules.D72IgnoresPerp) | NrRules.D72 |
| src/rules.py:750 | `Ratio(cPQ, cUV) not in ratios`: `Ratio` defines no `__eq__`, so a fresh ratio is in no group and D75 (cong form) concludes nothing (also src/newprover.py:653) | a recorded group holding the premise's ratio and one more ratio | compare ratios by their two classes | high; not executed | FcSearch.D75CongAsWritten (FcSearch.D75CongIdentityLosesConclusions) | FcSearch.D75Cong |
| src/newrules.py:520 | the same identity comparison in this revision's D75 | as above | as above | high; not executed | NrRules.D75CongAsWritten (NrRules.D75CongIdentity) | NrRules.D75Cong |
| src/database_.py:74 | `collHandler` calls `.union` on a line, but `matchLine` stores a new line as a list (src/database_.py:94) | `para(P,Q,R,S)` creates line P-Q as a list; `coll(P,Q,X)` then raises AttributeError (the same list lines break `.intersection` in D58 and D52midp, src/prover.py:928-929, 853, 858) | store every line as a set | high; not executed | AsWritten.CollHandlerAsWritten (AsWritten.ListLineCrashes) | GroupStore.CollHandler (GroupStore.CollCovers) |
| src/database_.py:106-107 | `matchCong` compares `str(segment)` with the joined sorted names, and names of more than one character collide | segment `AB`-`C` prints like `A`-`BC`, so a query for A-BC finds AB-C's class | compare segments | medium; not executed | AsWritten.MatchCongAsWritten (AsWritten.PrintedMatchWrong) | GroupStore.MatchCong |
| src/database_.py:54 | `congHandler` calls `.union` on a class, but `matchCong` stores a new class as a list (src/database_.py:110) | `eqratio(P,Q,...)` creates P-Q's class as a list; `cong(P,Q,...)` then raises AttributeError | store every class as a set | high; not executed | AsWritten.AddCongPairAsWritten (AsWritten.ListClassCrashes) | GroupStore.AddCongPair (GroupStore.CongCovers) |
| src/prover.py:127 | `p not in self.newFactsList`: `Predicate` defines no `__eq__`, so the test compares identities and never holds for a fresh conclusion | a conclusion equal to one already queued and not yet provable is queued twice | skip predicates equal to a queued one | medium; not executed | PointProver.Admit with `strict` false (PointProver.IdentityTestRequeues) | PointProver.Admit with `strict` true (PointProver.FreshNoDup) |
| src/inference.py:79 | `FC(database=db)` with the import of `FC` commented out (src/inference.py:3): NameError | the first fact popped whose database has a form for it | import `FC` from src/rules.py | high; not executed | Inference.DeriveAsWritten (Inference.AsWrittenFails) | Inference.Derive (Inference.StepMoves) |
| src/fact.py:13-14 | `sorted(self.objects)` for `simtri`, `contri` and the other sorted kinds compares objects that define no order: TypeError | `Fact("simtri", [Triangle(A,B,C), Triangle(P,Q,R)])` | order the objects by a key, as names are | high; not executed | Facts.RenderAsWritten (Facts.SimtriRenderFails) | Facts.Render (Facts.RenderDeterminesKind) |
| src/rules.py:64 | `set(facts)` hashes every conclusion through its rendering, so one similarity of triangles makes `deduct` raise | any premise whose rules conclude a D58 similarity | keep the conclusions, rendered by a key | high; not executed | FcDeduct.DeductAsWritten (FcDeduct.SimilarityBreaksSet) | FcDeduct.Deduct (FcDeduct.DeductSettled) |
| src/newprover.py:138 | `list(set(facts))` in `_rules`, `for fact in set(newFacts)` and `print(d)` (also src/newprover.py:77 and 67) render facts through `Fact.__repr__`, which raises TypeError on a `simtri` or `contri` of two triangles | a popped fact with a form whose rules conclude such a fact (D58 `simtri`, X1 or D61simtri `contri`) | render the conclusions by a key, as `Facts.Render` does | high; not executed | NpProver.PopAsWritten, NpProver.FixedpointAsWritten (NpProver.TriangleBreaksPop) | NpProver.Pop, NpProver.Fixedpoint (NpProver.RulesOfCovers) |
| src/database.py:188-192 | `newLineName` returns `None` once `line1`-`line19` are taken, and `_addLine` stores under it | nineteen lines, then two new lines in a row: the second overwrites the first | fail, as `newLineName` of src/database_.py does | medium; not executed | ListStore.AddLineAsWritten (ListStore.NoneKeyOverwrites) | ListStore.AddLine (ListStore.AddLines) |
| src/database_.py:170-171 | `eqratioHandler` grows `self.eqratioFacts[idx]` after its loop has left `idx` at the number of groups: IndexError | a ratio already in exactly one group, under value comparison of ratios | grow the one group that holds it | medium; not executed | Groups.MergePairAsWritten (Groups.OneHitCrashes), GroupStore.EqratioHandlerAsWritten (GroupStore.EqratioOneGroupCrashes) | Groups.MergePair, GroupStore.EqratioHandler |
| src/prover.py:15-23 | the prover imports `Database` from src/database.py, the list store, which has no `matchLine`, `lines`, `matchCong`, `congs`, `eqratioFacts`, `perpFacts`, `simtriFacts`, `contriFacts` or `circles` | the problem `coll(A,B,C)`: D03 reads `matchLine` and raises AttributeError | import the group store of src/database_.py, whose names the rules read | high; not executed | ListProver.Fixedpoint (ListProver.FirstFires, ListProver.CollProblemFails) | PointProver.Fixedpoint |
| src/prover.py:214-221 | `prove(eqratio)` tests `Ratio(c1, c2) in ratios`; `Ratio` defines no `__eq__`, so a fresh ratio is in no group and the answer is always False | `eqratio(A,B,C,D,P,Q,U,V)` just recorded by `eqratioHandler`, then queried | compare ratios by their two classes | high; not executed | PointQuery.ProveEqratioAsWritten (PointQuery.EqratioDenied) | PointQuery.Prove (PointQuery.ProveAfterEqratio) |
| src/prover.py:613 | D30's `Ratio(cPQ, cUV) not in ratios` compares by identity, so every group is skipped | a group holding PQ/UV and a third ratio: D30 concludes nothing | compare ratios by their two classes | high; not executed | GroupSearch.D30AsWritten (GroupSearch.D30LosesChain) | GroupSearch.D30 |
| src/prover.py:658 | D34's `tEFG not in triangles` compares a fresh `Triangle` by identity, so every group is skipped | a similar-triangle group holding E-F-G and a third triangle: D34 concludes nothing | compare triangles by their vertices | high; not executed | GroupSearch.D34AsWritten (GroupSearch.D34LosesChain) | GroupSearch.D34 |
| src/prover.py:696 | the same identity test in D38 | a congruent-triangle group holding E-F-G and a third triangle: D38 concludes nothing | as above | high; not executed | GroupSearch.D38AsWritten (GroupSearch.D38LosesChain) | GroupSearch.D38 |
| src/database_.py:293-353 | `_lineMerge` and `_congMerge` delete the lines and classes they absorb but leave their names in `paraFacts`, `eqangleFacts` and `eqratioFacts` | lines {A,B}, {C,D}, {E,F} with one parallel group naming the second and third: `prove(para(C,D,E,F))` holds, and after `coll(A,B,C,D)` it answers False | rewrite every absorbed name to the name of the line or class that absorbed it, as src/database.py:229-237 does | high; not executed | GroupStore.AddAsWritten (PointQuery.CollLosesPara) | GroupStore.Add (GroupStore.AddKeepsNamesValid, PointQuery.CollRenamedKeepsPara) |

=== FILE: aswritten.dfy ===
/** The group store of `src/database_.py` exactly as written, where it differs
    from the intended behaviour `GroupStore` models:
    - `matchLine` and `matchCong` store a Python list, not a set, for a line or
      class they create, and `collHandler` / `congHandler` later call
      `.union` on it, which a list does not have (until a merge pass rebuilds
      every entry as a set);
    - `matchCong` finds a class by comparing printed segments, so names longer
      than one character can make two different segments look alike.
    A list and a set with the same elements answer `in` alike, and a merge
    pass unions either, so the only observable difference is the failing
    `.union`: the model keeps the entries as `GroupStore` does and records
    which keys are still held as lists. */
module AsWritten {
  import opened Common
  import opened Primitives
  import opened GroupStore

  /** Lines, with the names of those still held as Python lists. */
  datatype LinesAsWritten = LinesAsWritten(lines: Lines, lists: set<LineKey>)

  /** `matchLine` as written: a line it creates is a list. */
  function MatchLineAsWritten(st: LinesAsWritten, p: Point, q: Point): (r: Result<Named<LinesAsWritten>>)
    ensures r.Fail? <==> MatchLine(st.lines, p, q).Fail?
    ensures r.Ok? ==> r.value.dict.lines == MatchLine(st.lines, p, q).value.dict
    ensures r.Ok? ==> r.value.name == MatchLine(st.lines, p, q).value.name
    ensures r.Ok? ==> r.value.dict.lists == st.lists + (if r.value.name in Keys(st.lines) then {} else {r.value.name})
  {
    var m :- MatchLine(st.lines, p, q);
    Ok(Named(LinesAsWritten(m.dict, if m.name in Keys(st.lines) then st.lists else st.lists + {m.name}), m.name))
  }

  /** The first line sharing at least two of the points, or `|lines|`. */
  function SharingTwo(lines: Lines, points: seq<Point>): (i: nat)
    ensures i <= |lines|
    ensures i < |lines| ==> CountIn(points, lines[i].members) >= 2
    ensures forall j | 0 <= j < i :: CountIn(points, lines[j].members) < 2
  {
    FirstIndex(lines, (e: Entry<LineKey, Point>) => CountIn(points, e.members) >= 2)
  }

  /** `collHandler` as written: growing a line still held as a list fails;
      otherwise it behaves as intended, and a merge pass leaves every line a
      set. */
  function CollHandlerAsWritten(st: LinesAsWritten, points: seq<Point>): (r: Result<LinesAsWritten>)
    ensures r.Ok? ==> CollHandler(st.lines, points) == Ok(r.value.lines)
    ensures r.Fail? && CollHandler(st.lines, points).Ok? ==> r.error == TypeMismatch
    ensures r.Fail? && r.error == TypeMismatch <==>
      SharingTwo(st.lines, points) < |st.lines| && st.lines[SharingTwo(st.lines, points)].key in st.lists
  {
    var i := SharingTwo(st.lines, points);
    if i < |st.lines| && st.lines[i].key in st.lists then Fail(TypeMismatch)
    else
      var lines :- CollHandler(st.lines, points);
      Ok(LinesAsWritten(lines, if i < |st.lines| then {} else st.lists))
  }

  /** A line made by `matchLine` (for instance by `para(P, Q, ...)`) and then
      extended by `coll(P, Q, X)` makes the handler fail. */
  lemma ListLineCrashes(lines: Lines, p: Point, q: Point, x: Point)
    requires forall i | 0 <= i < |lines| :: CountIn([p, q, x], lines[i].members) < 2
    requires NewName("line", Keys(lines)).Ok?
    ensures MatchLineAsWritten(LinesAsWritten(lines, {}), p, q).Ok?
    ensures CollHandlerAsWritten(MatchLineAsWritten(LinesAsWritten(lines, {}), p, q).value.dict, [p, q, x])
      == Fail(TypeMismatch)
  {
    NewPairLine(lines, p, q, x);
    NewListLineCrashes(LinesAsWritten(lines, {}), p, q, [p, q, x]);
  }

  /** A line `matchLine` had to create, and that is the first to share two
      of the points, is still a list when `coll` grows it. */
  lemma NewListLineCrashes(st: LinesAsWritten, p: Point, q: Point, points: seq<Point>)
    requires MatchLine(st.lines, p, q).Ok?
    requires MatchLine(st.lines, p, q).value.name !in Keys(st.lines)
    requires |MatchLine(st.lines, p, q).value.dict| == |st.lines| + 1
    requires SharingTwo(MatchLine(st.lines, p, q).value.dict, points) == |st.lines|
    ensures MatchLineAsWritten(st, p, q).Ok?
    ensures CollHandlerAsWritten(MatchLineAsWritten(st, p, q).value.dict, points) == Fail(TypeMismatch)
  {
    var m := MatchLine(st.lines, p, q).value;
    var after := MatchLineAsWritten(st, p, q).value.dict;
    assert after.lines == m.dict && m.name in after.lists;
    assert m.dict == st.lines + [Entry(m.name, SetOf([p, q]))];
    assert m.dict[|st.lines|].key == m.name;
    ListLineFails(after, points);
  }

  /** Growing a line still held as a list fails. */
  lemma ListLineFails(st: LinesAsWritten, points: seq<Point>)
    requires SharingTwo(st.lines, points) < |st.lines|
    requires st.lines[SharingTwo(st.lines, points)].key in st.lists
    ensures CollHandlerAsWritten(st, points) == Fail(TypeMismatch)
  {
  }

  /** In the same situation the intended handler succeeds and, by
      `GroupStore.CollCovers`, puts X on a line with P and Q. */
  lemma PairLineGrows(lines: Lines, p: Point, q: Point, x: Point)
    requires forall i | 0 <= i < |lines| :: CountIn([p, q, x], lines[i].members) < 2
    requires NewName("line", Keys(lines)).Ok?
    ensures MatchLine(lines, p, q).Ok?
    ensures CollHandler(MatchLine(lines, p, q).value.dict, [p, q, x]).Ok?
  {
    NewPairLine(lines, p, q, x);
  }

  /** With no line sharing two of the points, `matchLine` appends a line
      through `p` and `q`, and it is the first to share two of them. */
  lemma NewPairLine(lines: Lines, p: Point, q: Point, x: Point)
    requires forall i | 0 <= i < |lines| :: CountIn([p, q, x], lines[i].members) < 2
    requires NewName("line", Keys(lines)).Ok?
    ensures MatchLine(lines, p, q).Ok?
    ensures MatchLine(lines, p, q).value.name !in Keys(lines)
    ensures |MatchLine(lines, p, q).value.dict| == |lines| + 1
    ensures SharingTwo(MatchLine(lines, p, q).value.dict, [p, q, x]) == |lines|
  {
    NoLineThrough(lines, p, q, x);
    var m := MatchLine(lines, p, q).value;
    var e := Entry(m.name, SetOf([p, q]));
    assert m.dict == lines + [e];
    assert p in Elems([p, q]) && q in Elems([p, q]);
    CountTwo(p, q, x, e.members);
    FirstSharingIsNew(lines, e, [p, q, x]);
  }

  lemma FirstSharingIsNew(lines: Lines, e: Entry<LineKey, Point>, points: seq<Point>)
    requires forall i | 0 <= i < |lines| :: CountIn(points, lines[i].members) < 2
    requires CountIn(points, e.members) >= 2
    ensures SharingTwo(lines + [e], points) == |lines|
  {
    var d := lines + [e];
    assert d[|lines|] == e;
    assert forall j | 0 <= j < |lines| :: d[j] == lines[j];
  }

  lemma NoLineThrough(lines: Lines, p: Point, q: Point, x: Point)
    requires forall i | 0 <= i < |lines| :: CountIn([p, q, x], lines[i].members) < 2
    ensures LineWith(lines, p, q) == |lines|
  {
    var i := LineWith(lines, p, q);
    if i < |lines| {
      CountTwo(p, q, x, lines[i].members);
    }
  }

  lemma CountTwo(p: Point, q: Point, x: Point, members: seq<Point>)
    requires p in members && q in members
    ensures CountIn([p, q, x], members) >= 2
  {
    assert [p, q, x][1..] == [q, x];
    assert [q, x][1..] == [x];
  }

  /** Congruence classes, with the names of those still held as Python lists. */
  datatype CongsAsWritten = CongsAsWritten(congs: Congs, lists: set<CongKey>)

  /** `str(segment) == "".join(sorted(points))` for some member. */
  predicate PrintsAs(members: seq<Segment>, p: Point, q: Point) {
    SegRepr(Segment(p, q)) in Map(members, SegRepr)
  }

  /** The first class with a member printed like segment `pq`, or `|congs|`. */
  function PrintedWith(congs: Congs, p: Point, q: Point): (i: nat)
    ensures i <= |congs|
    ensures i < |congs| ==> PrintsAs(congs[i].members, p, q)
    ensures forall j | 0 <= j < i :: !PrintsAs(congs[j].members, p, q)
  {
    FirstIndex(congs, (e: Entry<CongKey, Segment>) => PrintsAs(e.members, p, q))
  }

  /** `matchCong` as written: classes are searched by printed text, and a class
      it creates is the list `[Segment(p, q)]`. */
  function MatchCongAsWritten(st: CongsAsWritten, p: Point, q: Point): (r: Result<Named<CongsAsWritten>>)
    ensures r.Ok? && r.value.dict != st ==> r.value.name !in Keys(st.congs)
    ensures r.Ok? && r.value.dict != st ==>
      r.value.dict == CongsAsWritten(st.congs + [Entry(r.value.name, [Segment(p, q)])], st.lists + {r.value.name})
    ensures r.Ok? && r.value.dict == st ==> exists i | 0 <= i < |st.congs| ::
      st.congs[i].key == r.value.name && PrintsAs(st.congs[i].members, p, q)
    ensures r.Fail? ==> r.error == NameExhausted && NewName("cong", Keys(st.congs)).Fail?
  {
    var i := PrintedWith(st.congs, p, q);
    if i < |st.congs| then Ok(Named(st, st.congs[i].key))
    else
      var name :- NewName("cong", Keys(st.congs));
      var cs := Put(st.congs, name, [Segment(p, q)]);
      assert cs == st.congs + [Entry(name, [Segment(p, q)])];
      Ok(Named(CongsAsWritten(cs, st.lists + {name}), name))
  }

  /** With two-character names the printed search picks a class that does not
      hold the segment: `AB`-`C` prints like `A`-`BC`. */
  lemma PrintedMatchWrong()
    ensures var st := CongsAsWritten([Entry("cong1", [Segment("A", "BC")])], {});
      MatchCongAsWritten(st, "AB", "C") == Ok(Named(st, "cong1"))
      && !ClassHas(st.congs, "cong1", Segment("AB", "C"))
  {
    var st := CongsAsWritten([Entry("cong1", [Segment("A", "BC")])], {});
    SegReprCollision();
    assert Map(st.congs[0].members, SegRepr) == [SegRepr(Segment("A", "BC"))];
    assert PrintedWith(st.congs, "AB", "C") == 0;
    SegEqIffCanon(Segment("A", "BC"), Segment("AB", "C"));
    assert Map(st.congs[0].members, Canon) == [Canon(Segment("A", "BC"))];
  }

  /** The class-growing step of `congHandler` as written: growing a class
      still held as a list fails; otherwise it behaves as intended, and the
      merge pass leaves every class a set. */
  function AddCongPairAsWritten(st: CongsAsWritten, s1: Segment, s2: Segment): (r: Result<CongsAsWritten>)
    ensures r.Ok? ==> AddCongPair(st.congs, s1, s2) == Ok(r.value.congs)
    ensures r.Fail? && AddCongPair(st.congs, s1, s2).Ok? ==> r.error == TypeMismatch
    ensures r.Fail? && r.error == TypeMismatch <==>
      CongWithEither(st.congs, s1, s2) < |st.congs| && st.congs[CongWithEither(st.congs, s1, s2)].key in st.lists
  {
    var i := CongWithEither(st.congs, s1, s2);
    if i < |st.congs| && st.congs[i].key in st.lists then Fail(TypeMismatch)
    else
      var congs :- AddCongPair(st.congs, s1, s2);
      Ok(CongsAsWritten(congs, if i < |st.congs| then {} else st.lists))
  }

  /** A class made by `matchCong` (for instance by `eqratio(P, Q, ...)`) and
      then given `cong(P, Q, ...)` makes the handler fail. */
  lemma ListClassCrashes(congs: Congs, p: Point, q: Point, s2: Segment)
    requires forall i | 0 <= i < |congs| ::
      !PrintsAs(congs[i].members, p, q) && !HasSeg(congs[i].members, s2)
    requires NewName("cong", Keys(congs)).Ok?
    ensures MatchCongAsWritten(CongsAsWritten(congs, {}), p, q).Ok?
    ensures AddCongPairAsWritten(MatchCongAsWritten(CongsAsWritten(congs, {}), p, q).value.dict, Segment(p, q), s2)
      == Fail(TypeMismatch)
  {
    NewPairClass(congs, p, q, s2);
  }

  lemma NewPairClass(congs: Congs, p: Point, q: Point, s2: Segment)
    requires forall i | 0 <= i < |congs| ::
      !PrintsAs(congs[i].members, p, q) && !HasSeg(congs[i].members, s2)
    requires NewName("cong", Keys(congs)).Ok?
    ensures MatchCongAsWritten(CongsAsWritten(congs, {}), p, q).Ok?
    ensures var m := MatchCongAsWritten(CongsAsWritten(congs, {}), p, q).value;
      |m.dict.congs| == |congs| + 1 && m.dict.congs[|congs|].key == m.name && m.name in m.dict.lists
      && CongWithEither(m.dict.congs, Segment(p, q), s2) == |congs|
  {
    NoClassPrinted(congs, p, q);
    var st := CongsAsWritten(congs, {});
    var m := MatchCongAsWritten(st, p, q).value;
    assert m.dict != st;
    var cs := m.dict.congs;
    assert cs == congs + [Entry(m.name, [Segment(p, q)])];
    NewClassFirst(congs, cs, Segment(p, q), s2, m.name);
  }

  lemma NewClassFirst(congs: Congs, cs: Congs, s1: Segment, s2: Segment, name: CongKey)
    requires forall i | 0 <= i < |congs| :: !HasSeg(congs[i].members, s1) && !HasSeg(congs[i].members, s2)
    requires cs == congs + [Entry(name, [s1])]
    ensures CongWithEither(cs, s1, s2) == |congs|
  {
    assert Map(cs[|congs|].members, Canon) == [Canon(s1)];
  }

  lemma NoClassPrinted(congs: Congs, p: Point, q: Point)
    requires forall i | 0 <= i < |congs| :: !PrintsAs(congs[i].members, p, q)
    ensures PrintedWith(congs, p, q) == |congs|
    ensures forall i | 0 <= i < |congs| :: !HasSeg(congs[i].members, Segment(p, q))
  {
    forall i | 0 <= i < |congs| ensures !HasSeg(congs[i].members, Segment(p, q)) {
      if HasSeg(congs[i].members, Segment(p, q)) {
        PrintedIfHeld(congs[i].members, Segment(p, q));
      }
    }
  }

  /** A class holding a segment equal to `s` has a member printed like `s`. */
  lemma PrintedIfHeld(members: seq<Segment>, s: Segment)
    requires HasSeg(members, s)
    ensures PrintsAs(members, s.p1, s.p2)
  {
    var i :| 0 <= i < |members| && Map(members, Canon)[i] == Canon(s);
    SegEqIffCanon(members[i], s);
    SegEqSameRepr(members[i], s);
    assert Map(members, SegRepr)[i] == SegRepr(s);
  }
}

=== FILE: common.dfy ===
/** Failure types and the two collection shapes the prover relies on.

    A Python `set` is modelled as a duplicate-free sequence: the order of the
    sequence is the iteration order, which Python leaves unspecified (string
    hashing is randomised), so every order is a possible run.  A Python `dict`
    is modelled as a list of entries in insertion order, because several
    lookups in the source return the FIRST matching entry. */
module Common {

  /** The exceptions the source can raise on the paths this model covers. */
  datatype Error =
    | NameExhausted             // newLineName / newCongName found no free name (ValueError)
    | MalformedArity            // a point list unpacked into the wrong number of names (ValueError)
    | InvalidKind(kind: string) // prove() was asked about an unknown kind (ValueError)
    | IndexOutOfRange           // a list index past the end (IndexError)
    | KeyMissing                // a dict read of a key it does not hold (KeyError)
    | TypeMismatch              // an operation the value's type lacks (TypeError / AttributeError)
    | AssertionFailed           // an `assert` statement of the source failed
    | UndefinedName             // a name the module never binds (NameError)

  datatype Result<+T> = Ok(value: T) | Fail(error: Error) {
    predicate IsFailure() { Fail? }
    function PropagateFailure<U>(): Result<U> requires Fail? { Fail(error) }
    function Extract(): T requires Ok? { value }
  }

  datatype Option<+T> = None | Some(value: T)

  /** The elements of a sequence, as a mathematical set. */
  function Elems<T>(s: seq<T>): set<T> {
    set x | x in s
  }

  predicate NoDup<T(==)>(s: seq<T>) {
    forall i, j | 0 <= i < j < |s| :: s[i] != s[j]
  }

  /** `s.add(x)` on a set whose iteration order is `s`. */
  function Insert<T(==)>(s: seq<T>, x: T): (r: seq<T>)
    ensures Elems(r) == Elems(s) + {x}
    ensures NoDup(s) ==> NoDup(r)
    ensures |s| <= |r| && r[..|s|] == s
  {
    if x in s then s else s + [x]
  }

  /** `a.union(b)`: the elements of `a`, then the new elements of `b`. */
  function Union<T(==)>(a: seq<T>, b: seq<T>): (r: seq<T>)
    ensures Elems(r) == Elems(a) + Elems(b)
    ensures NoDup(a) ==> NoDup(r)
    ensures |a| <= |r| && r[..|a|] == a
    decreases |b|
  {
    if b == [] then a else Union(Insert(a, b[0]), b[1..])
  }

  /** `sum(p in ys for p in xs)`: how many positions of `xs` hold a member of `ys`. */
  function CountIn<T(==)>(xs: seq<T>, ys: seq<T>): (n: nat)
    ensures n <= |xs|
    ensures n == 0 <==> forall i | 0 <= i < |xs| :: xs[i] !in ys
  {
    if xs == [] then 0 else (if xs[0] in ys then 1 else 0) + CountIn(xs[1..], ys)
  }

  lemma {:induction false} CountInIsIntersection<T>(xs: seq<T>, ys: seq<T>)
    requires NoDup(xs)
    ensures CountIn(xs, ys) == |Elems(xs) * Elems(ys)|
  {
    if xs != [] {
      var t := xs[1..];
      NoDupTail(xs);
      CountInIsIntersection(t, ys);
      ElemsCons(xs, t);
      InterCons(xs[0], Elems(t), Elems(ys));
    }
  }

  lemma NoDupTail<T>(xs: seq<T>)
    requires xs != [] && NoDup(xs)
    ensures NoDup(xs[1..]) && xs[0] !in xs[1..]
  {
    var t := xs[1..];
    forall i, j | 0 <= i < j < |t| ensures t[i] != t[j] {
      assert t[i] == xs[i + 1] && t[j] == xs[j + 1];
    }
    forall k | 0 <= k < |t| ensures t[k] != xs[0] {
      assert t[k] == xs[k + 1];
    }
  }

  lemma ElemsCons<T>(xs: seq<T>, t: seq<T>)
    requires xs != [] && t == xs[1..]
    ensures Elems(xs) == {xs[0]} + Elems(t)
  {
    assert xs == [xs[0]] + t;
  }

  lemma InterCons<T>(x: T, e: set<T>, y: set<T>)
    requires x !in e
    ensures |({x} + e) * y| == (if x in y then 1 else 0) + |e * y|
  {
    if x in y {
      assert ({x} + e) * y == {x} + e * y;
    } else {
      assert ({x} + e) * y == e * y;
    }
  }

  /** The index of the first element satisfying `p`, or `|s|` when none does. */
  function FirstIndex<T>(s: seq<T>, p: T -> bool): (i: nat)
    ensures i <= |s|
    ensures i < |s| ==> p(s[i])
    ensures forall j | 0 <= j < i :: !p(s[j])
  {
    if s == [] then 0 else if p(s[0]) then 0 else 1 + FirstIndex(s[1..], p)
  }

  function Filter<T>(s: seq<T>, p: T -> bool): (r: seq<T>)
    ensures |r| <= |s|
    ensures forall i | 0 <= i < |r| :: r[i] in s && p(r[i])
    ensures forall x | x in r :: x in s && p(x)
    ensures forall i | 0 <= i < |s| :: p(s[i]) ==> s[i] in r
    ensures multiset(r) <= multiset(s)
  {
    if s == [] then []
    else
      assert s == [s[0]] + s[1..];
      (if p(s[0]) then [s[0]] else []) + Filter(s[1..], p)
  }

  function Map<T, U>(s: seq<T>, f: T -> U): (r: seq<U>)
    ensures |r| == |s|
    ensures forall i | 0 <= i < |s| :: r[i] == f(s[i])
  {
    if s == [] then [] else [f(s[0])] + Map(s[1..], f)
  }

  function Concat<T>(ss: seq<seq<T>>): (r: seq<T>)
    ensures forall i | 0 <= i < |ss| :: forall x | x in ss[i] :: x in r
    ensures forall k | 0 <= k < |r| :: exists i | 0 <= i < |ss| :: r[k] in ss[i]
  {
    if ss == [] then [] else ss[0] + Concat(ss[1..])
  }

  /** One entry of a Python dict: a key and the collection stored under it. */
  datatype Entry<K, T> = Entry(key: K, members: seq<T>)

  function Keys<K, T>(es: seq<Entry<K, T>>): (r: seq<K>)
    ensures |r| == |es|
    ensures forall i | 0 <= i < |es| :: r[i] == es[i].key
  {
    if es == [] then [] else [es[0].key] + Keys(es[1..])
  }

  /** `d[k] = m`: overwrite in place when `k` is present, append otherwise. */
  function Put<K(==), T>(es: seq<Entry<K, T>>, k: K, m: seq<T>): (r: seq<Entry<K, T>>)
    ensures k in Keys(es) ==> |r| == |es| && Keys(r) == Keys(es)
    ensures k !in Keys(es) ==> r == es + [Entry(k, m)]
    ensures forall i | 0 <= i < |es| :: es[i].key != k ==> r[i] == es[i]
    ensures Lookup(r, k) == Some(m)
  {
    if es == [] then [Entry(k, m)]
    else if es[0].key == k then [Entry(k, m)] + es[1..]
    else [es[0]] + Put(es[1..], k, m)
  }

  /** `d[k]` for the first entry with key `k`. */
  function Lookup<K(==), T>(es: seq<Entry<K, T>>, k: K): (r: Option<seq<T>>)
    ensures r.Some? <==> k in Keys(es)
    ensures r.Some? ==> exists i | 0 <= i < |es| :: es[i].key == k && es[i].members == r.value
  {
    if es == [] then None
    else if es[0].key == k then Some(es[0].members)
    else Lookup(es[1..], k)
  }

  lemma MapConcat<T, U>(a: seq<T>, b: seq<T>, f: T -> U)
    ensures Map(a + b, f) == Map(a, f) + Map(b, f)
  {
    assert forall i | 0 <= i < |a + b| :: Map(a + b, f)[i] == (Map(a, f) + Map(b, f))[i];
  }

  /** Removing position `i` from a sequence removes one copy from its multiset. */
  lemma RemoveAt<T>(b: seq<T>, i: nat)
    requires i < |b|
    ensures multiset(b[..i] + b[i + 1..]) == multiset(b) - multiset{b[i]}
  {
    assert b == b[..i] + [b[i]] + b[i + 1..];
  }

  lemma MapMultisetSplit<T, U>(l: seq<T>, x: T, r: seq<T>, f: T -> U)
    ensures multiset(Map(l + [x] + r, f)) == multiset{f(x)} + multiset(Map(l + r, f))
  {
    MapConcat(l + [x], r, f);
    MapConcat(l, [x], f);
    MapConcat(l, r, f);
  }

  lemma MapPermutationStep<T, U>(a: seq<T>, b: seq<T>, f: T -> U, l: seq<T>, r: seq<T>)
    requires a != [] && b == l + [a[0]] + r
    requires multiset(Map(a[1..], f)) == multiset(Map(l + r, f))
    ensures multiset(Map(a, f)) == multiset(Map(b, f))
  {
    MapMultisetSplit(l, a[0], r, f);
    MapMultisetSplit([], a[0], a[1..], f);
    assert [] + [a[0]] + a[1..] == a;
    assert [] + a[1..] == a[1..];
  }

  /** Mapping a permutation gives a permutation. */
  lemma {:induction false} MapPermutation<T, U>(a: seq<T>, b: seq<T>, f: T -> U)
    requires multiset(a) == multiset(b)
    ensures multiset(Map(a, f)) == multiset(Map(b, f))
  {
    if a != [] {
      assert a[0] in multiset(b);
      var i :| 0 <= i < |b| && b[i] == a[0];
      var l, r := b[..i], b[i + 1..];
      assert b == l + [a[0]] + r;
      assert multiset(a[1..]) == multiset(l + r) by {
        RemoveAt(b, i);
        RemoveAt(a, 0);
        assert a[..0] + a[1..] == a[1..];
      }
      MapPermutation(a[1..], l + r, f);
      MapPermutationStep(a, b, f, l, r);
    }
  }
}

=== FILE: congsearch.dfy ===
/** The two rule bodies of `src/prover.py` that search the congruence
    classes for a second premise: D56 (two points equidistant from A and B
    lie on a perpendicular of A-B) and D75 in its `cong` form (a known
    congruence and a recorded pair of equal ratios equate two more
    classes). */
module CongSearch {
  import opened Common
  import opened Primitives
  import opened Predicates
  import opened Snapshot
  import opened RuleKit
  import GroupStore
  import PointQuery

  /** `s` has `a` as one end and `x` as the other. */
  predicate Joins(s: Segment, a: Point, x: Point) {
    (s.p1 == a && s.p2 == x) || (s.p2 == a && s.p1 == x)
  }

  /** A class holds a segment equal to A-X exactly when one of its
      segments joins A to X. */
  lemma HasSegJoins(members: seq<Segment>, a: Point, x: Point)
    ensures GroupStore.HasSeg(members, Segment(a, x)) <==> exists k | 0 <= k < |members| :: Joins(members[k], a, x)
  {
    var cs := Map(members, Canon);
    forall k | 0 <= k < |members| ensures cs[k] == Canon(Segment(a, x)) <==> Joins(members[k], a, x) {
      SegEqIffCanon(members[k], Segment(a, x));
      SegEqIffSameEnds(members[k], Segment(a, x));
    }
    if GroupStore.HasSeg(members, Segment(a, x)) {
      var k :| 0 <= k < |cs| && cs[k] == Canon(Segment(a, x));
    }
    if exists k | 0 <= k < |members| :: Joins(members[k], a, x) {
      var k :| 0 <= k < |members| && Joins(members[k], a, x);
      assert cs[k] in cs;
    }
  }

  /** Some segment of the class joins A to X. */
  predicate Reaches(members: seq<Segment>, a: Point, x: Point) {
    exists k | 0 <= k < |members| :: Joins(members[k], a, x)
  }

  /** The ends other than A of one segment that has A as an end. */
  function FarEnd(s: Segment, a: Point): (r: seq<Point>)
    ensures forall x :: x in r <==> x != a && Joins(s, a, x)
  {
    if s.p1 == a && s.p2 == a then []
    else if s.p1 == a then [s.p2]
    else if s.p2 == a then [s.p1]
    else []
  }

  /** The far ends from A of the class's segments that have A as an end. */
  function Far(members: seq<Segment>, a: Point): (r: seq<Point>)
    ensures forall x :: x in r <==> x != a && Reaches(members, a, x)
  {
    var r := Each(members, (s: Segment) => FarEnd(s, a));
    forall x ensures x in r <==> x != a && Reaches(members, a, x) {
      if x != a && Reaches(members, a, x) {
        var k :| 0 <= k < |members| && Joins(members[k], a, x);
        assert x in FarEnd(members[k], a);
      }
    }
    r
  }

  /** One class against the premise cong(A,P,B,P): perp(A,B,P,Q) for every
      far end Q, other than P, that the class reaches from both A and B. */
  function D56Class(members: seq<Segment>, a: Point, b: Point, p: Point): (r: seq<Pred>)
    ensures forall q :: q in r <==>
      (q.kind == "perp" && |q.points| == 4 && q.points[0] == a && q.points[1] == b && q.points[2] == p &&
       q.points[3] != p && q.points[3] in Far(members, a) && q.points[3] in Far(members, b))
  {
    var qa, qb := Far(members, a), Far(members, b);
    var f := (x: Point) => if x in qb && x != p then [Pred("perp", [a, b, p, x])] else [];
    var r := Each(qa, f);
    forall q: Pred | q.kind == "perp" && |q.points| == 4 && q.points[0] == a && q.points[1] == b && q.points[2] == p &&
        q.points[3] != p && q.points[3] in qa && q.points[3] in qb ensures q in r {
      var i :| 0 <= i < |qa| && qa[i] == q.points[3];
      assert q.points == [a, b, p, qa[i]];
      assert q in f(qa[i]);
    }
    r
  }

  /** A class links A and B to X when it holds segments equal to A-X and B-X. */
  predicate Links(members: seq<Segment>, a: Point, b: Point, x: Point) {
    GroupStore.HasSeg(members, Segment(a, x)) && GroupStore.HasSeg(members, Segment(b, x))
  }

  /** The far ends a class reaches from both A and B are the points it links them to. */
  lemma FarBoth(members: seq<Segment>, a: Point, b: Point, x: Point)
    ensures (x in Far(members, a) && x in Far(members, b)) <==> x != a && x != b && Links(members, a, b, x)
  {
    HasSegJoins(members, a, x);
    HasSegJoins(members, b, x);
  }

  /** D56Class over every class, in order. */
  function D56Classes(congs: GroupStore.Congs, a: Point, b: Point, p: Point): (r: seq<Pred>)
    ensures forall q :: q in r <==>
      (q.kind == "perp" && |q.points| == 4 && q.points[0] == a && q.points[1] == b && q.points[2] == p &&
       q.points[3] != p && q.points[3] != a && q.points[3] != b &&
       exists i | 0 <= i < |congs| :: Links(congs[i].members, a, b, q.points[3]))
  {
    var f := (e: Entry<CongKey, Segment>) => D56Class(e.members, a, b, p);
    var r := Each(congs, f);
    forall q ensures q in r <==>
      (q.kind == "perp" && |q.points| == 4 && q.points[0] == a && q.points[1] == b && q.points[2] == p &&
       q.points[3] != p && q.points[3] != a && q.points[3] != b &&
       exists i | 0 <= i < |congs| :: Links(congs[i].members, a, b, q.points[3])) {
      if q in r {
        var i :| 0 <= i < |congs| && q in f(congs[i]);
        FarBoth(congs[i].members, a, b, q.points[3]);
      }
      if q.kind == "perp" && |q.points| == 4 && q.points[0] == a && q.points[1] == b && q.points[2] == p &&
         q.points[3] != p && q.points[3] != a && q.points[3] != b &&
         exists i | 0 <= i < |congs| :: Links(congs[i].members, a, b, q.points[3]) {
        var i :| 0 <= i < |congs| && Links(congs[i].members, a, b, q.points[3]);
        FarBoth(congs[i].members, a, b, q.points[3]);
        assert q in f(congs[i]);
      }
    }
    r
  }

  /** D56: cong(A,P,B,P) & cong(A,Q,B,Q) => perp(A,B,P,Q), for every point
      Q other than P, A and B with A-Q and B-Q in one class. */
  function D56(kb: Kb, p: Pred): (r: Result<seq<Pred>>)
    ensures r.Fail? <==> |p.points| != 4
    ensures r.Fail? ==> r.error == MalformedArity
    ensures r.Ok? ==> var ps := p.points;
      forall q :: q in r.value <==>
        (ps[0] != ps[2] && ps[1] == ps[3] &&
         q.kind == "perp" && |q.points| == 4 && q.points[0] == ps[0] && q.points[1] == ps[2] && q.points[2] == ps[1] &&
         q.points[3] != ps[1] && q.points[3] != ps[0] && q.points[3] != ps[2] &&
         PointQuery.ProveCong(kb.store, [ps[0], q.points[3], ps[2], q.points[3]]))
  {
    if |p.points| != 4 then Fail(MalformedArity)
    else
      var ps := p.points;
      if ps[0] == ps[2] || ps[1] != ps[3] then Ok([])
      else
        var r := D56Classes(kb.store.congs, ps[0], ps[2], ps[1]);
        assert forall x :: PointQuery.ProveCong(kb.store, [ps[0], x, ps[2], x]) <==>
          exists i | 0 <= i < |kb.store.congs| :: Links(kb.store.congs[i].members, ps[0], ps[2], x) by {
          forall x ensures PointQuery.ProveCong(kb.store, [ps[0], x, ps[2], x]) <==>
            exists i | 0 <= i < |kb.store.congs| :: Links(kb.store.congs[i].members, ps[0], ps[2], x) {
            var c := [ps[0], x, ps[2], x];
            assert c[0] == ps[0] && c[1] == x && c[2] == ps[2] && c[3] == x;
          }
        }
        Ok(r)
  }

  /** D56 works both ways round: when P itself is recorded equidistant from
      A and B, a conclusion perp(A,B,P,Q) from cong(A,P,B,P) is matched by
      perp(A,B,Q,P) from cong(A,Q,B,Q). */
  lemma D56BothWays(kb: Kb, a: Point, b: Point, pt: Point, x: Point)
    requires pt != a && pt != b && PointQuery.ProveCong(kb.store, [a, pt, b, pt])
    requires Pred("perp", [a, b, pt, x]) in D56(kb, Pred("cong", [a, pt, b, pt])).value
    ensures D56(kb, Pred("cong", [a, x, b, x])).Ok?
    ensures Pred("perp", [a, b, x, pt]) in D56(kb, Pred("cong", [a, x, b, x])).value
  {
    var p1, q1 := Pred("cong", [a, pt, b, pt]), Pred("perp", [a, b, pt, x]);
    assert p1.points[0] == a && p1.points[1] == pt && p1.points[2] == b && p1.points[3] == pt;
    assert q1.points[2] == pt && q1.points[3] == x;
    var p2, q2 := Pred("cong", [a, x, b, x]), Pred("perp", [a, b, x, pt]);
    assert p2.points[0] == a && p2.points[1] == x && p2.points[2] == b && p2.points[3] == x;
    assert q2.points[0] == a && q2.points[1] == b && q2.points[2] == x && q2.points[3] == pt;
  }

  /** `congs[name]`: the segments of the first class under `name`. */
  function ClassMembers(congs: GroupStore.Congs, name: CongKey): seq<Segment> {
    match Lookup(congs, name)
    case Some(m) => m
    case None => []
  }

  /** The pairs of classes that equal ratios A1/A2 = B1/B2 equate once the
      hub classes are known congruent, in the order the rule tests them:
      equal numerators give equal denominators, equal denominators equal
      numerators, and a ratio of two hub classes makes the other ratio one. */
  function Equated(hub: seq<CongKey>, ra: Ratio, rb: Ratio): seq<(CongKey, CongKey)> {
    (if ra.c1 in hub && rb.c1 in hub then [(ra.c2, rb.c2)] else []) +
    (if ra.c2 in hub && rb.c2 in hub then [(ra.c1, rb.c1)] else []) +
    (if ra.c1 in hub && ra.c2 in hub then [(rb.c1, rb.c2)] else []) +
    (if rb.c1 in hub && rb.c2 in hub then [(ra.c1, ra.c2)] else [])
  }

  /** Under the lengths `len`, the ratios `ra` and `rb` are equal. */
  predicate Proportional(len: CongKey -> real, ra: Ratio, rb: Ratio) {
    len(ra.c1) * len(rb.c2) == len(ra.c2) * len(rb.c1)
  }

  /** The equations are sound: under any positive lengths for the classes
      that give the hub classes one length and make the two ratios equal,
      every pair of classes equated has equal lengths. */
  lemma EquatedSound(hub: seq<CongKey>, ra: Ratio, rb: Ratio, len: CongKey -> real, x: CongKey, y: CongKey)
    requires forall k :: len(k) > 0.0
    requires forall h, h' | h in hub && h' in hub :: len(h) == len(h')
    requires Proportional(len, ra, rb)
    requires (x, y) in Equated(hub, ra, rb)
    ensures len(x) == len(y)
  {
    var a1, a2, b1, b2 := len(ra.c1), len(ra.c2), len(rb.c1), len(rb.c2);
    assert a1 > 0.0 && a2 > 0.0 && b1 > 0.0 && b2 > 0.0;
    if ra.c1 in hub && rb.c1 in hub && (x, y) == (ra.c2, rb.c2) {
      assert a1 == b1;
      assert a1 * (b2 - a2) == 0.0;
    } else if ra.c2 in hub && rb.c2 in hub && (x, y) == (ra.c1, rb.c1) {
      assert a2 == b2;
      assert a2 * (a1 - b1) == 0.0;
    } else if ra.c1 in hub && ra.c2 in hub && (x, y) == (rb.c1, rb.c2) {
      assert a1 == a2;
      assert a1 * (b2 - b1) == 0.0;
    } else {
      assert rb.c1 in hub && rb.c2 in hub && (x, y) == (ra.c1, ra.c2);
      assert b1 == b2;
      assert b1 * (a1 - a2) == 0.0;
    }
  }

  /** cong(A,B,C,D) for every segment A-B of the first list and C-D of the second. */
  function SegCross(s1: seq<Segment>, s2: seq<Segment>): (r: seq<Pred>)
    ensures forall q :: q in r <==>
      (q.kind == "cong" && |q.points| == 4 && Segment(q.points[0], q.points[1]) in s1 && Segment(q.points[2], q.points[3]) in s2)
  {
    var row := (a: Segment) => Each(s2, (b: Segment) => [Pred("cong", [a.p1, a.p2, b.p1, b.p2])]);
    var r := Each(s1, row);
    forall q: Pred | q.kind == "cong" && |q.points| == 4 && Segment(q.points[0], q.points[1]) in s1 &&
        Segment(q.points[2], q.points[3]) in s2 ensures q in r {
      var i :| 0 <= i < |s1| && s1[i] == Segment(q.points[0], q.points[1]);
      var j :| 0 <= j < |s2| && s2[j] == Segment(q.points[2], q.points[3]);
      assert q.points == [s1[i].p1, s1[i].p2, s2[j].p1, s2[j].p2];
      assert q in [Pred("cong", [s1[i].p1, s1[i].p2, s2[j].p1, s2[j].p2])];
      assert q in row(s1[i]);
    }
    r
  }

  /** Every segment of one class paired with every segment of the other. */
  function JoinStep(congs: GroupStore.Congs, e: (CongKey, CongKey)): (r: Result<seq<Pred>>)
    ensures r.Ok? <==> e.0 in Keys(congs) && e.1 in Keys(congs)
    ensures r.Fail? ==> r.error == KeyMissing
    ensures r.Ok? ==> r.value == SegCross(ClassMembers(congs, e.0), ClassMembers(congs, e.1))
  {
    var s1 :- Read(congs, e.0);
    var s2 :- Read(congs, e.1);
    Ok(SegCross(s1, s2))
  }

  /** `q` joins a segment of one class to a segment of another that the
      ratios `ra` and `rb` equate. */
  predicate Equates(congs: GroupStore.Congs, hub: seq<CongKey>, ra: Ratio, rb: Ratio, q: Pred) {
    var es := Equated(hub, ra, rb);
    q.kind == "cong" && |q.points| == 4 &&
    exists k | 0 <= k < |es| ::
      Segment(q.points[0], q.points[1]) in ClassMembers(congs, es[k].0) &&
      Segment(q.points[2], q.points[3]) in ClassMembers(congs, es[k].1)
  }

  /** One pair of equal ratios of a recorded group. */
  function PairStep(congs: GroupStore.Congs, hub: seq<CongKey>, ra: Ratio, rb: Ratio): (r: Result<seq<Pred>>)
    ensures r.Fail? ==> r.error == KeyMissing
    ensures r.Ok? <==> forall k | 0 <= k < |Equated(hub, ra, rb)| ::
      Equated(hub, ra, rb)[k].0 in Keys(congs) && Equated(hub, ra, rb)[k].1 in Keys(congs)
    ensures r.Ok? ==> forall q :: q in r.value <==> Equates(congs, hub, ra, rb, q)
  {
    Gather(Equated(hub, ra, rb), (e: (CongKey, CongKey)) => JoinStep(congs, e))
  }

  /** Each pair of equal ratios of `prs` in turn. */
  function PairSteps(congs: GroupStore.Congs, hub: seq<CongKey>, prs: seq<(Ratio, Ratio)>): (r: Result<seq<Pred>>)
    ensures r.Fail? ==> r.error == KeyMissing
    ensures r.Ok? ==> forall q :: q in r.value <==> exists pr | pr in prs :: Equates(congs, hub, pr.0, pr.1, q)
    decreases |prs|
  {
    if prs == [] then Ok([])
    else
      assert forall pr :: pr in prs <==> pr == prs[0] || pr in prs[1..] by {
        assert prs == [prs[0]] + prs[1..];
      }
      var here :- PairStep(congs, hub, prs[0].0, prs[0].1);
      var rest :- PairSteps(congs, hub, prs[1..]);
      Ok(here + rest)
  }

  /** The classes of the premise's two segments, matched in order. */
  function Hub(kb: Kb, ps: seq<Point>): (r: Result<(GroupStore.Congs, seq<CongKey>)>)
    requires |ps| == 4
    ensures r.Fail? ==> r.error == NameExhausted
    ensures r.Ok? ==> (|r.value.1| == 2 && kb.store.congs <= r.value.0 &&
      GroupStore.ClassHas(r.value.0, r.value.1[0], Segment(ps[0], ps[1])) &&
      GroupStore.ClassHas(r.value.0, r.value.1[1], Segment(ps[2], ps[3])))
  {
    var m1 :- GroupStore.MatchCong(kb.store.congs, ps[0], ps[1]);
    var m2 :- GroupStore.MatchCong(m1.dict, ps[2], ps[3]);
    assert GroupStore.ClassHas(m2.dict, m1.name, Segment(ps[0], ps[1])) by {
      var i :| 0 <= i < |m1.dict| && m1.dict[i].key == m1.name && GroupStore.HasSeg(m1.dict[i].members, Segment(ps[0], ps[1]));
      assert m2.dict[i] == m1.dict[i];
    }
    Ok((m2.dict, [m1.name, m2.name]))
  }

  /** D75 (cong form): cong(P,Q,U,V) & eqratio(A,B,C,D,P,Q,U,V) => cong(A,B,C,D):
      with the classes of P-Q and U-V as the hub, every pair of equal
      ratios of every recorded group equates the classes it equates, and
      each pairing of their segments is concluded congruent. */
  function D75Cong(kb: Kb, p: Pred): (r: Result<seq<Pred>>)
    ensures |p.points| != 4 ==> r == Fail(MalformedArity)
    ensures r.Fail? ==> r.error in {MalformedArity, NameExhausted, KeyMissing}
    ensures |p.points| == 4 && Hub(kb, p.points).Fail? ==> r == Fail(NameExhausted)
    ensures |p.points| == 4 && Hub(kb, p.points).Ok? && r.Ok? ==>
      var h := Hub(kb, p.points).value;
      forall q :: q in r.value <==> exists i | 0 <= i < |kb.store.eqratioFacts| ::
        exists pr | pr in Pairs(kb.store.eqratioFacts[i]) :: Equates(h.0, h.1, pr.0, pr.1, q)
  {
    if |p.points| != 4 then Fail(MalformedArity)
    else
      var h :- Hub(kb, p.points);
      Gather(kb.store.eqratioFacts, (g: seq<Ratio>) => PairSteps(h.0, h.1, Pairs(g)))
  }

  /** Lengths that agree with the store: every segment of a class has the
      class's length. */
  predicate Measured(congs: GroupStore.Congs, len: CongKey -> real, seglen: Segment -> real) {
    forall i, s | 0 <= i < |congs| && s in congs[i].members :: seglen(s) == len(congs[i].key)
  }

  /** A segment read from a class has that class's length. */
  lemma MeasuredMember(congs: GroupStore.Congs, len: CongKey -> real, seglen: Segment -> real, name: CongKey, s: Segment)
    requires Measured(congs, len, seglen) && s in ClassMembers(congs, name)
    ensures seglen(s) == len(name)
  {
    var i :| 0 <= i < |congs| && congs[i].key == name && congs[i].members == ClassMembers(congs, name);
  }

  /** A conclusion drawn from one pair of equal ratios is sound under any
      lengths that agree with the store, give the hub classes one length
      and make the two ratios equal. */
  lemma EquatesSound(congs: GroupStore.Congs, hub: seq<CongKey>, ra: Ratio, rb: Ratio, q: Pred,
                     len: CongKey -> real, seglen: Segment -> real)
    requires Equates(congs, hub, ra, rb, q)
    requires forall k :: len(k) > 0.0
    requires forall h, h' | h in hub && h' in hub :: len(h) == len(h')
    requires Proportional(len, ra, rb)
    requires Measured(congs, len, seglen)
    ensures seglen(Segment(q.points[0], q.points[1])) == seglen(Segment(q.points[2], q.points[3]))
  {
    var es := Equated(hub, ra, rb);
    var k :| 0 <= k < |es| && Segment(q.points[0], q.points[1]) in ClassMembers(congs, es[k].0) &&
      Segment(q.points[2], q.points[3]) in ClassMembers(congs, es[k].1);
    assert es[k] in es;
    EquatedSound(hub, ra, rb, len, es[k].0, es[k].1);
    MeasuredMember(congs, len, seglen, es[k].0, Segment(q.points[0], q.points[1]));
    MeasuredMember(congs, len, seglen, es[k].1, Segment(q.points[2], q.points[3]));
  }

  /** Both ratios of a pair come from the group. */
  lemma PairMembers(g: seq<Ratio>, pr: (Ratio, Ratio))
    requires pr in Pairs(g)
    ensures pr.0 in g && pr.1 in g
  {
    var k :| 0 <= k < |Pairs(g)| && Pairs(g)[k] == pr;
  }

  /** The recorded pair of equal ratios a D75 conclusion comes from. */
  lemma D75CongFrom(kb: Kb, p: Pred, q: Pred) returns (ra: Ratio, rb: Ratio)
    requires |p.points| == 4 && Hub(kb, p.points).Ok?
    requires D75Cong(kb, p).Ok? && q in D75Cong(kb, p).value
    ensures exists i | 0 <= i < |kb.store.eqratioFacts| :: ra in kb.store.eqratioFacts[i] && rb in kb.store.eqratioFacts[i]
    ensures Equates(Hub(kb, p.points).value.0, Hub(kb, p.points).value.1, ra, rb, q)
  {
    var h := Hub(kb, p.points).value;
    var i :| 0 <= i < |kb.store.eqratioFacts| && exists pr | pr in Pairs(kb.store.eqratioFacts[i]) :: Equates(h.0, h.1, pr.0, pr.1, q);
    var pr :| pr in Pairs(kb.store.eqratioFacts[i]) && Equates(h.0, h.1, pr.0, pr.1, q);
    PairMembers(kb.store.eqratioFacts[i], pr);
    ra, rb := pr.0, pr.1;
  }

  /** A conclusion drawn from two ratios of one recorded group is sound
      when every group's ratios are equal and the two hub classes agree. */
  lemma GroupPairSound(congs: GroupStore.Congs, hub: seq<CongKey>, groups: seq<seq<Ratio>>, i: nat, ra: Ratio, rb: Ratio, q: Pred,
                       len: CongKey -> real, seglen: Segment -> real)
    requires i < |groups| && ra in groups[i] && rb in groups[i] && Equates(congs, hub, ra, rb, q)
    requires forall k :: len(k) > 0.0
    requires |hub| == 2 && len(hub[0]) == len(hub[1])
    requires forall j, x, y | 0 <= j < |groups| && x in groups[j] && y in groups[j] :: Proportional(len, x, y)
    requires Measured(congs, len, seglen)
    ensures seglen(Segment(q.points[0], q.points[1])) == seglen(Segment(q.points[2], q.points[3]))
  {
    GroupProportional(groups, i, ra, rb, len);
    HubOneLength(hub, len);
    EquatesSound(congs, hub, ra, rb, q, len, seglen);
  }

  /** Two ratios of one group are equal when every group's ratios are. */
  lemma GroupProportional(groups: seq<seq<Ratio>>, i: nat, ra: Ratio, rb: Ratio, len: CongKey -> real)
    requires i < |groups| && ra in groups[i] && rb in groups[i]
    requires forall j, x, y | 0 <= j < |groups| && x in groups[j] && y in groups[j] :: Proportional(len, x, y)
    ensures Proportional(len, ra, rb)
  {
  }

  /** Two classes of one length give every pair of hub classes one length. */
  lemma HubOneLength(hub: seq<CongKey>, len: CongKey -> real)
    requires |hub| == 2 && len(hub[0]) == len(hub[1])
    ensures forall h, h' | h in hub && h' in hub :: len(h) == len(h')
  {
    assert hub == [hub[0], hub[1]];
  }

  /** D75 (cong form) is sound: under positive lengths that agree with the
      store after the premise's classes are matched, give those two classes
      one length (the premise) and make every recorded group's ratios equal,
      every conclusion relates two segments of equal length. */
  lemma D75CongSound(kb: Kb, p: Pred, q: Pred, len: CongKey -> real, seglen: Segment -> real)
    requires |p.points| == 4 && Hub(kb, p.points).Ok?
    requires D75Cong(kb, p).Ok? && q in D75Cong(kb, p).value
    requires forall k :: len(k) > 0.0
    requires len(Hub(kb, p.points).value.1[0]) == len(Hub(kb, p.points).value.1[1])
    requires forall i, ra, rb | 0 <= i < |kb.store.eqratioFacts| && ra in kb.store.eqratioFacts[i] && rb in kb.store.eqratioFacts[i] ::
      Proportional(len, ra, rb)
    requires Measured(Hub(kb, p.points).value.0, len, seglen)
    ensures q.kind == "cong" && |q.points| == 4
    ensures seglen(Segment(q.points[0], q.points[1])) == seglen(Segment(q.points[2], q.points[3]))
  {
    var h := Hub(kb, p.points).value;
    var ra, rb := D75CongFrom(kb, p, q);
    var i :| 0 <= i < |kb.store.eqratioFacts| && ra in kb.store.eqratioFacts[i] && rb in kb.store.eqratioFacts[i];
    GroupPairSound(h.0, h.1, kb.store.eqratioFacts, i, ra, rb, q, len, seglen);
  }
}

=== FILE: facts.dfy ===
/** Facts: a kind and a list of objects.  Two facts are equal exactly when
    their rendered text is equal, and they hash by that text, so the rendered
    text is the canonical key of a fact.  Five kinds sort their objects before
    rendering, which makes those kinds insensitive to object order. */
module Facts {
  import opened Common
  import opened Order
  import opened Text
  import opened Primitives

  /** The eleven fact kinds, declared in priority order. */
  datatype Kind = Coll | Cong | Midp | Para | Perp | Eqangle | Eqratio | Simtri | Contri | Cyclic | Circle

  function KindName(k: Kind): string {
    match k
    case Coll => "coll"
    case Cong => "cong"
    case Midp => "midp"
    case Para => "para"
    case Perp => "perp"
    case Eqangle => "eqangle"
    case Eqratio => "eqratio"
    case Simtri => "simtri"
    case Contri => "contri"
    case Cyclic => "cyclic"
    case Circle => "circle"
  }

  /** The kind a name denotes, if any. */
  function KindOf(name: string): (r: Option<Kind>)
    ensures r.Some? ==> KindName(r.value) == name
  {
    if name == "coll" then Some(Coll)
    else if name == "cong" then Some(Cong)
    else if name == "midp" then Some(Midp)
    else if name == "para" then Some(Para)
    else if name == "perp" then Some(Perp)
    else if name == "eqangle" then Some(Eqangle)
    else if name == "eqratio" then Some(Eqratio)
    else if name == "simtri" then Some(Simtri)
    else if name == "contri" then Some(Contri)
    else if name == "cyclic" then Some(Cyclic)
    else if name == "circle" then Some(Circle)
    else None
  }

  lemma KindNameRoundTrip(k: Kind)
    ensures KindOf(KindName(k)) == Some(k)
    ensures ' ' !in KindName(k) && |KindName(k)| > 0
  {
  }

  lemma KindNameInjective(a: Kind, b: Kind)
    requires KindName(a) == KindName(b)
    ensures a == b
  {
    KindNameRoundTrip(a);
    KindNameRoundTrip(b);
  }

  /** The position of a kind in the priority list
      coll, cong, midp, para, perp, eqangle, eqratio, simtri, contri, cyclic, circle. */
  function Priority(k: Kind): (n: nat)
    ensures n < 11
  {
    match k
    case Coll => 0
    case Cong => 1
    case Midp => 2
    case Para => 3
    case Perp => 4
    case Eqangle => 5
    case Eqratio => 6
    case Simtri => 7
    case Contri => 8
    case Cyclic => 9
    case Circle => 10
  }

  lemma PriorityInjective(a: Kind, b: Kind)
    requires Priority(a) == Priority(b)
    ensures a == b
  {
  }

  /** The kinds whose objects are sorted before rendering. */
  predicate SortedKind(k: Kind) {
    k == Cyclic || k == Simtri || k == Contri || k == Perp || k == Para
  }

  /** What a fact can be about: a point or key name, a segment, a triangle or
      a ratio. */
  datatype Obj = Name(name: string) | Seg(seg: Segment) | Tri(tri: Triangle) | Rat(ratio: Ratio)

  datatype Fact = Fact(kind: Kind, objects: seq<Obj>)

  /** `str(o)`. */
  function ObjStr(o: Obj): string {
    match o
    case Name(s) => s
    case Seg(s) => SegRepr(s)
    case Tri(t) => TriRepr(t)
    case Rat(r) => "Ratio(" + r.c1 + "," + r.c2 + ")"
  }

  /** The key objects are ordered by: first the sort of object, then its text. */
  datatype SortKey = SortKey(tag: nat, text: string)

  function ObjKey(o: Obj): SortKey {
    match o
    case Name(s) => SortKey(0, s)
    case Seg(_) => SortKey(1, ObjStr(o))
    case Tri(_) => SortKey(2, ObjStr(o))
    case Rat(_) => SortKey(3, ObjStr(o))
  }

  predicate KeyLt(a: SortKey, b: SortKey) {
    a.tag < b.tag || (a.tag == b.tag && StrLt(a.text, b.text))
  }

  lemma KeyLtStrictTotal()
    ensures StrictTotal(KeyLt)
  {
    StrLtStrictTotal();
  }

  /** `repr(o)` inside a list: names are quoted, the other objects print their text. */
  function KeyRepr(k: SortKey): string {
    if k.tag == 0 then Repr(k.text) else k.text
  }

  function ObjRepr(o: Obj): string {
    KeyRepr(ObjKey(o))
  }

  /** The objects' keys in rendering order. */
  function OrderedKeys(f: Fact): (r: seq<SortKey>)
    ensures multiset(r) == multiset(Map(f.objects, ObjKey))
  {
    var ks := Map(f.objects, ObjKey);
    if SortedKind(f.kind) then SortBy(ks, KeyLt) else ks
  }

  /** `repr(list)`. */
  function ListText(items: seq<string>): string {
    "[" + Join(", ", items) + "]"
  }

  /** `str(fact)`: the kind, a space, and the parenthesised object list. */
  function Render(f: Fact): string {
    KindName(f.kind) + " (" + ListText(Map(OrderedKeys(f), KeyRepr)) + ")"
  }

  /** `fact1 == fact2`. */
  predicate FactEq(a: Fact, b: Fact) {
    Render(a) == Render(b)
  }

  /** The text a fact is hashed by: its rendering. */
  function HashText(f: Fact): string {
    Render(f)
  }

  /** Equal facts hash alike, as a dict or set needs. */
  lemma EqualFactsHashAlike(a: Fact, b: Fact)
    requires FactEq(a, b)
    ensures HashText(a) == HashText(b)
  {
  }

  /** The first space of a rendering ends the kind name. */
  lemma RenderFirstSpace(f: Fact)
    ensures Find(Render(f), ' ') == |KindName(f.kind)|
    ensures Render(f)[..|KindName(f.kind)|] == KindName(f.kind)
  {
    KindNameRoundTrip(f.kind);
    var n, r := KindName(f.kind), Render(f);
    assert r[..|n|] == n && r[|n|] == ' ';
    assert r[..|n| + 1] == n + " ";
    FindPrefix(r, n, ' ');
  }

  /** The first occurrence of `c` in `s` follows a `c`-free prefix `p` when `s` continues with `c`. */
  lemma FindPrefix(s: string, p: string, c: char)
    requires |p| < |s| && s[..|p|] == p && s[|p|] == c && c !in p
    ensures Find(s, c) == |p|
  {
    if p != [] {
      assert s[1..][..|p| - 1] == p[1..];
      FindPrefix(s[1..], p[1..], c);
    }
  }

  /** The rendered text determines the kind. */
  lemma RenderDeterminesKind(a: Fact, b: Fact)
    requires FactEq(a, b)
    ensures a.kind == b.kind
  {
    RenderFirstSpace(a);
    RenderFirstSpace(b);
    KindNameInjective(a.kind, b.kind);
  }

  /** For the sorted kinds, reordering the objects gives an equal fact. */
  lemma SortedKindIgnoresOrder(k: Kind, xs: seq<Obj>, ys: seq<Obj>)
    requires SortedKind(k)
    requires multiset(xs) == multiset(ys)
    ensures FactEq(Fact(k, xs), Fact(k, ys))
  {
    MapPermutation(xs, ys, ObjKey);
    KeyLtStrictTotal();
    SortByPermutationInvariant(Map(xs, ObjKey), Map(ys, ObjKey), KeyLt);
  }

  function Names(ps: seq<string>): (r: seq<Obj>)
    ensures |r| == |ps| && forall i | 0 <= i < |ps| :: r[i] == Name(ps[i])
  {
    Map(ps, (p: string) => Name(p))
  }

  predicate PlainNames(ps: seq<string>) {
    forall i | 0 <= i < |ps| :: PlainName(ps[i])
  }

  /** The sort key of a name. */
  function NameKey(p: string): SortKey {
    SortKey(0, p)
  }

  /** Render of a fact over names is exactly Python's: the names, sorted by
      string order for the sorted kinds, each quoted by `repr`. */
  lemma RenderNames(k: Kind, ps: seq<string>)
    ensures Render(Fact(k, Names(ps)))
         == KindName(k) + " (" + ListText(Map(if SortedKind(k) then SortBy(ps, StrLt) else ps, Repr)) + ")"
  {
    var ordered := if SortedKind(k) then SortBy(ps, StrLt) else ps;
    NamesKeys(ps);
    if SortedKind(k) {
      assert forall a: string, b: string :: KeyLt(NameKey(a), NameKey(b)) == StrLt(a, b);
      SortByMap(ps, NameKey, StrLt, KeyLt);
    }
    assert OrderedKeys(Fact(k, Names(ps))) == Map(ordered, NameKey);
    NameKeysRepr(ordered);
  }

  lemma NamesKeys(ps: seq<string>)
    ensures Map(Names(ps), ObjKey) == Map(ps, NameKey)
  {
  }

  lemma NameKeysRepr(ps: seq<string>)
    ensures Map(Map(ps, NameKey), KeyRepr) == Map(ps, Repr)
  {
  }

  lemma QuoteClosesAt(x: string, tx: string)
    ensures ("'" + x + "'" + tx)[|x| + 1] == '\''
  {
  }

  lemma QuoteNotInside(y: string, ty: string, i: nat)
    requires PlainName(y) && i < |y|
    ensures ("'" + y + "'" + ty)[i + 1] != '\''
  {
    assert ("'" + y + "'" + ty)[i + 1] == y[i];
  }

  /** Two quoted plain names that start the same text are the same name, and
      what follows them is the same. */
  lemma QuotedPrefix(x: string, y: string, tx: string, ty: string)
    requires PlainName(x) && PlainName(y)
    requires "'" + x + "'" + tx == "'" + y + "'" + ty
    ensures x == y && tx == ty
  {
    var s := "'" + x + "'" + tx;
    if |x| < |y| {
      QuoteClosesAt(x, tx);
      assert false;
    } else if |y| < |x| {
      QuoteClosesAt(y, ty);
      assert false;
    }
    assert x == s[1..|x| + 1] == y;
    assert tx == s[|x| + 2..] == ty;
  }

  /** The quoted, comma-separated text of a non-empty list of names. */
  lemma QuotedJoinHead(xs: seq<string>)
    requires xs != [] && PlainName(xs[0])
    ensures Join(", ", Map(xs, Repr))
         == "'" + xs[0] + "'" + (if |xs| == 1 then "" else ", " + Join(", ", Map(xs[1..], Repr)))
  {
    var m := Map(xs, Repr);
    var q := "'" + xs[0] + "'";
    assert m[0] == q;
    JoinHead(", ", m);
    assert m[1..] == Map(xs[1..], Repr);
  }

  /** Quoted plain names joined by ", " can be split back unambiguously. */
  lemma {:induction false} QuotedJoinInjective(xs: seq<string>, ys: seq<string>)
    requires PlainNames(xs) && PlainNames(ys)
    requires Join(", ", Map(xs, Repr)) == Join(", ", Map(ys, Repr))
    ensures xs == ys
  {
    if xs != [] && ys != [] {
      QuotedHeads(xs, ys);
      if |xs| > 1 {
        QuotedJoinInjective(xs[1..], ys[1..]);
      }
      assert xs == [xs[0]] + xs[1..] && ys == [ys[0]] + ys[1..];
    } else if xs != [] {
      QuotedJoinHead(xs);
    } else if ys != [] {
      QuotedJoinHead(ys);
    }
  }

  /** Equal joins of quoted plain names start with the same name, and the
      rests join equally. */
  lemma QuotedHeads(xs: seq<string>, ys: seq<string>)
    requires PlainNames(xs) && PlainNames(ys) && xs != [] && ys != []
    requires Join(", ", Map(xs, Repr)) == Join(", ", Map(ys, Repr))
    ensures xs[0] == ys[0] && (|xs| == 1 <==> |ys| == 1)
    ensures |xs| > 1 ==> PlainNames(xs[1..]) && PlainNames(ys[1..])
    ensures |xs| > 1 ==> Join(", ", Map(xs[1..], Repr)) == Join(", ", Map(ys[1..], Repr))
  {
    QuotedJoinHead(xs);
    QuotedJoinHead(ys);
    var tx := if |xs| == 1 then "" else ", " + Join(", ", Map(xs[1..], Repr));
    var ty := if |ys| == 1 then "" else ", " + Join(", ", Map(ys[1..], Repr));
    QuotedPrefix(xs[0], ys[0], tx, ty);
    assert |xs| == 1 <==> |ys| == 1 by {
      assert |xs| == 1 <==> |tx| == 0;
      assert |ys| == 1 <==> |ty| == 0;
    }
    if |xs| > 1 {
      QuotedTails(xs, ys, tx, ty);
    }
  }

  lemma QuotedTails(xs: seq<string>, ys: seq<string>, tx: string, ty: string)
    requires PlainNames(xs) && PlainNames(ys) && |xs| > 1 && |ys| > 1 && tx == ty
    requires tx == ", " + Join(", ", Map(xs[1..], Repr))
    requires ty == ", " + Join(", ", Map(ys[1..], Repr))
    ensures PlainNames(xs[1..]) && PlainNames(ys[1..])
    ensures Join(", ", Map(xs[1..], Repr)) == Join(", ", Map(ys[1..], Repr))
  {
    assert Join(", ", Map(xs[1..], Repr)) == tx[2..];
    assert Join(", ", Map(ys[1..], Repr)) == ty[2..];
    forall i | 0 <= i < |xs[1..]| ensures PlainName(xs[1..][i]) {
      assert xs[1..][i] == xs[i + 1];
    }
    forall i | 0 <= i < |ys[1..]| ensures PlainName(ys[1..][i]) {
      assert ys[1..][i] == ys[i + 1];
    }
  }

  /** Two renderings of one kind agree exactly when their joined item texts agree. */
  lemma RenderedListsEqual(k: Kind, a: seq<string>, b: seq<string>)
    requires KindName(k) + " (" + ListText(a) + ")" == KindName(k) + " (" + ListText(b) + ")"
    ensures Join(", ", a) == Join(", ", b)
  {
    var p := KindName(k) + " (" + "[";
    var ta, tb := Join(", ", a), Join(", ", b);
    assert KindName(k) + " (" + ListText(a) + ")" == p + ta + "])";
    assert KindName(k) + " (" + ListText(b) + ")" == p + tb + "])";
    assert |ta| == |tb|;
    assert ta == (p + ta + "])")[|p|..|p| + |ta|];
    assert tb == (p + tb + "])")[|p|..|p| + |tb|];
  }

  /** Sorting keeps plain names plain. */
  lemma SortKeepsPlain(xs: seq<string>)
    requires PlainNames(xs)
    ensures PlainNames(SortBy(xs, StrLt))
  {
    var o := SortBy(xs, StrLt);
    forall i | 0 <= i < |o| ensures PlainName(o[i]) {
      assert o[i] in multiset(xs);
    }
  }

  /** Equality of facts over plain names: same kind, and the same names in the
      same order -- or, for the sorted kinds, the same names in any order. */
  lemma NamesFactEq(ka: Kind, xs: seq<string>, kb: Kind, ys: seq<string>)
    requires PlainNames(xs) && PlainNames(ys)
    ensures FactEq(Fact(ka, Names(xs)), Fact(kb, Names(ys))) <==>
      ka == kb && (if SortedKind(ka) then multiset(xs) == multiset(ys) else xs == ys)
  {
    var a, b := Fact(ka, Names(xs)), Fact(kb, Names(ys));
    RenderNames(ka, xs);
    RenderNames(kb, ys);
    StrLtStrictTotal();
    if FactEq(a, b) {
      RenderDeterminesKind(a, b);
      var ox := if SortedKind(ka) then SortBy(xs, StrLt) else xs;
      var oy := if SortedKind(ka) then SortBy(ys, StrLt) else ys;
      RenderedListsEqual(ka, Map(ox, Repr), Map(oy, Repr));
      if SortedKind(ka) {
        SortKeepsPlain(xs);
        SortKeepsPlain(ys);
      }
      QuotedJoinInjective(ox, oy);
    }
    if ka == kb && SortedKind(ka) && multiset(xs) == multiset(ys) {
      SortByPermutationInvariant(xs, ys, StrLt);
    }
  }

  /** The fact test, for any names: coll(a, b, c) equals itself rebuilt and
      differs from coll(a, d, e) when b and d differ. */
  lemma CollFactsCompare(a: string, b: string, c: string, d: string, e: string)
    requires PlainName(a) && PlainName(b) && PlainName(c) && PlainName(d) && PlainName(e)
    requires b != d
    ensures FactEq(Fact(Coll, Names([a, b, c])), Fact(Coll, Names([a, b, c])))
    ensures !FactEq(Fact(Coll, Names([a, b, c])), Fact(Coll, Names([a, d, e])))
  {
    assert !SortedKind(Coll);
    assert [a, b, c][1] != [a, d, e][1];
    assert PlainNames([a, b, c]) && PlainNames([a, d, e]);
    NamesFactEq(Coll, [a, b, c], Coll, [a, d, e]);
  }

  /** The text `__lt__` compares within a kind: the objects' `str` joined by commas. */
  function ObjText(objs: seq<Obj>): string {
    Join(",", Map(objs, ObjStr))
  }

  /** `fact1 < fact2`: by kind priority, then by object text. */
  predicate FactLt(a: Fact, b: Fact) {
    if a.kind != b.kind then Priority(a.kind) < Priority(b.kind)
    else StrLt(ObjText(a.objects), ObjText(b.objects))
  }

  /** `__lt__` is a strict order that puts every fact of an earlier kind first. */
  lemma FactLtStrictOrder(a: Fact, b: Fact, c: Fact)
    ensures !FactLt(a, a)
    ensures FactLt(a, b) && FactLt(b, c) ==> FactLt(a, c)
    ensures a.kind != b.kind ==> (FactLt(a, b) <==> Priority(a.kind) < Priority(b.kind))
    ensures ObjText(a.objects) != ObjText(b.objects) || a.kind != b.kind ==> FactLt(a, b) || FactLt(b, a)
  {
    StrLtStrictTotal();
  }

  /** `__lt__` does not respect equality: para(x, y) and para(y, x) are equal
      facts, yet one is strictly less than the other. */
  lemma FactLtIgnoresEquality(x: string, y: string)
    requires PlainName(x) && PlainName(y) && x != y && ',' !in x && ',' !in y
    ensures FactEq(Fact(Para, Names([x, y])), Fact(Para, Names([y, x])))
    ensures FactLt(Fact(Para, Names([x, y])), Fact(Para, Names([y, x])))
         || FactLt(Fact(Para, Names([y, x])), Fact(Para, Names([x, y])))
  {
    assert multiset([x, y]) == multiset([y, x]);
    NamesFactEq(Para, [x, y], Para, [y, x]);
    var a, b := Fact(Para, Names([x, y])), Fact(Para, Names([y, x]));
    ObjTextPair(x, y);
    ObjTextPair(y, x);
    CommaPairsDiffer(x, y);
    FactLtStrictOrder(a, b, a);
  }

  lemma ObjTextPair(x: string, y: string)
    ensures ObjText(Names([x, y])) == x + "," + y
  {
    assert Map(Names([x, y]), ObjStr) == [x, y];
    assert Join(",", [x, y]) == x + "," + Join(",", [y]);
  }

  lemma CommaPairsDiffer(x: string, y: string)
    requires x != y && ',' !in x && ',' !in y
    ensures x + "," + y != y + "," + x
  {
    var l, r := x + "," + y, y + "," + x;
    if |x| < |y| {
      assert l[|x|] == ',' && r[|x|] == y[|x|];
    } else if |y| < |x| {
      assert r[|y|] == ',' && l[|y|] == x[|y|];
    } else {
      assert l[..|x|] == x && r[..|x|] == y;
    }
  }

  predicate PriorityLt(a: Fact, b: Fact) {
    Priority(a.kind) < Priority(b.kind)
  }

  /** `sorted(facts, key=priority)`: a stable sort on kind priority. */
  function SortByPriority(fs: seq<Fact>): (r: seq<Fact>)
    ensures multiset(r) == multiset(fs)
  {
    SortBy(fs, PriorityLt)
  }

  /** The facts of one kind, in their original order. */
  function OfKind(fs: seq<Fact>, k: Kind): seq<Fact> {
    if fs == [] then [] else (if fs[0].kind == k then [fs[0]] else []) + OfKind(fs[1..], k)
  }

  predicate PrioritySorted(fs: seq<Fact>) {
    forall i, j | 0 <= i < j < |fs| :: Priority(fs[i].kind) <= Priority(fs[j].kind)
  }

  lemma {:induction false} InsertByPrioritySorted(x: Fact, s: seq<Fact>)
    requires PrioritySorted(s)
    ensures PrioritySorted(InsertBy(x, s, PriorityLt))
  {
    if s != [] && PriorityLt(s[0], x) {
      InsertByPrioritySorted(x, s[1..]);
      var t := InsertBy(x, s[1..], PriorityLt);
      assert multiset(t) == multiset(s[1..]) + multiset{x};
      forall k | 0 <= k < |t| ensures Priority(s[0].kind) <= Priority(t[k].kind) {
        assert t[k] in multiset(t);
        if t[k] != x {
          assert t[k] in multiset(s[1..]);
          var j :| 0 <= j < |s[1..]| && s[1..][j] == t[k];
          assert s[j + 1] == t[k];
        }
      }
    }
  }

  lemma OfKindCons(a: Fact, t: seq<Fact>, k: Kind)
    ensures OfKind([a] + t, k) == (if a.kind == k then [a] else []) + OfKind(t, k)
  {
    assert ([a] + t)[0] == a && ([a] + t)[1..] == t;
  }

  lemma {:induction false} InsertByPriorityOfKind(x: Fact, s: seq<Fact>, k: Kind)
    ensures OfKind(InsertBy(x, s, PriorityLt), k) == (if x.kind == k then [x] else []) + OfKind(s, k)
  {
    if s != [] && PriorityLt(s[0], x) {
      InsertByPriorityOfKind(x, s[1..], k);
      InsertPastOfKind(x, s, k);
    } else {
      assert InsertBy(x, s, PriorityLt) == [x] + s;
      OfKindCons(x, s, k);
    }
  }

  /** The step of `InsertByPriorityOfKind` where `x` moves past the head. */
  lemma InsertPastOfKind(x: Fact, s: seq<Fact>, k: Kind)
    requires s != [] && PriorityLt(s[0], x)
    requires OfKind(InsertBy(x, s[1..], PriorityLt), k) == (if x.kind == k then [x] else []) + OfKind(s[1..], k)
    ensures OfKind(InsertBy(x, s, PriorityLt), k) == (if x.kind == k then [x] else []) + OfKind(s, k)
  {
    var t := InsertBy(x, s[1..], PriorityLt);
    var c0: seq<Fact> := if s[0].kind == k then [s[0]] else [];
    var cx: seq<Fact> := if x.kind == k then [x] else [];
    assert InsertBy(x, s, PriorityLt) == [s[0]] + t;
    OfKindCons(s[0], t, k);
    assert OfKind(s, k) == c0 + OfKind(s[1..], k);
    SwapEmpty(c0, cx, OfKind(s[1..], k));
  }

  /** Two lists of which one is empty commute. */
  lemma SwapEmpty<T>(a: seq<T>, b: seq<T>, rest: seq<T>)
    requires a == [] || b == []
    ensures a + (b + rest) == b + (a + rest)
  {
  }

  /** The facts of one kind in two lists in a row are those of each list in
      a row. */
  lemma {:induction false} OfKindAppend(a: seq<Fact>, b: seq<Fact>, k: Kind)
    ensures OfKind(a + b, k) == OfKind(a, k) + OfKind(b, k)
    decreases |a|
  {
    if a != [] {
      var h := if a[0].kind == k then [a[0]] else [];
      calc {
        OfKind(a + b, k);
        { assert a + b == [a[0]] + (a[1..] + b); OfKindCons(a[0], a[1..] + b, k); }
        h + OfKind(a[1..] + b, k);
        { OfKindAppend(a[1..], b, k); }
        h + (OfKind(a[1..], k) + OfKind(b, k));
        (h + OfKind(a[1..], k)) + OfKind(b, k);
        { assert a == [a[0]] + a[1..]; OfKindCons(a[0], a[1..], k); }
        OfKind(a, k) + OfKind(b, k);
      }
    } else {
      assert a + b == b;
    }
  }

  /** Sorting a list with facts appended keeps the list's facts of each
      kind ahead of the appended ones, in their order. */
  lemma SortAppended(rest: seq<Fact>, news: seq<Fact>)
    ensures PrioritySorted(SortByPriority(rest + news))
    ensures forall k :: OfKind(rest, k) <= OfKind(SortByPriority(rest + news), k)
  {
    SortByPriorityStable(rest + news, Coll);
    forall k ensures OfKind(rest, k) <= OfKind(SortByPriority(rest + news), k) {
      SortByPriorityStable(rest + news, k);
      OfKindAppend(rest, news, k);
    }
  }

  /** The priority sort orders facts by kind priority, keeps every fact, and
      keeps the facts of each kind in their original order. */
  lemma {:induction false} SortByPriorityStable(fs: seq<Fact>, k: Kind)
    ensures PrioritySorted(SortByPriority(fs))
    ensures OfKind(SortByPriority(fs), k) == OfKind(fs, k)
  {
    if fs != [] {
      SortByPriorityStable(fs[1..], k);
      InsertByPrioritySorted(fs[0], SortBy(fs[1..], PriorityLt));
      InsertByPriorityOfKind(fs[0], SortBy(fs[1..], PriorityLt), k);
    }
  }

  /** `Fact.__repr__` as written: `sorted` on a list of two or more objects
      that are not all names compares objects that define no order, which
      raises TypeError; otherwise the text is the same as `Render`. */
  function RenderAsWritten(f: Fact): (r: Result<string>)
    ensures r.Ok? ==> r.value == Render(f)
    ensures r.Fail? <==> SortedKind(f.kind) && |f.objects| >= 2 && exists i | 0 <= i < |f.objects| :: !f.objects[i].Name?
  {
    if SortedKind(f.kind) && |f.objects| >= 2 && exists i | 0 <= i < |f.objects| :: !f.objects[i].Name? then
      Fail(TypeMismatch)
    else
      Ok(Render(f))
  }

  /** Every simtri fact over two triangles fails to render as written, while
      the corrected rendering makes the two orders of the same pair equal. */
  /** Rendering a similarity or congruence of two triangles raises, as
      `sorted` cannot compare two `Triangle`s. */
  lemma TrianglePairRenderFails(kind: Kind, t1: Triangle, t2: Triangle)
    requires kind == Simtri || kind == Contri
    ensures RenderAsWritten(Fact(kind, [Tri(t1), Tri(t2)])).Fail?
  {
    assert !([Tri(t1), Tri(t2)][0].Name?);
  }

  lemma SimtriRenderFails(t1: Triangle, t2: Triangle)
    ensures RenderAsWritten(Fact(Simtri, [Tri(t1), Tri(t2)])).Fail?
    ensures FactEq(Fact(Simtri, [Tri(t1), Tri(t2)]), Fact(Simtri, [Tri(t2), Tri(t1)]))
  {
    assert !([Tri(t1), Tri(t2)][0].Name?);
    assert multiset([Tri(t1), Tri(t2)]) == multiset([Tri(t2), Tri(t1)]);
    SortedKindIgnoresOrder(Simtri, [Tri(t1), Tri(t2)], [Tri(t2), Tri(t1)]);
  }
}

=== FILE: fcdeduct.dfy ===
/** `FC.deduct` of `src/rules.py`: the rules fired for a premise's kind, in
    order, their conclusions put through `list(set(...))`.  Fact equality and
    hashing go through the rendering, so the set keeps one fact per
    rendering; Python's set order depends on the hashes, and the model keeps
    the first of each in rule order, which is one of the orders a run may
    produce. */
module FcDeduct {
  import opened Common
  import opened Primitives
  import opened Facts
  import opened Snapshot
  import opened RuleKit
  import opened Util
  import FcRules
  import FcSearch

  datatype Rule =
    | X2 | X3 | X4 | D09 | D10Para | D10Perp | D12 | D22 | D39 | D40 | D41
    | D42a | D44 | D45Para | D46 | D47 | D52Perp | D58 | D59 | D60 | D61Simtri
    | D62 | D63 | D64 | D65 | D68 | D69 | D70 | D71 | D72 | D73 | D74
    | D75Cong | D75Eqratio

  /** The rules `deduct` fires for a premise of kind `kind`, in its order. */
  function Rules(kind: string): seq<Rule> {
    if kind == "midp" then [D44, D63, D68, D69, D70]
    else if kind == "para" then [D40, D10Para, D45Para, D64, D65]
    else if kind == "eqangle" then [D22, D39, D47, D58, D71, D72, D73, D74, D42a]
    else if kind == "cong" then [D12, D46, D75Cong, X4]
    else if kind == "cyclic" then [D41]
    else if kind == "perp" then [D09, D10Perp, D52Perp, X2, X3]
    else if kind == "simtri" then [D59, D60, D61Simtri]
    else if kind == "contri" then [D62]
    else if kind == "eqratio" then [D75Eqratio]
    else []
  }

  /** The kinds `deduct` fires rules for. */
  const FiringKinds: set<string> :=
    {"midp", "para", "eqangle", "cong", "cyclic", "perp", "simtri", "contri", "eqratio"}

  lemma RulesFire(kind: string)
    ensures Rules(kind) == [] <==> kind !in FiringKinds
    ensures NoDup(Rules(kind))
  {
  }

  /** One rule body on a premise.  D44 and D75 (cong form) are the corrected
      bodies; `_ruleD45para` returns nothing. */
  function Apply(kb: Kb, rule: Rule, p: Premise): Result<seq<Fact>> {
    match rule
    case X2 => FcRules.X2(kb, p)
    case X3 => FcRules.X3(kb, p)
    case X4 => FcRules.X4(kb, p)
    case D09 => FcRules.D09(kb, p)
    case D10Para => FcRules.D10Para(kb, p)
    case D10Perp => FcRules.D10Perp(kb, p)
    case D12 => FcSearch.D12(kb, p)
    case D22 => FcSearch.D22(kb, p)
    case D39 => FcRules.D39(kb, p)
    case D40 => FcRules.D40(kb, p)
    case D41 => FcRules.D41(kb, p)
    case D42a => FcRules.D42a(kb, p)
    case D44 => FcSearch.D44(kb, p)
    case D45Para => Ok([])
    case D46 => FcRules.D46(kb, p)
    case D47 => FcRules.D47(kb, p)
    case D52Perp => FcSearch.D52Perp(kb, p)
    case D58 => FcSearch.D58(kb, p)
    case D59 => FcRules.D59(p)
    case D60 => FcRules.D60(kb, p)
    case D61Simtri => FcSearch.D61Simtri(kb, p)
    case D62 => FcRules.D62(p)
    case D63 => FcSearch.D63(kb, p)
    case D64 => FcSearch.D64(kb, p)
    case D65 => FcSearch.D65(kb, p)
    case D68 => FcRules.D68(p)
    case D69 => FcRules.D69(p)
    case D70 => FcSearch.D70(kb, p)
    case D71 => FcRules.D71(kb, p)
    case D72 => FcRules.D72(p)
    case D73 => FcRules.D73(kb, p)
    case D74 => FcRules.D74(kb, p)
    case D75Cong => FcSearch.D75Cong(kb, p)
    case D75Eqratio => FcSearch.D75Eqratio(kb, p)
  }

  /** One rule on the premise, as a step of the loop over the rules. */
  function Step(kb: Kb, p: Premise): Rule -> Result<seq<Fact>> {
    (rule: Rule) => Apply(kb, rule, p)
  }

  /** `facts += self._ruleX(p)` for every rule of the premise's kind; the
      first rule that raises ends `deduct`. */
  function Fire(kb: Kb, p: Premise): (r: Result<seq<Fact>>)
    ensures p.kind !in FiringKinds ==> r == Ok([])
    ensures r.Ok? <==> forall rule | rule in Rules(p.kind) :: Apply(kb, rule, p).Ok?
    ensures r.Fail? ==> exists rule | rule in Rules(p.kind) :: Apply(kb, rule, p) == Fail(r.error)
    ensures r.Ok? ==> forall f :: f in r.value <==>
      exists rule | rule in Rules(p.kind) :: Apply(kb, rule, p).Ok? && f in Apply(kb, rule, p).value
  {
    var rules := Rules(p.kind);
    var r := Gather(rules, Step(kb, p));
    assert forall rule | rule in rules :: exists i | 0 <= i < |rules| :: rules[i] == rule;
    r
  }

  /** `list(set(facts))`: one fact for each rendering, each taken from
      `facts`. */
  function Distinct(facts: seq<Fact>): (r: seq<Fact>)
    ensures forall f | f in r :: f in facts
    ensures forall i, j | 0 <= i < j < |r| :: !FactEq(r[i], r[j])
    ensures |r| <= |facts|
  {
    FirstByKeyCovers(facts, Render);
    FirstByKey(facts, Render)
  }

  /** A fact of the list is represented in `Distinct` by one rendered
      alike. */
  lemma DistinctCoversOne(facts: seq<Fact>, f: Fact)
    requires f in facts
    ensures exists g | g in Distinct(facts) :: FactEq(g, f)
  {
    var g := FirstByKeyCover(facts, Render, f);
    assert FactEq(g, f);
  }

  /** Every fact of the list is represented in `Distinct` by one rendered
      alike. */
  lemma DistinctCovers(facts: seq<Fact>)
    ensures forall f | f in facts :: exists g | g in Distinct(facts) :: FactEq(g, f)
  {
    forall f | f in facts ensures exists g | g in Distinct(facts) :: FactEq(g, f) {
      var g := FirstByKeyCover(facts, Render, f);
      assert FactEq(g, f);
    }
  }

  /** `deduct(p)`: it raises exactly when a fired rule does; every fact it
      returns was concluded by a fired rule, and no two returned facts
      render alike. */
  function Deduct(kb: Kb, p: Premise): (r: Result<seq<Fact>>)
    ensures p.kind !in FiringKinds ==> r == Ok([])
    ensures r.Fail? <==> Fire(kb, p).Fail?
    ensures r.Fail? ==> r == Fire(kb, p)
    ensures r.Ok? ==> forall f | f in r.value :: f in Fire(kb, p).value
    ensures r.Ok? ==> forall i, j | 0 <= i < j < |r.value| :: !FactEq(r.value[i], r.value[j])
  {
    var facts :- Fire(kb, p);
    Ok(Distinct(facts))
  }

  /** Every concluded fact is returned by `deduct` up to rendering. */
  lemma DeductCovers(kb: Kb, p: Premise)
    requires Deduct(kb, p).Ok?
    ensures forall f | f in Fire(kb, p).value :: exists g | g in Deduct(kb, p).value :: FactEq(g, f)
  {
    var facts := Fire(kb, p).value;
    forall f | f in facts ensures exists g | g in Deduct(kb, p).value :: FactEq(g, f) {
      var g := FirstByKeyCover(facts, Render, f);
      assert FactEq(g, f);
    }
  }

  /** Deducing twice from the same database and premise gives nothing new:
      putting the result through the set again changes nothing. */
  lemma DeductSettled(kb: Kb, p: Premise)
    requires Deduct(kb, p).Ok?
    ensures Distinct(Deduct(kb, p).value) == Deduct(kb, p).value
  {
    var r := Deduct(kb, p).value;
    var facts := Fire(kb, p).value;
    FirstByKeyIdempotent(facts, Render);
  }

  /** `set(facts)` as written: hashing a fact renders it, so one whose
      rendering sorts objects that define no order raises TypeError. */
  function SetAsWritten(facts: seq<Fact>): (r: Result<seq<Fact>>)
    ensures r.Fail? <==> exists f | f in facts :: RenderAsWritten(f).Fail?
    ensures r.Fail? ==> r.error == TypeMismatch
    ensures r.Ok? ==> r.value == Distinct(facts)
  {
    if exists f | f in facts :: RenderAsWritten(f).Fail? then Fail(TypeMismatch)
    else Ok(Distinct(facts))
  }

  /** `deduct` as written: a conclusion whose rendering sorts triangles
      raises TypeError before anything is returned. */
  function DeductAsWritten(kb: Kb, p: Premise): (r: Result<seq<Fact>>)
    ensures Fire(kb, p).Fail? ==> r == Fire(kb, p)
    ensures Fire(kb, p).Ok? ==> (r.Fail? <==> exists f | f in Fire(kb, p).value :: RenderAsWritten(f).Fail?)
    ensures r.Fail? && Fire(kb, p).Ok? ==> r.error == TypeMismatch
    ensures r.Ok? ==> r == Deduct(kb, p)
  {
    var facts :- Fire(kb, p);
    SetAsWritten(facts)
  }

  /** A D58 conclusion is a similarity of two triangles. */
  lemma D58Similarity(kb: Kb, p: Premise, f: Fact)
    requires FcSearch.D58(kb, p).Ok? && f in FcSearch.D58(kb, p).value
    ensures f == Fact(Simtri, [Tri(f.objects[0].tri), Tri(f.objects[1].tri)])
    ensures RenderAsWritten(f).Fail?
  {
    FcSearch.D58Sound(kb, p, f);
    var t1, t2 := f.objects[0].tri, f.objects[1].tri;
    assert f.objects == [Tri(t1), Tri(t2)];
    SimtriRenderFails(t1, t2);
  }

  /** Gathered conclusions holding a similarity of two triangles, such as
      every D58 conclusion: as written the set raises TypeError, while the
      corrected rendering keeps that similarity, or one rendered alike. */
  lemma SimilarityBreaksSet(facts: seq<Fact>, t1: Triangle, t2: Triangle)
    requires Fact(Simtri, [Tri(t1), Tri(t2)]) in facts
    ensures SetAsWritten(facts) == Fail(TypeMismatch)
    ensures exists g | g in Distinct(facts) :: FactEq(g, Fact(Simtri, [Tri(t1), Tri(t2)]))
  {
    var f := Fact(Simtri, [Tri(t1), Tri(t2)]);
    SimtriRenderFails(t1, t2);
    SetFailsOn(facts, f);
    DistinctCoversOne(facts, f);
  }

  /** One fact whose rendering raises makes the whole set raise. */
  lemma SetFailsOn(facts: seq<Fact>, f: Fact)
    requires f in facts && RenderAsWritten(f).Fail?
    ensures SetAsWritten(facts) == Fail(TypeMismatch)
  {}
}

=== FILE: fckit.dfy ===
/** Shared pieces of the rule bodies of `src/rules.py`.  Those rules write
    facts over line keys rather than points: a key comes from `matchLine`,
    which finds or makes the line through two points, and each call sees
    the lines the calls before it made.  Intersections come from the
    database's `lineIntersection`, whose body is not part of this model. */
module FcKit {
  import opened Common
  import opened Primitives
  import opened Facts
  import opened Snapshot
  import opened RuleKit
  import GroupStore

  /** `Fact(kind, [x1, ..., xn])` over point names or line keys. */
  function On(k: Kind, xs: seq<string>): (f: Fact)
    ensures f.kind == k && |f.objects| == |xs|
    ensures forall j | 0 <= j < |xs| :: f.objects[j] == Name(xs[j])
  {
    Fact(k, Names(xs))
  }

  /** A fact over names determines its names. */
  lemma OnInjective(k: Kind, xs: seq<string>, ys: seq<string>)
    requires On(k, xs) == On(k, ys)
    ensures xs == ys
  {
    assert |xs| == |ys|;
    forall j | 0 <= j < |xs| ensures xs[j] == ys[j] {
      assert On(k, xs).objects[j] == Name(xs[j]);
    }
  }

  /** `keys[j]` names a line through the `j`-th pair, for every `j`. */
  predicate Lined(lines: GroupStore.Lines, keys: seq<LineKey>, pairs: seq<(Point, Point)>) {
    |keys| == |pairs| && forall j | 0 <= j < |pairs| :: GroupStore.Through(lines, keys[j], pairs[j].0, pairs[j].1)
  }

  /** `matchLine` on each pair in turn: the keys, and the lines once every
      call has run. */
  function Match(lines: GroupStore.Lines, pairs: seq<(Point, Point)>): (r: Result<GroupStore.Matched<GroupStore.Lines>>)
    ensures r.Ok? ==> lines <= r.value.dict && Lined(r.value.dict, r.value.names, pairs)
    ensures r.Fail? ==> r.error == NameExhausted
    ensures (r.Ok? && lines == r.value.dict) ==> forall j | 0 <= j < |pairs| :: r.value.names[j] in Keys(lines)
  {
    var m :- GroupStore.MatchLines(lines, pairs);
    assert forall j | 0 <= j < |pairs| :: GroupStore.Through(m.dict, m.names[j], pairs[j].0, pairs[j].1) by {
      forall j | 0 <= j < |pairs| ensures GroupStore.Through(m.dict, m.names[j], pairs[j].0, pairs[j].1) {
        GroupStore.LinesHoldAt(m.dict, m.names, pairs, j);
      }
    }
    assert forall j | 0 <= j < |pairs| :: m.names[j] in Keys(m.dict) by {
      forall j | 0 <= j < |pairs| ensures m.names[j] in Keys(m.dict) {
        var i :| 0 <= i < |m.dict| && m.dict[i].key == m.names[j] && pairs[j].0 in m.dict[i].members;
        assert Keys(m.dict)[i] == m.dict[i].key;
      }
    }
    Ok(m)
  }

  /** The first two keys of a four-point premise: `matchLine([A, B])`, then
      `matchLine([C, D])`. */
  function TwoLines(kb: Kb, ps: seq<Point>): (r: Result<(LineKey, LineKey)>)
    ensures |ps| != 4 ==> r == Fail(MalformedArity)
    ensures r.Fail? ==> r.error in {MalformedArity, NameExhausted}
    ensures r.Ok? ==> |ps| == 4 && exists d :: kb.store.lines <= d && Lined(d, [r.value.0, r.value.1], [(ps[0], ps[1]), (ps[2], ps[3])])
  {
    if |ps| != 4 then Fail(MalformedArity)
    else
      var m :- Match(kb.store.lines, [(ps[0], ps[1]), (ps[2], ps[3])]);
      assert [m.names[0], m.names[1]] == m.names;
      Ok((m.names[0], m.names[1]))
  }

  /** The same unordered pair of lines: the test a rule makes "in either
      orientation". */
  predicate SamePair(a: LineKey, b: LineKey, c: LineKey, d: LineKey) {
    (a == c && b == d) || (a == d && b == c)
  }

  lemma SamePairIsMultiset(a: LineKey, b: LineKey, c: LineKey, d: LineKey)
    ensures SamePair(a, b, c, d) <==> multiset{a, b} == multiset{c, d}
  {
    if multiset{a, b} == multiset{c, d} {
      assert a in multiset{c, d};
      if a == c {
        assert multiset{a, b} - multiset{a} == multiset{c, d} - multiset{c};
      } else {
        assert multiset{a, b} - multiset{a} == multiset{c, d} - multiset{d};
      }
    }
  }

  /** `e` is the partner of `l` in a recorded group that holds `l`. */
  predicate Paired(groups: seq<seq<LineKey>>, l: LineKey, e: LineKey) {
    exists i | 0 <= i < |groups| :: l in groups[i] && Partner(groups[i], l) == Ok(e)
  }

  /** One group of a loop `for lines in groups: if l not in lines: continue;
      e = partner; if e in skip: continue`. */
  function PartnerStep(g: seq<LineKey>, l: LineKey, skip: seq<LineKey>): (r: Result<seq<LineKey>>)
    ensures r.Fail? <==> l in g && |g| < 2
    ensures r.Fail? ==> r.error == IndexOutOfRange
    ensures r.Ok? ==> forall e :: e in r.value <==> l in g && Partner(g, l) == Ok(e) && e !in skip
  {
    if l !in g then Ok([])
    else
      var e :- Partner(g, l);
      Ok(if e in skip then [] else [e])
  }

  /** The partner of `l` in every group holding it, unless `skip` names it;
      a group holding `l` alone is the IndexError of `list(lines)[1]`. */
  function Partners(groups: seq<seq<LineKey>>, l: LineKey, skip: seq<LineKey>): (r: Result<seq<LineKey>>)
    ensures r.Ok? <==> forall i | 0 <= i < |groups| :: l in groups[i] ==> |groups[i]| >= 2
    ensures r.Fail? ==> r.error == IndexOutOfRange
    ensures r.Ok? ==> forall e :: e in r.value <==> Paired(groups, l, e) && e !in skip
  {
    var r := Gather(groups, (g: seq<LineKey>) => PartnerStep(g, l, skip));
    assert r.Ok? ==> forall e :: e in r.value ==> Paired(groups, l, e) && e !in skip by {
      if r.Ok? {
        forall e | e in r.value ensures Paired(groups, l, e) && e !in skip {
          var i :| 0 <= i < |groups| && PartnerStep(groups[i], l, skip).Ok? && e in PartnerStep(groups[i], l, skip).value;
        }
      }
    }
    assert r.Ok? ==> forall e :: Paired(groups, l, e) && e !in skip ==> e in r.value by {
      if r.Ok? {
        forall e | Paired(groups, l, e) && e !in skip ensures e in r.value {
          var i :| 0 <= i < |groups| && l in groups[i] && Partner(groups[i], l) == Ok(e);
          assert e in PartnerStep(groups[i], l, skip).value;
        }
      }
    }
    r
  }

  /** `lineIntersection(la, lb)` is not empty, so the rule goes on. */
  predicate Meets(kb: Kb, la: LineKey, lb: LineKey) {
    kb.api.lineIntersection(la, lb) != []
  }

  /** `lineIntersection(la, lb)[0]`. */
  function Hit(kb: Kb, la: LineKey, lb: LineKey): (x: Point)
    requires Meets(kb, la, lb)
    ensures x in kb.api.lineIntersection(la, lb)
  {
    kb.api.lineIntersection(la, lb)[0]
  }

  /** `len(set([a, b, c, d])) == 4`. */
  predicate Distinct4(a: Point, b: Point, c: Point, d: Point) {
    a != b && a != c && a != d && b != c && b != d && c != d
  }

  /** `len(set([a, b, c])) == 3`. */
  predicate Distinct3(a: string, b: string, c: string) {
    a != b && a != c && b != c
  }

  /** A conclusion before its lines are named: its kind, and a pair of
      points for each line it is about. */
  datatype Draft = Draft(kind: Kind, pairs: seq<(Point, Point)>)

  /** `f` is the draft `d` with each pair replaced by the key of a line of
      `lines` through it. */
  predicate Realises(lines: GroupStore.Lines, f: Fact, d: Draft) {
    f.kind == d.kind && |f.objects| == |d.pairs| &&
    forall j | 0 <= j < |d.pairs| :: f.objects[j].Name? && GroupStore.Through(lines, f.objects[j].name, d.pairs[j].0, d.pairs[j].1)
  }

  lemma RealisesExtends(lines: GroupStore.Lines, more: GroupStore.Lines, f: Fact, d: Draft)
    requires lines <= more && Realises(lines, f, d)
    ensures Realises(more, f, d)
  {
    forall j | 0 <= j < |d.pairs| ensures GroupStore.Through(more, f.objects[j].name, d.pairs[j].0, d.pairs[j].1) {
      GroupStore.ThroughExtends(lines, more, f.objects[j].name, d.pairs[j].0, d.pairs[j].1);
    }
  }

  /** Each fact realises the draft at its position. */
  predicate AllRealise(lines: GroupStore.Lines, fs: seq<Fact>, drafts: seq<Draft>) {
    |fs| == |drafts| && forall k | 0 <= k < |drafts| :: Realises(lines, fs[k], drafts[k])
  }

  lemma AllRealiseCons(lines: GroupStore.Lines, more: GroupStore.Lines, f: Fact, d: Draft, fs: seq<Fact>, drafts: seq<Draft>)
    requires lines <= more && Realises(lines, f, d) && AllRealise(more, fs, drafts)
    ensures AllRealise(more, [f] + fs, [d] + drafts)
  {
    RealisesExtends(lines, more, f, d);
    var gs, ds := [f] + fs, [d] + drafts;
    forall k | 0 <= k < |ds| ensures Realises(more, gs[k], ds[k]) {
      if k > 0 {
        assert gs[k] == fs[k - 1] && ds[k] == drafts[k - 1];
      }
    }
  }

  /** The drafts of a loop, their lines named one `matchLine` call after
      another in the order the loop makes them: the facts, and the lines once
      every call has run. */
  function Settle(lines: GroupStore.Lines, drafts: seq<Draft>): (r: Result<(GroupStore.Lines, seq<Fact>)>)
    ensures r.Fail? ==> r.error == NameExhausted
    ensures r.Ok? ==> lines <= r.value.0 && AllRealise(r.value.0, r.value.1, drafts)
    decreases |drafts|
  {
    if drafts == [] then Ok((lines, []))
    else
      var m :- Match(lines, drafts[0].pairs);
      var rest :- Settle(m.dict, drafts[1..]);
      var f := On(drafts[0].kind, m.names);
      assert Realises(m.dict, f, drafts[0]);
      AllRealiseCons(m.dict, rest.0, f, drafts[0], rest.1, drafts[1..]);
      assert [drafts[0]] + drafts[1..] == drafts;
      Ok((rest.0, [f] + rest.1))
  }

  /** Settling keeps the order of the drafts: a fact of kind `k` at position
      `j` comes from the draft at `j`, so every fact has a draft. */
  lemma SettledFromDrafts(lines: GroupStore.Lines, drafts: seq<Draft>, f: Fact)
    requires Settle(lines, drafts).Ok? && f in Settle(lines, drafts).value.1
    ensures exists k | 0 <= k < |drafts| :: Realises(Settle(lines, drafts).value.0, f, drafts[k])
  {
    var s := Settle(lines, drafts).value;
    var k :| 0 <= k < |s.1| && s.1[k] == f;
    assert Realises(s.0, f, drafts[k]);
  }
}

=== FILE: fcrules.dfy ===
/** The rule bodies of `src/rules.py` that rearrange their premise or test a
    guard.  Their conclusions are facts over line keys (and, for the length
    facts, segments).  A premise carries its points and, in the line form
    the later database hands out, the keys of its lines; the eqangle rules
    use the line form when the premise has four keys and otherwise fall
    back to the points. */
module FcRules {
  import opened Common
  import opened Primitives
  import opened Facts
  import opened Predicates
  import opened Snapshot
  import opened RuleKit
  import opened FcKit
  import GroupStore

  // ---------------------------------------------------------------- perp

  /** The two lines of a perp premise for X2: its own keys when it carries
      two, otherwise `matchLine` on A-B and C-D. */
  function PerpLines(kb: Kb, p: Premise): (r: Result<(LineKey, LineKey)>)
    ensures |p.lines| == 2 ==> r == Ok((p.lines[0], p.lines[1]))
    ensures |p.lines| != 2 ==> r == TwoLines(kb, p.points)
  {
    if |p.lines| == 2 then Ok((p.lines[0], p.lines[1])) else TwoLines(kb, p.points)
  }

  /** `q` is one of the two eqangles X2 writes for the premise's pair
      `lab`, `lcd` against a recorded perpendicular pair. */
  predicate Rotates(lab: LineKey, lcd: LineKey, pair: seq<LineKey>, q: Fact) {
    |pair| == 2 && !SamePair(lab, lcd, pair[0], pair[1]) &&
    (q == On(Eqangle, [lab, lcd, pair[0], pair[1]]) || q == On(Eqangle, [lab, lcd, pair[1], pair[0]]))
  }

  /** One recorded pair of `for [lPQ, lUV] in perpFacts`; a record that is
      not a pair fails to unpack. */
  function X2Step(lab: LineKey, lcd: LineKey, pair: seq<LineKey>): (r: Result<seq<Fact>>)
    ensures r.Fail? <==> |pair| != 2
    ensures r.Fail? ==> r.error == MalformedArity
    ensures r.Ok? ==> forall q :: q in r.value <==> Rotates(lab, lcd, pair, q)
  {
    if |pair| != 2 then Fail(MalformedArity)
    else if SamePair(lab, lcd, pair[0], pair[1]) then Ok([])
    else Ok([On(Eqangle, [lab, lcd, pair[0], pair[1]]), On(Eqangle, [lab, lcd, pair[1], pair[0]])])
  }

  /** X2: perp(A,B,C,D) & perp(P,Q,U,V) => eqangle(A,B,C,D,P,Q,U,V): the
      premise's angle equals every other recorded right angle, in both
      orientations; the premise's own pair, either way round, is skipped. */
  function X2(kb: Kb, p: Premise): (r: Result<seq<Fact>>)
    ensures |p.lines| != 2 && |p.points| != 4 ==> r == Fail(MalformedArity)
    ensures r.Fail? ==> r.error in {MalformedArity, NameExhausted}
    ensures PerpLines(kb, p).Fail? ==> r.Fail?
    ensures PerpLines(kb, p).Ok? ==> var l := PerpLines(kb, p).value;
      (r.Ok? <==> forall i | 0 <= i < |kb.perpFacts| :: |kb.perpFacts[i]| == 2) &&
      (r.Ok? ==> forall q :: q in r.value <==> exists i | 0 <= i < |kb.perpFacts| :: Rotates(l.0, l.1, kb.perpFacts[i], q))
  {
    var l :- PerpLines(kb, p);
    Gather(kb.perpFacts, (pair: seq<LineKey>) => X2Step(l.0, l.1, pair))
  }

  /** Each eqangle of X2 comes with its mirror image: the recorded pair
      taken the other way round. */
  lemma X2BothOrientations(kb: Kb, p: Premise, a: LineKey, b: LineKey, c: LineKey, d: LineKey)
    requires X2(kb, p).Ok? && On(Eqangle, [a, b, c, d]) in X2(kb, p).value
    ensures On(Eqangle, [a, b, d, c]) in X2(kb, p).value
    ensures PerpLines(kb, p) == Ok((a, b)) && !SamePair(a, b, c, d)
  {
    var l := PerpLines(kb, p).value;
    var q := On(Eqangle, [a, b, c, d]);
    var i :| 0 <= i < |kb.perpFacts| && Rotates(l.0, l.1, kb.perpFacts[i], q);
    var pair := kb.perpFacts[i];
    if q == On(Eqangle, [l.0, l.1, pair[0], pair[1]]) {
      OnInjective(Eqangle, [a, b, c, d], [l.0, l.1, pair[0], pair[1]]);
      assert Rotates(l.0, l.1, pair, On(Eqangle, [a, b, d, c]));
    } else {
      OnInjective(Eqangle, [a, b, c, d], [l.0, l.1, pair[1], pair[0]]);
      assert Rotates(l.0, l.1, pair, On(Eqangle, [a, b, d, c]));
    }
  }

  /** X3: perp(A,B,C,D) => eqangle(A,B,C,D,C,D,A,B): the angle from A-B to
      C-D equals the angle back. */
  function X3(kb: Kb, p: Premise): (r: Result<seq<Fact>>)
    ensures |p.points| != 4 ==> r == Fail(MalformedArity)
    ensures r.Fail? <==> TwoLines(kb, p.points).Fail?
    ensures r.Fail? ==> r.error in {MalformedArity, NameExhausted}
    ensures r.Ok? ==> var l := TwoLines(kb, p.points).value;
      r.value == [On(Eqangle, [l.0, l.1, l.1, l.0])]
  {
    var l :- TwoLines(kb, p.points);
    Ok([On(Eqangle, [l.0, l.1, l.1, l.0])])
  }

  /** X4: cong(M,A,M,B) & coll(M,A,B) => midp(M,A,B): only when both
      segments start at the same point and the database holds the
      collinearity. */
  function X4(kb: Kb, p: Premise): (r: Result<seq<Fact>>)
    ensures |p.points| != 4 <==> r.Fail?
    ensures r.Fail? ==> r.error == MalformedArity
    ensures r.Ok? ==> var ps := p.points;
      (r.value != [] <==> ps[0] == ps[2] && kb.api.containsFact(On(Coll, [ps[0], ps[1], ps[3]]))) &&
      (r.value != [] ==> r.value == [On(Midp, [ps[0], ps[1], ps[3]])])
  {
    if |p.points| != 4 then Fail(MalformedArity)
    else
      var m1, a, m2, b := p.points[0], p.points[1], p.points[2], p.points[3];
      if m1 != m2 then Ok([])
      else if kb.api.containsFact(On(Coll, [m1, a, b])) then Ok([On(Midp, [m1, a, b])])
      else Ok([])
  }

  /** D09: perp(A,B,C,D) & perp(C,D,E,F) => para(A,B,E,F), for each line
      E-F recorded perpendicular to C-D other than A-B and C-D. */
  function D09(kb: Kb, p: Premise): (r: Result<seq<Fact>>)
    ensures |p.points| != 4 ==> r == Fail(MalformedArity)
    ensures r.Fail? ==> r.error in {MalformedArity, NameExhausted, IndexOutOfRange}
    ensures TwoLines(kb, p.points).Fail? ==> r.Fail?
    ensures TwoLines(kb, p.points).Ok? ==> var l := TwoLines(kb, p.points).value;
      (r.Ok? <==> forall i | 0 <= i < |kb.perpFacts| :: l.1 in kb.perpFacts[i] ==> |kb.perpFacts[i]| >= 2) &&
      (r.Ok? ==> forall e :: On(Para, [l.0, e]) in r.value <==> Paired(kb.perpFacts, l.1, e) && e !in [l.0, l.1]) &&
      (r.Ok? ==> forall q | q in r.value :: |q.objects| == 2 && q.objects[1].Name? && q == On(Para, [l.0, q.objects[1].name]))
  {
    var l :- TwoLines(kb, p.points);
    var es :- Partners(kb.perpFacts, l.1, [l.0, l.1]);
    Ok(Joined(Para, l.0, es))
  }

  /** `[Fact(k, [l, e]) for e in es]`. */
  function Joined(k: Kind, l: LineKey, es: seq<LineKey>): (r: seq<Fact>)
    ensures forall e :: On(k, [l, e]) in r <==> e in es
    ensures forall q | q in r :: |q.objects| == 2 && q.objects[1].Name? && q == On(k, [l, q.objects[1].name])
    decreases |es|
  {
    if es == [] then []
    else
      var rest := Joined(k, l, es[1..]);
      assert forall e :: On(k, [l, e]) == On(k, [l, es[0]]) <==> e == es[0] by {
        forall e | On(k, [l, e]) == On(k, [l, es[0]]) ensures e == es[0] {
          OnInjective(k, [l, e], [l, es[0]]);
        }
      }
      assert forall e :: e in es <==> e == es[0] || e in es[1..] by {
        assert es == [es[0]] + es[1..];
      }
      [On(k, [l, es[0]])] + rest
  }

  /** D10 (para form): para(A,B,C,D) & perp(C,D,E,F) => perp(A,B,E,F), for
      each line E-F recorded perpendicular to C-D other than A-B and C-D. */
  function D10Para(kb: Kb, p: Premise): (r: Result<seq<Fact>>)
    ensures |p.points| != 4 ==> r == Fail(MalformedArity)
    ensures r.Fail? ==> r.error in {MalformedArity, NameExhausted, IndexOutOfRange}
    ensures TwoLines(kb, p.points).Fail? ==> r.Fail?
    ensures TwoLines(kb, p.points).Ok? ==> var l := TwoLines(kb, p.points).value;
      (r.Ok? <==> forall i | 0 <= i < |kb.perpFacts| :: l.1 in kb.perpFacts[i] ==> |kb.perpFacts[i]| >= 2) &&
      (r.Ok? ==> forall e :: On(Perp, [l.0, e]) in r.value <==> Paired(kb.perpFacts, l.1, e) && e !in [l.0, l.1]) &&
      (r.Ok? ==> forall q | q in r.value :: |q.objects| == 2 && q.objects[1].Name? && q == On(Perp, [l.0, q.objects[1].name]))
  {
    var l :- TwoLines(kb, p.points);
    var es :- Partners(kb.perpFacts, l.1, [l.0, l.1]);
    Ok(Joined(Perp, l.0, es))
  }

  /** D10 (perp form): perp(C,D,E,F) & para(A,B,C,D) => perp(A,B,E,F), for
      each line A-B recorded parallel to C-D other than C-D and E-F. */
  function D10Perp(kb: Kb, p: Premise): (r: Result<seq<Fact>>)
    ensures |p.points| != 4 ==> r == Fail(MalformedArity)
    ensures r.Fail? ==> r.error in {MalformedArity, NameExhausted, IndexOutOfRange}
    ensures TwoLines(kb, p.points).Fail? ==> r.Fail?
    ensures TwoLines(kb, p.points).Ok? ==> var l, paras := TwoLines(kb, p.points).value, kb.store.paraFacts;
      (r.Ok? <==> forall i | 0 <= i < |paras| :: l.0 in paras[i] ==> |paras[i]| >= 2) &&
      (r.Ok? ==> forall a :: On(Perp, [a, l.1]) in r.value <==> Paired(paras, l.0, a) && a !in [l.0, l.1]) &&
      (r.Ok? ==> forall q | q in r.value :: |q.objects| == 2 && q.objects[0].Name? && q == On(Perp, [q.objects[0].name, l.1]))
  {
    var l :- TwoLines(kb, p.points);
    var es :- Partners(kb.store.paraFacts, l.0, [l.0, l.1]);
    Ok(Fronted(Perp, es, l.1))
  }

  /** `[Fact(k, [a, l]) for a in es]`. */
  function Fronted(k: Kind, es: seq<LineKey>, l: LineKey): (r: seq<Fact>)
    ensures forall a :: On(k, [a, l]) in r <==> a in es
    ensures forall q | q in r :: |q.objects| == 2 && q.objects[0].Name? && q == On(k, [q.objects[0].name, l])
    decreases |es|
  {
    if es == [] then []
    else
      var rest := Fronted(k, es[1..], l);
      assert forall a :: On(k, [a, l]) == On(k, [es[0], l]) <==> a == es[0] by {
        forall a | On(k, [a, l]) == On(k, [es[0], l]) ensures a == es[0] {
          OnInjective(k, [a, l], [es[0], l]);
        }
      }
      assert forall a :: a in es <==> a == es[0] || a in es[1..] by {
        assert es == [es[0]] + es[1..];
      }
      [On(k, [es[0], l])] + rest
  }

  // ------------------------------------------------------------- eqangle

  /** D39: eqangle(A,B,P,Q,C,D,P,Q) => para(A,B,C,D).  Line form: the two
      angles share their second line, and the three lines differ. */
  function D39(kb: Kb, p: Premise): (r: Result<seq<Fact>>)
    ensures |p.lines| == 4 ==> var l := p.lines;
      r.Ok? && (r.value != [] <==> l[1] == l[3] && Distinct3(l[0], l[2], l[1])) &&
      (r.value != [] ==> r.value == [On(Para, [l[0], l[2]])])
    ensures |p.lines| != 4 && |p.points| != 8 ==> r == Fail(MalformedArity)
    ensures |p.lines| != 4 && |p.points| == 8 ==> var ps := p.points;
      (ps[2] != ps[6] || ps[3] != ps[7] ==> r == Ok([])) &&
      (ps[2] == ps[6] && ps[3] == ps[7] ==>
        var m := Match(kb.store.lines, [(ps[0], ps[1]), (ps[2], ps[3]), (ps[4], ps[5])]);
        (r.Fail? <==> m.Fail?) &&
        (r.Ok? ==> (r.value != [] <==> Distinct3(m.value.names[0], m.value.names[2], m.value.names[1])) &&
                   (r.value != [] ==> r.value == [On(Para, [m.value.names[0], m.value.names[2]])])))
    ensures r.Fail? ==> r.error in {MalformedArity, NameExhausted}
  {
    if |p.lines| == 4 then
      var l := p.lines;
      Ok(if l[1] != l[3] || !Distinct3(l[0], l[2], l[1]) then [] else [On(Para, [l[0], l[2]])])
    else if |p.points| != 8 then Fail(MalformedArity)
    else
      var ps := p.points;
      if ps[2] != ps[6] || ps[3] != ps[7] then Ok([])
      else
        var m :- Match(kb.store.lines, [(ps[0], ps[1]), (ps[2], ps[3]), (ps[4], ps[5])]);
        var lab, lpq, lcd := m.names[0], m.names[1], m.names[2];
        Ok(if !Distinct3(lab, lcd, lpq) then [] else [On(Para, [lab, lcd])])
  }

  /** `q` is the eqangle(A,B,P,Q,C,D,P,Q) D40 writes through line `l`. */
  predicate Transversal(kb: Kb, lab: LineKey, lcd: LineKey, l: LineKey, q: Fact) {
    l != lab && l != lcd &&
    !kb.api.containsFact(On(Para, [l, lab])) && !kb.api.containsFact(On(Para, [l, lcd])) &&
    q == On(Eqangle, [lab, l, lcd, l])
  }

  /** D40: para(A,B,C,D) => eqangle(A,B,P,Q,C,D,P,Q): two distinct parallel
      lines make equal angles with every line P-Q that is neither of them
      nor known parallel to either. */
  function D40(kb: Kb, p: Premise): (r: Result<seq<Fact>>)
    ensures |p.points| != 4 ==> r == Fail(MalformedArity)
    ensures r.Fail? ==> r.error in {MalformedArity, NameExhausted}
    ensures |p.points| == 4 ==> var m := Match(kb.store.lines, [(p.points[0], p.points[1]), (p.points[2], p.points[3])]);
      (r.Fail? <==> m.Fail?) &&
      (r.Ok? ==> var lab, lcd := m.value.names[0], m.value.names[1];
        (lab == lcd ==> r.value == []) &&
        forall q :: q in r.value <==> lab != lcd && exists l | l in Keys(m.value.dict) :: Transversal(kb, lab, lcd, l, q))
  {
    if |p.points| != 4 then Fail(MalformedArity)
    else
      var m :- Match(kb.store.lines, [(p.points[0], p.points[1]), (p.points[2], p.points[3])]);
      var lab, lcd := m.names[0], m.names[1];
      if lab == lcd then Ok([]) else Ok(Transversals(kb, lab, lcd, Keys(m.dict)))
  }

  /** `for lPQ in lines: if lPQ in [lAB, lCD] or para(lPQ, lAB) or
      para(lPQ, lCD): continue`, writing the eqangle for the rest. */
  function Transversals(kb: Kb, lab: LineKey, lcd: LineKey, keys: seq<LineKey>): (r: seq<Fact>)
    ensures forall q :: q in r <==> exists l | l in keys :: Transversal(kb, lab, lcd, l, q)
  {
    var r := Each(keys, (l: LineKey) => Cut(kb, lab, lcd, l));
    assert forall q :: q in r ==> exists l | l in keys :: Transversal(kb, lab, lcd, l, q) by {
      forall q | q in r ensures exists l | l in keys :: Transversal(kb, lab, lcd, l, q) {
        var i :| 0 <= i < |keys| && q in Cut(kb, lab, lcd, keys[i]);
        assert Transversal(kb, lab, lcd, keys[i], q);
      }
    }
    assert forall q :: (exists l | l in keys :: Transversal(kb, lab, lcd, l, q)) ==> q in r by {
      forall q | exists l | l in keys :: Transversal(kb, lab, lcd, l, q) ensures q in r {
        var l :| l in keys && Transversal(kb, lab, lcd, l, q);
        var i :| 0 <= i < |keys| && keys[i] == l;
        assert q in Cut(kb, lab, lcd, keys[i]);
      }
    }
    r
  }

  /** The body of that loop for one line. */
  function Cut(kb: Kb, lab: LineKey, lcd: LineKey, l: LineKey): (r: seq<Fact>)
    ensures forall q :: q in r <==> Transversal(kb, lab, lcd, l, q)
  {
    if l in [lab, lcd] || kb.api.containsFact(On(Para, [l, lab])) || kb.api.containsFact(On(Para, [l, lcd])) then []
    else [On(Eqangle, [lab, l, lcd, l])]
  }

  /** Every eqangle D40 writes, read back in its line form by D39, gives the
      parallel D40 started from. */
  lemma D40ThenD39(kb: Kb, p: Premise, q: Fact, pts: seq<Point>)
    requires |p.points| == 4 && D40(kb, p).Ok? && q in D40(kb, p).value
    ensures var m := Match(kb.store.lines, [(p.points[0], p.points[1]), (p.points[2], p.points[3])]).value;
      exists l :: q == On(Eqangle, [m.names[0], l, m.names[1], l]) &&
        D39(kb, Premise("eqangle", pts, [m.names[0], l, m.names[1], l])) == Ok([On(Para, [m.names[0], m.names[1]])])
  {
    var m := Match(kb.store.lines, [(p.points[0], p.points[1]), (p.points[2], p.points[3])]).value;
    var l :| l in Keys(m.dict) && Transversal(kb, m.names[0], m.names[1], l, q);
    D39OnLines(kb, pts, m.names[0], m.names[1], l);
  }

  /** D39 on two lines cut by one transversal concludes they are parallel. */
  lemma D39OnLines(kb: Kb, pts: seq<Point>, a: LineKey, c: LineKey, l: LineKey)
    requires Distinct3(a, c, l)
    ensures D39(kb, Premise("eqangle", pts, [a, l, c, l])) == Ok([On(Para, [a, c])])
  {
    var ls := [a, l, c, l];
    assert ls[0] == a && ls[1] == l && ls[2] == c && ls[3] == l;
  }

  /** D41: cyclic(A,B,P,Q) => eqangle(P,A,P,B,Q,A,Q,B): the angles A and B
      subtend at P and at Q are equal, when neither is between one line. */
  function D41(kb: Kb, p: Premise): (r: Result<seq<Fact>>)
    ensures |p.points| != 4 ==> r == Fail(MalformedArity)
    ensures r.Fail? ==> r.error in {MalformedArity, NameExhausted}
    ensures |p.points| == 4 ==> var ps := p.points;
      var pairs := [(ps[2], ps[0]), (ps[2], ps[1]), (ps[3], ps[0]), (ps[3], ps[1])];
      var m := Match(kb.store.lines, pairs);
      (r.Fail? <==> m.Fail?) &&
      (r.Ok? ==> (
        Lined(m.value.dict, m.value.names, pairs) &&
        var n := m.value.names;
        (r.value != [] <==> n[0] != n[1] && n[2] != n[3]) &&
        (r.value != [] ==> r.value == [On(Eqangle, n)])))
  {
    if |p.points| != 4 then Fail(MalformedArity)
    else
      var ps := p.points;
      var m :- Match(kb.store.lines, [(ps[2], ps[0]), (ps[2], ps[1]), (ps[3], ps[0]), (ps[3], ps[1])]);
      var n := m.names;
      assert n == [n[0], n[1], n[2], n[3]];
      if n[0] != n[1] && n[2] != n[3] then Ok([On(Eqangle, [n[0], n[1], n[2], n[3]])]) else Ok([])
  }

  /** The four intersections D42a reads, when they all exist. */
  predicate Corners42(kb: Kb, l: seq<LineKey>)
    requires |l| == 4
  {
    Meets(kb, l[0], l[1]) && Meets(kb, l[2], l[3]) && Meets(kb, l[0], l[2]) && Meets(kb, l[1], l[3])
  }

  /** D42a: eqangle(P,A,P,B,Q,A,Q,B) & not coll(P,Q,A) => cyclic(A,B,P,Q),
      line form only: A, B, P, Q are read off as intersections of the four
      lines.  The test checks `lineIntersection(l1, l3)` but reads P from
      `lineIntersection(l3, l1)`, an IndexError when the database answers
      the two orders differently.  A premise without four keys falls off
      the end of the body, and the `None` it returns makes the caller's
      `facts += None` a TypeError. */
  function D42a(kb: Kb, p: Premise): (r: Result<seq<Fact>>)
    ensures |p.lines| != 4 ==> r == Fail(TypeMismatch)
    ensures |p.lines| == 4 ==> var l := p.lines;
      (r.Fail? <==> l[0] != l[2] && Corners42(kb, l) && !Meets(kb, l[2], l[0])) &&
      (r.Fail? ==> r.error == IndexOutOfRange) &&
      (r.Ok? ==> (
        (r.value != [] <==> (
          l[0] != l[2] && Corners42(kb, l) &&
          Distinct4(Hit(kb, l[0], l[1]), Hit(kb, l[2], l[3]), Hit(kb, l[2], l[0]), Hit(kb, l[1], l[3])))) &&
        (r.value != [] ==> r.value == [On(Cyclic, [Hit(kb, l[0], l[1]), Hit(kb, l[2], l[3]), Hit(kb, l[2], l[0]), Hit(kb, l[1], l[3])])])))
  {
    if |p.lines| != 4 then Fail(TypeMismatch)
    else
      var l := p.lines;
      if l[0] == l[2] || !Corners42(kb, l) then Ok([])
      else if !Meets(kb, l[2], l[0]) then Fail(IndexOutOfRange)
      else
        var a, b, pp, q := Hit(kb, l[0], l[1]), Hit(kb, l[2], l[3]), Hit(kb, l[2], l[0]), Hit(kb, l[1], l[3]);
        if !Distinct4(a, b, pp, q) then Ok([]) else Ok([On(Cyclic, [a, b, pp, q])])
  }

  /** D46: cong(O,A,O,B) => eqangle(O,A,A,B,A,B,O,B): the base angles of an
      isosceles triangle, when O, A, B are a genuine triangle as far as the
      database knows. */
  function D46(kb: Kb, p: Premise): (r: Result<seq<Fact>>)
    ensures |p.points| != 4 ==> r == Fail(MalformedArity)
    ensures r.Fail? ==> r.error in {MalformedArity, NameExhausted}
    ensures |p.points| == 4 ==> var ps := p.points;
      var blocked := ps[0] != ps[2] || ps[1] == ps[3] || ps[0] == ps[1] || kb.api.containsFact(On(Coll, [ps[0], ps[1], ps[3]]));
      var pairs := [(ps[0], ps[1]), (ps[1], ps[3]), (ps[0], ps[3])];
      var m := Match(kb.store.lines, pairs);
      (blocked ==> r == Ok([])) &&
      (!blocked ==> (
        (r.Fail? <==> m.Fail?) &&
        (r.Ok? ==> (
          Lined(m.value.dict, m.value.names, pairs) &&
          r.value == [On(Eqangle, [m.value.names[0], m.value.names[1], m.value.names[1], m.value.names[2]])]))))
  {
    if |p.points| != 4 then Fail(MalformedArity)
    else
      var o1, a, o2, b := p.points[0], p.points[1], p.points[2], p.points[3];
      if o1 != o2 || a == b || o1 == a || kb.api.containsFact(On(Coll, [o1, a, b])) then Ok([])
      else
        var m :- Match(kb.store.lines, [(o1, a), (a, b), (o1, b)]);
        Ok([On(Eqangle, [m.names[0], m.names[1], m.names[1], m.names[2]])])
  }

  /** The three intersections D47 reads, when they all exist. */
  predicate Corners47(kb: Kb, l: seq<LineKey>)
    requires |l| == 4
  {
    Meets(kb, l[0], l[1]) && Meets(kb, l[0], l[3]) && Meets(kb, l[1], l[3])
  }

  /** D47: eqangle(O,A,A,B,A,B,O,B) => cong(O,A,O,B).  Line form: the two
      angles share the base line, and O, A, B are the three intersections,
      pairwise distinct.  Point form: the points repeat as the pattern
      says and O, A, B are not known collinear; the collinearity is asked
      of `containsFact` with a predicate, which the model converts with the
      database's `_predicate_to_fact`. */
  function D47(kb: Kb, p: Premise): (r: Result<seq<Fact>>)
    ensures |p.lines| == 4 ==> (
      var l := p.lines;
      r.Ok? &&
      (r.value != [] <==> (
        l[1] == l[2] && Corners47(kb, l) &&
        Distinct3(Hit(kb, l[0], l[1]), Hit(kb, l[0], l[3]), Hit(kb, l[1], l[3])))) &&
      (r.value != [] ==> r.value == [Fact(Cong, [Seg(Segment(Hit(kb, l[0], l[3]), Hit(kb, l[0], l[1]))), Seg(Segment(Hit(kb, l[0], l[3]), Hit(kb, l[1], l[3])))])]))
    ensures |p.lines| != 4 ==> (r.Fail? <==> |p.points| != 8) && (r.Fail? ==> r.error == MalformedArity)
    ensures |p.lines| != 4 && r.Ok? ==> var ps := p.points;
      (r.value != [] <==> (
        ps[1] == ps[2] && ps[1] == ps[4] && ps[3] == ps[5] && ps[3] == ps[7] && ps[0] == ps[6] &&
        !kb.api.containsFact(kb.api.toFact(Pred("coll", [ps[0], ps[1], ps[3]]))))) &&
      (r.value != [] ==> r.value == [Fact(Cong, [Seg(Segment(ps[0], ps[1])), Seg(Segment(ps[0], ps[3]))])])
  {
    if |p.lines| == 4 then
      var l := p.lines;
      if l[1] != l[2] || !Corners47(kb, l) then Ok([])
      else
        var a, o, b := Hit(kb, l[0], l[1]), Hit(kb, l[0], l[3]), Hit(kb, l[1], l[3]);
        if a == o || a == b || o == b then Ok([])
        else Ok([Fact(Cong, [Seg(Segment(o, a)), Seg(Segment(o, b))])])
    else if |p.points| != 8 then Fail(MalformedArity)
    else
      var ps := p.points;
      var valid := ps[1] == ps[2] && ps[1] == ps[4] && ps[3] == ps[5] && ps[3] == ps[7] && ps[0] == ps[6] &&
        !kb.api.containsFact(kb.api.toFact(Pred("coll", [ps[0], ps[1], ps[3]])));
      if !valid then Ok([]) else Ok([Fact(Cong, [Seg(Segment(ps[0], ps[1])), Seg(Segment(ps[0], ps[3]))])])
  }

  /** D46 and D47 undo each other: the base-angle eqangle D46 writes for
      cong(O,A,O,B), read back in its line form by D47 with the database
      placing O, A, B at the intersections of those lines, gives back the
      congruence of O-A and O-B (when B is not O itself). */
  lemma D46ThenD47(kb: Kb, o: Point, a: Point, b: Point, pts: seq<Point>)
    requires D46(kb, Premise("cong", [o, a, o, b], [])).Ok? && D46(kb, Premise("cong", [o, a, o, b], [])).value != []
    requires var n := Match(kb.store.lines, [(o, a), (a, b), (o, b)]).value.names;
      kb.api.lineIntersection(n[0], n[1]) == [a] && kb.api.lineIntersection(n[0], n[2]) == [o] &&
      kb.api.lineIntersection(n[1], n[2]) == [b]
    ensures var q := D46(kb, Premise("cong", [o, a, o, b], [])).value[0];
      |q.objects| == 4 && q.objects[0].Name? && q.objects[1].Name? && q.objects[2].Name? && q.objects[3].Name? &&
      D47(kb, Premise("eqangle", pts, [q.objects[0].name, q.objects[1].name, q.objects[2].name, q.objects[3].name])) ==
        Ok(if o == b then [] else [Fact(Cong, [Seg(Segment(o, a)), Seg(Segment(o, b))])])
  {
    var n := Match(kb.store.lines, [(o, a), (a, b), (o, b)]).value.names;
    D46Shape(kb, o, a, b);
    var q := D46(kb, Premise("cong", [o, a, o, b], [])).value[0];
    var l := [q.objects[0].name, q.objects[1].name, q.objects[2].name, q.objects[3].name];
    assert l == [n[0], n[1], n[1], n[2]];
    D47OnCorners(kb, pts, l, o, a, b);
  }

  /** What D46 concludes from cong(O,A,O,B) when it concludes anything. */
  lemma D46Shape(kb: Kb, o: Point, a: Point, b: Point)
    requires D46(kb, Premise("cong", [o, a, o, b], [])).Ok? && D46(kb, Premise("cong", [o, a, o, b], [])).value != []
    ensures o != a && a != b
    ensures Match(kb.store.lines, [(o, a), (a, b), (o, b)]).Ok?
    ensures var n := Match(kb.store.lines, [(o, a), (a, b), (o, b)]).value.names;
      |n| == 3 && D46(kb, Premise("cong", [o, a, o, b], [])).value == [On(Eqangle, [n[0], n[1], n[1], n[2]])]
  {
    var ps := [o, a, o, b];
    assert ps[0] == o && ps[1] == a && ps[2] == o && ps[3] == b;
    assert [(ps[0], ps[1]), (ps[1], ps[3]), (ps[0], ps[3])] == [(o, a), (a, b), (o, b)];
  }

  /** D47 on the lines of an isosceles corner pattern with apex O. */
  lemma D47OnCorners(kb: Kb, pts: seq<Point>, l: seq<LineKey>, o: Point, a: Point, b: Point)
    requires |l| == 4 && l[1] == l[2] && o != a && a != b
    requires kb.api.lineIntersection(l[0], l[1]) == [a] && kb.api.lineIntersection(l[0], l[3]) == [o]
    requires kb.api.lineIntersection(l[1], l[3]) == [b]
    ensures D47(kb, Premise("eqangle", pts, l)) == Ok(if o == b then [] else [Fact(Cong, [Seg(Segment(o, a)), Seg(Segment(o, b))])])
  {
    assert Hit(kb, l[0], l[1]) == a && Hit(kb, l[0], l[3]) == o && Hit(kb, l[1], l[3]) == b;
  }

  // ------------------------------------------------------ simtri / contri

  /** D59: simtri(A,B,C,P,Q,R) => eqratio(A,B,A,C,P,Q,P,R): similar
      triangles have proportional sides at corresponding vertices. */
  function D59(p: Premise): (r: Result<seq<Fact>>)
    ensures r.Fail? <==> |p.points| != 6
    ensures r.Fail? ==> r.error == MalformedArity
    ensures r.Ok? ==> var ps := p.points;
      r.value == [Fact(Eqratio, [Seg(Segment(ps[0], ps[1])), Seg(Segment(ps[0], ps[2])), Seg(Segment(ps[3], ps[4])), Seg(Segment(ps[3], ps[5]))])]
  {
    if |p.points| != 6 then Fail(MalformedArity)
    else
      var ps := p.points;
      Ok([Fact(Eqratio, [Seg(Segment(ps[0], ps[1])), Seg(Segment(ps[0], ps[2])), Seg(Segment(ps[3], ps[4])), Seg(Segment(ps[3], ps[5]))])])
  }

  /** D60: simtri(A,B,C,P,Q,R) => eqangle(A,B,A,C,P,Q,P,R): the angles at
      corresponding vertices are equal; nothing is written when the two
      angles are the same angle. */
  function D60(kb: Kb, p: Premise): (r: Result<seq<Fact>>)
    ensures |p.points| != 6 ==> r == Fail(MalformedArity)
    ensures r.Fail? ==> r.error in {MalformedArity, NameExhausted}
    ensures |p.points| == 6 ==> var ps := p.points;
      var pairs := [(ps[0], ps[1]), (ps[0], ps[2]), (ps[3], ps[4]), (ps[3], ps[5])];
      var m := Match(kb.store.lines, pairs);
      (r.Fail? <==> m.Fail?) &&
      (r.Ok? ==> (
        Lined(m.value.dict, m.value.names, pairs) &&
        var n := m.value.names;
        (r.value != [] <==> Angle(n[0], n[1]) != Angle(n[2], n[3])) &&
        (r.value != [] ==> r.value == [On(Eqangle, n)])))
  {
    if |p.points| != 6 then Fail(MalformedArity)
    else
      var ps := p.points;
      var m :- Match(kb.store.lines, [(ps[0], ps[1]), (ps[0], ps[2]), (ps[3], ps[4]), (ps[3], ps[5])]);
      var n := m.names;
      assert n == [n[0], n[1], n[2], n[3]];
      if Angle(n[0], n[1]) == Angle(n[2], n[3]) then Ok([]) else Ok([On(Eqangle, [n[0], n[1], n[2], n[3]])])
  }

  /** D62: contri(A,B,C,P,Q,R) => cong(A,B,P,Q): congruent triangles have
      equal corresponding sides. */
  function D62(p: Premise): (r: Result<seq<Fact>>)
    ensures r.Fail? <==> |p.points| != 6
    ensures r.Fail? ==> r.error == MalformedArity
    ensures r.Ok? ==> var ps := p.points;
      r.value == [Fact(Cong, [Seg(Segment(ps[0], ps[1])), Seg(Segment(ps[3], ps[4]))])]
  {
    if |p.points| != 6 then Fail(MalformedArity)
    else Ok([Fact(Cong, [Seg(Segment(p.points[0], p.points[1])), Seg(Segment(p.points[3], p.points[4]))])])
  }

  // ---------------------------------------------------------------- midp

  /** D68: midp(A,B,C) => cong(A,B,A,C): the midpoint is as far from both ends. */
  function D68(p: Premise): (r: Result<seq<Fact>>)
    ensures r.Fail? <==> |p.points| != 3
    ensures r.Fail? ==> r.error == MalformedArity
    ensures r.Ok? ==> var ps := p.points;
      r.value == [Fact(Cong, [Seg(Segment(ps[0], ps[1])), Seg(Segment(ps[0], ps[2]))])]
  {
    if |p.points| != 3 then Fail(MalformedArity)
    else Ok([Fact(Cong, [Seg(Segment(p.points[0], p.points[1])), Seg(Segment(p.points[0], p.points[2]))])])
  }

  /** D69: midp(A,B,C) => coll(A,B,C): the midpoint lies on its segment. */
  function D69(p: Premise): (r: Result<seq<Fact>>)
    ensures r.Fail? <==> |p.points| != 3
    ensures r.Fail? ==> r.error == MalformedArity
    ensures r.Ok? ==> r.value == [On(Coll, p.points)]
  {
    if |p.points| != 3 then Fail(MalformedArity)
    else Ok([On(Coll, p.points)])
  }

  /** D68 and D69 split a midpoint into its two halves, and X4 puts it back
      together: once the database holds the collinearity D69 writes, the
      congruence D68 writes, as the premise cong(M,A,M,B), gives midp(M,A,B)
      again. */
  lemma MidpRoundTrip(kb: Kb, m: Point, a: Point, b: Point, lines: seq<LineKey>)
    requires kb.api.containsFact(D69(Premise("midp", [m, a, b], [])).value[0])
    ensures D68(Premise("midp", [m, a, b], [])) == Ok([Fact(Cong, [Seg(Segment(m, a)), Seg(Segment(m, b))])])
    ensures X4(kb, Premise("cong", [m, a, m, b], lines)) == Ok([On(Midp, [m, a, b])])
  {
  }

  // ----------------------------------------------------- self-symmetric

  /** D71: eqangle(A,B,C,D,C,D,A,B) & not para(A,B,C,D) => perp(A,B,C,D).
      Line form: the angle from l1 to l2 equals the angle back, and the two
      lines are not known parallel.  The point form asks `self.prove`,
      which `FC` does not define: an AttributeError once the points unpack. */
  function D71(kb: Kb, p: Premise): (r: Result<seq<Fact>>)
    ensures |p.lines| == 4 ==> (
      var l := p.lines;
      r.Ok? &&
      (r.value != [] <==> l[0] == l[3] && l[1] == l[2] && !kb.api.containsFact(On(Para, [l[0], l[1]]))) &&
      (r.value != [] ==> r.value == [On(Perp, [l[0], l[1]])]))
    ensures |p.lines| != 4 ==> (
      r.Fail? && (r.error == MalformedArity <==> |p.points| != 8) && r.error in {MalformedArity, TypeMismatch})
  {
    if |p.lines| == 4 then
      var l := p.lines;
      if l[0] != l[3] || l[1] != l[2] || kb.api.containsFact(On(Para, [l[0], l[1]])) then Ok([])
      else Ok([On(Perp, [l[0], l[1]])])
    else if |p.points| != 8 then Fail(MalformedArity)
    else Fail(TypeMismatch)
  }

  /** X3 and D71 undo each other: the self-symmetric eqangle X3 writes for
      perp(A,B,C,D), read back in its line form by D71, gives the
      perpendicular again unless the two lines are known parallel. */
  lemma X3ThenD71(kb: Kb, p: Premise, pts: seq<Point>)
    requires X3(kb, p).Ok?
    ensures var l := TwoLines(kb, p.points).value;
      X3(kb, p).value == [On(Eqangle, [l.0, l.1, l.1, l.0])] &&
      D71(kb, Premise("eqangle", pts, [l.0, l.1, l.1, l.0])) ==
        Ok(if kb.api.containsFact(On(Para, [l.0, l.1])) then [] else [On(Perp, [l.0, l.1])])
  {
  }

  /** D72: eqangle(A,B,C,D,C,D,A,B) & not perp(A,B,C,D) => para(A,B,C,D) is
      switched off in this revision: its body is commented out. */
  function D72(p: Premise): (r: Result<seq<Fact>>)
    ensures r == Ok([])
  {
    Ok([])
  }

  /** D73: eqangle(A,B,C,D,P,Q,U,V) & para(P,Q,U,V) => para(A,B,C,D).  Line
      form: when the second angle's lines are known parallel, so are the
      first angle's, unless they are one line.  The point form asks the
      undefined `self.prove`. */
  function D73(kb: Kb, p: Premise): (r: Result<seq<Fact>>)
    ensures |p.lines| == 4 ==> (
      var l := p.lines;
      r.Ok? &&
      (r.value != [] <==> kb.api.containsFact(On(Para, [l[2], l[3]])) && l[0] != l[1]) &&
      (r.value != [] ==> r.value == [On(Para, [l[0], l[1]])]))
    ensures |p.lines| != 4 ==> (
      r.Fail? && (r.error == MalformedArity <==> |p.points| != 8) && r.error in {MalformedArity, TypeMismatch})
  {
    if |p.lines| == 4 then
      var l := p.lines;
      if kb.api.containsFact(On(Para, [l[2], l[3]])) && l[0] != l[1] then Ok([On(Para, [l[0], l[1]])]) else Ok([])
    else if |p.points| != 8 then Fail(MalformedArity)
    else Fail(TypeMismatch)
  }

  /** D74: eqangle(A,B,C,D,P,Q,U,V) & perp(P,Q,U,V) => perp(A,B,C,D).  Line
      form: when the second angle's lines are known perpendicular, so are
      the first angle's.  The point form asks the undefined `self.prove`. */
  function D74(kb: Kb, p: Premise): (r: Result<seq<Fact>>)
    ensures |p.lines| == 4 ==> (
      var l := p.lines;
      r.Ok? &&
      (r.value != [] <==> kb.api.containsFact(On(Perp, [l[2], l[3]]))) &&
      (r.value != [] ==> r.value == [On(Perp, [l[0], l[1]])]))
    ensures |p.lines| != 4 ==> (
      r.Fail? && (r.error == MalformedArity <==> |p.points| != 8) && r.error in {MalformedArity, TypeMismatch})
  {
    if |p.lines| == 4 then
      var l := p.lines;
      if kb.api.containsFact(On(Perp, [l[2], l[3]])) then Ok([On(Perp, [l[0], l[1]])]) else Ok([])
    else if |p.points| != 8 then Fail(MalformedArity)
    else Fail(TypeMismatch)
  }

  /** D73 and D74 pass a relation between the second angle's lines on to
      the first angle's: applied to an angle and itself, they give back
      whatever the database holds about its lines (for para, when they are
      two lines). */
  lemma TransferOnItself(kb: Kb, a: LineKey, b: LineKey, pts: seq<Point>)
    ensures D74(kb, Premise("eqangle", pts, [a, b, a, b])) ==
      Ok(if kb.api.containsFact(On(Perp, [a, b])) then [On(Perp, [a, b])] else [])
    ensures D73(kb, Premise("eqangle", pts, [a, b, a, b])) ==
      Ok(if kb.api.containsFact(On(Para, [a, b])) && a != b then [On(Para, [a, b])] else [])
  {
  }
}

=== FILE: fcsearch.dfy ===
/** The rule bodies of `src/rules.py` that search the database for a second
    premise: the congruence classes (D12, D61, D75), the equal-angle groups
    (D22, D58) and the midpoint triples (D44, D52, D63, D64, D70), and the
    one that reads two lines' points (D65).  Conclusions that name lines are
    drafted first and their lines matched afterwards, in loop order. */
module FcSearch {
  import opened Common
  import opened Primitives
  import opened Facts
  import opened Snapshot
  import opened RuleKit
  import opened FcKit
  import GroupStore
  import PointQuery
  import PointSearch
  import CongSearch
  import MidSearch

  /** A fact over two segments. */
  function SegFact(k: Kind, s1: Segment, s2: Segment): (f: Fact)
    ensures f.kind == k && f.objects == [Seg(s1), Seg(s2)]
  {
    Fact(k, [Seg(s1), Seg(s2)])
  }

  /** eqratio over four segments. */
  function RatioFact(s1: Segment, s2: Segment, s3: Segment, s4: Segment): (f: Fact)
    ensures f.kind == Eqratio && f.objects == [Seg(s1), Seg(s2), Seg(s3), Seg(s4)]
  {
    Fact(Eqratio, [Seg(s1), Seg(s2), Seg(s3), Seg(s4)])
  }

  /** The facts once the drafts' lines are matched, in draft order. */
  function Drawn(kb: Kb, drafts: seq<Draft>): (r: Result<seq<Fact>>)
    ensures r.Fail? ==> r.error == NameExhausted
    ensures r.Ok? ==> Drafted(kb, r.value, drafts)
  {
    var s :- Settle(kb.store.lines, drafts);
    Ok(s.1)
  }

  /** `fs` realises `drafts` position by position over lines that extend
      the store's. */
  ghost predicate Drafted(kb: Kb, fs: seq<Fact>, drafts: seq<Draft>) {
    exists lines :: kb.store.lines <= lines && AllRealise(lines, fs, drafts)
  }

  /** As many facts as drafts, each of the draft's kind. */
  lemma DraftedKinds(kb: Kb, fs: seq<Fact>, drafts: seq<Draft>)
    requires Drafted(kb, fs, drafts)
    ensures |fs| == |drafts| && forall k | 0 <= k < |fs| :: fs[k].kind == drafts[k].kind && |fs[k].objects| == |drafts[k].pairs|
  {
    var lines :| kb.store.lines <= lines && AllRealise(lines, fs, drafts);
  }

  // ---------------------------------------------------------------- D12

  /** D12: cong(O,A,O,B) & cong(O,A,O,C) => circle(O,A,B,C), for every
      segment of the class of O-A that has O as an end and a far end C that
      is neither A nor B. */
  function D12(kb: Kb, p: Premise): (r: Result<seq<Fact>>)
    ensures |p.points| != 4 ==> r == Fail(MalformedArity)
    ensures r.Fail? ==> r.error in {MalformedArity, NameExhausted}
    ensures |p.points| == 4 && (p.points[0] != p.points[2] || p.points[1] == p.points[3]) ==> r == Ok([])
    ensures |p.points| == 4 && p.points[0] == p.points[2] && p.points[1] != p.points[3] ==>
      (r.Fail? <==> CongThrough(kb, p.points[0], p.points[1]).Fail?)
    ensures r.Ok? && r.value != [] ==> (
      var o, a, b := p.points[0], p.points[1], p.points[3];
      var segs := CongThrough(kb, o, a).value.members;
      forall f :: f in r.value <==> exists k | 0 <= k < |segs| ::
        o in [segs[k].p1, segs[k].p2] && PointSearch.FarEnd(segs[k], o) !in [a, b] &&
        f == On(Kind.Circle, [o, a, b, PointSearch.FarEnd(segs[k], o)]))
  {
    if |p.points| != 4 then Fail(MalformedArity)
    else
      var ps := p.points;
      var o, a, b := ps[0], ps[1], ps[3];
      if o != ps[2] || a == b then Ok([])
      else
        var cls :- CongThrough(kb, o, a);
        Ok(Select(cls.members, (s: Segment) => o in [s.p1, s.p2] && PointSearch.FarEnd(s, o) !in [a, b],
                  (s: Segment) => On(Kind.Circle, [o, a, b, PointSearch.FarEnd(s, o)])))
  }

  /** Every circle D12 concludes has its fourth point as far from O as A
      is: the class that holds O-A holds O-C too. */
  lemma D12Equidistant(kb: Kb, p: Premise, f: Fact)
    requires D12(kb, p).Ok? && f in D12(kb, p).value
    ensures |p.points| == 4 && CongThrough(kb, p.points[0], p.points[1]).Ok?
    ensures var o, a, b := p.points[0], p.points[1], p.points[3];
      var segs := CongThrough(kb, o, a).value.members;
      |f.objects| == 4 && f.objects[3].Name? && f == On(Kind.Circle, [o, a, b, f.objects[3].name]) &&
      f.objects[3].name !in [a, b] &&
      GroupStore.HasSeg(segs, Segment(o, a)) && GroupStore.HasSeg(segs, Segment(o, f.objects[3].name))
  {
    var o, a, b := p.points[0], p.points[1], p.points[3];
    var segs := CongThrough(kb, o, a).value.members;
    var k :| 0 <= k < |segs| && o in [segs[k].p1, segs[k].p2] && PointSearch.FarEnd(segs[k], o) !in [a, b] &&
      f == On(Kind.Circle, [o, a, b, PointSearch.FarEnd(segs[k], o)]);
    var c := CircleThrough(o, a, b, segs[k], f);
    CongSearch.HasSegJoins(segs, o, c);
  }

  /** A circle drawn from a segment at O names that segment's far end. */
  lemma CircleThrough(o: Point, a: Point, b: Point, s: Segment, f: Fact) returns (c: Point)
    requires o in [s.p1, s.p2] && f == On(Kind.Circle, [o, a, b, PointSearch.FarEnd(s, o)])
    ensures c == PointSearch.FarEnd(s, o) && CongSearch.Joins(s, o, c)
    ensures |f.objects| == 4 && f.objects[3] == Name(c)
  {
    c := PointSearch.FarEnd(s, o);
    assert [o, a, b, c][3] == c;
  }

  // ---------------------------------------------------------------- D22

  /** eqangle over the angle `front`, then the angle `a`. */
  function AngleFact(front: Angle, a: Angle): (f: Fact)
    ensures f == On(Eqangle, [front.lk1, front.lk2, a.lk1, a.lk2])
  {
    On(Eqangle, [front.lk1, front.lk2, a.lk1, a.lk2])
  }

  /** One recorded group of equal angles against the premise's angles `x`
      and `y`: a group holding `x` pairs `y` with each of its other angles;
      failing that, a group holding `y` pairs `x` with them. */
  function D22Group(x: Angle, y: Angle, g: seq<Angle>): (r: seq<Fact>)
    ensures x in g ==> forall f :: f in r <==> exists j | 0 <= j < |g| :: g[j] != x && g[j] != y && f == AngleFact(y, g[j])
    ensures x !in g && y in g ==> forall f :: f in r <==> exists j | 0 <= j < |g| :: g[j] != x && g[j] != y && f == AngleFact(x, g[j])
    ensures x !in g && y !in g ==> r == []
  {
    if x in g then Select(g, (a: Angle) => a != x && a != y, (a: Angle) => AngleFact(y, a))
    else if y in g then Select(g, (a: Angle) => a != x && a != y, (a: Angle) => AngleFact(x, a))
    else []
  }

  /** D22: eqangle(AB,CD,PQ,UV) & eqangle(PQ,UV,EF,GH) => eqangle(AB,CD,EF,GH),
      over line keys: every angle of a group that holds one premise angle,
      other than the two premise angles, is equal to the other premise
      angle. */
  function D22(kb: Kb, p: Premise): (r: Result<seq<Fact>>)
    ensures r.Fail? <==> |p.lines| != 4
    ensures r.Fail? ==> r.error == MalformedArity
    ensures r.Ok? ==> (
      var x, y, gs := Angle(p.lines[0], p.lines[1]), Angle(p.lines[2], p.lines[3]), kb.store.eqangleFacts;
      forall f :: f in r.value <==> exists i | 0 <= i < |gs| :: f in D22Group(x, y, gs[i]))
  {
    if |p.lines| != 4 then Fail(MalformedArity)
    else
      var x, y := Angle(p.lines[0], p.lines[1]), Angle(p.lines[2], p.lines[3]);
      Ok(Each(kb.store.eqangleFacts, (g: seq<Angle>) => D22Group(x, y, g)))
  }

  /** A conclusion one group gives: its first angle is a premise angle, its
      second an angle of the group, neither premise angle, and the group
      holds the other premise angle. */
  predicate Chained(x: Angle, y: Angle, g: seq<Angle>, f: Fact) {
    f.kind == Eqangle && |f.objects| == 4 && f.objects[0].Name? && f.objects[1].Name? &&
    f.objects[2].Name? && f.objects[3].Name? &&
    var front, back := Angle(f.objects[0].name, f.objects[1].name), Angle(f.objects[2].name, f.objects[3].name);
    back != x && back != y && back in g && ((front == y && x in g) || (front == x && y in g))
  }

  lemma D22GroupChains(x: Angle, y: Angle, g: seq<Angle>, f: Fact)
    requires f in D22Group(x, y, g)
    ensures Chained(x, y, g, f)
  {
    var front := if x in g then y else x;
    var j :| 0 <= j < |g| && g[j] != x && g[j] != y && f == AngleFact(front, g[j]);
    var a := g[j];
    assert f.objects == [Name(front.lk1), Name(front.lk2), Name(a.lk1), Name(a.lk2)];
  }

  /** Each D22 conclusion chains through one recorded group: it starts with
      one premise angle and ends with an angle, neither premise angle, that
      shares a group with the other premise angle. */
  lemma D22Chains(kb: Kb, p: Premise, f: Fact)
    requires D22(kb, p).Ok? && f in D22(kb, p).value
    ensures exists i | 0 <= i < |kb.store.eqangleFacts| ::
      Chained(Angle(p.lines[0], p.lines[1]), Angle(p.lines[2], p.lines[3]), kb.store.eqangleFacts[i], f)
  {
    var x, y, gs := Angle(p.lines[0], p.lines[1]), Angle(p.lines[2], p.lines[3]), kb.store.eqangleFacts;
    var i :| 0 <= i < |gs| && f in D22Group(x, y, gs[i]);
    D22GroupChains(x, y, gs[i], f);
  }

  // ---------------------------------------------------------------- D44

  /** `d` drafts para(E,F,X,Y) for the recorded midpoint F of A-Y, where the
      premise makes E the midpoint of A-X: the two segments share exactly
      the end A, and A, X, Y are not a known collinear triple. */
  predicate Linked(kb: Kb, e: Point, a1: Point, b: Point, mf: seq<Point>, d: Draft) {
    |mf| == 3 && mf[0] != e && |MidSearch.Shared(a1, b, mf[1], mf[2])| == 1 &&
    var a := MidSearch.Shared(a1, b, mf[1], mf[2])[0];
    d.kind == Para && |d.pairs| == 2 && d.pairs[0] == (e, mf[0]) &&
    multiset{a, d.pairs[1].0} == multiset{a1, b} && multiset{a, d.pairs[1].1} == multiset{mf[1], mf[2]} &&
    !kb.api.containsFact(On(Coll, [a, d.pairs[1].0, d.pairs[1].1]))
  }

  /** When the triple passes both tests, exactly one draft links it. */
  lemma LinkedExactly(kb: Kb, e: Point, a1: Point, b: Point, mf: seq<Point>)
    requires |mf| == 3 && mf[0] != e && |MidSearch.Shared(a1, b, mf[1], mf[2])| == 1
    ensures var a := MidSearch.Shared(a1, b, mf[1], mf[2])[0];
      var far1, far2 := MidSearch.OtherEnd(a, a1, b), MidSearch.OtherEnd(a, mf[1], mf[2]);
      forall d :: Linked(kb, e, a1, b, mf, d) <==>
        d == Draft(Para, [(e, mf[0]), (far1, far2)]) && !kb.api.containsFact(On(Coll, [a, far1, far2]))
  {
    var a := MidSearch.Shared(a1, b, mf[1], mf[2])[0];
    assert a in MidSearch.Shared(a1, b, mf[1], mf[2]);
    MidSearch.OtherEndUnique(a, a1, b);
    MidSearch.OtherEndUnique(a, mf[1], mf[2]);
    var far1, far2 := MidSearch.OtherEnd(a, a1, b), MidSearch.OtherEnd(a, mf[1], mf[2]);
    forall d ensures Linked(kb, e, a1, b, mf, d) <==>
        d == Draft(Para, [(e, mf[0]), (far1, far2)]) && !kb.api.containsFact(On(Coll, [a, far1, far2])) {
      if Linked(kb, e, a1, b, mf, d) {
        assert d.pairs == [(e, mf[0]), (far1, far2)];
      }
    }
  }

  /** One midpoint triple F-A2-C against the premise midp(E, A1, B). */
  function D44Step(kb: Kb, e: Point, a1: Point, b: Point, mf: seq<Point>): (r: Result<seq<Draft>>)
    ensures r.Fail? <==> |mf| != 3
    ensures r.Fail? ==> r.error == MalformedArity
    ensures r.Ok? ==> |r.value| <= 1 && forall d :: d in r.value <==> Linked(kb, e, a1, b, mf, d)
  {
    if |mf| != 3 then Fail(MalformedArity)
    else
      var f, a2, c := mf[0], mf[1], mf[2];
      var shared := MidSearch.Shared(a1, b, a2, c);
      if e == f || |shared| != 1 then Ok([])
      else
        var a := shared[0];
        var far1, far2 := MidSearch.OtherEnd(a, a1, b), MidSearch.OtherEnd(a, a2, c);
        LinkedExactly(kb, e, a1, b, mf);
        if kb.api.containsFact(On(Coll, [a, far1, far2])) then Ok([]) else Ok([Draft(Para, [(e, f), (far1, far2)])])
  }

  /** The drafts of D44, every triple checked against the premise's own ends. */
  function D44Drafts(kb: Kb, ps: seq<Point>): (r: Result<seq<Draft>>)
    ensures |ps| != 3 ==> r == Fail(MalformedArity)
    ensures r.Fail? ==> r.error == MalformedArity
    ensures |ps| == 3 ==> (r.Ok? <==> forall i | 0 <= i < |kb.store.midpFacts| :: |kb.store.midpFacts[i]| == 3)
    ensures r.Ok? ==> forall d :: d in r.value <==> exists i | 0 <= i < |kb.store.midpFacts| ::
      Linked(kb, ps[0], ps[1], ps[2], kb.store.midpFacts[i], d)
  {
    if |ps| != 3 then Fail(MalformedArity)
    else Gather(kb.store.midpFacts, (mf: seq<Point>) => D44Step(kb, ps[0], ps[1], ps[2], mf))
  }

  /** D44: midp(E,A,B) & midp(F,A,C) => para(EF, BC) over line keys, for
      every recorded triple sharing exactly one end with A-B. */
  function D44(kb: Kb, p: Premise): (r: Result<seq<Fact>>)
    ensures |p.points| != 3 ==> r == Fail(MalformedArity)
    ensures r.Fail? ==> r.error in {MalformedArity, NameExhausted}
    ensures r.Fail? && r.error == MalformedArity <==> D44Drafts(kb, p.points).Fail?
    ensures r.Ok? ==> D44Drafts(kb, p.points).Ok? && Drafted(kb, r.value, D44Drafts(kb, p.points).value)
  {
    var drafts :- D44Drafts(kb, p.points);
    Drawn(kb, drafts)
  }

  /** The loop of D44 as written, `B` carried from one triple to the next. */
  function D44Loop(kb: Kb, e: Point, a1: Point, b: Point, facts: seq<seq<Point>>): (r: Result<seq<Draft>>)
    ensures r.Fail? <==> exists i | 0 <= i < |facts| :: |facts[i]| != 3
    ensures r.Fail? ==> r.error == MalformedArity
    ensures r.Ok? && facts != [] ==>
      forall d | d in r.value :: d in D44Step(kb, e, a1, b, facts[0]).value ||
        d in D44Loop(kb, e, a1, MidSearch.Rebound(e, a1, b, facts[0]), facts[1..]).value
    decreases |facts|
  {
    if facts == [] then Ok([])
    else
      var step := D44Step(kb, e, a1, b, facts[0]);
      var rest := D44Loop(kb, e, a1, MidSearch.Rebound(e, a1, b, facts[0]), facts[1..]);
      assert forall i | 0 <= i < |facts[1..]| :: facts[1..][i] == facts[i + 1];
      assert forall i | 1 <= i < |facts| :: facts[i] == facts[1..][i - 1];
      if step.Fail? then Fail(step.error)
      else if rest.Fail? then Fail(rest.error)
      else Ok(step.value + rest.value)
  }

  /** The drafts of D44 as `src/rules.py` writes it: the loop rebinds `B`,
      so after the first triple that shares an end with A-B the later
      triples are checked against the wrong segment. */
  function D44DraftsAsWritten(kb: Kb, ps: seq<Point>): (r: Result<seq<Draft>>)
    ensures |ps| != 3 ==> r == Fail(MalformedArity)
    ensures |ps| == 3 ==> (r.Ok? <==> D44Drafts(kb, ps).Ok?)
    ensures r.Fail? ==> r.error == MalformedArity
  {
    if |ps| != 3 then Fail(MalformedArity)
    else D44Loop(kb, ps[0], ps[1], ps[2], kb.store.midpFacts)
  }

  /** D44 as written: the rebinding drafts, then their lines. */
  function D44AsWritten(kb: Kb, p: Premise): (r: Result<seq<Fact>>)
    ensures |p.points| != 3 ==> r == Fail(MalformedArity)
    ensures r.Fail? ==> r.error in {MalformedArity, NameExhausted}
    ensures r.Ok? ==> D44DraftsAsWritten(kb, p.points).Ok? && Drafted(kb, r.value, D44DraftsAsWritten(kb, p.points).value)
  {
    var drafts :- D44DraftsAsWritten(kb, p.points);
    Drawn(kb, drafts)
  }

  /** The three steps the example below takes. */
  lemma D44ExampleSteps(kb: Kb)
    requires forall f :: !kb.api.containsFact(f)
    ensures D44Step(kb, "E", "A", "B", ["F", "B", "C"]) == Ok([Draft(Para, [("E", "F"), ("A", "C")])])
    ensures D44Step(kb, "E", "A", "A", ["G", "A", "D"]) == Ok([])
    ensures D44Step(kb, "E", "A", "B", ["G", "A", "D"]) == Ok([Draft(Para, [("E", "G"), ("B", "D")])])
    ensures MidSearch.Rebound("E", "A", "B", ["F", "B", "C"]) == "A"
  {
    assert MidSearch.Shared("A", "B", "B", "C") == ["B"];
    assert MidSearch.Shared("A", "A", "A", "D") == ["A", "A"];
    assert MidSearch.Shared("A", "B", "A", "D") == ["A"];
  }

  /** With E the midpoint of A-B, F of B-C and G of A-D, and no collinear
      triple known, both F and G give a parallel; as written, the first
      triple rebinds B to A and the second is then skipped. */
  lemma D44RebindingLosesConclusion(kb: Kb)
    requires kb.store.midpFacts == [["F", "B", "C"], ["G", "A", "D"]]
    requires forall f :: !kb.api.containsFact(f)
    ensures D44DraftsAsWritten(kb, ["E", "A", "B"]) == Ok([Draft(Para, [("E", "F"), ("A", "C")])])
    ensures D44Drafts(kb, ["E", "A", "B"]) == Ok([Draft(Para, [("E", "F"), ("A", "C")]), Draft(Para, [("E", "G"), ("B", "D")])])
    ensures D44AsWritten(kb, Premise("midp", ["E", "A", "B"], [])).Ok? ==> |D44AsWritten(kb, Premise("midp", ["E", "A", "B"], [])).value| == 1
    ensures D44(kb, Premise("midp", ["E", "A", "B"], [])).Ok? ==> |D44(kb, Premise("midp", ["E", "A", "B"], [])).value| == 2
  {
    var f1, f2 := ["F", "B", "C"], ["G", "A", "D"];
    D44ExampleSteps(kb);
    var d1, d2 := Draft(Para, [("E", "F"), ("A", "C")]), Draft(Para, [("E", "G"), ("B", "D")]);
    var tail := [f2];
    assert tail[0] == f2 && tail[1..] == [];
    var s2 := D44Step(kb, "E", "A", "A", f2);
    var r2 := D44Loop(kb, "E", "A", MidSearch.Rebound("E", "A", "A", f2), []);
    assert s2 == Ok([]) && r2 == Ok([]);
    assert s2.value + r2.value == [];
    assert D44Loop(kb, "E", "A", "A", tail) == Ok(s2.value + r2.value);
    var facts := kb.store.midpFacts;
    assert facts[0] == f1 && facts[1..] == tail;
    var s1 := D44Step(kb, "E", "A", "B", f1);
    var r1 := D44Loop(kb, "E", "A", MidSearch.Rebound("E", "A", "B", f1), tail);
    assert s1.value == [d1] && r1.value == [];
    assert s1.value + r1.value == [d1];
    assert D44Loop(kb, "E", "A", "B", facts) == Ok(s1.value + r1.value);
    var g := (mf: seq<Point>) => D44Step(kb, "E", "A", "B", mf);
    assert g(f1) == Ok([d1]) && g(f2) == Ok([d2]);
    assert Gather(tail[1..], g) == Ok([]);
    assert Gather(tail, g) == Ok([d2] + []);
    assert [d2] + [] == [d2];
    assert Gather(facts, g) == Ok([d1] + [d2]);
    assert [d1] + [d2] == [d1, d2];
    var p := Premise("midp", ["E", "A", "B"], []);
    assert D44Drafts(kb, p.points) == Gather(facts, g);
    if D44AsWritten(kb, p).Ok? {
      DraftedKinds(kb, D44AsWritten(kb, p).value, D44DraftsAsWritten(kb, p.points).value);
    }
    if D44(kb, p).Ok? {
      DraftedKinds(kb, D44(kb, p).value, D44Drafts(kb, p.points).value);
    }
  }

  // ---------------------------------------------------------------- D52

  /** cong(A,M,B,M). */
  function Centre(a: Point, b: Point, m: Point): (f: Fact)
    ensures f == SegFact(Cong, Segment(a, m), Segment(b, m))
  {
    SegFact(Cong, Segment(a, m), Segment(b, m))
  }

  /** D52 (perp form): perp(A,B,B,C) & midp(M,A,C) => cong(A,M,B,M), for
      every recorded midpoint M of A-C. */
  function D52Perp(kb: Kb, p: Premise): (r: Result<seq<Fact>>)
    ensures r.Fail? <==> |p.points| != 4
    ensures r.Fail? ==> r.error == MalformedArity
    ensures r.Ok? ==> var ps := p.points;
      (ps[1] != ps[2] || ps[0] == ps[3] || ps[0] == ps[1] ==> r.value == []) &&
      (ps[1] == ps[2] && ps[0] != ps[3] && ps[0] != ps[1] ==>
        forall f :: f in r.value <==> (|f.objects| == 2 && f.objects[0].Seg? &&
          f == Centre(ps[0], ps[1], f.objects[0].seg.p2) &&
          GroupStore.MidpTriple(f.objects[0].seg.p2, ps[0], ps[3]) in kb.store.midpFacts))
  {
    if |p.points| != 4 then Fail(MalformedArity)
    else
      var ps := p.points;
      var a, b, c := ps[0], ps[1], ps[3];
      if b != ps[2] || a == c || a == b then Ok([])
      else
        var ms := MidSearch.Midpoints(kb.store.midpFacts, a, c);
        var r := Each(ms, (m: Point) => [Centre(a, b, m)]);
        assert forall f :: f in r <==> (|f.objects| == 2 && f.objects[0].Seg? &&
          f == Centre(a, b, f.objects[0].seg.p2) && f.objects[0].seg.p2 in ms) by {
          forall f ensures f in r <==> (|f.objects| == 2 && f.objects[0].Seg? &&
            f == Centre(a, b, f.objects[0].seg.p2) && f.objects[0].seg.p2 in ms) {
            if f in r {
              var i :| 0 <= i < |ms| && f in [Centre(a, b, ms[i])];
            }
            if |f.objects| == 2 && f.objects[0].Seg? && f == Centre(a, b, f.objects[0].seg.p2) && f.objects[0].seg.p2 in ms {
              var i :| 0 <= i < |ms| && ms[i] == f.objects[0].seg.p2;
              assert f in [Centre(a, b, ms[i])];
            }
          }
        }
        Ok(r)
  }

  /** Once `midp(M, A, C)` is recorded, every right angle at B over A-C
      gives cong(A,M,B,M). */
  lemma D52SeesNewMidpoint(kb: Kb, m: Point, a: Point, b: Point, c: Point)
    requires MidSearch.WithMidp(kb, m, a, c).Ok? && a != c && a != b
    ensures D52Perp(MidSearch.WithMidp(kb, m, a, c).value, Premise("perp", [a, b, b, c], [])).Ok?
    ensures Centre(a, b, m) in D52Perp(MidSearch.WithMidp(kb, m, a, c).value, Premise("perp", [a, b, b, c], [])).value
  {
    var k := MidSearch.WithMidp(kb, m, a, c).value;
    var pts := [m, a, c];
    assert pts[0] == m && pts[1] == a && pts[2] == c;
    assert GroupStore.MidpTriple(m, a, c) in k.store.midpFacts;
    var ps := [a, b, b, c];
    assert ps[0] == a && ps[1] == b && ps[2] == b && ps[3] == c;
    assert Centre(a, b, m).objects[0].seg.p2 == m;
  }

  // ---------------------------------------------------------------- D58

  /** The premise's lines, B where the first two meet and Q where the last
      two meet. */
  datatype Frame = Frame(l1: LineKey, l2: LineKey, l3: LineKey, l4: LineKey, b: Point, q: Point)

  /** The angles of `e` with `l` as a side, each flagged with whether `l`
      is its first side. */
  function Sided(e: seq<Angle>, l: LineKey): (r: seq<(bool, Angle)>)
    ensures forall x :: x in r <==> x.1 in e && (l == x.1.lk1 || l == x.1.lk2) && x.0 == (l == x.1.lk1)
  {
    var r := Select(e, (a: Angle) => l == a.lk1 || l == a.lk2, (a: Angle) => (l == a.lk1, a));
    assert forall x :: x in r <==> x.1 in e && (l == x.1.lk1 || l == x.1.lk2) && x.0 == (l == x.1.lk1) by {
      forall x ensures x in r <==> x.1 in e && (l == x.1.lk1 || l == x.1.lk2) && x.0 == (l == x.1.lk1) {
        if x.1 in e && (l == x.1.lk1 || l == x.1.lk2) && x.0 == (l == x.1.lk1) {
          var i :| 0 <= i < |e| && e[i] == x.1;
        }
      }
    }
    r
  }

  /** The side of a flagged angle other than the premise line it shares. */
  function FarSide(x: (bool, Angle)): LineKey {
    if x.0 then x.1.lk2 else x.1.lk1
  }

  /** The group holds none of the premise's two angles, in either order. */
  predicate Untouched(fr: Frame, e: seq<Angle>) {
    Angle(fr.l1, fr.l2) !in e && Angle(fr.l2, fr.l1) !in e && Angle(fr.l3, fr.l4) !in e && Angle(fr.l4, fr.l3) !in e
  }

  /** The two flagged angles share their line with the premise on the same
      side, are known equal, and every intersection the conclusion needs
      exists and gives two proper triangles that are not the same one. */
  predicate Fires(kb: Kb, fr: Frame, x: (bool, Angle), y: (bool, Angle)) {
    x.0 == y.0 && kb.api.containsFact(On(Eqangle, [x.1.lk1, x.1.lk2, y.1.lk1, y.1.lk2])) &&
    Meets(kb, x.1.lk1, x.1.lk2) && Meets(kb, y.1.lk1, y.1.lk2) &&
    Meets(kb, FarSide(x), fr.l1) && Meets(kb, FarSide(y), fr.l3) &&
    var a, c := Hit(kb, FarSide(x), fr.l1), Hit(kb, x.1.lk1, x.1.lk2);
    var p, r := Hit(kb, FarSide(y), fr.l3), Hit(kb, y.1.lk1, y.1.lk2);
    (fr.b != fr.q || c != r || a != p) && Distinct3(a, fr.b, c) && Distinct3(p, fr.q, r)
  }

  /** simtri(A,B,C,P,Q,R): A on the far side of the first angle and the
      premise's first line, C the first angle's vertex; P and R likewise
      for the second angle. */
  function SimFact(kb: Kb, fr: Frame, x: (bool, Angle), y: (bool, Angle)): (f: Fact)
    requires Fires(kb, fr, x, y)
    ensures f.kind == Simtri && |f.objects| == 2 && f.objects[0].Tri? && f.objects[1].Tri?
    ensures var t, u := f.objects[0].tri, f.objects[1].tri;
      t.p1 in kb.api.lineIntersection(FarSide(x), fr.l1) && t.p2 == fr.b && t.p3 in kb.api.lineIntersection(x.1.lk1, x.1.lk2) &&
      u.p1 in kb.api.lineIntersection(FarSide(y), fr.l3) && u.p2 == fr.q && u.p3 in kb.api.lineIntersection(y.1.lk1, y.1.lk2) &&
      Distinct3(t.p1, t.p2, t.p3) && Distinct3(u.p1, u.p2, u.p3) && t != u
  {
    var a, c := Hit(kb, FarSide(x), fr.l1), Hit(kb, x.1.lk1, x.1.lk2);
    var p, r := Hit(kb, FarSide(y), fr.l3), Hit(kb, y.1.lk1, y.1.lk2);
    Fact(Simtri, [Tri(Triangle(a, fr.b, c)), Tri(Triangle(p, fr.q, r))])
  }

  /** `f` is the conclusion of the flagged angles `x` and `y`. */
  predicate Fired(kb: Kb, fr: Frame, x: (bool, Angle), y: (bool, Angle), f: Fact) {
    Fires(kb, fr, x, y) && f == SimFact(kb, fr, x, y)
  }

  /** A conclusion one group gives: two of its angles, one on each premise
      line's side, fire together. */
  predicate Sees(kb: Kb, fr: Frame, e: seq<Angle>, f: Fact) {
    Untouched(fr, e) &&
    exists x, y | x in Sided(e, fr.l2) && y in Sided(e, fr.l4) :: Fired(kb, fr, x, y, f)
  }

  /** The conclusion of one pair of flagged angles, if they fire. */
  function Pick(kb: Kb, fr: Frame, x: (bool, Angle), y: (bool, Angle)): (r: seq<Fact>)
    ensures forall f :: f in r <==> Fired(kb, fr, x, y, f)
  {
    if Fires(kb, fr, x, y) then [SimFact(kb, fr, x, y)] else []
  }

  /** The angles of `ys` against one angle `x`. */
  function D58Row(kb: Kb, fr: Frame, x: (bool, Angle), ys: seq<(bool, Angle)>): (r: seq<Fact>)
    ensures forall f :: f in r <==> exists y | y in ys :: Fired(kb, fr, x, y, f)
  {
    var r := Each(ys, (y: (bool, Angle)) => Pick(kb, fr, x, y));
    assert forall f :: f in r <==> exists y | y in ys :: Fired(kb, fr, x, y, f) by {
      forall f ensures f in r <==> exists y | y in ys :: Fired(kb, fr, x, y, f) {
        if f in r {
          var i :| 0 <= i < |ys| && f in Pick(kb, fr, x, ys[i]);
          assert Fired(kb, fr, x, ys[i], f);
        }
        if exists y | y in ys :: Fired(kb, fr, x, y, f) {
          var y :| y in ys && Fired(kb, fr, x, y, f);
          var i :| 0 <= i < |ys| && ys[i] == y;
          assert f in Pick(kb, fr, x, ys[i]);
        }
      }
    }
    r
  }

  /** Every angle of `xs` against every angle of `ys`. */
  function D58Rows(kb: Kb, fr: Frame, xs: seq<(bool, Angle)>, ys: seq<(bool, Angle)>): (r: seq<Fact>)
    ensures forall f :: f in r <==> exists x, y | x in xs && y in ys :: Fired(kb, fr, x, y, f)
  {
    var r := Each(xs, (x: (bool, Angle)) => D58Row(kb, fr, x, ys));
    assert forall f :: f in r <==> exists x, y | x in xs && y in ys :: Fired(kb, fr, x, y, f) by {
      forall f ensures f in r <==> exists x, y | x in xs && y in ys :: Fired(kb, fr, x, y, f) {
        if f in r {
          var i :| 0 <= i < |xs| && f in D58Row(kb, fr, xs[i], ys);
          var y :| y in ys && Fired(kb, fr, xs[i], y, f);
          assert xs[i] in xs;
        }
        if exists x, y | x in xs && y in ys :: Fired(kb, fr, x, y, f) {
          var x, y :| x in xs && y in ys && Fired(kb, fr, x, y, f);
          var i :| 0 <= i < |xs| && xs[i] == x;
          assert f in D58Row(kb, fr, xs[i], ys);
        }
      }
    }
    r
  }

  /** One recorded group of equal angles against the premise. */
  function D58Group(kb: Kb, fr: Frame, e: seq<Angle>): (r: seq<Fact>)
    ensures forall f :: f in r <==> Sees(kb, fr, e, f)
  {
    if !Untouched(fr, e) then [] else D58Rows(kb, fr, Sided(e, fr.l2), Sided(e, fr.l4))
  }

  /** The premise's frame, once both of its line pairs are known to meet. */
  function FrameOf(kb: Kb, l: seq<LineKey>): Frame
    requires |l| == 4 && Meets(kb, l[0], l[1]) && Meets(kb, l[2], l[3])
  {
    Frame(l[0], l[1], l[2], l[3], Hit(kb, l[0], l[1]), Hit(kb, l[2], l[3]))
  }

  /** D58: eqangle(AB,BC,PQ,QR) & eqangle(AC,BC,PR,QR) => simtri(A,B,C,P,Q,R),
      over line keys: with B where the premise's first two lines meet and Q
      where its last two meet, every recorded group that holds neither
      premise angle offers pairs of known-equal angles to close the two
      triangles.  The source checks the two intersections twice over
      (src/rules.py:438-447 and 448-457); the second loop repeats the first
      on the same store and returns at the same point, so one check is the
      same rule. */
  function D58(kb: Kb, p: Premise): (r: Result<seq<Fact>>)
    ensures r.Fail? <==> |p.lines| != 4
    ensures r.Fail? ==> r.error == MalformedArity
    ensures r.Ok? && (p.lines[0] == p.lines[1] || !Meets(kb, p.lines[0], p.lines[1]) || !Meets(kb, p.lines[2], p.lines[3])) ==> r.value == []
    ensures r.Ok? && p.lines[0] != p.lines[1] && Meets(kb, p.lines[0], p.lines[1]) && Meets(kb, p.lines[2], p.lines[3]) ==>
      forall f :: f in r.value <==> exists i | 0 <= i < |kb.store.eqangleFacts| :: Sees(kb, FrameOf(kb, p.lines), kb.store.eqangleFacts[i], f)
  {
    if |p.lines| != 4 then Fail(MalformedArity)
    else
      var l := p.lines;
      if l[0] == l[1] || !Meets(kb, l[0], l[1]) || !Meets(kb, l[2], l[3]) then Ok([])
      else
        var fr := FrameOf(kb, l);
        Ok(Each(kb.store.eqangleFacts, (e: seq<Angle>) => D58Group(kb, fr, e)))
  }

  /** Triangles `t` and `u` close against the premise lines `l` through the
      group `e`: both are proper and differ, their middle vertices lie where
      the premise's line pairs meet, and their third vertices are the
      vertices of two known-equal angles of `e`, one on the second premise
      line and one on the fourth, while `e` holds neither premise angle. */
  predicate Closes(kb: Kb, l: seq<LineKey>, e: seq<Angle>, t: Triangle, u: Triangle)
    requires |l| == 4
  {
    Distinct3(t.p1, t.p2, t.p3) && Distinct3(u.p1, u.p2, u.p3) && t != u &&
    t.p2 in kb.api.lineIntersection(l[0], l[1]) && u.p2 in kb.api.lineIntersection(l[2], l[3]) &&
    Angle(l[0], l[1]) !in e && Angle(l[2], l[3]) !in e &&
    exists a, b | a in e && b in e ::
      (l[1] == a.lk1 || l[1] == a.lk2) && (l[3] == b.lk1 || l[3] == b.lk2) &&
      kb.api.containsFact(On(Eqangle, [a.lk1, a.lk2, b.lk1, b.lk2])) &&
      t.p3 in kb.api.lineIntersection(a.lk1, a.lk2) && u.p3 in kb.api.lineIntersection(b.lk1, b.lk2)
  }

  /** The conclusion of two fired angles closes through their group. */
  lemma FiredCloses(kb: Kb, l: seq<LineKey>, e: seq<Angle>, x: (bool, Angle), y: (bool, Angle), f: Fact)
    requires |l| == 4 && Meets(kb, l[0], l[1]) && Meets(kb, l[2], l[3]) && Untouched(FrameOf(kb, l), e)
    requires x in Sided(e, l[1]) && y in Sided(e, l[3]) && Fired(kb, FrameOf(kb, l), x, y, f)
    ensures f.kind == Simtri && |f.objects| == 2 && f.objects[0].Tri? && f.objects[1].Tri?
    ensures Closes(kb, l, e, f.objects[0].tri, f.objects[1].tri)
  {
    var fr := FrameOf(kb, l);
    var t, u := f.objects[0].tri, f.objects[1].tri;
    var a, b := x.1, y.1;
    assert a in e && b in e && (l[1] == a.lk1 || l[1] == a.lk2) && (l[3] == b.lk1 || l[3] == b.lk2);
    assert kb.api.containsFact(On(Eqangle, [a.lk1, a.lk2, b.lk1, b.lk2]));
    assert t.p3 in kb.api.lineIntersection(a.lk1, a.lk2) && u.p3 in kb.api.lineIntersection(b.lk1, b.lk2);
    assert t.p2 in kb.api.lineIntersection(l[0], l[1]) && u.p2 in kb.api.lineIntersection(l[2], l[3]);
  }

  /** Every D58 conclusion is two proper, different triangles that close
      through one recorded group of equal angles. */
  lemma D58Sound(kb: Kb, p: Premise, f: Fact)
    requires D58(kb, p).Ok? && f in D58(kb, p).value
    ensures |p.lines| == 4 && f.kind == Simtri && |f.objects| == 2 && f.objects[0].Tri? && f.objects[1].Tri?
    ensures exists i | 0 <= i < |kb.store.eqangleFacts| :: Closes(kb, p.lines, kb.store.eqangleFacts[i], f.objects[0].tri, f.objects[1].tri)
  {
    var l, es := p.lines, kb.store.eqangleFacts;
    var r := D58(kb, p).value;
    assert |l| == 4 && l[0] != l[1] && Meets(kb, l[0], l[1]) && Meets(kb, l[2], l[3]) by {
      assert r != [];
    }
    var fr := FrameOf(kb, l);
    assert exists i | 0 <= i < |es| :: Sees(kb, fr, es[i], f);
    var i :| 0 <= i < |es| && Sees(kb, fr, es[i], f);
    var e := es[i];
    var x, y :| x in Sided(e, fr.l2) && y in Sided(e, fr.l4) && Fired(kb, fr, x, y, f);
    FiredCloses(kb, l, e, x, y, f);
    assert Closes(kb, l, e, f.objects[0].tri, f.objects[1].tri);
  }

  // ---------------------------------------------------------------- D61

  /** Some class holds a segment equal to `s1` and one equal to `s2`. */
  predicate SameClass(congs: GroupStore.Congs, s1: Segment, s2: Segment) {
    exists i | 0 <= i < |congs| :: GroupStore.HasSeg(congs[i].members, s1) && GroupStore.HasSeg(congs[i].members, s2)
  }

  /** The first class holding both segments, or `|congs|`. */
  function ClassWithBoth(congs: GroupStore.Congs, s1: Segment, s2: Segment): (i: nat)
    ensures i <= |congs| && (i < |congs| <==> SameClass(congs, s1, s2))
  {
    FirstIndex(congs, (e: Entry<CongKey, Segment>) => GroupStore.HasSeg(e.members, s1) && GroupStore.HasSeg(e.members, s2))
  }

  /** D61: simtri(A,B,C,P,Q,R) & cong(A,B,P,Q) => contri(A,B,C,P,Q,R), once
      one class holds both A-B and P-Q. */
  function D61Simtri(kb: Kb, p: Premise): (r: Result<seq<Fact>>)
    ensures r.Fail? <==> |p.points| != 6
    ensures r.Fail? ==> r.error == MalformedArity
    ensures r.Ok? ==> var ps := p.points;
      (r.value != [] <==> SameClass(kb.store.congs, Segment(ps[0], ps[1]), Segment(ps[3], ps[4]))) &&
      (r.value != [] ==> r.value == [Fact(Contri, [Tri(Triangle(ps[0], ps[1], ps[2])), Tri(Triangle(ps[3], ps[4], ps[5]))])])
  {
    if |p.points| != 6 then Fail(MalformedArity)
    else
      var ps := p.points;
      if ClassWithBoth(kb.store.congs, Segment(ps[0], ps[1]), Segment(ps[3], ps[4])) < |kb.store.congs| then
        Ok([Fact(Contri, [Tri(Triangle(ps[0], ps[1], ps[2])), Tri(Triangle(ps[3], ps[4], ps[5]))])])
      else Ok([])
  }

  /** Once the store records cong(A,B,P,Q), similar triangles over those
      sides are concluded congruent. */
  lemma D61AfterCong(kb: Kb, ps: seq<Point>)
    requires |ps| == 6 && GroupStore.AddCongPair(kb.store.congs, Segment(ps[0], ps[1]), Segment(ps[3], ps[4])).Ok?
    ensures var k := kb.(store := kb.store.(congs := GroupStore.AddCongPair(kb.store.congs, Segment(ps[0], ps[1]), Segment(ps[3], ps[4])).value));
      D61Simtri(k, Premise("simtri", ps, [])) == Ok([Fact(Contri, [Tri(Triangle(ps[0], ps[1], ps[2])), Tri(Triangle(ps[3], ps[4], ps[5]))])])
  {
    GroupStore.CongCovers(kb.store.congs, Segment(ps[0], ps[1]), Segment(ps[3], ps[4]));
  }

  // ---------------------------------------------------------------- D63

  /** One recorded fact against the premise midp(M, A, B) of D63: another
      segment C-D with the same midpoint drafts para(AC, BD). */
  function D63Step(m: Point, a: Point, b: Point, f: seq<Point>): (r: Result<seq<Draft>>)
    ensures r.Fail? <==> |f| == 0 || (f[0] == m && f != GroupStore.MidpTriple(m, a, b) && |f| != 3)
    ensures r.Fail? ==> r.error == IndexOutOfRange || r.error == MalformedArity
    ensures r.Ok? ==> forall d :: d in r.value <==> MidSearch.Around(m, a, b, f) && d == Draft(Para, [(a, f[1]), (b, f[2])])
  {
    if |f| == 0 then Fail(IndexOutOfRange)
    else if f[0] != m || f == GroupStore.MidpTriple(m, a, b) then Ok([])
    else if |f| != 3 then Fail(MalformedArity)
    else Ok([Draft(Para, [(a, f[1]), (b, f[2])])])
  }

  /** The drafts of D63, one per other recorded segment around M. */
  function D63Drafts(kb: Kb, ps: seq<Point>): (r: Result<seq<Draft>>)
    ensures |ps| != 3 ==> r == Fail(MalformedArity)
    ensures r.Fail? ==> r.error == IndexOutOfRange || r.error == MalformedArity
    ensures |ps| == 3 ==> var facts := kb.store.midpFacts;
      (r.Ok? <==> forall i | 0 <= i < |facts| ::
        |facts[i]| != 0 && (facts[i][0] == ps[0] && facts[i] != GroupStore.MidpTriple(ps[0], ps[1], ps[2]) ==> |facts[i]| == 3))
    ensures r.Ok? ==> var facts := kb.store.midpFacts;
      forall d :: d in r.value <==> exists i | 0 <= i < |facts| ::
        MidSearch.Around(ps[0], ps[1], ps[2], facts[i]) && d == Draft(Para, [(ps[1], facts[i][1]), (ps[2], facts[i][2])])
  {
    if |ps| != 3 then Fail(MalformedArity)
    else Gather(kb.store.midpFacts, (f: seq<Point>) => D63Step(ps[0], ps[1], ps[2], f))
  }

  /** D63: midp(M,A,B) & midp(M,C,D) => para(AC, BD) over line keys. */
  function D63(kb: Kb, p: Premise): (r: Result<seq<Fact>>)
    ensures |p.points| != 3 ==> r == Fail(MalformedArity)
    ensures r.Fail? ==> r.error in {IndexOutOfRange, MalformedArity, NameExhausted}
    ensures r.Fail? && r.error != NameExhausted <==> D63Drafts(kb, p.points).Fail?
    ensures r.Ok? ==> D63Drafts(kb, p.points).Ok? && Drafted(kb, r.value, D63Drafts(kb, p.points).value)
  {
    var drafts :- D63Drafts(kb, p.points);
    Drawn(kb, drafts)
  }

  /** With the facts in the store's own form, D63 never pairs the premise's
      segment with itself: each drafted parallel joins A and B to the ends
      of another segment. */
  lemma D63OtherSegment(kb: Kb, ps: seq<Point>, d: Draft)
    requires MidSearch.Canonical(kb.store.midpFacts) && |ps| == 3
    requires D63Drafts(kb, ps).Ok? && d in D63Drafts(kb, ps).value
    ensures d.kind == Para && |d.pairs| == 2 && d.pairs[0].0 == ps[1] && d.pairs[1].0 == ps[2]
    ensures multiset{d.pairs[0].1, d.pairs[1].1} != multiset{ps[1], ps[2]}
  {
    var facts := kb.store.midpFacts;
    var i :| 0 <= i < |facts| && MidSearch.Around(ps[0], ps[1], ps[2], facts[i]) && d == Draft(Para, [(ps[1], facts[i][1]), (ps[2], facts[i][2])]);
    var f := facts[i];
    assert f == GroupStore.MidpTriple(f[0], f[1], f[2]);
    MidSearch.SameTriple(ps[0], ps[1], ps[2], f[1], f[2]);
  }

  // ---------------------------------------------------------------- D64

  /** Some recorded parallel group holds both lines. */
  predicate ParaGroup(kb: Kb, l1: LineKey, l2: LineKey) {
    exists i | 0 <= i < |kb.store.paraFacts| :: l1 in kb.store.paraFacts[i] && l2 in kb.store.paraFacts[i]
  }

  /** D64: para(A,C,B,D) & para(A,D,B,C) & midp(M,A,B) => midp(M,C,D): when
      the lines A-D and B-C share a parallel group, the first recorded
      midpoint M of A-B is also the midpoint of C-D. */
  function D64(kb: Kb, p: Premise): (r: Result<seq<Fact>>)
    ensures |p.points| != 4 ==> r == Fail(MalformedArity)
    ensures r.Fail? ==> r.error == MalformedArity || r.error == NameExhausted
    ensures |p.points| == 4 ==> var ps := p.points;
      var m := Match(kb.store.lines, [(ps[0], ps[3]), (ps[2], ps[1])]);
      (r.Fail? <==> m.Fail?) &&
      (r.Ok? ==> (r.value != [] <==> (ParaGroup(kb, m.value.names[0], m.value.names[1]) &&
                   exists mid :: GroupStore.MidpTriple(mid, ps[0], ps[2]) in kb.store.midpFacts)))
    ensures r.Ok? && r.value != [] ==> |p.points| == 4 && |r.value| == 1 && |r.value[0].objects| == 3 && r.value[0].objects[0].Name?
    ensures r.Ok? && r.value != [] ==> var ps, mid := p.points, r.value[0].objects[0].name;
      r.value[0] == On(Midp, GroupStore.MidpTriple(mid, ps[1], ps[3])) && GroupStore.MidpTriple(mid, ps[0], ps[2]) in kb.store.midpFacts
  {
    if |p.points| != 4 then Fail(MalformedArity)
    else
      var ps := p.points;
      var m :- Match(kb.store.lines, [(ps[0], ps[3]), (ps[2], ps[1])]);
      var ms := MidSearch.Midpoints(kb.store.midpFacts, ps[0], ps[2]);
      if !ParaGroup(kb, m.names[0], m.names[1]) || ms == [] then Ok([])
      else
        assert ms[0] in ms;
        var f := On(Midp, GroupStore.MidpTriple(ms[0], ps[1], ps[3]));
        assert f.objects[0] == Name(ms[0]);
        Ok([f])
  }

  /** D64's conclusion is already in the form the store records, so the
      midpoint handler would keep its ends as they are. */
  lemma D64StoredForm(kb: Kb, p: Premise)
    requires D64(kb, p).Ok? && D64(kb, p).value != []
    ensures exists t :: D64(kb, p).value[0] == On(Midp, t) && MidSearch.Canonical([t])
  {
    var f, ps := D64(kb, p).value[0], p.points;
    StoredTriple(f.objects[0].name, ps[1], ps[3]);
  }

  /** A triple written by the midpoint handler's rule is in stored form. */
  lemma StoredTriple(m: Point, a: Point, b: Point)
    ensures MidSearch.Canonical([GroupStore.MidpTriple(m, a, b)])
  {
    MidSearch.TripleCanonical(m, a, b);
  }

  // ---------------------------------------------------------------- D65

  /** eqratio(O,A,A,C,O,B,B,D). */
  function Cut(o: Point, a: Point, b: Point, c: Point, d: Point): (f: Fact)
    ensures f == RatioFact(Segment(o, a), Segment(a, c), Segment(o, b), Segment(b, d))
  {
    RatioFact(Segment(o, a), Segment(a, c), Segment(o, b), Segment(b, d))
  }

  /** `f` is eqratio(O,A,A,C,O,B,B,D) for a point O of both `pac` and
      `pbd` other than A and B. */
  predicate CutAt(pac: seq<Point>, pbd: seq<Point>, a: Point, b: Point, c: Point, d: Point, f: Fact) {
    |f.objects| == 4 && f.objects[0].Seg? &&
    var o := f.objects[0].seg.p1;
    o in pac && o in pbd && o != a && o != b && f == Cut(o, a, b, c, d)
  }

  /** The loop over the points of line A-C. */
  function Cuts(pac: seq<Point>, pbd: seq<Point>, a: Point, b: Point, c: Point, d: Point): (r: seq<Fact>)
    ensures forall f :: f in r <==> CutAt(pac, pbd, a, b, c, d, f)
  {
    var r := Each(pac, (o: Point) => if o in pbd && o != a && o != b then [Cut(o, a, b, c, d)] else []);
    assert forall f :: f in r <==> CutAt(pac, pbd, a, b, c, d, f) by {
      forall f ensures f in r <==> CutAt(pac, pbd, a, b, c, d, f) {
        if f in r {
          var i :| 0 <= i < |pac| && f in (if pac[i] in pbd && pac[i] != a && pac[i] != b then [Cut(pac[i], a, b, c, d)] else []);
        }
        if CutAt(pac, pbd, a, b, c, d, f) {
          var i :| 0 <= i < |pac| && pac[i] == f.objects[0].seg.p1;
          assert f in (if pac[i] in pbd && pac[i] != a && pac[i] != b then [Cut(pac[i], a, b, c, d)] else []);
        }
      }
    }
    r
  }

  /** D65: para(A,B,C,D) & coll(O,A,C) & coll(O,B,D) => eqratio(O,A,A,C,O,B,B,D),
      for every point O other than A and B on both line A-C and line B-D. */
  function D65(kb: Kb, p: Premise): (r: Result<seq<Fact>>)
    ensures |p.points| != 4 ==> r == Fail(MalformedArity)
    ensures r.Fail? ==> r.error == MalformedArity || r.error == NameExhausted
    ensures |p.points| == 4 ==> var ps := p.points;
      var m := Match(kb.store.lines, [(ps[0], ps[2]), (ps[1], ps[3])]);
      (r.Fail? <==> m.Fail?) &&
      (r.Ok? ==> (
        var pac, pbd := PointQuery.LineMembers(m.value.dict, m.value.names[0]), PointQuery.LineMembers(m.value.dict, m.value.names[1]);
        forall f :: f in r.value <==> CutAt(pac, pbd, ps[0], ps[1], ps[2], ps[3], f)))
  {
    if |p.points| != 4 then Fail(MalformedArity)
    else
      var ps := p.points;
      var m :- Match(kb.store.lines, [(ps[0], ps[2]), (ps[1], ps[3])]);
      Ok(Cuts(PointQuery.LineMembers(m.dict, m.names[0]), PointQuery.LineMembers(m.dict, m.names[1]), ps[0], ps[1], ps[2], ps[3]))
  }

  /** With distinct line names in the store, every O of a D65 conclusion is
      read from the line the rule matched through A and C, which also holds
      A and C, and from the one through B and D. */
  lemma D65Collinear(kb: Kb, p: Premise, f: Fact)
    requires NoDup(Keys(kb.store.lines)) && D65(kb, p).Ok? && f in D65(kb, p).value
    ensures |p.points| == 4 && |f.objects| == 4 && f.objects[0].Seg?
    ensures var ps, o := p.points, f.objects[0].seg.p1;
      var m := Match(kb.store.lines, [(ps[0], ps[2]), (ps[1], ps[3])]).value;
      var pac, pbd := PointQuery.LineMembers(m.dict, m.names[0]), PointQuery.LineMembers(m.dict, m.names[1]);
      o in pac && ps[0] in pac && ps[2] in pac && o in pbd && ps[1] in pbd && ps[3] in pbd
  {
    var ps := p.points;
    var pairs := [(ps[0], ps[2]), (ps[1], ps[3])];
    var m := Match(kb.store.lines, pairs).value;
    assert GroupStore.MatchLines(kb.store.lines, pairs).Ok?;
    PointQuery.MatchLinesKeysDistinct(kb.store.lines, pairs);
    assert Lined(m.dict, m.names, pairs);
    PointQuery.ThroughMembers(m.dict, m.names[0], ps[0], ps[2]);
    PointQuery.ThroughMembers(m.dict, m.names[1], ps[1], ps[3]);
  }

  // ---------------------------------------------------------------- D70

  /** eqratio(M,A,A,B,N,C,C,D). */
  function Halves(m: Point, a: Point, b: Point, f: seq<Point>): (r: Fact)
    requires |f| == 3
    ensures r == RatioFact(Segment(m, a), Segment(a, b), Segment(f[0], f[1]), Segment(f[1], f[2]))
  {
    RatioFact(Segment(m, a), Segment(a, b), Segment(f[0], f[1]), Segment(f[1], f[2]))
  }

  /** One recorded fact against the premise midp(M, A, B) of D70. */
  function D70Step(m: Point, a: Point, b: Point, f: seq<Point>): (r: Result<seq<Fact>>)
    ensures r.Fail? <==> f != GroupStore.MidpTriple(m, a, b) && |f| != 3
    ensures r.Fail? ==> r.error == MalformedArity
    ensures r.Ok? ==> forall q :: q in r.value <==> f != GroupStore.MidpTriple(m, a, b) && |f| == 3 && q == Halves(m, a, b, f)
  {
    if f == GroupStore.MidpTriple(m, a, b) then Ok([])
    else if |f| != 3 then Fail(MalformedArity)
    else Ok([Halves(m, a, b, f)])
  }

  /** D70: midp(M,A,B) & midp(N,C,D) => eqratio(M,A,A,B,N,C,C,D), for every
      other recorded midpoint triple. */
  function D70(kb: Kb, p: Premise): (r: Result<seq<Fact>>)
    ensures |p.points| != 3 ==> r == Fail(MalformedArity)
    ensures r.Fail? ==> r.error == MalformedArity
    ensures |p.points| == 3 ==> var ps, facts := p.points, kb.store.midpFacts;
      (r.Ok? <==> forall i | 0 <= i < |facts| :: facts[i] == GroupStore.MidpTriple(ps[0], ps[1], ps[2]) || |facts[i]| == 3)
    ensures r.Ok? ==> var ps, facts := p.points, kb.store.midpFacts;
      forall q :: q in r.value <==> exists i | 0 <= i < |facts| ::
        facts[i] != GroupStore.MidpTriple(ps[0], ps[1], ps[2]) && |facts[i]| == 3 && q == Halves(ps[0], ps[1], ps[2], facts[i])
  {
    if |p.points| != 3 then Fail(MalformedArity)
    else
      var ps := p.points;
      Gather(kb.store.midpFacts, (f: seq<Point>) => D70Step(ps[0], ps[1], ps[2], f))
  }

  /** With every fact in the store's own form, D70 relates any two
      recorded midpoints both ways. */
  lemma D70BothWays(kb: Kb, i: nat, j: nat)
    requires MidSearch.Canonical(kb.store.midpFacts) && i < |kb.store.midpFacts| && j < |kb.store.midpFacts|
    requires kb.store.midpFacts[i] != kb.store.midpFacts[j]
    ensures var f, g := kb.store.midpFacts[i], kb.store.midpFacts[j];
      D70(kb, Premise("midp", f, [])).Ok? && Halves(f[0], f[1], f[2], g) in D70(kb, Premise("midp", f, [])).value
    ensures var f, g := kb.store.midpFacts[i], kb.store.midpFacts[j];
      D70(kb, Premise("midp", g, [])).Ok? && Halves(g[0], g[1], g[2], f) in D70(kb, Premise("midp", g, [])).value
  {
    var facts := kb.store.midpFacts;
    MidSearch.OtherTriple(facts, j, i, facts[i]);
    MidSearch.OtherTriple(facts, i, j, facts[j]);
  }

  // ---------------------------------------------------------------- D75

  /** Every pairing of a segment of `s1` with one of `s2`, as a congruence. */
  function Pairings(s1: seq<Segment>, s2: seq<Segment>): (r: seq<Fact>)
    ensures forall f :: f in r <==> (|f.objects| == 2 && f.objects[0].Seg? && f.objects[1].Seg? &&
      f.objects[0].seg in s1 && f.objects[1].seg in s2 && f == SegFact(Cong, f.objects[0].seg, f.objects[1].seg))
  {
    var r := Each(s1, (a: Segment) => Each(s2, (b: Segment) => [SegFact(Cong, a, b)]));
    assert forall f :: f in r <==> (|f.objects| == 2 && f.objects[0].Seg? && f.objects[1].Seg? &&
        f.objects[0].seg in s1 && f.objects[1].seg in s2 && f == SegFact(Cong, f.objects[0].seg, f.objects[1].seg)) by {
      forall f ensures f in r <==> (|f.objects| == 2 && f.objects[0].Seg? && f.objects[1].Seg? &&
          f.objects[0].seg in s1 && f.objects[1].seg in s2 && f == SegFact(Cong, f.objects[0].seg, f.objects[1].seg)) {
        if f in r {
          var i :| 0 <= i < |s1| && f in Each(s2, (b: Segment) => [SegFact(Cong, s1[i], b)]);
          var j :| 0 <= j < |s2| && f in [SegFact(Cong, s1[i], s2[j])];
        }
        if |f.objects| == 2 && f.objects[0].Seg? && f.objects[1].Seg? &&
            f.objects[0].seg in s1 && f.objects[1].seg in s2 && f == SegFact(Cong, f.objects[0].seg, f.objects[1].seg) {
          var i :| 0 <= i < |s1| && s1[i] == f.objects[0].seg;
          var j :| 0 <= j < |s2| && s2[j] == f.objects[1].seg;
          assert f in [SegFact(Cong, s1[i], s2[j])];
          assert f in Each(s2, (b: Segment) => [SegFact(Cong, s1[i], b)]);
        }
      }
    }
    r
  }

  /** `ratio` is another ratio than the premise's `x` (under `same`), and
      `f` pairs a segment of its first class with one of its second. */
  predicate Transferred(congs: GroupStore.Congs, x: Ratio, same: (Ratio, Ratio) -> bool, ratio: Ratio, f: Fact) {
    !same(ratio, x) && Read(congs, ratio.c1).Ok? && Read(congs, ratio.c2).Ok? &&
    f in Pairings(Read(congs, ratio.c1).value, Read(congs, ratio.c2).value)
  }

  /** One ratio of a group that holds the premise's ratio. */
  function Transfer(congs: GroupStore.Congs, x: Ratio, same: (Ratio, Ratio) -> bool, ratio: Ratio): (r: Result<seq<Fact>>)
    ensures r.Fail? ==> r.error == KeyMissing
    ensures r.Ok? ==> forall f :: f in r.value <==> Transferred(congs, x, same, ratio, f)
  {
    if same(ratio, x) then Ok([])
    else
      var s1 :- Read(congs, ratio.c1);
      var s2 :- Read(congs, ratio.c2);
      Ok(Pairings(s1, s2))
  }

  /** The group holds the premise's ratio, compared with `same`. */
  predicate Holds(g: seq<Ratio>, x: Ratio, same: (Ratio, Ratio) -> bool) {
    exists k | 0 <= k < |g| :: same(g[k], x)
  }

  /** `f` is transferred from some ratio of a group that holds the
      premise's ratio. */
  predicate GroupGives(congs: GroupStore.Congs, x: Ratio, same: (Ratio, Ratio) -> bool, g: seq<Ratio>, f: Fact) {
    Holds(g, x, same) && exists j | 0 <= j < |g| :: Transferred(congs, x, same, g[j], f)
  }

  /** One recorded group of equal ratios against the premise's ratio. */
  function D75Group(congs: GroupStore.Congs, x: Ratio, same: (Ratio, Ratio) -> bool, g: seq<Ratio>): (r: Result<seq<Fact>>)
    ensures !Holds(g, x, same) ==> r == Ok([])
    ensures r.Fail? ==> r.error == KeyMissing
    ensures r.Ok? ==> forall f :: f in r.value <==> GroupGives(congs, x, same, g, f)
  {
    if !Holds(g, x, same) then Ok([])
    else Gather(g, (ratio: Ratio) => Transfer(congs, x, same, ratio))
  }

  /** D75 (cong form) with the ratio comparison `same` as a parameter:
      cong(P,Q,U,V) & eqratio(A,B,C,D,P,Q,U,V) => cong(A,B,C,D).  The
      classes of P-Q and U-V are matched first; every recorded group that
      holds their ratio makes every other ratio's two classes congruent,
      segment by segment. */
  function D75CongWith(kb: Kb, p: Premise, same: (Ratio, Ratio) -> bool): (r: Result<seq<Fact>>)
    ensures |p.points| != 4 ==> r == Fail(MalformedArity)
    ensures r.Fail? ==> r.error in {MalformedArity, NameExhausted, KeyMissing}
    ensures |p.points| == 4 && CongSearch.Hub(kb, p.points).Fail? ==> r == Fail(NameExhausted)
    ensures |p.points| == 4 && CongSearch.Hub(kb, p.points).Ok? && r.Ok? ==> (
      var h := CongSearch.Hub(kb, p.points).value;
      var x, gs := Ratio(h.1[0], h.1[1]), kb.store.eqratioFacts;
      forall f :: f in r.value <==> exists i | 0 <= i < |gs| :: GroupGives(h.0, x, same, gs[i], f))
    ensures |p.points| == 4 && CongSearch.Hub(kb, p.points).Ok? ==> (
      var h := CongSearch.Hub(kb, p.points).value;
      (forall i | 0 <= i < |kb.store.eqratioFacts| :: !Holds(kb.store.eqratioFacts[i], Ratio(h.1[0], h.1[1]), same)) ==> r == Ok([]))
  {
    if |p.points| != 4 then Fail(MalformedArity)
    else
      var h :- CongSearch.Hub(kb, p.points);
      var x := Ratio(h.1[0], h.1[1]);
      D75Groups(h.0, x, same, kb.store.eqratioFacts)
  }

  /** D75's loop over the recorded groups of equal ratios. */
  function D75Groups(congs: GroupStore.Congs, x: Ratio, same: (Ratio, Ratio) -> bool, gs: seq<seq<Ratio>>): (r: Result<seq<Fact>>)
    ensures r.Fail? ==> r.error == KeyMissing
    ensures r.Ok? ==> forall f :: f in r.value <==> exists i | 0 <= i < |gs| :: GroupGives(congs, x, same, gs[i], f)
    ensures (forall i | 0 <= i < |gs| :: !Holds(gs[i], x, same)) ==> r == Ok([])
  {
    var step := (g: seq<Ratio>) => D75Group(congs, x, same, g);
    var r := Gather(gs, step);
    assert (forall i | 0 <= i < |gs| :: !Holds(gs[i], x, same)) ==> r == Ok([]) by {
      if forall i | 0 <= i < |gs| :: !Holds(gs[i], x, same) {
        GatherNothing(gs, step);
      }
    }
    r
  }

  /** D75 (cong form) as `src/rules.py` writes it.  `Ratio` defines no
      equality, so `Ratio(cPQ, cUV) in ratios` compares a freshly built
      object by identity and never holds: after matching the two classes
      the rule concludes nothing. */
  function D75CongAsWritten(kb: Kb, p: Premise): (r: Result<seq<Fact>>)
    ensures |p.points| != 4 ==> r == Fail(MalformedArity)
    ensures |p.points| == 4 ==> (r.Fail? <==> CongSearch.Hub(kb, p.points).Fail?)
    ensures r.Ok? ==> r.value == []
  {
    D75CongWith(kb, p, (a: Ratio, b: Ratio) => false)
  }

  /** D75 (cong form) with ratios compared by their classes. */
  function D75Cong(kb: Kb, p: Premise): (r: Result<seq<Fact>>)
    ensures |p.points| != 4 ==> r == Fail(MalformedArity)
    ensures r.Fail? ==> r.error in {MalformedArity, NameExhausted, KeyMissing}
    ensures |p.points| == 4 && CongSearch.Hub(kb, p.points).Fail? ==> r == Fail(NameExhausted)
    ensures |p.points| == 4 && CongSearch.Hub(kb, p.points).Ok? && r.Ok? ==> (
      var h := CongSearch.Hub(kb, p.points).value;
      var x, gs := Ratio(h.1[0], h.1[1]), kb.store.eqratioFacts;
      forall f :: f in r.value <==> exists i | 0 <= i < |gs| :: (x in gs[i] &&
        exists j | 0 <= j < |gs[i]| :: (gs[i][j] != x && Read(h.0, gs[i][j].c1).Ok? && Read(h.0, gs[i][j].c2).Ok? &&
          f in Pairings(Read(h.0, gs[i][j].c1).value, Read(h.0, gs[i][j].c2).value))))
  {
    HoldsByClasses();
    D75CongWith(kb, p, ByClasses)
  }

  /** Ratios compared by their two classes. */
  predicate ByClasses(a: Ratio, b: Ratio) {
    a == b
  }

  /** Compared by their classes, a group holds a ratio when it is one of
      its members. */
  lemma HoldsByClasses()
    ensures forall g: seq<Ratio>, x :: Holds(g, x, ByClasses) <==> x in g
  {
    forall g: seq<Ratio>, x ensures Holds(g, x, ByClasses) <==> x in g {
      if x in g {
        var k :| 0 <= k < |g| && g[k] == x;
      }
    }
  }

  /** A recorded group holding the premise's ratio and another ratio over
      classes with segments S1 and S2: compared by their classes, the rule
      concludes cong(S1, S2); as written it concludes nothing. */
  lemma D75CongIdentityLosesConclusions(kb: Kb, p: Premise, i: nat, j: nat, s1: Segment, s2: Segment)
    requires |p.points| == 4 && CongSearch.Hub(kb, p.points).Ok? && D75Cong(kb, p).Ok?
    requires var h := CongSearch.Hub(kb, p.points).value;
      var x, gs := Ratio(h.1[0], h.1[1]), kb.store.eqratioFacts;
      i < |gs| && x in gs[i] && j < |gs[i]| && gs[i][j] != x &&
      Read(h.0, gs[i][j].c1).Ok? && s1 in Read(h.0, gs[i][j].c1).value &&
      Read(h.0, gs[i][j].c2).Ok? && s2 in Read(h.0, gs[i][j].c2).value
    ensures SegFact(Cong, s1, s2) in D75Cong(kb, p).value
    ensures D75CongAsWritten(kb, p) == Ok([])
  {
    var h: (GroupStore.Congs, seq<CongKey>) := CongSearch.Hub(kb, p.points).value;
    var gs: seq<seq<Ratio>> := kb.store.eqratioFacts;
    var f := SegFact(Cong, s1, s2);
    assert f in Pairings(Read(h.0, gs[i][j].c1).value, Read(h.0, gs[i][j].c2).value);
  }

  /** D75 (eqratio form): eqratio(A,B,C,D,P,Q,U,V) & cong(P,Q,U,V) => cong(A,B,C,D),
      once for every class that holds both P-Q and U-V. */
  function D75Eqratio(kb: Kb, p: Premise): (r: Result<seq<Fact>>)
    ensures r.Fail? <==> |p.points| != 8
    ensures r.Fail? ==> r.error == MalformedArity
    ensures r.Ok? ==> var ps := p.points;
      (r.value != [] <==> SameClass(kb.store.congs, Segment(ps[4], ps[5]), Segment(ps[6], ps[7]))) &&
      forall f | f in r.value :: f == SegFact(Cong, Segment(ps[0], ps[1]), Segment(ps[2], ps[3]))
  {
    if |p.points| != 8 then Fail(MalformedArity)
    else
      var ps := p.points;
      var s1, s2 := Segment(ps[4], ps[5]), Segment(ps[6], ps[7]);
      var c := SegFact(Cong, Segment(ps[0], ps[1]), Segment(ps[2], ps[3]));
      var congs := kb.store.congs;
      var r := Select(congs, (e: Entry<CongKey, Segment>) => GroupStore.HasSeg(e.members, s1) && GroupStore.HasSeg(e.members, s2),
                      (e: Entry<CongKey, Segment>) => c);
      assert r != [] <==> SameClass(congs, s1, s2) by {
        if r != [] {
          assert r[0] in r;
        }
        if SameClass(congs, s1, s2) {
          var i :| 0 <= i < |congs| && GroupStore.HasSeg(congs[i].members, s1) && GroupStore.HasSeg(congs[i].members, s2);
          assert c in r;
        }
      }
      Ok(r)
  }

  /** Once the store records cong(P,Q,U,V), an eqratio ending in P-Q and
      U-V gives cong(A,B,C,D). */
  lemma D75EqratioAfterCong(kb: Kb, ps: seq<Point>)
    requires |ps| == 8 && GroupStore.AddCongPair(kb.store.congs, Segment(ps[4], ps[5]), Segment(ps[6], ps[7])).Ok?
    ensures var k := kb.(store := kb.store.(congs := GroupStore.AddCongPair(kb.store.congs, Segment(ps[4], ps[5]), Segment(ps[6], ps[7])).value));
      D75Eqratio(k, Premise("eqratio", ps, [])).Ok? &&
      SegFact(Cong, Segment(ps[0], ps[1]), Segment(ps[2], ps[3])) in D75Eqratio(k, Premise("eqratio", ps, [])).value
  {
    GroupStore.CongCovers(kb.store.congs, Segment(ps[4], ps[5]), Segment(ps[6], ps[7]));
    var k := kb.(store := kb.store.(congs := GroupStore.AddCongPair(kb.store.congs, Segment(ps[4], ps[5]), Segment(ps[6], ps[7])).value));
    var r := D75Eqratio(k, Premise("eqratio", ps, [])).value;
    assert r[0] in r;
  }
}

=== FILE: groups.dfy ===
/** The lists of equivalence groups both stores keep for parallel lines, equal
    angles and equal ratios: each group is a Python set, modelled as a
    duplicate-free sequence. */
module Groups {
  import opened Common

  /** `g.union({a, b})`. */
  function AddBoth<T(==)>(g: seq<T>, a: T, b: T): (r: seq<T>)
    ensures Elems(r) == Elems(g) + {a, b}
    ensures a in r && b in r
    ensures NoDup(g) ==> NoDup(r)
  {
    Insert(Insert(g, a), b)
  }

  /** The old members stay where they were, and at most the two new values
      follow, only one when they are the same value or one is held already. */
  lemma AddBothAppends<T>(g: seq<T>, a: T, b: T)
    ensures |g| <= |AddBoth(g, a, b)| <= |g| + 2 && AddBoth(g, a, b)[..|g|] == g
    ensures a == b || a in g || b in g ==> |AddBoth(g, a, b)| <= |g| + 1
  {
    var h := Insert(g, a);
    assert h[..|g|] == g;
    assert AddBoth(g, a, b)[..|h|] == h;
    assert AddBoth(g, a, b)[..|g|] == h[..|g|];
  }

  /** Does the group hold either value? */
  predicate Touches<T(==)>(g: seq<T>, a: T, b: T) {
    a in g || b in g
  }

  /** The first group holding `a` or `b`, or `|gs|`. */
  function FirstTouching<T(==)>(gs: seq<seq<T>>, a: T, b: T): (i: nat)
    ensures i <= |gs|
    ensures i < |gs| ==> Touches(gs[i], a, b)
    ensures forall j | 0 <= j < i :: !Touches(gs[j], a, b)
  {
    FirstIndex(gs, (g: seq<T>) => Touches(g, a, b))
  }

  /** `paraHandler` / `eqangleHandler` after the names are matched: the first
      group holding either value takes both (the search stops there);
      otherwise `{a, b}` is appended as a new group. */
  function AddPair<T(==)>(gs: seq<seq<T>>, a: T, b: T): (r: seq<seq<T>>)
    ensures exists i | 0 <= i < |r| :: a in r[i] && b in r[i]
    ensures |r| == |gs| + 1 <==> forall j | 0 <= j < |gs| :: !Touches(gs[j], a, b)
    ensures |r| == |gs| + 1 ==> r == gs + [AddBoth([], a, b)]
    ensures |r| == |gs| ==> forall j | 0 <= j < |gs| ::
      r[j] == gs[j] || (Touches(gs[j], a, b) && r[j] == AddBoth(gs[j], a, b) && forall k | 0 <= k < j :: !Touches(gs[k], a, b))
  {
    var i := FirstTouching(gs, a, b);
    if i < |gs| then
      var g := AddBoth(gs[i], a, b);
      assert gs[i := g][i] == g;
      gs[i := g]
    else
      var g := AddBoth([], a, b);
      assert (gs + [g])[|gs|] == g;
      gs + [g]
  }

  /** Adding a pair keeps every group's values and brings in no value but `a`
      and `b`. */
  lemma AddPairElems<T>(gs: seq<seq<T>>, a: T, b: T, j: nat)
    requires j < |AddPair(gs, a, b)|
    ensures j < |gs| ==> Elems(gs[j]) <= Elems(AddPair(gs, a, b)[j])
    ensures j < |gs| ==> Elems(AddPair(gs, a, b)[j]) <= Elems(gs[j]) + {a, b}
    ensures j == |gs| ==> Elems(AddPair(gs, a, b)[j]) == {a, b}
  {
  }

  /** Every value of the groups `r` is `a`, `b`, or a value some group of
      `gs` held. */
  predicate DrawnFrom<T(==)>(r: seq<seq<T>>, gs: seq<seq<T>>, a: T, b: T) {
    forall j, x | 0 <= j < |r| && x in r[j] :: x == a || x == b || exists i | 0 <= i < |gs| :: x in gs[i]
  }

  /** `AddPair` brings in no value but `a` and `b`. */
  lemma AddPairFrom<T>(gs: seq<seq<T>>, a: T, b: T)
    ensures DrawnFrom(AddPair(gs, a, b), gs, a, b)
  {
    var r := AddPair(gs, a, b);
    forall j, x | 0 <= j < |r| && x in r[j] ensures x == a || x == b || exists i | 0 <= i < |gs| :: x in gs[i] {
      AddPairElems(gs, a, b, j);
      assert x in Elems(r[j]);
      if j < |gs| && x != a && x != b {
        assert x in Elems(gs[j]);
      }
    }
  }

  lemma GrowFrom<T>(gs: seq<seq<T>>, h: nat, a: T, b: T)
    requires h < |gs|
    ensures DrawnFrom(gs[h := AddBoth(gs[h], a, b)], gs, a, b)
  {
    var r := gs[h := AddBoth(gs[h], a, b)];
    forall j, x | 0 <= j < |r| && x in r[j] ensures x == a || x == b || exists i | 0 <= i < |gs| :: x in gs[i] {
      if j == h {
        assert x in Elems(AddBoth(gs[h], a, b));
        if x != a && x != b {
          assert x in Elems(gs[h]);
        }
      } else {
        assert r[j] == gs[j];
      }
    }
  }

  lemma FoldIntoFrom<T>(gs: seq<seq<T>>, f: nat, s: nat, a: T, b: T)
    requires f < s < |gs|
    ensures DrawnFrom(FoldInto(gs, f, s, a, b), gs, a, b)
  {
    var r := FoldInto(gs, f, s, a, b);
    forall j, x | 0 <= j < |r| && x in r[j] ensures x == a || x == b || exists i | 0 <= i < |gs| :: x in gs[i] {
      if j == f {
        UnionParts(gs[f], gs[s], a, b, x);
      } else {
        DropOne(gs, s, j);
      }
    }
  }

  lemma UnionParts<T>(g: seq<T>, h: seq<T>, a: T, b: T, x: T)
    requires x in Union(g, AddBoth(h, a, b))
    ensures x in g || x in h || x == a || x == b
  {
    var u := AddBoth(h, a, b);
    assert x in Elems(Union(g, u));
    if x !in g {
      assert x !in Elems(g);
      assert x in Elems(u);
      assert x in Elems(h) + {a, b};
    }
  }

  /** The groups after deleting the `s`-th keep their order. */
  lemma DropOne<T>(gs: seq<T>, s: nat, j: nat)
    requires s < |gs| && j < |gs| - 1
    ensures (gs[..s] + gs[s + 1..])[j] == if j < s then gs[j] else gs[j + 1]
  {
  }

  lemma AppendFrom<T>(gs: seq<seq<T>>, a: T, b: T)
    ensures DrawnFrom(gs + [AddBoth([], a, b)], gs, a, b)
  {
    var r := gs + [AddBoth([], a, b)];
    forall j, x | 0 <= j < |r| && x in r[j] ensures x == a || x == b || exists i | 0 <= i < |gs| :: x in gs[i] {
      if j < |gs| {
        assert r[j] == gs[j];
      } else {
        assert x in Elems(AddBoth([], a, b));
      }
    }
  }

  /** `MergePair` brings in no value but `a` and `b`. */
  lemma MergePairFrom<T>(gs: seq<seq<T>>, a: T, b: T)
    requires MergePair(gs, a, b).Ok?
    ensures DrawnFrom(MergePair(gs, a, b).value, gs, a, b)
  {
    var hits := Hits(gs, a, b);
    var r := MergePair(gs, a, b).value;
    if |hits| == 0 {
      assert r == gs + [AddBoth([], a, b)];
      AppendFrom(gs, a, b);
    } else if |hits| == 1 {
      assert r == gs[hits[0] := AddBoth(gs[hits[0]], a, b)];
      GrowFrom(gs, hits[0], a, b);
    } else {
      assert r == FoldInto(gs, hits[0], hits[1], a, b);
      FoldIntoFrom(gs, hits[0], hits[1], a, b);
    }
  }

  /** `contains_idx`: the positions, from `from` on and in increasing order,
      of the groups holding either value. */
  function HitsFrom<T(==)>(gs: seq<seq<T>>, a: T, b: T, from: nat): (r: seq<nat>)
    requires from <= |gs|
    ensures forall k | 0 <= k < |r| :: from <= r[k] < |gs| && Touches(gs[r[k]], a, b)
    ensures forall i | from <= i < |gs| :: Touches(gs[i], a, b) ==> i in r
    ensures forall k, l | 0 <= k < l < |r| :: r[k] < r[l]
    decreases |gs| - from
  {
    if from == |gs| then []
    else (if Touches(gs[from], a, b) then [from] else []) + HitsFrom(gs, a, b, from + 1)
  }

  function Hits<T(==)>(gs: seq<seq<T>>, a: T, b: T): (r: seq<nat>)
    ensures forall k | 0 <= k < |r| :: r[k] < |gs| && Touches(gs[r[k]], a, b)
    ensures forall i | 0 <= i < |gs| :: Touches(gs[i], a, b) ==> i in r
    ensures forall k, l | 0 <= k < l < |r| :: r[k] < r[l]
  {
    HitsFrom(gs, a, b, 0)
  }

  /** `eqratioHandler` after the names are matched, with the evident intent of
      the one-hit branch: no hit appends `{a, b}`; one hit grows that group;
      two hits fold the second group and the pair into the first and delete the
      second; more than two fails the handler's `assert`. */
  function MergePair<T(==)>(gs: seq<seq<T>>, a: T, b: T): (r: Result<seq<seq<T>>>)
    ensures r.Fail? <==> |Hits(gs, a, b)| > 2
    ensures r.Fail? ==> r.error == AssertionFailed
    ensures r.Ok? ==> exists i | 0 <= i < |r.value| :: a in r.value[i] && b in r.value[i]
  {
    var hits := Hits(gs, a, b);
    if |hits| == 0 then
      assert (gs + [AddBoth([], a, b)])[|gs|] == AddBoth([], a, b);
      Ok(gs + [AddBoth([], a, b)])
    else if |hits| == 1 then
      var h := hits[0];
      assert gs[h := AddBoth(gs[h], a, b)][h] == AddBoth(gs[h], a, b);
      Ok(gs[h := AddBoth(gs[h], a, b)])
    else if |hits| == 2 then
      var r := FoldInto(gs, hits[0], hits[1], a, b);
      assert a in Elems(r[hits[0]]) && b in Elems(r[hits[0]]);
      Ok(r)
    else Fail(AssertionFailed)
  }

  /** Two hits: the second group and the pair are folded into the first, and
      the second is deleted. */
  function FoldInto<T(==)>(gs: seq<seq<T>>, first: nat, second: nat, a: T, b: T): (r: seq<seq<T>>)
    requires first < second < |gs|
    ensures |r| == |gs| - 1
    ensures r == (gs[..second] + gs[second + 1..])[first := Union(gs[first], AddBoth(gs[second], a, b))]
  {
    var g := Union(gs[first], AddBoth(gs[second], a, b));
    DropAfterReplace(gs, first, second, g);
    gs[first := g][..second] + gs[first := g][second + 1..]
  }

  lemma DropAfterReplace<T>(gs: seq<T>, f: nat, s: nat, g: T)
    requires f < s < |gs|
    ensures gs[f := g][..s] + gs[f := g][s + 1..] == (gs[..s] + gs[s + 1..])[f := g]
  {
  }

  /** `eqratioHandler` as written: after the search loop `idx` equals the
      number of groups, so the one-hit branch indexes past the end. */
  function MergePairAsWritten<T(==)>(gs: seq<seq<T>>, a: T, b: T): (r: Result<seq<seq<T>>>)
    ensures |Hits(gs, a, b)| == 1 ==> r == Fail(IndexOutOfRange)
    ensures |Hits(gs, a, b)| != 1 ==> r == MergePair(gs, a, b)
  {
    var hits := Hits(gs, a, b);
    // `self.eqratioFacts[idx]` with `idx == len(self.eqratioFacts)`
    if |hits| == 1 then Fail(IndexOutOfRange)
    else MergePair(gs, a, b)
  }

  /** A store of ratio groups holding `Ratio(c1, c2)` and `Ratio(c3, c4)`:
      recording that the second equals a third ratio crashes as written, where
      the evident intent is to grow the group. */
  lemma OneHitCrashes<T>(x: T, y: T, z: T)
    requires x != y && y != z && x != z
    ensures MergePairAsWritten([[x, y]], y, z) == Fail(IndexOutOfRange)
    ensures MergePair([[x, y]], y, z) == Ok([[x, y, z]])
  {
    assert HitsFrom([[x, y]], y, z, 1) == [];
    assert Hits([[x, y]], y, z) == [0];
    assert Insert([x, y], y) == [x, y];
    assert Insert([x, y], z) == [x, y, z];
    assert [[x, y]][0 := [x, y, z]] == [[x, y, z]];
  }

  /** No value lies in two groups. */
  predicate Disjoint<T(==)>(gs: seq<seq<T>>) {
    forall i, j, x | 0 <= i < j < |gs| && x in gs[i] :: x !in gs[j]
  }

  /** How many groups from position `from` on hold `x`. */
  function Holding<T(==)>(gs: seq<seq<T>>, x: T, from: nat): nat
    requires from <= |gs|
    decreases |gs| - from
  {
    if from == |gs| then 0 else (if x in gs[from] then 1 else 0) + Holding(gs, x, from + 1)
  }

  lemma {:induction false} HoldingNone<T>(gs: seq<seq<T>>, x: T, from: nat)
    requires from <= |gs| && forall j | from <= j < |gs| :: x !in gs[j]
    ensures Holding(gs, x, from) == 0
    decreases |gs| - from
  {
    if from < |gs| {
      HoldingNone(gs, x, from + 1);
    }
  }

  /** In disjoint groups a value is held by at most one group. */
  lemma {:induction false} HoldingAtMostOne<T>(gs: seq<seq<T>>, x: T, from: nat)
    requires from <= |gs| && Disjoint(gs)
    ensures Holding(gs, x, from) <= 1
    decreases |gs| - from
  {
    if from < |gs| {
      if x in gs[from] {
        HoldingNone(gs, x, from + 1);
      } else {
        HoldingAtMostOne(gs, x, from + 1);
      }
    }
  }

  lemma {:induction false} HitsCount<T>(gs: seq<seq<T>>, a: T, b: T, from: nat)
    requires from <= |gs|
    ensures |HitsFrom(gs, a, b, from)| <= Holding(gs, a, from) + Holding(gs, b, from)
    decreases |gs| - from
  {
    if from < |gs| {
      HitsCount(gs, a, b, from + 1);
    }
  }

  /** In disjoint groups at most two groups hold `a` or `b`: the handler's
      `assert` holds. */
  lemma AtMostTwoHits<T>(gs: seq<seq<T>>, a: T, b: T)
    requires Disjoint(gs)
    ensures |Hits(gs, a, b)| <= 2
  {
    HitsCount(gs, a, b, 0);
    HoldingAtMostOne(gs, a, 0);
    HoldingAtMostOne(gs, b, 0);
  }

  /** The intended handler keeps groups disjoint, never trips its `assert`,
      and leaves `a` and `b` in one group. */
  lemma MergePairDisjoint<T>(gs: seq<seq<T>>, a: T, b: T)
    requires Disjoint(gs)
    ensures MergePair(gs, a, b).Ok?
    ensures Disjoint(MergePair(gs, a, b).value)
    ensures exists i | 0 <= i < |MergePair(gs, a, b).value| ::
      a in MergePair(gs, a, b).value[i] && b in MergePair(gs, a, b).value[i]
  {
    AtMostTwoHits(gs, a, b);
    var h := Hits(gs, a, b);
    if |h| == 0 {
      NoHitDisjoint(gs, a, b);
    } else if |h| == 1 {
      OneHitDisjoint(gs, a, b, h[0]);
    } else {
      TwoHitsDisjoint(gs, a, b, h[0], h[1]);
    }
  }

  lemma NoHitDisjoint<T>(gs: seq<seq<T>>, a: T, b: T)
    requires Disjoint(gs) && Hits(gs, a, b) == []
    ensures MergePair(gs, a, b) == Ok(gs + [AddBoth([], a, b)])
    ensures Disjoint(gs + [AddBoth([], a, b)])
    ensures a in (gs + [AddBoth([], a, b)])[|gs|] && b in (gs + [AddBoth([], a, b)])[|gs|]
  {
    var g := AddBoth([], a, b);
    var r := gs + [g];
    assert Elems(g) == {a, b};
    forall i, j, x | 0 <= i < j < |r| && x in r[i] ensures x !in r[j] {
      if j == |gs| {
        assert !Touches(gs[i], a, b);
        assert x in Elems(g) ==> x == a || x == b;
      } else {
        assert r[i] == gs[i] && r[j] == gs[j];
      }
    }
  }

  lemma OneHitDisjoint<T>(gs: seq<seq<T>>, a: T, b: T, h: nat)
    requires Disjoint(gs) && Hits(gs, a, b) == [h]
    ensures MergePair(gs, a, b) == Ok(gs[h := AddBoth(gs[h], a, b)])
    ensures Disjoint(gs[h := AddBoth(gs[h], a, b)])
    ensures a in gs[h := AddBoth(gs[h], a, b)][h] && b in gs[h := AddBoth(gs[h], a, b)][h]
  {
    var g := AddBoth(gs[h], a, b);
    var r := gs[h := g];
    assert Elems(g) == Elems(gs[h]) + {a, b};
    forall i, j, x | 0 <= i < j < |r| && x in r[i] ensures x !in r[j] {
      if i == h {
        assert !Touches(gs[j], a, b);
        assert x in Elems(g);
      } else if j == h {
        assert !Touches(gs[i], a, b);
        assert x in gs[i];
        assert x !in Elems(gs[h]) + {a, b};
      }
    }
  }

  lemma TwoHitsDisjoint<T>(gs: seq<seq<T>>, a: T, b: T, f: nat, s: nat)
    requires Disjoint(gs) && Hits(gs, a, b) == [f, s]
    ensures MergePair(gs, a, b).Ok?
    ensures Disjoint(MergePair(gs, a, b).value)
    ensures a in MergePair(gs, a, b).value[f] && b in MergePair(gs, a, b).value[f]
  {
    TwoHitsOnly(gs, a, b, f, s);
    assert MergePair(gs, a, b) == Ok(FoldInto(gs, f, s, a, b));
    TwoHitsJoined(gs, a, b, f, s);
  }

  /** With hits exactly at `f` and `s`, the merge folds group `s` into group
      `f` and deletes it, and no other group touches the pair. */
  lemma TwoHitsOnly<T>(gs: seq<seq<T>>, a: T, b: T, f: nat, s: nat)
    requires Hits(gs, a, b) == [f, s]
    ensures f < s < |gs| && OnlyTouching(gs, a, b, f, s)
  {
    var h := Hits(gs, a, b);
    assert h[0] == f && h[1] == s;
    forall o | 0 <= o < |gs| && o != f && o != s ensures !Touches(gs[o], a, b) {
      assert o !in h;
    }
  }

  lemma TwoHitsJoined<T>(gs: seq<seq<T>>, a: T, b: T, f: nat, s: nat)
    requires Disjoint(gs) && f < s < |gs| && OnlyTouching(gs, a, b, f, s)
    ensures Disjoint((gs[..s] + gs[s + 1..])[f := Union(gs[f], AddBoth(gs[s], a, b))])
    ensures a in Union(gs[f], AddBoth(gs[s], a, b)) && b in Union(gs[f], AddBoth(gs[s], a, b))
  {
    var g := Union(gs[f], AddBoth(gs[s], a, b));
    var hs := gs[..s] + gs[s + 1..];
    DropDisjoint(gs, s);
    OthersAvoid(gs, a, b, f, s, g, hs);
    ReplaceDisjoint(hs, f, g);
    assert a in Elems(g) && b in Elems(g);
  }

  /** Only groups `f` and `s` hold `a` or `b`. */
  predicate OnlyTouching<T(==)>(gs: seq<seq<T>>, a: T, b: T, f: nat, s: nat) {
    forall o | 0 <= o < |gs| && o != f && o != s :: !Touches(gs[o], a, b)
  }

  lemma OthersAvoid<T>(gs: seq<seq<T>>, a: T, b: T, f: nat, s: nat, g: seq<T>, hs: seq<seq<T>>)
    requires Disjoint(gs) && OnlyTouching(gs, a, b, f, s)
    requires f < s < |gs| && g == Union(gs[f], AddBoth(gs[s], a, b)) && hs == gs[..s] + gs[s + 1..]
    ensures forall j, x | 0 <= j < |hs| && j != f && x in g :: x !in hs[j]
  {
    forall j, x | 0 <= j < |hs| && j != f && x in g ensures x !in hs[j] {
      var o := if j < s then j else j + 1;
      assert hs[j] == gs[o];
      OtherAvoids(gs, a, b, f, s, o, x);
    }
  }

  lemma OtherAvoids<T>(gs: seq<seq<T>>, a: T, b: T, f: nat, s: nat, o: nat, x: T)
    requires Disjoint(gs) && OnlyTouching(gs, a, b, f, s)
    requires f < s < |gs| && o < |gs| && o != f && o != s
    requires x in Union(gs[f], AddBoth(gs[s], a, b))
    ensures x !in gs[o]
  {
    assert !Touches(gs[o], a, b);
    UnionOrigin(gs[f], gs[s], a, b, x);
    if x in gs[f] {
      Apart(gs, f, o, x);
    } else if x in gs[s] {
      Apart(gs, s, o, x);
    }
  }

  /** Two different groups of a disjoint list share nothing, whichever comes first. */
  lemma Apart<T>(gs: seq<seq<T>>, i: nat, j: nat, x: T)
    requires Disjoint(gs) && i < |gs| && j < |gs| && i != j && x in gs[i]
    ensures x !in gs[j]
  {
  }

  lemma UnionOrigin<T>(p: seq<T>, q: seq<T>, a: T, b: T, x: T)
    requires x in Union(p, AddBoth(q, a, b))
    ensures x in p || x in q || x == a || x == b
  {
    assert x in Elems(Union(p, AddBoth(q, a, b)));
    if x !in p {
      assert x in Elems(AddBoth(q, a, b));
    }
  }

  /** Deleting a group keeps the rest disjoint. */
  lemma DropDisjoint<T>(gs: seq<seq<T>>, s: nat)
    requires Disjoint(gs) && s < |gs|
    ensures Disjoint(gs[..s] + gs[s + 1..])
  {
    var hs := gs[..s] + gs[s + 1..];
    forall i, j, x | 0 <= i < j < |hs| && x in hs[i] ensures x !in hs[j] {
      var oi := if i < s then i else i + 1;
      var oj := if j < s then j else j + 1;
      assert hs[i] == gs[oi] && hs[j] == gs[oj];
    }
  }

  /** Replacing a group by one that shares nothing with the others keeps the
      groups disjoint. */
  lemma ReplaceDisjoint<T>(hs: seq<seq<T>>, f: nat, g: seq<T>)
    requires Disjoint(hs) && f < |hs|
    requires forall j, x | 0 <= j < |hs| && j != f && x in g :: x !in hs[j]
    ensures Disjoint(hs[f := g])
  {
  }
}

=== FILE: groupsearch.dfy ===
/** The rule bodies of `src/prover.py` that chain a premise through a
    stored group: congruence classes (D25), equal-ratio groups (D30),
    similar and congruent triangle groups (D34, D38) and the lines of the
    store (D40). */
module GroupSearch {
  import opened Common
  import opened Primitives
  import opened Predicates
  import opened Snapshot
  import opened RuleKit
  import GroupStore
  import PointGuards
  import PointSearch

  /** A dictionary whose keys are distinct reads, under a key, the members
      of the one entry carrying it. */
  lemma {:induction false} LookupDistinct<K, T>(es: seq<Entry<K, T>>, i: nat)
    requires NoDup(Keys(es)) && i < |es|
    ensures Lookup(es, es[i].key) == Some(es[i].members)
    decreases i
  {
    var ks := Keys(es);
    assert ks == [es[0].key] + Keys(es[1..]);
    if i > 0 {
      assert ks[0] != ks[i];
      assert Keys(es[1..]) == ks[1..];
      assert NoDup(Keys(es[1..])) by {
        forall a, b | 0 <= a < b < |ks[1..]| ensures ks[1..][a] != ks[1..][b] {
          assert ks[a + 1] != ks[b + 1];
        }
      }
      LookupDistinct(es[1..], i - 1);
      assert es[1..][i - 1] == es[i];
    }
  }

  /** `matchCong` on each pair keeps the class names distinct. */
  lemma {:induction false} MatchCongsKeys(congs: GroupStore.Congs, pairs: seq<(Point, Point)>)
    requires NoDup(Keys(congs))
    ensures GroupStore.MatchCongs(congs, pairs).Ok? ==> NoDup(Keys(GroupStore.MatchCongs(congs, pairs).value.dict))
    decreases |pairs|
  {
    if pairs != [] {
      var m := GroupStore.MatchCong(congs, pairs[0].0, pairs[0].1);
      if m.Ok? {
        if m.value.dict != congs {
          GroupStore.KeysAppend(congs, m.value.name, [Segment(pairs[0].0, pairs[0].1)]);
        }
        MatchCongsKeys(m.value.dict, pairs[1..]);
      }
    }
  }

  /** The classes of A-B and C-D, matched in that order. */
  function CongPair(kb: Kb, ps: seq<Point>): Result<GroupStore.Matched<GroupStore.Congs>>
    requires |ps| == 4
  {
    GroupStore.MatchCongs(kb.store.congs, [(ps[0], ps[1]), (ps[2], ps[3])])
  }

  /** `congs[cCD]` once both classes are matched: the segments of the class
      holding C-D. */
  function SecondClass(kb: Kb, ps: seq<Point>): (r: Result<seq<Segment>>)
    requires |ps| == 4
    ensures r.Ok? <==> CongPair(kb, ps).Ok?
    ensures r.Fail? ==> r.error == NameExhausted
    ensures r.Ok? && NoDup(Keys(kb.store.congs)) ==> GroupStore.HasSeg(r.value, Segment(ps[2], ps[3]))
  {
    var pairs := [(ps[0], ps[1]), (ps[2], ps[3])];
    match CongPair(kb, ps)
    case Fail(e) => Fail(e)
    case Ok(m) =>
      GroupStore.ClassesHoldAt(m.dict, m.names, pairs, 1);
      var i :| 0 <= i < |m.dict| && m.dict[i].key == m.names[1] && GroupStore.HasSeg(m.dict[i].members, Segment(ps[2], ps[3]));
      assert Keys(m.dict)[i] == m.names[1];
      assert NoDup(Keys(kb.store.congs)) ==> Lookup(m.dict, m.names[1]) == Some(m.dict[i].members) by {
        if NoDup(Keys(kb.store.congs)) {
          MatchCongsKeys(kb.store.congs, pairs);
          LookupDistinct(m.dict, i);
        }
      }
      Ok(Lookup(m.dict, m.names[1]).value)
  }

  /** The conclusion D25 writes for a segment of C-D's class. */
  function CongVia(a: Point, b: Point, s: Segment): Pred {
    Pred("cong", [a, b, s.p1, s.p2])
  }

  /** D25 as `src/prover.py` writes it: cong(A,B,C,D) & cong(C,D,E,F) =>
      cong(A,B,E,F) for every segment E-F of C-D's class.  Its skip test
      compares each segment with the two class names, and a segment never
      equals a name, so no segment is skipped. */
  function D25AsWritten(kb: Kb, p: Pred): (r: Result<seq<Pred>>)
    ensures |p.points| != 4 ==> r == Fail(MalformedArity)
    ensures |p.points| == 4 ==> (r.Fail? <==> CongPair(kb, p.points).Fail?)
    ensures r.Fail? ==> r.error in {MalformedArity, NameExhausted}
    ensures r.Ok? ==>
      var segs := SecondClass(kb, p.points).value;
      forall q :: q in r.value <==> exists k | 0 <= k < |segs| :: q == CongVia(p.points[0], p.points[1], segs[k])
  {
    if |p.points| != 4 then Fail(MalformedArity)
    else
      var ps := p.points;
      var segs :- SecondClass(kb, ps);
      Ok(Select(segs, (s: Segment) => true, (s: Segment) => CongVia(ps[0], ps[1], s)))
  }

  /** D25: cong(A,B,C,D) & cong(C,D,E,F) => cong(A,B,E,F), for every
      segment E-F of C-D's class other than A-B and C-D themselves. */
  function D25(kb: Kb, p: Pred): (r: Result<seq<Pred>>)
    ensures |p.points| != 4 ==> r == Fail(MalformedArity)
    ensures |p.points| == 4 ==> (r.Fail? <==> CongPair(kb, p.points).Fail?)
    ensures r.Fail? ==> r.error in {MalformedArity, NameExhausted}
    ensures r.Ok? ==>
      var ps := p.points;
      var segs := SecondClass(kb, ps).value;
      forall q :: q in r.value <==> exists k | 0 <= k < |segs| ::
        !SegEq(segs[k], Segment(ps[0], ps[1])) && !SegEq(segs[k], Segment(ps[2], ps[3])) && q == CongVia(ps[0], ps[1], segs[k])
  {
    if |p.points| != 4 then Fail(MalformedArity)
    else
      var ps := p.points;
      var segs :- SecondClass(kb, ps);
      Ok(Onward(ps, segs))
  }

  /** D25's loop over C-D's class, skipping A-B and C-D. */
  function Onward(ps: seq<Point>, segs: seq<Segment>): (r: seq<Pred>)
    requires |ps| == 4
    ensures forall q :: q in r <==> exists k | 0 <= k < |segs| ::
      !SegEq(segs[k], Segment(ps[0], ps[1])) && !SegEq(segs[k], Segment(ps[2], ps[3])) && q == CongVia(ps[0], ps[1], segs[k])
  {
    Select(segs, (s: Segment) => !SegEq(s, Segment(ps[0], ps[1])) && !SegEq(s, Segment(ps[2], ps[3])),
           (s: Segment) => CongVia(ps[0], ps[1], s))
  }

  /** The segment a cong conclusion ends with. */
  function LastSeg(q: Pred): Segment
    requires |q.points| == 4
  {
    Segment(q.points[2], q.points[3])
  }

  /** As written, D25 always gives back its own premise: in a store whose
      class names are distinct, C-D's class holds C-D, so one conclusion is
      cong(A,B) with a segment equal to C-D. */
  lemma D25AsWrittenRestates(kb: Kb, p: Pred)
    requires NoDup(Keys(kb.store.congs))
    requires D25AsWritten(kb, p).Ok?
    ensures exists q | q in D25AsWritten(kb, p).value ::
      |q.points| == 4 && q.points[0] == p.points[0] && q.points[1] == p.points[1] && SegEq(LastSeg(q), Segment(p.points[2], p.points[3]))
  {
    assert |p.points| == 4;
    var ps := p.points;
    var segs := SecondClass(kb, ps).value;
    ChainHolds(ps, segs, D25AsWritten(kb, p).value);
  }

  /** A class holding C-D yields, among its unfiltered conclusions, one
      ending with a segment equal to C-D. */
  lemma ChainHolds(ps: seq<Point>, segs: seq<Segment>, r: seq<Pred>)
    requires |ps| == 4 && GroupStore.HasSeg(segs, Segment(ps[2], ps[3]))
    requires forall q :: q in r <==> exists k | 0 <= k < |segs| :: q == CongVia(ps[0], ps[1], segs[k])
    ensures exists q | q in r ::
      |q.points| == 4 && q.points[0] == ps[0] && q.points[1] == ps[1] && SegEq(LastSeg(q), Segment(ps[2], ps[3]))
  {
    var k := HasSegAt(segs, Segment(ps[2], ps[3]));
    var q := CongVia(ps[0], ps[1], segs[k]);
    assert LastSeg(q) == segs[k];
    assert q in r;
  }

  /** Where a class holds a segment equal to `s`. */
  lemma HasSegAt(segs: seq<Segment>, s: Segment) returns (k: nat)
    requires GroupStore.HasSeg(segs, s)
    ensures k < |segs| && SegEq(segs[k], s)
  {
    assert Canon(s) in Map(segs, Canon);
    k :| k < |segs| && Map(segs, Canon)[k] == Canon(s);
    SegEqIffCanon(segs[k], s);
  }

  /** D25 never gives back its premise, nor a segment's congruence with
      itself: no conclusion ends with A-B or C-D. */
  lemma D25NeverRestates(kb: Kb, p: Pred, q: Pred)
    requires D25(kb, p).Ok? && q in D25(kb, p).value
    ensures |q.points| == 4 && q.points[0] == p.points[0] && q.points[1] == p.points[1]
    ensures !SegEq(LastSeg(q), Segment(p.points[0], p.points[1])) && !SegEq(LastSeg(q), Segment(p.points[2], p.points[3]))
  {
    assert |p.points| == 4;
    var ps := p.points;
    FilteredChain(ps, SecondClass(kb, ps).value, D25(kb, p).value, q);
  }

  lemma FilteredChain(ps: seq<Point>, segs: seq<Segment>, r: seq<Pred>, q: Pred)
    requires |ps| == 4 && q in r
    requires forall q :: q in r <==> exists k | 0 <= k < |segs| ::
      !SegEq(segs[k], Segment(ps[0], ps[1])) && !SegEq(segs[k], Segment(ps[2], ps[3])) && q == CongVia(ps[0], ps[1], segs[k])
    ensures |q.points| == 4 && q.points[0] == ps[0] && q.points[1] == ps[1]
    ensures !SegEq(LastSeg(q), Segment(ps[0], ps[1])) && !SegEq(LastSeg(q), Segment(ps[2], ps[3]))
  {
    var k :| 0 <= k < |segs| && !SegEq(segs[k], Segment(ps[0], ps[1])) && !SegEq(segs[k], Segment(ps[2], ps[3])) &&
      q == CongVia(ps[0], ps[1], segs[k]);
    assert LastSeg(q) == segs[k];
  }

  /** `q` is `kind(front + [E, F, G, H])` for a segment E-F of `s1` and a
      segment G-H of `s2`. */
  predicate SegsOver(kind: string, front: seq<Point>, s1: seq<Segment>, s2: seq<Segment>, q: Pred) {
    var n := |front|;
    q.kind == kind && |q.points| == n + 4 && q.points[..n] == front &&
    Segment(q.points[n], q.points[n + 1]) in s1 && Segment(q.points[n + 2], q.points[n + 3]) in s2
  }

  /** Two nested loops over the segments of two classes. */
  function SegPairs(kind: string, front: seq<Point>, s1: seq<Segment>, s2: seq<Segment>): (r: seq<Pred>)
    ensures forall q :: q in r <==> SegsOver(kind, front, s1, s2, q)
  {
    Cross(kind, front, Tips(s1), Tips(s2))
  }

  /** `q` comes from the stored ratio `x`: both its classes are known and
      `q` pairs their segments behind `front`. */
  predicate OnRatio(congs: GroupStore.Congs, front: seq<Point>, x: Ratio, q: Pred) {
    Lookup(congs, x.c1).Some? && Lookup(congs, x.c2).Some? &&
    SegsOver("eqratio", front, Lookup(congs, x.c1).value, Lookup(congs, x.c2).value, q)
  }

  /** The two segment loops of D30 for one ratio: `congs[ratio.c2]` is read
      only once `congs[ratio.c1]` has a segment to offer. */
  function RatioStep(congs: GroupStore.Congs, front: seq<Point>, x: Ratio): (r: Result<seq<Pred>>)
    ensures r.Fail? ==> r.error == KeyMissing
    ensures r.Fail? <==> x.c1 !in Keys(congs) || (|Lookup(congs, x.c1).value| > 0 && x.c2 !in Keys(congs))
    ensures r.Ok? ==> forall q :: q in r.value <==> OnRatio(congs, front, x, q)
  {
    var s1 :- Read(congs, x.c1);
    if |s1| == 0 then Ok([])
    else
      var s2 :- Read(congs, x.c2);
      Ok(SegPairs("eqratio", front, s1, s2))
  }

  /** D30: eqratio(A,B,C,D,P,Q,U,V) & eqratio(P,Q,U,V,E,F,G,H) =>
      eqratio(A,B,C,D,E,F,G,H), for every ratio grouped with PQ/UV other
      than PQ/UV and AB/CD, and every segment of each of its classes. */
  function D30(kb: Kb, p: Pred): (r: Result<seq<Pred>>)
    ensures |p.points| != 8 ==> r == Fail(MalformedArity)
    ensures |p.points| == 8 && PointGuards.RatioClasses(kb, p.points).Fail? ==> r == Fail(NameExhausted)
    ensures r.Fail? ==> r.error in {MalformedArity, NameExhausted, KeyMissing}
    ensures |p.points| == 8 && PointGuards.RatioClasses(kb, p.points).Ok? ==>
      var m := PointGuards.RatioClasses(kb, p.points).value;
      |m.names| == 4 &&
      var hub, skip := Ratio(m.names[2], m.names[3]), [Ratio(m.names[2], m.names[3]), Ratio(m.names[0], m.names[1])];
      (r.Ok? <==> forall x | PointSearch.Grouped(kb.store.eqratioFacts, hub, x) && x !in skip :: RatioStep(m.dict, p.points[..4], x).Ok?) &&
      (r.Ok? ==> forall q :: q in r.value <==> exists x | PointSearch.Grouped(kb.store.eqratioFacts, hub, x) && x !in skip ::
        OnRatio(m.dict, p.points[..4], x, q))
  {
    if |p.points| != 8 then Fail(MalformedArity)
    else
      var ps := p.points;
      var m :- PointGuards.RatioClasses(kb, ps);
      GroupStore.ClassesHoldAt(m.dict, m.names, GroupStore.Pairs4(ps), 0);
      var hub := Ratio(m.names[2], m.names[3]);
      var ratios := PointSearch.Mates(kb.store.eqratioFacts, hub, [hub, Ratio(m.names[0], m.names[1])]);
      OverRatios(m.dict, ps[..4], ratios)
  }

  /** D30 as written: `Ratio(cPQ, cUV) not in ratios` compares a fresh
      `Ratio` by identity (the class defines no `__eq__`), so every group is
      skipped and, once the four segments are matched, nothing is concluded. */
  function D30AsWritten(kb: Kb, p: Pred): (r: Result<seq<Pred>>)
    ensures |p.points| != 8 ==> r == Fail(MalformedArity)
    ensures |p.points| == 8 ==> (r.Fail? <==> PointGuards.RatioClasses(kb, p.points).Fail?)
    ensures r.Fail? ==> r.error in {MalformedArity, NameExhausted}
    ensures r.Ok? ==> r.value == []
  {
    if |p.points| != 8 then Fail(MalformedArity)
    else
      var _ :- PointGuards.RatioClasses(kb, p.points);
      Ok([])
  }

  /** The discrepancy: whenever D30 with ratios compared by their classes
      draws a conclusion, the rule as written draws none. */
  lemma D30LosesChain(kb: Kb, p: Pred)
    requires D30(kb, p).Ok? && D30(kb, p).value != []
    ensures D30AsWritten(kb, p) == Ok([])
  {
  }

  /** The loop of D30 over the ratios grouped with the hub. */
  function OverRatios(congs: GroupStore.Congs, front: seq<Point>, ratios: seq<Ratio>): (r: Result<seq<Pred>>)
    ensures r.Fail? ==> r.error == KeyMissing
    ensures r.Ok? <==> forall x | x in ratios :: RatioStep(congs, front, x).Ok?
    ensures r.Ok? ==> forall q :: q in r.value <==> exists x | x in ratios :: OnRatio(congs, front, x, q)
    decreases |ratios|
  {
    if ratios == [] then Ok([])
    else
      assert forall x :: x in ratios <==> x == ratios[0] || x in ratios[1..] by {
        assert ratios == [ratios[0]] + ratios[1..];
      }
      var here :- RatioStep(congs, front, ratios[0]);
      var rest :- OverRatios(congs, front, ratios[1..]);
      Ok(here + rest)
  }

  /** The conclusion D34 and D38 write for a grouped triangle `t`. */
  function TriVia(kind: string, ps: seq<Point>, t: Triangle): Pred
    requires |ps| == 6
  {
    Pred(kind, ps[..3] + [t.p1, t.p2, t.p3])
  }

  /** `g` holds a triangle `same` as `t`. */
  predicate HasBy(g: seq<Triangle>, t: Triangle, same: (Triangle, Triangle) -> bool) {
    exists i | 0 <= i < |g| :: same(g[i], t)
  }

  /** `t` is a triangle grouped with `efg` that is neither `abc` nor `efg`,
      triangles compared by `same`. */
  predicate TriMate(groups: seq<seq<Triangle>>, abc: Triangle, efg: Triangle, same: (Triangle, Triangle) -> bool, t: Triangle) {
    exists g, i | 0 <= g < |groups| && 0 <= i < |groups[g]| ::
      HasBy(groups[g], efg, same) && groups[g][i] == t && !same(t, abc) && !same(t, efg)
  }

  /** One group of the loop: nothing unless it holds E-F-G. */
  function TriStep(kind: string, ps: seq<Point>, abc: Triangle, efg: Triangle, same: (Triangle, Triangle) -> bool, g: seq<Triangle>): (r: seq<Pred>)
    requires |ps| == 6
    ensures forall q :: q in r <==> HasBy(g, efg, same) && exists i | 0 <= i < |g| :: !same(g[i], abc) && !same(g[i], efg) && q == TriVia(kind, ps, g[i])
  {
    if HasBy(g, efg, same) then Select(g, (t: Triangle) => !same(t, abc) && !same(t, efg), (t: Triangle) => TriVia(kind, ps, t))
    else []
  }

  /** The loop shared by D34 (similar triangles) and D38 (congruent ones):
      every triangle of a group holding E-F-G, other than A-B-C and E-F-G,
      gives `kind(A,B,C,P,Q,R)`. */
  function TriChain(kind: string, groups: seq<seq<Triangle>>, same: (Triangle, Triangle) -> bool, p: Pred): (r: Result<seq<Pred>>)
    ensures r.Fail? <==> |p.points| != 6
    ensures r.Fail? ==> r.error == MalformedArity
    ensures r.Ok? ==>
      var ps := p.points;
      var abc, efg := Triangle(ps[0], ps[1], ps[2]), Triangle(ps[3], ps[4], ps[5]);
      forall q :: q in r.value <==> exists t | TriMate(groups, abc, efg, same, t) :: q == TriVia(kind, ps, t)
  {
    if |p.points| != 6 then Fail(MalformedArity)
    else
      var ps := p.points;
      var abc, efg := Triangle(ps[0], ps[1], ps[2]), Triangle(ps[3], ps[4], ps[5]);
      var r := Each(groups, (g: seq<Triangle>) => TriStep(kind, ps, abc, efg, same, g));
      TriChainMembers(kind, ps, abc, efg, same, groups, r);
      Ok(r)
  }

  lemma TriChainMembers(kind: string, ps: seq<Point>, abc: Triangle, efg: Triangle, same: (Triangle, Triangle) -> bool, groups: seq<seq<Triangle>>, r: seq<Pred>)
    requires |ps| == 6
    requires r == Each(groups, (g: seq<Triangle>) => TriStep(kind, ps, abc, efg, same, g))
    ensures forall q :: q in r <==> exists t | TriMate(groups, abc, efg, same, t) :: q == TriVia(kind, ps, t)
  {
    forall q ensures q in r <==> exists t | TriMate(groups, abc, efg, same, t) :: q == TriVia(kind, ps, t) {
      if q in r {
        var g :| 0 <= g < |groups| && q in TriStep(kind, ps, abc, efg, same, groups[g]);
        var i :| 0 <= i < |groups[g]| && !same(groups[g][i], abc) && !same(groups[g][i], efg) && q == TriVia(kind, ps, groups[g][i]);
        assert TriMate(groups, abc, efg, same, groups[g][i]);
      }
      if exists t | TriMate(groups, abc, efg, same, t) :: q == TriVia(kind, ps, t) {
        var t :| TriMate(groups, abc, efg, same, t) && q == TriVia(kind, ps, t);
        var g, i :| 0 <= g < |groups| && 0 <= i < |groups[g]| &&
          HasBy(groups[g], efg, same) && groups[g][i] == t && !same(t, abc) && !same(t, efg);
        assert q in TriStep(kind, ps, abc, efg, same, groups[g]);
      }
    }
  }

  /** D34: simtri(A,B,C,E,F,G) & simtri(E,F,G,P,Q,R) => simtri(A,B,C,P,Q,R),
      triangles compared by their vertex sets. */
  function D34(kb: Kb, p: Pred): (r: Result<seq<Pred>>)
    ensures r == TriChain("simtri", kb.simtriFacts, TriEq, p)
    ensures r.Ok? ==> forall q | q in r.value :: q.kind == "simtri" && |q.points| == 6 && q.points[..3] == p.points[..3]
  {
    TriChainKeepsFront("simtri", kb.simtriFacts, TriEq, p);
    TriChain("simtri", kb.simtriFacts, TriEq, p)
  }

  /** D38: contri(A,B,C,E,F,G) & contri(E,F,G,P,Q,R) => contri(A,B,C,P,Q,R). */
  function D38(kb: Kb, p: Pred): (r: Result<seq<Pred>>)
    ensures r == TriChain("contri", kb.contriFacts, TriEq, p)
    ensures r.Ok? ==> forall q | q in r.value :: q.kind == "contri" && |q.points| == 6 && q.points[..3] == p.points[..3]
  {
    TriChainKeepsFront("contri", kb.contriFacts, TriEq, p);
    TriChain("contri", kb.contriFacts, TriEq, p)
  }

  /** D34 and D38 as written: `tEFG not in triangles` tests a freshly built
      `Triangle` against the stored ones, and `Triangle` defines no `__eq__`,
      so `in` compares object identity and never holds.  Every group is
      skipped: the rule gives nothing on six points. */
  function D34AsWritten(kb: Kb, p: Pred): (r: Result<seq<Pred>>)
    ensures r.Fail? <==> |p.points| != 6
    ensures r.Fail? ==> r.error == MalformedArity
    ensures r.Ok? ==> r.value == []
  {
    TriChainByIdentity("simtri", kb.simtriFacts, p)
  }

  /** D38 as written: the same identity test over `contriFacts`. */
  function D38AsWritten(kb: Kb, p: Pred): (r: Result<seq<Pred>>)
    ensures r.Fail? <==> |p.points| != 6
    ensures r.Fail? ==> r.error == MalformedArity
    ensures r.Ok? ==> r.value == []
  {
    TriChainByIdentity("contri", kb.contriFacts, p)
  }

  /** The shared loop with a comparison that never holds: no group holds
      E-F-G, so no conclusion is drawn. */
  function TriChainByIdentity(kind: string, groups: seq<seq<Triangle>>, p: Pred): (r: Result<seq<Pred>>)
    ensures r.Fail? <==> |p.points| != 6
    ensures r.Fail? ==> r.error == MalformedArity
    ensures r.Ok? ==> r.value == []
  {
    var never := (a: Triangle, b: Triangle) => false;
    var r := TriChain(kind, groups, never, p);
    if r.Ok? then
      assert forall q :: q !in r.value by {
        var ps := p.points;
        var abc, efg := Triangle(ps[0], ps[1], ps[2]), Triangle(ps[3], ps[4], ps[5]);
        forall t ensures !TriMate(groups, abc, efg, never, t) {
          forall g | 0 <= g < |groups| ensures !HasBy(groups[g], efg, never) { }
        }
      }
      Ok([])
    else r
  }

  /** The discrepancy: whenever a stored group holds E-F-G and another
      triangle, the rule with vertex-set comparison concludes, while the
      rule as written gives nothing. */
  lemma D34LosesChain(kb: Kb, p: Pred, t: Triangle)
    requires |p.points| == 6
    requires TriMate(kb.simtriFacts, Triangle(p.points[0], p.points[1], p.points[2]), Triangle(p.points[3], p.points[4], p.points[5]), TriEq, t)
    ensures D34(kb, p).Ok? && TriVia("simtri", p.points, t) in D34(kb, p).value
    ensures D34AsWritten(kb, p) == Ok([])
  {
  }

  /** The same for D38 over congruent triangles. */
  lemma D38LosesChain(kb: Kb, p: Pred, t: Triangle)
    requires |p.points| == 6
    requires TriMate(kb.contriFacts, Triangle(p.points[0], p.points[1], p.points[2]), Triangle(p.points[3], p.points[4], p.points[5]), TriEq, t)
    ensures D38(kb, p).Ok? && TriVia("contri", p.points, t) in D38(kb, p).value
    ensures D38AsWritten(kb, p) == Ok([])
  {
  }

  /** Every conclusion keeps the premise's first triangle and names, as its
      second, a triangle of the group that is neither premise triangle. */
  lemma TriChainKeepsFront(kind: string, groups: seq<seq<Triangle>>, same: (Triangle, Triangle) -> bool, p: Pred)
    ensures TriChain(kind, groups, same, p).Ok? ==> forall q | q in TriChain(kind, groups, same, p).value ::
      q.kind == kind && |q.points| == 6 && q.points[..3] == p.points[..3] &&
      !same(Triangle(q.points[3], q.points[4], q.points[5]), Triangle(p.points[0], p.points[1], p.points[2])) &&
      !same(Triangle(q.points[3], q.points[4], q.points[5]), Triangle(p.points[3], p.points[4], p.points[5]))
  {
    var r := TriChain(kind, groups, same, p);
    if r.Ok? {
      var ps := p.points;
      var abc, efg := Triangle(ps[0], ps[1], ps[2]), Triangle(ps[3], ps[4], ps[5]);
      forall q | q in r.value ensures q.kind == kind && |q.points| == 6 && q.points[..3] == ps[..3] &&
        !same(Triangle(q.points[3], q.points[4], q.points[5]), abc) && !same(Triangle(q.points[3], q.points[4], q.points[5]), efg) {
        var t :| TriMate(groups, abc, efg, same, t) && q == TriVia(kind, ps, t);
        assert q.points == ps[..3] + [t.p1, t.p2, t.p3];
        assert Triangle(q.points[3], q.points[4], q.points[5]) == t;
      }
    }
  }

  /** The conclusion D40 writes for two points P, Q of another line. */
  function Across(a: Point, b: Point, c: Point, d: Point): (Point, Point) -> Pred {
    (e: Point, f: Point) => Pred("eqangle", [a, b, e, f, c, d, e, f])
  }

  /** `q` is what `mk` writes for two points at increasing positions of `pts`. */
  predicate PairIn(pts: seq<Point>, mk: (Point, Point) -> Pred, q: Pred) {
    exists i, j | 0 <= i < j < |pts| :: q == mk(pts[i], pts[j])
  }

  /** D40: para(A,B,C,D) => eqangle(A,B,P,Q,C,D,P,Q), for every two points
      P, Q of every line other than A-B and C-D; nothing when A-B and C-D
      are one line. */
  function D40(kb: Kb, p: Pred): (r: Result<seq<Pred>>)
    ensures |p.points| != 4 ==> r == Fail(MalformedArity)
    ensures |p.points| == 4 ==> (r.Fail? <==> PointSearch.TwoLines(kb, p.points).Fail?)
    ensures r.Fail? ==> r.error in {MalformedArity, NameExhausted}
    ensures r.Ok? ==>
      var ps := p.points;
      var m := PointSearch.TwoLines(kb, ps).value;
      |m.names| == 2 &&
      forall q :: q in r.value <==> m.names[0] != m.names[1] && exists k | 0 <= k < |m.dict| ::
        m.dict[k].key !in m.names && PairIn(m.dict[k].members, Across(ps[0], ps[1], ps[2], ps[3]), q)
  {
    if |p.points| != 4 then Fail(MalformedArity)
    else
      var ps := p.points;
      var m :- PointSearch.TwoLines(kb, ps);
      GroupStore.LinesHoldAt(m.dict, m.names, [(ps[0], ps[1]), (ps[2], ps[3])], 0);
      if m.names[0] == m.names[1] then Ok([])
      else
        var mk := Across(ps[0], ps[1], ps[2], ps[3]);
        Ok(Each(m.dict, (e: Entry<LineKey, Point>) => if e.key in m.names then [] else OverPairs(e.members, mk)))
  }

  /** Every D40 conclusion has the shape D39 reads back, eqangle(A,B,P,Q,C,D,P,Q). */
  lemma D40Shape(kb: Kb, p: Pred, q: Pred)
    requires D40(kb, p).Ok? && q in D40(kb, p).value
    ensures |p.points| == 4 && q == Pred("eqangle", [p.points[0], p.points[1], q.points[2], q.points[3], p.points[2], p.points[3], q.points[2], q.points[3]])
  {
    assert |p.points| == 4;
    var ps := p.points;
    var m := PointSearch.TwoLines(kb, ps).value;
    AcrossShape(ps, m.dict, m.names, q);
  }

  lemma AcrossShape(ps: seq<Point>, dict: GroupStore.Lines, names: seq<LineKey>, q: Pred)
    requires |ps| == 4
    requires exists k | 0 <= k < |dict| :: dict[k].key !in names && PairIn(dict[k].members, Across(ps[0], ps[1], ps[2], ps[3]), q)
    ensures q == Pred("eqangle", [ps[0], ps[1], q.points[2], q.points[3], ps[2], ps[3], q.points[2], q.points[3]])
  {
    var k :| 0 <= k < |dict| && dict[k].key !in names && PairIn(dict[k].members, Across(ps[0], ps[1], ps[2], ps[3]), q);
    var pts := dict[k].members;
    var i, j :| 0 <= i < j < |pts| && q == Across(ps[0], ps[1], ps[2], ps[3])(pts[i], pts[j]);
    assert q.points == [ps[0], ps[1], pts[i], pts[j], ps[2], ps[3], pts[i], pts[j]];
  }

  /** D40 followed by D39 gives back the parallel premise or nothing. */
  lemma D40ThenD39(kb: Kb, p: Pred, q: Pred)
    requires p.kind == "para"
    requires D40(kb, p).Ok? && q in D40(kb, p).value
    ensures PointGuards.D39(kb, q).Ok? ==> PointGuards.D39(kb, q).value in {[], [p]}
    ensures PointGuards.D39(kb, q).Ok? ==> (PointGuards.D39(kb, q).value == [p] <==>
      var n := PointGuards.D39Lines(kb, q.points).value.names; n[0] != n[1] && n[0] != n[2] && n[1] != n[2])
  {
    D40Shape(kb, p, q);
    D39Back(kb, p, q);
  }

  lemma D39Back(kb: Kb, p: Pred, q: Pred)
    requires p.kind == "para" && |p.points| == 4 && |q.points| == 8
    requires q == Pred("eqangle", [p.points[0], p.points[1], q.points[2], q.points[3], p.points[2], p.points[3], q.points[2], q.points[3]])
    ensures PointGuards.D39(kb, q).Ok? ==> PointGuards.D39(kb, q).value in {[], [p]}
    ensures PointGuards.D39(kb, q).Ok? ==> (PointGuards.D39(kb, q).value == [p] <==>
      var n := PointGuards.D39Lines(kb, q.points).value.names; n[0] != n[1] && n[0] != n[2] && n[1] != n[2])
  {
    assert p == Pred("para", [q.points[0], q.points[1], q.points[4], q.points[5]]) by {
      assert p.points == [p.points[0], p.points[1], p.points[2], p.points[3]];
    }
  }
}

=== FILE: inference.dfy ===
/** `src/inference.py`: `sort` by kind priority, and `inference_update`, a
    worklist that seeds the database with the converted input predicates,
    then pops facts in priority order, deduces from every form of each
    with `FC.deduct` of `src/rules.py`, queues the conclusions the database
    does not hold, and adds the popped fact when it is new.  A memo keyed by
    the fact records the database version it was last deduced at, and a
    fact popped again at the same version is skipped.  The loop has no
    bound of its own; here it runs on fuel.  The database's own calls
    (`containsFact`, `_predicate_to_fact`, `_predicate_all_forms`,
    `version`, `addFact`, `version_update`) belong to `src/newdatabase.py`,
    which is not part of this model: they are the `Api` of the snapshot and
    the parameters `Ops`. */
module Inference {
  import opened Common
  import opened Predicates
  import opened Facts
  import opened Snapshot
  import opened RuleKit
  import FcDeduct
  import NpProver

  /** `sort(facts)`: the facts ordered by the priority of their kinds,
      stably, so each kind keeps its order. */
  function Sort(fs: seq<Fact>): (r: seq<Fact>)
    ensures PrioritySorted(r)
    ensures multiset(r) == multiset(fs)
    ensures forall k :: OfKind(r, k) == OfKind(fs, k)
  {
    var r := SortByPriority(fs);
    SortByPriorityStable(fs, Coll);
    assert forall k :: OfKind(r, k) == OfKind(fs, k) by {
      forall k ensures OfKind(r, k) == OfKind(fs, k) {
        SortByPriorityStable(fs, k);
      }
    }
    r
  }

  /** The database writes `inference_update` makes. */
  datatype Ops = Ops(addFact: (Kb, Fact) -> Kb, versionUpdate: Kb -> Kb)

  /** The database once `f` is added, with the version updated after it
      when `bump` holds. */
  function Next(ops: Ops, kb: Kb, f: Fact, bump: bool): Kb {
    var kb1 := ops.addFact(kb, f);
    if bump then ops.versionUpdate(kb1) else kb1
  }

  /** `kb1` is `kb` with the facts `fs` added one after another, each of
      them absent from the database when it was added. */
  ghost predicate Grew(ops: Ops, kb: Kb, fs: seq<Fact>, bump: bool, kb1: Kb)
    decreases |fs|
  {
    if fs == [] then kb1 == kb
    else !kb.api.containsFact(fs[0]) && Grew(ops, Next(ops, kb, fs[0], bump), fs[1..], bump, kb1)
  }

  /** Growing by `a` and then by `b` is growing by `a + b`. */
  lemma {:induction false} GrewAppend(ops: Ops, kb: Kb, a: seq<Fact>, b: seq<Fact>, bump: bool, mid: Kb, kb1: Kb)
    requires Grew(ops, kb, a, bump, mid) && Grew(ops, mid, b, bump, kb1)
    ensures Grew(ops, kb, a + b, bump, kb1)
    decreases |a|
  {
    if a != [] {
      assert (a + b)[0] == a[0] && (a + b)[1..] == a[1..] + b;
      GrewAppend(ops, Next(ops, kb, a[0], bump), a[1..], b, bump, mid, kb1);
    } else {
      assert a + b == b;
    }
  }

  /** The database after the seeding loop has gone through the facts
      `done`. */
  ghost function SeedDb(ops: Ops, kb: Kb, done: seq<Fact>): Kb
    decreases |done|
  {
    if done == [] then kb
    else SeedDb(ops, if kb.api.containsFact(done[0]) then kb else Next(ops, kb, done[0], false), done[1..])
  }

  /** Each fact of `facts` is in `added` or was held by the database when
      its turn came. */
  ghost predicate Covers(ops: Ops, kb: Kb, facts: seq<Fact>, added: seq<Fact>) {
    forall i | 0 <= i < |facts| :: facts[i] in added || SeedDb(ops, kb, facts[..i]).api.containsFact(facts[i])
  }

  /** `for fact in facts_to_add: if db.containsFact(fact): continue;
      db.addFact(fact); increased_facts.append(fact)`: the new database and
      the facts added.  The database grew by exactly the facts added, each
      absent from it when added; they are facts of the list; and each fact
      of the list was added unless the database held it when its turn
      came. */
  function Seed(ops: Ops, kb: Kb, facts: seq<Fact>): (r: (Kb, seq<Fact>))
    ensures Grew(ops, kb, r.1, false, r.0)
    ensures multiset(r.1) <= multiset(facts)
    ensures Covers(ops, kb, facts, r.1)
    decreases |facts|
  {
    if facts == [] then (kb, [])
    else
      var f := facts[0];
      var held := kb.api.containsFact(f);
      var kb1 := if held then kb else Next(ops, kb, f, false);
      var rest := Seed(ops, kb1, facts[1..]);
      var r := if held then rest else (rest.0, [f] + rest.1);
      assert facts == [f] + facts[1..];
      SeedCovers(ops, kb, facts, rest.1, r.1);
      r
  }

  /** The last clause of `Seed` for a list, from the same clause for its
      tail. */
  lemma SeedCovers(ops: Ops, kb: Kb, facts: seq<Fact>, tail: seq<Fact>, added: seq<Fact>)
    requires facts != []
    requires added == if kb.api.containsFact(facts[0]) then tail else [facts[0]] + tail
    requires Covers(ops, if kb.api.containsFact(facts[0]) then kb else Next(ops, kb, facts[0], false), facts[1..], tail)
    ensures Covers(ops, kb, facts, added)
  {
    forall i | 0 <= i < |facts| ensures facts[i] in added || SeedDb(ops, kb, facts[..i]).api.containsFact(facts[i]) {
      if i > 0 {
        assert facts[..i][0] == facts[0] && facts[..i][1..] == facts[1..][..i - 1];
        assert facts[i] == facts[1..][i - 1];
      }
    }
  }

  /** The database keeps what it holds: adding a fact or updating the
      version never drops a fact, and an added fact is held. */
  ghost predicate Keeps(ops: Ops) {
    (forall kb: Kb, f: Fact, g: Fact :: (g == f || kb.api.containsFact(g)) ==> ops.addFact(kb, f).api.containsFact(g))
    && (forall kb: Kb, g: Fact :: kb.api.containsFact(g) ==> ops.versionUpdate(kb).api.containsFact(g))
  }

  /** Under `Keeps`, a database that grew by `fs` holds what it held and
      every fact of `fs`. */
  lemma {:induction false} GrewHolds(ops: Ops, kb: Kb, fs: seq<Fact>, bump: bool, kb1: Kb, g: Fact)
    requires Keeps(ops) && Grew(ops, kb, fs, bump, kb1)
    requires kb.api.containsFact(g) || g in fs
    ensures kb1.api.containsFact(g)
    decreases |fs|
  {
    if fs != [] {
      var next := Next(ops, kb, fs[0], bump);
      assert next.api.containsFact(g) || g in fs[1..] by {
        if g == fs[0] || kb.api.containsFact(g) {
          assert ops.addFact(kb, fs[0]).api.containsFact(g);
        } else {
          assert g in fs[1..];
        }
      }
      GrewHolds(ops, next, fs[1..], bump, kb1, g);
    }
  }

  /** Under `Keeps`, a database grows by distinct facts it did not hold. */
  lemma {:induction false} GrewNew(ops: Ops, kb: Kb, fs: seq<Fact>, bump: bool, kb1: Kb)
    requires Keeps(ops) && Grew(ops, kb, fs, bump, kb1)
    ensures forall f | f in fs :: !kb.api.containsFact(f)
    ensures forall f :: multiset(fs)[f] <= 1
    decreases |fs|
  {
    if fs != [] {
      var next := Next(ops, kb, fs[0], bump);
      GrewNew(ops, next, fs[1..], bump, kb1);
      assert fs == [fs[0]] + fs[1..];
      assert next.api.containsFact(fs[0]) by {
        assert ops.addFact(kb, fs[0]).api.containsFact(fs[0]);
      }
      assert fs[0] !in fs[1..];
      forall f | f in fs[1..] ensures !kb.api.containsFact(f) {
        assert !next.api.containsFact(f);
        assert !ops.addFact(kb, fs[0]).api.containsFact(f);
      }
    }
  }

  /** Under `Keeps`, seeding leaves every fact of the list, and every fact
      the database held, in the database. */
  lemma {:induction false} SeedHolds(ops: Ops, kb: Kb, facts: seq<Fact>, g: Fact)
    requires Keeps(ops)
    requires kb.api.containsFact(g) || g in facts
    ensures Seed(ops, kb, facts).0.api.containsFact(g)
    decreases |facts|
  {
    if facts != [] {
      var f := facts[0];
      var kb1 := if kb.api.containsFact(f) then kb else Next(ops, kb, f, false);
      assert kb1.api.containsFact(g) || g in facts[1..] by {
        if !kb.api.containsFact(f) && (g == f || kb.api.containsFact(g)) {
          assert ops.addFact(kb, f).api.containsFact(g);
        }
      }
      SeedHolds(ops, kb1, facts[1..], g);
    }
  }

  /** `FC(database=db).deduct(p)` over every form of the popped fact, with
      `FC` imported: it raises exactly when a deduction from one of the
      forms raises, and then with that error; each conclusion is one a rule
      fired on some form draws. */
  function Derive(kb: Kb, forms: seq<Premise>): (r: Result<seq<Fact>>)
    ensures r.Ok? <==> forall p | p in forms :: FcDeduct.Fire(kb, p).Ok?
    ensures r.Fail? ==> exists p | p in forms :: FcDeduct.Fire(kb, p) == Fail(r.error)
    ensures r.Ok? ==> forall f | f in r.value :: exists p | p in forms :: f in FcDeduct.Fire(kb, p).value
    decreases |forms|
  {
    if forms == [] then Ok([])
    else
      assert forall x :: x in forms <==> x == forms[0] || x in forms[1..] by {
        assert forms == [forms[0]] + forms[1..];
      }
      var here :- FcDeduct.Deduct(kb, forms[0]);
      var rest :- Derive(kb, forms[1..]);
      Ok(here + rest)
  }

  /** The same loop as written: the import of `FC` is commented out, so the
      first form reaches an unbound name and raises `NameError`; only a
      fact without forms gets through. */
  function DeriveAsWritten(forms: seq<Premise>): (r: Result<seq<Fact>>)
    ensures r.Ok? <==> forms == []
    ensures r.Ok? ==> r.value == []
    ensures r.Fail? ==> r.error == UndefinedName
  {
    if forms == [] then Ok([]) else Fail(UndefinedName)
  }

  /** The loop's variables: the database, the queue `facts_to_add`, the
      memo `used` from a fact's rendering (its hash and equality) to the
      version it was last deduced at, and `increased_facts`. */
  datatype State = State(kb: Kb, queue: seq<Fact>, used: map<string, nat>, increased: seq<Fact>)

  /** The popped fact was deduced from at the current version already. */
  predicate Skip(s: State)
    requires s.queue != []
  {
    var key := Render(s.queue[0]);
    key in s.used && s.used[key] == s.kb.api.version
  }

  /** A conclusion of deducing from `fact`. */
  ghost predicate Concluded(kb: Kb, fact: Fact, f: Fact) {
    exists p | p in kb.api.allForms(fact) :: FcDeduct.Fire(kb, p).Ok? && f in FcDeduct.Fire(kb, p).value
  }

  /** What deducing from `fact` yields: `Derive` over its forms, or the
      same loop as written when `corrected` does not hold.  Every
      conclusion is one a rule fired on some form draws. */
  function Conclude(kb: Kb, fact: Fact, corrected: bool): (r: Result<seq<Fact>>)
    ensures corrected ==> (r.Ok? <==> Derive(kb, kb.api.allForms(fact)).Ok?)
    ensures !corrected ==> (r.Ok? <==> kb.api.allForms(fact) == [])
    ensures r.Fail? && !corrected ==> r.error == UndefinedName
    ensures r.Ok? ==> forall f | f in r.value :: Concluded(kb, fact, f)
  {
    if corrected then Derive(kb, kb.api.allForms(fact)) else DeriveAsWritten(kb.api.allForms(fact))
  }

  /** The queue after deducing from `fact`: the conclusions the database
      lacks join `rest`, which is sorted again. */
  function Deduced(kb: Kb, fact: Fact, rest: seq<Fact>, corrected: bool): (r: Result<seq<Fact>>)
    ensures r.Ok? <==> Conclude(kb, fact, corrected).Ok?
    ensures r.Fail? ==> Conclude(kb, fact, corrected) == Fail(r.error)
    ensures r.Ok? ==> PrioritySorted(r.value)
    ensures r.Ok? ==> multiset(rest) <= multiset(r.value)
    ensures r.Ok? ==> forall f | f in r.value && f !in rest :: !kb.api.containsFact(f) && Concluded(kb, fact, f)
  {
    match Conclude(kb, fact, corrected)
    case Fail(e) => Fail(e)
    case Ok(facts) => Ok(NpProver.Requeue(kb, rest, facts))
  }

  /** Adding one absent fact with a version update is growing by it. */
  lemma GrewOne(ops: Ops, kb: Kb, fact: Fact)
    requires !kb.api.containsFact(fact)
    ensures Grew(ops, kb, [fact], true, Next(ops, kb, fact, true))
  {
    assert [fact][1..] == [];
  }

  /** The turn of a fact not skipped: the memo records the version, the
      conclusions the database lacks join the queue, which is sorted again,
      and the fact, when new, is added, recorded and followed by a version
      update. */
  function Visit(ops: Ops, s: State, corrected: bool): (r: Result<State>)
    requires s.queue != []
    ensures r.Ok? <==> Conclude(s.kb, s.queue[0], corrected).Ok?
    ensures r.Fail? ==> Conclude(s.kb, s.queue[0], corrected) == Fail(r.error)
    ensures r.Ok? ==> r.value.used == s.used[Render(s.queue[0]) := s.kb.api.version]
    ensures r.Ok? ==> PrioritySorted(r.value.queue)
    ensures r.Ok? ==> multiset(s.queue[1..]) <= multiset(r.value.queue)
    ensures r.Ok? ==> forall f | f in r.value.queue && f !in s.queue[1..] :: !s.kb.api.containsFact(f) && Concluded(s.kb, s.queue[0], f)
    ensures r.Ok? ==> r.value.increased == s.increased + (if s.kb.api.containsFact(s.queue[0]) then [] else [s.queue[0]])
    ensures r.Ok? ==> Grew(ops, s.kb, r.value.increased[|s.increased|..], true, r.value.kb)
  {
    var fact := s.queue[0];
    var used := s.used[Render(fact) := s.kb.api.version];
    match Deduced(s.kb, fact, s.queue[1..], corrected)
    case Fail(e) => Fail(e)
    case Ok(queue) => Ok(Absorb(ops, s.kb, fact, queue, used, s.increased))
  }

  /** The end of a turn: the fact, when new, is added, recorded and
      followed by a version update. */
  function Absorb(ops: Ops, kb: Kb, fact: Fact, queue: seq<Fact>, used: map<string, nat>, increased: seq<Fact>): (r: State)
    ensures r.queue == queue && r.used == used
    ensures r.increased == increased + (if kb.api.containsFact(fact) then [] else [fact])
    ensures Grew(ops, kb, r.increased[|increased|..], true, r.kb)
  {
    if kb.api.containsFact(fact) then
      assert increased[|increased|..] == [];
      State(kb, queue, used, increased)
    else
      assert (increased + [fact])[|increased|..] == [fact];
      GrewOne(ops, kb, fact);
      State(Next(ops, kb, fact, true), queue, used, increased + [fact])
  }

  /** One turn of `while facts_to_add`, with `FC` imported when `corrected`
      holds: a fact already deduced from at this version only leaves the
      queue, and any other is visited. */
  function Step(ops: Ops, s: State, corrected: bool): (r: Result<State>)
    requires s.queue != []
    ensures Skip(s) ==> r == Ok(s.(queue := s.queue[1..]))
    ensures corrected ==> (r.Ok? <==> Skip(s) || Derive(s.kb, s.kb.api.allForms(s.queue[0])).Ok?)
    ensures !corrected ==> (r.Ok? <==> Skip(s) || s.kb.api.allForms(s.queue[0]) == [])
    ensures r.Fail? && !corrected ==> r.error == UndefinedName
    ensures r.Ok? && !Skip(s) ==> r.value.used == s.used[Render(s.queue[0]) := s.kb.api.version]
    ensures r.Ok? && !Skip(s) ==> PrioritySorted(r.value.queue)
    ensures r.Ok? ==> multiset(s.queue[1..]) <= multiset(r.value.queue)
    ensures r.Ok? ==> forall f | f in r.value.queue && f !in s.queue[1..] :: !s.kb.api.containsFact(f) && Concluded(s.kb, s.queue[0], f)
    ensures r.Ok? ==> r.value.increased == s.increased + (if Skip(s) || s.kb.api.containsFact(s.queue[0]) then [] else [s.queue[0]])
    ensures r.Ok? ==> Grew(ops, s.kb, r.value.increased[|s.increased|..], true, r.value.kb)
  {
    if Skip(s) then
      assert s.increased[|s.increased|..] == [];
      Ok(s.(queue := s.queue[1..]))
    else
      Visit(ops, s, corrected)
  }

  /** `s1` follows `s`: `increased_facts` only grew, the database grew by
      exactly what it gained, each fact absent when added, and a sorted
      queue stayed sorted. */
  ghost predicate Moves(ops: Ops, s: State, s1: State) {
    && s.increased <= s1.increased
    && Grew(ops, s.kb, s1.increased[|s.increased|..], true, s1.kb)
    && (PrioritySorted(s.queue) ==> PrioritySorted(s1.queue))
  }

  /** Every turn of the loop is a move. */
  lemma StepMoves(ops: Ops, s: State, corrected: bool)
    requires s.queue != []
    ensures Step(ops, s, corrected).Ok? ==> Moves(ops, s, Step(ops, s, corrected).value)
  {
    var r := Step(ops, s, corrected);
    if r.Ok? && PrioritySorted(s.queue) && Skip(s) {
      assert r.value.queue == s.queue[1..];
    }
  }

  /** A move is transitive. */
  lemma {:induction false} MovesChain(ops: Ops, s: State, s1: State, s2: State)
    requires Moves(ops, s, s1) && Moves(ops, s1, s2)
    ensures Moves(ops, s, s2)
  {
    var d := s1.increased[|s.increased|..];
    var e := s2.increased[|s1.increased|..];
    assert s2.increased[|s.increased|..] == d + e;
    GrewAppend(ops, s.kb, d, e, true, s1.kb, s2.kb);
  }

  /** A turn of the loop. */
  type Turn = State -> Result<State>

  /** `while facts_to_add`, for at most `fuel` turns of `turn`; the fuel
      left over is returned.  The loop stops with the queue empty unless
      the fuel ran out, and the end follows from the start when every turn
      is a move; an error is one a turn raised. */
  function Drive(ops: Ops, turn: Turn, s: State, fuel: nat): (r: Result<(State, nat)>)
    requires forall t: State :: t.queue != [] && turn(t).Ok? ==> Moves(ops, t, turn(t).value)
    ensures r.Ok? ==> r.value.1 <= fuel && (r.value.1 == 0 || r.value.0.queue == [])
    ensures r.Ok? ==> Moves(ops, s, r.value.0)
    ensures r.Fail? ==> exists t: State :: t.queue != [] && turn(t) == Fail(r.error)
    decreases fuel
  {
    if s.queue == [] || fuel == 0 then
      assert s.increased[|s.increased|..] == [];
      Ok((s, fuel))
    else
      match turn(s)
      case Fail(e) => Fail(e)
      case Ok(s1) =>
        var r := Drive(ops, turn, s1, fuel - 1);
        if r.Ok? then
          MovesChain(ops, s, s1, r.value.0);
          r
        else r
  }

  /** The loop of `inference_update`, for at most `fuel` turns: it ends
      where `Drive` says, and as written the only error is the unbound
      `FC`. */
  function Run(ops: Ops, s: State, fuel: nat, corrected: bool): (r: Result<(State, nat)>)
    ensures r.Ok? ==> r.value.1 <= fuel && (r.value.1 == 0 || r.value.0.queue == [])
    ensures r.Ok? ==> Moves(ops, s, r.value.0)
    ensures r.Fail? && !corrected ==> r.error == UndefinedName
  {
    var turn := (t: State) => if t.queue == [] then Ok(t) else Step(ops, t, corrected);
    forall t: State | t.queue != [] ensures turn(t).Ok? ==> Moves(ops, t, turn(t).value) {
      StepMoves(ops, t, corrected);
    }
    Drive(ops, turn, s, fuel)
  }

  /** The body of `inference_update` once the input is converted: `facts`
      seeded into the database, then the loop from an empty memo; the
      result is the database and the facts it gained, sorted.  When the
      database keeps what it holds, every fact reported was new to the
      database and is held at the end, none is reported twice, and every
      seeded fact is held at the end. */
  function Update(ops: Ops, kb: Kb, facts: seq<Fact>, fuel: nat, corrected: bool): (r: Result<(Kb, seq<Fact>)>)
    ensures r.Ok? ==> PrioritySorted(r.value.1)
    ensures r.Ok? && Keeps(ops) ==> forall f | f in r.value.1 :: !kb.api.containsFact(f) && r.value.0.api.containsFact(f)
    ensures r.Ok? && Keeps(ops) ==> forall f :: multiset(r.value.1)[f] <= 1
    ensures r.Ok? && Keeps(ops) ==> forall f | f in facts :: r.value.0.api.containsFact(f)
    ensures r.Fail? && !corrected ==> r.error == UndefinedName
  {
    var seeded := Seed(ops, kb, facts);
    match Run(ops, State(seeded.0, facts, map[], seeded.1), fuel, corrected)
    case Fail(e) => Fail(e)
    case Ok(end) =>
      Reported(ops, kb, facts, seeded, end.0);
      var sorted := Sort(end.0.increased);
      assert forall f | f in sorted :: f in end.0.increased by {
        forall f | f in sorted ensures f in end.0.increased {
          assert f in multiset(sorted);
        }
      }
      Ok((end.0.kb, sorted))
  }

  /** `inference_update(db, predicates_to_add)` with at most `fuel` turns
      of the loop: the input predicates are converted, deduplicated and
      sorted, and then updated into the database. */
  function InferenceUpdate(ops: Ops, kb: Kb, preds: seq<Pred>, fuel: nat, corrected: bool): (r: Result<(Kb, seq<Fact>)>)
    ensures r.Ok? ==> PrioritySorted(r.value.1)
    ensures r.Ok? && Keeps(ops) ==> forall f | f in r.value.1 :: !kb.api.containsFact(f) && r.value.0.api.containsFact(f)
    ensures r.Ok? && Keeps(ops) ==> forall f :: multiset(r.value.1)[f] <= 1
    ensures r.Ok? && Keeps(ops) ==> forall h | h in preds :: exists f | f in NpProver.Seed(kb, preds) :: FactEq(f, kb.api.toFact(h)) && r.value.0.api.containsFact(f)
    ensures r.Fail? && !corrected ==> r.error == UndefinedName
  {
    var seeded := NpProver.Seed(kb, preds);
    Update(ops, kb, seeded, fuel, corrected)
  }

  /** The facts the update reports, before sorting, when the database
      keeps what it holds: each new to it and held at the end, none twice,
      and every seeded fact held at the end. */
  lemma Reported(ops: Ops, kb: Kb, facts: seq<Fact>, seeded: (Kb, seq<Fact>), end: State)
    requires seeded == Seed(ops, kb, facts)
    requires seeded.1 <= end.increased
    requires Grew(ops, seeded.0, end.increased[|seeded.1|..], true, end.kb)
    ensures Keeps(ops) ==> forall f | f in end.increased :: !kb.api.containsFact(f) && end.kb.api.containsFact(f)
    ensures Keeps(ops) ==> forall f :: multiset(end.increased)[f] <= 1
    ensures Keeps(ops) ==> forall f | f in facts :: end.kb.api.containsFact(f)
  {
    if Keeps(ops) {
      ReportedKept(ops, kb, facts, seeded, end);
    }
  }

  lemma ReportedKept(ops: Ops, kb: Kb, facts: seq<Fact>, seeded: (Kb, seq<Fact>), end: State)
    requires Keeps(ops)
    requires seeded == Seed(ops, kb, facts)
    requires seeded.1 <= end.increased
    requires Grew(ops, seeded.0, end.increased[|seeded.1|..], true, end.kb)
    ensures forall f | f in end.increased :: !kb.api.containsFact(f) && end.kb.api.containsFact(f)
    ensures forall f :: multiset(end.increased)[f] <= 1
    ensures forall f | f in facts :: end.kb.api.containsFact(f)
  {
    var a, mid := seeded.1, seeded.0;
    var b := end.increased[|a|..];
    Batches(ops, kb, a, mid, b, end.kb, end.increased);
    SeedKept(ops, kb, facts, mid, b, end.kb);
  }

  /** Under `Keeps`, the premises seeded into a database are still held
      after it grows further. */
  lemma SeedKept(ops: Ops, kb: Kb, facts: seq<Fact>, mid: Kb, b: seq<Fact>, kb1: Kb)
    requires Keeps(ops) && mid == Seed(ops, kb, facts).0 && Grew(ops, mid, b, true, kb1)
    ensures forall f | f in facts :: kb1.api.containsFact(f)
  {
    forall f | f in facts ensures kb1.api.containsFact(f) {
      SeedHolds(ops, kb, facts, f);
      GrewHolds(ops, mid, b, true, kb1, f);
    }
  }

  /** Under `Keeps`, the facts of two growths in a row were each new to
      the first database, are held by the last, and are distinct. */
  lemma Batches(ops: Ops, kb: Kb, a: seq<Fact>, mid: Kb, b: seq<Fact>, kb1: Kb, ab: seq<Fact>)
    requires Keeps(ops) && Grew(ops, kb, a, false, mid) && Grew(ops, mid, b, true, kb1)
    requires a <= ab && b == ab[|a|..]
    ensures forall f | f in ab :: !kb.api.containsFact(f) && kb1.api.containsFact(f)
    ensures forall f :: multiset(ab)[f] <= 1
  {
    assert ab == a + b;
    GrewNew(ops, kb, a, false, mid);
    GrewNew(ops, mid, b, true, kb1);
    forall f | f in a + b ensures !kb.api.containsFact(f) && kb1.api.containsFact(f) {
      KeptOne(ops, kb, a, mid, b, kb1, f);
    }
    forall f | f in a ensures mid.api.containsFact(f) {
      GrewHolds(ops, kb, a, false, mid, f);
    }
    KeptOnce(kb, mid, a, b);
  }

  /** A fact of either batch was new to `kb` and is held at the end. */
  lemma KeptOne(ops: Ops, kb: Kb, a: seq<Fact>, mid: Kb, b: seq<Fact>, kb1: Kb, f: Fact)
    requires Keeps(ops) && Grew(ops, kb, a, false, mid) && Grew(ops, mid, b, true, kb1)
    requires forall g | g in a :: !kb.api.containsFact(g)
    requires forall g | g in b :: !mid.api.containsFact(g)
    requires f in a + b
    ensures !kb.api.containsFact(f) && kb1.api.containsFact(f)
  {
    if f in a {
      GrewHolds(ops, kb, a, false, mid, f);
      GrewHolds(ops, mid, b, true, kb1, f);
    } else {
      GrewHolds(ops, mid, b, true, kb1, f);
      if kb.api.containsFact(f) {
        GrewHolds(ops, kb, a, false, mid, f);
      }
    }
  }

  /** Two batches, the second new to the database the first left, with no
      repeats in either, have no repeats together. */
  lemma KeptOnce(kb: Kb, mid: Kb, a: seq<Fact>, b: seq<Fact>)
    requires forall f :: multiset(a)[f] <= 1
    requires forall f :: multiset(b)[f] <= 1
    requires forall f | f in b :: !mid.api.containsFact(f)
    requires forall f | f in a :: mid.api.containsFact(f)
    ensures forall f :: multiset(a + b)[f] <= 1
  {
    forall f ensures multiset(a + b)[f] <= 1 {
      assert multiset(a + b)[f] == multiset(a)[f] + multiset(b)[f];
      if f in a {
        assert f !in b;
      }
    }
  }

  /** As written, the first fact off the queue whose database has forms
      for it raises `NameError`: `FC` is never imported. */
  lemma AsWrittenFails(ops: Ops, kb: Kb, preds: seq<Pred>, fuel: nat)
    requires fuel > 0 && NpProver.Seed(kb, preds) != []
    requires Seed(ops, kb, NpProver.Seed(kb, preds)).0.api.allForms(NpProver.Seed(kb, preds)[0]) != []
    ensures InferenceUpdate(ops, kb, preds, fuel, false) == Fail(UndefinedName)
  {
    var facts := NpProver.Seed(kb, preds);
    var seeded := Seed(ops, kb, facts);
    var s := State(seeded.0, facts, map[], seeded.1);
    assert !Skip(s);
    assert Step(ops, s, false) == Fail(UndefinedName);
    RunFirstFail(ops, s, fuel, false);
  }

  /** A loop whose first turn raises raises that error. */
  lemma RunFirstFail(ops: Ops, s: State, fuel: nat, corrected: bool)
    requires fuel > 0 && s.queue != [] && Step(ops, s, corrected).Fail?
    ensures Run(ops, s, fuel, corrected) == Fail(Step(ops, s, corrected).error)
  {
  }
}

=== FILE: kb.dfy ===
/** The database as a rule body sees it.  The point-level prover of
    `src/prover.py` imports the list store of `src/database.py` (modelled,
    with the run it gives, in `ListProver`); the rule bodies themselves read
    the names of the group store of `src/database_.py` (lines, congruence
    classes, parallel groups, equal-angle and equal-ratio groups, midpoint
    triples), and the model runs them over that store.  They also read
    collections no store of the repository keeps (perpendicular line pairs,
    similar and congruent triangle groups, circles): here they are extra
    fields, read as given.  The later revisions call a database API whose
    source is not part of this model (`containsFact`, `lineIntersection`,
    `_predicate_to_fact`, `_predicate_all_forms`, `version`).  That API is a
    record of functions: nothing is known of it beyond what its call sites
    need. */
module Snapshot {
  import opened Common
  import opened Primitives
  import opened Facts
  import opened Predicates
  import GroupStore

  datatype Circle = Circle(center: Point, points: seq<Point>)

  /** What a rule body receives: a predicate's points and, in the line form
      the later database hands out, the keys of its lines (empty otherwise). */
  datatype Premise = Premise(kind: string, points: seq<Point>, lines: seq<LineKey>)

  /** The database calls whose bodies are not part of this model. */
  datatype Api = Api(
    containsFact: Fact -> bool,
    lineIntersection: (LineKey, LineKey) -> seq<Point>,
    toFact: Pred -> Fact,
    allForms: Fact -> seq<Premise>,
    version: nat)

  datatype Kb = Kb(
    store: GroupStore.Store,
    perpFacts: seq<seq<LineKey>>,
    simtriFacts: seq<seq<Triangle>>,
    contriFacts: seq<seq<Triangle>>,
    circles: seq<Circle>,
    api: Api)

  /** A premise that carries points only. */
  function PointPremise(p: Pred): Premise {
    Premise(p.kind, p.points, [])
  }

  /** `matchLine([p, q])` from inside a rule: the line `matchLine` finds or
      creates, as an entry.  The rule sees its key and its points; the store
      the call would extend is not carried into the rule's later reads. */
  function LineThrough(kb: Kb, p: Point, q: Point): (r: Result<Entry<LineKey, Point>>)
    ensures r.Ok? <==> GroupStore.MatchLine(kb.store.lines, p, q).Ok?
    ensures r.Ok? ==> r.value.key == GroupStore.MatchLine(kb.store.lines, p, q).value.name
    ensures r.Ok? ==> r.value in GroupStore.MatchLine(kb.store.lines, p, q).value.dict
    ensures r.Ok? ==> p in r.value.members && q in r.value.members
    ensures r.Fail? ==> r.error == NameExhausted
  {
    var lines := kb.store.lines;
    var i := GroupStore.LineWith(lines, p, q);
    if i < |lines| then Ok(lines[i])
    else
      var name :- GroupStore.NewName("line", Keys(lines));
      var m := GroupStore.SetOf([p, q]);
      assert p in Elems([p, q]) && q in Elems([p, q]);
      assert Put(lines, name, m)[|lines|] == Entry(name, m);
      Ok(Entry(name, m))
  }

  /** The key `matchLine([p, q])` returns. */
  function LineOf(kb: Kb, p: Point, q: Point): (r: Result<LineKey>)
    ensures r.Ok? <==> GroupStore.MatchLine(kb.store.lines, p, q).Ok?
    ensures r.Ok? ==> r.value == GroupStore.MatchLine(kb.store.lines, p, q).value.name
    ensures r.Fail? ==> r.error == NameExhausted
  {
    var e :- LineThrough(kb, p, q);
    Ok(e.key)
  }

  /** `matchCong([p, q])` from inside a rule: the congruence class found or
      created, as an entry. */
  function CongThrough(kb: Kb, p: Point, q: Point): (r: Result<Entry<CongKey, Segment>>)
    ensures r.Ok? <==> GroupStore.MatchCong(kb.store.congs, p, q).Ok?
    ensures r.Ok? ==> r.value.key == GroupStore.MatchCong(kb.store.congs, p, q).value.name
    ensures r.Ok? ==> r.value in GroupStore.MatchCong(kb.store.congs, p, q).value.dict
    ensures r.Ok? ==> GroupStore.HasSeg(r.value.members, Segment(p, q))
    ensures r.Fail? ==> r.error == NameExhausted
  {
    var congs := kb.store.congs;
    var i := GroupStore.CongWith(congs, Segment(p, q));
    if i < |congs| then Ok(congs[i])
    else
      var name :- GroupStore.NewName("cong", Keys(congs));
      assert Put(congs, name, [Segment(p, q)])[|congs|] == Entry(name, [Segment(p, q)]);
      assert Map([Segment(p, q)], Canon)[0] == Canon(Segment(p, q));
      Ok(Entry(name, [Segment(p, q)]))
  }

  function CongOf(kb: Kb, p: Point, q: Point): (r: Result<CongKey>)
    ensures r.Ok? <==> GroupStore.MatchCong(kb.store.congs, p, q).Ok?
    ensures r.Ok? ==> r.value == GroupStore.MatchCong(kb.store.congs, p, q).value.name
    ensures r.Fail? ==> r.error == NameExhausted
  {
    var e :- CongThrough(kb, p, q);
    Ok(e.key)
  }

  /** `lines[key]`: the points of a line named by a stored fact. */
  function PointsOf(kb: Kb, key: LineKey): (r: Result<seq<Point>>)
    ensures r.Ok? <==> key in Keys(kb.store.lines)
    ensures r.Ok? ==> exists i | 0 <= i < |kb.store.lines| ::
      kb.store.lines[i].key == key && kb.store.lines[i].members == r.value
    ensures r.Fail? ==> r.error == KeyMissing
  {
    match Lookup(kb.store.lines, key)
    case Some(m) => Ok(m)
    case None => Fail(KeyMissing)
  }

  /** `congs[key]`: the segments of a congruence class. */
  function SegsOf(kb: Kb, key: CongKey): (r: Result<seq<Segment>>)
    ensures r.Ok? <==> key in Keys(kb.store.congs)
    ensures r.Ok? ==> exists i | 0 <= i < |kb.store.congs| ::
      kb.store.congs[i].key == key && kb.store.congs[i].members == r.value
    ensures r.Fail? ==> r.error == KeyMissing
  {
    match Lookup(kb.store.congs, key)
    case Some(m) => Ok(m)
    case None => Fail(KeyMissing)
  }

  /** `x` is the pair of the elements at two positions `i < j` of `s`. */
  ghost predicate PairOf<T>(s: seq<T>, x: (T, T)) {
    exists i, j | 0 <= i < j < |s| :: x == (s[i], s[j])
  }

  /** `itertools.combinations(s, 2)`: every pair of positions `i < j`, in order. */
  function Pairs<T(==)>(s: seq<T>): (r: seq<(T, T)>)
    ensures forall i, j | 0 <= i < j < |s| :: (s[i], s[j]) in r
    ensures forall k | 0 <= k < |r| :: PairOf(s, r[k])
    decreases |s|
  {
    if |s| < 2 then []
    else
      var head := Map(s[1..], (x: T) => (s[0], x));
      var tail := Pairs(s[1..]);
      PairsComplete(s, head, tail);
      PairsSound(s, head, tail);
      head + tail
  }

  /** Each pair of positions is among the pairs with the first element and
      the pairs of the rest. */
  lemma PairsComplete<T>(s: seq<T>, head: seq<(T, T)>, tail: seq<(T, T)>)
    requires |s| >= 2 && |head| == |s| - 1
    requires forall k | 0 <= k < |head| :: head[k] == (s[0], s[1..][k])
    requires forall i, j | 0 <= i < j < |s[1..]| :: (s[1..][i], s[1..][j]) in tail
    ensures forall i, j | 0 <= i < j < |s| :: (s[i], s[j]) in head + tail
  {
    forall i, j | 0 <= i < j < |s| ensures (s[i], s[j]) in head + tail {
      if i == 0 {
        assert head[j - 1] == (s[i], s[j]);
        assert (head + tail)[j - 1] == head[j - 1];
      } else {
        assert (s[1..][i - 1], s[1..][j - 1]) in tail;
        assert (s[i], s[j]) == (s[1..][i - 1], s[1..][j - 1]);
      }
    }
  }

  /** Each pair with the first element or of the rest is a pair of
      positions. */
  lemma PairsSound<T>(s: seq<T>, head: seq<(T, T)>, tail: seq<(T, T)>)
    requires |s| >= 2 && |head| == |s| - 1
    requires forall k | 0 <= k < |head| :: head[k] == (s[0], s[1..][k])
    requires forall k | 0 <= k < |tail| :: PairOf(s[1..], tail[k])
    ensures forall k | 0 <= k < |head + tail| :: PairOf(s, (head + tail)[k])
  {
    var r := head + tail;
    forall k | 0 <= k < |r| ensures PairOf(s, r[k]) {
      if k < |head| {
        assert r[k] == (s[0], s[k + 1]);
      } else {
        assert PairOf(s[1..], tail[k - |head|]);
        var i, j :| 0 <= i < j < |s[1..]| && tail[k - |head|] == (s[1..][i], s[1..][j]);
        assert r[k] == (s[i + 1], s[j + 1]);
      }
    }
  }

  /** `list(pair)[0] if list(pair)[1] == l else list(pair)[1]`: the other
      line of a two-line group; fewer than two lines is an IndexError. */
  function Partner(pair: seq<LineKey>, l: LineKey): (r: Result<LineKey>)
    ensures r.Ok? <==> |pair| >= 2
    ensures r.Fail? ==> r.error == IndexOutOfRange
    ensures r.Ok? && l in pair[..2] ==> multiset{l, r.value} == multiset(pair[..2])
  {
    if |pair| < 2 then Fail(IndexOutOfRange)
    else
      assert pair[..2] == [pair[0], pair[1]];
      if pair[1] == l then Ok(pair[0]) else Ok(pair[1])
  }

  /** `t in triangles`, under the vertex-set equality chosen for triangles. */
  predicate HasTri(ts: seq<Triangle>, t: Triangle) {
    exists i | 0 <= i < |ts| :: TriEq(ts[i], t)
  }
}

=== FILE: listprover.dfy ===
/** `Prover` of `src/prover.py` as written.  Line 15 imports `Database` from
    `src/database.py`, and line 23 builds one: the list store, which keeps
    `lineDict`, `congDict`, `paraFacts`, `midpFacts` and `eqangleFacts` and
    nothing else.  The rule bodies and `prove` read `matchLine`, `lines`,
    `matchCong`, `congs`, `eqratioFacts`, `perpFacts`, `simtriFacts`,
    `contriFacts` and `circles` from it, and each such read raises
    AttributeError.  For every kind that has rules, the rules `fixedpoint`
    fires first only unpack and rearrange the points (and `_ruleD44` reads
    the `midpFacts` the list store does keep), and the next one reads a
    missing name on every path: `matchLine` in D03 (coll), D06 (para), D22
    (eqangle) and D09 (perp), `perpFacts` in D52midp (midp), `matchCong` in
    D25 (cong) and D30 (eqratio), `circles` in D17 (cyclic), `simtriFacts`
    in D34 (simtri) and `contriFacts` in D38 (contri).  So the run ends at
    the first popped predicate of such a kind.  `PointProver` is the corrected
    half: the same loop over the group store of `src/database_.py`. */
module ListProver {
  import opened Common
  import opened Primitives
  import opened Predicates
  import ListStore
  import PointProver
  import NrProver

  /** The number of points the rules of a kind unpack. */
  function Arity(kind: string): nat {
    if kind == "coll" || kind == "midp" then 3
    else if kind == "simtri" || kind == "contri" then 6
    else if kind == "eqangle" || kind == "eqratio" then 8
    else 4
  }

  /** `predicates += self._ruleX(d)` for each rule of `d`'s kind, against
      the list store: the first rule's unpacking raises ValueError on the
      wrong number of points; otherwise the rearrangements succeed and the
      first rule that reads a missing name raises AttributeError (or
      `_ruleD44` does first, through the `lines` that `prove` reads).  A kind without rules gives nothing. */
  function Fire(d: Pred): (r: Result<seq<Pred>>)
    ensures r.Ok? <==> d.kind !in PointProver.FiringKinds
    ensures r.Ok? ==> r.value == []
    ensures r.Fail? ==> r.error == if |d.points| == Arity(d.kind) then TypeMismatch else MalformedArity
  {
    if d.kind !in PointProver.FiringKinds then Ok([])
    else if |d.points| != Arity(d.kind) then Fail(MalformedArity)
    else Fail(TypeMismatch)
  }

  /** The `while` loop with `iters` passes left: pop, `database.add`, fire
      the rules.  Since firing either raises or gives nothing, the loop
      over the new predicates never runs; so the loop runs to the end
      exactly when no predicate it pops has a kind with rules and each can
      be added again. */
  function Loop(db: ListStore.Db, pending: seq<Pred>, popped: seq<Pred>, iters: nat): (r: Result<NrProver.Run>)
    ensures var k := NrProver.Min(iters, |pending|);
      r.Ok? <==> ((forall i | 0 <= i < k :: pending[i].kind !in PointProver.FiringKinds) &&
                  PointProver.Chain(db, pending[..k], ListStore.Add).Ok?)
    ensures var k := NrProver.Min(iters, |pending|);
      r.Ok? ==> r.value == NrProver.Run(PointProver.Chain(db, pending[..k], ListStore.Add).value, pending[k..], popped + pending[..k])
    decreases iters
  {
    if pending == [] || iters == 0 then
      assert pending[..NrProver.Min(iters, |pending|)] == [];
      Ok(NrProver.Run(db, pending, popped))
    else
      var d := pending[0];
      var k := NrProver.Min(iters, |pending|);
      var rest := pending[1..];
      assert pending[..k][0] == d && pending[..k][1..] == rest[..NrProver.Min(iters - 1, |rest|)];
      assert forall i | 1 <= i < k :: pending[i] == rest[i - 1];
      match ListStore.Add(db, d)
      case Fail(e) => Fail(e)
      case Ok(db1) =>
        match Fire(d)
        case Fail(e) => Fail(e)
        case Ok(_) =>
          assert popped + [d] + rest[..NrProver.Min(iters - 1, |rest|)] == popped + pending[..k];
          assert rest[NrProver.Min(iters - 1, |rest|)..] == pending[k..];
          Loop(db1, rest, popped + [d], iters - 1)
  }

  /** `Prover(hypotheses).fixedpoint()` over `src/database.py`'s store: the
      constructor adds and queues every hypothesis, and the loop runs at
      most ten passes.  It succeeds exactly when none of the first ten
      hypotheses has a kind with rules and every addition succeeds; it
      then concludes nothing, and the queue only loses its first ten. */
  function Fixedpoint(hs: seq<Pred>): (r: Result<NrProver.Run>)
    ensures var n := NrProver.Min(NrProver.Iters, |hs|);
      r.Ok? <==> ((forall i | 0 <= i < n :: hs[i].kind !in PointProver.FiringKinds) &&
                  NrProver.AddAll(ListStore.EmptyDb, hs + hs[..n]).Ok?)
    ensures var n := NrProver.Min(NrProver.Iters, |hs|);
      r.Ok? ==> r.value == NrProver.Run(NrProver.AddAll(ListStore.EmptyDb, hs + hs[..n]).value, hs[n..], hs[..n])
  {
    var start := NrProver.AddAll(ListStore.EmptyDb, hs);
    NrProver.AddAgain(hs);
    if start.Fail? then Fail(start.error)
    else Loop(start.value, hs, [], NrProver.Iters)
  }

  /** The discrepancy: a first hypothesis of a kind that has rules ends the
      run with an error, whatever else the problem says, while the
      corrected run (`PointProver.Fixedpoint`) pops it first. */
  lemma FirstFires(hs: seq<Pred>)
    requires hs != [] && hs[0].kind in PointProver.FiringKinds
    ensures Fixedpoint(hs).Fail?
  {
  }

  /** A one-line problem `coll(A, B, C)` cannot be run as written. */
  lemma CollProblemFails(a: Point, b: Point, c: Point)
    ensures Fixedpoint([Pred("coll", [a, b, c])]).Fail?
  {
    FirstFires([Pred("coll", [a, b, c])]);
  }
}

=== FILE: liststore.dfy ===
/** The earlier, list-based store of `src/database.py`: lines map names to
    point lists, congruence classes map names to lists of sorted point pairs,
    parallel lines are groups of line names, equal angles are groups of
    sorted line-name pairs, and midpoints are triples.  Unlike the later
    store, merging lines rewrites the line names the parallel groups hold.
    Handlers are pure functions from the old store to the new one. */
module ListStore {
  import opened Common
  import opened Order
  import opened Text
  import opened Primitives
  import opened Util
  import opened Merge
  import opened Groups
  import opened Predicates
  import GroupStore

  type Lines = GroupStore.Lines
  type Congs = seq<Entry<CongKey, seq<Point>>>

  datatype Db = Db(
    lineDict: Lines,
    congDict: Congs,
    paraFacts: seq<seq<LineKey>>,
    midpFacts: seq<seq<Point>>,
    eqangleFacts: seq<seq<seq<LineKey>>>)

  const EmptyDb := Db([], [], [], [], [])

  /** `newLineName` / `newCongName` here: the smallest free `prefix{n}` with
      `1 <= n <= 19`, or `None` when all are taken. */
  function NewNameOrNone(prefix: string, taken: seq<string>): (r: Option<string>)
    ensures r.Some? ==> r.value !in taken
    ensures r.Some? ==> exists n | 1 <= n < GroupStore.NameLimit ::
      r.value == NumberedName(prefix, n) && forall k | 1 <= k < n :: NumberedName(prefix, k) in taken
    ensures r.None? <==> forall n | 1 <= n < GroupStore.NameLimit :: NumberedName(prefix, n) in taken
  {
    var n := GroupStore.FreeIndex(prefix, taken, 1);
    if n == GroupStore.NameLimit then None else Some(NumberedName(prefix, n))
  }

  /** A name to store a new entry under; the model stops where the source
      would go on with the key `None`. */
  function FreshName(prefix: string, taken: seq<string>): (r: Result<string>)
    ensures r.Ok? <==> NewNameOrNone(prefix, taken).Some?
    ensures r.Ok? ==> r.value == NewNameOrNone(prefix, taken).value
    ensures r.Fail? ==> r.error == NameExhausted
  {
    match NewNameOrNone(prefix, taken)
    case Some(n) => Ok(n)
    case None => Fail(NameExhausted)
  }

  /** Python's `None` where `newLineName` found no free name and the caller
      stores under it anyway: a key no numbered name equals. */
  const NoneKey: string := "None"

  /** `newLineName` as written: the smallest free name, or `None`. */
  function NewNameAsWritten(prefix: string, taken: seq<string>): string {
    match NewNameOrNone(prefix, taken)
    case Some(n) => n
    case None => NoneKey
  }

  /** `_addLine([p, q])` as written: a new line goes under `None` once the
      nineteen names are taken.  Wherever names remain it is `AddLine`. */
  function AddLineAsWritten(lines: Lines, p: Point, q: Point): (r: GroupStore.Named<Lines>)
    ensures GroupStore.Through(r.dict, r.name, p, q)
  {
    var i := GroupStore.LineWith(lines, p, q);
    if i < |lines| then GroupStore.Named(lines, lines[i].key)
    else
      var name := NewNameAsWritten("line", Keys(lines));
      PutThrough(lines, name, p, q);
      GroupStore.Named(Put(lines, name, [p, q]), name)
  }

  lemma PutThrough(lines: Lines, name: string, p: Point, q: Point)
    ensures GroupStore.Through(Put(lines, name, [p, q]), name, p, q)
  {
    var ls := Put(lines, name, [p, q]);
    var k :| 0 <= k < |ls| && ls[k].key == name && ls[k].members == [p, q];
  }

  /** Wherever a name remains, the code as written is `AddLine`. */
  lemma AsWrittenAgrees(lines: Lines, p: Point, q: Point)
    requires AddLine(lines, p, q).Ok?
    ensures AddLine(lines, p, q).value == AddLineAsWritten(lines, p, q)
  {
  }

  /** The discrepancy: with the nineteen names taken, two new lines in a row
      share the key `None`, and the second overwrites the first, so the line
      through `p` and `q` is lost. */
  lemma NoneKeyOverwrites(lines: Lines, p: Point, q: Point, p2: Point, q2: Point)
    requires forall n | 1 <= n < GroupStore.NameLimit :: NumberedName("line", n) in Keys(lines)
    requires NoneKey !in Keys(lines)
    requires GroupStore.LineWith(lines, p, q) == |lines| && GroupStore.LineWith(lines, p2, q2) == |lines|
    requires !(p2 in [p, q] && q2 in [p, q])
    ensures AddLineAsWritten(lines, p, q).dict == lines + [Entry(NoneKey, [p, q])]
    ensures AddLineAsWritten(AddLineAsWritten(lines, p, q).dict, p2, q2).dict == lines + [Entry(NoneKey, [p2, q2])]
    ensures AddLine(lines, p, q) == Fail(NameExhausted)
  {
    var first := lines + [Entry(NoneKey, [p, q])];
    AppendsUnderNone(lines, p, q);
    KeysAppend(lines, Entry(NoneKey, [p, q]));
    StillNew(lines, p, q, p2, q2);
    AppendsUnderNone(first, p2, q2);
    PutReplacesLast(lines, NoneKey, [p, q], [p2, q2]);
  }

  /** Once the names are taken, a new line is put under `None`. */
  lemma AppendsUnderNone(lines: Lines, p: Point, q: Point)
    requires forall n | 1 <= n < GroupStore.NameLimit :: NumberedName("line", n) in Keys(lines)
    requires GroupStore.LineWith(lines, p, q) == |lines|
    ensures NewNameAsWritten("line", Keys(lines)) == NoneKey
    ensures AddLineAsWritten(lines, p, q).dict == Put(lines, NoneKey, [p, q])
    ensures AddLine(lines, p, q) == Fail(NameExhausted)
  {
    NoNameLeft(Keys(lines));
  }

  lemma NoNameLeft(taken: seq<string>)
    requires forall n | 1 <= n < GroupStore.NameLimit :: NumberedName("line", n) in taken
    ensures NewNameOrNone("line", taken) == None
    ensures FreshName("line", taken) == Fail(NameExhausted)
  {
  }

  /** A line through two points not both on the `None` line is still new. */
  lemma StillNew(lines: Lines, p: Point, q: Point, p2: Point, q2: Point)
    requires GroupStore.LineWith(lines, p2, q2) == |lines|
    requires !(p2 in [p, q] && q2 in [p, q])
    ensures GroupStore.LineWith(lines + [Entry(NoneKey, [p, q])], p2, q2) == |lines| + 1
  {
    var j := GroupStore.LineWith(lines + [Entry(NoneKey, [p, q])], p2, q2);
  }

  lemma KeysAppend<K, T>(es: seq<Entry<K, T>>, e: Entry<K, T>)
    ensures Keys(es + [e]) == Keys(es) + [e.key]
  {
    assert forall i | 0 <= i < |es| + 1 :: Keys(es + [e])[i] == (Keys(es) + [e.key])[i];
  }

  /** Writing an existing last key replaces that entry in place. */
  lemma PutReplacesLast<K, T>(es: seq<Entry<K, T>>, k: K, m: seq<T>, m2: seq<T>)
    requires k !in Keys(es)
    ensures Put(es + [Entry(k, m)], k, m2) == es + [Entry(k, m2)]
  {
    PutKeepsPrefix(es, k, m, m2);
    PutLastEntry(es, k, m, m2);
    SameEntries(Put(es + [Entry(k, m)], k, m2), es + [Entry(k, m2)], es);
  }

  lemma SameEntries<E>(a: seq<E>, b: seq<E>, pre: seq<E>)
    requires |a| == |b| == |pre| + 1 && a[|pre|] == b[|pre|]
    requires forall j | 0 <= j < |pre| :: a[j] == pre[j]
    requires b[..|pre|] == pre
    ensures a == b
  {
    assert forall j | 0 <= j < |pre| :: b[j] == b[..|pre|][j];
  }

  lemma PutKeepsPrefix<K, T>(es: seq<Entry<K, T>>, k: K, m: seq<T>, m2: seq<T>)
    requires k !in Keys(es)
    ensures |Put(es + [Entry(k, m)], k, m2)| == |es| + 1
    ensures forall j | 0 <= j < |es| :: Put(es + [Entry(k, m)], k, m2)[j] == es[j]
  {
    var first := es + [Entry(k, m)];
    KeysAppend(es, Entry(k, m));
    assert k in Keys(first);
    forall j | 0 <= j < |es| ensures first[j].key != k {
      assert first[j] == es[j] && es[j].key == Keys(es)[j];
    }
  }

  lemma PutLastEntry<K, T>(es: seq<Entry<K, T>>, k: K, m: seq<T>, m2: seq<T>)
    requires k !in Keys(es)
    ensures Put(es + [Entry(k, m)], k, m2)[|es|] == Entry(k, m2)
  {
    var r := Put(es + [Entry(k, m)], k, m2);
    PutKeepsPrefix(es, k, m, m2);
    KeysAppend(es, Entry(k, m));
    assert Keys(r)[|es|] == k;
    forall j | 0 <= j < |es| ensures r[j].key != k {
      assert r[j] == es[j] && es[j].key == Keys(es)[j];
    }
    LookupFirst(r, k, |es|);
  }

  /** `d[k]` reads the first entry under `k`. */
  lemma {:induction false} LookupFirst<K, T>(es: seq<Entry<K, T>>, k: K, i: nat)
    requires i < |es| && es[i].key == k
    requires forall j | 0 <= j < i :: es[j].key != k
    ensures Lookup(es, k) == Some(es[i].members)
    decreases i
  {
    if i > 0 {
      assert forall j | 0 <= j < i - 1 :: es[1..][j] == es[j + 1];
      LookupFirst(es[1..], k, i - 1);
    }
  }

  /** `_addLine([p, q])`: the first line through both points, or a new line
      holding the list `[p, q]`. */
  function AddLine(lines: Lines, p: Point, q: Point): (r: Result<GroupStore.Named<Lines>>)
    ensures r.Ok? ==> GroupStore.Through(r.value.dict, r.value.name, p, q) && lines <= r.value.dict
    ensures (exists i | 0 <= i < |lines| :: p in lines[i].members && q in lines[i].members) ==>
      r.Ok? && r.value.dict == lines && r.value.name in Keys(lines)
    ensures r.Ok? && r.value.dict != lines ==>
      r.value.name !in Keys(lines) && r.value.dict == lines + [Entry(r.value.name, [p, q])]
    ensures r.Fail? ==> r.error == NameExhausted
  {
    var i := GroupStore.LineWith(lines, p, q);
    if i < |lines| then Ok(GroupStore.Named(lines, lines[i].key))
    else
      var name :- FreshName("line", Keys(lines));
      var ls := Put(lines, name, [p, q]);
      assert ls[|lines|] == Entry(name, [p, q]);
      Ok(GroupStore.Named(ls, name))
  }

  /** `_addLine` on each pair in order. */
  function AddLines(lines: Lines, pairs: seq<(Point, Point)>): (r: Result<GroupStore.Matched<Lines>>)
    ensures r.Ok? ==> lines <= r.value.dict && |r.value.names| == |pairs|
    ensures r.Ok? ==> forall k | 0 <= k < |pairs| ::
      GroupStore.Through(r.value.dict, r.value.names[k], pairs[k].0, pairs[k].1)
    ensures r.Fail? ==> r.error == NameExhausted
    decreases |pairs|
  {
    if pairs == [] then Ok(GroupStore.Matched(lines, []))
    else
      var m :- AddLine(lines, pairs[0].0, pairs[0].1);
      var rest :- AddLines(m.dict, pairs[1..]);
      GroupStore.ThroughExtends(m.dict, rest.dict, m.name, pairs[0].0, pairs[0].1);
      Ok(GroupStore.Matched(rest.dict, [m.name] + rest.names))
  }

  /** `sorted([a, b])`. */
  function SortedPair(a: string, b: string): (r: seq<string>)
    ensures multiset(r) == multiset{a, b} && |r| == 2
    ensures !StrLt(r[1], r[0])
  {
    StrLtStrictTotal();
    Ends(Segment(a, b))
  }

  /** The pair does not depend on the order its names are given in. */
  lemma SortedPairSymmetric(a: string, b: string)
    ensures SortedPair(a, b) == SortedPair(b, a)
  {
    StrLtStrictTotal();
  }

  /** `sorted(deduplicate(line + points))`. */
  function GrownLine(line: seq<Point>, points: seq<Point>): (r: seq<Point>)
    ensures Elems(r) == Elems(line) + Elems(points)
    ensures NoDup(r) && Sorted(r, StrLt)
  {
    var d := FirstByKey(line + points, Id);
    DedupValues(line + points);
    StrLtStrictTotal();
    SortBySorted(d, StrLt);
    var r := SortBy(d, StrLt);
    NoDupOfPermutation(r, d);
    ElemsOfPermutation(r, d);
    r
  }

  /** A rearrangement of a duplicate-free list is duplicate-free. */
  lemma NoDupOfPermutation<T>(r: seq<T>, d: seq<T>)
    requires NoDup(d) && multiset(r) == multiset(d)
    ensures NoDup(r)
  {
    forall i, j | 0 <= i < j < |r| ensures r[i] != r[j] {
      if r[i] == r[j] {
        assert multiset(r)[r[i]] >= 2 by {
          assert r == r[..i] + [r[i]] + r[i + 1..j] + [r[j]] + r[j + 1..];
        }
        CountOnce(d, r[i]);
      }
    }
  }

  lemma ElemsOfPermutation<T>(r: seq<T>, d: seq<T>)
    requires multiset(r) == multiset(d)
    ensures Elems(r) == Elems(d)
  {
    assert forall x :: x in r <==> x in multiset(r);
    assert forall x :: x in d <==> x in multiset(d);
  }

  /** The name a line goes by once the group `g` is merged: its surviving
      name if the group absorbed it. */
  function RenameName(g: Group<LineKey, Point>, n: LineKey): (r: LineKey)
    ensures r == n || (n in Keys(g.joined) && r == g.head.key)
  {
    if n in Keys(g.joined) then g.head.key else n
  }

  /** One parallel group after the rewrite for `g`, deduplicated. */
  function RenameList(g: Group<LineKey, Point>, ls: seq<LineKey>): (r: seq<LineKey>)
    ensures NoDup(r)
    ensures forall n | n in ls :: RenameName(g, n) in r
  {
    var m := Map(ls, n => RenameName(g, n));
    DedupValues(m);
    assert forall i | 0 <= i < |ls| :: m[i] in Elems(m);
    FirstByKey(m, Id)
  }

  /** The `line in to_merge[1:]` rewrite of one merged group, applied to every
      parallel group. */
  function RenameGroup(paras: seq<seq<LineKey>>, g: Group<LineKey, Point>): (r: seq<seq<LineKey>>)
    ensures |r| == |paras|
    ensures forall i | 0 <= i < |paras| :: r[i] == RenameList(g, paras[i])
  {
    Map(paras, (ls: seq<LineKey>) => RenameList(g, ls))
  }

  /** The rewrites of all merged groups, in order. */
  function RenameAll(paras: seq<seq<LineKey>>, gs: seq<Group<LineKey, Point>>): (r: seq<seq<LineKey>>)
    ensures |r| == |paras|
    decreases |gs|
  {
    if gs == [] then paras else RenameAll(RenameGroup(paras, gs[0]), gs[1..])
  }

  /** `_lineMerge`: lines sharing at least two points with the first line of
      a round are folded into it (points concatenated and deduplicated), and
      the parallel groups are rewritten to the surviving names. */
  function LineMerge(st: Db): (r: Db)
    ensures r == st.(lineDict := r.lineDict, paraFacts := r.paraFacts)
    ensures |r.lineDict| <= |st.lineDict| && |r.paraFacts| == |st.paraFacts|
  {
    var gs := Merge.Groups(st.lineDict, Id, 2);
    st.(lineDict := MergeBy(st.lineDict, Id, 2), paraFacts := RenameAll(st.paraFacts, gs))
  }

  /** No name occurs twice among the entries of the groups. */
  predicate KeysApart(gs: seq<Group<LineKey, Point>>) {
    NoDup(Keys(Flatten(gs)))
  }

  /** A name some group absorbed. */
  predicate Absorbed(gs: seq<Group<LineKey, Point>>, x: LineKey) {
    exists i | 0 <= i < |gs| :: x in Keys(gs[i].joined)
  }

  predicate Mentions(paras: seq<seq<LineKey>>, x: LineKey) {
    exists i | 0 <= i < |paras| :: x in paras[i]
  }

  /** After the rewrite no parallel group names a line that was merged away. */
  lemma LineMergeDropsAbsorbed(st: Db, x: LineKey)
    requires NoDup(Keys(st.lineDict))
    requires Absorbed(Merge.Groups(st.lineDict, Id, 2), x)
    ensures !Mentions(LineMerge(st).paraFacts, x)
  {
    var gs := Merge.Groups(st.lineDict, Id, 2);
    GroupKeysApart(st.lineDict);
    RenameAllDrops(st.paraFacts, gs, x);
  }

  lemma GroupKeysApart(es: Lines)
    requires NoDup(Keys(es))
    ensures KeysApart(Merge.Groups(es, Id, 2))
  {
    var f := Flatten(Merge.Groups(es, Id, 2));
    GroupsPartition(es, Id, 2);
    KeysOfPermutation(f, es);
  }

  function KeyOf<K, T>(e: Entry<K, T>): K {
    e.key
  }

  lemma KeysAsMap<K, T>(es: seq<Entry<K, T>>)
    ensures Keys(es) == Map(es, KeyOf)
  {
  }

  /** Rearranging entries keeps their keys distinct. */
  lemma KeysOfPermutation<K, T>(a: seq<Entry<K, T>>, b: seq<Entry<K, T>>)
    requires multiset(a) == multiset(b) && NoDup(Keys(b))
    ensures NoDup(Keys(a))
  {
    KeysAsMap(a);
    KeysAsMap(b);
    MapPermutation(a, b, KeyOf);
    NoDupOfPermutation(Keys(a), Keys(b));
  }

  lemma {:induction false} RenameAllDrops(paras: seq<seq<LineKey>>, gs: seq<Group<LineKey, Point>>, x: LineKey)
    requires KeysApart(gs) && Absorbed(gs, x)
    ensures !Mentions(RenameAll(paras, gs), x)
    decreases |gs|
  {
    var g := gs[0];
    ApartSplit(gs);
    if x in Keys(g.joined) {
      RenameGroupDrops(paras, g, x);
      RenameAllKeeps(RenameGroup(paras, g), gs[1..], x);
    } else {
      var i :| 0 <= i < |gs| && x in Keys(gs[i].joined);
      assert gs[1..][i - 1] == gs[i];
      RenameAllDrops(RenameGroup(paras, g), gs[1..], x);
    }
  }

  /** What distinct keys across the groups give for the first group. */
  lemma ApartSplit(gs: seq<Group<LineKey, Point>>)
    requires KeysApart(gs) && gs != []
    ensures KeysApart(gs[1..])
    ensures gs[0].head.key !in Keys(gs[0].joined)
    ensures forall x | x in Keys(gs[0].joined) :: x !in Keys(Flatten(gs[1..]))
  {
    var f := Flatten(gs);
    var a, b, c := [gs[0].head], gs[0].joined, Flatten(gs[1..]);
    assert f == a + b + c;
    KeysConcat(a + b, c);
    KeysConcat(a, b);
    var ks := Keys(f);
    assert Keys(c) == ks[|a| + |b|..];
    assert Keys(b) == ks[1..1 + |b|];
  }

  lemma KeysConcat<K, T>(a: seq<Entry<K, T>>, b: seq<Entry<K, T>>)
    ensures Keys(a + b) == Keys(a) + Keys(b)
  {
    assert forall i | 0 <= i < |a + b| :: Keys(a + b)[i] == (Keys(a) + Keys(b))[i];
  }

  /** A name that is no group's surviving name, once gone, stays gone. */
  lemma {:induction false} RenameAllKeeps(paras: seq<seq<LineKey>>, gs: seq<Group<LineKey, Point>>, x: LineKey)
    requires !Mentions(paras, x) && x !in Keys(Flatten(gs))
    ensures !Mentions(RenameAll(paras, gs), x)
    decreases |gs|
  {
    if gs != [] {
      var f := Flatten(gs);
      assert f == [gs[0].head] + gs[0].joined + Flatten(gs[1..]);
      KeysConcat([gs[0].head] + gs[0].joined, Flatten(gs[1..]));
      assert x != gs[0].head.key;
      RenameGroupKeeps(paras, gs[0], x);
      RenameAllKeeps(RenameGroup(paras, gs[0]), gs[1..], x);
    }
  }

  /** A name neither surviving nor left in place by the rewrite is gone. */
  lemma RenameListWithout(g: Group<LineKey, Point>, ls: seq<LineKey>, x: LineKey)
    requires x != g.head.key && (x in Keys(g.joined) || x !in ls)
    ensures x !in RenameList(g, ls)
  {
    var m := Map(ls, n => RenameName(g, n));
    DedupValues(m);
    assert x !in Elems(m);
  }

  lemma RenameGroupDrops(paras: seq<seq<LineKey>>, g: Group<LineKey, Point>, x: LineKey)
    requires x in Keys(g.joined) && g.head.key != x
    ensures !Mentions(RenameGroup(paras, g), x)
  {
    forall i | 0 <= i < |paras| ensures x !in RenameGroup(paras, g)[i] {
      RenameListWithout(g, paras[i], x);
    }
  }

  lemma RenameGroupKeeps(paras: seq<seq<LineKey>>, g: Group<LineKey, Point>, x: LineKey)
    requires !Mentions(paras, x) && g.head.key != x
    ensures !Mentions(RenameGroup(paras, g), x)
  {
    forall i | 0 <= i < |paras| ensures x !in RenameGroup(paras, g)[i] {
      RenameListWithout(g, paras[i], x);
    }
  }

  /** Every name the parallel groups hold is in `names`. */
  predicate NamesIn(paras: seq<seq<LineKey>>, names: set<LineKey>) {
    forall i, n | 0 <= i < |paras| && n in paras[i] :: n in names
  }

  /** The keys of the grouped entries, group by group. */
  lemma FlattenKeys(gs: seq<Group<LineKey, Point>>)
    requires gs != []
    ensures Keys(Flatten(gs)) == [gs[0].head.key] + Keys(gs[0].joined) + Keys(Flatten(gs[1..]))
  {
    KeysConcat([gs[0].head] + gs[0].joined, Flatten(gs[1..]));
    KeysConcat([gs[0].head], gs[0].joined);
  }

  /** If every parallel group names some line, it still does after the merge:
      a merged-away name is replaced by the name that survived. */
  lemma LineMergeKeepsNamesValid(st: Db)
    requires NamesIn(st.paraFacts, Elems(Keys(st.lineDict)))
    ensures NamesIn(LineMerge(st).paraFacts, Elems(Keys(LineMerge(st).lineDict)))
  {
    var gs := Merge.Groups(st.lineDict, Id, 2);
    var heads := Elems(Keys(MergeBy(st.lineDict, Id, 2)));
    FlattenKeysElems(st.lineDict);
    forall i | 0 <= i < |gs| ensures gs[i].head.key in heads {
      HeadKey(st.lineDict, i);
    }
    RenameAllResolves(st.paraFacts, gs, heads);
  }

  /** Grouping keeps the set of keys. */
  lemma FlattenKeysElems(es: Lines)
    ensures Elems(Keys(Flatten(Merge.Groups(es, Id, 2)))) == Elems(Keys(es))
  {
    var f := Flatten(Merge.Groups(es, Id, 2));
    GroupsPartition(es, Id, 2);
    KeysAsMap(f);
    KeysAsMap(es);
    MapPermutation(f, es, KeyOf);
    ElemsOfPermutation(Keys(f), Keys(es));
  }

  /** Each merged line keeps the name of its group's first line. */
  lemma HeadKey(es: Lines, i: nat)
    requires i < |Merge.Groups(es, Id, 2)|
    ensures Keys(MergeBy(es, Id, 2))[i] == Merge.Groups(es, Id, 2)[i].head.key
  {
  }

  lemma {:induction false} RenameAllResolves(paras: seq<seq<LineKey>>, gs: seq<Group<LineKey, Point>>, heads: set<LineKey>)
    requires forall i | 0 <= i < |gs| :: gs[i].head.key in heads
    requires NamesIn(paras, heads + Elems(Keys(Flatten(gs))))
    ensures NamesIn(RenameAll(paras, gs), heads)
    decreases |gs|
  {
    if gs != [] {
      FlattenKeys(gs);
      var rest := Elems(Keys(Flatten(gs[1..])));
      forall i | 0 <= i < |paras| ensures forall n | n in RenameGroup(paras, gs[0])[i] :: n in heads + rest {
        forall n | n in paras[i] ensures n in heads || n == gs[0].head.key || n in Keys(gs[0].joined) || n in rest {
          assert n in heads + Elems(Keys(Flatten(gs)));
        }
        RenameListResolves(gs[0], paras[i], heads, rest);
      }
      forall i | 0 <= i < |gs[1..]| ensures gs[1..][i].head.key in heads {
        assert gs[1..][i] == gs[i + 1];
      }
      RenameAllResolves(RenameGroup(paras, gs[0]), gs[1..], heads);
    }
  }

  lemma RenameListResolves(g: Group<LineKey, Point>, ls: seq<LineKey>, heads: set<LineKey>, rest: set<LineKey>)
    requires g.head.key in heads
    requires forall n | n in ls :: n in heads || n == g.head.key || n in Keys(g.joined) || n in rest
    ensures forall n | n in RenameList(g, ls) :: n in heads + rest
  {
    var m := Map(ls, n => RenameName(g, n));
    DedupValues(m);
    forall j | 0 <= j < |m| ensures m[j] in heads + rest {
      assert ls[j] in ls;
    }
    assert Elems(m) <= heads + rest;
  }

  /** A name the merge removed from the lines is gone from the parallel
      groups too. */
  lemma LineMergeDropsRemoved(st: Db, x: LineKey)
    requires NoDup(Keys(st.lineDict))
    requires x in Keys(st.lineDict) && x !in Keys(LineMerge(st).lineDict)
    ensures !Mentions(LineMerge(st).paraFacts, x)
  {
    var gs := Merge.Groups(st.lineDict, Id, 2);
    FlattenKeysElems(st.lineDict);
    assert x in Elems(Keys(Flatten(gs)));
    forall i | 0 <= i < |gs| ensures gs[i].head.key != x {
      HeadKey(st.lineDict, i);
    }
    HeadOrAbsorbed(gs, x);
    LineMergeDropsAbsorbed(st, x);
  }

  /** Every grouped key is a group's first key or one a group absorbed. */
  lemma {:induction false} HeadOrAbsorbed(gs: seq<Group<LineKey, Point>>, x: LineKey)
    requires x in Keys(Flatten(gs))
    ensures (exists i | 0 <= i < |gs| :: gs[i].head.key == x) || Absorbed(gs, x)
    decreases |gs|
  {
    FlattenKeys(gs);
    if x != gs[0].head.key && x !in Keys(gs[0].joined) {
      HeadOrAbsorbed(gs[1..], x);
      if exists i | 0 <= i < |gs[1..]| :: gs[1..][i].head.key == x {
        var i :| 0 <= i < |gs[1..]| && gs[1..][i].head.key == x;
        assert gs[i + 1].head.key == x;
      } else {
        var i :| 0 <= i < |gs[1..]| && x in Keys(gs[1..][i].joined);
        assert x in Keys(gs[i + 1].joined);
      }
    }
  }

  /** The first line sharing at least two of the points. */
  function LineSharingTwo(lines: Lines, points: seq<Point>): (i: nat)
    ensures i <= |lines|
    ensures i < |lines| ==> CountIn(points, lines[i].members) >= 2
    ensures forall j | 0 <= j < i :: CountIn(points, lines[j].members) < 2
  {
    FirstIndex(lines, (e: Entry<LineKey, Point>) => CountIn(points, e.members) >= 2)
  }

  /** `collHandler`: the first line sharing at least two of the points takes
      them all (deduplicated and sorted) and the lines are merged; otherwise
      the points, as given, become a new line. */
  function CollHandler(st: Db, points: seq<Point>): (r: Result<Db>)
    ensures r.Ok? ==> r.value == st.(lineDict := r.value.lineDict, paraFacts := r.value.paraFacts)
    ensures r.Fail? ==> r.error == NameExhausted && LineSharingTwo(st.lineDict, points) == |st.lineDict|
    ensures r.Ok? && LineSharingTwo(st.lineDict, points) == |st.lineDict| ==>
      r.value.paraFacts == st.paraFacts && |r.value.lineDict| == |st.lineDict| + 1 &&
      r.value.lineDict == st.lineDict + [Entry(r.value.lineDict[|st.lineDict|].key, points)] &&
      r.value.lineDict[|st.lineDict|].key !in Keys(st.lineDict)
  {
    var i := LineSharingTwo(st.lineDict, points);
    if i < |st.lineDict| then
      Ok(LineMerge(st.(lineDict := Grown(st.lineDict, i, points))))
    else
      var name :- FreshName("line", Keys(st.lineDict));
      var ls := Put(st.lineDict, name, points);
      assert ls[|st.lineDict|] == Entry(name, points);
      Ok(st.(lineDict := ls))
  }

  /** The lines with line `i` grown by the points. */
  function Grown(lines: Lines, i: nat, points: seq<Point>): (r: Lines)
    requires i < |lines|
    ensures Keys(r) == Keys(lines) && r[i] in r
    ensures r[i] == Entry(lines[i].key, GrownLine(lines[i].members, points))
  {
    var e := Entry(lines[i].key, GrownLine(lines[i].members, points));
    GroupStore.KeysUpdate(lines, i, e);
    lines[i := e]
  }

  /** `isCollinear`: some line holds every one of the points. */
  function IsCollinear(lines: Lines, points: seq<Point>): (b: bool)
    ensures b <==> exists i | 0 <= i < |lines| :: forall p | p in points :: p in lines[i].members
  {
    var i := FirstIndex(lines, (e: Entry<LineKey, Point>) => forall p | p in points :: p in e.members);
    i < |lines|
  }

  /** `isParallelLine`: some parallel group holds every one of the names. */
  function IsParallelLine(paras: seq<seq<LineKey>>, names: seq<LineKey>): (b: bool)
    ensures b <==> exists i | 0 <= i < |paras| :: forall n | n in names :: n in paras[i]
  {
    var i := FirstIndex(paras, (g: seq<LineKey>) => forall n | n in names :: n in g);
    i < |paras|
  }

  /** After `coll(points)` the points are collinear in the store. */
  lemma CollMakesCollinear(st: Db, points: seq<Point>)
    requires CollHandler(st, points).Ok?
    ensures IsCollinear(CollHandler(st, points).value.lineDict, points)
  {
    var r := CollHandler(st, points).value.lineDict;
    var i := LineSharingTwo(st.lineDict, points);
    if i < |st.lineDict| {
      var ls := Grown(st.lineDict, i, points);
      GroupStore.LineMergeAbsorbs(ls, ls[i]);
      assert r == MergeBy(ls, Id, 2);
      var j :| 0 <= j < |r| && Elems(ls[i].members) <= Elems(r[j].members);
      assert forall p | p in points :: p in Elems(ls[i].members);
      assert forall p | p in points :: p in r[j].members;
    } else {
      var j := |st.lineDict|;
      assert r[j].members == points;
      assert forall p | p in points :: p in r[j].members;
    }
  }

  /** Line names stay distinct. */
  lemma CollKeysDistinct(st: Db, points: seq<Point>)
    requires NoDup(Keys(st.lineDict)) && CollHandler(st, points).Ok?
    ensures NoDup(Keys(CollHandler(st, points).value.lineDict))
  {
    var i := LineSharingTwo(st.lineDict, points);
    if i < |st.lineDict| {
      MergeKeys(Grown(st.lineDict, i, points), Id, 2);
    } else {
      var name := FreshName("line", Keys(st.lineDict)).value;
      GroupStore.KeysAppend(st.lineDict, name, points);
    }
  }

  /** A line `coll` merged away is no longer named by any parallel group. */
  lemma CollDropsMergedNames(st: Db, points: seq<Point>, x: LineKey)
    requires NoDup(Keys(st.lineDict)) && CollHandler(st, points).Ok?
    requires x in Keys(st.lineDict) && x !in Keys(CollHandler(st, points).value.lineDict)
    ensures !Mentions(CollHandler(st, points).value.paraFacts, x)
  {
    CollKeepsOldNames(st, points, x);
    var i := LineSharingTwo(st.lineDict, points);
    LineMergeDropsRemoved(st.(lineDict := Grown(st.lineDict, i, points)), x);
  }

  /** `coll` keeps every parallel group naming an existing line. */
  lemma CollKeepsNamesValid(st: Db, points: seq<Point>)
    requires NamesIn(st.paraFacts, Elems(Keys(st.lineDict))) && CollHandler(st, points).Ok?
    ensures NamesIn(CollHandler(st, points).value.paraFacts, Elems(Keys(CollHandler(st, points).value.lineDict)))
  {
    var i := LineSharingTwo(st.lineDict, points);
    if i < |st.lineDict| {
      LineMergeKeepsNamesValid(st.(lineDict := Grown(st.lineDict, i, points)));
    } else {
      var r := CollHandler(st, points).value.lineDict;
      KeysConcat(st.lineDict, [r[|st.lineDict|]]);
      NamesInMore(st.paraFacts, Elems(Keys(st.lineDict)), Elems(Keys(r)));
    }
  }

  /** When `coll` creates a line every old name stays. */
  lemma CollKeepsOldNames(st: Db, points: seq<Point>, x: LineKey)
    requires CollHandler(st, points).Ok? && x in Keys(st.lineDict)
    ensures x !in Keys(CollHandler(st, points).value.lineDict) ==> LineSharingTwo(st.lineDict, points) < |st.lineDict|
  {
    if LineSharingTwo(st.lineDict, points) == |st.lineDict| {
      var r := CollHandler(st, points).value.lineDict;
      KeysConcat(st.lineDict, [r[|st.lineDict|]]);
    }
  }

  lemma NamesInMore(paras: seq<seq<LineKey>>, a: set<LineKey>, b: set<LineKey>)
    requires NamesIn(paras, a) && a <= b
    ensures NamesIn(paras, b)
  {
  }

  /** The `paraHandler` loop: EVERY group holding either name takes both
      (deduplicated); if none does, the pair becomes a new group. */
  function ParaAddAll(paras: seq<seq<LineKey>>, a: LineKey, b: LineKey): (r: seq<seq<LineKey>>)
    ensures |r| == |paras| || |r| == |paras| + 1
    ensures |r| == |paras| + 1 <==> forall j | 0 <= j < |paras| :: !Touches(paras[j], a, b)
    ensures |r| == |paras| + 1 ==> r == paras + [[a, b]]
    ensures |r| == |paras| ==> forall j | 0 <= j < |paras| ::
      if Touches(paras[j], a, b) then Elems(r[j]) == Elems(paras[j]) + {a, b} && NoDup(r[j]) else r[j] == paras[j]
  {
    if FirstTouching(paras, a, b) < |paras| then
      var r := Map(paras, (g: seq<LineKey>) => if Touches(g, a, b) then FirstByKey(g + [a, b], Id) else g);
      forall j | 0 <= j < |paras| && Touches(paras[j], a, b)
        ensures Elems(r[j]) == Elems(paras[j]) + {a, b} && NoDup(r[j])
      {
        DedupValues(paras[j] + [a, b]);
      }
      r
    else paras + [[a, b]]
  }

  /** After `para` the two lines are parallel in the store. */
  lemma ParaAddAllParallel(paras: seq<seq<LineKey>>, a: LineKey, b: LineKey)
    ensures IsParallelLine(ParaAddAll(paras, a, b), [a, b])
  {
    var r := ParaAddAll(paras, a, b);
    if |r| == |paras| {
      var j := FirstTouching(paras, a, b);
      assert a in r[j] && b in r[j] by {
        assert a in Elems(r[j]) && b in Elems(r[j]);
      }
    } else {
      assert a in r[|paras|] && b in r[|paras|];
    }
  }

  /** Stating a parallel pair twice changes no group's lines. */
  lemma ParaAddAllIdempotent(paras: seq<seq<LineKey>>, a: LineKey, b: LineKey)
    ensures |ParaAddAll(ParaAddAll(paras, a, b), a, b)| == |ParaAddAll(paras, a, b)|
    ensures forall j | 0 <= j < |ParaAddAll(paras, a, b)| ::
      Elems(ParaAddAll(ParaAddAll(paras, a, b), a, b)[j]) == Elems(ParaAddAll(paras, a, b)[j])
  {
    var r1 := ParaAddAll(paras, a, b);
    var i := if |r1| == |paras| then FirstTouching(paras, a, b) else |paras|;
    ParaAddAllHolds(paras, a, b, i);
    forall j | 0 <= j < |r1| && Touches(r1[j], a, b) ensures a in r1[j] && b in r1[j] {
      ParaAddAllHolds(paras, a, b, j);
    }
    ParaAddAllSettled(r1, a, b, i);
  }

  /** Once some group holds both names and every group touching them holds
      both, `ParaAddAll` changes no group's lines. */
  lemma ParaAddAllSettled(gs: seq<seq<LineKey>>, a: LineKey, b: LineKey, i: nat)
    requires i < |gs| && a in gs[i] && b in gs[i]
    requires forall j | 0 <= j < |gs| && Touches(gs[j], a, b) :: a in gs[j] && b in gs[j]
    ensures |ParaAddAll(gs, a, b)| == |gs|
    ensures forall j | 0 <= j < |gs| :: Elems(ParaAddAll(gs, a, b)[j]) == Elems(gs[j])
  {
    assert Touches(gs[i], a, b);
    forall j | 0 <= j < |gs| ensures Elems(ParaAddAll(gs, a, b)[j]) == Elems(gs[j]) {
      ParaAddAllAt(gs, a, b, j);
      if Touches(gs[j], a, b) {
        assert a in Elems(gs[j]) && b in Elems(gs[j]);
      }
    }
  }

  /** One group after `ParaAddAll` when some group touches the pair. */
  lemma ParaAddAllAt(paras: seq<seq<LineKey>>, a: LineKey, b: LineKey, j: nat)
    requires |ParaAddAll(paras, a, b)| == |paras| && j < |paras|
    ensures Touches(paras[j], a, b) ==> Elems(ParaAddAll(paras, a, b)[j]) == Elems(paras[j]) + {a, b}
    ensures !Touches(paras[j], a, b) ==> ParaAddAll(paras, a, b)[j] == paras[j]
  {
  }

  /** After `ParaAddAll` every group touching the pair holds both names. */
  lemma ParaAddAllHolds(paras: seq<seq<LineKey>>, a: LineKey, b: LineKey, j: nat)
    requires j < |ParaAddAll(paras, a, b)|
    requires Touches(ParaAddAll(paras, a, b)[j], a, b) || (|ParaAddAll(paras, a, b)| == |paras| && j == FirstTouching(paras, a, b))
    ensures a in ParaAddAll(paras, a, b)[j] && b in ParaAddAll(paras, a, b)[j]
  {
    var r1 := ParaAddAll(paras, a, b);
    if |r1| == |paras| {
      ParaAddAllAt(paras, a, b, j);
      assert a in Elems(r1[j]) && b in Elems(r1[j]);
    } else {
      assert r1 == paras + [[a, b]];
    }
  }

  /** `paraHandler`: both lines are found or created, then joined in the
      parallel groups. */
  function ParaHandler(st: Db, points: seq<Point>): (r: Result<Db>)
    ensures |points| != 4 ==> r == Fail(MalformedArity)
    ensures r.Fail? ==> r.error in {MalformedArity, NameExhausted}
    ensures r.Ok? ==> r.value == st.(lineDict := r.value.lineDict, paraFacts := r.value.paraFacts)
    ensures r.Ok? ==> st.lineDict <= r.value.lineDict
    ensures r.Ok? ==> exists a, b ::
      GroupStore.Through(r.value.lineDict, a, points[0], points[1]) &&
      GroupStore.Through(r.value.lineDict, b, points[2], points[3]) &&
      IsParallelLine(r.value.paraFacts, [a, b])
  {
    if |points| != 4 then Fail(MalformedArity)
    else
      var m :- AddLines(st.lineDict, [(points[0], points[1]), (points[2], points[3])]);
      var a, b := m.names[0], m.names[1];
      ParaAddAllParallel(st.paraFacts, a, b);
      Ok(st.(lineDict := m.dict, paraFacts := ParaAddAll(st.paraFacts, a, b)))
  }

  /** The `eqangleHandler` steps after the four lines are named: nothing when
      either angle's lines are already parallel, otherwise the sorted pairs
      join the first group holding either.  When the two sorted pairs are
      equal and no group holds them, the new group holds the pair once,
      where the source appends the two-element list `[x, x]`; every
      membership test the store makes reads the two alike. */
  function EqangleStep(st: Db, n1: LineKey, n2: LineKey, n3: LineKey, n4: LineKey): (r: seq<seq<seq<LineKey>>>)
    ensures IsParallelLine(st.paraFacts, [n1, n2]) || IsParallelLine(st.paraFacts, [n3, n4]) ==> r == st.eqangleFacts
    ensures !IsParallelLine(st.paraFacts, [n1, n2]) && !IsParallelLine(st.paraFacts, [n3, n4]) ==>
      exists i | 0 <= i < |r| :: SortedPair(n1, n2) in r[i] && SortedPair(n3, n4) in r[i]
  {
    if IsParallelLine(st.paraFacts, [n1, n2]) || IsParallelLine(st.paraFacts, [n3, n4]) then st.eqangleFacts
    else AddPair(st.eqangleFacts, SortedPair(n1, n2), SortedPair(n3, n4))
  }

  /** An angle is the same whichever of its lines comes first. */
  lemma EqangleStepSymmetric(st: Db, n1: LineKey, n2: LineKey, n3: LineKey, n4: LineKey)
    ensures EqangleStep(st, n1, n2, n3, n4) == EqangleStep(st, n2, n1, n3, n4)
    ensures EqangleStep(st, n1, n2, n3, n4) == EqangleStep(st, n1, n2, n4, n3)
  {
    SortedPairSymmetric(n1, n2);
    SortedPairSymmetric(n3, n4);
    ParallelPairSymmetric(st.paraFacts, n1, n2);
    ParallelPairSymmetric(st.paraFacts, n3, n4);
  }

  /** Whether two lines are parallel does not depend on their order. */
  lemma ParallelPairSymmetric(paras: seq<seq<LineKey>>, a: LineKey, b: LineKey)
    ensures IsParallelLine(paras, [a, b]) == IsParallelLine(paras, [b, a])
  {
    forall i | 0 <= i < |paras|
      ensures (forall n | n in [a, b] :: n in paras[i]) <==> (forall n | n in [b, a] :: n in paras[i])
    {
      assert (forall n | n in [a, b] :: n in paras[i]) <==> a in paras[i] && b in paras[i];
      assert (forall n | n in [b, a] :: n in paras[i]) <==> a in paras[i] && b in paras[i];
    }
  }

  /** The four `(p1, p2) ... (p7, p8)` lines of an eight-point predicate. */
  function Quads(points: seq<Point>): (r: seq<(Point, Point)>)
    requires |points| == 8
    ensures |r| == 4
  {
    [(points[0], points[1]), (points[2], points[3]), (points[4], points[5]), (points[6], points[7])]
  }

  /** `eqangleHandler`. The lines are added even when the angle is then
      skipped. */
  function EqangleHandler(st: Db, points: seq<Point>): (r: Result<Db>)
    ensures |points| != 8 ==> r == Fail(MalformedArity)
    ensures r.Fail? ==> r.error in {MalformedArity, NameExhausted}
    ensures r.Ok? ==> r.value == st.(lineDict := r.value.lineDict, eqangleFacts := r.value.eqangleFacts)
    ensures r.Ok? ==> st.lineDict <= r.value.lineDict
    ensures r.Ok? ==> exists m: GroupStore.Matched<Lines> |
      |m.names| == 4 && m.dict == r.value.lineDict &&
      forall k | 0 <= k < 4 :: GroupStore.Through(m.dict, m.names[k], points[2 * k], points[2 * k + 1]) ::
      r.value.eqangleFacts == EqangleStep(st, m.names[0], m.names[1], m.names[2], m.names[3])
  {
    if |points| != 8 then Fail(MalformedArity)
    else
      var m :- AddLines(st.lineDict, Quads(points));
      assert forall k | 0 <= k < 4 :: Quads(points)[k] == (points[2 * k], points[2 * k + 1]);
      Ok(st.(lineDict := m.dict, eqangleFacts := EqangleStep(st, m.names[0], m.names[1], m.names[2], m.names[3])))
  }

  /** The `midpHandler` check: the triple is stored unless it, or the one
      with the two endpoints swapped, already is. */
  function MidpAdd(facts: seq<seq<Point>>, m: Point, a: Point, b: Point): (r: seq<seq<Point>>)
    ensures [m, a, b] in r || [m, b, a] in r
    ensures facts <= r && |r| <= |facts| + 1
    ensures ([m, a, b] in facts || [m, b, a] in facts) <==> r == facts
  {
    if [m, a, b] !in facts && [m, b, a] !in facts then
      assert (facts + [[m, a, b]])[|facts|] == [m, a, b];
      facts + [[m, a, b]]
    else facts
  }

  /** Stating a midpoint with its endpoints in either order stores it once. */
  lemma MidpAddOrderFree(facts: seq<seq<Point>>, m: Point, a: Point, b: Point)
    ensures MidpAdd(MidpAdd(facts, m, a, b), m, b, a) == MidpAdd(facts, m, a, b)
  {
  }

  /** `midpHandler`: `coll(M, A, B)` first, then the triple. */
  function MidpHandler(st: Db, points: seq<Point>): (r: Result<Db>)
    ensures |points| != 3 ==> r == Fail(MalformedArity)
    ensures r.Fail? ==> r.error in {MalformedArity, NameExhausted}
    ensures r.Ok? ==> r.value.congDict == st.congDict && r.value.eqangleFacts == st.eqangleFacts
    ensures r.Ok? ==> CollHandler(st, points) == Ok(r.value.(midpFacts := st.midpFacts))
    ensures r.Ok? ==> r.value.midpFacts == MidpAdd(st.midpFacts, points[0], points[1], points[2])
  {
    if |points| != 3 then Fail(MalformedArity)
    else
      var st1 :- CollHandler(st, points);
      Ok(st1.(midpFacts := MidpAdd(st.midpFacts, points[0], points[1], points[2])))
  }

  /** After `midp(M, A, B)` the three points are collinear. */
  lemma MidpCollinear(st: Db, points: seq<Point>)
    requires MidpHandler(st, points).Ok?
    ensures IsCollinear(MidpHandler(st, points).value.lineDict, points)
  {
    CollMakesCollinear(st, points);
  }

  /** The first congruence class holding either pair. */
  function ClassWithEither(congs: Congs, p12: seq<Point>, p34: seq<Point>): (i: nat)
    ensures i <= |congs|
    ensures i < |congs| ==> p12 in congs[i].members || p34 in congs[i].members
    ensures forall j | 0 <= j < i :: p12 !in congs[j].members && p34 !in congs[j].members
  {
    FirstIndex(congs, (e: Entry<CongKey, seq<Point>>) => p12 in e.members || p34 in e.members)
  }

  /** The `congHandler` loop: the first class holding either sorted pair
      takes the other and the classes are merged (`_congMerge`: classes
      sharing a pair with a round's first class join it); otherwise the two
      pairs become a new class. */
  function AddCong(congs: Congs, p12: seq<Point>, p34: seq<Point>): (r: Result<Congs>)
    ensures r.Fail? ==> r.error == NameExhausted && ClassWithEither(congs, p12, p34) == |congs|
    ensures r.Ok? && ClassWithEither(congs, p12, p34) == |congs| ==>
      |r.value| == |congs| + 1 && r.value == congs + [Entry(r.value[|congs|].key, [p12, p34])] &&
      r.value[|congs|].key !in Keys(congs)
    ensures r.Ok? && ClassWithEither(congs, p12, p34) < |congs| ==> |r.value| <= |congs|
  {
    var i := ClassWithEither(congs, p12, p34);
    if i < |congs| then
      var e := Entry(congs[i].key, AddBoth(congs[i].members, p12, p34));
      Ok(MergeBy(congs[i := e], Id, 1))
    else
      var name :- FreshName("cong", Keys(congs));
      var cs := Put(congs, name, [p12, p34]);
      assert cs[|congs|] == Entry(name, [p12, p34]);
      Ok(cs)
  }

  /** After `cong` one class holds both pairs. */
  lemma AddCongCovers(congs: Congs, p12: seq<Point>, p34: seq<Point>)
    requires AddCong(congs, p12, p34).Ok?
    ensures exists j | 0 <= j < |AddCong(congs, p12, p34).value| ::
      p12 in AddCong(congs, p12, p34).value[j].members && p34 in AddCong(congs, p12, p34).value[j].members
  {
    var r := AddCong(congs, p12, p34).value;
    var i := ClassWithEither(congs, p12, p34);
    if i < |congs| {
      var e := Entry(congs[i].key, AddBoth(congs[i].members, p12, p34));
      var cs := congs[i := e];
      assert cs[i] == e;
      var j := MergedHoldsBoth(cs, e, p12, p34);
    } else {
      assert r[|congs|].members == [p12, p34];
    }
  }

  /** Merging keeps two pairs of one class together in one class. */
  lemma MergedHoldsBoth(cs: Congs, e: Entry<CongKey, seq<Point>>, p12: seq<Point>, p34: seq<Point>) returns (j: nat)
    requires e in cs && p12 in e.members && p34 in e.members
    ensures j < |MergeBy(cs, Id, 1)| && p12 in MergeBy(cs, Id, 1)[j].members && p34 in MergeBy(cs, Id, 1)[j].members
  {
    var r := MergeBy(cs, Id, 1);
    MergeAbsorbs(cs, Id, 1, e);
    j :| 0 <= j < |r| && KeySet(e.members, Id) <= KeySet(r[j].members, Id);
    MapId(e.members);
    MapId(r[j].members);
    assert p12 in Elems(r[j].members) && p34 in Elems(r[j].members);
  }

  /** Class names stay distinct. */
  lemma AddCongKeysDistinct(congs: Congs, p12: seq<Point>, p34: seq<Point>)
    requires NoDup(Keys(congs)) && AddCong(congs, p12, p34).Ok?
    ensures NoDup(Keys(AddCong(congs, p12, p34).value))
  {
    var i := ClassWithEither(congs, p12, p34);
    if i < |congs| {
      var e := Entry(congs[i].key, AddBoth(congs[i].members, p12, p34));
      GroupStore.KeysUpdate(congs, i, e);
      MergeKeys(congs[i := e], Id, 1);
    } else {
      GroupStore.KeysAppend(congs, FreshName("cong", Keys(congs)).value, [p12, p34]);
    }
  }

  /** `congHandler`: both segments' lines are found or created (their names
      are not used), then the sorted pairs are recorded. */
  function CongHandler(st: Db, points: seq<Point>): (r: Result<Db>)
    ensures |points| != 4 ==> r == Fail(MalformedArity)
    ensures r.Fail? ==> r.error in {MalformedArity, NameExhausted}
    ensures r.Ok? ==> r.value == st.(lineDict := r.value.lineDict, congDict := r.value.congDict)
    ensures r.Ok? ==> st.lineDict <= r.value.lineDict
    ensures r.Ok? ==> AddCong(st.congDict, SortedPair(points[0], points[1]), SortedPair(points[2], points[3])) == Ok(r.value.congDict)
  {
    if |points| != 4 then Fail(MalformedArity)
    else
      var m :- AddLines(st.lineDict, [(points[0], points[1]), (points[2], points[3])]);
      var congs :- AddCong(st.congDict, SortedPair(points[0], points[1]), SortedPair(points[2], points[3]));
      Ok(st.(lineDict := m.dict, congDict := congs))
  }

  /** The kinds `add` dispatches on. */
  const HandledKinds: set<string> := {"coll", "para", "midp", "eqangle", "cong"}

  /** `add(predicate)`: each kind goes to its handler; any other kind
      (`eqratio` among them) leaves the store as it is. */
  function Add(st: Db, p: Pred): (r: Result<Db>)
    ensures p.kind !in HandledKinds ==> r == Ok(st)
    ensures r.Ok? && p.kind != "midp" ==> r.value.midpFacts == st.midpFacts
    ensures r.Ok? && p.kind != "para" && p.kind != "coll" && p.kind != "midp" ==> r.value.paraFacts == st.paraFacts
    ensures r.Ok? && p.kind != "eqangle" ==> r.value.eqangleFacts == st.eqangleFacts
    ensures r.Ok? && p.kind != "cong" ==> r.value.congDict == st.congDict
  {
    if p.kind == "coll" then CollHandler(st, p.points)
    else if p.kind == "para" then ParaHandler(st, p.points)
    else if p.kind == "midp" then MidpHandler(st, p.points)
    else if p.kind == "eqangle" then EqangleHandler(st, p.points)
    else if p.kind == "cong" then CongHandler(st, p.points)
    else Ok(st)
  }
}

=== FILE: merge.dfy ===
/** The greedy merge pass both stores run after a handler grows one group
    (`_lineMerge`, `_congMerge`): the first remaining entry absorbs every later
    entry that overlaps it enough, the rest are processed the same way, and
    each absorbed group becomes one entry under its first key. */
module Merge {
  import opened Common
  import opened Util

  function Members<N, T>(e: Entry<N, T>): seq<T> {
    e.members
  }

  /** `sum(p in second for p in first)`, where `key` is what `in` compares. */
  function Overlap<T, K(==)>(a: seq<T>, b: seq<T>, key: T -> K): nat {
    CountIn(Map(a, key), Map(b, key))
  }

  predicate Joins<N, T, K(==)>(first: Entry<N, T>, e: Entry<N, T>, key: T -> K, need: nat) {
    Overlap(first.members, e.members, key) >= need
  }

  /** The entries of `xs` the round opened by `first` absorbs, in order. */
  function Absorbed<N, T, K(==)>(first: Entry<N, T>, xs: seq<Entry<N, T>>, key: T -> K, need: nat): (r: seq<Entry<N, T>>)
    ensures |r| <= |xs|
  {
    if xs == [] then []
    else (if Joins(first, xs[0], key, need) then [xs[0]] else []) + Absorbed(first, xs[1..], key, need)
  }

  /** The entries of `xs` left for later rounds, in order. */
  function Remaining<N, T, K(==)>(first: Entry<N, T>, xs: seq<Entry<N, T>>, key: T -> K, need: nat): (r: seq<Entry<N, T>>)
    ensures |r| <= |xs|
  {
    if xs == [] then []
    else (if Joins(first, xs[0], key, need) then [] else [xs[0]]) + Remaining(first, xs[1..], key, need)
  }

  /** An entry is absorbed exactly when it overlaps the round's first entry enough. */
  lemma {:induction false} AbsorbedIff<N, T, K>(first: Entry<N, T>, xs: seq<Entry<N, T>>, key: T -> K, need: nat, x: Entry<N, T>)
    ensures x in Absorbed(first, xs, key, need) <==> x in xs && Joins(first, x, key, need)
  {
    if xs != [] {
      AbsorbedIff(first, xs[1..], key, need, x);
      assert xs == [xs[0]] + xs[1..];
    }
  }

  /** An entry is left for later exactly when it does not overlap enough. */
  lemma {:induction false} RemainingIff<N, T, K>(first: Entry<N, T>, xs: seq<Entry<N, T>>, key: T -> K, need: nat, x: Entry<N, T>)
    ensures x in Remaining(first, xs, key, need) <==> x in xs && !Joins(first, x, key, need)
  {
    if xs != [] {
      RemainingIff(first, xs[1..], key, need, x);
      assert xs == [xs[0]] + xs[1..];
    }
  }

  /** A round splits its entries in two without losing or copying any. */
  lemma {:induction false} RoundSplits<N, T, K>(first: Entry<N, T>, xs: seq<Entry<N, T>>, key: T -> K, need: nat)
    ensures multiset(Absorbed(first, xs, key, need)) + multiset(Remaining(first, xs, key, need)) == multiset(xs)
  {
    if xs != [] {
      RoundSplits(first, xs[1..], key, need);
      assert xs == [xs[0]] + xs[1..];
      assert multiset(xs) == multiset{xs[0]} + multiset(xs[1..]);
      var a, m := Absorbed(first, xs[1..], key, need), Remaining(first, xs[1..], key, need);
      if Joins(first, xs[0], key, need) {
        assert Absorbed(first, xs, key, need) == [xs[0]] + a;
        assert multiset([xs[0]] + a) == multiset{xs[0]} + multiset(a);
        assert Remaining(first, xs, key, need) == m;
      } else {
        assert Absorbed(first, xs, key, need) == a;
        assert Remaining(first, xs, key, need) == [xs[0]] + m;
        assert multiset([xs[0]] + m) == multiset{xs[0]} + multiset(m);
      }
    }
  }

  /** Setting entries aside keeps distinct keys distinct. */
  lemma {:induction false} RemainingKeysNoDup<N, T, K>(first: Entry<N, T>, xs: seq<Entry<N, T>>, key: T -> K, need: nat)
    requires NoDup(Keys(xs))
    ensures NoDup(Keys(Remaining(first, xs, key, need)))
  {
    if xs != [] {
      var rest := Remaining(first, xs[1..], key, need);
      assert Keys(xs[1..]) == Keys(xs)[1..];
      RemainingKeysNoDup(first, xs[1..], key, need);
      forall i | 0 <= i < |rest| ensures rest[i].key != xs[0].key {
        RemainingIff(first, xs[1..], key, need, rest[i]);
        var j :| 0 <= j < |xs[1..]| && xs[1..][j] == rest[i];
        assert Keys(xs)[j + 1] == rest[i].key;
      }
      var r := Remaining(first, xs, key, need);
      if !Joins(first, xs[0], key, need) {
        assert r == [xs[0]] + rest;
        assert Keys(r) == [xs[0].key] + Keys(rest);
      } else {
        assert r == rest;
      }
    }
  }

  /** One element of `merged`: the entry that opened the group and the later
      entries it absorbed. */
  datatype Group<N, T> = Group(head: Entry<N, T>, joined: seq<Entry<N, T>>)

  /** The `while unmerged` loop: overlap is always measured against the first
      entry of the round, never against what it has absorbed so far. */
  function Groups<N, T, K(==)>(es: seq<Entry<N, T>>, key: T -> K, need: nat): (gs: seq<Group<N, T>>)
    ensures |gs| <= |es|
    ensures es != [] ==> gs != [] && gs[0].head == es[0]
    decreases |es|
  {
    if es == [] then []
    else
      var first := es[0];
      var joined := Absorbed(first, es[1..], key, need);
      var left := Remaining(first, es[1..], key, need);
      [Group(first, joined)] + Groups(left, key, need)
  }

  /** The members of a group, head first, in order. */
  function GroupMembers<N, T>(g: Group<N, T>): seq<T> {
    g.head.members + Concat(Map(g.joined, Members))
  }

  /** The entry a group becomes: its first key, holding the union of its sets. */
  function Fold<N, T, K(==)>(g: Group<N, T>, key: T -> K): Entry<N, T> {
    Entry(g.head.key, FirstByKey(GroupMembers(g), key))
  }

  function FoldAll<N, T, K(==)>(gs: seq<Group<N, T>>, key: T -> K): (r: seq<Entry<N, T>>)
    ensures |r| == |gs|
    ensures forall i | 0 <= i < |gs| :: r[i] == Fold(gs[i], key)
  {
    if gs == [] then [] else [Fold(gs[0], key)] + FoldAll(gs[1..], key)
  }

  /** The whole merge pass. */
  function MergeBy<N, T, K(==)>(es: seq<Entry<N, T>>, key: T -> K, need: nat): (r: seq<Entry<N, T>>)
    ensures |r| <= |es|
  {
    FoldAll(Groups(es, key, need), key)
  }

  /** Every absorbed entry overlaps the head of its group enough. */
  lemma {:induction false} GroupJoinedOverlap<N, T, K>(es: seq<Entry<N, T>>, key: T -> K, need: nat, i: nat, j: nat)
    requires i < |Groups(es, key, need)| && j < |Groups(es, key, need)[i].joined|
    ensures Joins(Groups(es, key, need)[i].head, Groups(es, key, need)[i].joined[j], key, need)
    decreases |es|
  {
    if i > 0 {
      var left := Remaining(es[0], es[1..], key, need);
      GroupJoinedOverlap(left, key, need, i - 1, j);
    } else {
      AbsorbedIff(es[0], es[1..], key, need, Groups(es, key, need)[0].joined[j]);
    }
  }

  /** A later group's head did not overlap an earlier group's head enough:
      otherwise it would have been absorbed. */
  lemma {:induction false} GroupHeadsApart<N, T, K>(es: seq<Entry<N, T>>, key: T -> K, need: nat, i: nat, j: nat)
    requires i < j < |Groups(es, key, need)|
    ensures !Joins(Groups(es, key, need)[i].head, Groups(es, key, need)[j].head, key, need)
    decreases |es|
  {
    var left := Remaining(es[0], es[1..], key, need);
    assert Groups(es, key, need)[1..] == Groups(left, key, need);
    if i > 0 {
      GroupHeadsApart(left, key, need, i - 1, j - 1);
    } else {
      GroupHeadFrom(left, key, need, j - 1);
      RemainingIff(es[0], es[1..], key, need, Groups(left, key, need)[j - 1].head);
    }
  }

  /** Every group's head and members come from the input. */
  lemma {:induction false} GroupHeadFrom<N, T, K>(es: seq<Entry<N, T>>, key: T -> K, need: nat, i: nat)
    requires i < |Groups(es, key, need)|
    ensures Groups(es, key, need)[i].head in es
    ensures forall j | 0 <= j < |Groups(es, key, need)[i].joined| :: Groups(es, key, need)[i].joined[j] in es
    decreases |es|
  {
    var left := Remaining(es[0], es[1..], key, need);
    var g := Groups(es, key, need)[i];
    assert es == [es[0]] + es[1..];
    if i > 0 {
      GroupHeadFrom(left, key, need, i - 1);
      assert g == Groups(left, key, need)[i - 1];
      RemainingIff(es[0], es[1..], key, need, g.head);
      forall j | 0 <= j < |g.joined| ensures g.joined[j] in es {
        RemainingIff(es[0], es[1..], key, need, g.joined[j]);
      }
    } else {
      forall j | 0 <= j < |g.joined| ensures g.joined[j] in es {
        AbsorbedIff(es[0], es[1..], key, need, g.joined[j]);
      }
    }
  }

  /** The groups split the input: every entry lies in exactly one group. */
  lemma {:induction false} GroupsPartition<N, T, K>(es: seq<Entry<N, T>>, key: T -> K, need: nat)
    ensures multiset(Flatten(Groups(es, key, need))) == multiset(es)
    decreases |es|
  {
    if es != [] {
      var first := es[0];
      var left := Remaining(first, es[1..], key, need);
      GroupsPartition(left, key, need);
      RoundSplits(first, es[1..], key, need);
      assert es == [first] + es[1..];
    }
  }

  function Flatten<N, T>(gs: seq<Group<N, T>>): seq<Entry<N, T>> {
    if gs == [] then [] else [gs[0].head] + gs[0].joined + Flatten(gs[1..])
  }

  lemma MergeUnfold<N, T, K>(es: seq<Entry<N, T>>, key: T -> K, need: nat)
    requires es != []
    ensures MergeBy(es, key, need) ==
      [Fold(Group(es[0], Absorbed(es[0], es[1..], key, need)), key)]
      + MergeBy(Remaining(es[0], es[1..], key, need), key, need)
  {
  }

  /** The surviving keys are old keys. */
  lemma {:induction false} MergeKeyOld<N, T, K>(es: seq<Entry<N, T>>, key: T -> K, need: nat, i: nat)
    requires i < |MergeBy(es, key, need)|
    ensures MergeBy(es, key, need)[i].key in Keys(es)
    ensures i > 0 ==> MergeBy(es, key, need)[i].key in Keys(es[1..])
    decreases |es|
  {
    var left := Remaining(es[0], es[1..], key, need);
    MergeUnfold(es, key, need);
    if i > 0 {
      MergeKeyOld(left, key, need, i - 1);
      var k := MergeBy(left, key, need)[i - 1].key;
      var j :| 0 <= j < |left| && left[j].key == k;
      RemainingIff(es[0], es[1..], key, need, left[j]);
      KeyOfMember(es[1..], left[j]);
    } else {
      assert Keys(es)[0] == es[0].key;
    }
  }

  /** The key a name answers to after the merge: the first key of the group
      that holds it, or the name itself when no group does. */
  function Survivor<N(==), T>(gs: seq<Group<N, T>>, n: N): N {
    if gs == [] then n
    else if n == gs[0].head.key || n in Keys(gs[0].joined) then gs[0].head.key
    else Survivor(gs[1..], n)
  }

  /** Every old key answers to a key the merge keeps. */
  lemma {:induction false} SurvivorKept<N, T, K>(es: seq<Entry<N, T>>, key: T -> K, need: nat, n: N)
    requires n in Keys(es)
    ensures Survivor(Groups(es, key, need), n) in Keys(MergeBy(es, key, need))
    decreases |es|
  {
    var first := es[0];
    var joined := Absorbed(first, es[1..], key, need);
    var left := Remaining(first, es[1..], key, need);
    var gs := Groups(es, key, need);
    var m := MergeBy(es, key, need);
    MergeUnfold(es, key, need);
    assert gs[0] == Group(first, joined) && gs[1..] == Groups(left, key, need);
    assert Keys(m)[0] == first.key;
    if n != first.key && n !in Keys(joined) {
      var j :| 0 <= j < |es| && Keys(es)[j] == n;
      var e := es[j];
      assert e in es[1..] by { assert j > 0 && es[1..][j - 1] == e; }
      if Joins(first, e, key, need) {
        AbsorbedIff(first, es[1..], key, need, e);
        KeyOfMember(joined, e);
        assert false;
      }
      RemainingIff(first, es[1..], key, need, e);
      KeyOfMember(left, e);
      SurvivorKept(left, key, need, n);
      var k := Survivor(Groups(left, key, need), n);
      var i :| 0 <= i < |MergeBy(left, key, need)| && Keys(MergeBy(left, key, need))[i] == k;
      assert m[i + 1] == MergeBy(left, key, need)[i];
      assert Keys(m)[i + 1] == k;
    }
  }

  lemma KeyOfMember<N, T>(es: seq<Entry<N, T>>, e: Entry<N, T>)
    requires e in es
    ensures e.key in Keys(es)
  {
    var m :| 0 <= m < |es| && es[m] == e;
    assert Keys(es)[m] == e.key;
  }

  /** Surviving keys stay distinct. */
  lemma {:induction false} MergeKeys<N, T, K>(es: seq<Entry<N, T>>, key: T -> K, need: nat)
    requires NoDup(Keys(es))
    ensures NoDup(Keys(MergeBy(es, key, need)))
    decreases |es|
  {
    if es != [] {
      var first := es[0];
      var left := Remaining(first, es[1..], key, need);
      assert Keys(es[1..]) == Keys(es)[1..];
      RemainingKeysNoDup(first, es[1..], key, need);
      MergeKeys(left, key, need);
      var r := MergeBy(es, key, need);
      var rl := MergeBy(left, key, need);
      MergeUnfold(es, key, need);
      assert r[1..] == rl;
      forall i | 1 <= i < |r| ensures r[i].key != first.key {
        MergeKeyOld(es, key, need, i);
      }
      assert Keys(r) == [first.key] + Keys(rl);
    }
  }

  /** Keys of the members of a group, as a set. */
  function KeySet<T, K>(xs: seq<T>, key: T -> K): set<K> {
    Elems(Map(xs, key))
  }

  /** Each input entry is absorbed: its members all appear in the entry its
      group became. */
  lemma {:induction false} MergeAbsorbs<N, T, K>(es: seq<Entry<N, T>>, key: T -> K, need: nat, e: Entry<N, T>)
    requires e in es
    ensures exists i | 0 <= i < |MergeBy(es, key, need)| ::
      KeySet(e.members, key) <= KeySet(MergeBy(es, key, need)[i].members, key)
    decreases |es|
  {
    var first := es[0];
    assert es == [first] + es[1..];
    if e == first || Joins(first, e, key, need) {
      if e != first {
        AbsorbedIff(first, es[1..], key, need, e);
      }
      MergeAbsorbsFirst(es, key, need, e);
    } else {
      var left := Remaining(first, es[1..], key, need);
      RemainingIff(first, es[1..], key, need, e);
      MergeAbsorbs(left, key, need, e);
      var rl := MergeBy(left, key, need);
      var i :| 0 <= i < |rl| && KeySet(e.members, key) <= KeySet(rl[i].members, key);
      MergeAbsorbsRest(es, key, need, i);
    }
  }

  /** The first merged entry covers the first entry and every one it absorbs. */
  lemma MergeAbsorbsFirst<N, T, K>(es: seq<Entry<N, T>>, key: T -> K, need: nat, e: Entry<N, T>)
    requires es != [] && (e == es[0] || e in Absorbed(es[0], es[1..], key, need))
    ensures |MergeBy(es, key, need)| > 0
    ensures KeySet(e.members, key) <= KeySet(MergeBy(es, key, need)[0].members, key)
  {
    MergeUnfold(es, key, need);
    GroupMembersCover(Group(es[0], Absorbed(es[0], es[1..], key, need)), key, e);
  }

  /** The merged entries after the first are those of the entries left over. */
  lemma MergeAbsorbsRest<N, T, K>(es: seq<Entry<N, T>>, key: T -> K, need: nat, i: nat)
    requires es != [] && i < |MergeBy(Remaining(es[0], es[1..], key, need), key, need)|
    ensures i + 1 < |MergeBy(es, key, need)|
    ensures MergeBy(es, key, need)[i + 1] == MergeBy(Remaining(es[0], es[1..], key, need), key, need)[i]
  {
    MergeUnfold(es, key, need);
  }

  /** Two keys held by one input entry end up in one merged entry. */
  lemma MergeKeepsTogether<N, T, K>(es: seq<Entry<N, T>>, key: T -> K, need: nat, e: Entry<N, T>, x: K, y: K)
    requires e in es && x in Map(e.members, key) && y in Map(e.members, key)
    ensures exists j | 0 <= j < |MergeBy(es, key, need)| ::
      x in Map(MergeBy(es, key, need)[j].members, key) && y in Map(MergeBy(es, key, need)[j].members, key)
  {
    var r := MergeBy(es, key, need);
    MergeAbsorbs(es, key, need, e);
    var j :| 0 <= j < |r| && KeySet(e.members, key) <= KeySet(r[j].members, key);
    assert x in KeySet(e.members, key) && y in KeySet(e.members, key);
  }

  lemma GroupMembersCover<N, T, K>(g: Group<N, T>, key: T -> K, e: Entry<N, T>)
    requires e == g.head || e in g.joined
    ensures KeySet(e.members, key) <= KeySet(Fold(g, key).members, key)
  {
    var all := GroupMembers(g);
    forall x | x in e.members ensures key(x) in Map(FirstByKey(all, key), key) {
      if e == g.head {
        assert x in all;
      } else {
        JoinedInGroup(g, e, x);
      }
      InKeys(all, key, x);
      FirstByKeyKeys(all, key, key(x));
    }
  }

  lemma InKeys<T, K>(xs: seq<T>, key: T -> K, x: T)
    requires x in xs
    ensures key(x) in Map(xs, key)
  {
    var k :| 0 <= k < |xs| && xs[k] == x;
    assert Map(xs, key)[k] == key(x);
  }

  lemma JoinedInGroup<N, T>(g: Group<N, T>, e: Entry<N, T>, x: T)
    requires e in g.joined && x in e.members
    ensures x in GroupMembers(g)
  {
    var j :| 0 <= j < |g.joined| && g.joined[j] == e;
    var ms := Map(g.joined, Members);
    assert ms[j] == e.members;
    assert x in Concat(ms);
  }

  /** Nothing is invented: every member of a merged entry is a member of some
      input entry. */
  lemma {:induction false} MergeFromInput<N, T, K>(es: seq<Entry<N, T>>, key: T -> K, need: nat, i: nat, x: T)
    requires i < |MergeBy(es, key, need)| && x in MergeBy(es, key, need)[i].members
    ensures exists e | e in es :: x in e.members
  {
    var gs := Groups(es, key, need);
    var g := gs[i];
    GroupHeadFrom(es, key, need, i);
    var all := GroupMembers(g);
    FirstByKeyFromInput(all, key);
    assert x in multiset(FirstByKey(all, key));
    assert x in all;
    if x in g.head.members {
    } else {
      var c := Concat(Map(g.joined, Members));
      assert x in c;
      var k :| 0 <= k < |c| && c[k] == x;
      var j :| 0 <= j < |g.joined| && c[k] in Map(g.joined, Members)[j];
      assert g.joined[j] in es;
    }
  }
}

=== FILE: midsearch.dfy ===
/** The rule bodies of `src/prover.py` that read the recorded midpoint
    triples (D44, D52, D55, D63, D64, D70) and the two that join a midpoint
    to its line (D65, D67cong).  A triple is stored as `[M] + sorted([A, B])`;
    unpacking one of another length is the `ValueError` of `F, A2, C = ...`. */
module MidSearch {
  import opened Common
  import opened Primitives
  import opened Predicates
  import opened Snapshot
  import opened RuleKit
  import GroupStore
  import PointQuery
  import PointGuards
  import PointSearch

  /** `[p for p in [a1, b] if p in [a2, c]]`. */
  function Shared(a1: Point, b: Point, a2: Point, c: Point): (r: seq<Point>)
    ensures |r| <= 2
    ensures forall x :: x in r <==> (x == a1 || x == b) && (x == a2 || x == c)
  {
    (if a1 == a2 || a1 == c then [a1] else []) + (if b == a2 || b == c then [b] else [])
  }

  /** `q` is para(E,F,X,Y) for the recorded midpoint F of A-Y, where the
      premise makes E the midpoint of A-X: the two segments share exactly
      the end A, and A, X, Y are not known to be collinear. */
  predicate Links(st: GroupStore.Store, e: Point, a1: Point, b: Point, mf: seq<Point>, q: Pred) {
    |mf| == 3 && mf[0] != e && |Shared(a1, b, mf[1], mf[2])| == 1 &&
    var a := Shared(a1, b, mf[1], mf[2])[0];
    q.kind == "para" && |q.points| == 4 && q.points[0] == e && q.points[1] == mf[0] &&
    multiset{a, q.points[2]} == multiset{a1, b} && multiset{a, q.points[3]} == multiset{mf[1], mf[2]} &&
    !PointQuery.ProveColl(st, [a, q.points[2], q.points[3]])
  }

  /** The end of segment `u`-`v` other than its end `a`. */
  function OtherEnd(a: Point, u: Point, v: Point): Point {
    if a == u then v else u
  }

  /** Given one end, the other end is the one point that completes the pair. */
  lemma OtherEndUnique(a: Point, u: Point, v: Point)
    requires a == u || a == v
    ensures forall x :: multiset{a, x} == multiset{u, v} <==> x == OtherEnd(a, u, v)
  {
    forall x ensures multiset{a, x} == multiset{u, v} <==> x == OtherEnd(a, u, v) {
      if multiset{a, x} == multiset{u, v} {
        assert x in multiset{u, v};
        if a == u {
          assert multiset{a, x} - multiset{a} == multiset{u, v} - multiset{u};
          assert multiset{x} == multiset{v};
        } else {
          assert multiset{a, x} - multiset{a} == multiset{u, v} - multiset{v};
          assert multiset{x} == multiset{u};
        }
      }
    }
  }

  /** When the triple passes both tests, exactly one conclusion links it. */
  lemma LinksExactly(st: GroupStore.Store, e: Point, a1: Point, b: Point, mf: seq<Point>)
    requires |mf| == 3 && mf[0] != e && |Shared(a1, b, mf[1], mf[2])| == 1
    ensures var a := Shared(a1, b, mf[1], mf[2])[0];
      var far1, far2 := OtherEnd(a, a1, b), OtherEnd(a, mf[1], mf[2]);
      forall q :: Links(st, e, a1, b, mf, q) <==>
        q == Pred("para", [e, mf[0], far1, far2]) && !PointQuery.ProveColl(st, [a, far1, far2])
  {
    var a := Shared(a1, b, mf[1], mf[2])[0];
    assert a in Shared(a1, b, mf[1], mf[2]);
    OtherEndUnique(a, a1, b);
    OtherEndUnique(a, mf[1], mf[2]);
    var far1, far2 := OtherEnd(a, a1, b), OtherEnd(a, mf[1], mf[2]);
    forall q ensures Links(st, e, a1, b, mf, q) <==>
        q == Pred("para", [e, mf[0], far1, far2]) && !PointQuery.ProveColl(st, [a, far1, far2]) {
      if Links(st, e, a1, b, mf, q) {
        assert q.points == [e, mf[0], q.points[2], q.points[3]];
      }
    }
  }

  /** One midpoint triple F-A2-C against the premise midp(E, A1, B). */
  function D44Step(st: GroupStore.Store, e: Point, a1: Point, b: Point, mf: seq<Point>): (r: Result<seq<Pred>>)
    ensures r.Fail? <==> |mf| != 3
    ensures r.Fail? ==> r.error == MalformedArity
    ensures r.Ok? ==> |r.value| <= 1 && forall q :: q in r.value <==> Links(st, e, a1, b, mf, q)
  {
    if |mf| != 3 then Fail(MalformedArity)
    else
      var f, a2, c := mf[0], mf[1], mf[2];
      var shared := Shared(a1, b, a2, c);
      if e == f || |shared| != 1 then Ok([])
      else
        var a := shared[0];
        var far1, far2 := OtherEnd(a, a1, b), OtherEnd(a, a2, c);
        LinksExactly(st, e, a1, b, mf);
        if PointQuery.ProveColl(st, [a, far1, far2]) then Ok([]) else Ok([Pred("para", [e, f, far1, far2])])
  }

  /** D44: midp(E,A,B) & midp(F,A,C) => para(E,F,B,C), for every recorded
      triple F-A2-C sharing exactly one end with A-B, each triple checked
      against the premise's own ends. */
  function D44(kb: Kb, p: Pred): (r: Result<seq<Pred>>)
    ensures |p.points| != 3 ==> r == Fail(MalformedArity)
    ensures r.Fail? ==> r.error == MalformedArity
    ensures |p.points| == 3 ==> (r.Ok? <==> forall i | 0 <= i < |kb.store.midpFacts| :: |kb.store.midpFacts[i]| == 3)
    ensures r.Ok? ==> forall q :: q in r.value <==> exists i | 0 <= i < |kb.store.midpFacts| ::
      Links(kb.store, p.points[0], p.points[1], p.points[2], kb.store.midpFacts[i], q)
  {
    if |p.points| != 3 then Fail(MalformedArity)
    else
      var ps := p.points;
      Gather(kb.store.midpFacts, (mf: seq<Point>) => D44Step(kb.store, ps[0], ps[1], ps[2], mf))
  }

  /** The premise's second end as the loop of `src/prover.py` leaves it
      after a triple: a triple that passes the shared-end test rebinds `B`
      to the premise end it does not share. */
  function Rebound(e: Point, a1: Point, b: Point, mf: seq<Point>): Point {
    if |mf| == 3 && mf[0] != e && |Shared(a1, b, mf[1], mf[2])| == 1 then
      OtherEnd(Shared(a1, b, mf[1], mf[2])[0], a1, b)
    else b
  }

  /** The loop of D44 as written, `B` carried from one triple to the next. */
  function D44Loop(st: GroupStore.Store, e: Point, a1: Point, b: Point, facts: seq<seq<Point>>): (r: Result<seq<Pred>>)
    ensures r.Fail? <==> exists i | 0 <= i < |facts| :: |facts[i]| != 3
    ensures r.Fail? ==> r.error == MalformedArity
    ensures r.Ok? && facts != [] ==>
      forall q | q in r.value :: q in D44Step(st, e, a1, b, facts[0]).value ||
        q in D44Loop(st, e, a1, Rebound(e, a1, b, facts[0]), facts[1..]).value
    decreases |facts|
  {
    if facts == [] then Ok([])
    else
      var step := D44Step(st, e, a1, b, facts[0]);
      var rest := D44Loop(st, e, a1, Rebound(e, a1, b, facts[0]), facts[1..]);
      assert forall i | 0 <= i < |facts[1..]| :: facts[1..][i] == facts[i + 1];
      assert forall i | 1 <= i < |facts| :: facts[i] == facts[1..][i - 1];
      if step.Fail? then Fail(step.error)
      else if rest.Fail? then Fail(rest.error)
      else Ok(step.value + rest.value)
  }

  /** D44 as `src/prover.py` writes it: the loop rebinds `B`, so after the
      first triple that shares an end with A-B the later triples are checked
      against the wrong segment. */
  function D44AsWritten(kb: Kb, p: Pred): (r: Result<seq<Pred>>)
    ensures |p.points| != 3 ==> r == Fail(MalformedArity)
    ensures |p.points| == 3 ==> r == D44Loop(kb.store, p.points[0], p.points[1], p.points[2], kb.store.midpFacts)
  {
    if |p.points| != 3 then Fail(MalformedArity)
    else D44Loop(kb.store, p.points[0], p.points[1], p.points[2], kb.store.midpFacts)
  }

  /** With E the midpoint of A-B, F of B-C and G of A-D, and no lines known,
      both F and G give a conclusion; as written, the first triple rebinds B
      to A and the second is then skipped. */
  lemma D44RebindingLosesConclusion(kb: Kb)
    requires kb.store.lines == [] && kb.store.midpFacts == [["F", "B", "C"], ["G", "A", "D"]]
    ensures D44AsWritten(kb, Pred("midp", ["E", "A", "B"])) == Ok([Pred("para", ["E", "F", "A", "C"])])
    ensures D44(kb, Pred("midp", ["E", "A", "B"])) == Ok([Pred("para", ["E", "F", "A", "C"]), Pred("para", ["E", "G", "B", "D"])])
  {
    var st := kb.store;
    var f1, f2 := ["F", "B", "C"], ["G", "A", "D"];
    assert Shared("A", "B", "B", "C") == ["B"];
    assert Shared("A", "B", "A", "D") == ["A"];
    assert Shared("A", "A", "A", "D") == ["A", "A"];
    assert !PointQuery.ProveColl(st, ["B", "A", "C"]);
    assert !PointQuery.ProveColl(st, ["A", "B", "D"]);
    assert D44Step(st, "E", "A", "B", f1) == Ok([Pred("para", ["E", "F", "A", "C"])]);
    assert D44Step(st, "E", "A", "B", f2) == Ok([Pred("para", ["E", "G", "B", "D"])]);
    assert D44Step(st, "E", "A", "A", f2) == Ok([]);
    assert Rebound("E", "A", "B", f1) == "A";
    assert Rebound("E", "A", "A", f2) == "A";
    var tail := [f2];
    assert tail[0] == f2 && tail[1..] == [];
    var s2 := D44Step(st, "E", "A", "A", f2);
    var r2 := D44Loop(st, "E", "A", Rebound("E", "A", "A", f2), []);
    assert s2 == Ok([]) && r2 == Ok([]);
    assert s2.value == [] && r2.value == [];
    assert s2.value + r2.value == [];
    assert D44Loop(st, "E", "A", "A", tail) == Ok(s2.value + r2.value);
    assert D44Loop(st, "E", "A", "A", tail) == Ok([]);
    var facts := st.midpFacts;
    assert facts[0] == f1 && facts[1..] == tail;
    var c1, c2 := Pred("para", ["E", "F", "A", "C"]), Pred("para", ["E", "G", "B", "D"]);
    var s1 := D44Step(st, "E", "A", "B", f1);
    var r1 := D44Loop(st, "E", "A", Rebound("E", "A", "B", f1), tail);
    assert s1.value == [c1] && r1.value == [];
    assert s1.value + r1.value == [c1];
    assert D44Loop(st, "E", "A", "B", facts) == Ok(s1.value + r1.value);
    var p := Pred("midp", ["E", "A", "B"]);
    assert D44AsWritten(kb, p) == Ok([c1]);
    var g := (mf: seq<Point>) => D44Step(st, "E", "A", "B", mf);
    assert g(f1) == Ok([c1]) && g(f2) == Ok([c2]);
    assert Gather(tail[1..], g) == Ok([]);
    assert Gather(tail, g) == Ok([c2] + []);
    assert [c2] + [] == [c2];
    assert Gather(facts, g) == Ok([c1] + [c2]);
    assert [c1] + [c2] == [c1, c2];
    assert D44(kb, p) == Gather(facts, g);
  }

  /** The fact `f` records a midpoint of `a`-`c`: its tail is `sorted([a, c])`. */
  predicate Over(f: seq<Point>, a: Point, c: Point) {
    |f| >= 1 && f[1..] == Ends(Segment(a, c))
  }

  /** A fact passes the tail test exactly when it is the stored triple of
      its own first point. */
  lemma OverIsTriple(f: seq<Point>, a: Point, c: Point)
    ensures Over(f, a, c) <==> |f| >= 1 && f == GroupStore.MidpTriple(f[0], a, c)
  {
    if |f| >= 1 {
      assert f == [f[0]] + f[1..];
      assert GroupStore.MidpTriple(f[0], a, c)[1..] == Ends(Segment(a, c));
    }
  }

  /** The midpoints of `a`-`c` the facts record, in recorded order. */
  function Midpoints(facts: seq<seq<Point>>, a: Point, c: Point): (r: seq<Point>)
    ensures forall m :: m in r <==> GroupStore.MidpTriple(m, a, c) in facts
  {
    var r := Each(facts, (f: seq<Point>) => if Over(f, a, c) then [f[0]] else []);
    forall m ensures m in r <==> GroupStore.MidpTriple(m, a, c) in facts {
      if m in r {
        var i :| 0 <= i < |facts| && m in (if Over(facts[i], a, c) then [facts[i][0]] else []);
        OverIsTriple(facts[i], a, c);
      }
      if GroupStore.MidpTriple(m, a, c) in facts {
        var i :| 0 <= i < |facts| && facts[i] == GroupStore.MidpTriple(m, a, c);
        OverIsTriple(facts[i], a, c);
        assert m in (if Over(facts[i], a, c) then [facts[i][0]] else []);
      }
    }
    r
  }

  /** cong(A, M, B, M) for each M of `ms`. */
  function Centred(ms: seq<Point>, a: Point, b: Point): (r: seq<Pred>)
    ensures forall q :: q in r <==> (q.kind == "cong" && |q.points| == 4 && q.points[0] == a && q.points[2] == b &&
      q.points[1] == q.points[3] && q.points[1] in ms)
  {
    var r := Each(ms, (m: Point) => [Pred("cong", [a, m, b, m])]);
    forall q: Pred | q.kind == "cong" && |q.points| == 4 && q.points[0] == a && q.points[2] == b &&
        q.points[1] == q.points[3] && q.points[1] in ms ensures q in r {
      var i :| 0 <= i < |ms| && ms[i] == q.points[1];
      assert q.points == [a, ms[i], b, ms[i]];
      assert q in [Pred("cong", [a, ms[i], b, ms[i]])];
    }
    r
  }

  /** D52 (perp form): perp(A,B,B,C) & midp(M,A,C) => cong(A,M,B,M), for
      each recorded midpoint M of A-C; a premise that is not a right angle
      at B between two distinct sides gives nothing. */
  function D52Perp(kb: Kb, p: Pred): (r: Result<seq<Pred>>)
    ensures r.Fail? <==> |p.points| != 4
    ensures r.Fail? ==> r.error == MalformedArity
    ensures r.Ok? ==> var ps := p.points;
      forall q :: q in r.value <==>
        ps[1] == ps[2] && ps[0] != ps[3] && ps[0] != ps[1] &&
        q.kind == "cong" && |q.points| == 4 && q.points[0] == ps[0] && q.points[2] == ps[1] &&
        q.points[1] == q.points[3] && PointQuery.ProveMidp(kb.store, [q.points[1], ps[0], ps[3]])
  {
    if |p.points| != 4 then Fail(MalformedArity)
    else
      var ps := p.points;
      if ps[1] != ps[2] || ps[0] == ps[3] || ps[0] == ps[1] then Ok([])
      else Ok(Centred(Midpoints(kb.store.midpFacts, ps[0], ps[3]), ps[0], ps[1]))
  }

  /** D55 (perp form): perp(O,M,A,B) & midp(M,A,B) => cong(O,A,O,B), once
      for each copy of the triple of M and A-B. */
  function D55Perp(kb: Kb, p: Pred): (r: Result<seq<Pred>>)
    ensures r.Fail? <==> |p.points| != 4
    ensures r.Fail? ==> r.error == MalformedArity
    ensures r.Ok? ==> var ps := p.points;
      (r.value != [] <==> PointQuery.ProveMidp(kb.store, [ps[1], ps[2], ps[3]])) &&
      forall q | q in r.value :: q == Pred("cong", [ps[0], ps[2], ps[0], ps[3]])
  {
    if |p.points| != 4 then Fail(MalformedArity)
    else
      var ps := p.points;
      var t := GroupStore.MidpTriple(ps[1], ps[2], ps[3]);
      var c := Pred("cong", [ps[0], ps[2], ps[0], ps[3]]);
      var r := Each(kb.store.midpFacts, (f: seq<Point>) => if f == t then [c] else []);
      assert r != [] <==> t in kb.store.midpFacts by {
        if t in kb.store.midpFacts {
          var i :| 0 <= i < |kb.store.midpFacts| && kb.store.midpFacts[i] == t;
          assert c in (if kb.store.midpFacts[i] == t then [c] else []);
          assert c in r;
        }
        if r != [] {
          assert r[0] in r;
          var i :| 0 <= i < |kb.store.midpFacts| && r[0] in (if kb.store.midpFacts[i] == t then [c] else []);
          assert kb.store.midpFacts[i] == t;
        }
      }
      Ok(r)
  }

  /** The snapshot after the store records `midp(M, A, B)`. */
  function WithMidp(kb: Kb, m: Point, a: Point, b: Point): Result<Kb> {
    var st :- GroupStore.MidpHandler(kb.store, [m, a, b]);
    Ok(kb.(store := st))
  }

  /** With the triple of M and A-C recorded, the right angle at B over
      A-C gives cong(A,M,B,M). */
  lemma D52SeesMidpoint(kb: Kb, m: Point, a: Point, b: Point, c: Point)
    requires PointQuery.ProveMidp(kb.store, [m, a, c]) && a != c && a != b
    ensures D52Perp(kb, Pred("perp", [a, b, b, c])).Ok?
    ensures Pred("cong", [a, m, b, m]) in D52Perp(kb, Pred("perp", [a, b, b, c])).value
  {
    var p, q := Pred("perp", [a, b, b, c]), Pred("cong", [a, m, b, m]);
    assert p.points[0] == a && p.points[1] == b && p.points[2] == b && p.points[3] == c;
    assert q.points[0] == a && q.points[1] == m && q.points[2] == b && q.points[3] == m;
    ThreePoints([q.points[1], p.points[0], p.points[3]], m, a, c);
  }

  lemma ThreePoints(ps: seq<Point>, a: Point, b: Point, c: Point)
    requires |ps| == 3 && ps[0] == a && ps[1] == b && ps[2] == c
    ensures ps == [a, b, c]
  {
  }

  /** With the triple of M and A-B recorded, perp(O,M,A,B) gives something. */
  lemma D55SeesMidpoint(kb: Kb, o: Point, m: Point, a: Point, b: Point)
    requires PointQuery.ProveMidp(kb.store, [m, a, b])
    ensures D55Perp(kb, Pred("perp", [o, m, a, b])).Ok?
    ensures D55Perp(kb, Pred("perp", [o, m, a, b])).value != []
  {
    var p := Pred("perp", [o, m, a, b]);
    assert p.points[1] == m && p.points[2] == a && p.points[3] == b;
  }

  /** Once `midp(M, A, C)` is recorded, every right angle at B over A-C
      gives cong(A,M,B,M). */
  lemma D52SeesNewMidpoint(kb: Kb, m: Point, a: Point, b: Point, c: Point)
    requires WithMidp(kb, m, a, c).Ok? && a != c && a != b
    ensures D52Perp(WithMidp(kb, m, a, c).value, Pred("perp", [a, b, b, c])).Ok?
    ensures Pred("cong", [a, m, b, m]) in D52Perp(WithMidp(kb, m, a, c).value, Pred("perp", [a, b, b, c])).value
  {
    var k := WithMidp(kb, m, a, c).value;
    var pts := [m, a, c];
    assert pts[0] == m && pts[1] == a && pts[2] == c;
    assert GroupStore.MidpTriple(m, a, c) in k.store.midpFacts;
    D52SeesMidpoint(k, m, a, b, c);
  }

  /** Once `midp(M, A, B)` is recorded, perp(O,M,A,B) gives cong(O,A,O,B). */
  lemma D55SeesNewMidpoint(kb: Kb, o: Point, m: Point, a: Point, b: Point)
    requires WithMidp(kb, m, a, b).Ok?
    ensures D55Perp(WithMidp(kb, m, a, b).value, Pred("perp", [o, m, a, b])).Ok?
    ensures Pred("cong", [o, a, o, b]) in D55Perp(WithMidp(kb, m, a, b).value, Pred("perp", [o, m, a, b])).value
  {
    var k := WithMidp(kb, m, a, b).value;
    var pts := [m, a, b];
    assert pts[0] == m && pts[1] == a && pts[2] == b;
    assert GroupStore.MidpTriple(m, a, b) in k.store.midpFacts;
    D55SeesMidpoint(k, o, m, a, b);
    var r := D55Perp(k, Pred("perp", [o, m, a, b])).value;
    assert r[0] in r;
  }

  /** The points both lists hold, one copy each. */
  function Both(xs: seq<Point>, ys: seq<Point>): (r: seq<Point>)
    ensures NoDup(r) && Elems(r) == Elems(xs) * Elems(ys)
  {
    var f := Filter(xs, (x: Point) => x in ys);
    forall x | x in Elems(xs) * Elems(ys) ensures x in Elems(f) {
      var i :| 0 <= i < |xs| && xs[i] == x;
    }
    forall x | x in Elems(f) ensures x in Elems(xs) * Elems(ys) {
      var i :| 0 <= i < |f| && f[i] == x;
    }
    GroupStore.SetOf(f)
  }

  /** A list without repeats holds exactly one point just when it has length one. */
  lemma SingletonList(s: seq<Point>, x: Point)
    requires NoDup(s)
    ensures Elems(s) == {x} <==> s == [x]
  {
    if Elems(s) == {x} {
      NoDupCard(s);
      assert |s| == 1;
      assert s[0] in Elems(s);
    }
  }

  /** `ptsl1.intersection(ptsl2)` when it holds exactly one point. */
  function Meet(xs: seq<Point>, ys: seq<Point>): (r: Option<Point>)
    ensures r.Some? ==> Elems(xs) * Elems(ys) == {r.value}
    ensures r.None? ==> forall x :: Elems(xs) * Elems(ys) != {x}
  {
    var common := Both(xs, ys);
    forall x ensures Elems(common) == {x} <==> common == [x] {
      SingletonList(common, x);
    }
    if |common| == 1 then
      assert common == [common[0]];
      Some(common[0])
    else None
  }

  /** Which of two lines comes first does not change where they meet. */
  lemma MeetSymmetric(xs: seq<Point>, ys: seq<Point>)
    ensures Meet(xs, ys) == Meet(ys, xs)
  {
    assert Elems(xs) * Elems(ys) == Elems(ys) * Elems(xs);
    if Meet(xs, ys).Some? {
      assert Meet(ys, xs).Some? && {Meet(xs, ys).value} == {Meet(ys, xs).value};
    }
  }

  /** A lies on one of the lines and C on the other, and the two lines meet
      in the single point X. */
  predicate Foot(l1: seq<Point>, l2: seq<Point>, a: Point, c: Point, x: Point) {
    ((a in l1 && c in l2) || (c in l1 && a in l2)) && Elems(l1) * Elems(l2) == {x}
  }

  /** `q` is cong(A, M, X, M) for the foot X of lines `l1` and `l2`. */
  predicate FootCong(l1: seq<Point>, l2: seq<Point>, m: Point, a: Point, c: Point, q: Pred) {
    q.kind == "cong" && |q.points| == 4 && q.points[0] == a && q.points[1] == m && q.points[3] == m &&
    Foot(l1, l2, a, c, q.points[2])
  }

  /** cong(A, M, X, M) for the foot X of lines `l1` and `l2`, when there is one. */
  function FootConclusions(l1: seq<Point>, l2: seq<Point>, m: Point, a: Point, c: Point): (r: seq<Pred>)
    ensures forall q :: q in r <==> FootCong(l1, l2, m, a, c, q)
  {
    var meet := Meet(l1, l2);
    if ((a in l1 && c in l2) || (c in l1 && a in l2)) && meet.Some? then
      var q := Pred("cong", [a, m, meet.value, m]);
      OnlyFootCong(l1, l2, m, a, c, meet.value);
      [q]
    else []
  }

  lemma OnlyFootCong(l1: seq<Point>, l2: seq<Point>, m: Point, a: Point, c: Point, x: Point)
    requires Elems(l1) * Elems(l2) == {x}
    ensures forall q | FootCong(l1, l2, m, a, c, q) :: q == Pred("cong", [a, m, x, m])
  {
    forall q | FootCong(l1, l2, m, a, c, q) ensures q == Pred("cong", [a, m, x, m]) {
      FourPoints(q.points, a, m, x, m);
    }
  }

  lemma FourPoints(ps: seq<Point>, a: Point, b: Point, c: Point, d: Point)
    requires |ps| == 4 && ps[0] == a && ps[1] == b && ps[2] == c && ps[3] == d
    ensures ps == [a, b, c, d]
  {
  }

  /** One recorded perpendicular pair of lines against the premise midp(M, A, C). */
  function D52Step(lines: GroupStore.Lines, m: Point, a: Point, c: Point, pair: seq<LineKey>): (r: Result<seq<Pred>>)
    ensures r.Fail? <==> |pair| != 2 || pair[0] !in Keys(lines) || pair[1] !in Keys(lines)
    ensures r.Fail? ==> r.error == MalformedArity || r.error == KeyMissing
    ensures r.Ok? ==>
      r.value == FootConclusions(PointQuery.LineMembers(lines, pair[0]), PointQuery.LineMembers(lines, pair[1]), m, a, c)
  {
    if |pair| != 2 then Fail(MalformedArity)
    else
      var l1 :- Read(lines, pair[0]);
      var l2 :- Read(lines, pair[1]);
      Ok(FootConclusions(l1, l2, m, a, c))
  }

  /** The foot does not depend on which line is read first. */
  lemma FootConclusionsSymmetric(l1: seq<Point>, l2: seq<Point>, m: Point, a: Point, c: Point)
    ensures FootConclusions(l1, l2, m, a, c) == FootConclusions(l2, l1, m, a, c)
  {
    MeetSymmetric(l1, l2);
  }

  /** A recorded pair of perpendicular lines is a set: read in either order,
      it gives the same conclusions. */
  lemma D52StepOrderFree(lines: GroupStore.Lines, m: Point, a: Point, c: Point, l1: LineKey, l2: LineKey)
    ensures D52Step(lines, m, a, c, [l1, l2]) == D52Step(lines, m, a, c, [l2, l1])
  {
    var p, q := [l1, l2], [l2, l1];
    assert p[0] == l1 && p[1] == l2 && q[0] == l2 && q[1] == l1;
    if l1 in Keys(lines) && l2 in Keys(lines) {
      FootConclusionsSymmetric(PointQuery.LineMembers(lines, l1), PointQuery.LineMembers(lines, l2), m, a, c);
    } else {
      assert D52Step(lines, m, a, c, p) == Fail(KeyMissing);
      assert D52Step(lines, m, a, c, q) == Fail(KeyMissing);
    }
  }

  /** D52 (midpoint form): midp(M,A,C) & perp(A,B,B,C) => cong(A,M,B,M), for
      each recorded perpendicular pair with A on one line and C on the
      other, B being the one point the two lines share. */
  function D52Midp(kb: Kb, p: Pred): (r: Result<seq<Pred>>)
    ensures |p.points| != 3 ==> r == Fail(MalformedArity)
    ensures r.Fail? ==> r.error == MalformedArity || r.error == KeyMissing
    ensures |p.points| == 3 ==> (r.Ok? <==> forall i | 0 <= i < |kb.perpFacts| ::
      |kb.perpFacts[i]| == 2 && kb.perpFacts[i][0] in Keys(kb.store.lines) && kb.perpFacts[i][1] in Keys(kb.store.lines))
    ensures r.Ok? ==> var ps := p.points;
      forall q :: q in r.value <==>
        (q.kind == "cong" && |q.points| == 4 && q.points[0] == ps[1] && q.points[1] == ps[0] && q.points[3] == ps[0] &&
         exists i | 0 <= i < |kb.perpFacts| :: |kb.perpFacts[i]| == 2 &&
           Foot(PointQuery.LineMembers(kb.store.lines, kb.perpFacts[i][0]), PointQuery.LineMembers(kb.store.lines, kb.perpFacts[i][1]),
             ps[1], ps[2], q.points[2]))
  {
    if |p.points| != 3 then Fail(MalformedArity)
    else
      var ps := p.points;
      var r := Gather(kb.perpFacts, (pair: seq<LineKey>) => D52Step(kb.store.lines, ps[0], ps[1], ps[2], pair));
      r
  }

  /** Every recorded fact is a triple in the form the store writes:
      the midpoint, then its two ends in sorted order. */
  predicate Canonical(facts: seq<seq<Point>>) {
    forall i | 0 <= i < |facts| :: |facts[i]| == 3 && facts[i] == GroupStore.MidpTriple(facts[i][0], facts[i][1], facts[i][2])
  }

  /** Writing a triple's sorted ends again changes nothing. */
  lemma TripleCanonical(m: Point, a: Point, b: Point)
    ensures var t := GroupStore.MidpTriple(m, a, b); t == GroupStore.MidpTriple(t[0], t[1], t[2])
  {
    var t := GroupStore.MidpTriple(m, a, b);
    SegEqIffSameEnds(Segment(t[1], t[2]), Segment(a, b));
    assert t[1..] == Ends(Segment(a, b));
    OtherEndUnique(t[1], a, b);
    assert t[2] == OtherEnd(t[1], a, b) by {
      assert multiset{t[1], t[2]} == multiset(t[1..]);
    }
  }

  /** Recording a midpoint keeps every fact in the form the store writes. */
  lemma MidpHandlerCanonical(st: GroupStore.Store, points: seq<Point>)
    requires Canonical(st.midpFacts) && GroupStore.MidpHandler(st, points).Ok?
    ensures Canonical(GroupStore.MidpHandler(st, points).value.midpFacts)
  {
    var t := GroupStore.MidpTriple(points[0], points[1], points[2]);
    var after := GroupStore.MidpHandler(st, points).value.midpFacts;
    if after != st.midpFacts {
      TripleCanonical(points[0], points[1], points[2]);
      CanonicalAppend(st.midpFacts, t);
    }
  }

  lemma CanonicalAppend(facts: seq<seq<Point>>, t: seq<Point>)
    requires Canonical(facts) && |t| == 3 && t == GroupStore.MidpTriple(t[0], t[1], t[2])
    ensures Canonical(facts + [t])
  {
    var all := facts + [t];
    forall i | 0 <= i < |all| ensures |all[i]| == 3 && all[i] == GroupStore.MidpTriple(all[i][0], all[i][1], all[i][2]) {
      if i < |facts| {
        assert all[i] == facts[i];
      }
    }
  }

  /** Two ends give the same stored triple exactly when they are the same
      two points. */
  lemma SameTriple(m: Point, a: Point, b: Point, c: Point, d: Point)
    ensures GroupStore.MidpTriple(m, c, d) == GroupStore.MidpTriple(m, a, b) <==> multiset{c, d} == multiset{a, b}
  {
    SegEqIffSameEnds(Segment(c, d), Segment(a, b));
    var t, u := GroupStore.MidpTriple(m, c, d), GroupStore.MidpTriple(m, a, b);
    if t == u {
      assert t[1..] == u[1..];
    }
    if multiset{c, d} == multiset{a, b} {
      OtherEndUnique(c, a, b);
      assert (c == a && d == b) || (c == b && d == a) by {
        assert c in multiset{a, b};
      }
      assert Ends(Segment(c, d)) == Ends(Segment(a, b));
      assert t == [m] + Ends(Segment(c, d));
    }
  }

  /** `f` is another recorded triple around the premise's midpoint M. */
  predicate Around(m: Point, a: Point, b: Point, f: seq<Point>) {
    |f| == 3 && f[0] == m && f != GroupStore.MidpTriple(m, a, b)
  }

  /** One recorded fact against the premise midp(M, A, B) of D63. */
  function D63Step(m: Point, a: Point, b: Point, f: seq<Point>): (r: Result<seq<Pred>>)
    ensures r.Fail? <==> |f| == 0 || (f[0] == m && f != GroupStore.MidpTriple(m, a, b) && |f| != 3)
    ensures r.Fail? ==> r.error == IndexOutOfRange || r.error == MalformedArity
    ensures r.Ok? ==> forall q :: q in r.value <==> Around(m, a, b, f) && q == Pred("para", [a, f[1], b, f[2]])
  {
    if |f| == 0 then Fail(IndexOutOfRange)
    else if f[0] != m || f == GroupStore.MidpTriple(m, a, b) then Ok([])
    else if |f| != 3 then Fail(MalformedArity)
    else Ok([Pred("para", [a, f[1], b, f[2]])])
  }

  /** D63: midp(M,A,B) & midp(M,C,D) => para(A,C,B,D), for every other
      recorded segment C-D with the same midpoint M. */
  function D63(kb: Kb, p: Pred): (r: Result<seq<Pred>>)
    ensures |p.points| != 3 ==> r == Fail(MalformedArity)
    ensures r.Fail? ==> r.error == IndexOutOfRange || r.error == MalformedArity
    ensures |p.points| == 3 ==> var ps, facts := p.points, kb.store.midpFacts;
      (r.Ok? <==> forall i | 0 <= i < |facts| ::
        |facts[i]| != 0 && (facts[i][0] == ps[0] && facts[i] != GroupStore.MidpTriple(ps[0], ps[1], ps[2]) ==> |facts[i]| == 3))
    ensures r.Ok? ==> var ps, facts := p.points, kb.store.midpFacts;
      forall q :: q in r.value <==> exists i | 0 <= i < |facts| ::
        Around(ps[0], ps[1], ps[2], facts[i]) && q == Pred("para", [ps[1], facts[i][1], ps[2], facts[i][2]])
  {
    if |p.points| != 3 then Fail(MalformedArity)
    else
      var ps := p.points;
      Gather(kb.store.midpFacts, (f: seq<Point>) => D63Step(ps[0], ps[1], ps[2], f))
  }

  /** With the facts in the store's own form, D63 never pairs the premise's
      segment with itself: the other segment has other ends. */
  lemma D63OtherSegment(kb: Kb, p: Pred, q: Pred)
    requires Canonical(kb.store.midpFacts) && |p.points| == 3
    requires D63(kb, p).Ok? && q in D63(kb, p).value
    ensures q.kind == "para" && |q.points| == 4 && q.points[0] == p.points[1] && q.points[2] == p.points[2]
    ensures multiset{q.points[1], q.points[3]} != multiset{p.points[1], p.points[2]}
  {
    var ps, facts := p.points, kb.store.midpFacts;
    var i :| 0 <= i < |facts| && Around(ps[0], ps[1], ps[2], facts[i]) && q == Pred("para", [ps[1], facts[i][1], ps[2], facts[i][2]]);
    assert |facts[i]| == 3 && facts[i] == GroupStore.MidpTriple(facts[i][0], facts[i][1], facts[i][2]);
    OtherEnds(ps[0], ps[1], ps[2], facts[i]);
  }

  /** Another canonical triple around M has other ends. */
  lemma OtherEnds(m: Point, a: Point, b: Point, f: seq<Point>)
    requires Around(m, a, b, f) && f == GroupStore.MidpTriple(f[0], f[1], f[2])
    ensures multiset{f[1], f[2]} != multiset{a, b}
  {
    SameTriple(m, a, b, f[1], f[2]);
  }

  /** D64: para(A,C,B,D) & para(A,D,B,C) & midp(M,A,B) => midp(M,C,D): when
      A-D and B-C are known parallel, the first recorded midpoint M of A-B
      is also the midpoint of C-D. */
  function D64(kb: Kb, p: Pred): (r: Result<seq<Pred>>)
    ensures |p.points| != 4 ==> r == Fail(MalformedArity)
    ensures r.Fail? ==> r.error == MalformedArity || r.error == NameExhausted
    ensures |p.points| == 4 ==> var ps := p.points;
      (r.Fail? <==> PointQuery.ProvePara(kb.store, [ps[0], ps[3], ps[2], ps[1]]).Fail?) &&
      (r.Ok? ==> (r.value != [] <==> (PointQuery.ProvePara(kb.store, [ps[0], ps[3], ps[2], ps[1]]) == Ok(true) &&
                   exists m :: GroupStore.MidpTriple(m, ps[0], ps[2]) in kb.store.midpFacts))) &&
      (r.Ok? && r.value != [] ==>
        |r.value| == 1 && r.value[0].kind == "midp" && |r.value[0].points| == 3 &&
        r.value[0].points[1] == ps[1] && r.value[0].points[2] == ps[3] &&
        PointQuery.ProveMidp(kb.store, [r.value[0].points[0], ps[0], ps[2]]))
  {
    if |p.points| != 4 then Fail(MalformedArity)
    else
      var ps := p.points;
      var found :- PointQuery.ProvePara(kb.store, [ps[0], ps[3], ps[2], ps[1]]);
      var ms := Midpoints(kb.store.midpFacts, ps[0], ps[2]);
      if !found || ms == [] then Ok([])
      else
        assert ms[0] in ms;
        Ok([Pred("midp", [ms[0], ps[1], ps[3]])])
  }

  /** D65: para(A,B,C,D) & coll(O,A,C) & coll(O,B,D) => eqratio(O,A,A,C,O,B,B,D),
      for every point O on both line A-C and line B-D. */
  function D65(kb: Kb, p: Pred): (r: Result<seq<Pred>>)
    ensures |p.points| != 4 ==> r == Fail(MalformedArity)
    ensures r.Fail? ==> r.error == MalformedArity || r.error == NameExhausted
    ensures |p.points| == 4 ==> var ps := p.points;
      var lines := GroupStore.MatchLines(kb.store.lines, [(ps[0], ps[2]), (ps[1], ps[3])]);
      (r.Fail? <==> lines.Fail?) &&
      (r.Ok? ==> (|lines.value.names| == 2 &&
        GroupStore.Through(lines.value.dict, lines.value.names[0], ps[0], ps[2]) &&
        GroupStore.Through(lines.value.dict, lines.value.names[1], ps[1], ps[3]) &&
        forall q :: q in r.value <==>
          (q.kind == "eqratio" && |q.points| == 8 &&
           q.points == [q.points[0], ps[0], ps[0], ps[2], q.points[0], ps[1], ps[1], ps[3]] &&
           q.points[0] in PointQuery.LineMembers(lines.value.dict, lines.value.names[0]) &&
           q.points[0] in PointQuery.LineMembers(lines.value.dict, lines.value.names[1]))))
  {
    if |p.points| != 4 then Fail(MalformedArity)
    else
      var ps := p.points;
      var m :- GroupStore.MatchLines(kb.store.lines, [(ps[0], ps[2]), (ps[1], ps[3])]);
      GroupStore.LinesHoldAt(m.dict, m.names, [(ps[0], ps[2]), (ps[1], ps[3])], 0);
      GroupStore.LinesHoldAt(m.dict, m.names, [(ps[0], ps[2]), (ps[1], ps[3])], 1);
      var pac := PointQuery.LineMembers(m.dict, m.names[0]);
      var pbd := PointQuery.LineMembers(m.dict, m.names[1]);
      Ok(Ratios(pac, pbd, ps[0], ps[1], ps[2], ps[3]))
  }

  /** eqratio(O,A,A,C,O,B,B,D) for each O of `pac` that `pbd` also holds. */
  function Ratios(pac: seq<Point>, pbd: seq<Point>, a: Point, b: Point, c: Point, d: Point): (r: seq<Pred>)
    ensures forall q :: q in r <==>
      (q.kind == "eqratio" && |q.points| == 8 && q.points == [q.points[0], a, a, c, q.points[0], b, b, d] &&
       q.points[0] in pac && q.points[0] in pbd)
  {
    var r := Each(pac, (o: Point) => if o in pbd then [Pred("eqratio", [o, a, a, c, o, b, b, d])] else []);
    forall q: Pred | q.kind == "eqratio" && |q.points| == 8 && q.points == [q.points[0], a, a, c, q.points[0], b, b, d] &&
        q.points[0] in pac && q.points[0] in pbd ensures q in r {
      var i :| 0 <= i < |pac| && pac[i] == q.points[0];
      assert q in (if pac[i] in pbd then [Pred("eqratio", [pac[i], a, a, c, pac[i], b, b, d])] else []);
    }
    r
  }

  /** D67 (cong form): cong(A,B,A,C) & coll(A,B,C) => midp(A,B,C), once for
      each known line through A, B and C. */
  function D67Cong(kb: Kb, p: Pred): (r: Result<seq<Pred>>)
    ensures r.Fail? <==> |p.points| != 4
    ensures r.Fail? ==> r.error == MalformedArity
    ensures r.Ok? ==> var ps := p.points;
      (r.value != [] <==> ps[0] == ps[2] && ps[1] != ps[3] && PointQuery.ProveColl(kb.store, [ps[0], ps[1], ps[3]])) &&
      forall q | q in r.value :: q == Pred("midp", [ps[0], ps[1], ps[3]])
  {
    if |p.points| != 4 then Fail(MalformedArity)
    else
      var ps := p.points;
      if ps[0] != ps[2] || ps[1] == ps[3] then Ok([])
      else
        var tri := [ps[0], ps[1], ps[3]];
        Ok(PerLine(kb.store.lines, tri, Pred("midp", tri)))
  }

  /** One copy of `c` for every recorded line through the three points. */
  function PerLine(lines: GroupStore.Lines, tri: seq<Point>, c: Pred): (r: seq<Pred>)
    requires |tri| == 3
    ensures forall q | q in r :: q == c
    ensures r != [] <==> exists i | 0 <= i < |lines| :: Elems(tri) <= Elems(lines[i].members)
  {
    var r := Each(lines, (e: Entry<LineKey, Point>) =>
      if tri[0] in e.members && tri[1] in e.members && tri[2] in e.members then [c] else []);
    assert forall i | 0 <= i < |lines| ::
      (tri[0] in lines[i].members && tri[1] in lines[i].members && tri[2] in lines[i].members) <==>
      Elems(tri) <= Elems(lines[i].members) by {
      assert Elems(tri) == {tri[0], tri[1], tri[2]};
    }
    assert r != [] ==> exists i | 0 <= i < |lines| :: Elems(tri) <= Elems(lines[i].members) by {
      if r != [] {
        assert r[0] in r;
      }
    }
    assert (exists i | 0 <= i < |lines| :: Elems(tri) <= Elems(lines[i].members)) ==> c in r by {
      if exists i | 0 <= i < |lines| :: Elems(tri) <= Elems(lines[i].members) {
        var i :| 0 <= i < |lines| && Elems(tri) <= Elems(lines[i].members);
        assert c in (if tri[0] in lines[i].members && tri[1] in lines[i].members && tri[2] in lines[i].members then [c] else []);
      }
    }
    r
  }

  /** D68 then D67: the congruence a midpoint gives leads back to the
      midpoint, once some line holds the three points. */
  lemma MidpCongRoundTrip(kb: Kb, p: Pred)
    requires |p.points| == 3 && p.points[1] != p.points[2] && PointQuery.ProveColl(kb.store, p.points)
    ensures PointGuards.D68(p).Ok? && D67Cong(kb, PointGuards.D68(p).value[0]).Ok?
    ensures D67Cong(kb, PointGuards.D68(p).value[0]).value != []
    ensures forall q | q in D67Cong(kb, PointGuards.D68(p).value[0]).value :: q == Pred("midp", p.points)
  {
    var ps := p.points;
    var c := PointGuards.D68(p).value[0];
    assert c.points == [ps[0], ps[1], ps[0], ps[2]];
    assert [c.points[0], c.points[1], c.points[3]] == ps;
  }

  /** One recorded fact against the premise midp(M, A, B) of D70. */
  function D70Step(m: Point, a: Point, b: Point, f: seq<Point>): (r: Result<seq<Pred>>)
    ensures r.Fail? <==> f != GroupStore.MidpTriple(m, a, b) && |f| != 3
    ensures r.Fail? ==> r.error == MalformedArity
    ensures r.Ok? ==> forall q :: q in r.value <==>
      f != GroupStore.MidpTriple(m, a, b) && |f| == 3 && q == Pred("eqratio", [m, a, a, b, f[0], f[1], f[1], f[2]])
  {
    if f == GroupStore.MidpTriple(m, a, b) then Ok([])
    else if |f| != 3 then Fail(MalformedArity)
    else Ok([Pred("eqratio", [m, a, a, b, f[0], f[1], f[1], f[2]])])
  }

  /** D70: midp(M,A,B) & midp(N,C,D) => eqratio(M,A,A,B,N,C,C,D), for every
      other recorded midpoint triple. */
  function D70(kb: Kb, p: Pred): (r: Result<seq<Pred>>)
    ensures |p.points| != 3 ==> r == Fail(MalformedArity)
    ensures r.Fail? ==> r.error == MalformedArity
    ensures |p.points| == 3 ==> var ps, facts := p.points, kb.store.midpFacts;
      (r.Ok? <==> forall i | 0 <= i < |facts| :: facts[i] == GroupStore.MidpTriple(ps[0], ps[1], ps[2]) || |facts[i]| == 3)
    ensures r.Ok? ==> var ps, facts := p.points, kb.store.midpFacts;
      forall q :: q in r.value <==> exists i | 0 <= i < |facts| ::
        facts[i] != GroupStore.MidpTriple(ps[0], ps[1], ps[2]) && |facts[i]| == 3 &&
        q == Pred("eqratio", [ps[0], ps[1], ps[1], ps[2], facts[i][0], facts[i][1], facts[i][1], facts[i][2]])
  {
    if |p.points| != 3 then Fail(MalformedArity)
    else
      var ps := p.points;
      Gather(kb.store.midpFacts, (f: seq<Point>) => D70Step(ps[0], ps[1], ps[2], f))
  }

  /** Every other well-formed recorded triple gives D70 a conclusion. */
  lemma D70Reaches(kb: Kb, p: Pred, j: nat)
    requires |p.points| == 3 && D70(kb, p).Ok? && j < |kb.store.midpFacts|
    requires kb.store.midpFacts[j] != GroupStore.MidpTriple(p.points[0], p.points[1], p.points[2]) && |kb.store.midpFacts[j]| == 3
    ensures var ps, f := p.points, kb.store.midpFacts[j];
      Pred("eqratio", [ps[0], ps[1], ps[1], ps[2], f[0], f[1], f[1], f[2]]) in D70(kb, p).value
  {
  }

  /** Two distinct recorded triples in the store's own form: each is not
      the other's triple. */
  lemma OtherTriple(facts: seq<seq<Point>>, i: nat, j: nat, t: seq<Point>)
    requires Canonical(facts) && i < |facts| && j < |facts| && facts[j] == t && facts[i] != t
    ensures |facts[i]| == 3 && |facts[j]| == 3
    ensures facts[j] != GroupStore.MidpTriple(facts[i][0], facts[i][1], facts[i][2])
  {
  }

  /** With every fact in the store's own form, D70 relates any two
      recorded midpoints both ways: the premise of either reaches the
      other's triple. */
  lemma D70BothWays(kb: Kb, i: nat, j: nat)
    requires Canonical(kb.store.midpFacts) && i < |kb.store.midpFacts| && j < |kb.store.midpFacts|
    requires kb.store.midpFacts[i] != kb.store.midpFacts[j]
    ensures var f, g := kb.store.midpFacts[i], kb.store.midpFacts[j];
      D70(kb, Pred("midp", f)).Ok? ==> Pred("eqratio", [f[0], f[1], f[1], f[2], g[0], g[1], g[1], g[2]]) in D70(kb, Pred("midp", f)).value
    ensures var f, g := kb.store.midpFacts[i], kb.store.midpFacts[j];
      D70(kb, Pred("midp", g)).Ok? ==> Pred("eqratio", [g[0], g[1], g[1], g[2], f[0], f[1], f[1], f[2]]) in D70(kb, Pred("midp", g)).value
  {
    var facts := kb.store.midpFacts;
    OtherTriple(facts, j, i, facts[i]);
    OtherTriple(facts, i, j, facts[j]);
    if D70(kb, Pred("midp", facts[i])).Ok? {
      D70Reaches(kb, Pred("midp", facts[i]), j);
    }
    if D70(kb, Pred("midp", facts[j])).Ok? {
      D70Reaches(kb, Pred("midp", facts[j]), i);
    }
  }
}

=== FILE: npprover.dfy ===
/** The `Prover` of `src/newprover.py`: a queue of facts (not predicates),
    kept sorted by kind priority, drained against the line-form database.
    Each popped fact is added to the database, every predicate form the
    database gives for it is put through the rules of its kind, and every
    conclusion the database does not yet hold is queued again.  The database
    writes (`addPredicate`, `addFact`) are parameters: their bodies are not
    part of this model. */
module NpProver {
  import opened Common
  import opened Predicates
  import opened Facts
  import opened Snapshot
  import opened RuleKit
  import opened Util
  import FcRules
  import FcSearch
  import FcDeduct
  import NpRules
  import Primitives

  datatype Rule =
    | X1 | X2 | D09 | D10Para | D10Perp | D12 | D39 | D40 | D41 | D42a | D44
    | D45Para | D46 | D47 | D52Perp | D58 | D59 | D60 | D61Simtri | D62 | D63
    | D64 | D65 | D68 | D69 | D70 | D71 | D72 | D73 | D74 | D75Cong | D75Eqratio

  /** The rules `_rules` fires for a predicate of kind `kind`, in its order. */
  function Rules(kind: string): seq<Rule> {
    if kind == "midp" then [D44, D63, D68, D69, D70]
    else if kind == "para" then [D40, D10Para, D45Para, D64, D65]
    else if kind == "eqangle" then [X1, D39, D47, D58, D71, D72, D73, D74, D42a]
    else if kind == "cong" then [D12, D46, D75Cong]
    else if kind == "cyclic" then [D41]
    else if kind == "perp" then [D09, D10Perp, D52Perp, X2]
    else if kind == "simtri" then [D59, D60, D61Simtri]
    else if kind == "contri" then [D62]
    else if kind == "eqratio" then [D75Eqratio]
    else []
  }

  /** This revision fires rules for the same kinds `FC.deduct` does; it
      drops D22 and X3, X4, and adds X1 for angle equalities. */
  lemma RulesFire(kind: string)
    ensures Rules(kind) == [] <==> kind !in FcDeduct.FiringKinds
    ensures Rules(kind) == [] <==> FcDeduct.Rules(kind) == []
    ensures NoDup(Rules(kind))
    ensures X1 in Rules(kind) <==> FcDeduct.D22 in FcDeduct.Rules(kind)
  {
    RulesDistinct(kind);
    AngleRules(kind);
  }

  lemma RulesDistinct(kind: string)
    ensures NoDup(Rules(kind))
  {
    if kind == "midp" {
    } else if kind == "para" {
    } else if kind == "eqangle" {
    } else if kind == "cong" {
    } else if kind == "cyclic" {
    } else if kind == "perp" {
    }
  }

  lemma AngleRules(kind: string)
    ensures X1 in Rules(kind) <==> FcDeduct.D22 in FcDeduct.Rules(kind)
  {
    if kind == "eqangle" {
    } else if kind == "midp" {
    } else if kind == "para" {
    } else if kind == "cong" {
    } else if kind == "perp" {
    }
  }

  /** One rule body on a predicate form.  Bodies this revision shares word
      for word with `src/rules.py` are those models, given the form's points
      only; the others are in `NpRules`.  D75 (cong form) is the corrected
      body, and `_ruleD45para` returns nothing. */
  function Apply(kb: Kb, rule: Rule, p: Premise): Result<seq<Fact>> {
    var b := NpRules.Bare(p);
    match rule
    case X1 => NpRules.X1(kb, p)
    case X2 => NpRules.X2(kb, p)
    case D09 => FcRules.D09(kb, b)
    case D10Para => FcRules.D10Para(kb, b)
    case D10Perp => FcRules.D10Perp(kb, b)
    case D12 => FcSearch.D12(kb, b)
    case D39 => FcRules.D39(kb, b)
    case D40 => FcRules.D40(kb, b)
    case D41 => FcRules.D41(kb, b)
    case D42a => NpRules.D42a(kb, p)
    case D44 => NpRules.D44(kb, p)
    case D45Para => Ok([])
    case D46 => NpRules.D46(kb, p)
    case D47 => FcRules.D47(kb, b)
    case D52Perp => FcSearch.D52Perp(kb, b)
    case D58 => NpRules.D58(kb, p)
    case D59 => FcRules.D59(b)
    case D60 => FcRules.D60(kb, b)
    case D61Simtri => FcSearch.D61Simtri(kb, b)
    case D62 => FcRules.D62(b)
    case D63 => FcSearch.D63(kb, b)
    case D64 => FcSearch.D64(kb, b)
    case D65 => FcSearch.D65(kb, b)
    case D68 => FcRules.D68(b)
    case D69 => FcRules.D69(b)
    case D70 => FcSearch.D70(kb, b)
    case D71 => NpRules.D71(kb, p)
    case D72 => FcRules.D72(b)
    case D73 => NpRules.D73(kb, p)
    case D74 => NpRules.D74(kb, p)
    case D75Cong => FcSearch.D75Cong(kb, b)
    case D75Eqratio => FcSearch.D75Eqratio(kb, b)
  }

  /** One rule on the form, as a step of the loop over the rules. */
  function Step(kb: Kb, p: Premise): Rule -> Result<seq<Fact>> {
    (rule: Rule) => Apply(kb, rule, p)
  }

  /** `facts += self._ruleX(p)` for every rule of the form's kind; the first
      rule that raises ends `_rules`. */
  function Fire(kb: Kb, p: Premise): (r: Result<seq<Fact>>)
    ensures p.kind !in FcDeduct.FiringKinds ==> r == Ok([])
    ensures r.Ok? <==> forall rule | rule in Rules(p.kind) :: Apply(kb, rule, p).Ok?
    ensures r.Fail? ==> exists rule | rule in Rules(p.kind) :: Apply(kb, rule, p) == Fail(r.error)
    ensures r.Ok? ==> forall f :: f in r.value <==>
      exists rule | rule in Rules(p.kind) :: Apply(kb, rule, p).Ok? && f in Apply(kb, rule, p).value
  {
    var rules := Rules(p.kind);
    var r := Gather(rules, Step(kb, p));
    assert forall rule | rule in rules :: exists i | 0 <= i < |rules| :: rules[i] == rule;
    r
  }

  /** `_rules(p)`: the conclusions of `Fire` through `list(set(...))`. */
  function RulesOf(kb: Kb, p: Premise): (r: Result<seq<Fact>>)
    ensures r.Fail? <==> Fire(kb, p).Fail?
    ensures r.Ok? ==> (forall f | f in r.value :: f in Fire(kb, p).value) && Apart(r.value)
  {
    var facts :- Fire(kb, p);
    Ok(FcDeduct.Distinct(facts))
  }

  /** Every fact the rules fire is returned by `_rules(p)` up to
      rendering. */
  lemma RulesOfCovers(kb: Kb, p: Premise)
    requires RulesOf(kb, p).Ok?
    ensures forall f | f in Fire(kb, p).value :: exists g | g in RulesOf(kb, p).value :: FactEq(g, f)
  {
    var facts := Fire(kb, p).value;
    forall f | f in facts ensures exists g | g in RulesOf(kb, p).value :: FactEq(g, f) {
      var g := FirstByKeyCover(facts, Render, f);
      assert FactEq(g, f);
    }
  }

  /** No two facts of the list render alike (so none is repeated). */
  predicate Apart(fs: seq<Fact>) {
    forall i, j | 0 <= i < j < |fs| :: !FactEq(fs[i], fs[j])
  }

  /** Any selection and rearrangement of facts that render apart still
      render apart. */
  lemma ApartWithin(r: seq<Fact>, d: seq<Fact>)
    requires Apart(d) && multiset(r) <= multiset(d)
    ensures Apart(r)
  {
    assert KeysApart(d, Render) by {
      forall i, j | 0 <= i < j < |d| ensures Render(d[i]) != Render(d[j]) {
        assert !FactEq(d[i], d[j]);
      }
    }
    KeysApartWithin(r, d, Render);
    forall i, j | 0 <= i < j < |r| ensures !FactEq(r[i], r[j]) {
      assert Render(r[i]) != Render(r[j]);
    }
  }

  /** `newFacts += self._rules(predicate)` over every form of the popped
      fact: it raises when a form's rules do, and otherwise holds exactly
      what the forms' rules conclude. */
  function Derive(kb: Kb, forms: seq<Premise>): (r: Result<seq<Fact>>)
    ensures r.Ok? <==> forall i | 0 <= i < |forms| :: RulesOf(kb, forms[i]).Ok?
    ensures r.Ok? ==> forall f :: f in r.value <==>
      exists i | 0 <= i < |forms| :: RulesOf(kb, forms[i]).Ok? && f in RulesOf(kb, forms[i]).value
  {
    Gather(forms, RulesStep(kb))
  }

  /** `_rules` as the body of the loop over the forms. */
  function RulesStep(kb: Kb): Premise -> Result<seq<Fact>> {
    (q: Premise) => RulesOf(kb, q)
  }

  /** `for fact in set(newFacts): if containsFact(fact): continue; append`:
      one fact per rendering, those the database does not hold.  The queue
      itself is not consulted. */
  function Admitted(kb: Kb, facts: seq<Fact>): (r: seq<Fact>)
    ensures forall f | f in r :: f in facts && !kb.api.containsFact(f)
    ensures forall g | g in FcDeduct.Distinct(facts) :: g in r <==> !kb.api.containsFact(g)
    ensures Apart(r)
  {
    FilterHeld(kb, facts);
    Filter(FcDeduct.Distinct(facts), Absent(kb))
  }

  /** Whether the database lacks a fact. */
  function Absent(kb: Kb): Fact -> bool {
    (f: Fact) => !kb.api.containsFact(f)
  }

  /** The deduplicated facts the database does not hold, as `Filter`
      keeps them. */
  lemma FilterHeld(kb: Kb, facts: seq<Fact>)
    ensures var r := Filter(FcDeduct.Distinct(facts), Absent(kb));
      && (forall f | f in r :: f in facts && !kb.api.containsFact(f))
      && (forall g | g in FcDeduct.Distinct(facts) :: g in r <==> !kb.api.containsFact(g))
      && Apart(r)
  {
    var d := FcDeduct.Distinct(facts);
    FilterAbsent(kb, d);
    ApartWithin(Filter(d, Absent(kb)), d);
  }

  lemma FilterAbsent(kb: Kb, d: seq<Fact>)
    ensures forall g | g in d :: g in Filter(d, Absent(kb)) <==> !kb.api.containsFact(g)
  {
    forall g | g in d ensures g in Filter(d, Absent(kb)) <==> !kb.api.containsFact(g) {
      var i :| 0 <= i < |d| && d[i] == g;
      assert Absent(kb)(g) == !kb.api.containsFact(g);
    }
  }

  /** The database writes of `src/newdatabase.py` the driver calls. */
  datatype Writes = Writes(addPredicate: (Kb, Pred) -> Kb, addFact: (Kb, Fact) -> Kb)

  function AddPredicates(w: Writes, kb: Kb, hs: seq<Pred>): Kb
    decreases |hs|
  {
    if hs == [] then kb else AddPredicates(w, w.addPredicate(kb, hs[0]), hs[1..])
  }

  function AddFacts(w: Writes, kb: Kb, fs: seq<Fact>): Kb
    decreases |fs|
  {
    if fs == [] then kb else AddFacts(w, w.addFact(kb, fs[0]), fs[1..])
  }

  /** `kb1` is `kb` with the facts `fs` added in turn. */
  ghost predicate Built(w: Writes, kb: Kb, fs: seq<Fact>, kb1: Kb) {
    AddFacts(w, kb, fs) == kb1
  }

  /** The constructor, once every hypothesis is in the database `kb`: each
      hypothesis is turned into a fact and queued unless a fact rendered alike is
      queued already, and the queue is sorted by kind priority.  The queue
      is sorted, keeps the hypotheses' order within each kind, holds a fact
      for every hypothesis, and no two of its facts render alike. */
  function Seed(kb: Kb, hs: seq<Pred>): (r: seq<Fact>)
    ensures PrioritySorted(r)
    ensures forall k :: OfKind(r, k) == OfKind(FirstByKey(Map(hs, kb.api.toFact), Render), k)
    ensures forall f | f in r :: exists h | h in hs :: f == kb.api.toFact(h)
    ensures forall h | h in hs :: exists f | f in r :: FactEq(f, kb.api.toFact(h))
    ensures Apart(r)
  {
    var facts := Map(hs, kb.api.toFact);
    var d := FcDeduct.Distinct(facts);
    var q := SortByPriority(d);
    SortByPriorityStable(d, Coll);
    forall k ensures OfKind(q, k) == OfKind(d, k) {
      SortByPriorityStable(d, k);
    }
    ApartWithin(q, d);
    SeedFromHypotheses(kb, hs, q);
    SeedCoversHypotheses(kb, hs, q);
    q
  }

  /** Every fact a rearrangement of the deduplicated hypotheses holds is
      the fact of a hypothesis. */
  lemma SeedFromHypotheses(kb: Kb, hs: seq<Pred>, q: seq<Fact>)
    requires multiset(q) == multiset(FcDeduct.Distinct(Map(hs, kb.api.toFact)))
    ensures forall f | f in q :: exists h | h in hs :: f == kb.api.toFact(h)
  {
    var d := FcDeduct.Distinct(Map(hs, kb.api.toFact));
    FromMapped(hs, kb.api.toFact, q, d);
  }

  /** A rearrangement of a selection of `Map(hs, g)` holds only images of
      members of `hs`. */
  lemma FromMapped(hs: seq<Pred>, g: Pred -> Fact, q: seq<Fact>, d: seq<Fact>)
    requires multiset(q) == multiset(d) && forall f | f in d :: f in Map(hs, g)
    ensures forall f | f in q :: exists h | h in hs :: f == g(h)
  {
    var facts := Map(hs, g);
    forall f | f in q ensures exists h | h in hs :: f == g(h) {
      assert f in multiset(q);
      assert f in d;
      var i :| 0 <= i < |facts| && facts[i] == f;
      assert hs[i] in hs;
    }
  }

  /** A rearrangement of the deduplicated hypotheses holds, for every
      hypothesis, a fact rendered like the hypothesis's fact. */
  lemma SeedCoversHypotheses(kb: Kb, hs: seq<Pred>, q: seq<Fact>)
    requires multiset(q) == multiset(FcDeduct.Distinct(Map(hs, kb.api.toFact)))
    ensures forall h | h in hs :: exists f | f in q :: FactEq(f, kb.api.toFact(h))
  {
    var facts := Map(hs, kb.api.toFact);
    CoversPermuted(facts, q, Render);
    forall h | h in hs ensures exists f | f in q :: FactEq(f, kb.api.toFact(h)) {
      var i :| 0 <= i < |hs| && hs[i] == h;
      assert facts[i] in facts;
      var f :| f in q && Render(f) == Render(facts[i]);
      assert FactEq(f, kb.api.toFact(h));
    }
  }

  /** What the facts `d`'s forms conclude against `kb`, when no form's
      rules raise. */
  ghost predicate Concluded(kb: Kb, d: Fact, f: Fact) {
    Derive(kb, kb.api.allForms(d)).Ok? && f in Derive(kb, kb.api.allForms(d)).value
  }

  /** The rest of the queue `rest` with the conclusions `facts` admitted
      and appended, sorted again: the queue comes out sorted, keeps every
      fact it held in their order within each kind, and each fact it gains
      is one of `facts` the database `kb` does not hold. */
  function Requeue(kb: Kb, rest: seq<Fact>, facts: seq<Fact>): (r: seq<Fact>)
    ensures PrioritySorted(r)
    ensures multiset(rest) <= multiset(r)
    ensures forall k :: OfKind(rest, k) <= OfKind(r, k)
    ensures forall f | f in r && f !in rest :: f in facts && !kb.api.containsFact(f)
  {
    var news := Admitted(kb, facts);
    var q := SortByPriority(rest + news);
    SortAppended(rest, news);
    assert multiset(q) == multiset(rest) + multiset(news);
    forall f | f in q && f !in rest ensures f in news {
      assert f in multiset(q);
    }
    q
  }

  /** The body of the `while` loop once the popped fact `d` is in the
      database `kb`: it raises exactly when a form's rules do, and each fact
      the queue gains is concluded from `d` and not held by the database. */
  function Pop(kb: Kb, d: Fact, rest: seq<Fact>): (r: Result<seq<Fact>>)
    ensures r.Ok? <==> Derive(kb, kb.api.allForms(d)).Ok?
    ensures r.Ok? ==> PrioritySorted(r.value)
    ensures r.Ok? ==> forall f | f in r.value && f !in rest :: !kb.api.containsFact(f) && Concluded(kb, d, f)
  {
    var facts :- Derive(kb, kb.api.allForms(d));
    Ok(Requeue(kb, rest, facts))
  }

  /** `Pop`, with only what the loop needs of it. */
  function Advance(kb: Kb, d: Fact, rest: seq<Fact>): (r: Result<seq<Fact>>)
    ensures r.Ok? ==> PrioritySorted(r.value)
  {
    Pop(kb, d, rest)
  }

  /** The driver's state: the database, the queue `newFactsList`, and the
      facts popped so far. */
  datatype State = State(kb: Kb, queue: seq<Fact>, popped: seq<Fact>)

  /** The state `s` is reached from the database `kb` with `popped` popped
      so far: `s` has popped more, and its database is `kb` with the facts
      popped since added in turn. */
  ghost predicate Reached(w: Writes, kb: Kb, popped: seq<Fact>, s: State) {
    popped <= s.popped && Built(w, kb, s.popped[|popped|..], s.kb)
  }

  /** The `while self.newFactsList and i > 0` loop with `fuel` iterations
      left. */
  function Run(w: Writes, kb: Kb, queue: seq<Fact>, popped: seq<Fact>, fuel: nat): (r: Result<State>)
    ensures r.Ok? ==> popped <= r.value.popped && |r.value.popped| <= |popped| + fuel
    ensures r.Ok? ==> r.value.queue == [] || |r.value.popped| == |popped| + fuel
    ensures r.Ok? ==> Reached(w, kb, popped, r.value)
    ensures r.Ok? && PrioritySorted(queue) ==> PrioritySorted(r.value.queue)
    ensures r.Ok? && queue != [] && fuel > 0 ==> |r.value.popped| > |popped| && r.value.popped[|popped|] == queue[0]
    decreases fuel
  {
    if queue == [] || fuel == 0 then
      assert popped[|popped|..] == [];
      Ok(State(kb, queue, popped))
    else
      var kb1 := w.addFact(kb, queue[0]);
      var q :- Advance(kb1, queue[0], queue[1..]);
      var r :- Run(w, kb1, q, popped + [queue[0]], fuel - 1);
      RunStep(w, kb, queue, popped, r);
      Ok(r)
  }

  lemma RunStep(w: Writes, kb: Kb, queue: seq<Fact>, popped: seq<Fact>, r: State)
    requires queue != [] && popped + [queue[0]] <= r.popped
    requires Reached(w, w.addFact(kb, queue[0]), popped + [queue[0]], r)
    ensures popped <= r.popped && |r.popped| > |popped| && r.popped[|popped|] == queue[0]
    ensures Reached(w, kb, popped, r)
  {
    var tail := r.popped[|popped|..];
    assert tail[0] == queue[0] && tail[1..] == r.popped[|popped| + 1..];
  }

  /** `UPPER`, the iteration cap of `fixedpoint`. */
  const Upper: nat := 20000

  /** `Prover(hypotheses).fixedpoint()`: the seeded queue is drained for at
      most `Upper` iterations, stopping early only on an empty queue; the
      database ends as the hypotheses and then the popped facts added in
      turn; the queue stays sorted, and the first fact popped is the first
      seeded. */
  function Fixedpoint(w: Writes, kb: Kb, hypotheses: seq<Pred>): (r: Result<State>)
    ensures r.Ok? ==> |r.value.popped| <= Upper && (r.value.queue == [] || |r.value.popped| == Upper)
    ensures r.Ok? ==> r.value.kb == AddFacts(w, AddPredicates(w, kb, hypotheses), r.value.popped)
    ensures r.Ok? ==> PrioritySorted(r.value.queue)
    ensures r.Ok? && Seed(AddPredicates(w, kb, hypotheses), hypotheses) != [] ==>
      r.value.popped != [] && r.value.popped[0] == Seed(AddPredicates(w, kb, hypotheses), hypotheses)[0]
  {
    var kb1 := AddPredicates(w, kb, hypotheses);
    var r :- Run(w, kb1, Seed(kb1, hypotheses), [], Upper);
    assert r.popped[0..] == r.popped;
    Ok(r)
  }

  /** `_rules(p)` as written: `list(set(facts))` hashes every conclusion
      through its rendering, and rendering a fact of a sorted kind over two
      triangles raises TypeError (the `simtri` of D58, the `contri` of X1
      and D61).  It raises exactly when a rule raises or some conclusion
      cannot be rendered, and otherwise returns what `RulesOf` does. */
  function RulesOfAsWritten(kb: Kb, p: Premise): (r: Result<seq<Fact>>)
    ensures r.Fail? <==> Fire(kb, p).Fail? || exists f | f in Fire(kb, p).value :: RenderAsWritten(f).Fail?
    ensures r.Ok? ==> r == RulesOf(kb, p)
  {
    var facts :- Fire(kb, p);
    FcDeduct.SetAsWritten(facts)
  }

  function RulesStepAsWritten(kb: Kb): Premise -> Result<seq<Fact>> {
    (q: Premise) => RulesOfAsWritten(kb, q)
  }

  /** The loop over the forms with `_rules` as written: it raises exactly
      when the rules of some form do, and otherwise gathers what `Derive`
      does. */
  function DeriveAsWritten(kb: Kb, forms: seq<Premise>): (r: Result<seq<Fact>>)
    ensures r.Ok? <==> forall i | 0 <= i < |forms| :: RulesOfAsWritten(kb, forms[i]).Ok?
    ensures r.Ok? ==> r == Derive(kb, forms)
  {
    var r := Gather(forms, RulesStepAsWritten(kb));
    if r.Ok? then
      GatherAgree(forms, RulesStepAsWritten(kb), RulesStep(kb));
      r
    else
      r
  }

  /** One pass of the `while` loop as written, once `d` is in the database:
      `print(d)` renders the popped fact, `_rules` runs on each of its
      forms, and `for fact in set(newFacts)` renders each conclusion again
      (those already rendered inside `_rules`, so that cannot raise anew).
      It raises exactly when the popped fact cannot be rendered or the rules
      of one of its forms raise, and otherwise queues what `Pop` does. */
  function PopAsWritten(kb: Kb, d: Fact, rest: seq<Fact>): (r: Result<seq<Fact>>)
    ensures r.Fail? <==> RenderAsWritten(d).Fail? || DeriveAsWritten(kb, kb.api.allForms(d)).Fail?
    ensures RenderAsWritten(d).Fail? ==> r == Fail(TypeMismatch)
    ensures r.Ok? ==> r == Pop(kb, d, rest)
  {
    if RenderAsWritten(d).Fail? then Fail(TypeMismatch)
    else
      var facts :- DeriveAsWritten(kb, kb.api.allForms(d));
      Ok(Requeue(kb, rest, facts))
  }

  /** The driver loop as written: wherever it does not raise it reaches the
      state `Run` does, and popping a fact it cannot render raises. */
  function RunAsWritten(w: Writes, kb: Kb, queue: seq<Fact>, popped: seq<Fact>, fuel: nat): (r: Result<State>)
    ensures r.Ok? ==> r == Run(w, kb, queue, popped, fuel)
    ensures queue != [] && fuel > 0 && RenderAsWritten(queue[0]).Fail? ==> r == Fail(TypeMismatch)
    decreases fuel
  {
    if queue == [] || fuel == 0 then
      Ok(State(kb, queue, popped))
    else
      var kb1 := w.addFact(kb, queue[0]);
      var q :- PopAsWritten(kb1, queue[0], queue[1..]);
      RunAsWritten(w, kb1, q, popped + [queue[0]], fuel - 1)
  }

  /** `Prover(hypotheses).fixedpoint()` as written: where it returns, it
      returns what `Fixedpoint` does; when the first fact of the seeded
      queue is one it cannot render, it raises at once. */
  function FixedpointAsWritten(w: Writes, kb: Kb, hypotheses: seq<Pred>): (r: Result<State>)
    ensures r.Ok? ==> r == Fixedpoint(w, kb, hypotheses)
    ensures var q := Seed(AddPredicates(w, kb, hypotheses), hypotheses);
      q != [] && RenderAsWritten(q[0]).Fail? ==> r == Fail(TypeMismatch)
  {
    var kb1 := AddPredicates(w, kb, hypotheses);
    RunAsWritten(w, kb1, Seed(kb1, hypotheses), [], Upper)
  }

  /** A form of the popped fact whose rules conclude a similarity or a
      congruence of two triangles: the corrected `_rules` keeps that
      conclusion up to rendering, while the pass as written raises (with
      TypeError, unless the rules of an earlier form raised first). */
  lemma TriangleBreaksPop(kb: Kb, d: Fact, rest: seq<Fact>, i: nat, kind: Kind, t1: Primitives.Triangle, t2: Primitives.Triangle)
    requires kind == Simtri || kind == Contri
    requires i < |kb.api.allForms(d)| && Fire(kb, kb.api.allForms(d)[i]).Ok?
    requires Fact(kind, [Tri(t1), Tri(t2)]) in Fire(kb, kb.api.allForms(d)[i]).value
    ensures PopAsWritten(kb, d, rest).Fail?
  {
    TrianglePairRenderFails(kind, t1, t2);
    assert RulesOfAsWritten(kb, kb.api.allForms(d)[i]).Fail?;
  }

  /** The queue is not consulted when conclusions are admitted: a fact
      already waiting and concluded again is queued a second time. */
  lemma QueuedTwice(kb: Kb, rest: seq<Fact>, facts: seq<Fact>, f: Fact)
    requires f in rest && f in FcDeduct.Distinct(facts) && !kb.api.containsFact(f)
    ensures multiset(SortByPriority(rest + Admitted(kb, facts)))[f] >= 2
  {
    var news := Admitted(kb, facts);
    assert f in news;
    assert multiset(SortByPriority(rest + news)) == multiset(rest) + multiset(news);
    assert f in multiset(rest) && f in multiset(news);
  }
}

=== FILE: nprules.dfy ===
/** The rule bodies of `src/newprover.py` that differ from those of
    `src/rules.py`.  This revision's rules read only a predicate's points,
    and where the older rules asked `containsFact` of a fact they built,
    these ask `self.prove` of a predicate: the database's
    `_predicate_to_fact`, then `containsFact`. */
module NpRules {
  import opened Common
  import opened Primitives
  import opened Facts
  import opened Predicates
  import opened Snapshot
  import opened RuleKit
  import opened FcKit
  import FcRules
  import FcSearch
  import MidSearch

  /** `prove(q)`: whether the database holds the fact `_predicate_to_fact`
      makes of `q`.  It reads the database and changes nothing. */
  predicate Prove(kb: Kb, q: Pred) {
    kb.api.containsFact(kb.api.toFact(q))
  }

  /** The premise as this revision's rules read it: its points only. */
  function Bare(p: Premise): (r: Premise)
    ensures r.kind == p.kind && r.points == p.points && r.lines == []
  {
    p.(lines := [])
  }

  /** The names of a fact over names. */
  function NamesOf(objs: seq<Obj>): (r: seq<string>)
    ensures |r| == |objs|
    ensures forall j | 0 <= j < |objs| :: objs[j].Name? ==> r[j] == objs[j].name
  {
    Map(objs, (o: Obj) => if o.Name? then o.name else "")
  }

  /** The database as the older rule bodies would see it if each of their
      collinearity tests `containsFact(Fact("coll", [A, B, C]))` were
      `prove(Predicate("coll", [A, B, C]))`; every other fact is asked as
      before. */
  function CollView(kb: Kb): (v: Kb)
    ensures v.store == kb.store && v.perpFacts == kb.perpFacts && v.circles == kb.circles
    ensures forall xs: seq<string> | |xs| == 3 :: v.api.containsFact(On(Coll, xs)) == Prove(kb, Pred("coll", xs))
  {
    var contains := (f: Fact) =>
      if f.kind == Coll && |f.objects| == 3 && f.objects[0].Name? && f.objects[1].Name? && f.objects[2].Name?
      then Prove(kb, Pred("coll", NamesOf(f.objects)))
      else kb.api.containsFact(f);
    var v := kb.(api := kb.api.(containsFact := contains));
    assert forall xs: seq<string> | |xs| == 3 :: NamesOf(On(Coll, xs).objects) == xs;
    v
  }

  // ---------------------------------------------------------------- X1, X2

  /** X1: eqangle(A,B,B,C,P,Q,Q,R) & cong(A,B,P,Q) & cong(B,C,Q,R) =>
      contri(A,B,C,P,Q,R), side-angle-side: the two angles at B and Q are
      equal, the sides around them are provably congruent, and neither
      triangle is provably flat. */
  function X1(kb: Kb, p: Premise): (r: Result<seq<Fact>>)
    ensures r.Fail? <==> |p.points| != 8
    ensures r.Fail? ==> r.error == MalformedArity
    ensures r.Ok? ==> var ps := p.points;
      (r.value != [] <==>
        ps[1] == ps[2] && ps[5] == ps[6] &&
        !Prove(kb, Pred("coll", [ps[0], ps[1], ps[3]])) && !Prove(kb, Pred("coll", [ps[4], ps[5], ps[7]])) &&
        Prove(kb, Pred("cong", [ps[0], ps[1], ps[4], ps[5]])) && Prove(kb, Pred("cong", [ps[1], ps[3], ps[5], ps[7]])))
    ensures r.Ok? && r.value != [] ==> var ps := p.points;
      r.value == [Fact(Contri, [Tri(Triangle(ps[0], ps[1], ps[3])), Tri(Triangle(ps[4], ps[5], ps[7]))])]
  {
    if |p.points| != 8 then Fail(MalformedArity)
    else
      var a, b1, b2, c, pp, q1, q2, r := p.points[0], p.points[1], p.points[2], p.points[3], p.points[4], p.points[5], p.points[6], p.points[7];
      if b1 != b2 || q1 != q2 || Prove(kb, Pred("coll", [a, b1, c])) || Prove(kb, Pred("coll", [pp, q1, r])) then Ok([])
      else if Prove(kb, Pred("cong", [a, b1, pp, q1])) && Prove(kb, Pred("cong", [b1, c, q1, r])) then
        Ok([Fact(Contri, [Tri(Triangle(a, b1, c)), Tri(Triangle(pp, q1, r))])])
      else Ok([])
  }

  /** The congruence X1 concludes gives back, through D62, the congruence
      of A-B and P-Q it required: firing the pair adds nothing the
      database could not already prove. */
  lemma X1ThenD62(kb: Kb, p: Premise)
    requires X1(kb, p).Ok? && X1(kb, p).value != []
    ensures var ps := p.points;
      Prove(kb, Pred("cong", [ps[0], ps[1], ps[4], ps[5]])) &&
      FcRules.D62(Premise("contri", [ps[0], ps[1], ps[3], ps[4], ps[5], ps[7]], [])) ==
        Ok([Fact(Cong, [Seg(Segment(ps[0], ps[1])), Seg(Segment(ps[4], ps[5]))])])
  {
  }

  /** `q` is the eqangle X2 writes for the premise's pair `lab`, `lcd`
      against the recorded pair `pair`. */
  predicate Pairs2(lab: LineKey, lcd: LineKey, pair: seq<LineKey>, q: Fact) {
    |pair| == 2 && !(pair[0] == lab && pair[1] == lcd) && q == On(Eqangle, [lab, lcd, pair[0], pair[1]])
  }

  /** One recorded pair of `for [lPQ, lUV] in perpFacts`: skipped only when
      it is the premise's own pair in the same orientation. */
  function X2Step(lab: LineKey, lcd: LineKey, pair: seq<LineKey>): (r: Result<seq<Fact>>)
    ensures r.Fail? <==> |pair| != 2
    ensures r.Fail? ==> r.error == MalformedArity
    ensures r.Ok? ==> forall q :: q in r.value <==> Pairs2(lab, lcd, pair, q)
  {
    if |pair| != 2 then Fail(MalformedArity)
    else if pair[0] == lab && pair[1] == lcd then Ok([])
    else Ok([On(Eqangle, [lab, lcd, pair[0], pair[1]])])
  }

  /** X2: perp(A,B,C,D) & perp(P,Q,U,V) => eqangle(A,B,C,D,P,Q,U,V): the
      premise's right angle equals every recorded right angle, each in the
      orientation it is recorded in. */
  function X2(kb: Kb, p: Premise): (r: Result<seq<Fact>>)
    ensures |p.points| != 4 ==> r == Fail(MalformedArity)
    ensures r.Fail? ==> r.error in {MalformedArity, NameExhausted}
    ensures TwoLines(kb, p.points).Fail? ==> r.Fail?
    ensures TwoLines(kb, p.points).Ok? ==> var l := TwoLines(kb, p.points).value;
      (r.Ok? <==> forall i | 0 <= i < |kb.perpFacts| :: |kb.perpFacts[i]| == 2) &&
      (r.Ok? ==> forall q :: q in r.value <==> exists i | 0 <= i < |kb.perpFacts| :: Pairs2(l.0, l.1, kb.perpFacts[i], q))
  {
    var l :- TwoLines(kb, p.points);
    Gather(kb.perpFacts, (pair: seq<LineKey>) => X2Step(l.0, l.1, pair))
  }

  /** Against `src/rules.py`'s X2 this revision writes one orientation
      only, and no longer skips the premise's own pair recorded the other
      way round: each of its eqangles is one the older X2 writes, or the
      angle from A-B to C-D equated with the angle back. */
  lemma X2AgainstRules(kb: Kb, p: Premise, q: Fact)
    requires X2(kb, p).Ok? && q in X2(kb, p).value
    ensures FcRules.X2(kb, Bare(p)).Ok?
    ensures var l := TwoLines(kb, p.points).value;
      q in FcRules.X2(kb, Bare(p)).value || q == On(Eqangle, [l.0, l.1, l.1, l.0])
  {
    var l := TwoLines(kb, p.points).value;
    assert FcRules.PerpLines(kb, Bare(p)) == Ok(l);
    var i :| 0 <= i < |kb.perpFacts| && Pairs2(l.0, l.1, kb.perpFacts[i], q);
    var pair := kb.perpFacts[i];
    if !SamePair(l.0, l.1, pair[0], pair[1]) {
      assert FcRules.Rotates(l.0, l.1, pair, q);
    }
  }

  // ---------------------------------------------------------------- D42a

  /** D42a: eqangle(P,A,P,B,Q,A,Q,B) & not coll(P,Q,A) => cyclic(A,B,P,Q),
      point form: A and B subtend equal angles at P and at Q, and P, Q, A
      are not provably collinear. */
  function D42a(kb: Kb, p: Premise): (r: Result<seq<Fact>>)
    ensures r.Fail? <==> |p.points| != 8
    ensures r.Fail? ==> r.error == MalformedArity
    ensures r.Ok? ==> var ps := p.points;
      (r.value != [] <==> ps[0] == ps[2] && ps[1] == ps[5] && ps[3] == ps[7] && ps[4] == ps[6] &&
                          !Prove(kb, Pred("coll", [ps[0], ps[4], ps[1]]))) &&
      (r.value != [] ==> r.value == [On(Cyclic, [ps[1], ps[3], ps[0], ps[4]])])
  {
    if |p.points| != 8 then Fail(MalformedArity)
    else
      var p1, a1, p2, b1, q1, a2, q2, b2 := p.points[0], p.points[1], p.points[2], p.points[3], p.points[4], p.points[5], p.points[6], p.points[7];
      if p1 != p2 || a1 != a2 || b1 != b2 || q1 != q2 then Ok([])
      else if Prove(kb, Pred("coll", [p1, q1, a1])) then Ok([])
      else Ok([On(Cyclic, [a1, b1, p1, q1])])
  }

  /** D41 reads the cyclic D42a concludes back into the eqangle D42a
      started from: the lines it matches are the four point pairs of the
      premise, in order. */
  lemma D42aThenD41(kb: Kb, p: Premise)
    requires D42a(kb, p).Ok? && D42a(kb, p).value != []
    ensures var ps, f := p.points, D42a(kb, p).value[0];
      var q := Premise("cyclic", NamesOf(f.objects), []);
      |q.points| == 4 &&
      [(q.points[2], q.points[0]), (q.points[2], q.points[1]), (q.points[3], q.points[0]), (q.points[3], q.points[1])] ==
        [(ps[0], ps[1]), (ps[2], ps[3]), (ps[4], ps[5]), (ps[6], ps[7])]
  {
    var ps, f := p.points, D42a(kb, p).value[0];
    assert NamesOf(f.objects) == [ps[1], ps[3], ps[0], ps[4]];
  }

  // ---------------------------------------------------------------- D44, D46

  /** The collinearity test of the older rules and `prove` agree on every
      triple of points. */
  ghost predicate CollAgrees(kb: Kb) {
    forall xs: seq<string> | |xs| == 3 :: Prove(kb, Pred("coll", xs)) == kb.api.containsFact(On(Coll, xs))
  }

  /** `d` drafts para(E,F,X,Y) for the recorded midpoint F of A-Y, where the
      premise makes E the midpoint of A-X: the two segments share exactly
      the end A, and A, X, Y are not provably collinear. */
  predicate Linked(kb: Kb, e: Point, a1: Point, b: Point, mf: seq<Point>, d: Draft) {
    |mf| == 3 && mf[0] != e && |MidSearch.Shared(a1, b, mf[1], mf[2])| == 1 &&
    var a := MidSearch.Shared(a1, b, mf[1], mf[2])[0];
    d.kind == Para && |d.pairs| == 2 && d.pairs[0] == (e, mf[0]) &&
    multiset{a, d.pairs[1].0} == multiset{a1, b} && multiset{a, d.pairs[1].1} == multiset{mf[1], mf[2]} &&
    !Prove(kb, Pred("coll", [a, d.pairs[1].0, d.pairs[1].1]))
  }

  lemma LinkedAsOlder(kb: Kb, e: Point, a1: Point, b: Point, mf: seq<Point>, d: Draft)
    ensures Linked(kb, e, a1, b, mf, d) <==> FcSearch.Linked(CollView(kb), e, a1, b, mf, d)
  {
  }

  /** The drafts of D44: for every recorded triple, the para it links. */
  function D44Drafts(kb: Kb, ps: seq<Point>): (r: Result<seq<Draft>>)
    ensures |ps| != 3 ==> r == Fail(MalformedArity)
    ensures r.Fail? ==> r.error == MalformedArity
    ensures |ps| == 3 ==> (r.Ok? <==> forall i | 0 <= i < |kb.store.midpFacts| :: |kb.store.midpFacts[i]| == 3)
    ensures r.Ok? ==> forall d :: d in r.value <==> exists i | 0 <= i < |kb.store.midpFacts| ::
      Linked(kb, ps[0], ps[1], ps[2], kb.store.midpFacts[i], d)
  {
    var r := FcSearch.D44Drafts(CollView(kb), ps);
    assert r.Ok? ==> forall d :: d in r.value <==> exists i | 0 <= i < |kb.store.midpFacts| ::
        Linked(kb, ps[0], ps[1], ps[2], kb.store.midpFacts[i], d) by {
      if r.Ok? {
        forall d, i | 0 <= i < |kb.store.midpFacts|
          ensures Linked(kb, ps[0], ps[1], ps[2], kb.store.midpFacts[i], d) == FcSearch.Linked(CollView(kb), ps[0], ps[1], ps[2], kb.store.midpFacts[i], d)
        {
          LinkedAsOlder(kb, ps[0], ps[1], ps[2], kb.store.midpFacts[i], d);
        }
      }
    }
    r
  }

  /** D44: midp(E,A,B) & midp(F,A,C) => para(EF, BC) over line keys, with
      the collinearity of A, B, C asked of `prove`.  This revision rebinds
      `B` inside its loop just as `src/rules.py` does; the model keeps the
      premise's own ends. */
  function D44(kb: Kb, p: Premise): (r: Result<seq<Fact>>)
    ensures |p.points| != 3 ==> r == Fail(MalformedArity)
    ensures r.Fail? ==> r.error in {MalformedArity, NameExhausted}
    ensures r.Fail? && r.error == MalformedArity <==> D44Drafts(kb, p.points).Fail?
    ensures r.Ok? ==> D44Drafts(kb, p.points).Ok? && FcSearch.Drafted(kb, r.value, D44Drafts(kb, p.points).value)
  {
    var drafts :- D44Drafts(kb, p.points);
    FcSearch.Drawn(kb, drafts)
  }

  /** Where `prove` answers a collinearity as `containsFact` does, this
      revision's D44 is the corrected one of `src/rules.py`. */
  lemma D44AsOlder(kb: Kb, p: Premise)
    requires CollAgrees(kb)
    ensures D44(kb, p) == FcSearch.D44(kb, p)
  {
    if |p.points| == 3 {
      var ps := p.points;
      var facts := kb.store.midpFacts;
      forall i | 0 <= i < |facts|
        ensures FcSearch.D44Step(CollView(kb), ps[0], ps[1], ps[2], facts[i]) == FcSearch.D44Step(kb, ps[0], ps[1], ps[2], facts[i])
      {
        D44StepAsOlder(kb, ps[0], ps[1], ps[2], facts[i]);
      }
      GatherAgree(facts, (mf: seq<Point>) => FcSearch.D44Step(CollView(kb), ps[0], ps[1], ps[2], mf),
                         (mf: seq<Point>) => FcSearch.D44Step(kb, ps[0], ps[1], ps[2], mf));
      assert D44Drafts(kb, ps) == FcSearch.D44Drafts(kb, ps);
    }
  }

  lemma D44StepAsOlder(kb: Kb, e: Point, a1: Point, b: Point, mf: seq<Point>)
    requires CollAgrees(kb)
    ensures FcSearch.D44Step(CollView(kb), e, a1, b, mf) == FcSearch.D44Step(kb, e, a1, b, mf)
  {
    if |mf| == 3 && e != mf[0] && |MidSearch.Shared(a1, b, mf[1], mf[2])| == 1 {
      var a := MidSearch.Shared(a1, b, mf[1], mf[2])[0];
      var xs := [a, MidSearch.OtherEnd(a, a1, b), MidSearch.OtherEnd(a, mf[1], mf[2])];
      assert CollView(kb).api.containsFact(On(Coll, xs)) == kb.api.containsFact(On(Coll, xs));
    }
  }

  /** D46: cong(O,A,O,B) => eqangle(O,A,A,B,A,B,O,B): the base angles of an
      isosceles triangle, unless O, A, B are provably collinear. */
  function D46(kb: Kb, p: Premise): (r: Result<seq<Fact>>)
    ensures |p.points| != 4 ==> r == Fail(MalformedArity)
    ensures r.Fail? ==> r.error in {MalformedArity, NameExhausted}
    ensures |p.points| == 4 ==> var ps := p.points;
      var blocked := ps[0] != ps[2] || ps[1] == ps[3] || ps[0] == ps[1] || Prove(kb, Pred("coll", [ps[0], ps[1], ps[3]]));
      var pairs := [(ps[0], ps[1]), (ps[1], ps[3]), (ps[0], ps[3])];
      var m := Match(kb.store.lines, pairs);
      (blocked ==> r == Ok([])) &&
      (!blocked ==> (
        (r.Fail? <==> m.Fail?) &&
        (r.Ok? ==> (
          Lined(m.value.dict, m.value.names, pairs) &&
          r.value == [On(Eqangle, [m.value.names[0], m.value.names[1], m.value.names[1], m.value.names[2]])]))))
  {
    FcRules.D46(CollView(kb), p)
  }

  /** Where `prove` answers a collinearity as `containsFact` does, this
      revision's D46 is that of `src/rules.py`. */
  lemma D46AsOlder(kb: Kb, p: Premise)
    requires CollAgrees(kb)
    ensures D46(kb, p) == FcRules.D46(kb, p)
  {
  }

  // ---------------------------------------------------------------- D58

  /** D58, point form: eqangle(A,B,B,C,P,Q,Q,R) & eqangle(A,C,B,C,P,R,Q,R)
      & not coll(A,B,C) => simtri(A,B,C,P,Q,R); with `apart`, only when the
      two triangles differ. */
  function D58With(kb: Kb, p: Premise, apart: bool): (r: Result<seq<Fact>>)
    ensures r.Fail? <==> |p.points| != 8
    ensures r.Fail? ==> r.error == MalformedArity
    ensures r.Ok? ==> var ps := p.points;
      var t, u := Triangle(ps[0], ps[1], ps[3]), Triangle(ps[4], ps[5], ps[7]);
      (r.value != [] <==>
        ps[1] == ps[2] && ps[5] == ps[6] && !Prove(kb, Pred("coll", [ps[0], ps[1], ps[3]])) &&
        Prove(kb, Pred("eqangle", [ps[0], ps[3], ps[1], ps[3], ps[4], ps[7], ps[5], ps[7]])) && (apart ==> !TriEq(t, u))) &&
      (r.value != [] ==> r.value == [Fact(Simtri, [Tri(t), Tri(u)])])
  {
    if |p.points| != 8 then Fail(MalformedArity)
    else
      var a, b1, b2, c, pp, q1, q2, r := p.points[0], p.points[1], p.points[2], p.points[3], p.points[4], p.points[5], p.points[6], p.points[7];
      if b1 != b2 || q1 != q2 || Prove(kb, Pred("coll", [a, b1, c])) then Ok([])
      else if Prove(kb, Pred("eqangle", [a, c, b1, c, pp, r, q1, r])) && (apart ==> !TriEq(Triangle(a, b1, c), Triangle(pp, q1, r))) then
        Ok([Fact(Simtri, [Tri(Triangle(a, b1, c)), Tri(Triangle(pp, q1, r))])])
      else Ok([])
  }

  /** D58 as written: `Triangle` defines no equality, so `!=` compares two
      fresh objects and never tells them apart from anything. */
  function D58AsWritten(kb: Kb, p: Premise): (r: Result<seq<Fact>>)
    ensures r.Fail? <==> |p.points| != 8
    ensures r.Fail? ==> r.error == MalformedArity
    ensures r.Ok? ==> var ps := p.points;
      var t, u := Triangle(ps[0], ps[1], ps[3]), Triangle(ps[4], ps[5], ps[7]);
      (r.value != [] <==>
        ps[1] == ps[2] && ps[5] == ps[6] && !Prove(kb, Pred("coll", [ps[0], ps[1], ps[3]])) &&
        Prove(kb, Pred("eqangle", [ps[0], ps[3], ps[1], ps[3], ps[4], ps[7], ps[5], ps[7]]))) &&
      (r.value != [] ==> r.value == [Fact(Simtri, [Tri(t), Tri(u)])])
  {
    D58With(kb, p, false)
  }

  /** D58 with the evident intent: a triangle is not declared similar to
      itself, under the vertex-set equality of triangles; otherwise it
      concludes what the rule as written does. */
  function D58(kb: Kb, p: Premise): (r: Result<seq<Fact>>)
    ensures r.Fail? <==> D58AsWritten(kb, p).Fail?
    ensures r.Ok? ==> var ps := p.points;
      (r.value != [] <==> D58AsWritten(kb, p).value != [] && !TriEq(Triangle(ps[0], ps[1], ps[3]), Triangle(ps[4], ps[5], ps[7])))
    ensures r.Ok? && r.value != [] ==> r == D58AsWritten(kb, p)
  {
    D58With(kb, p, true)
  }

  /** As written, an eqangle of a triangle with itself makes it similar to
      itself; the corrected rule concludes nothing from it. */
  lemma D58SelfSimilar(kb: Kb, a: Point, b: Point, c: Point)
    requires !Prove(kb, Pred("coll", [a, b, c])) && Prove(kb, Pred("eqangle", [a, c, b, c, a, c, b, c]))
    ensures D58AsWritten(kb, Premise("eqangle", [a, b, b, c, a, b, b, c], [])) ==
      Ok([Fact(Simtri, [Tri(Triangle(a, b, c)), Tri(Triangle(a, b, c))])])
    ensures D58(kb, Premise("eqangle", [a, b, b, c, a, b, b, c], [])) == Ok([])
  {
    assert TriEq(Triangle(a, b, c), Triangle(a, b, c));
  }

  // ---------------------------------------------------------- D71, D73, D74

  /** D71, point form: eqangle(A,B,C,D,C,D,A,B) & not para(A,B,C,D) =>
      perp(A,B,C,D): the angle from A-B to C-D equals the angle back, the
      lines are not provably parallel, and they are two lines. */
  function D71(kb: Kb, p: Premise): (r: Result<seq<Fact>>)
    ensures |p.points| != 8 ==> r == Fail(MalformedArity)
    ensures r.Fail? ==> r.error in {MalformedArity, NameExhausted}
    ensures |p.points| == 8 ==> var ps := p.points;
      var guard := ps[0] == ps[6] && ps[1] == ps[7] && ps[2] == ps[4] && ps[3] == ps[5] && !Prove(kb, Pred("para", ps[..4]));
      var l := TwoLines(kb, ps[..4]);
      (!guard ==> r == Ok([])) &&
      (guard ==> (r.Fail? <==> l.Fail?)) &&
      (guard && r.Ok? ==> r.value == if l.value.0 == l.value.1 then [] else [On(Perp, [l.value.0, l.value.1])])
  {
    if |p.points| != 8 then Fail(MalformedArity)
    else
      var ps := p.points;
      if !(ps[0] == ps[6] && ps[1] == ps[7] && ps[2] == ps[4] && ps[3] == ps[5] && !Prove(kb, Pred("para", ps[..4]))) then Ok([])
      else
        var l :- TwoLines(kb, ps[..4]);
        Ok(if l.0 == l.1 then [] else [On(Perp, [l.0, l.1])])
  }

  /** Where `_predicate_to_fact` names the premise's own lines, the point
      form of D71 is the line form of `src/rules.py` on the eqangle from
      A-B to C-D and back. */
  lemma D71AsLineForm(kb: Kb, p: Premise)
    requires |p.points| == 8 && TwoLines(kb, p.points[..4]).Ok?
    requires var ps := p.points; ps[0] == ps[6] && ps[1] == ps[7] && ps[2] == ps[4] && ps[3] == ps[5]
    requires var l := TwoLines(kb, p.points[..4]).value;
      l.0 != l.1 && kb.api.toFact(Pred("para", p.points[..4])) == On(Para, [l.0, l.1])
    ensures var l := TwoLines(kb, p.points[..4]).value;
      D71(kb, p) == FcRules.D71(kb, Premise("eqangle", p.points, [l.0, l.1, l.1, l.0]))
  {
  }

  /** The form D73 and D74 share: when `prove` holds the relation of the
      second angle's lines P-Q and U-V, the first angle's lines A-B and
      C-D get it too, unless they are one line. */
  function Transfer(kb: Kb, p: Premise, k: Kind): (r: Result<seq<Fact>>)
    ensures |p.points| != 8 ==> r == Fail(MalformedArity)
    ensures r.Fail? ==> r.error in {MalformedArity, NameExhausted}
    ensures |p.points| == 8 ==> var ps := p.points;
      var l := TwoLines(kb, ps[..4]);
      (!Prove(kb, Pred(KindName(k), ps[4..])) ==> r == Ok([])) &&
      (Prove(kb, Pred(KindName(k), ps[4..])) ==> (r.Fail? <==> l.Fail?)) &&
      (Prove(kb, Pred(KindName(k), ps[4..])) && r.Ok? ==> r.value == if l.value.0 == l.value.1 then [] else [On(k, [l.value.0, l.value.1])])
  {
    if |p.points| != 8 then Fail(MalformedArity)
    else if !Prove(kb, Pred(KindName(k), p.points[4..])) then Ok([])
    else
      var l :- TwoLines(kb, p.points[..4]);
      Ok(if l.0 == l.1 then [] else [On(k, [l.0, l.1])])
  }

  /** D73: eqangle(A,B,C,D,P,Q,U,V) & para(P,Q,U,V) => para(A,B,C,D). */
  function D73(kb: Kb, p: Premise): (r: Result<seq<Fact>>)
    ensures |p.points| != 8 ==> r == Fail(MalformedArity)
    ensures r.Fail? ==> r.error in {MalformedArity, NameExhausted}
    ensures |p.points| == 8 ==> var ps := p.points; var l := TwoLines(kb, ps[..4]);
      (r.Ok? && r.value != [] <==> Prove(kb, Pred(KindName(Para), ps[4..])) && l.Ok? && l.value.0 != l.value.1) &&
      (r.Fail? <==> Prove(kb, Pred(KindName(Para), ps[4..])) && l.Fail?) &&
      (r.Ok? && r.value != [] ==> r.value == [On(Para, [l.value.0, l.value.1])])
  {
    Transfer(kb, p, Para)
  }

  /** D74: eqangle(A,B,C,D,P,Q,U,V) & perp(P,Q,U,V) => perp(A,B,C,D). */
  function D74(kb: Kb, p: Premise): (r: Result<seq<Fact>>)
    ensures |p.points| != 8 ==> r == Fail(MalformedArity)
    ensures r.Fail? ==> r.error in {MalformedArity, NameExhausted}
    ensures |p.points| == 8 ==> var ps := p.points; var l := TwoLines(kb, ps[..4]);
      (r.Ok? && r.value != [] <==> Prove(kb, Pred(KindName(Perp), ps[4..])) && l.Ok? && l.value.0 != l.value.1) &&
      (r.Fail? <==> Prove(kb, Pred(KindName(Perp), ps[4..])) && l.Fail?) &&
      (r.Ok? && r.value != [] ==> r.value == [On(Perp, [l.value.0, l.value.1])])
  {
    Transfer(kb, p, Perp)
  }

  /** Where `_predicate_to_fact` names the second angle's lines `l3`, `l4`,
      the point forms of D73 and D74 are the line forms of `src/rules.py`
      on the matched lines; the older D74 alone also writes a line
      perpendicular to itself. */
  lemma TransferAsLineForm(kb: Kb, p: Premise, l3: LineKey, l4: LineKey)
    requires |p.points| == 8 && TwoLines(kb, p.points[..4]).Ok?
    requires kb.api.toFact(Pred("para", p.points[4..])) == On(Para, [l3, l4])
    requires kb.api.toFact(Pred("perp", p.points[4..])) == On(Perp, [l3, l4])
    ensures var l := TwoLines(kb, p.points[..4]).value;
      D73(kb, p) == FcRules.D73(kb, Premise("eqangle", p.points, [l.0, l.1, l3, l4]))
    ensures var l := TwoLines(kb, p.points[..4]).value;
      D74(kb, p) == if l.0 == l.1 then Ok([]) else FcRules.D74(kb, Premise("eqangle", p.points, [l.0, l.1, l3, l4]))
  {
  }
}

=== FILE: nrprover.dfy ===
/** `Prover` of `src/newrules.py` as written.  The file imports the store of
    `src/database.py`, which keeps `lineDict`, `congDict`, `paraFacts`,
    `midpFacts` and `eqangleFacts` and nothing else, while the rule bodies
    call `matchLine`, `matchCong`, `lines`, `congs`, `perpFacts` and
    `eqratioFacts` on it and `self.prove` on a class that defines none of
    them: each such call raises AttributeError.  A rule is therefore
    modelled by how far it gets before it raises; the driver then runs as
    far as the first popped predicate of a kind that has rules. */
module NrProver {
  import opened Common
  import opened Primitives
  import opened Predicates
  import opened RuleKit
  import ListStore
  import FcDeduct
  import NpProver
  import PointProver

  type Rule = NpProver.Rule

  /** The rules `fixedpoint` calls for a predicate of kind `kind`, in its
      order. */
  function Rules(kind: string): seq<Rule> {
    if kind == "midp" then [NpProver.D44, NpProver.D63, NpProver.D68, NpProver.D70]
    else if kind == "para" then [NpProver.D40, NpProver.D10Para, NpProver.D45Para, NpProver.D64, NpProver.D65]
    else if kind == "eqangle" then
      [NpProver.D39, NpProver.D47, NpProver.D58, NpProver.D71, NpProver.D72, NpProver.D73, NpProver.D74, NpProver.D42a]
    else if kind == "cong" then [NpProver.D12, NpProver.D46, NpProver.D75Cong]
    else if kind == "cyclic" then [NpProver.D41]
    else if kind == "perp" then [NpProver.D09, NpProver.D10Perp, NpProver.D52Perp]
    else if kind == "simtri" then [NpProver.D59, NpProver.D60, NpProver.D61Simtri]
    else if kind == "contri" then [NpProver.D62]
    else if kind == "eqratio" then [NpProver.D75Eqratio]
    else []
  }

  /** The same kinds fire as in the newer prover, with the same rules
      except X1, X2 and D69. */
  lemma RulesFire(kind: string)
    ensures Rules(kind) == [] <==> kind !in FcDeduct.FiringKinds
    ensures forall rule :: rule in Rules(kind) <==>
      rule in NpProver.Rules(kind) && rule != NpProver.X1 && rule != NpProver.X2 && rule != NpProver.D69
  {
    if kind == "midp" {
    } else if kind == "para" {
    } else if kind == "eqangle" {
    } else if kind == "cong" {
    } else if kind == "cyclic" {
    } else if kind == "perp" {
    } else if kind == "simtri" {
    } else if kind == "contri" {
    } else if kind == "eqratio" {
    } else {
      assert kind !in FcDeduct.FiringKinds;
    }
  }

  /** The number of points a rule unpacks. */
  function Arity(rule: Rule): nat {
    match rule
    case D44 => 3
    case D63 => 3
    case D68 => 3
    case D69 => 3
    case D70 => 3
    case D59 => 6
    case D60 => 6
    case D61Simtri => 6
    case D62 => 6
    case X1 => 8
    case D39 => 8
    case D42a => 8
    case D47 => 8
    case D58 => 8
    case D71 => 8
    case D72 => 8
    case D73 => 8
    case D74 => 8
    case D75Eqratio => 8
    case _ => 4
  }

  /** The number of points of a predicate of kind `kind`. */
  function KindArity(kind: string): nat {
    if kind == "midp" then 3
    else if kind == "simtri" || kind == "contri" then 6
    else if kind == "eqangle" || kind == "eqratio" then 8
    else 4
  }

  /** The rules of one kind unpack as many points as a predicate of that
      kind has. */
  lemma RulesAgreeOnArity(kind: string)
    ensures forall rule | rule in Rules(kind) && rule != NpProver.D45Para :: Arity(rule) == KindArity(kind)
  {
    var rs := Rules(kind);
    if kind == "midp" {
      assert KindArity(kind) == 3;
    } else if kind == "simtri" || kind == "contri" {
      assert KindArity(kind) == 6;
    } else if kind == "eqangle" || kind == "eqratio" {
      assert KindArity(kind) == 8;
    } else {
      assert KindArity(kind) == 4;
    }
  }

  /** Whether a rule returns before it touches a name that is not there.
      D39, D12, D46, D42a, D58 and D52perp return early on their pattern
      tests; D44, D63, D70 and D52perp loop over the stored midpoints
      first, and `reach(rule)` says whether that loop reaches a missing
      name; every other rule touches one on every path, D47, D71 and D72
      through `all([...])`, which calls `self.prove` before it tests
      anything. */
  predicate Returns(rule: Rule, ps: seq<Point>, reach: Rule -> bool)
    requires |ps| == Arity(rule)
  {
    match rule
    case D39 => ps[2] != ps[6] || ps[3] != ps[7]
    case D12 => ps[0] != ps[2] || ps[1] == ps[3]
    case D46 => ps[0] != ps[2] || ps[1] == ps[3] || ps[0] == ps[1]
    case D42a => ps[0] != ps[2] || ps[1] != ps[5] || ps[3] != ps[7] || ps[4] != ps[6]
    case D58 => ps[1] != ps[2] || ps[5] != ps[6]
    case D52Perp => ps[1] != ps[2] || ps[0] == ps[3] || ps[0] == ps[1] || !reach(rule)
    case D44 => !reach(rule)
    case D63 => !reach(rule)
    case D70 => !reach(rule)
    case _ => false
  }

  /** One rule against `src/database.py`: unpacking the points is its first
      statement (ValueError on the wrong number), `_ruleD45para` returns at
      once, and a rule that touches a missing name raises AttributeError.
      No rule gets as far as returning a conclusion. */
  function Against(rule: Rule, p: Pred, reach: Rule -> bool): (r: Result<seq<Pred>>)
    ensures r.Ok? ==> r.value == []
    ensures rule != NpProver.D45Para && |p.points| != Arity(rule) ==> r == Fail(MalformedArity)
    ensures r.Fail? ==> r.error == if |p.points| == Arity(rule) then TypeMismatch else MalformedArity
  {
    if rule == NpProver.D45Para then Ok([])
    else if |p.points| != Arity(rule) then Fail(MalformedArity)
    else if Returns(rule, p.points, reach) then Ok([])
    else Fail(TypeMismatch)
  }

  /** The rule of each kind that raises on every path. */
  function Raiser(kind: string): Rule {
    if kind == "midp" then NpProver.D68
    else if kind == "para" then NpProver.D40
    else if kind == "eqangle" then NpProver.D47
    else if kind == "cong" then NpProver.D75Cong
    else if kind == "cyclic" then NpProver.D41
    else if kind == "perp" then NpProver.D09
    else if kind == "simtri" then NpProver.D59
    else if kind == "contri" then NpProver.D62
    else NpProver.D75Eqratio
  }

  /** Every kind that has rules has one that raises whatever the premise. */
  lemma RaiserRaises(p: Pred, reach: Rule -> bool)
    requires p.kind in FcDeduct.FiringKinds
    ensures Raiser(p.kind) in Rules(p.kind) && Against(Raiser(p.kind), p, reach).Fail?
  {
  }

  /** `predicates += self._ruleX(d)` for each rule of `d`'s kind: every kind
      that has rules raises, ValueError when the predicate has the wrong
      number of points and AttributeError otherwise, and any other kind
      gives no predicates. */
  function Fire(p: Pred, reach: Rule -> bool): (r: Result<seq<Pred>>)
    ensures r.Ok? <==> p.kind !in FcDeduct.FiringKinds
    ensures r.Ok? ==> r.value == []
    ensures r.Fail? ==> r.error == if |p.points| == KindArity(p.kind) then TypeMismatch else MalformedArity
  {
    var rules := Rules(p.kind);
    var r := Gather(rules, (rule: Rule) => Against(rule, p, reach));
    RulesAgreeOnArity(p.kind);
    if p.kind in FcDeduct.FiringKinds then
      RaiserRaises(p, reach);
      r
    else
      assert rules == [];
      r
  }

  /** The loop over the new predicates: its first statement calls
      `self._predicate_all_forms`, which the class does not define. */
  function Enqueue(queue: seq<Pred>, preds: seq<Pred>): (r: Result<seq<Pred>>)
    ensures r.Ok? <==> preds == []
    ensures r.Ok? ==> r.value == queue
    ensures r.Fail? ==> r.error == TypeMismatch
  {
    if preds == [] then Ok(queue) else Fail(TypeMismatch)
  }

  /** The store, the queue `newFactsList`, and the predicates popped. */
  datatype Run = Run(db: ListStore.Db, pending: seq<Pred>, popped: seq<Pred>)

  /** `iters = 10`. */
  const Iters: nat := 10

  function Min(a: nat, b: nat): nat {
    if a < b then a else b
  }

  /** Adding each predicate in turn. */
  function AddAll(db: ListStore.Db, ps: seq<Pred>): Result<ListStore.Db> {
    PointProver.Chain(db, ps, ListStore.Add)
  }

  /** A chain that raises part-way raises whatever comes after it. */
  lemma {:induction false} ChainFails<S>(s: S, a: seq<Pred>, b: seq<Pred>, f: (S, Pred) -> Result<S>)
    requires PointProver.Chain(s, a, f).Fail?
    ensures PointProver.Chain(s, a + b, f).Fail?
    decreases |a|
  {
    if a != [] {
      assert (a + b)[0] == a[0] && (a + b)[1..] == a[1..] + b;
      if f(s, a[0]).Ok? {
        ChainFails(f(s, a[0]).value, a[1..], b, f);
      }
    }
  }

  /** What `database.add` does to the store. */
  type Adder = (ListStore.Db, Pred) -> Result<ListStore.Db>

  /** The `while` loop with `iters` passes left: pop, add, fire the rules.
      It runs to the end exactly when none of the predicates it pops has a
      kind with rules and each can be added again; then the queue never
      grows, and the loop has only added the popped predicates once more. */
  function Loop(add: Adder, db: ListStore.Db, pending: seq<Pred>, popped: seq<Pred>, iters: nat, reach: Rule -> bool): (r: Result<Run>)
    ensures var k := Min(iters, |pending|);
      r.Ok? <==> (forall i | 0 <= i < k :: pending[i].kind !in FcDeduct.FiringKinds) && PointProver.Chain(db, pending[..k], add).Ok?
    ensures var k := Min(iters, |pending|);
      r.Ok? ==> r.value == Run(PointProver.Chain(db, pending[..k], add).value, pending[k..], popped + pending[..k])
    decreases iters
  {
    if pending == [] || iters == 0 then
      assert pending[..Min(iters, |pending|)] == [];
      Ok(Run(db, pending, popped))
    else
      var d := pending[0];
      var k := Min(iters, |pending|);
      var rest := pending[1..];
      assert pending[..k][0] == d && pending[..k][1..] == rest[..Min(iters - 1, |rest|)];
      assert forall i | 1 <= i < k :: pending[i] == rest[i - 1];
      match add(db, d)
      case Fail(e) => Fail(e)
      case Ok(db1) =>
        match Fire(d, reach)
        case Fail(e) => Fail(e)
        case Ok(preds) =>
          match Enqueue(rest, preds)
          case Fail(e) => Fail(e)
          case Ok(queue) =>
            assert popped + [d] + rest[..Min(iters - 1, |rest|)] == popped + pending[..k];
            assert rest[Min(iters - 1, |rest|)..] == pending[k..];
            Loop(add, db1, queue, popped + [d], iters - 1, reach)
  }

  /** `Prover(hypotheses).fixedpoint()`: the constructor adds every
      hypothesis and queues it, and the loop runs at most ten passes.  As
      written it succeeds exactly when none of the first ten hypotheses has
      a kind with rules and all the additions succeed; the queue then
      loses its first ten predicates and gains nothing. */
  function Fixedpoint(hs: seq<Pred>, reach: Rule -> bool): (r: Result<Run>)
    ensures var n := Min(Iters, |hs|);
      r.Ok? <==> (forall i | 0 <= i < n :: hs[i].kind !in FcDeduct.FiringKinds) && AddAll(ListStore.EmptyDb, hs + hs[..n]).Ok?
    ensures var n := Min(Iters, |hs|);
      r.Ok? ==> r.value == Run(AddAll(ListStore.EmptyDb, hs + hs[..n]).value, hs[n..], hs[..n])
    ensures r.Ok? ==> |r.value.popped| <= Iters
  {
    var start := AddAll(ListStore.EmptyDb, hs);
    AddAgain(hs);
    if start.Fail? then Fail(start.error)
    else Loop(ListStore.Add, start.value, hs, [], Iters, reach)
  }

  /** The loop's additions continue the constructor's. */
  lemma AddAgain(hs: seq<Pred>)
    ensures var n, start := Min(Iters, |hs|), AddAll(ListStore.EmptyDb, hs);
      (start.Fail? ==> AddAll(ListStore.EmptyDb, hs + hs[..n]).Fail?) &&
      (start.Ok? ==> AddAll(ListStore.EmptyDb, hs + hs[..n]) == PointProver.Chain(start.value, hs[..n], ListStore.Add))
  {
    var n := Min(Iters, |hs|);
    var add: Adder := ListStore.Add;
    if AddAll(ListStore.EmptyDb, hs).Fail? {
      ChainFails(ListStore.EmptyDb, hs, hs[..n], add);
    } else {
      PointProver.ChainAppend(ListStore.EmptyDb, hs, hs[..n], add);
    }
  }

  /** A first hypothesis of a kind that has rules ends the run with an
      error, whatever the store holds. */
  lemma FirstFires(hs: seq<Pred>, reach: Rule -> bool)
    requires hs != [] && hs[0].kind in FcDeduct.FiringKinds
    ensures Fixedpoint(hs, reach).Fail?
  {
  }
}

=== FILE: nrrules.dfy ===
/** The rule bodies of `src/newrules.py`.  They read a database with line
    keys (`matchLine`, `lines`) and congruence-class keys (`matchCong`,
    `eqratioFacts`) and ask `self.prove`: here that database is the group
    store of `src/database_.py`, and `prove` is a parameter, since the class
    defines none.  Conclusions are written over keys, the way the group
    store records them. */
module NrRules {
  import opened Common
  import opened Primitives
  import opened Predicates
  import opened Facts
  import opened Snapshot
  import opened FcKit
  import GroupStore
  import CongSearch
  import FcRules
  import FcSearch

  /** The premise as the older rule bodies take it: its points, no keys. */
  function AsPremise(p: Pred): (r: Premise)
    ensures r.kind == p.kind && r.points == p.points && r.lines == []
  {
    Premise(p.kind, p.points, [])
  }

  /** D39: eqangle(A,B,P,Q,C,D,P,Q) => para(A,B,C,D): two lines that make
      the same angle with a third line are parallel, unless two of the
      three are one line. */
  function D39(kb: Kb, p: Pred): (r: Result<seq<Fact>>)
    ensures |p.points| != 8 ==> r == Fail(MalformedArity)
    ensures r.Fail? ==> r.error in {MalformedArity, NameExhausted}
    ensures |p.points| == 8 && (p.points[2] != p.points[6] || p.points[3] != p.points[7]) ==> r == Ok([])
    ensures r.Ok? && r.value != [] ==> var ps := p.points;
      var pairs := [(ps[0], ps[1]), (ps[2], ps[3]), (ps[4], ps[5])];
      var m := Match(kb.store.lines, pairs);
      ps[2] == ps[6] && ps[3] == ps[7] && m.Ok? && Lined(m.value.dict, m.value.names, pairs) &&
      Distinct3(m.value.names[0], m.value.names[2], m.value.names[1]) &&
      r.value == [On(Para, [m.value.names[0], m.value.names[2]])]
  {
    if |p.points| != 8 then Fail(MalformedArity)
    else
      var ps := p.points;
      if ps[2] != ps[6] || ps[3] != ps[7] then Ok([])
      else
        var m :- Match(kb.store.lines, [(ps[0], ps[1]), (ps[2], ps[3]), (ps[4], ps[5])]);
        var lab, lpq, lcd := m.names[0], m.names[1], m.names[2];
        Ok(if !Distinct3(lab, lcd, lpq) then [] else [On(Para, [lab, lcd])])
  }

  /** This D39 is the point form of the D39 of `src/rules.py`. */
  lemma D39AsOlder(kb: Kb, p: Pred)
    ensures D39(kb, p) == FcRules.D39(kb, AsPremise(p))
  {
  }

  /** `q` is the eqangle(A,B,P,Q,C,D,P,Q) written through line `l`. */
  predicate Crossing(lab: LineKey, lcd: LineKey, l: LineKey, q: Fact) {
    l != lab && l != lcd && q == On(Eqangle, [lab, l, lcd, l])
  }

  /** `for lPQ in lines: if lPQ in [lAB, lCD]: continue`, writing the
      eqangle for the rest. */
  function Crossings(lab: LineKey, lcd: LineKey, keys: seq<LineKey>): (r: seq<Fact>)
    ensures forall q :: q in r <==> exists l | l in keys :: Crossing(lab, lcd, l, q)
  {
    if keys == [] then []
    else
      var l := keys[0];
      var rest := Crossings(lab, lcd, keys[1..]);
      assert forall x | x in keys :: x == l || x in keys[1..];
      if l == lab || l == lcd then rest
      else
        assert Crossing(lab, lcd, l, On(Eqangle, [lab, l, lcd, l]));
        [On(Eqangle, [lab, l, lcd, l])] + rest
  }

  /** D40: para(A,B,C,D) => eqangle(A,B,P,Q,C,D,P,Q) for every recorded
      line P-Q other than the two; unlike the older D40, nothing excludes a
      line known parallel to them. */
  function D40(kb: Kb, p: Pred): (r: Result<seq<Fact>>)
    ensures |p.points| != 4 ==> r == Fail(MalformedArity)
    ensures r.Fail? ==> r.error in {MalformedArity, NameExhausted}
    ensures |p.points| == 4 ==> var m := Match(kb.store.lines, [(p.points[0], p.points[1]), (p.points[2], p.points[3])]);
      (r.Fail? <==> m.Fail?) &&
      (r.Ok? ==> var lab, lcd := m.value.names[0], m.value.names[1];
        forall q :: q in r.value <==> lab != lcd && exists l | l in Keys(m.value.dict) :: Crossing(lab, lcd, l, q))
  {
    if |p.points| != 4 then Fail(MalformedArity)
    else
      var m :- Match(kb.store.lines, [(p.points[0], p.points[1]), (p.points[2], p.points[3])]);
      var lab, lcd := m.names[0], m.names[1];
      if lab == lcd then Ok([]) else Ok(Crossings(lab, lcd, Keys(m.dict)))
  }

  /** Everything the older D40 concludes this one concludes too; the older
      one leaves out the lines known parallel to the premise's lines. */
  lemma D40CoversOlder(kb: Kb, p: Pred)
    requires FcRules.D40(kb, AsPremise(p)).Ok?
    ensures D40(kb, p).Ok?
    ensures forall q | q in FcRules.D40(kb, AsPremise(p)).value :: q in D40(kb, p).value
  {
    var older := FcRules.D40(kb, AsPremise(p)).value;
    var m := Match(kb.store.lines, [(p.points[0], p.points[1]), (p.points[2], p.points[3])]).value;
    forall q | q in older ensures q in D40(kb, p).value {
      var l :| l in Keys(m.dict) && FcRules.Transversal(kb, m.names[0], m.names[1], l, q);
      assert Crossing(m.names[0], m.names[1], l, q);
    }
  }

  /** D41: cyclic(A,B,P,Q) => eqangle(P,A,P,B,Q,A,Q,B): the angles A-P-B and
      A-Q-B subtend the same chord; written whatever the four keys are. */
  function D41(kb: Kb, p: Pred): (r: Result<seq<Fact>>)
    ensures |p.points| != 4 ==> r == Fail(MalformedArity)
    ensures r.Fail? ==> r.error in {MalformedArity, NameExhausted}
    ensures |p.points| == 4 ==> var ps := p.points;
      var pairs := [(ps[2], ps[0]), (ps[2], ps[1]), (ps[3], ps[0]), (ps[3], ps[1])];
      var m := Match(kb.store.lines, pairs);
      (r.Fail? <==> m.Fail?) &&
      (r.Ok? ==> Lined(m.value.dict, m.value.names, pairs) && r.value == [On(Eqangle, m.value.names)])
  {
    if |p.points| != 4 then Fail(MalformedArity)
    else
      var ps := p.points;
      var m :- Match(kb.store.lines, [(ps[2], ps[0]), (ps[2], ps[1]), (ps[3], ps[0]), (ps[3], ps[1])]);
      Ok([On(Eqangle, m.names)])
  }

  /** The older D41 writes the same angle equality, but only when neither
      angle is made by a line with itself. */
  lemma D41AgainstOlder(kb: Kb, p: Pred)
    requires D41(kb, p).Ok?
    ensures FcRules.D41(kb, AsPremise(p)).Ok?
    ensures var n := D41(kb, p).value[0].objects;
      FcRules.D41(kb, AsPremise(p)).value == if n[0] != n[1] && n[2] != n[3] then D41(kb, p).value else []
  {
  }

  /** The D47 pattern eqangle(O,A,A,B,A,B,O',B) with O, A, B not provably
      collinear, as the code tests it: the two centres O and O' are not
      compared. */
  predicate Isosceles(ps: seq<Point>, prove: Pred -> bool)
    requires |ps| == 8
  {
    ps[1] == ps[2] && ps[1] == ps[4] && ps[3] == ps[5] && ps[3] == ps[7] &&
    !prove(Pred("coll", [ps[0], ps[1], ps[3]]))
  }

  /** D47 as written: eqangle(O,A,A,B,A,B,O',B) => cong(O,A,O,B), the
      classes of O-A and O-B matched in turn. */
  function D47AsWritten(kb: Kb, p: Pred, prove: Pred -> bool): (r: Result<seq<Fact>>)
    ensures |p.points| != 8 ==> r == Fail(MalformedArity)
    ensures r.Fail? ==> r.error in {MalformedArity, NameExhausted}
    ensures |p.points| == 8 ==> var ps := p.points;
      var h := CongSearch.Hub(kb, [ps[0], ps[1], ps[0], ps[3]]);
      (!Isosceles(ps, prove) ==> r == Ok([])) &&
      (Isosceles(ps, prove) ==> (r.Fail? <==> h.Fail?) && (r.Ok? ==> r.value == [On(Cong, h.value.1)]))
  {
    if |p.points| != 8 then Fail(MalformedArity)
    else
      var ps := p.points;
      if !Isosceles(ps, prove) then Ok([])
      else
        var h :- CongSearch.Hub(kb, [ps[0], ps[1], ps[0], ps[3]]);
        Ok([On(Cong, h.1)])
  }

  /** D47 with the two centres required to be one point, as the older D47
      requires: the equal base angles at A and B then make O-A and O-B
      congruent. */
  function D47(kb: Kb, p: Pred, prove: Pred -> bool): (r: Result<seq<Fact>>)
    ensures |p.points| != 8 ==> r == Fail(MalformedArity)
    ensures r.Fail? ==> r.error in {MalformedArity, NameExhausted}
    ensures r.Ok? && r.value != [] ==> p.points[0] == p.points[6] && Isosceles(p.points, prove)
    ensures |p.points| == 8 && p.points[0] == p.points[6] ==> r == D47AsWritten(kb, p, prove)
  {
    if |p.points| == 8 && p.points[0] != p.points[6] then Ok([])
    else D47AsWritten(kb, p, prove)
  }

  /** The as-written D47 concludes cong(O,A,O,B) from an angle pattern whose
      second centre is another point O', which does not make O-A and O-B
      congruent; the corrected D47 concludes nothing there. */
  lemma D47SecondCentre(kb: Kb, p: Pred, prove: Pred -> bool)
    requires |p.points| == 8 && Isosceles(p.points, prove) && p.points[6] != p.points[0]
    requires CongSearch.Hub(kb, [p.points[0], p.points[1], p.points[0], p.points[3]]).Ok?
    ensures D47AsWritten(kb, p, prove).Ok? && D47AsWritten(kb, p, prove).value != []
    ensures D47(kb, p, prove) == Ok([])
  {
  }

  /** With `prove` asking the database, the corrected D47 concludes exactly
      when the older D47 does, and the classes it equates hold the segments
      O-A and O-B the older one equates. */
  lemma D47AsOlder(kb: Kb, p: Pred, prove: Pred -> bool)
    requires forall q: Pred :: prove(q) == kb.api.containsFact(kb.api.toFact(q))
    requires D47(kb, p, prove).Ok?
    ensures var r, older := D47(kb, p, prove).value, FcRules.D47(kb, AsPremise(p)).value;
      (r != [] <==> older != []) &&
      (r != [] ==> var h := CongSearch.Hub(kb, [p.points[0], p.points[1], p.points[0], p.points[3]]).value;
        older == [Fact(Cong, [Seg(Segment(p.points[0], p.points[1])), Seg(Segment(p.points[0], p.points[3]))])] &&
        r == [On(Cong, h.1)] &&
        GroupStore.ClassHas(h.0, h.1[0], older[0].objects[0].seg) &&
        GroupStore.ClassHas(h.0, h.1[1], older[0].objects[1].seg))
  {
    var ps := p.points;
    if |ps| == 8 {
      var coll := Pred("coll", [ps[0], ps[1], ps[3]]);
      assert prove(coll) == kb.api.containsFact(kb.api.toFact(coll));
    }
  }

  /** D59: simtri(A,B,C,P,Q,R) => eqratio(A,B,A,C,P,Q,P,R), written as the
      equality of two ratios of classes, the classes of A-B, A-C, P-Q and
      P-R matched in turn. */
  function D59(kb: Kb, p: Pred): (r: Result<seq<Fact>>)
    ensures |p.points| != 6 ==> r == Fail(MalformedArity)
    ensures r.Fail? ==> r.error in {MalformedArity, NameExhausted}
    ensures |p.points| == 6 ==> var ps := p.points;
      var pairs := [(ps[0], ps[1]), (ps[0], ps[2]), (ps[3], ps[4]), (ps[3], ps[5])];
      var m := GroupStore.MatchCongs(kb.store.congs, pairs);
      (r.Fail? <==> m.Fail?) &&
      (r.Ok? ==> GroupStore.ClassesHold(m.value.dict, m.value.names, pairs) && var n := m.value.names;
        r.value == [Fact(Eqratio, [Rat(Ratio(n[0], n[1])), Rat(Ratio(n[2], n[3]))])])
  {
    if |p.points| != 6 then Fail(MalformedArity)
    else
      var ps := p.points;
      var m :- GroupStore.MatchCongs(kb.store.congs, [(ps[0], ps[1]), (ps[0], ps[2]), (ps[3], ps[4]), (ps[3], ps[5])]);
      var n := m.names;
      Ok([Fact(Eqratio, [Rat(Ratio(n[0], n[1])), Rat(Ratio(n[2], n[3]))])])
  }

  /** The older D59 writes the same proportion over the four segments A-B,
      A-C, P-Q and P-R; each class this one writes holds the matching
      segment. */
  lemma D59AsOlder(kb: Kb, p: Pred)
    requires D59(kb, p).Ok?
    ensures FcRules.D59(AsPremise(p)).Ok?
    ensures var ps := p.points;
      var m := GroupStore.MatchCongs(kb.store.congs, [(ps[0], ps[1]), (ps[0], ps[2]), (ps[3], ps[4]), (ps[3], ps[5])]).value;
      forall k | 0 <= k < 4 :: GroupStore.ClassHas(m.dict, m.names[k], FcRules.D59(AsPremise(p)).value[0].objects[k].seg)
  {
    var ps := p.points;
    var pairs := [(ps[0], ps[1]), (ps[0], ps[2]), (ps[3], ps[4]), (ps[3], ps[5])];
    var m := GroupStore.MatchCongs(kb.store.congs, pairs).value;
    var g := FcRules.D59(AsPremise(p)).value[0];
    forall k | 0 <= k < 4 ensures GroupStore.ClassHas(m.dict, m.names[k], g.objects[k].seg) {
      GroupStore.ClassesHoldAt(m.dict, m.names, pairs, k);
    }
  }

  /** para(A,B,C,D) over the keys `matchLine` gives A-B and C-D. */
  function ParaOf(kb: Kb, ps: seq<Point>): (r: Result<seq<Fact>>)
    requires |ps| == 8
    ensures r.Fail? <==> TwoLines(kb, ps[..4]).Fail?
    ensures r.Fail? ==> r.error == NameExhausted
    ensures r.Ok? ==> var l := TwoLines(kb, ps[..4]).value; r.value == [On(Para, [l.0, l.1])]
  {
    var l :- TwoLines(kb, ps[..4]);
    Ok([On(Para, [l.0, l.1])])
  }

  /** The D72 pattern eqangle(A,B,C,D,C,D,A,B). */
  predicate Symmetric(ps: seq<Point>)
    requires |ps| == 8
  {
    ps[0] == ps[6] && ps[1] == ps[7] && ps[2] == ps[4] && ps[3] == ps[5]
  }

  /** D72 as written: eqangle(A,B,C,D,C,D,A,B) => para(A,B,C,D) unless
      perp(A1,B1,A2,B2) is provable; with the pattern matched, A2-B2 is A-B
      itself, so the test asks whether A-B is perpendicular to itself. */
  function D72AsWritten(kb: Kb, p: Pred, prove: Pred -> bool): (r: Result<seq<Fact>>)
    ensures |p.points| != 8 ==> r == Fail(MalformedArity)
    ensures r.Fail? ==> r.error in {MalformedArity, NameExhausted}
    ensures |p.points| == 8 ==> var ps := p.points;
      var guard := Symmetric(ps) && !prove(Pred("perp", [ps[0], ps[1], ps[0], ps[1]]));
      (!guard ==> r == Ok([])) && (guard ==> r == ParaOf(kb, ps))
  {
    if |p.points| != 8 then Fail(MalformedArity)
    else
      var ps := p.points;
      if !Symmetric(ps) || prove(Pred("perp", [ps[0], ps[1], ps[6], ps[7]])) then Ok([])
      else ParaOf(kb, ps)
  }

  /** D72 as its rule states it: eqangle(A,B,C,D,C,D,A,B) and not
      perp(A,B,C,D) => para(A,B,C,D).  The angle from A-B to C-D equals the
      angle back, so the lines are parallel or perpendicular; a conclusion
      is written only when they are not provably perpendicular. */
  function D72(kb: Kb, p: Pred, prove: Pred -> bool): (r: Result<seq<Fact>>)
    ensures |p.points| != 8 ==> r == Fail(MalformedArity)
    ensures r.Fail? ==> r.error in {MalformedArity, NameExhausted}
    ensures r.Ok? && r.value != [] ==> Symmetric(p.points) && !prove(Pred("perp", p.points[..4]))
    ensures |p.points| == 8 && Symmetric(p.points) && !prove(Pred("perp", p.points[..4])) ==> r == ParaOf(kb, p.points)
  {
    if |p.points| != 8 then Fail(MalformedArity)
    else
      var ps := p.points;
      if !Symmetric(ps) || prove(Pred("perp", ps[..4])) then Ok([])
      else ParaOf(kb, ps)
  }

  /** With A-B provably perpendicular to C-D, but no line perpendicular to
      itself, the as-written D72 still concludes that A-B and C-D are
      parallel; the corrected D72 concludes nothing. */
  lemma D72IgnoresPerp(kb: Kb, a: Point, b: Point, c: Point, d: Point, prove: Pred -> bool)
    requires prove(Pred("perp", [a, b, c, d])) && !prove(Pred("perp", [a, b, a, b]))
    requires TwoLines(kb, [a, b, c, d]).Ok?
    ensures D72AsWritten(kb, Pred("eqangle", [a, b, c, d, c, d, a, b]), prove).Ok?
    ensures D72AsWritten(kb, Pred("eqangle", [a, b, c, d, c, d, a, b]), prove).value != []
    ensures D72(kb, Pred("eqangle", [a, b, c, d, c, d, a, b]), prove) == Ok([])
  {
    var ps := [a, b, c, d, c, d, a, b];
    assert Symmetric(ps);
    assert ps[..4] == [a, b, c, d];
  }

  /** `f` is the cong of the two classes of ratio `y`, taken from a group
      that holds the premise's ratio `x`, `y` not being `x`. */
  predicate Cousin(g: seq<Ratio>, x: Ratio, same: (Ratio, Ratio) -> bool, f: Fact) {
    FcSearch.Holds(g, x, same) && exists j | 0 <= j < |g| :: !same(g[j], x) && f == On(Cong, [g[j].c1, g[j].c2])
  }

  /** `for ratio in ratios: if ratio == x: continue`, writing the cong of
      each other ratio's classes. */
  function Others(g: seq<Ratio>, x: Ratio, same: (Ratio, Ratio) -> bool): (r: seq<Fact>)
    ensures forall f :: f in r <==> exists j | 0 <= j < |g| :: !same(g[j], x) && f == On(Cong, [g[j].c1, g[j].c2])
  {
    if g == [] then []
    else
      var rest := Others(g[1..], x, same);
      assert forall j | 1 <= j < |g| :: g[j] == g[1..][j - 1];
      assert forall j | 0 <= j < |g[1..]| :: g[1..][j] == g[j + 1];
      if same(g[0], x) then rest else [On(Cong, [g[0].c1, g[0].c2])] + rest
  }

  /** The loop over the recorded groups of equal ratios. */
  function Cousins(gs: seq<seq<Ratio>>, x: Ratio, same: (Ratio, Ratio) -> bool): (r: seq<Fact>)
    ensures forall f :: f in r <==> exists i | 0 <= i < |gs| :: Cousin(gs[i], x, same, f)
  {
    if gs == [] then []
    else
      var rest := Cousins(gs[1..], x, same);
      assert forall i | 1 <= i < |gs| :: gs[i] == gs[1..][i - 1];
      assert forall i | 0 <= i < |gs[1..]| :: gs[1..][i] == gs[i + 1];
      if FcSearch.Holds(gs[0], x, same) then Others(gs[0], x, same) + rest else rest
  }

  /** D75 (cong form) with the ratio comparison `same` as a parameter:
      cong(P,Q,U,V) & eqratio(A,B,C,D,P,Q,U,V) => cong(A,B,C,D), over the
      classes of P-Q and U-V. */
  function D75CongWith(kb: Kb, p: Pred, same: (Ratio, Ratio) -> bool): (r: Result<seq<Fact>>)
    ensures |p.points| != 4 ==> r == Fail(MalformedArity)
    ensures |p.points| == 4 ==> (r.Fail? <==> CongSearch.Hub(kb, p.points).Fail?)
    ensures r.Fail? ==> r.error in {MalformedArity, NameExhausted}
    ensures r.Ok? ==> var h := CongSearch.Hub(kb, p.points).value; var gs := kb.store.eqratioFacts;
      forall f :: f in r.value <==> exists i | 0 <= i < |gs| :: Cousin(gs[i], Ratio(h.1[0], h.1[1]), same, f)
  {
    if |p.points| != 4 then Fail(MalformedArity)
    else
      var h :- CongSearch.Hub(kb, p.points);
      Ok(Cousins(kb.store.eqratioFacts, Ratio(h.1[0], h.1[1]), same))
  }

  /** D75 (cong form) as written: `Ratio` defines no equality, so the new
      `Ratio(cPQ, cUV)` is in no recorded group and the rule concludes
      nothing. */
  function D75CongAsWritten(kb: Kb, p: Pred): (r: Result<seq<Fact>>)
    ensures |p.points| != 4 ==> r == Fail(MalformedArity)
    ensures |p.points| == 4 ==> (r.Fail? <==> CongSearch.Hub(kb, p.points).Fail?)
    ensures r.Ok? ==> r.value == []
  {
    if |p.points| != 4 then Fail(MalformedArity)
    else
      var h :- CongSearch.Hub(kb, p.points);
      var never := (a: Ratio, b: Ratio) => false;
      CousinsNone(kb.store.eqratioFacts, Ratio(h.1[0], h.1[1]), never);
      Ok(Cousins(kb.store.eqratioFacts, Ratio(h.1[0], h.1[1]), never))
  }

  /** A comparison that holds for no two ratios finds no group holding the
      premise's ratio, so nothing is concluded. */
  lemma {:induction false} CousinsNone(gs: seq<seq<Ratio>>, x: Ratio, same: (Ratio, Ratio) -> bool)
    requires forall a, b :: !same(a, b)
    ensures Cousins(gs, x, same) == []
  {
    if gs != [] {
      assert !FcSearch.Holds(gs[0], x, same);
      CousinsNone(gs[1..], x, same);
    }
  }

  /** D75 (cong form) with ratios compared by their classes: every other
      ratio of a group holding the premise's ratio has equal classes. */
  function D75Cong(kb: Kb, p: Pred): (r: Result<seq<Fact>>)
    ensures |p.points| != 4 ==> r == Fail(MalformedArity)
    ensures |p.points| == 4 ==> (r.Fail? <==> CongSearch.Hub(kb, p.points).Fail?)
    ensures r.Ok? ==> var h := CongSearch.Hub(kb, p.points).value; var gs := kb.store.eqratioFacts;
      var x := Ratio(h.1[0], h.1[1]);
      forall f :: f in r.value <==> exists i, j | 0 <= i < |gs| && 0 <= j < |gs[i]| ::
        x in gs[i] && gs[i][j] != x && f == On(Cong, [gs[i][j].c1, gs[i][j].c2])
  {
    var same := (a: Ratio, b: Ratio) => a == b;
    assert forall g: seq<Ratio>, x | true :: FcSearch.Holds(g, x, same) <==> x in g by {
      forall g: seq<Ratio>, x ensures FcSearch.Holds(g, x, same) <==> x in g {
        if x in g {
          var k :| 0 <= k < |g| && g[k] == x;
        }
      }
    }
    D75CongWith(kb, p, same)
  }

  /** A group of equal ratios holding the premise's ratio and one more:
      the corrected rule equates that other ratio's classes, while the
      as-written rule concludes nothing. */
  lemma D75CongIdentity(kb: Kb, p: Pred, i: nat, y: Ratio)
    requires |p.points| == 4 && CongSearch.Hub(kb, p.points).Ok?
    requires i < |kb.store.eqratioFacts| && y in kb.store.eqratioFacts[i]
    requires var h := CongSearch.Hub(kb, p.points).value;
      Ratio(h.1[0], h.1[1]) in kb.store.eqratioFacts[i] && y != Ratio(h.1[0], h.1[1])
    ensures D75Cong(kb, p).Ok? && On(Cong, [y.c1, y.c2]) in D75Cong(kb, p).value
    ensures D75CongAsWritten(kb, p) == Ok([])
  {
    var j :| 0 <= j < |kb.store.eqratioFacts[i]| && kb.store.eqratioFacts[i][j] == y;
  }
}

=== FILE: order.dfy ===
/** Orders and sorting as the source uses them: Python's `<` on `str`
    (lexicographic by code point), the lexicographic order it induces on
    sequences, and `sorted`, which returns the unique ordered permutation when
    the order is total. */
module Order {
  import opened Common

  ghost predicate StrictTotal<T(!new)>(lt: (T, T) -> bool) {
    && (forall a :: !lt(a, a))
    && (forall a, b, c :: lt(a, b) && lt(b, c) ==> lt(a, c))
    && (forall a, b :: a != b ==> lt(a, b) || lt(b, a))
  }

  predicate CharLt(x: char, y: char) {
    x < y
  }

  /** Lexicographic order: the first differing position decides, and a proper
      prefix comes first. */
  predicate LexLt<T(==)>(a: seq<T>, b: seq<T>, lt: (T, T) -> bool)
    decreases |a|
  {
    if |a| == 0 then |b| > 0
    else if |b| == 0 then false
    else if a[0] != b[0] then lt(a[0], b[0])
    else LexLt(a[1..], b[1..], lt)
  }

  /** Python's `a < b` on two strings. */
  predicate StrLt(a: string, b: string) {
    LexLt(a, b, CharLt)
  }

  lemma CharLtStrictTotal()
    ensures StrictTotal(CharLt)
  {
  }

  lemma {:induction false} LexIrreflexive<T(!new)>(a: seq<T>, lt: (T, T) -> bool)
    requires StrictTotal(lt)
    ensures !LexLt(a, a, lt)
    decreases |a|
  {
    if |a| > 0 {
      LexIrreflexive(a[1..], lt);
    }
  }

  lemma {:induction false} LexTransitive<T(!new)>(a: seq<T>, b: seq<T>, c: seq<T>, lt: (T, T) -> bool)
    requires StrictTotal(lt)
    requires LexLt(a, b, lt) && LexLt(b, c, lt)
    ensures LexLt(a, c, lt)
    decreases |a|
  {
    if |a| > 0 && |b| > 0 && |c| > 0 && a[0] == b[0] && b[0] == c[0] {
      LexTransitive(a[1..], b[1..], c[1..], lt);
    }
  }

  lemma {:induction false} LexTotal<T(!new)>(a: seq<T>, b: seq<T>, lt: (T, T) -> bool)
    requires StrictTotal(lt)
    requires a != b
    ensures LexLt(a, b, lt) || LexLt(b, a, lt)
    decreases |a|
  {
    if |a| > 0 && |b| > 0 && a[0] == b[0] {
      assert a == [a[0]] + a[1..] && b == [b[0]] + b[1..];
      LexTotal(a[1..], b[1..], lt);
    }
  }

  /** The lexicographic extension of a strict total order is a strict total order. */
  lemma LexStrictTotal<T(!new)>(lt: (T, T) -> bool)
    requires StrictTotal(lt)
    ensures StrictTotal((a: seq<T>, b: seq<T>) => LexLt(a, b, lt))
  {
    forall a: seq<T> ensures !LexLt(a, a, lt) {
      LexIrreflexive(a, lt);
    }
    forall a: seq<T>, b: seq<T>, c: seq<T> | LexLt(a, b, lt) && LexLt(b, c, lt)
      ensures LexLt(a, c, lt)
    {
      LexTransitive(a, b, c, lt);
    }
    forall a: seq<T>, b: seq<T> | a != b ensures LexLt(a, b, lt) || LexLt(b, a, lt) {
      LexTotal(a, b, lt);
    }
  }

  /** Python's string order is a strict total order. */
  lemma StrLtStrictTotal()
    ensures StrictTotal(StrLt)
  {
    CharLtStrictTotal();
    forall a: string ensures !StrLt(a, a) {
      LexIrreflexive(a, CharLt);
    }
    forall a: string, b: string, c: string | StrLt(a, b) && StrLt(b, c) ensures StrLt(a, c) {
      LexTransitive(a, b, c, CharLt);
    }
    forall a: string, b: string | a != b ensures StrLt(a, b) || StrLt(b, a) {
      LexTotal(a, b, CharLt);
    }
  }

  /** A smaller name is never also larger. */
  lemma StrLtAsymmetric(a: string, b: string)
    requires StrLt(a, b)
    ensures !StrLt(b, a)
  {
    CharLtStrictTotal();
    if StrLt(b, a) {
      LexTransitive(a, b, a, CharLt);
      LexIrreflexive(a, CharLt);
    }
  }

  predicate Sorted<T>(s: seq<T>, lt: (T, T) -> bool) {
    forall i, j | 0 <= i < j < |s| :: !lt(s[j], s[i])
  }

  /** Put `x` in front of the first element that is not smaller than it. */
  function InsertBy<T>(x: T, s: seq<T>, lt: (T, T) -> bool): (r: seq<T>)
    ensures multiset(r) == multiset(s) + multiset{x}
    ensures |r| == |s| + 1
  {
    if s == [] || !lt(s[0], x) then [x] + s
    else
      assert s == [s[0]] + s[1..];
      [s[0]] + InsertBy(x, s[1..], lt)
  }

  lemma {:induction false} InsertBySorted<T(!new)>(x: T, s: seq<T>, lt: (T, T) -> bool)
    requires StrictTotal(lt)
    requires Sorted(s, lt)
    ensures Sorted(InsertBy(x, s, lt), lt)
  {
    if s != [] && lt(s[0], x) {
      InsertBySorted(x, s[1..], lt);
      var t := InsertBy(x, s[1..], lt);
      assert forall y | y in t :: y == x || y in s[1..] by {
        assert multiset(t) == multiset(s[1..]) + multiset{x};
        forall y | y in t ensures y == x || y in s[1..] {
          assert y in multiset(t);
        }
      }
      forall k | 0 <= k < |t| ensures !lt(t[k], s[0]) {
        if t[k] != x {
          assert t[k] in t;
          var j :| 0 <= j < |s[1..]| && s[1..][j] == t[k];
          assert s[j + 1] == t[k];
        }
      }
    }
  }

  /** `sorted(s)`: an insertion sort, stable like Python's. */
  function SortBy<T>(s: seq<T>, lt: (T, T) -> bool): (r: seq<T>)
    ensures multiset(r) == multiset(s)
    ensures |r| == |s|
  {
    if s == [] then []
    else
      assert s == [s[0]] + s[1..];
      InsertBy(s[0], SortBy(s[1..], lt), lt)
  }

  lemma {:induction false} SortBySorted<T(!new)>(s: seq<T>, lt: (T, T) -> bool)
    requires StrictTotal(lt)
    ensures Sorted(SortBy(s, lt), lt)
  {
    if s != [] {
      SortBySorted(s[1..], lt);
      InsertBySorted(s[0], SortBy(s[1..], lt), lt);
    }
  }

  /** No element of a sorted sequence is smaller than its head. */
  lemma SortedHeadMinimal<T(!new)>(s: seq<T>, x: T, lt: (T, T) -> bool)
    requires StrictTotal(lt)
    requires Sorted(s, lt) && x in s
    ensures !lt(x, s[0])
  {
    var i :| 0 <= i < |s| && s[i] == x;
    if i == 0 {
      assert x == s[0];
    }
  }

  /** Under a strict total order there is only one sorted arrangement of a
      multiset: any two sorted permutations of each other are equal. */
  lemma {:induction false} SortedUnique<T(!new)>(a: seq<T>, b: seq<T>, lt: (T, T) -> bool)
    requires StrictTotal(lt)
    requires Sorted(a, lt) && Sorted(b, lt)
    requires multiset(a) == multiset(b)
    ensures a == b
  {
    assert |b| == |multiset(b)| == |multiset(a)| == |a|;
    if a != [] {
      assert a[0] in multiset(b) && b[0] in multiset(a);
      SortedHeadMinimal(b, a[0], lt);
      SortedHeadMinimal(a, b[0], lt);
      assert a[0] == b[0];
      assert a == [a[0]] + a[1..] && b == [b[0]] + b[1..];
      assert multiset(a[1..]) == multiset(a) - multiset{a[0]};
      assert multiset(b[1..]) == multiset(b) - multiset{b[0]};
      SortedUnique(a[1..], b[1..], lt);
    }
  }

  /** Sorting depends only on the multiset of its input. */
  lemma SortByPermutationInvariant<T(!new)>(s: seq<T>, t: seq<T>, lt: (T, T) -> bool)
    requires StrictTotal(lt)
    requires multiset(s) == multiset(t)
    ensures SortBy(s, lt) == SortBy(t, lt)
  {
    SortBySorted(s, lt);
    SortBySorted(t, lt);
    SortedUnique(SortBy(s, lt), SortBy(t, lt), lt);
  }

  /** Sorting commutes with a map that carries one order onto the other. */
  lemma {:induction false} InsertByMap<T, U>(x: T, s: seq<T>, f: T -> U, lt1: (T, T) -> bool, lt2: (U, U) -> bool)
    requires forall a, b :: lt2(f(a), f(b)) == lt1(a, b)
    ensures InsertBy(f(x), Map(s, f), lt2) == Map(InsertBy(x, s, lt1), f)
  {
    if s != [] {
      assert Map(s, f) == [f(s[0])] + Map(s[1..], f);
      InsertByMap(x, s[1..], f, lt1, lt2);
    }
  }

  lemma {:induction false} SortByMap<T, U>(s: seq<T>, f: T -> U, lt1: (T, T) -> bool, lt2: (U, U) -> bool)
    requires forall a, b :: lt2(f(a), f(b)) == lt1(a, b)
    ensures SortBy(Map(s, f), lt2) == Map(SortBy(s, lt1), f)
  {
    if s != [] {
      assert Map(s, f) == [f(s[0])] + Map(s[1..], f);
      SortByMap(s[1..], f, lt1, lt2);
      InsertByMap(s[0], SortBy(s[1..], lt1), f, lt1, lt2);
    }
  }
}

=== FILE: pointguards.dfy ===
/** The rule bodies of `src/prover.py` that test a guard on their premise,
    and at most a `prove` query, before concluding: none of them searches
    the store's groups.  Each maps the database and a premise to the
    predicates it concludes; a premise with the wrong number of points is
    the unpacking `ValueError`, and a query that runs out of line or class
    names is `NameExhausted`. */
module PointGuards {
  import opened Common
  import opened Primitives
  import opened Predicates
  import opened Snapshot
  import GroupStore
  import PointQuery
  import PointRules

  /** The conclusion speaks of the first triangle in its first half and, in
      the same positions of its second half, of the matching vertices of the
      second triangle. */
  predicate Corresponds(out: seq<Point>, ps: seq<Point>, half: nat)
    requires |ps| == 6
  {
    |out| == 2 * half &&
    forall k | 0 <= k < half :: exists j | 0 <= j < 3 :: out[k] == ps[j] && out[k + half] == ps[j + 3]
  }

  /** The points `prove` is asked about, as the query's answer. */
  function Holds(kb: Kb, kind: string, ps: seq<Point>): Result<bool> {
    PointQuery.Prove(kb, Pred(kind, ps))
  }

  /** A B C D P Q U V => A B P Q C D U V: the second and third point pairs
      change places. */
  function SwapMiddle(ps: seq<Point>): (r: seq<Point>)
    requires |ps| == 8
    ensures PointRules.Rearranges(r, ps)
  {
    assert ps == [ps[0], ps[1], ps[2], ps[3], ps[4], ps[5], ps[6], ps[7]];
    [ps[0], ps[1], ps[4], ps[5], ps[2], ps[3], ps[6], ps[7]]
  }

  lemma SwapMiddleTwice(ps: seq<Point>)
    requires |ps| == 8
    ensures SwapMiddle(SwapMiddle(ps)) == ps
  {
    assert ps == [ps[0], ps[1], ps[2], ps[3], ps[4], ps[5], ps[6], ps[7]];
  }

  /** Neither of the angles D21 would write pairs a segment with itself. */
  predicate D21Guard(ps: seq<Point>)
    requires |ps| == 8
  {
    !SegEq(Segment(ps[0], ps[1]), Segment(ps[4], ps[5])) && !SegEq(Segment(ps[2], ps[3]), Segment(ps[6], ps[7]))
  }

  /** D21: eqangle(A,B,C,D,P,Q,U,V) => eqangle(A,B,P,Q,C,D,U,V), unless one
      of the swapped-in angles would have the same segment on both sides. */
  function D21(p: Pred): (r: Result<seq<Pred>>)
    ensures r.Fail? <==> |p.points| != 8
    ensures r.Fail? ==> r.error == MalformedArity
    ensures r.Ok? ==> (r.value != [] <==> D21Guard(p.points))
    ensures r.Ok? && r.value != [] ==>
      |r.value| == 1 && r.value[0].kind == "eqangle" && PointRules.Rearranges(r.value[0].points, p.points)
  {
    if |p.points| != 8 then Fail(MalformedArity)
    else if D21Guard(p.points) then Ok([Pred("eqangle", SwapMiddle(p.points))])
    else Ok([])
  }

  /** Where D21 fires on its own conclusion, it gives back the premise. */
  lemma D21Undoes(p: Pred)
    requires p.kind == "eqangle" && D21(p).Ok? && D21(p).value != []
    requires D21(D21(p).value[0]).value != []
    ensures D21(D21(p).value[0]) == Ok([p])
  {
    SwapMiddleTwice(p.points);
  }

  /** The lines through A-B, P-Q and C-D, matched in that order. */
  function D39Lines(kb: Kb, ps: seq<Point>): Result<GroupStore.Matched<GroupStore.Lines>>
    requires |ps| == 8
  {
    GroupStore.MatchLines(kb.store.lines, [(ps[0], ps[1]), (ps[2], ps[3]), (ps[4], ps[5])])
  }

  /** D39: eqangle(A,B,P,Q,C,D,P,Q) => para(A,B,C,D), when A-B, P-Q and C-D
      are three different lines. */
  function D39(kb: Kb, p: Pred): (r: Result<seq<Pred>>)
    ensures |p.points| != 8 ==> r == Fail(MalformedArity)
    ensures |p.points| == 8 ==>
      (r.Fail? <==> p.points[2] == p.points[6] && p.points[3] == p.points[7] && D39Lines(kb, p.points).Fail?)
    ensures r.Fail? ==> r.error in {MalformedArity, NameExhausted}
    ensures r.Ok? ==> (r.value != [] <==>
      p.points[2] == p.points[6] && p.points[3] == p.points[7] &&
      var n := D39Lines(kb, p.points).value.names; n[0] != n[1] && n[0] != n[2] && n[1] != n[2])
    ensures r.Ok? && r.value != [] ==> r.value == [Pred("para", [p.points[0], p.points[1], p.points[4], p.points[5]])]
    ensures r.Ok? && r.value != [] ==>
      var m := D39Lines(kb, p.points).value;
      GroupStore.Through(m.dict, m.names[0], p.points[0], p.points[1]) &&
      GroupStore.Through(m.dict, m.names[2], p.points[4], p.points[5]) && m.names[0] != m.names[2]
  {
    if |p.points| != 8 then Fail(MalformedArity)
    else
      var ps := p.points;
      if ps[2] != ps[6] || ps[3] != ps[7] then Ok([])
      else
        var m :- D39Lines(kb, ps);
        GroupStore.LinesHoldAt(m.dict, m.names, [(ps[0], ps[1]), (ps[2], ps[3]), (ps[4], ps[5])], 0);
        GroupStore.LinesHoldAt(m.dict, m.names, [(ps[0], ps[1]), (ps[2], ps[3]), (ps[4], ps[5])], 2);
        var n := m.names;
        if n[0] == n[2] || n[0] == n[1] || n[2] == n[1] then Ok([])
        else Ok([Pred("para", [ps[0], ps[1], ps[4], ps[5]])])
  }

  /** The shape D42a accepts: eqangle(P,A,P,B,Q,A,Q,B). */
  predicate InscribedShape(ps: seq<Point>)
    requires |ps| == 8
  {
    ps[0] == ps[2] && ps[1] == ps[5] && ps[3] == ps[7] && ps[4] == ps[6]
  }

  /** D41: cyclic(A,B,P,Q) => eqangle(P,A,P,B,Q,A,Q,B). */
  function D41(p: Pred): (r: Result<seq<Pred>>)
    ensures r.Fail? <==> |p.points| != 4
    ensures r.Fail? ==> r.error == MalformedArity
    ensures r.Ok? ==> |r.value| == 1 && r.value[0].kind == "eqangle" && |r.value[0].points| == 8
    ensures r.Ok? ==> InscribedShape(r.value[0].points) && PointRules.Covers(r.value[0].points, p.points)
  {
    if |p.points| != 4 then Fail(MalformedArity)
    else
      var ps := p.points;
      assert ps == [ps[0], ps[1], ps[2], ps[3]];
      Ok([Pred("eqangle", [ps[2], ps[0], ps[2], ps[1], ps[3], ps[0], ps[3], ps[1]])])
  }

  /** D42a: eqangle(P,A,P,B,Q,A,Q,B) & not coll(P,Q,A) => cyclic(A,B,P,Q). */
  function D42a(kb: Kb, p: Pred): (r: Result<seq<Pred>>)
    ensures r.Fail? <==> |p.points| != 8
    ensures r.Fail? ==> r.error == MalformedArity
    ensures r.Ok? ==> (r.value != [] <==>
      InscribedShape(p.points) && Holds(kb, "coll", [p.points[0], p.points[4], p.points[1]]) == Ok(false))
    ensures r.Ok? && r.value != [] ==>
      |r.value| == 1 && r.value[0].kind == "cyclic" && PointRules.Covers(r.value[0].points, p.points)
  {
    if |p.points| != 8 then Fail(MalformedArity)
    else
      var ps := p.points;
      if !InscribedShape(ps) then Ok([])
      else if PointQuery.ProveColl(kb.store, [ps[0], ps[4], ps[1]]) then Ok([])
      else
        assert ps == [ps[0], ps[1], ps[0], ps[3], ps[4], ps[1], ps[4], ps[3]];
        Ok([Pred("cyclic", [ps[1], ps[3], ps[0], ps[4]])])
  }

  /** A concyclic premise whose first three points are not on one line goes
      through D41 and comes back unchanged through D42a. */
  lemma D41ThenD42a(kb: Kb, p: Pred)
    requires p.kind == "cyclic" && |p.points| == 4
    requires !PointQuery.ProveColl(kb.store, [p.points[2], p.points[3], p.points[0]])
    ensures D42a(kb, D41(p).value[0]) == Ok([p])
  {
    assert p.points == [p.points[0], p.points[1], p.points[2], p.points[3]];
  }

  /** Whatever D42a concludes, D41 turns back into the premise. */
  lemma D42aThenD41(kb: Kb, p: Pred)
    requires p.kind == "eqangle" && D42a(kb, p).Ok? && D42a(kb, p).value != []
    ensures D41(D42a(kb, p).value[0]) == Ok([p])
  {
    var ps := p.points;
    assert ps == [ps[0], ps[1], ps[0], ps[3], ps[4], ps[1], ps[4], ps[3]];
  }

  /** D46: cong(O,A,O,B) => eqangle(O,A,A,B,A,B,O,B), for a proper isosceles
      triangle O A B. */
  function D46(kb: Kb, p: Pred): (r: Result<seq<Pred>>)
    ensures r.Fail? <==> |p.points| != 4
    ensures r.Fail? ==> r.error == MalformedArity
    ensures r.Ok? ==> (r.value != [] <==>
      p.points[0] == p.points[2] && p.points[1] != p.points[3] && p.points[0] != p.points[1] &&
      Holds(kb, "coll", [p.points[0], p.points[1], p.points[3]]) == Ok(false))
    ensures r.Ok? && r.value != [] ==>
      |r.value| == 1 && r.value[0].kind == "eqangle" && PointRules.Covers(r.value[0].points, p.points)
  {
    if |p.points| != 4 then Fail(MalformedArity)
    else
      var ps := p.points;
      if ps[0] != ps[2] || ps[1] == ps[3] || ps[0] == ps[1] || PointQuery.ProveColl(kb.store, [ps[0], ps[1], ps[3]]) then Ok([])
      else
        assert ps == [ps[0], ps[1], ps[0], ps[3]];
        Ok([Pred("eqangle", [ps[0], ps[1], ps[1], ps[3], ps[1], ps[3], ps[0], ps[3]])])
  }

  /** The shape D47 accepts as written: eqangle(O,A,A,B,A,B,X,B) for any X. */
  predicate BaseAnglesShape(ps: seq<Point>)
    requires |ps| == 8
  {
    ps[1] == ps[2] && ps[1] == ps[4] && ps[3] == ps[5] && ps[3] == ps[7]
  }

  /** D47 as `src/prover.py` writes it: the apex named at the seventh
      position is never compared with the first. */
  function D47AsWritten(kb: Kb, p: Pred): (r: Result<seq<Pred>>)
    ensures r.Fail? <==> |p.points| != 8
    ensures r.Fail? ==> r.error == MalformedArity
    ensures r.Ok? ==> (r.value != [] <==>
      BaseAnglesShape(p.points) && Holds(kb, "coll", [p.points[0], p.points[1], p.points[3]]) == Ok(false))
    ensures r.Ok? && r.value != [] ==> r.value == [Pred("cong", [p.points[0], p.points[1], p.points[0], p.points[3]])]
  {
    if |p.points| != 8 then Fail(MalformedArity)
    else
      var ps := p.points;
      if BaseAnglesShape(ps) && !PointQuery.ProveColl(kb.store, [ps[0], ps[1], ps[3]]) then
        Ok([Pred("cong", [ps[0], ps[1], ps[0], ps[3]])])
      else Ok([])
  }

  /** The two angles at the base of triangle O A B, as D46 writes them. */
  predicate IsoscelesShape(ps: seq<Point>)
    requires |ps| == 8
  {
    BaseAnglesShape(ps) && ps[0] == ps[6]
  }

  /** D47: eqangle(O,A,A,B,A,B,O,B) & not coll(O,A,B) => cong(O,A,O,B), with
      the apex checked at both of its positions. */
  function D47(kb: Kb, p: Pred): (r: Result<seq<Pred>>)
    ensures r.Fail? <==> |p.points| != 8
    ensures r.Fail? ==> r.error == MalformedArity
    ensures r.Ok? ==> (r.value != [] <==>
      IsoscelesShape(p.points) && Holds(kb, "coll", [p.points[0], p.points[1], p.points[3]]) == Ok(false))
    ensures r.Ok? && r.value != [] ==>
      |r.value| == 1 && r.value[0].kind == "cong" && PointRules.Covers(r.value[0].points, p.points)
  {
    if |p.points| != 8 then Fail(MalformedArity)
    else
      var ps := p.points;
      if IsoscelesShape(ps) && !PointQuery.ProveColl(kb.store, [ps[0], ps[1], ps[3]]) then
        assert ps == [ps[0], ps[1], ps[1], ps[3], ps[1], ps[3], ps[0], ps[3]];
        Ok([Pred("cong", [ps[0], ps[1], ps[0], ps[3]])])
      else Ok([])
  }

  /** As written, D47 concludes that O A and O B are congruent from angles
      whose second side runs through some other point X. */
  lemma D47AsWrittenLeaks(kb: Kb)
    requires kb.store.lines == []
    ensures D47AsWritten(kb, Pred("eqangle", ["O", "A", "A", "B", "A", "B", "X", "B"])) ==
      Ok([Pred("cong", ["O", "A", "O", "B"])])
    ensures D47(kb, Pred("eqangle", ["O", "A", "A", "B", "A", "B", "X", "B"])) == Ok([])
  {
    assert !PointQuery.ProveColl(kb.store, ["O", "A", "B"]);
  }

  /** Every conclusion of D46 goes back through D47 to the premise. */
  lemma D46ThenD47(kb: Kb, p: Pred)
    requires p.kind == "cong" && D46(kb, p).Ok? && D46(kb, p).value != []
    ensures D47(kb, D46(kb, p).value[0]) == Ok([p])
  {
    var ps := p.points;
    assert ps == [ps[0], ps[1], ps[0], ps[3]];
  }

  /** Every conclusion of D47 whose legs differ goes back through D46 to the
      premise. */
  lemma D47ThenD46(kb: Kb, p: Pred)
    requires p.kind == "eqangle" && D47(kb, p).Ok? && D47(kb, p).value != []
    requires p.points[0] != p.points[1] && p.points[1] != p.points[3]
    ensures D46(kb, D47(kb, p).value[0]) == Ok([p])
  {
    var ps := p.points;
    assert ps == [ps[0], ps[1], ps[1], ps[3], ps[1], ps[3], ps[0], ps[3]];
  }

  /** D59: simtri(A,B,C,P,Q,R) => eqratio(A,B,A,C,P,Q,P,R). */
  function D59(p: Pred): (r: Result<seq<Pred>>)
    ensures r.Fail? <==> |p.points| != 6
    ensures r.Fail? ==> r.error == MalformedArity
    ensures r.Ok? ==> |r.value| == 1 && r.value[0].kind == "eqratio" && |r.value[0].points| == 8
    ensures r.Ok? ==> Corresponds(r.value[0].points, p.points, 4)
  {
    if |p.points| != 6 then Fail(MalformedArity)
    else
      var ps := p.points;
      var out := [ps[0], ps[1], ps[0], ps[2], ps[3], ps[4], ps[3], ps[5]];
      assert Corresponds(out, ps, 4) by { assert out[0] == ps[0] && out[4] == ps[3] && out[1] == ps[1] && out[5] == ps[4] && out[2] == ps[0] && out[6] == ps[3] && out[3] == ps[2] && out[7] == ps[5]; }
      Ok([Pred("eqratio", out)])
  }

  /** D60: simtri(A,B,C,P,Q,R) => eqangle(A,B,B,C,P,Q,Q,R).  (The rule's
      comment names the angles at A instead; the body compares those at B.) */
  function D60(p: Pred): (r: Result<seq<Pred>>)
    ensures r.Fail? <==> |p.points| != 6
    ensures r.Fail? ==> r.error == MalformedArity
    ensures r.Ok? ==> |r.value| == 1 && r.value[0].kind == "eqangle" && |r.value[0].points| == 8
    ensures r.Ok? ==> Corresponds(r.value[0].points, p.points, 4)
  {
    if |p.points| != 6 then Fail(MalformedArity)
    else
      var ps := p.points;
      var out := [ps[0], ps[1], ps[1], ps[2], ps[3], ps[4], ps[4], ps[5]];
      assert Corresponds(out, ps, 4) by { assert out[0] == ps[0] && out[4] == ps[3] && out[1] == ps[1] && out[5] == ps[4] && out[2] == ps[1] && out[6] == ps[4] && out[3] == ps[2] && out[7] == ps[5]; }
      Ok([Pred("eqangle", out)])
  }

  /** D62: contri(A,B,C,P,Q,R) => cong(A,B,P,Q), cong(A,C,P,R), cong(B,C,Q,R):
      each side of the first triangle with the matching side of the second. */
  function D62(p: Pred): (r: Result<seq<Pred>>)
    ensures r.Fail? <==> |p.points| != 6
    ensures r.Fail? ==> r.error == MalformedArity
    ensures r.Ok? ==> |r.value| == 3
    ensures r.Ok? ==> forall k | 0 <= k < 3 :: r.value[k].kind == "cong" && |r.value[k].points| == 4
    ensures r.Ok? ==> forall k | 0 <= k < 3 :: Corresponds(r.value[k].points, p.points, 2)
  {
    if |p.points| != 6 then Fail(MalformedArity)
    else
      var ps := p.points;
      var s0, s1, s2 := [ps[0], ps[1], ps[3], ps[4]], [ps[0], ps[2], ps[3], ps[5]], [ps[1], ps[2], ps[4], ps[5]];
      assert Corresponds(s0, ps, 2) by { assert s0[0] == ps[0] && s0[2] == ps[3] && s0[1] == ps[1] && s0[3] == ps[4]; }
      assert Corresponds(s1, ps, 2) by { assert s1[0] == ps[0] && s1[2] == ps[3] && s1[1] == ps[2] && s1[3] == ps[5]; }
      assert Corresponds(s2, ps, 2) by { assert s2[0] == ps[1] && s2[2] == ps[4] && s2[1] == ps[2] && s2[3] == ps[5]; }
      Ok([Pred("cong", s0), Pred("cong", s1), Pred("cong", s2)])
  }

  /** D66: para(A,B,A,C) => coll(A,B,C). */
  function D66(p: Pred): (r: Result<seq<Pred>>)
    ensures r.Fail? <==> |p.points| != 4
    ensures r.Fail? ==> r.error == MalformedArity
    ensures r.Ok? ==> (r.value != [] <==> p.points[0] == p.points[2])
    ensures r.Ok? && r.value != [] ==>
      |r.value| == 1 && r.value[0].kind == "coll" && |r.value[0].points| == 3 && PointRules.Covers(r.value[0].points, p.points)
  {
    if |p.points| != 4 then Fail(MalformedArity)
    else
      var ps := p.points;
      if ps[0] == ps[2] then
        assert ps == [ps[0], ps[1], ps[0], ps[3]];
        Ok([Pred("coll", [ps[0], ps[1], ps[3]])])
      else Ok([])
  }

  /** D68: midp(A,B,C) => cong(A,B,A,C). */
  function D68(p: Pred): (r: Result<seq<Pred>>)
    ensures r.Fail? <==> |p.points| != 3
    ensures r.Fail? ==> r.error == MalformedArity
    ensures r.Ok? ==> |r.value| == 1 && r.value[0].kind == "cong" && |r.value[0].points| == 4
    ensures r.Ok? ==> r.value[0].points[0] == r.value[0].points[2] && PointRules.Covers(r.value[0].points, p.points)
  {
    if |p.points| != 3 then Fail(MalformedArity)
    else
      var ps := p.points;
      assert ps == [ps[0], ps[1], ps[2]];
      Ok([Pred("cong", [ps[0], ps[1], ps[0], ps[2]])])
  }

  /** The shape D71 and D72 accept: eqangle(A,B,C,D,C,D,A,B). */
  predicate SwappedSidesShape(ps: seq<Point>)
    requires |ps| == 8
  {
    ps[0] == ps[6] && ps[1] == ps[7] && ps[2] == ps[4] && ps[3] == ps[5]
  }

  /** D71 (the second of its two identical definitions, which is the one in
      effect): eqangle(A,B,C,D,C,D,A,B) & not para => perp(A,B,C,D).  The
      guard list is built in full before `all` reads it, so the `para`
      query, which names the second copy of A-B, runs on every premise of
      the right size. */
  function D71(kb: Kb, p: Pred): (r: Result<seq<Pred>>)
    ensures |p.points| != 8 ==> r == Fail(MalformedArity)
    ensures |p.points| == 8 ==> r.Fail? == Holds(kb, "para", [p.points[0], p.points[1], p.points[6], p.points[7]]).Fail?
    ensures r.Fail? ==> r.error in {MalformedArity, NameExhausted}
    ensures r.Ok? ==> (r.value != [] <==>
      SwappedSidesShape(p.points) && Holds(kb, "para", [p.points[0], p.points[1], p.points[6], p.points[7]]) == Ok(false))
    ensures r.Ok? && r.value != [] ==> r.value == [Pred("perp", p.points[..4])]
  {
    if |p.points| != 8 then Fail(MalformedArity)
    else
      var ps := p.points;
      var para :- PointQuery.ProvePara(kb.store, [ps[0], ps[1], ps[6], ps[7]]);
      if SwappedSidesShape(ps) && !para then Ok([Pred("perp", ps[..4])]) else Ok([])
  }

  /** D72: eqangle(A,B,C,D,C,D,A,B) & not perp => para(A,B,C,D), its `perp`
      query likewise always run. */
  function D72(kb: Kb, p: Pred): (r: Result<seq<Pred>>)
    ensures |p.points| != 8 ==> r == Fail(MalformedArity)
    ensures |p.points| == 8 ==> r.Fail? == Holds(kb, "perp", [p.points[0], p.points[1], p.points[6], p.points[7]]).Fail?
    ensures r.Fail? ==> r.error in {MalformedArity, NameExhausted}
    ensures r.Ok? ==> (r.value != [] <==>
      SwappedSidesShape(p.points) && Holds(kb, "perp", [p.points[0], p.points[1], p.points[6], p.points[7]]) == Ok(false))
    ensures r.Ok? && r.value != [] ==> r.value == [Pred("para", p.points[..4])]
  {
    if |p.points| != 8 then Fail(MalformedArity)
    else
      var ps := p.points;
      var perp :- PointQuery.ProvePerp(kb, [ps[0], ps[1], ps[6], ps[7]]);
      if SwappedSidesShape(ps) && !perp then Ok([Pred("para", ps[..4])]) else Ok([])
  }

  /** D73: eqangle(A,B,C,D,P,Q,U,V) & para(P,Q,U,V) => para(A,B,C,D). */
  function D73(kb: Kb, p: Pred): (r: Result<seq<Pred>>)
    ensures |p.points| != 8 ==> r == Fail(MalformedArity)
    ensures |p.points| == 8 ==> r.Fail? == Holds(kb, "para", p.points[4..]).Fail?
    ensures r.Fail? ==> r.error in {MalformedArity, NameExhausted}
    ensures r.Ok? ==> (r.value != [] <==> Holds(kb, "para", p.points[4..]) == Ok(true))
    ensures r.Ok? && r.value != [] ==> r.value == [Pred("para", p.points[..4])]
  {
    if |p.points| != 8 then Fail(MalformedArity)
    else
      var ps := p.points;
      var para :- PointQuery.ProvePara(kb.store, ps[4..]);
      if para then Ok([Pred("para", ps[..4])]) else Ok([])
  }

  /** D74: eqangle(A,B,C,D,P,Q,U,V) & perp(P,Q,U,V) => perp(A,B,C,D). */
  function D74(kb: Kb, p: Pred): (r: Result<seq<Pred>>)
    ensures |p.points| != 8 ==> r == Fail(MalformedArity)
    ensures |p.points| == 8 ==> r.Fail? == Holds(kb, "perp", p.points[4..]).Fail?
    ensures r.Fail? ==> r.error in {MalformedArity, NameExhausted}
    ensures r.Ok? ==> (r.value != [] <==> Holds(kb, "perp", p.points[4..]) == Ok(true))
    ensures r.Ok? && r.value != [] ==> r.value == [Pred("perp", p.points[..4])]
  {
    if |p.points| != 8 then Fail(MalformedArity)
    else
      var ps := p.points;
      var perp :- PointQuery.ProvePerp(kb, ps[4..]);
      if perp then Ok([Pred("perp", ps[..4])]) else Ok([])
  }

  /** D61 (simtri form): simtri(A,B,C,P,Q,R) & cong(A,B,P,Q) => contri(A,B,C,P,Q,R). */
  function D61Simtri(kb: Kb, p: Pred): (r: Result<seq<Pred>>)
    ensures r.Fail? <==> |p.points| != 6
    ensures r.Fail? ==> r.error == MalformedArity
    ensures r.Ok? ==> (r.value != [] <==> Holds(kb, "cong", [p.points[0], p.points[1], p.points[3], p.points[4]]) == Ok(true))
    ensures r.Ok? && r.value != [] ==> r.value == [Pred("contri", p.points)]
  {
    if |p.points| != 6 then Fail(MalformedArity)
    else
      var ps := p.points;
      if PointQuery.ProveCong(kb.store, [ps[0], ps[1], ps[3], ps[4]]) then Ok([Pred("contri", ps)]) else Ok([])
  }

  /** D67 (coll form): coll(A,B,C) & cong(A,B,A,C) => midp(A,B,C). */
  function D67Coll(kb: Kb, p: Pred): (r: Result<seq<Pred>>)
    ensures r.Fail? <==> |p.points| != 3
    ensures r.Fail? ==> r.error == MalformedArity
    ensures r.Ok? ==> (r.value != [] <==> Holds(kb, "cong", [p.points[0], p.points[1], p.points[0], p.points[2]]) == Ok(true))
    ensures r.Ok? && r.value != [] ==> r.value == [Pred("midp", p.points)]
  {
    if |p.points| != 3 then Fail(MalformedArity)
    else
      var ps := p.points;
      if PointQuery.ProveCong(kb.store, [ps[0], ps[1], ps[0], ps[2]]) then Ok([Pred("midp", ps)]) else Ok([])
  }

  /** The four congruence classes of an eight-point ratio premise. */
  function RatioClasses(kb: Kb, ps: seq<Point>): Result<GroupStore.Matched<GroupStore.Congs>>
    requires |ps| == 8
  {
    GroupStore.MatchCongs(kb.store.congs, GroupStore.Pairs4(ps))
  }

  /** D75 (eqratio form): AB/CD = PQ/UV with two of the four segments in one
      class => the other two are congruent.  The first equal pair found, in
      the order AB~PQ, AB~CD, CD~UV, PQ~UV, decides the conclusion. */
  function D75Eqratio(kb: Kb, p: Pred): (r: Result<seq<Pred>>)
    ensures |p.points| != 8 ==> r == Fail(MalformedArity)
    ensures |p.points| == 8 ==> (r.Fail? <==> RatioClasses(kb, p.points).Fail?)
    ensures r.Fail? ==> r.error in {MalformedArity, NameExhausted}
    ensures r.Ok? ==>
      var c := RatioClasses(kb, p.points).value.names;
      |c| == 4 && (r.value == [] <==> c[0] != c[2] && c[0] != c[1] && c[1] != c[3] && c[2] != c[3])
    ensures r.Ok? && r.value != [] ==> |r.value| == 1 && r.value[0].kind == "cong"
    ensures r.Ok? && r.value != [] ==>
      var c := RatioClasses(kb, p.points).value.names;
      exists i, j | 0 <= i < j < 4 && i + j != 3 :: c[i] == c[j] &&
        r.value[0].points == Opposite(p.points, i, j)
  {
    if |p.points| != 8 then Fail(MalformedArity)
    else
      var ps := p.points;
      var m :- RatioClasses(kb, ps);
      var c := m.names;
      GroupStore.ClassesHoldAt(m.dict, c, GroupStore.Pairs4(ps), 0);
      assert |c| == 4;
      if c[0] == c[2] then
        assert Opposite(ps, 0, 2) == ps[2..4] + ps[6..8];
        Ok([Pred("cong", ps[2..4] + ps[6..8])])
      else if c[0] == c[1] then
        assert Opposite(ps, 0, 1) == ps[4..6] + ps[6..8];
        Ok([Pred("cong", ps[4..6] + ps[6..8])])
      else if c[1] == c[3] then
        assert Opposite(ps, 1, 3) == ps[0..2] + ps[4..6];
        Ok([Pred("cong", ps[0..2] + ps[4..6])])
      else if c[2] == c[3] then
        assert Opposite(ps, 2, 3) == ps[0..2] + ps[2..4];
        Ok([Pred("cong", ps[0..2] + ps[2..4])])
      else Ok([])
  }

  /** The two segments of AB/CD = PQ/UV other than segments `i` and `j`. */
  function Opposite(ps: seq<Point>, i: nat, j: nat): (r: seq<Point>)
    requires |ps| == 8 && i < j < 4
    ensures |r| == 4
  {
    var others := if i == 0 && j == 1 then [2, 3] else if i == 0 && j == 2 then [1, 3]
      else if i == 0 then [1, 2] else if j == 2 then [0, 3] else if i == 1 then [0, 2] else [0, 1];
    ps[2 * others[0]..2 * others[0] + 2] + ps[2 * others[1]..2 * others[1] + 2]
  }
}

=== FILE: pointprover.dfy ===
/** `Prover.__init__` and `Prover.fixedpoint` of `src/prover.py`: the
    hypotheses are added to the store and queued; each step pops the first
    queued predicate, adds it to the store, fires the rules registered for
    its kind, expands every conclusion into its forms and queues each form
    that is neither already queued nor already provable, for at most ten
    steps.  The source tests "already queued" with `in` on a list of
    `Predicate` objects, a class without `__eq__`, so the test compares
    identities and never holds for the freshly built forms; `strict`
    selects the value comparison the driver evidently intends. */
module PointProver {
  import opened Common
  import opened Predicates
  import opened Snapshot
  import opened RuleKit
  import GroupStore
  import PointQuery
  import PointRules
  import PointGuards
  import PointSearch
  import GroupSearch
  import MidSearch
  import CongSearch
  import SimSearch

  /** The rule bodies of `Prover`, by name. */
  datatype Rule =
    | D01 | D02 | D03 | D05 | D06 | D08 | D09 | D10Para | D10Perp | D11 | D12
    | D15 | D16 | D17 | D18 | D19 | D20 | D21 | D22 | D23 | D24 | D25 | D26
    | D27 | D28 | D29 | D30 | D31 | D32 | D33 | D34 | D35 | D36 | D37 | D38
    | D39 | D40 | D41 | D42a | D44 | D45Para | D46 | D47 | D52Midp | D52Perp
    | D55Perp | D56 | D58 | D59 | D60 | D61Simtri | D62 | D63 | D64 | D65
    | D66 | D67Coll | D67Cong | D68 | D70 | D71 | D72 | D73 | D74 | D75Cong
    | D75Eqratio

  /** The rules `fixedpoint` fires for a popped predicate of kind `kind`,
      in the order it fires them. */
  function Rules(kind: string): seq<Rule> {
    if kind == "coll" then [D01, D02, D03, D67Coll]
    else if kind == "midp" then [D11, D44, D52Midp, D63, D68, D70]
    else if kind == "para" then [D05, D06, D40, D10Para, D45Para, D64, D65, D66]
    else if kind == "eqangle" then [D18, D19, D20, D21, D22, D39, D47, D58, D71, D72, D73, D74, D42a]
    else if kind == "cong" then [D23, D24, D25, D12, D46, D56, D67Cong, D75Cong]
    else if kind == "cyclic" then [D15, D16, D17, D41]
    else if kind == "perp" then [D08, D09, D10Perp, D52Perp, D55Perp]
    else if kind == "simtri" then [D31, D32, D33, D34, D59, D60, D61Simtri]
    else if kind == "contri" then [D35, D36, D37, D38, D62]
    else if kind == "eqratio" then [D26, D27, D28, D29, D30, D75Eqratio]
    else []
  }

  /** The kinds `fixedpoint` fires rules for. */
  const FiringKinds: set<string> :=
    {"coll", "midp", "para", "eqangle", "cong", "cyclic", "perp", "simtri", "contri", "eqratio"}

  lemma RulesFire(kind: string)
    ensures Rules(kind) == [] <==> kind !in FiringKinds
  {
  }

  /** One rule body on a premise.  Where the source is defective the
      corrected body is used (D22, D25, D44, D47, D58); the second of the
      two `_ruleD71` definitions is the one Python keeps. */
  function Apply(kb: Kb, rule: Rule, d: Pred): Result<seq<Pred>> {
    match rule
    case D01 => PointRules.D01(d)
    case D02 => PointRules.D02(d)
    case D03 => PointSearch.D03(kb, d)
    case D05 => PointRules.D05(d)
    case D06 => PointSearch.D06(kb, d)
    case D08 => PointRules.D08(d)
    case D09 => PointSearch.D09(kb, d)
    case D10Para => PointSearch.D10Para(kb, d)
    case D10Perp => PointSearch.D10Perp(kb, d)
    case D11 => PointRules.D11(d)
    case D12 => PointSearch.D12(kb, d)
    case D15 => PointRules.D15(d)
    case D16 => PointRules.D16(d)
    case D17 => PointSearch.D17(d, kb.circles)
    case D18 => PointRules.D18(d)
    case D19 => PointRules.D19(d)
    case D20 => PointRules.D20(d)
    case D21 => PointGuards.D21(d)
    case D22 => PointSearch.D22(kb, d)
    case D23 => PointRules.D23(d)
    case D24 => PointRules.D24(d)
    case D25 => GroupSearch.D25(kb, d)
    case D26 => PointRules.D26(d)
    case D27 => PointRules.D27(d)
    case D28 => PointRules.D28(d)
    case D29 => PointRules.D29(d)
    case D30 => GroupSearch.D30(kb, d)
    case D31 => PointRules.D31(d)
    case D32 => PointRules.D32(d)
    case D33 => PointRules.D33(d)
    case D34 => GroupSearch.D34(kb, d)
    case D35 => PointRules.D35(d)
    case D36 => PointRules.D36(d)
    case D37 => PointRules.D37(d)
    case D38 => GroupSearch.D38(kb, d)
    case D39 => PointGuards.D39(kb, d)
    case D40 => GroupSearch.D40(kb, d)
    case D41 => PointGuards.D41(d)
    case D42a => PointGuards.D42a(kb, d)
    case D44 => MidSearch.D44(kb, d)
    case D45Para => Ok([])
    case D46 => PointGuards.D46(kb, d)
    case D47 => PointGuards.D47(kb, d)
    case D52Midp => MidSearch.D52Midp(kb, d)
    case D52Perp => MidSearch.D52Perp(kb, d)
    case D55Perp => MidSearch.D55Perp(kb, d)
    case D56 => CongSearch.D56(kb, d)
    case D58 => SimSearch.D58(kb, d)
    case D59 => PointGuards.D59(d)
    case D60 => PointGuards.D60(d)
    case D61Simtri => PointGuards.D61Simtri(kb, d)
    case D62 => PointGuards.D62(d)
    case D63 => MidSearch.D63(kb, d)
    case D64 => MidSearch.D64(kb, d)
    case D65 => MidSearch.D65(kb, d)
    case D66 => PointGuards.D66(d)
    case D67Coll => PointGuards.D67Coll(kb, d)
    case D67Cong => MidSearch.D67Cong(kb, d)
    case D68 => PointGuards.D68(d)
    case D70 => MidSearch.D70(kb, d)
    case D71 => PointGuards.D71(kb, d)
    case D72 => PointGuards.D72(kb, d)
    case D73 => PointGuards.D73(kb, d)
    case D74 => PointGuards.D74(kb, d)
    case D75Cong => CongSearch.D75Cong(kb, d)
    case D75Eqratio => PointGuards.D75Eqratio(kb, d)
  }

  /** The `predicates += ...` block of one step: every registered rule in
      order, the first exception ending the step. */
  function Fire(kb: Kb, d: Pred): (r: Result<seq<Pred>>)
    ensures d.kind !in FiringKinds ==> r == Ok([])
    ensures r.Ok? <==> forall rule | rule in Rules(d.kind) :: Apply(kb, rule, d).Ok?
    ensures r.Fail? ==> exists rule | rule in Rules(d.kind) :: Apply(kb, rule, d) == Fail(r.error)
    ensures r.Ok? ==> forall q :: q in r.value <==>
      exists rule | rule in Rules(d.kind) :: Apply(kb, rule, d).Ok? && q in Apply(kb, rule, d).value
  {
    RulesFire(d.kind);
    FireAll(kb, Rules(d.kind), d)
  }

  /** The rules of `rules` in order on `d`, their conclusions appended. */
  function FireAll(kb: Kb, rules: seq<Rule>, d: Pred): (r: Result<seq<Pred>>)
    ensures r.Ok? <==> forall rule | rule in rules :: Apply(kb, rule, d).Ok?
    ensures r.Fail? ==> exists rule | rule in rules :: Apply(kb, rule, d) == Fail(r.error)
    ensures r.Ok? ==> forall q :: q in r.value <==>
      exists rule | rule in rules :: Apply(kb, rule, d).Ok? && q in Apply(kb, rule, d).value
    decreases |rules|
  {
    if rules == [] then Ok([])
    else
      assert forall x :: x in rules <==> x == rules[0] || x in rules[1..] by {
        assert rules == [rules[0]] + rules[1..];
      }
      var here :- Apply(kb, rules[0], d);
      var rest :- FireAll(kb, rules[1..], d);
      Ok(here + rest)
  }

  /** `ppredicate in self.newFactsList or self.prove(ppredicate)`, then the
      append.  Without `strict` the membership test never holds, as in the
      source; the proof query is made only when the test fails. */
  function Admit(kb: Kb, pending: seq<Pred>, f: Pred, strict: bool): (r: Result<seq<Pred>>)
    ensures r.Fail? <==> !(strict && f in pending) && PointQuery.Prove(kb, f).Fail?
    ensures r.Ok? ==> pending <= r.value && |r.value| <= |pending| + 1
    ensures r.Ok? ==> (f in r.value[|pending|..] <==> r.value != pending)
    ensures r.Ok? ==> (r.value != pending <==> !(strict && f in pending) && PointQuery.Prove(kb, f) == Ok(false))
  {
    if strict && f in pending then Ok(pending)
    else
      var held :- PointQuery.Prove(kb, f);
      if held then Ok(pending) else Ok(pending + [f])
  }

  /** Every form `f` a run of `Admit` left out of the queue was queued
      before or is provable. */
  predicate Settled(kb: Kb, queue: seq<Pred>, f: Pred) {
    f in queue || PointQuery.Prove(kb, f) == Ok(true)
  }

  /** What `Admit` appends is unprovable and, under `strict`, new. */
  predicate Fresh(kb: Kb, before: seq<Pred>, after: seq<Pred>, strict: bool) {
    before <= after &&
    forall k | |before| <= k < |after| ::
      PointQuery.Prove(kb, after[k]) == Ok(false) && (strict ==> after[k] !in after[..k])
  }

  /** The inner loop over the forms of one conclusion. */
  function AdmitAll(kb: Kb, pending: seq<Pred>, forms: seq<Pred>, strict: bool): (r: Result<seq<Pred>>)
    ensures r.Ok? ==> Fresh(kb, pending, r.value, strict)
    ensures r.Ok? ==> forall f | f in forms :: Settled(kb, r.value, f)
    ensures r.Ok? ==> forall x | x in r.value[|pending|..] :: x in forms
    decreases |forms|
  {
    if forms == [] then Ok(pending)
    else
      var p :- Admit(kb, pending, forms[0], strict);
      var r :- AdmitAll(kb, p, forms[1..], strict);
      AdmitAllStep(kb, pending, p, r, forms, strict);
      Ok(r)
  }

  lemma AdmitAllStep(kb: Kb, pending: seq<Pred>, p: seq<Pred>, r: seq<Pred>, forms: seq<Pred>, strict: bool)
    requires forms != [] && Admit(kb, pending, forms[0], strict) == Ok(p)
    requires Fresh(kb, p, r, strict)
    requires forall f | f in forms[1..] :: Settled(kb, r, f)
    requires forall x | x in r[|p|..] :: x in forms[1..]
    ensures Fresh(kb, pending, r, strict)
    ensures forall f | f in forms :: Settled(kb, r, f)
    ensures forall x | x in r[|pending|..] :: x in forms
  {
    FreshStep(kb, pending, p, r, forms[0], strict);
    FromStep(pending, p, r, forms);
    assert Settled(kb, p, forms[0]);
    assert forall f | f in forms :: f == forms[0] || f in forms[1..];
  }

  lemma FreshStep(kb: Kb, pending: seq<Pred>, p: seq<Pred>, r: seq<Pred>, f: Pred, strict: bool)
    requires Admit(kb, pending, f, strict) == Ok(p)
    requires Fresh(kb, p, r, strict)
    ensures Fresh(kb, pending, r, strict)
  {
    forall k | |pending| <= k < |r|
      ensures PointQuery.Prove(kb, r[k]) == Ok(false) && (strict ==> r[k] !in r[..k])
    {
      if k < |p| {
        assert p == pending + [f] && r[k] == f;
        assert r[..k] == pending;
      }
    }
  }

  lemma FromStep(pending: seq<Pred>, p: seq<Pred>, r: seq<Pred>, forms: seq<Pred>)
    requires forms != [] && pending <= p <= r && (p == pending || p == pending + [forms[0]])
    requires forall x | x in r[|p|..] :: x in forms[1..]
    ensures forall x | x in r[|pending|..] :: x in forms
  {
    forall x | x in r[|pending|..] ensures x in forms {
      var k :| |pending| <= k < |r| && r[k] == x;
      if k >= |p| {
        assert x == r[|p|..][k - |p|];
        assert x in forms[1..];
        assert forms == [forms[0]] + forms[1..];
      } else {
        assert p != pending && p == pending + [forms[0]] && k == |pending|;
        assert r[k] == p[k] == forms[0];
      }
    }
  }

  /** A strict run keeps a duplicate-free queue duplicate-free. */
  lemma FreshNoDup(kb: Kb, before: seq<Pred>, after: seq<Pred>)
    requires Fresh(kb, before, after, true) && NoDup(before)
    ensures NoDup(after)
  {
    forall i, j | 0 <= i < j < |after| ensures after[i] != after[j] {
      if j >= |before| {
        assert after[i] in after[..j];
      } else {
        assert after[i] == before[i] && after[j] == before[j];
      }
    }
  }

  lemma FreshTrans(kb: Kb, a: seq<Pred>, b: seq<Pred>, c: seq<Pred>, strict: bool)
    requires Fresh(kb, a, b, strict) && Fresh(kb, b, c, strict)
    ensures Fresh(kb, a, c, strict)
  {
    forall k | |a| <= k < |c| ensures PointQuery.Prove(kb, c[k]) == Ok(false) && (strict ==> c[k] !in c[..k]) {
      if k < |b| {
        assert c[k] == b[k] && c[..k] == b[..k];
      }
    }
  }

  /** Whether `f` is a form of one of `preds`. */
  predicate FormOf(kb: Kb, preds: seq<Pred>, f: Pred) {
    exists i | 0 <= i < |preds| :: PointQuery.AllForms(kb, preds[i]).Ok? && f in PointQuery.AllForms(kb, preds[i]).value
  }

  /** Every form of every one of `preds` exists and is queued in `queue`
      or provable. */
  predicate Covered(kb: Kb, preds: seq<Pred>, queue: seq<Pred>) {
    forall i | 0 <= i < |preds| :: PointQuery.AllForms(kb, preds[i]).Ok? &&
      (forall f | f in PointQuery.AllForms(kb, preds[i]).value :: Settled(kb, queue, f))
  }

  /** The `for predicate in predicates` loop of one step: each conclusion is
      expanded into its forms and each form offered to the queue.  What is
      appended is a form of some conclusion, is unprovable and, under
      `strict`, is not queued already; every form of every conclusion ends
      up queued or is provable. */
  function Enqueue(kb: Kb, pending: seq<Pred>, preds: seq<Pred>, strict: bool): (r: Result<seq<Pred>>)
    ensures r.Ok? ==> Fresh(kb, pending, r.value, strict)
    ensures r.Ok? ==> forall x | x in r.value[|pending|..] :: FormOf(kb, preds, x)
    ensures r.Ok? ==> Covered(kb, preds, r.value)
    decreases |preds|
  {
    if preds == [] then Ok(pending)
    else
      var forms :- PointQuery.AllForms(kb, preds[0]);
      var p :- AdmitAll(kb, pending, forms, strict);
      var r :- Enqueue(kb, p, preds[1..], strict);
      EnqueueStep(kb, pending, p, r, preds, forms, strict);
      Ok(r)
  }

  lemma EnqueueStep(kb: Kb, pending: seq<Pred>, p: seq<Pred>, r: seq<Pred>, preds: seq<Pred>, forms: seq<Pred>, strict: bool)
    requires preds != [] && PointQuery.AllForms(kb, preds[0]) == Ok(forms)
    requires Fresh(kb, pending, p, strict) && forall f | f in forms :: Settled(kb, p, f)
    requires forall x | x in p[|pending|..] :: x in forms
    requires Fresh(kb, p, r, strict)
    requires forall x | x in r[|p|..] :: FormOf(kb, preds[1..], x)
    requires Covered(kb, preds[1..], r)
    ensures Fresh(kb, pending, r, strict)
    ensures forall x | x in r[|pending|..] :: FormOf(kb, preds, x)
    ensures Covered(kb, preds, r)
  {
    FreshTrans(kb, pending, p, r, strict);
    EnqueueFrom(kb, pending, p, r, preds, forms);
    EnqueueCovers(kb, p, r, preds, forms);
  }

  /** What a run of `Enqueue` appends is a form of one of its conclusions. */
  lemma EnqueueFrom(kb: Kb, pending: seq<Pred>, p: seq<Pred>, r: seq<Pred>, preds: seq<Pred>, forms: seq<Pred>)
    requires preds != [] && PointQuery.AllForms(kb, preds[0]) == Ok(forms)
    requires pending <= p <= r
    requires forall x | x in p[|pending|..] :: x in forms
    requires forall x | x in r[|p|..] :: FormOf(kb, preds[1..], x)
    ensures forall x | x in r[|pending|..] :: FormOf(kb, preds, x)
  {
    forall x | x in r[|pending|..] ensures FormOf(kb, preds, x) {
      var k :| |pending| <= k < |r| && r[k] == x;
      if k < |p| {
        assert x in p[|pending|..];
        assert x in PointQuery.AllForms(kb, preds[0]).value;
      } else {
        assert x in r[|p|..];
        var i :| 0 <= i < |preds[1..]| && PointQuery.AllForms(kb, preds[1..][i]).Ok? && x in PointQuery.AllForms(kb, preds[1..][i]).value;
        assert preds[1..][i] == preds[i + 1];
      }
    }
  }

  /** The forms of the first conclusion stay settled as the queue grows. */
  lemma EnqueueCovers(kb: Kb, p: seq<Pred>, r: seq<Pred>, preds: seq<Pred>, forms: seq<Pred>)
    requires preds != [] && PointQuery.AllForms(kb, preds[0]) == Ok(forms)
    requires p <= r && forall f | f in forms :: Settled(kb, p, f)
    requires Covered(kb, preds[1..], r)
    ensures Covered(kb, preds, r)
  {
    forall i | 0 <= i < |preds| ensures PointQuery.AllForms(kb, preds[i]).Ok? &&
      (forall f | f in PointQuery.AllForms(kb, preds[i]).value :: Settled(kb, r, f))
    {
      if i == 0 {
        forall f | f in forms ensures Settled(kb, r, f) {
          if f in p {
            var k :| 0 <= k < |p| && p[k] == f;
            assert r[k] == f;
          }
        }
      } else {
        assert preds[1..][i - 1] == preds[i];
      }
    }
  }

  /** `f` over a list of predicates in order, the first failure ending it. */
  function Chain<S>(s: S, ps: seq<Pred>, f: (S, Pred) -> Result<S>): Result<S>
    decreases |ps|
  {
    if ps == [] then Ok(s)
    else
      var s1 :- f(s, ps[0]);
      Chain(s1, ps[1..], f)
  }

  /** A chain over two lists in a row is the chain over the two joined. */
  lemma {:induction false} ChainAppend<S>(s: S, a: seq<Pred>, b: seq<Pred>, f: (S, Pred) -> Result<S>)
    requires Chain(s, a, f).Ok?
    ensures Chain(s, a + b, f) == Chain(Chain(s, a, f).value, b, f)
    decreases |a|
  {
    if a != [] {
      var ab := a + b;
      assert ab[0] == a[0] && ab[1..] == a[1..] + b;
      assert f(s, a[0]).Ok? && Chain(s, a, f) == Chain(f(s, a[0]).value, a[1..], f);
      ChainAppend(f(s, a[0]).value, a[1..], b, f);
    } else {
      assert a + b == b;
    }
  }

  /** `database.add` over a list of predicates, in order. */
  function AddAll(st: GroupStore.Store, ps: seq<Pred>): Result<GroupStore.Store> {
    Chain(st, ps, GroupStore.Add)
  }

  /** The driver's state: the knowledge base, the queue `newFactsList`,
      and the predicates popped so far. */
  datatype State = State(kb: Kb, pending: seq<Pred>, popped: seq<Pred>)

  /** One iteration of the `while` loop on a non-empty queue. */
  function Step(kb: Kb, pending: seq<Pred>, strict: bool): (r: Result<(Kb, seq<Pred>)>)
    requires pending != []
    ensures r.Ok? ==> GroupStore.Add(kb.store, pending[0]) == Ok(r.value.0.store)
    ensures r.Ok? ==> r.value.0 == kb.(store := r.value.0.store)
    ensures r.Ok? ==> Fresh(r.value.0, pending[1..], r.value.1, strict)
    ensures r.Ok? ==> (Fire(r.value.0, pending[0]).Ok? &&
      Covered(r.value.0, Fire(r.value.0, pending[0]).value, r.value.1))
  {
    var d := pending[0];
    var st :- GroupStore.Add(kb.store, d);
    var kb1 := kb.(store := st);
    var found :- Fire(kb1, d);
    var q :- Enqueue(kb1, pending[1..], found, strict);
    Ok((kb1, q))
  }

  /** `Step`, with only what the loop needs of it. */
  function Advance(kb: Kb, pending: seq<Pred>, strict: bool): (r: Result<(Kb, seq<Pred>)>)
    requires pending != []
    ensures r.Ok? ==> Fresh(r.value.0, pending[1..], r.value.1, strict)
  {
    Step(kb, pending, strict)
  }

  /** The `while self.newFactsList and iters > 0` loop with `fuel`
      iterations left. */
  function Run(kb: Kb, pending: seq<Pred>, popped: seq<Pred>, fuel: nat, strict: bool): (r: Result<State>)
    ensures r.Ok? ==> popped <= r.value.popped && |r.value.popped| <= |popped| + fuel
    ensures r.Ok? ==> r.value.pending == [] || |r.value.popped| == |popped| + fuel
    ensures r.Ok? && strict && NoDup(pending) ==> NoDup(r.value.pending)
    ensures r.Ok? && pending != [] && fuel > 0 ==> |r.value.popped| > |popped| && r.value.popped[|popped|] == pending[0]
    decreases fuel
  {
    if pending == [] || fuel == 0 then Ok(State(kb, pending, popped))
    else
      var next :- Advance(kb, pending, strict);
      var r :- Run(next.0, next.1, popped + [pending[0]], fuel - 1, strict);
      RunStep(pending, popped, r);
      KeepsNoDup(next.0, pending, next.1, strict);
      Ok(r)
  }

  lemma RunStep(pending: seq<Pred>, popped: seq<Pred>, r: State)
    requires pending != [] && popped + [pending[0]] <= r.popped
    ensures popped <= r.popped && |r.popped| > |popped| && r.popped[|popped|] == pending[0]
  {
    assert (popped + [pending[0]])[|popped|] == pending[0];
  }

  /** A strict step turns a duplicate-free queue into a duplicate-free one. */
  lemma KeepsNoDup(kb1: Kb, pending: seq<Pred>, q: seq<Pred>, strict: bool)
    requires pending != [] && Fresh(kb1, pending[1..], q, strict)
    ensures strict && NoDup(pending) ==> NoDup(q)
  {
    if strict && NoDup(pending) {
      NoDupTail(pending);
      FreshNoDup(kb1, pending[1..], q);
    }
  }

  /** The iteration cap of `fixedpoint`. */
  const Cap: nat := 10

  /** `Prover(hypotheses).fixedpoint()`: the hypotheses are added to an
      empty store in order and queued as given, then at most `Cap`
      predicates are popped.  The loop stops early only on an empty queue;
      a strict run started on distinct hypotheses never queues a
      predicate twice. */
  function Fixedpoint(kb: Kb, hypotheses: seq<Pred>, strict: bool): (r: Result<State>)
    ensures r.Ok? ==> |r.value.popped| <= Cap && (r.value.pending == [] || |r.value.popped| == Cap)
    ensures r.Ok? && strict && NoDup(hypotheses) ==> NoDup(r.value.pending)
    ensures r.Ok? && hypotheses != [] ==> r.value.popped != [] && r.value.popped[0] == hypotheses[0]
  {
    var st :- AddAll(GroupStore.EmptyStore, hypotheses);
    var r :- Run(kb.(store := st), hypotheses, [], Cap, strict);
    Ok(r)
  }

  /** The discrepancy: a form equal to one already queued and not yet
      provable is queued a second time by the source's identity test, and
      left alone by the value test. */
  lemma IdentityTestRequeues(kb: Kb, pending: seq<Pred>, f: Pred)
    requires f in pending && PointQuery.Prove(kb, f) == Ok(false)
    ensures Admit(kb, pending, f, false) == Ok(pending + [f])
    ensures !NoDup(pending + [f])
    ensures Admit(kb, pending, f, true) == Ok(pending)
  {
    var i :| 0 <= i < |pending| && pending[i] == f;
    assert (pending + [f])[i] == (pending + [f])[|pending|];
  }

  /** Such a form exists: a collinearity queued while no line is stored. */
  lemma UnprovableWhileQueued(kb: Kb)
    requires kb.store.lines == []
    ensures PointQuery.Prove(kb, Pred("coll", ["A", "B", "C"])) == Ok(false)
  {
  }
}

=== FILE: pointquery.dfy ===
/** `Prover.prove` and `Prover._predicate_all_forms` of `src/prover.py`:
    whether the store already records a point-level predicate, and the
    spellings of an equal-angle predicate over the points its four lines
    hold.  The lines and classes `matchLine` and `matchCong` create while a
    query runs are seen by the query's later calls, as in the source, but
    are not kept afterwards. */
module PointQuery {
  import opened Common
  import opened Primitives
  import opened Predicates
  import opened Snapshot
  import GroupStore
  import opened Groups

  /** Every point of `ps` lies in `on`. */
  predicate AllIn(ps: seq<Point>, on: seq<Point>) {
    forall i | 0 <= i < |ps| :: ps[i] in on
  }

  /** The pairings `prove(eqangle)` accepts for lines `l`:
      (l1, l2) ~ (l3, l4), (l2, l1) ~ (l4, l3) and (l1, l3) ~ (l2, l4). */
  predicate AngleGroupHolds(g: seq<Angle>, l: seq<LineKey>)
    requires |l| == 4
  {
    (Angle(l[0], l[1]) in g && Angle(l[2], l[3]) in g)
    || (Angle(l[1], l[0]) in g && Angle(l[3], l[2]) in g)
    || (Angle(l[0], l[2]) in g && Angle(l[1], l[3]) in g)
  }

  /** The pairings `prove(eqratio)` accepts for classes `c`: the ratios as
      given, both inverted, alternated, and alternated and inverted. */
  predicate RatioGroupHolds(g: seq<Ratio>, c: seq<CongKey>)
    requires |c| == 4
  {
    (Ratio(c[0], c[1]) in g && Ratio(c[2], c[3]) in g)
    || (Ratio(c[1], c[0]) in g && Ratio(c[3], c[2]) in g)
    || (Ratio(c[0], c[2]) in g && Ratio(c[1], c[3]) in g)
    || (Ratio(c[2], c[0]) in g && Ratio(c[3], c[1]) in g)
  }

  /** The kinds `prove` answers; any other kind is a `ValueError`. */
  const ProvableKinds: set<string> :=
    {"coll", "midp", "para", "eqangle", "cong", "eqratio", "perp", "simtri", "contri", "circle", "cyclic"}

  /** How many points `prove` unpacks for a kind; 0 where it takes any number. */
  function Arity(kind: string): nat {
    if kind == "midp" then 3
    else if kind in {"para", "cong", "perp"} then 4
    else if kind in {"simtri", "contri"} then 6
    else if kind in {"eqangle", "eqratio"} then 8
    else 0
  }

  /** `prove(coll(ps))`: some line holds every point. */
  function ProveColl(st: GroupStore.Store, ps: seq<Point>): (r: bool)
    ensures r <==> exists i | 0 <= i < |st.lines| :: Elems(ps) <= Elems(st.lines[i].members)
  {
    assert forall i | 0 <= i < |st.lines| :: AllIn(ps, st.lines[i].members) <==> Elems(ps) <= Elems(st.lines[i].members) by {
      forall i | 0 <= i < |st.lines| ensures AllIn(ps, st.lines[i].members) <==> Elems(ps) <= Elems(st.lines[i].members) {
        AllInIsSubset(ps, st.lines[i].members);
      }
    }
    exists i | 0 <= i < |st.lines| :: AllIn(ps, st.lines[i].members)
  }

  lemma AllInIsSubset(ps: seq<Point>, on: seq<Point>)
    ensures AllIn(ps, on) <==> Elems(ps) <= Elems(on)
  {
    if AllIn(ps, on) {
      forall x | x in Elems(ps) ensures x in Elems(on) {
        var i :| 0 <= i < |ps| && ps[i] == x;
      }
    }
    if Elems(ps) <= Elems(on) {
      forall i | 0 <= i < |ps| ensures ps[i] in on {
        assert ps[i] in Elems(ps);
      }
    }
  }

  /** `prove(midp(M, A, B))`: the triple with sorted endpoints is recorded. */
  function ProveMidp(st: GroupStore.Store, ps: seq<Point>): bool
    requires |ps| == 3
  {
    GroupStore.MidpTriple(ps[0], ps[1], ps[2]) in st.midpFacts
  }

  /** `prove(para(A, B, C, D))`: one parallel group names both lines. */
  function ProvePara(st: GroupStore.Store, ps: seq<Point>): Result<bool>
    requires |ps| == 4
  {
    var m :- GroupStore.MatchLines(st.lines, [(ps[0], ps[1]), (ps[2], ps[3])]);
    Ok(exists i | 0 <= i < |st.paraFacts| :: m.names[0] in st.paraFacts[i] && m.names[1] in st.paraFacts[i])
  }

  /** On the witness store, `prove(para(C, D, E, F))` holds: C-D is the
      second line, E-F the third, and one group names both. */
  lemma ParaWitnessHolds(l1: LineKey, l2: LineKey, l3: LineKey)
    ensures ProvePara(GroupStore.ParaWitness(l1, l2, l3), ["C", "D", "E", "F"]) == Ok(true)
  {
    var lines := GroupStore.ParaWitness(l1, l2, l3).lines;
    assert "C" !in lines[0].members;
    assert "E" !in lines[0].members && "E" !in lines[1].members;
    GroupStore.MatchTwoFound(lines, "C", "D", "E", "F", 1, 2);
    assert l2 in GroupStore.ParaWitness(l1, l2, l3).paraFacts[0];
  }

  /** As written, `coll(A, B, C, D)` loses that fact whatever the three
      distinct names are: the first line absorbs the second, so C-D is now
      the first line, while the parallel group still names the second. */
  lemma CollLosesPara(l1: LineKey, l2: LineKey, l3: LineKey)
    requires l1 != l2 && l1 != l3
    ensures var r := GroupStore.AddAsWritten(GroupStore.ParaWitness(l1, l2, l3), Pred("coll", ["A", "B", "C", "D"]));
      r.Ok? && ProvePara(r.value, ["C", "D", "E", "F"]) == Ok(false)
  {
    GroupStore.ParaAfterAsWritten(l1, l2, l3);
    var st1 := GroupStore.AddAsWritten(GroupStore.ParaWitness(l1, l2, l3), Pred("coll", ["A", "B", "C", "D"])).value;
    ParaStale(st1, ["C", "D", "E", "F"], l1, l3, l2, l3);
  }

  /** With the rewrite, the same `coll` keeps it: the group names the first
      and third lines, the lines through C-D and E-F. */
  lemma CollRenamedKeepsPara(l1: LineKey, l2: LineKey, l3: LineKey)
    requires l3 != l1 && l3 != l2
    ensures var r := GroupStore.Add(GroupStore.ParaWitness(l1, l2, l3), Pred("coll", ["A", "B", "C", "D"]));
      r.Ok? && ProvePara(r.value, ["C", "D", "E", "F"]) == Ok(true)
  {
    GroupStore.ParaAfterFixed(l1, l2, l3);
    var st1 := GroupStore.Add(GroupStore.ParaWitness(l1, l2, l3), Pred("coll", ["A", "B", "C", "D"])).value;
    ParaNamed(st1, ["C", "D", "E", "F"], l1, l3);
    assert l1 in st1.paraFacts[0] && l3 in st1.paraFacts[0];
  }

  /** `prove(para)` once both lines are found by name. */
  lemma ParaNamed(st: GroupStore.Store, ps: seq<Point>, a: LineKey, b: LineKey)
    requires |ps| == 4
    requires GroupStore.MatchLines(st.lines, [(ps[0], ps[1]), (ps[2], ps[3])]) == Ok(GroupStore.Matched(st.lines, [a, b]))
    ensures ProvePara(st, ps) == Ok(exists i | 0 <= i < |st.paraFacts| :: a in st.paraFacts[i] && b in st.paraFacts[i])
  {
  }

  /** `prove(para)` answers false when the store's one parallel group does
      not name the line found for the first pair. */
  lemma ParaStale(st: GroupStore.Store, ps: seq<Point>, a: LineKey, b: LineKey, x: LineKey, y: LineKey)
    requires |ps| == 4
    requires GroupStore.MatchLines(st.lines, [(ps[0], ps[1]), (ps[2], ps[3])]) == Ok(GroupStore.Matched(st.lines, [a, b]))
    requires st.paraFacts == [[x, y]] && a != x && a != y
    ensures ProvePara(st, ps) == Ok(false)
  {
    ParaNamed(st, ps, a, b);
    assert a !in st.paraFacts[0];
  }

  function ProveEqangle(st: GroupStore.Store, ps: seq<Point>): Result<bool>
    requires |ps| == 8
  {
    var m :- GroupStore.MatchLines(st.lines, GroupStore.Pairs4(ps));
    Ok(exists i | 0 <= i < |st.eqangleFacts| :: AngleGroupHolds(st.eqangleFacts[i], m.names))
  }

  /** `prove(cong(A, B, C, D))`: one class holds both segments. */
  function ProveCong(st: GroupStore.Store, ps: seq<Point>): bool
    requires |ps| == 4
  {
    exists i | 0 <= i < |st.congs| ::
      GroupStore.HasSeg(st.congs[i].members, Segment(ps[0], ps[1])) && GroupStore.HasSeg(st.congs[i].members, Segment(ps[2], ps[3]))
  }

  /** Some ratio group holds one of the accepted pairings of `c`. */
  predicate RatiosHeld(groups: seq<seq<Ratio>>, c: seq<CongKey>)
    requires |c| == 4
  {
    exists i | 0 <= i < |groups| :: RatioGroupHolds(groups[i], c)
  }

  function ProveEqratio(st: GroupStore.Store, ps: seq<Point>): Result<bool>
    requires |ps| == 8
  {
    match GroupStore.MatchCongs(st.congs, GroupStore.Pairs4(ps))
    case Ok(m) => Ok(RatiosHeld(st.eqratioFacts, m.names))
    case Fail(e) => Fail(e)
  }

  /** `{l1, l2} in perpFacts`: some recorded pair is exactly these lines. */
  function ProvePerp(kb: Kb, ps: seq<Point>): Result<bool>
    requires |ps| == 4
  {
    var m :- GroupStore.MatchLines(kb.store.lines, [(ps[0], ps[1]), (ps[2], ps[3])]);
    Ok(exists i | 0 <= i < |kb.perpFacts| :: Elems(kb.perpFacts[i]) == {m.names[0], m.names[1]})
  }

  /** `t1 in tris and t2 in tris` for some recorded triangle group. */
  function ProveTriangles(groups: seq<seq<Triangle>>, ps: seq<Point>): bool
    requires |ps| == 6
  {
    exists i | 0 <= i < |groups| ::
      HasTri(groups[i], Triangle(ps[0], ps[1], ps[2])) && HasTri(groups[i], Triangle(ps[3], ps[4], ps[5]))
  }

  /** `prove(circle(O, ...))`: a circle centred at O holds the other points. */
  function ProveCircle(kb: Kb, ps: seq<Point>): (r: Result<bool>)
    ensures r.Fail? <==> ps == []
    ensures r.Fail? ==> r.error == IndexOutOfRange
    ensures r.Ok? ==> (r.value <==> exists i | 0 <= i < |kb.circles| ::
      kb.circles[i].center == ps[0] && Elems(ps[1..]) <= Elems(kb.circles[i].points))
  {
    if ps == [] then Fail(IndexOutOfRange)
    else
      assert forall i | 0 <= i < |kb.circles| :: AllIn(ps[1..], kb.circles[i].points) <==> Elems(ps[1..]) <= Elems(kb.circles[i].points) by {
        forall i | 0 <= i < |kb.circles| ensures AllIn(ps[1..], kb.circles[i].points) <==> Elems(ps[1..]) <= Elems(kb.circles[i].points) {
          AllInIsSubset(ps[1..], kb.circles[i].points);
        }
      }
      Ok(exists i | 0 <= i < |kb.circles| :: kb.circles[i].center == ps[0] && AllIn(ps[1..], kb.circles[i].points))
  }

  /** `prove(cyclic(...))`: some circle holds every point. */
  function ProveCyclic(kb: Kb, ps: seq<Point>): (r: bool)
    ensures r <==> exists i | 0 <= i < |kb.circles| :: Elems(ps) <= Elems(kb.circles[i].points)
  {
    assert forall i | 0 <= i < |kb.circles| :: AllIn(ps, kb.circles[i].points) <==> Elems(ps) <= Elems(kb.circles[i].points) by {
      forall i | 0 <= i < |kb.circles| ensures AllIn(ps, kb.circles[i].points) <==> Elems(ps) <= Elems(kb.circles[i].points) {
        AllInIsSubset(ps, kb.circles[i].points);
      }
    }
    exists i | 0 <= i < |kb.circles| :: AllIn(ps, kb.circles[i].points)
  }

  /** `prove(predicate)`.  A wrong number of points is the unpacking error,
      `circle` with no points is the `IndexError` of `points[0]`, and only
      the kinds that match lines or classes can run out of names. */
  function Prove(kb: Kb, p: Pred): (r: Result<bool>)
    ensures p.kind !in ProvableKinds ==> r == Fail(InvalidKind(p.kind))
    ensures p.kind in ProvableKinds && Arity(p.kind) != 0 && |p.points| != Arity(p.kind) ==> r == Fail(MalformedArity)
    ensures r.Fail? && r.error == NameExhausted ==> p.kind in {"para", "eqangle", "eqratio", "perp"}
    ensures r.Fail? && r.error == IndexOutOfRange ==> p.kind == "circle" && p.points == []
    ensures r.Fail? ==> r.error in {InvalidKind(p.kind), MalformedArity, NameExhausted, IndexOutOfRange}
    ensures p.kind == "coll" ==> r.Ok? && (r.value <==>
      exists i | 0 <= i < |kb.store.lines| :: Elems(p.points) <= Elems(kb.store.lines[i].members))
    ensures p.kind == "cyclic" ==> r.Ok? && (r.value <==>
      exists i | 0 <= i < |kb.circles| :: Elems(p.points) <= Elems(kb.circles[i].points))
  {
    var ps := p.points;
    if p.kind !in ProvableKinds then Fail(InvalidKind(p.kind))
    else if Arity(p.kind) != 0 && |ps| != Arity(p.kind) then Fail(MalformedArity)
    else if p.kind == "coll" then Ok(ProveColl(kb.store, ps))
    else if p.kind == "midp" then Ok(ProveMidp(kb.store, ps))
    else if p.kind == "para" then ProvePara(kb.store, ps)
    else if p.kind == "eqangle" then ProveEqangle(kb.store, ps)
    else if p.kind == "cong" then Ok(ProveCong(kb.store, ps))
    else if p.kind == "eqratio" then ProveEqratio(kb.store, ps)
    else if p.kind == "perp" then ProvePerp(kb, ps)
    else if p.kind == "simtri" then Ok(ProveTriangles(kb.simtriFacts, ps))
    else if p.kind == "contri" then Ok(ProveTriangles(kb.contriFacts, ps))
    else if p.kind == "circle" then ProveCircle(kb, ps)
    else Ok(ProveCyclic(kb, ps))
  }

  /** Whether points are collinear does not depend on how they are listed:
      only the set of points is looked up. */
  lemma ProveCollOrderFree(kb: Kb, ps: seq<Point>, qs: seq<Point>)
    requires Elems(ps) == Elems(qs)
    ensures Prove(kb, Pred("coll", ps)) == Prove(kb, Pred("coll", qs))
  {
  }

  /** The endpoints of a midpoint query are sorted before the lookup. */
  lemma ProveMidpSymmetric(kb: Kb, m: Point, a: Point, b: Point)
    ensures Prove(kb, Pred("midp", [m, a, b])) == Prove(kb, Pred("midp", [m, b, a]))
  {
    SegEqIffSameEnds(Segment(a, b), Segment(b, a));
    assert GroupStore.MidpTriple(m, a, b) == GroupStore.MidpTriple(m, b, a);
  }

  /** The middle two segments of an eight-point predicate swapped. */
  function Alternate(ps: seq<Point>): (qs: seq<Point>)
    requires |ps| == 8
    ensures |qs| == 8 && GroupStore.Pairs4(qs) == [GroupStore.Pairs4(ps)[0], GroupStore.Pairs4(ps)[2], GroupStore.Pairs4(ps)[1], GroupStore.Pairs4(ps)[3]]
  {
    ps[..2] + ps[4..6] + ps[2..4] + ps[6..]
  }

  /** When the four segments already have classes, swapping the middle two
      (alternation) does not change the answer: the four accepted pairings
      are closed under it. */
  lemma EqratioAlternation(st: GroupStore.Store, ps: seq<Point>)
    requires |ps| == 8
    requires forall k | 0 <= k < 4 :: Known(st.congs, (ps[2 * k], ps[2 * k + 1]))
    ensures ProveEqratio(st, ps).Ok?
    ensures ProveEqratio(st, ps) == ProveEqratio(st, Alternate(ps))
  {
    var congs := st.congs;
    var a, b := GroupStore.Pairs4(ps), GroupStore.Pairs4(Alternate(ps));
    forall x | x in a ensures Known(congs, x) {
      var k :| 0 <= k < 4 && a[k] == x;
    }
    MatchCongsKnown(congs, a);
    MatchCongsKnown(congs, b);
    FirstClasses4(congs, a);
    FirstClasses4(congs, b);
    SameRatiosAlternated(st, ps, Alternate(ps));
  }

  lemma SameRatiosAlternated(st: GroupStore.Store, ps: seq<Point>, qs: seq<Point>)
    requires |ps| == 8 && |qs| == 8
    requires GroupStore.MatchCongs(st.congs, GroupStore.Pairs4(ps)).Ok? && GroupStore.MatchCongs(st.congs, GroupStore.Pairs4(qs)).Ok?
    requires var n, n' := GroupStore.MatchCongs(st.congs, GroupStore.Pairs4(ps)).value.names, GroupStore.MatchCongs(st.congs, GroupStore.Pairs4(qs)).value.names;
      n' == [n[0], n[2], n[1], n[3]]
    ensures ProveEqratio(st, ps) == ProveEqratio(st, qs)
  {
    var n := GroupStore.MatchCongs(st.congs, GroupStore.Pairs4(ps)).value.names;
    var facts := st.eqratioFacts;
    forall i | 0 <= i < |facts| ensures RatioGroupHolds(facts[i], n) == RatioGroupHolds(facts[i], [n[0], n[2], n[1], n[3]]) {
      RatioHoldsAlternated(facts[i], n);
    }
  }

  lemma RatioHoldsAlternated(g: seq<Ratio>, n: seq<CongKey>)
    requires |n| == 4
    ensures RatioGroupHolds(g, n) == RatioGroupHolds(g, [n[0], n[2], n[1], n[3]])
  {
  }

  /** Some class already holds the segment of `pair`. */
  predicate Known(congs: GroupStore.Congs, pair: (Point, Point)) {
    exists i | 0 <= i < |congs| :: GroupStore.HasSeg(congs[i].members, Segment(pair.0, pair.1))
  }

  /** The first class holding the segment of `pair` (the empty name when
      there is none). */
  function FirstClass(congs: GroupStore.Congs, pair: (Point, Point)): CongKey
    decreases |congs|
  {
    if congs == [] then ""
    else if GroupStore.HasSeg(congs[0].members, Segment(pair.0, pair.1)) then congs[0].key
    else FirstClass(congs[1..], pair)
  }

  /** `FirstClass` is the key at the index `matchCong` searches for. */
  lemma {:induction false} FirstClassAt(congs: GroupStore.Congs, pair: (Point, Point))
    requires Known(congs, pair)
    ensures GroupStore.CongWith(congs, Segment(pair.0, pair.1)) < |congs|
    ensures FirstClass(congs, pair) == congs[GroupStore.CongWith(congs, Segment(pair.0, pair.1))].key
    decreases |congs|
  {
    var s := Segment(pair.0, pair.1);
    var i := GroupStore.CongWith(congs, s);
    var w :| 0 <= w < |congs| && GroupStore.HasSeg(congs[w].members, s);
    assert i <= w;
    if !GroupStore.HasSeg(congs[0].members, s) {
      var rest := congs[1..];
      assert rest[w - 1] == congs[w];
      FirstClassAt(rest, pair);
      var i' := GroupStore.CongWith(rest, s);
      assert rest[i'] == congs[i' + 1];
      forall j | 0 <= j < i' + 1 ensures !GroupStore.HasSeg(congs[j].members, s) {
        if j > 0 { assert congs[j] == rest[j - 1]; }
      }
      assert i == i' + 1;
    }
  }

  function FirstClasses(congs: GroupStore.Congs, pairs: seq<(Point, Point)>): (r: seq<CongKey>)
    ensures |r| == |pairs|
    decreases |pairs|
  {
    if pairs == [] then [] else [FirstClass(congs, pairs[0])] + FirstClasses(congs, pairs[1..])
  }

  lemma FirstClasses4(congs: GroupStore.Congs, pairs: seq<(Point, Point)>)
    requires |pairs| == 4
    ensures FirstClasses(congs, pairs) ==
      [FirstClass(congs, pairs[0]), FirstClass(congs, pairs[1]), FirstClass(congs, pairs[2]), FirstClass(congs, pairs[3])]
  {
    var c0, c1, c2, c3 := FirstClass(congs, pairs[0]), FirstClass(congs, pairs[1]), FirstClass(congs, pairs[2]), FirstClass(congs, pairs[3]);
    var t3, t2, t1 := pairs[3..], pairs[2..], pairs[1..];
    assert t3[0] == pairs[3] && t3[1..] == [];
    assert t2[0] == pairs[2] && t2[1..] == t3;
    assert t1[0] == pairs[2 - 1] && t1[1..] == t2;
    assert pairs[1..] == t1;
    calc {
      FirstClasses(congs, pairs);
      [c0] + FirstClasses(congs, t1);
      [c0] + ([c1] + FirstClasses(congs, t2));
      [c0] + ([c1] + ([c2] + FirstClasses(congs, t3)));
      [c0] + ([c1] + ([c2] + [c3]));
    }
  }

  /** Matching segments that all have classes creates nothing, and each name
      is the first class holding its own pair. */
  lemma {:induction false} MatchCongsKnown(congs: GroupStore.Congs, pairs: seq<(Point, Point)>)
    requires forall x | x in pairs :: Known(congs, x)
    ensures GroupStore.MatchCongs(congs, pairs) == Ok(GroupStore.Matched(congs, FirstClasses(congs, pairs)))
    decreases |pairs|
  {
    if pairs != [] {
      assert pairs[0] in pairs;
      MatchCongKnown(congs, pairs[0]);
      MatchCongsKnown(congs, pairs[1..]);
    }
  }

  lemma MatchCongKnown(congs: GroupStore.Congs, pair: (Point, Point))
    requires Known(congs, pair)
    ensures GroupStore.MatchCong(congs, pair.0, pair.1) == Ok(GroupStore.Named(congs, FirstClass(congs, pair)))
  {
    GroupStore.MatchCongCases(congs, pair.0, pair.1);
    FirstClassAt(congs, pair);
  }

  /** The first line through two points keeps its place when lines are appended. */
  lemma LineWithExtends(lines: GroupStore.Lines, more: GroupStore.Lines, p: Point, q: Point)
    requires lines <= more
    ensures GroupStore.LineWith(lines, p, q) < |lines| ==> GroupStore.LineWith(more, p, q) == GroupStore.LineWith(lines, p, q)
    ensures GroupStore.LineWith(lines, p, q) == |lines| < |more| && p in more[|lines|].members && q in more[|lines|].members ==>
      GroupStore.LineWith(more, p, q) == |lines|
  {
    var i, j := GroupStore.LineWith(lines, p, q), GroupStore.LineWith(more, p, q);
    assert forall k | 0 <= k < |lines| :: more[k] == lines[k];
    if i < |lines| {
      assert more[i] == lines[i];
    }
  }

  lemma CongWithExtends(congs: GroupStore.Congs, more: GroupStore.Congs, s: Segment)
    requires congs <= more
    ensures GroupStore.CongWith(congs, s) < |congs| ==> GroupStore.CongWith(more, s) == GroupStore.CongWith(congs, s)
    ensures GroupStore.CongWith(congs, s) == |congs| < |more| && GroupStore.HasSeg(more[|congs|].members, s) ==>
      GroupStore.CongWith(more, s) == |congs|
  {
    var i, j := GroupStore.CongWith(congs, s), GroupStore.CongWith(more, s);
    assert forall k | 0 <= k < |congs| :: more[k] == congs[k];
    if i < |congs| {
      assert more[i] == congs[i];
    }
  }

  /** Matching again after a match changes nothing: the line found or made
      for `p, q` is still the first line through both in any extension. */
  lemma MatchLineStable(lines: GroupStore.Lines, more: GroupStore.Lines, p: Point, q: Point)
    requires GroupStore.MatchLine(lines, p, q).Ok? && GroupStore.MatchLine(lines, p, q).value.dict <= more
    ensures GroupStore.MatchLine(more, p, q) == Ok(GroupStore.Named(more, GroupStore.MatchLine(lines, p, q).value.name))
  {
    var m := GroupStore.MatchLine(lines, p, q).value;
    assert lines <= more;
    LineWithExtends(lines, more, p, q);
    var i := GroupStore.LineWith(lines, p, q);
    if i < |lines| {
      assert m == GroupStore.Named(lines, lines[i].key);
      assert more[i] == lines[i];
    } else {
      var name := GroupStore.NewName("line", Keys(lines)).value;
      var e := Entry(name, GroupStore.SetOf([p, q]));
      assert m.name == name && m.dict == lines + [e];
      assert more[|lines|] == e;
      assert p in Elems([p, q]) && q in Elems([p, q]);
    }
  }

  lemma {:induction false} MatchLinesStable(lines: GroupStore.Lines, more: GroupStore.Lines, pairs: seq<(Point, Point)>)
    requires GroupStore.MatchLines(lines, pairs).Ok? && GroupStore.MatchLines(lines, pairs).value.dict <= more
    ensures GroupStore.MatchLines(more, pairs) == Ok(GroupStore.Matched(more, GroupStore.MatchLines(lines, pairs).value.names))
    decreases |pairs|
  {
    if pairs != [] {
      var m := GroupStore.MatchLine(lines, pairs[0].0, pairs[0].1).value;
      var rest := GroupStore.MatchLines(m.dict, pairs[1..]).value;
      assert m.dict <= more;
      MatchLineStable(lines, more, pairs[0].0, pairs[0].1);
      MatchLinesStable(m.dict, more, pairs[1..]);
    }
  }

  lemma MatchCongStable(congs: GroupStore.Congs, more: GroupStore.Congs, p: Point, q: Point)
    requires GroupStore.MatchCong(congs, p, q).Ok? && GroupStore.MatchCong(congs, p, q).value.dict <= more
    ensures GroupStore.MatchCong(more, p, q) == Ok(GroupStore.Named(more, GroupStore.MatchCong(congs, p, q).value.name))
  {
    var s := Segment(p, q);
    var m := GroupStore.MatchCong(congs, p, q).value;
    GroupStore.MatchCongCases(congs, p, q);
    GroupStore.MatchCongCases(more, p, q);
    assert congs <= more;
    CongWithExtends(congs, more, s);
    var i := GroupStore.CongWith(congs, s);
    if i < |congs| {
      assert m == GroupStore.Named(congs, congs[i].key);
      assert more[i] == congs[i];
      assert GroupStore.CongWith(more, s) == i;
    } else {
      var e := Entry(m.name, [s]);
      assert m.dict == congs + [e];
      assert more[|congs|] == e;
      GroupStore.HasSegSingle(s);
      assert GroupStore.CongWith(more, s) == |congs|;
    }
  }


  lemma {:induction false} MatchCongsStable(congs: GroupStore.Congs, more: GroupStore.Congs, pairs: seq<(Point, Point)>)
    requires GroupStore.MatchCongs(congs, pairs).Ok? && GroupStore.MatchCongs(congs, pairs).value.dict <= more
    ensures GroupStore.MatchCongs(more, pairs) == Ok(GroupStore.Matched(more, GroupStore.MatchCongs(congs, pairs).value.names))
    decreases |pairs|
  {
    if pairs != [] {
      var m := GroupStore.MatchCong(congs, pairs[0].0, pairs[0].1).value;
      var rest := GroupStore.MatchCongs(m.dict, pairs[1..]).value;
      assert m.dict <= more;
      MatchCongStable(congs, more, pairs[0].0, pairs[0].1);
      MatchCongsStable(m.dict, more, pairs[1..]);
    }
  }

  /** What `collHandler` records, `prove(coll)` confirms. */
  lemma ProveAfterColl(st: GroupStore.Store, ps: seq<Point>)
    requires GroupStore.CollHandler(st.lines, ps).Ok?
    ensures ProveColl(st.(lines := GroupStore.CollHandler(st.lines, ps).value), ps)
  {
    var lines := GroupStore.CollHandler(st.lines, ps).value;
    GroupStore.CollCovers(st.lines, ps);
    var j :| 0 <= j < |lines| && GroupStore.AllOn(ps, lines[j].members);
    assert Elems(ps) <= Elems(lines[j].members);
  }

  /** What `midpHandler` records, `prove(midp)` confirms, with the endpoints
      in either order. */
  lemma ProveAfterMidp(st: GroupStore.Store, m: Point, a: Point, b: Point)
    requires GroupStore.MidpHandler(st, [m, a, b]).Ok?
    ensures ProveMidp(GroupStore.MidpHandler(st, [m, a, b]).value, [m, a, b])
    ensures ProveMidp(GroupStore.MidpHandler(st, [m, a, b]).value, [m, b, a])
  {
    var st' := GroupStore.MidpHandler(st, [m, a, b]).value;
    assert GroupStore.MidpTriple(m, a, b) in Elems(st'.midpFacts);
    SegEqIffSameEnds(Segment(a, b), Segment(b, a));
    assert GroupStore.MidpTriple(m, a, b) == GroupStore.MidpTriple(m, b, a);
  }

  /** What `congHandler` records, `prove(cong)` confirms. */
  lemma ProveAfterCong(st: GroupStore.Store, ps: seq<Point>)
    requires GroupStore.CongHandler(st, ps).Ok?
    ensures ProveCong(GroupStore.CongHandler(st, ps).value, ps)
  {
    var s1, s2 := Segment(ps[0], ps[1]), Segment(ps[2], ps[3]);
    var congs := GroupStore.CongHandler(st, ps).value.congs;
    GroupStore.CongCovers(st.congs, s1, s2);
    var j :| 0 <= j < |congs| && GroupStore.HasSeg(congs[j].members, s1) && GroupStore.HasSeg(congs[j].members, s2);
  }

  /** What `paraHandler` records, `prove(para)` confirms: the query matches
      the two lines the handler matched. */
  lemma ProveAfterPara(st: GroupStore.Store, ps: seq<Point>)
    requires GroupStore.ParaHandler(st, ps).Ok?
    ensures ProvePara(GroupStore.ParaHandler(st, ps).value, ps) == Ok(true)
  {
    var pairs := [(ps[0], ps[1]), (ps[2], ps[3])];
    var m := GroupStore.MatchLines(st.lines, pairs).value;
    MatchLinesStable(st.lines, m.dict, pairs);
  }

  /** What `eqangleHandler` records, `prove(eqangle)` confirms, in the
      pairing it was given. */
  lemma ProveAfterEqangle(st: GroupStore.Store, ps: seq<Point>)
    requires GroupStore.EqangleHandler(st, ps).Ok?
    ensures ProveEqangle(GroupStore.EqangleHandler(st, ps).value, ps) == Ok(true)
  {
    var pairs := GroupStore.Pairs4(ps);
    var m := GroupStore.MatchLines(st.lines, pairs).value;
    MatchLinesStable(st.lines, m.dict, pairs);
    var facts := GroupStore.EqangleHandler(st, ps).value.eqangleFacts;
    var i :| 0 <= i < |facts| && Angle(m.names[0], m.names[1]) in facts[i] && Angle(m.names[2], m.names[3]) in facts[i];
    assert AngleGroupHolds(facts[i], m.names);
  }

  /** What `eqratioHandler` records, `prove(eqratio)` confirms. */
  lemma ProveAfterEqratio(st: GroupStore.Store, ps: seq<Point>)
    requires GroupStore.EqratioHandler(st, ps).Ok?
    ensures ProveEqratio(GroupStore.EqratioHandler(st, ps).value, ps) == Ok(true)
  {
    var pairs := GroupStore.Pairs4(ps);
    EqratioHandlerSteps(st, ps);
    var m := GroupStore.MatchCongs(st.congs, pairs).value;
    MatchCongsStable(st.congs, m.dict, pairs);
    var facts := MergePair(st.eqratioFacts, Ratio(m.names[0], m.names[1]), Ratio(m.names[2], m.names[3])).value;
    var i :| 0 <= i < |facts| && Ratio(m.names[0], m.names[1]) in facts[i] && Ratio(m.names[2], m.names[3]) in facts[i];
    assert RatioGroupHolds(facts[i], m.names);
    var after := GroupStore.EqratioHandler(st, ps).value;
    assert after.congs == m.dict && after.eqratioFacts == facts;
    ProveEqratioHeld(after, ps, m.names);
  }

  lemma ProveEqratioHeld(st: GroupStore.Store, ps: seq<Point>, names: seq<CongKey>)
    requires |ps| == 8 && |names| == 4
    requires GroupStore.MatchCongs(st.congs, GroupStore.Pairs4(ps)) == Ok(GroupStore.Matched(st.congs, names))
    requires RatiosHeld(st.eqratioFacts, names)
    ensures ProveEqratio(st, ps) == Ok(true)
  {
  }

  /** `prove(eqratio)` as written: `Ratio` defines no `__eq__`, so each
      `Ratio(c1, c2) in ratios` compares a fresh object by identity and never
      holds.  After the four `matchCong` calls the answer is always False. */
  function ProveEqratioAsWritten(st: GroupStore.Store, ps: seq<Point>): (r: Result<bool>)
    requires |ps| == 8
    ensures r.Fail? <==> ProveEqratio(st, ps).Fail?
    ensures r.Fail? ==> r == ProveEqratio(st, ps)
    ensures r.Ok? ==> !r.value
  {
    match GroupStore.MatchCongs(st.congs, GroupStore.Pairs4(ps))
    case Ok(_) => Ok(false)
    case Fail(e) => Fail(e)
  }

  /** The discrepancy: what `eqratioHandler` has just recorded, the query
      as written denies, while the query comparing ratios by their classes
      confirms it. */
  lemma EqratioDenied(st: GroupStore.Store, ps: seq<Point>)
    requires GroupStore.EqratioHandler(st, ps).Ok?
    ensures |ps| == 8
    ensures ProveEqratio(GroupStore.EqratioHandler(st, ps).value, ps) == Ok(true)
    ensures ProveEqratioAsWritten(GroupStore.EqratioHandler(st, ps).value, ps) == Ok(false)
  {
    ProveAfterEqratio(st, ps);
  }

  /** The two steps of a successful `eqratioHandler`: match the four
      segments, then merge the two ratios into the groups. */
  lemma EqratioHandlerSteps(st: GroupStore.Store, ps: seq<Point>)
    requires GroupStore.EqratioHandler(st, ps).Ok?
    ensures |ps| == 8 && GroupStore.MatchCongs(st.congs, GroupStore.Pairs4(ps)).Ok?
    ensures var m := GroupStore.MatchCongs(st.congs, GroupStore.Pairs4(ps)).value;
      |m.names| == 4 &&
      MergePair(st.eqratioFacts, Ratio(m.names[0], m.names[1]), Ratio(m.names[2], m.names[3])).Ok? &&
      GroupStore.EqratioHandler(st, ps).value ==
        st.(congs := m.dict, eqratioFacts := MergePair(st.eqratioFacts, Ratio(m.names[0], m.names[1]), Ratio(m.names[2], m.names[3])).value)
  {
    var m := GroupStore.MatchCongs(st.congs, GroupStore.Pairs4(ps)).value;
    GroupStore.RatiosHeld(m.dict, m.names, ps);
  }

  /** `lines[name]`: the points of the first entry under `name`. */
  function LineMembers(lines: GroupStore.Lines, name: LineKey): seq<Point> {
    match Lookup(lines, name)
    case Some(m) => m
    case None => []
  }

  /** Line names stay distinct through a run of `matchLine` calls. */
  lemma {:induction false} MatchLinesKeysDistinct(lines: GroupStore.Lines, pairs: seq<(Point, Point)>)
    requires NoDup(Keys(lines)) && GroupStore.MatchLines(lines, pairs).Ok?
    ensures NoDup(Keys(GroupStore.MatchLines(lines, pairs).value.dict))
    decreases |pairs|
  {
    if pairs != [] {
      var m := GroupStore.MatchLine(lines, pairs[0].0, pairs[0].1).value;
      if m.dict != lines {
        GroupStore.KeysAppend(lines, m.name, GroupStore.SetOf([pairs[0].0, pairs[0].1]));
      }
      MatchLinesKeysDistinct(m.dict, pairs[1..]);
    }
  }

  /** Under distinct names, the points read back for a line through `p, q`
      include `p` and `q`. */
  lemma ThroughMembers(lines: GroupStore.Lines, name: LineKey, p: Point, q: Point)
    requires NoDup(Keys(lines)) && GroupStore.Through(lines, name, p, q)
    ensures p in LineMembers(lines, name) && q in LineMembers(lines, name)
  {
    var i :| 0 <= i < |lines| && lines[i].key == name && p in lines[i].members && q in lines[i].members;
    assert Keys(lines)[i] == name;
    var j :| 0 <= j < |lines| && lines[j].key == name && lines[j].members == LineMembers(lines, name);
    assert Keys(lines)[j] == name;
  }

  /** The points of the four lines `_predicate_all_forms` matches for an
      eight-point predicate, read after all four matches. */
  function FormLines(kb: Kb, ps: seq<Point>): (r: Result<seq<seq<Point>>>)
    requires |ps| == 8
    ensures r.Ok? ==> |r.value| == 4
    ensures r.Ok? && NoDup(Keys(kb.store.lines)) ==>
      forall k | 0 <= k < 4 :: ps[2 * k] in r.value[k] && ps[2 * k + 1] in r.value[k]
    ensures r.Fail? ==> r.error == NameExhausted
  {
    match GroupStore.MatchLines(kb.store.lines, GroupStore.Pairs4(ps))
    case Fail(e) => Fail(e)
    case Ok(m) =>
      GroupStore.LinesHeld(m.dict, m.names, ps);
      if NoDup(Keys(kb.store.lines)) then
        FormLinesHold(kb.store.lines, ps);
        Ok(MembersOf(m.dict, m.names))
      else Ok(MembersOf(m.dict, m.names))
  }

  /** The points read back for each of `names`. */
  function MembersOf(lines: GroupStore.Lines, names: seq<LineKey>): (r: seq<seq<Point>>)
    ensures |r| == |names| && forall k | 0 <= k < |names| :: r[k] == LineMembers(lines, names[k])
  {
    Map(names, (n: LineKey) => LineMembers(lines, n))
  }

  /** Under distinct names, the k-th line read back holds the k-th pair. */
  lemma FormLinesHold(lines: GroupStore.Lines, ps: seq<Point>)
    requires |ps| == 8 && NoDup(Keys(lines))
    requires GroupStore.MatchLines(lines, GroupStore.Pairs4(ps)).Ok?
    ensures var m := GroupStore.MatchLines(lines, GroupStore.Pairs4(ps)).value;
      |m.names| == 4 &&
      forall k | 0 <= k < 4 :: ps[2 * k] in MembersOf(m.dict, m.names)[k] && ps[2 * k + 1] in MembersOf(m.dict, m.names)[k]
  {
    var pairs := GroupStore.Pairs4(ps);
    var m := GroupStore.MatchLines(lines, pairs).value;
    MatchLinesKeysDistinct(lines, pairs);
    var ls := MembersOf(m.dict, m.names);
    forall k | 0 <= k < 4 ensures ps[2 * k] in ls[k] && ps[2 * k + 1] in ls[k] {
      GroupStore.LinesHoldAt(m.dict, m.names, pairs, k);
      ThroughMembers(m.dict, m.names[k], pairs[k].0, pairs[k].1);
    }
  }


  /** `q` is an equal-angle predicate whose k-th point pair is a pair of
      `ls[k]` taken in stored order. */
  predicate IsForm(q: Pred, ls: seq<seq<Point>>)
    requires |ls| == 4
  {
    q.kind == "eqangle" && |q.points| == 8
    && (q.points[0], q.points[1]) in Pairs(ls[0]) && (q.points[2], q.points[3]) in Pairs(ls[1])
    && (q.points[4], q.points[5]) in Pairs(ls[2]) && (q.points[6], q.points[7]) in Pairs(ls[3])
  }

  /** Every pairing of an element of `xs` with one of `ys`, `xs` outermost. */
  function Cross<A, B>(xs: seq<A>, ys: seq<B>): (r: seq<(A, B)>)
    ensures |r| == |xs| * |ys|
    decreases |xs|
  {
    if xs == [] then [] else Map(ys, (y: B) => (xs[0], y)) + Cross(xs[1..], ys)
  }

  /** Every pairing appears in `Cross`. */
  lemma {:induction false} CrossHas<A, B>(xs: seq<A>, ys: seq<B>, a: A, b: B)
    requires a in xs && b in ys
    ensures (a, b) in Cross(xs, ys)
    decreases |xs|
  {
    var head := Map(ys, (y: B) => (xs[0], y));
    if a == xs[0] {
      var j :| 0 <= j < |ys| && ys[j] == b;
      assert head[j] == (a, b);
      assert Cross(xs, ys)[j] == (a, b);
    } else {
      assert a in xs[1..];
      CrossHas(xs[1..], ys, a, b);
      var k :| 0 <= k < |Cross(xs[1..], ys)| && Cross(xs[1..], ys)[k] == (a, b);
      assert Cross(xs, ys)[|head| + k] == (a, b);
    }
  }

  /** Only pairings appear in `Cross`. */
  lemma {:induction false} CrossFrom<A, B>(xs: seq<A>, ys: seq<B>, t: (A, B))
    requires t in Cross(xs, ys)
    ensures t.0 in xs && t.1 in ys
    decreases |xs|
  {
    var head := Map(ys, (y: B) => (xs[0], y));
    var tail := Cross(xs[1..], ys);
    assert Cross(xs, ys) == head + tail;
    if t in head {
      var j :| 0 <= j < |head| && head[j] == t;
      assert t == (xs[0], ys[j]);
    } else {
      assert t in tail;
      CrossFrom(xs[1..], ys, t);
    }
  }

  /** The predicate spelled by one choice of four point pairs. */
  function Spell(t: (((Point, Point), (Point, Point)), ((Point, Point), (Point, Point)))): Pred {
    Pred("eqangle", [t.0.0.0, t.0.0.1, t.0.1.0, t.0.1.1, t.1.0.0, t.1.0.1, t.1.1.0, t.1.1.1])
  }

  /** The four nested `combinations` loops. */
  function Forms(ls: seq<seq<Point>>): (r: seq<Pred>)
    requires |ls| == 4
    ensures forall q | q in r :: IsForm(q, ls)
    ensures forall q: Pred | IsForm(q, ls) :: q in r
  {
    var r := Map(Choices(ls), Spell);
    FormsSound(ls);
    forall q: Pred | IsForm(q, ls) ensures q in r {
      FormsComplete(ls, q);
    }
    r
  }

  function Choices(ls: seq<seq<Point>>): seq<(((Point, Point), (Point, Point)), ((Point, Point), (Point, Point)))>
    requires |ls| == 4
  {
    Cross(Cross(Pairs(ls[0]), Pairs(ls[1])), Cross(Pairs(ls[2]), Pairs(ls[3])))
  }

  lemma FormsSound(ls: seq<seq<Point>>)
    requires |ls| == 4
    ensures forall q | q in Map(Choices(ls), Spell) :: IsForm(q, ls)
  {
    var choices := Choices(ls);
    var r := Map(choices, Spell);
    forall k | 0 <= k < |r| ensures IsForm(r[k], ls) {
      SpellIsForm(ls, choices[k]);
    }
  }

  lemma SpellIsForm(ls: seq<seq<Point>>, t: (((Point, Point), (Point, Point)), ((Point, Point), (Point, Point))))
    requires |ls| == 4 && t in Choices(ls)
    ensures IsForm(Spell(t), ls)
  {
    var x, y := Cross(Pairs(ls[0]), Pairs(ls[1])), Cross(Pairs(ls[2]), Pairs(ls[3]));
    CrossFrom(x, y, t);
    CrossFrom(Pairs(ls[0]), Pairs(ls[1]), t.0);
    CrossFrom(Pairs(ls[2]), Pairs(ls[3]), t.1);
    SpellPairs(t);
  }

  /** The four point pairs of a spelled predicate are the chosen ones. */
  lemma SpellPairs(t: (((Point, Point), (Point, Point)), ((Point, Point), (Point, Point))))
    ensures var q := Spell(t);
      |q.points| == 8 && (q.points[0], q.points[1]) == t.0.0 && (q.points[2], q.points[3]) == t.0.1
      && (q.points[4], q.points[5]) == t.1.0 && (q.points[6], q.points[7]) == t.1.1
  {
  }

  lemma FormsComplete(ls: seq<seq<Point>>, q: Pred)
    requires |ls| == 4 && IsForm(q, ls)
    ensures q in Map(Choices(ls), Spell)
  {
    var a, b := (q.points[0], q.points[1]), (q.points[2], q.points[3]);
    var c, d := (q.points[4], q.points[5]), (q.points[6], q.points[7]);
    var x, y := Cross(Pairs(ls[0]), Pairs(ls[1])), Cross(Pairs(ls[2]), Pairs(ls[3]));
    CrossHas(Pairs(ls[0]), Pairs(ls[1]), a, b);
    CrossHas(Pairs(ls[2]), Pairs(ls[3]), c, d);
    CrossHas(x, y, (a, b), (c, d));
    MapHas(Choices(ls), Spell, ((a, b), (c, d)));
    SpellOf(q);
  }

  lemma MapHas<T, U>(xs: seq<T>, f: T -> U, x: T)
    requires x in xs
    ensures f(x) in Map(xs, f)
  {
    var k :| 0 <= k < |xs| && xs[k] == x;
    assert Map(xs, f)[k] == f(x);
  }

  /** An equal-angle predicate is the spelling of its own four pairs. */
  lemma SpellOf(q: Pred)
    requires q.kind == "eqangle" && |q.points| == 8
    ensures Spell((((q.points[0], q.points[1]), (q.points[2], q.points[3])),
                   ((q.points[4], q.points[5]), (q.points[6], q.points[7])))) == q
  {
    var s := q.points;
    assert s == [s[0], s[1], s[2], s[3], s[4], s[5], s[6], s[7]];
  }

  /** `_predicate_all_forms(predicate)`: an equal-angle predicate becomes
      every predicate that picks two points, in stored order, from each of
      the four lines it names; any other predicate is its own only form. */
  function AllForms(kb: Kb, p: Pred): (r: Result<seq<Pred>>)
    ensures p.kind != "eqangle" ==> r == Ok([p])
    ensures p.kind == "eqangle" && |p.points| != 8 ==> r == Fail(MalformedArity)
    ensures r.Fail? ==> r.error in {MalformedArity, NameExhausted}
    ensures r.Ok? && p.kind == "eqangle" ==> (|p.points| == 8 && FormLines(kb, p.points).Ok?
      && (forall q | q in r.value :: IsForm(q, FormLines(kb, p.points).value))
      && (forall q: Pred | IsForm(q, FormLines(kb, p.points).value) :: q in r.value))
  {
    if p.kind != "eqangle" then Ok([p])
    else if |p.points| != 8 then Fail(MalformedArity)
    else
      var ls :- FormLines(kb, p.points);
      Ok(Forms(ls))
  }

  /** Under distinct line names, a predicate whose point pairs each appear
      in stored order on their lines is among its own forms. */
  lemma OwnForm(kb: Kb, p: Pred)
    requires p.kind == "eqangle" && |p.points| == 8 && NoDup(Keys(kb.store.lines))
    requires FormLines(kb, p.points).Ok?
    requires var ls := FormLines(kb, p.points).value;
      forall k | 0 <= k < 4 :: exists i, j | 0 <= i < j < |ls[k]| :: ls[k][i] == p.points[2 * k] && ls[k][j] == p.points[2 * k + 1]
    ensures AllForms(kb, p).Ok? && p in AllForms(kb, p).value
  {
    var ls := FormLines(kb, p.points).value;
    forall k | 0 <= k < 4 ensures (p.points[2 * k], p.points[2 * k + 1]) in Pairs(ls[k]) {
      var i, j :| 0 <= i < j < |ls[k]| && ls[k][i] == p.points[2 * k] && ls[k][j] == p.points[2 * k + 1];
    }
    assert (p.points[0], p.points[1]) in Pairs(ls[0]);
    assert (p.points[2], p.points[3]) in Pairs(ls[1]);
    assert (p.points[4], p.points[5]) in Pairs(ls[2]);
    assert (p.points[6], p.points[7]) in Pairs(ls[3]);
    assert IsForm(p, ls);
  }
}


=== FILE: pointrules.dfy ===
/** The rule bodies of `src/prover.py` that rearrange their premise or test
    a guard: each maps the database and a point-level premise to the
    predicates it concludes.  A premise with the wrong number of points is
    the unpacking `ValueError`; a `matchLine` or `matchCong` that runs out of
    names is `NameExhausted`.  The rules that search the store are in
    `PointSearch`. */
module PointRules {
  import opened Common
  import opened Primitives
  import opened Predicates
  import opened Snapshot
  import GroupStore
  import PointQuery

  /** `q` lists the same points as `ps`, as many of them, in some order:
      nothing is invented and nothing is dropped. */
  predicate Rearranges(q: seq<Point>, ps: seq<Point>) {
    |q| == |ps| && (forall k | 0 <= k < |q| :: q[k] in ps) && (forall k | 0 <= k < |ps| :: ps[k] in q)
  }

  /** `q` names only points of `ps` and names every one of them. */
  predicate Covers(q: seq<Point>, ps: seq<Point>) {
    (forall k | 0 <= k < |q| :: q[k] in ps) && (forall k | 0 <= k < |ps| :: ps[k] in q)
  }

  /** D01: coll(A, B, C) => coll(A, C, B). */
  function D01(p: Pred): (r: Result<seq<Pred>>)
    ensures r.Fail? <==> |p.points| != 3
    ensures r.Fail? ==> r.error == MalformedArity
    ensures r.Ok? ==> |r.value| == 1 && r.value[0].kind == "coll"
    ensures r.Ok? ==> Rearranges(r.value[0].points, p.points)
  {
    if |p.points| != 3 then Fail(MalformedArity)
    else
      var ps := p.points;
      assert ps == [ps[0], ps[1], ps[2]];
      Ok([Pred("coll", [ps[0], ps[2], ps[1]])])
  }

  /** D02: coll(A, B, C) => coll(B, A, C). */
  function D02(p: Pred): (r: Result<seq<Pred>>)
    ensures r.Fail? <==> |p.points| != 3
    ensures r.Fail? ==> r.error == MalformedArity
    ensures r.Ok? ==> |r.value| == 1 && r.value[0].kind == "coll"
    ensures r.Ok? ==> Rearranges(r.value[0].points, p.points)
  {
    if |p.points| != 3 then Fail(MalformedArity)
    else
      var ps := p.points;
      assert ps == [ps[0], ps[1], ps[2]];
      Ok([Pred("coll", [ps[1], ps[0], ps[2]])])
  }

  /** D04: para(A, B, C, D) => para(A, B, D, C). */
  function D04(p: Pred): (r: Result<seq<Pred>>)
    ensures r.Fail? <==> |p.points| != 4
    ensures r.Fail? ==> r.error == MalformedArity
    ensures r.Ok? ==> |r.value| == 1 && r.value[0].kind == "para"
    ensures r.Ok? ==> Rearranges(r.value[0].points, p.points)
  {
    if |p.points| != 4 then Fail(MalformedArity)
    else
      var ps := p.points;
      assert ps == [ps[0], ps[1], ps[2], ps[3]];
      Ok([Pred("para", [ps[0], ps[1], ps[3], ps[2]])])
  }

  /** D05: para(A, B, C, D) => para(C, D, A, B). */
  function D05(p: Pred): (r: Result<seq<Pred>>)
    ensures r.Fail? <==> |p.points| != 4
    ensures r.Fail? ==> r.error == MalformedArity
    ensures r.Ok? ==> |r.value| == 1 && r.value[0].kind == "para"
    ensures r.Ok? ==> Rearranges(r.value[0].points, p.points)
  {
    if |p.points| != 4 then Fail(MalformedArity)
    else
      var ps := p.points;
      assert ps == [ps[0], ps[1], ps[2], ps[3]];
      Ok([Pred("para", [ps[2], ps[3], ps[0], ps[1]])])
  }

  /** D07: perp(A, B, C, D) => perp(A, B, D, C). */
  function D07(p: Pred): (r: Result<seq<Pred>>)
    ensures r.Fail? <==> |p.points| != 4
    ensures r.Fail? ==> r.error == MalformedArity
    ensures r.Ok? ==> |r.value| == 1 && r.value[0].kind == "perp"
    ensures r.Ok? ==> Rearranges(r.value[0].points, p.points)
  {
    if |p.points| != 4 then Fail(MalformedArity)
    else
      var ps := p.points;
      assert ps == [ps[0], ps[1], ps[2], ps[3]];
      Ok([Pred("perp", [ps[0], ps[1], ps[3], ps[2]])])
  }

  /** D08: perp(A, B, C, D) => perp(C, D, A, B). */
  function D08(p: Pred): (r: Result<seq<Pred>>)
    ensures r.Fail? <==> |p.points| != 4
    ensures r.Fail? ==> r.error == MalformedArity
    ensures r.Ok? ==> |r.value| == 1 && r.value[0].kind == "perp"
    ensures r.Ok? ==> Rearranges(r.value[0].points, p.points)
  {
    if |p.points| != 4 then Fail(MalformedArity)
    else
      var ps := p.points;
      assert ps == [ps[0], ps[1], ps[2], ps[3]];
      Ok([Pred("perp", [ps[2], ps[3], ps[0], ps[1]])])
  }

  /** D11: midp(M, A, B) => midp(M, B, A). */
  function D11(p: Pred): (r: Result<seq<Pred>>)
    ensures r.Fail? <==> |p.points| != 3
    ensures r.Fail? ==> r.error == MalformedArity
    ensures r.Ok? ==> |r.value| == 1 && r.value[0].kind == "midp"
    ensures r.Ok? ==> Rearranges(r.value[0].points, p.points)
  {
    if |p.points| != 3 then Fail(MalformedArity)
    else
      var ps := p.points;
      assert ps == [ps[0], ps[1], ps[2]];
      Ok([Pred("midp", [ps[0], ps[2], ps[1]])])
  }

  /** D14: cyclic(A, B, C, D) => cyclic(A, B, D, C). */
  function D14(p: Pred): (r: Result<seq<Pred>>)
    ensures r.Fail? <==> |p.points| != 4
    ensures r.Fail? ==> r.error == MalformedArity
    ensures r.Ok? ==> |r.value| == 1 && r.value[0].kind == "cyclic"
    ensures r.Ok? ==> Rearranges(r.value[0].points, p.points)
  {
    if |p.points| != 4 then Fail(MalformedArity)
    else
      var ps := p.points;
      assert ps == [ps[0], ps[1], ps[2], ps[3]];
      Ok([Pred("cyclic", [ps[0], ps[1], ps[3], ps[2]])])
  }

  /** D15: cyclic(A, B, C, D) => cyclic(A, C, B, D). */
  function D15(p: Pred): (r: Result<seq<Pred>>)
    ensures r.Fail? <==> |p.points| != 4
    ensures r.Fail? ==> r.error == MalformedArity
    ensures r.Ok? ==> |r.value| == 1 && r.value[0].kind == "cyclic"
    ensures r.Ok? ==> Rearranges(r.value[0].points, p.points)
  {
    if |p.points| != 4 then Fail(MalformedArity)
    else
      var ps := p.points;
      assert ps == [ps[0], ps[1], ps[2], ps[3]];
      Ok([Pred("cyclic", [ps[0], ps[2], ps[1], ps[3]])])
  }

  /** D16: cyclic(A, B, C, D) => cyclic(B, A, C, D). */
  function D16(p: Pred): (r: Result<seq<Pred>>)
    ensures r.Fail? <==> |p.points| != 4
    ensures r.Fail? ==> r.error == MalformedArity
    ensures r.Ok? ==> |r.value| == 1 && r.value[0].kind == "cyclic"
    ensures r.Ok? ==> Rearranges(r.value[0].points, p.points)
  {
    if |p.points| != 4 then Fail(MalformedArity)
    else
      var ps := p.points;
      assert ps == [ps[0], ps[1], ps[2], ps[3]];
      Ok([Pred("cyclic", [ps[1], ps[0], ps[2], ps[3]])])
  }

  /** D18: eqangle(A, B, C, D, P, Q, U, V) => eqangle(B, A, C, D, P, Q, U, V). */
  function D18(p: Pred): (r: Result<seq<Pred>>)
    ensures r.Fail? <==> |p.points| != 8
    ensures r.Fail? ==> r.error == MalformedArity
    ensures r.Ok? ==> |r.value| == 1 && r.value[0].kind == "eqangle"
    ensures r.Ok? ==> Rearranges(r.value[0].points, p.points)
  {
    if |p.points| != 8 then Fail(MalformedArity)
    else
      var ps := p.points;
      assert ps == [ps[0], ps[1], ps[2], ps[3], ps[4], ps[5], ps[6], ps[7]];
      Ok([Pred("eqangle", [ps[1], ps[0], ps[2], ps[3], ps[4], ps[5], ps[6], ps[7]])])
  }

  /** D19: eqangle(A, B, C, D, P, Q, U, V) => eqangle(C, D, A, B, U, V, P, Q). */
  function D19(p: Pred): (r: Result<seq<Pred>>)
    ensures r.Fail? <==> |p.points| != 8
    ensures r.Fail? ==> r.error == MalformedArity
    ensures r.Ok? ==> |r.value| == 1 && r.value[0].kind == "eqangle"
    ensures r.Ok? ==> Rearranges(r.value[0].points, p.points)
  {
    if |p.points| != 8 then Fail(MalformedArity)
    else
      var ps := p.points;
      assert ps == [ps[0], ps[1], ps[2], ps[3], ps[4], ps[5], ps[6], ps[7]];
      Ok([Pred("eqangle", [ps[2], ps[3], ps[0], ps[1], ps[6], ps[7], ps[4], ps[5]])])
  }

  /** D20: eqangle(A, B, C, D, P, Q, U, V) => eqangle(P, Q, U, V, A, B, C, D). */
  function D20(p: Pred): (r: Result<seq<Pred>>)
    ensures r.Fail? <==> |p.points| != 8
    ensures r.Fail? ==> r.error == MalformedArity
    ensures r.Ok? ==> |r.value| == 1 && r.value[0].kind == "eqangle"
    ensures r.Ok? ==> Rearranges(r.value[0].points, p.points)
  {
    if |p.points| != 8 then Fail(MalformedArity)
    else
      var ps := p.points;
      assert ps == [ps[0], ps[1], ps[2], ps[3], ps[4], ps[5], ps[6], ps[7]];
      Ok([Pred("eqangle", [ps[4], ps[5], ps[6], ps[7], ps[0], ps[1], ps[2], ps[3]])])
  }

  /** D23: cong(A, B, C, D) => cong(A, B, D, C). */
  function D23(p: Pred): (r: Result<seq<Pred>>)
    ensures r.Fail? <==> |p.points| != 4
    ensures r.Fail? ==> r.error == MalformedArity
    ensures r.Ok? ==> |r.value| == 1 && r.value[0].kind == "cong"
    ensures r.Ok? ==> Rearranges(r.value[0].points, p.points)
  {
    if |p.points| != 4 then Fail(MalformedArity)
    else
      var ps := p.points;
      assert ps == [ps[0], ps[1], ps[2], ps[3]];
      Ok([Pred("cong", [ps[0], ps[1], ps[3], ps[2]])])
  }

  /** D24: cong(A, B, C, D) => cong(C, D, A, B). */
  function D24(p: Pred): (r: Result<seq<Pred>>)
    ensures r.Fail? <==> |p.points| != 4
    ensures r.Fail? ==> r.error == MalformedArity
    ensures r.Ok? ==> |r.value| == 1 && r.value[0].kind == "cong"
    ensures r.Ok? ==> Rearranges(r.value[0].points, p.points)
  {
    if |p.points| != 4 then Fail(MalformedArity)
    else
      var ps := p.points;
      assert ps == [ps[0], ps[1], ps[2], ps[3]];
      Ok([Pred("cong", [ps[2], ps[3], ps[0], ps[1]])])
  }

  /** D26: eqratio(A, B, C, D, P, Q, U, V) => eqratio(B, A, C, D, P, Q, U, V). */
  function D26(p: Pred): (r: Result<seq<Pred>>)
    ensures r.Fail? <==> |p.points| != 8
    ensures r.Fail? ==> r.error == MalformedArity
    ensures r.Ok? ==> |r.value| == 1 && r.value[0].kind == "eqratio"
    ensures r.Ok? ==> Rearranges(r.value[0].points, p.points)
  {
    if |p.points| != 8 then Fail(MalformedArity)
    else
      var ps := p.points;
      assert ps == [ps[0], ps[1], ps[2], ps[3], ps[4], ps[5], ps[6], ps[7]];
      Ok([Pred("eqratio", [ps[1], ps[0], ps[2], ps[3], ps[4], ps[5], ps[6], ps[7]])])
  }

  /** D27: eqratio(A, B, C, D, P, Q, U, V) => eqratio(C, D, A, B, U, V, P, Q). */
  function D27(p: Pred): (r: Result<seq<Pred>>)
    ensures r.Fail? <==> |p.points| != 8
    ensures r.Fail? ==> r.error == MalformedArity
    ensures r.Ok? ==> |r.value| == 1 && r.value[0].kind == "eqratio"
    ensures r.Ok? ==> Rearranges(r.value[0].points, p.points)
  {
    if |p.points| != 8 then Fail(MalformedArity)
    else
      var ps := p.points;
      assert ps == [ps[0], ps[1], ps[2], ps[3], ps[4], ps[5], ps[6], ps[7]];
      Ok([Pred("eqratio", [ps[2], ps[3], ps[0], ps[1], ps[6], ps[7], ps[4], ps[5]])])
  }

  /** D28: eqratio(A, B, C, D, P, Q, U, V) => eqratio(P, Q, U, V, A, B, C, D). */
  function D28(p: Pred): (r: Result<seq<Pred>>)
    ensures r.Fail? <==> |p.points| != 8
    ensures r.Fail? ==> r.error == MalformedArity
    ensures r.Ok? ==> |r.value| == 1 && r.value[0].kind == "eqratio"
    ensures r.Ok? ==> Rearranges(r.value[0].points, p.points)
  {
    if |p.points| != 8 then Fail(MalformedArity)
    else
      var ps := p.points;
      assert ps == [ps[0], ps[1], ps[2], ps[3], ps[4], ps[5], ps[6], ps[7]];
      Ok([Pred("eqratio", [ps[4], ps[5], ps[6], ps[7], ps[0], ps[1], ps[2], ps[3]])])
  }

  /** D29: eqratio(A, B, C, D, P, Q, U, V) => eqratio(A, B, P, Q, C, D, U, V). */
  function D29(p: Pred): (r: Result<seq<Pred>>)
    ensures r.Fail? <==> |p.points| != 8
    ensures r.Fail? ==> r.error == MalformedArity
    ensures r.Ok? ==> |r.value| == 1 && r.value[0].kind == "eqratio"
    ensures r.Ok? ==> Rearranges(r.value[0].points, p.points)
  {
    if |p.points| != 8 then Fail(MalformedArity)
    else
      var ps := p.points;
      assert ps == [ps[0], ps[1], ps[2], ps[3], ps[4], ps[5], ps[6], ps[7]];
      Ok([Pred("eqratio", [ps[0], ps[1], ps[4], ps[5], ps[2], ps[3], ps[6], ps[7]])])
  }

  /** D31: simtri(A, B, C, P, Q, R) => simtri(A, C, B, P, R, Q). */
  function D31(p: Pred): (r: Result<seq<Pred>>)
    ensures r.Fail? <==> |p.points| != 6
    ensures r.Fail? ==> r.error == MalformedArity
    ensures r.Ok? ==> |r.value| == 1 && r.value[0].kind == "simtri"
    ensures r.Ok? ==> Rearranges(r.value[0].points, p.points)
  {
    if |p.points| != 6 then Fail(MalformedArity)
    else
      var ps := p.points;
      assert ps == [ps[0], ps[1], ps[2], ps[3], ps[4], ps[5]];
      Ok([Pred("simtri", [ps[0], ps[2], ps[1], ps[3], ps[5], ps[4]])])
  }

  /** D32: simtri(A, B, C, P, Q, R) => simtri(B, A, C, Q, P, R). */
  function D32(p: Pred): (r: Result<seq<Pred>>)
    ensures r.Fail? <==> |p.points| != 6
    ensures r.Fail? ==> r.error == MalformedArity
    ensures r.Ok? ==> |r.value| == 1 && r.value[0].kind == "simtri"
    ensures r.Ok? ==> Rearranges(r.value[0].points, p.points)
  {
    if |p.points| != 6 then Fail(MalformedArity)
    else
      var ps := p.points;
      assert ps == [ps[0], ps[1], ps[2], ps[3], ps[4], ps[5]];
      Ok([Pred("simtri", [ps[1], ps[0], ps[2], ps[4], ps[3], ps[5]])])
  }

  /** D33: simtri(A, B, C, P, Q, R) => simtri(P, Q, R, A, B, C). */
  function D33(p: Pred): (r: Result<seq<Pred>>)
    ensures r.Fail? <==> |p.points| != 6
    ensures r.Fail? ==> r.error == MalformedArity
    ensures r.Ok? ==> |r.value| == 1 && r.value[0].kind == "simtri"
    ensures r.Ok? ==> Rearranges(r.value[0].points, p.points)
  {
    if |p.points| != 6 then Fail(MalformedArity)
    else
      var ps := p.points;
      assert ps == [ps[0], ps[1], ps[2], ps[3], ps[4], ps[5]];
      Ok([Pred("simtri", [ps[3], ps[4], ps[5], ps[0], ps[1], ps[2]])])
  }

  /** D35: contri(A, B, C, P, Q, R) => contri(A, C, B, P, R, Q). */
  function D35(p: Pred): (r: Result<seq<Pred>>)
    ensures r.Fail? <==> |p.points| != 6
    ensures r.Fail? ==> r.error == MalformedArity
    ensures r.Ok? ==> |r.value| == 1 && r.value[0].kind == "contri"
    ensures r.Ok? ==> Rearranges(r.value[0].points, p.points)
  {
    if |p.points| != 6 then Fail(MalformedArity)
    else
      var ps := p.points;
      assert ps == [ps[0], ps[1], ps[2], ps[3], ps[4], ps[5]];
      Ok([Pred("contri", [ps[0], ps[2], ps[1], ps[3], ps[5], ps[4]])])
  }

  /** D36: contri(A, B, C, P, Q, R) => contri(B, A, C, Q, P, R). */
  function D36(p: Pred): (r: Result<seq<Pred>>)
    ensures r.Fail? <==> |p.points| != 6
    ensures r.Fail? ==> r.error == MalformedArity
    ensures r.Ok? ==> |r.value| == 1 && r.value[0].kind == "contri"
    ensures r.Ok? ==> Rearranges(r.value[0].points, p.points)
  {
    if |p.points| != 6 then Fail(MalformedArity)
    else
      var ps := p.points;
      assert ps == [ps[0], ps[1], ps[2], ps[3], ps[4], ps[5]];
      Ok([Pred("contri", [ps[1], ps[0], ps[2], ps[4], ps[3], ps[5]])])
  }

  /** D37: contri(A, B, C, P, Q, R) => contri(P, Q, R, A, B, C). */
  function D37(p: Pred): (r: Result<seq<Pred>>)
    ensures r.Fail? <==> |p.points| != 6
    ensures r.Fail? ==> r.error == MalformedArity
    ensures r.Ok? ==> |r.value| == 1 && r.value[0].kind == "contri"
    ensures r.Ok? ==> Rearranges(r.value[0].points, p.points)
  {
    if |p.points| != 6 then Fail(MalformedArity)
    else
      var ps := p.points;
      assert ps == [ps[0], ps[1], ps[2], ps[3], ps[4], ps[5]];
      Ok([Pred("contri", [ps[3], ps[4], ps[5], ps[0], ps[1], ps[2]])])
  }

  /** Each of the collinearity swaps applied to its own conclusion gives back the premise. */
  lemma CollSwapsUndo(p: Pred)
    requires p.kind == "coll" && |p.points| == 3
    ensures D01(D01(p).value[0]) == Ok([p])
    ensures D02(D02(p).value[0]) == Ok([p])
  {
    assert p.points == [p.points[0], p.points[1], p.points[2]];
  }

  /** Each of the parallel swaps applied to its own conclusion gives back the premise. */
  lemma ParaSwapsUndo(p: Pred)
    requires p.kind == "para" && |p.points| == 4
    ensures D04(D04(p).value[0]) == Ok([p])
    ensures D05(D05(p).value[0]) == Ok([p])
  {
    assert p.points == [p.points[0], p.points[1], p.points[2], p.points[3]];
  }

  /** Each of the perpendicular swaps applied to its own conclusion gives back the premise. */
  lemma PerpSwapsUndo(p: Pred)
    requires p.kind == "perp" && |p.points| == 4
    ensures D07(D07(p).value[0]) == Ok([p])
    ensures D08(D08(p).value[0]) == Ok([p])
  {
    assert p.points == [p.points[0], p.points[1], p.points[2], p.points[3]];
  }

  /** Each of the midpoint swap applied to its own conclusion gives back the premise. */
  lemma MidpSwapUndoes(p: Pred)
    requires p.kind == "midp" && |p.points| == 3
    ensures D11(D11(p).value[0]) == Ok([p])
  {
    assert p.points == [p.points[0], p.points[1], p.points[2]];
  }

  /** Each of the concyclic swaps applied to its own conclusion gives back the premise. */
  lemma CyclicSwapsUndo(p: Pred)
    requires p.kind == "cyclic" && |p.points| == 4
    ensures D14(D14(p).value[0]) == Ok([p])
    ensures D15(D15(p).value[0]) == Ok([p])
    ensures D16(D16(p).value[0]) == Ok([p])
  {
    assert p.points == [p.points[0], p.points[1], p.points[2], p.points[3]];
  }

  /** Each of the equal-angle swaps applied to its own conclusion gives back the premise. */
  lemma EqangleSwapsUndo(p: Pred)
    requires p.kind == "eqangle" && |p.points| == 8
    ensures D18(D18(p).value[0]) == Ok([p])
    ensures D19(D19(p).value[0]) == Ok([p])
    ensures D20(D20(p).value[0]) == Ok([p])
  {
    assert p.points == [p.points[0], p.points[1], p.points[2], p.points[3], p.points[4], p.points[5], p.points[6], p.points[7]];
  }

  /** Each of the congruence swaps applied to its own conclusion gives back the premise. */
  lemma CongSwapsUndo(p: Pred)
    requires p.kind == "cong" && |p.points| == 4
    ensures D23(D23(p).value[0]) == Ok([p])
    ensures D24(D24(p).value[0]) == Ok([p])
  {
    assert p.points == [p.points[0], p.points[1], p.points[2], p.points[3]];
  }

  /** Each of the equal-ratio swaps applied to its own conclusion gives back the premise. */
  lemma EqratioSwapsUndo(p: Pred)
    requires p.kind == "eqratio" && |p.points| == 8
    ensures D26(D26(p).value[0]) == Ok([p])
    ensures D27(D27(p).value[0]) == Ok([p])
    ensures D28(D28(p).value[0]) == Ok([p])
    ensures D29(D29(p).value[0]) == Ok([p])
  {
    assert p.points == [p.points[0], p.points[1], p.points[2], p.points[3], p.points[4], p.points[5], p.points[6], p.points[7]];
  }

  /** Each of the similar-triangle swaps applied to its own conclusion gives back the premise. */
  lemma SimtriSwapsUndo(p: Pred)
    requires p.kind == "simtri" && |p.points| == 6
    ensures D31(D31(p).value[0]) == Ok([p])
    ensures D32(D32(p).value[0]) == Ok([p])
    ensures D33(D33(p).value[0]) == Ok([p])
  {
    assert p.points == [p.points[0], p.points[1], p.points[2], p.points[3], p.points[4], p.points[5]];
  }

  /** Each of the congruent-triangle swaps applied to its own conclusion gives back the premise. */
  lemma ContriSwapsUndo(p: Pred)
    requires p.kind == "contri" && |p.points| == 6
    ensures D35(D35(p).value[0]) == Ok([p])
    ensures D36(D36(p).value[0]) == Ok([p])
    ensures D37(D37(p).value[0]) == Ok([p])
  {
    assert p.points == [p.points[0], p.points[1], p.points[2], p.points[3], p.points[4], p.points[5]];
  }
}

=== FILE: pointsearch.dfy ===
/** The rule bodies of `src/prover.py` that search the store: they match
    the premise's lines or classes, then enumerate the groups, points,
    segments, midpoint triples or circles recorded with them.  A premise of
    the wrong size is the unpacking `ValueError`, running out of names is
    `NameExhausted`, and a group that names a line or class the store no
    longer holds is the `KeyError` of `lines[key]` or `congs[key]`. */
module PointSearch {
  import opened Common
  import opened Primitives
  import opened Predicates
  import opened Snapshot
  import opened RuleKit
  import GroupStore
  import PointQuery

  /** The conclusion a rule writes for a pair of points found in the store,
      after two fixed points of the premise. */
  function After(kind: string, a: Point, b: Point): (Point, Point) -> Pred {
    (e: Point, f: Point) => Pred(kind, [a, b, e, f])
  }

  /** `q` is what `mk` writes for two points at increasing positions of
      line `l`. */
  predicate OnPairOf(lines: GroupStore.Lines, l: LineKey, mk: (Point, Point) -> Pred, q: Pred) {
    match Lookup(lines, l)
    case None => false
    case Some(pts) => exists i, j | 0 <= i < j < |pts| :: q == mk(pts[i], pts[j])
  }

  /** `for (E, F) in itertools.combinations(lines[l], 2)`. */
  function OnLine(lines: GroupStore.Lines, l: LineKey, mk: (Point, Point) -> Pred): (r: Result<seq<Pred>>)
    ensures r.Ok? <==> l in Keys(lines)
    ensures r.Fail? ==> r.error == KeyMissing
    ensures r.Ok? ==> forall q :: q in r.value <==> OnPairOf(lines, l, mk, q)
  {
    var pts :- Read(lines, l);
    Ok(OverPairs(pts, mk))
  }

  /** The same over several lines, in order; the first unknown line raises. */
  function OnLines(lines: GroupStore.Lines, ls: seq<LineKey>, mk: (Point, Point) -> Pred): (r: Result<seq<Pred>>)
    ensures r.Ok? <==> forall l | l in ls :: l in Keys(lines)
    ensures r.Fail? ==> r.error == KeyMissing
    ensures r.Ok? ==> forall q :: q in r.value <==> exists l | l in ls :: OnPairOf(lines, l, mk, q)
    decreases |ls|
  {
    if ls == [] then Ok([])
    else
      assert forall l :: l in ls <==> l == ls[0] || l in ls[1..] by {
        assert ls == [ls[0]] + ls[1..];
      }
      assert ls[0] in ls;
      var here :- OnLine(lines, ls[0], mk);
      var rest :- OnLines(lines, ls[1..], mk);
      Ok(here + rest)
  }

  /** The two lines of a four-point premise, matched in order. */
  function TwoLines(kb: Kb, ps: seq<Point>): Result<GroupStore.Matched<GroupStore.Lines>>
    requires |ps| == 4
  {
    GroupStore.MatchLines(kb.store.lines, [(ps[0], ps[1]), (ps[2], ps[3])])
  }

  /** Some group of `groups` holds both `hub` and `l`. */
  predicate Grouped<T(==)>(groups: seq<seq<T>>, hub: T, l: T) {
    exists g | 0 <= g < |groups| :: hub in groups[g] && l in groups[g]
  }

  /** The lines grouped with `hub`, other than those in `skip`, group by group. */
  function Mates<T(==,!new)>(groups: seq<seq<T>>, hub: T, skip: seq<T>): (r: seq<T>)
    ensures forall l :: l in r <==> Grouped(groups, hub, l) && l !in skip
  {
    Each(groups, (g: seq<T>) => if hub in g then Filter(g, (l: T) => l !in skip) else [])
  }

  /** D03: coll(A,B,C) & coll(A,B,D) => coll(C,D,A), one conclusion per
      point D of line A-B other than A, B and C. */
  function D03(kb: Kb, p: Pred): (r: Result<seq<Pred>>)
    ensures |p.points| != 3 ==> r == Fail(MalformedArity)
    ensures |p.points| == 3 ==> (r.Fail? <==> LineThrough(kb, p.points[0], p.points[1]).Fail?)
    ensures r.Fail? ==> r.error in {MalformedArity, NameExhausted}
    ensures r.Ok? ==>
      var ms := LineThrough(kb, p.points[0], p.points[1]).value.members;
      forall q :: q in r.value <==> exists i | 0 <= i < |ms| :: ms[i] !in p.points && q == Pred("coll", [p.points[2], ms[i], p.points[0]])
    ensures r.Ok? && NoDup(LineThrough(kb, p.points[0], p.points[1]).value.members) ==> NoDup(r.value)
  {
    if |p.points| != 3 then Fail(MalformedArity)
    else
      var ps := p.points;
      var line :- LineThrough(kb, ps[0], ps[1]);
      var f := (d: Point) => Pred("coll", [ps[2], d, ps[0]]);
      assert forall a, b :: f(a) == f(b) ==> a == b by {
        forall a, b | f(a) == f(b) ensures a == b {
          assert f(a).points[1] == a && f(b).points[1] == b;
        }
      }
      assert NoDup(line.members) ==> NoDup(Select(line.members, (d: Point) => d !in ps, f)) by {
        if NoDup(line.members) { SelectNoDup(line.members, (d: Point) => d !in ps, f); }
      }
      Ok(Select(line.members, (d: Point) => d !in ps, f))
  }

  /** D06: para(A,B,C,D) & para(C,D,E,F) => para(A,B,E,F), for every line
      grouped as parallel with C-D other than A-B and C-D, and every two of
      its points E, F. */
  function D06(kb: Kb, p: Pred): (r: Result<seq<Pred>>)
    ensures |p.points| != 4 ==> r == Fail(MalformedArity)
    ensures |p.points| == 4 && TwoLines(kb, p.points).Fail? ==> r == Fail(NameExhausted)
    ensures |p.points| == 4 && TwoLines(kb, p.points).Ok? ==>
      var m := TwoLines(kb, p.points).value;
      (r.Ok? <==> forall l | Grouped(kb.store.paraFacts, m.names[1], l) && l !in m.names :: l in Keys(m.dict)) &&
      (r.Fail? ==> r.error == KeyMissing) &&
      (r.Ok? ==> forall q :: q in r.value <==> exists l | Grouped(kb.store.paraFacts, m.names[1], l) && l !in m.names ::
        OnPairOf(m.dict, l, After("para", p.points[0], p.points[1]), q))
  {
    if |p.points| != 4 then Fail(MalformedArity)
    else
      var ps := p.points;
      var m :- TwoLines(kb, ps);
      GroupStore.LinesHoldAt(m.dict, m.names, [(ps[0], ps[1]), (ps[2], ps[3])], 1);
      assert m.names == [m.names[0], m.names[1]];
      OnMates(m.dict, kb.store.paraFacts, m.names[1], m.names, After("para", ps[0], ps[1]))
  }

  /** The points of every line grouped with `hub`, other than those of
      `skip`, paired by `mk`. */
  function OnMates(lines: GroupStore.Lines, groups: seq<seq<LineKey>>, hub: LineKey, skip: seq<LineKey>, mk: (Point, Point) -> Pred): (r: Result<seq<Pred>>)
    ensures r.Ok? <==> forall l | Grouped(groups, hub, l) && l !in skip :: l in Keys(lines)
    ensures r.Fail? ==> r.error == KeyMissing
    ensures r.Ok? ==> forall q :: q in r.value <==> exists l | Grouped(groups, hub, l) && l !in skip :: OnPairOf(lines, l, mk, q)
  {
    OnLines(lines, Mates(groups, hub, skip), mk)
  }

  /** The other line of a perpendicular or parallel group holding `hub`,
      as `list(lines)` picks it, unless it is one of `skip`. */
  predicate Partnered(groups: seq<seq<LineKey>>, hub: LineKey, skip: seq<LineKey>, l: LineKey) {
    exists g | 0 <= g < |groups| :: hub in groups[g] && Partner(groups[g], hub) == Ok(l) && l !in skip
  }

  /** One group of the loop: skip it unless it holds `hub`, pick the other
      line, skip that when it is one of `skip`, otherwise pair its points. */
  function PartnerStep(lines: GroupStore.Lines, g: seq<LineKey>, hub: LineKey, skip: seq<LineKey>, mk: (Point, Point) -> Pred): (r: Result<seq<Pred>>)
    ensures r.Fail? ==> r.error in {IndexOutOfRange, KeyMissing}
    ensures r.Fail? <==> hub in g && (Partner(g, hub).Fail? || (Partner(g, hub).value !in skip && Partner(g, hub).value !in Keys(lines)))
    ensures r.Ok? ==> forall q :: q in r.value <==>
      hub in g && Partner(g, hub).value !in skip && OnPairOf(lines, Partner(g, hub).value, mk, q)
  {
    if hub !in g then Ok([])
    else
      var l :- Partner(g, hub);
      if l in skip then Ok([]) else OnLine(lines, l, mk)
  }

  /** The loop over every group. */
  function PartnerPairs(lines: GroupStore.Lines, groups: seq<seq<LineKey>>, hub: LineKey, skip: seq<LineKey>, mk: (Point, Point) -> Pred): (r: Result<seq<Pred>>)
    ensures r.Fail? ==> r.error in {IndexOutOfRange, KeyMissing}
    ensures r.Ok? <==> forall g | 0 <= g < |groups| :: PartnerStep(lines, groups[g], hub, skip, mk).Ok?
    ensures r.Ok? ==> forall q :: q in r.value <==> exists l | Partnered(groups, hub, skip, l) :: OnPairOf(lines, l, mk, q)
  {
    var r := Gather(groups, (g: seq<LineKey>) => PartnerStep(lines, g, hub, skip, mk));
    assert r.Ok? ==> forall q :: q in r.value <==> exists l | Partnered(groups, hub, skip, l) :: OnPairOf(lines, l, mk, q) by {
      if r.Ok? {
        forall q ensures q in r.value <==> exists l | Partnered(groups, hub, skip, l) :: OnPairOf(lines, l, mk, q) {
          if q in r.value {
            var g :| 0 <= g < |groups| && PartnerStep(lines, groups[g], hub, skip, mk).Ok? && q in PartnerStep(lines, groups[g], hub, skip, mk).value;
            var l := Partner(groups[g], hub).value;
            assert Partnered(groups, hub, skip, l);
          }
          if exists l | Partnered(groups, hub, skip, l) :: OnPairOf(lines, l, mk, q) {
            var l :| Partnered(groups, hub, skip, l) && OnPairOf(lines, l, mk, q);
            var g :| 0 <= g < |groups| && hub in groups[g] && Partner(groups[g], hub) == Ok(l) && l !in skip;
            assert q in PartnerStep(lines, groups[g], hub, skip, mk).value;
          }
        }
      }
    }
    r
  }

  /** The conclusion written with the found pair first, then two fixed points. */
  function Before(kind: string, e: Point, f: Point): (Point, Point) -> Pred {
    (a: Point, b: Point) => Pred(kind, [a, b, e, f])
  }

  /** D09: perp(A,B,C,D) & perp(C,D,E,F) => para(A,B,E,F), for the line E-F
      recorded perpendicular to C-D, when it is neither A-B nor C-D. */
  function D09(kb: Kb, p: Pred): (r: Result<seq<Pred>>)
    ensures |p.points| != 4 ==> r == Fail(MalformedArity)
    ensures |p.points| == 4 && TwoLines(kb, p.points).Fail? ==> r == Fail(NameExhausted)
    ensures |p.points| == 4 && TwoLines(kb, p.points).Ok? ==>
      var m := TwoLines(kb, p.points).value;
      r == PartnerPairs(m.dict, kb.perpFacts, m.names[1], m.names, After("para", p.points[0], p.points[1])) &&
      (r.Ok? ==> forall q :: q in r.value <==> exists l | Partnered(kb.perpFacts, m.names[1], m.names, l) ::
        OnPairOf(m.dict, l, After("para", p.points[0], p.points[1]), q))
  {
    if |p.points| != 4 then Fail(MalformedArity)
    else
      var ps := p.points;
      var m :- TwoLines(kb, ps);
      GroupStore.LinesHoldAt(m.dict, m.names, [(ps[0], ps[1]), (ps[2], ps[3])], 1);
      assert m.names == [m.names[0], m.names[1]];
      PartnerPairs(m.dict, kb.perpFacts, m.names[1], m.names, After("para", ps[0], ps[1]))
  }

  /** D10 (para form): para(A,B,C,D) & perp(C,D,E,F) => perp(A,B,E,F). */
  function D10Para(kb: Kb, p: Pred): (r: Result<seq<Pred>>)
    ensures |p.points| != 4 ==> r == Fail(MalformedArity)
    ensures |p.points| == 4 && TwoLines(kb, p.points).Fail? ==> r == Fail(NameExhausted)
    ensures |p.points| == 4 && TwoLines(kb, p.points).Ok? ==>
      var m := TwoLines(kb, p.points).value;
      r == PartnerPairs(m.dict, kb.perpFacts, m.names[1], m.names, After("perp", p.points[0], p.points[1])) &&
      (r.Ok? ==> forall q :: q in r.value <==> exists l | Partnered(kb.perpFacts, m.names[1], m.names, l) ::
        OnPairOf(m.dict, l, After("perp", p.points[0], p.points[1]), q))
  {
    if |p.points| != 4 then Fail(MalformedArity)
    else
      var ps := p.points;
      var m :- TwoLines(kb, ps);
      GroupStore.LinesHoldAt(m.dict, m.names, [(ps[0], ps[1]), (ps[2], ps[3])], 1);
      assert m.names == [m.names[0], m.names[1]];
      PartnerPairs(m.dict, kb.perpFacts, m.names[1], m.names, After("perp", ps[0], ps[1]))
  }

  /** D10 (perp form): perp(C,D,E,F) & para(A,B,C,D) => perp(A,B,E,F), for
      the line A-B a parallel group pairs with C-D, when it is neither C-D
      nor E-F. */
  function D10Perp(kb: Kb, p: Pred): (r: Result<seq<Pred>>)
    ensures |p.points| != 4 ==> r == Fail(MalformedArity)
    ensures |p.points| == 4 && TwoLines(kb, p.points).Fail? ==> r == Fail(NameExhausted)
    ensures |p.points| == 4 && TwoLines(kb, p.points).Ok? ==>
      var m := TwoLines(kb, p.points).value;
      r == PartnerPairs(m.dict, kb.store.paraFacts, m.names[0], m.names, Before("perp", p.points[2], p.points[3])) &&
      (r.Ok? ==> forall q :: q in r.value <==> exists l | Partnered(kb.store.paraFacts, m.names[0], m.names, l) ::
        OnPairOf(m.dict, l, Before("perp", p.points[2], p.points[3]), q))
  {
    if |p.points| != 4 then Fail(MalformedArity)
    else
      var ps := p.points;
      var m :- TwoLines(kb, ps);
      GroupStore.LinesHoldAt(m.dict, m.names, [(ps[0], ps[1]), (ps[2], ps[3])], 1);
      assert m.names == [m.names[0], m.names[1]];
      PartnerPairs(m.dict, kb.store.paraFacts, m.names[0], m.names, Before("perp", ps[2], ps[3]))
  }

  /** The end of `s` that is not `o` (the first end when both are). */
  function FarEnd(s: Segment, o: Point): Point {
    if s.p2 == o then s.p1 else s.p2
  }

  /** D12: cong(O,A,O,B) & cong(O,A,O,C) => circle(O,A,B,C), for every
      segment O-C of the class of O-A with C neither A nor B. */
  function D12(kb: Kb, p: Pred): (r: Result<seq<Pred>>)
    ensures |p.points| != 4 ==> r == Fail(MalformedArity)
    ensures |p.points| == 4 && (p.points[0] != p.points[2] || p.points[1] == p.points[3]) ==> r == Ok([])
    ensures r.Fail? ==> r.error in {MalformedArity, NameExhausted}
    ensures |p.points| == 4 && p.points[0] == p.points[2] && p.points[1] != p.points[3] ==>
      (r.Fail? <==> CongThrough(kb, p.points[0], p.points[1]).Fail?)
    ensures r.Ok? && r.value != [] ==>
      var o, a, b := p.points[0], p.points[1], p.points[3];
      var segs := CongThrough(kb, o, a).value.members;
      forall q :: q in r.value <==> exists k | 0 <= k < |segs| ::
        o in [segs[k].p1, segs[k].p2] && FarEnd(segs[k], o) !in [a, b] && q == Pred("circle", [o, a, b, FarEnd(segs[k], o)])
  {
    if |p.points| != 4 then Fail(MalformedArity)
    else
      var ps := p.points;
      var o, a, b := ps[0], ps[1], ps[3];
      if o != ps[2] || a == b then Ok([])
      else
        var cls :- CongThrough(kb, o, a);
        Ok(Select(cls.members, (s: Segment) => o in [s.p1, s.p2] && FarEnd(s, o) !in [a, b],
                  (s: Segment) => Pred("circle", [o, a, b, FarEnd(s, o)])))
  }

  /** D17: cyclic(A,B,C,D) & cyclic(A,B,C,E) => cyclic(B,C,D,E), for every
      recorded circle through at least three of the premise's positions and
      every point E of it that the premise does not name. */
  function D17(p: Pred, circles: seq<Circle>): (r: Result<seq<Pred>>)
    ensures r.Fail? <==> |p.points| != 4
    ensures r.Fail? ==> r.error == MalformedArity
    ensures r.Ok? ==> forall q :: q in r.value <==> exists c, i | 0 <= c < |circles| && 0 <= i < |circles[c].points| ::
      CountIn(p.points, circles[c].points) >= 3 && circles[c].points[i] !in p.points &&
      q == Pred("cyclic", p.points[1..] + [circles[c].points[i]])
  {
    if |p.points| != 4 then Fail(MalformedArity)
    else
      var ps := p.points;
      var step := (c: Circle) =>
        if CountIn(ps, c.points) < 3 then []
        else Select(c.points, (e: Point) => e !in ps, (e: Point) => Pred("cyclic", ps[1..] + [e]));
      Ok(Each(circles, step))
  }

  /** The four lines of an eight-point premise, matched in order. */
  function FourLines(kb: Kb, ps: seq<Point>): Result<GroupStore.Matched<GroupStore.Lines>>
    requires |ps| == 8
  {
    GroupStore.MatchLines(kb.store.lines, GroupStore.Pairs4(ps))
  }

  /** `xs` holds `a` before `b`. */
  predicate PairAt<T(==)>(xs: seq<T>, a: T, b: T) {
    exists i, j | 0 <= i < j < |xs| :: xs[i] == a && xs[j] == b
  }

  /** `Pairs(xs)` lists exactly the pairs `xs` holds in order. */
  lemma PairsAt<T>(xs: seq<T>)
    ensures forall e :: e in Pairs(xs) <==> PairAt(xs, e.0, e.1)
  {
    forall e | e in Pairs(xs) ensures PairAt(xs, e.0, e.1) {
      var k :| 0 <= k < |Pairs(xs)| && Pairs(xs)[k] == e;
    }
  }

  /** `q` is `eqangle(front + [e, f, g, h])` for a pair `e`, `f` of `p1`
      and a pair `g`, `h` of `p2`, each pair taken in list order. */
  predicate AngleOver(front: seq<Point>, p1: seq<Point>, p2: seq<Point>, q: Pred) {
    var n := |front|;
    q.kind == "eqangle" && |q.points| == n + 4 && q.points[..n] == front &&
    PairAt(p1, q.points[n], q.points[n + 1]) && PairAt(p2, q.points[n + 2], q.points[n + 3])
  }

  /** Two nested `itertools.combinations(_, 2)` loops over the point lists
      of an angle's two lines. */
  function AnglePairs(front: seq<Point>, p1: seq<Point>, p2: seq<Point>): (r: seq<Pred>)
    ensures forall q :: q in r <==> AngleOver(front, p1, p2, q)
  {
    PairsAt(p1);
    PairsAt(p2);
    Cross("eqangle", front, Pairs(p1), Pairs(p2))
  }

  /** `q` comes from the stored angle `a`: both its lines are known and `q`
      pairs their points behind `front`. */
  predicate OnAngle(lines: GroupStore.Lines, a: Angle, front: seq<Point>, q: Pred) {
    Lookup(lines, a.lk1).Some? && Lookup(lines, a.lk2).Some? &&
    AngleOver(front, Lookup(lines, a.lk1).value, Lookup(lines, a.lk2).value, q)
  }

  /** The nested loops over the two lines of a stored angle.  The second
      line is read only once the first has a pair of points to offer. */
  function AngleStep(lines: GroupStore.Lines, a: Angle, front: seq<Point>): (r: Result<seq<Pred>>)
    ensures r.Fail? ==> r.error == KeyMissing
    ensures r.Fail? <==> a.lk1 !in Keys(lines) || (|Lookup(lines, a.lk1).value| >= 2 && a.lk2 !in Keys(lines))
    ensures r.Ok? ==> forall q :: q in r.value <==> OnAngle(lines, a, front, q)
  {
    var p1 :- Read(lines, a.lk1);
    if |p1| < 2 then Ok([])
    else
      var p2 :- Read(lines, a.lk2);
      Ok(AnglePairs(front, p1, p2))
  }

  /** The body of D22, writing `front` before each pair of found lines'
      points. */
  function D22With(kb: Kb, p: Pred, front: seq<Point>): (r: Result<seq<Pred>>)
    ensures |p.points| != 8 ==> r == Fail(MalformedArity)
    ensures |p.points| == 8 && FourLines(kb, p.points).Fail? ==> r == Fail(NameExhausted)
    ensures r.Fail? ==> r.error in {MalformedArity, NameExhausted, KeyMissing}
    ensures |p.points| == 8 && FourLines(kb, p.points).Ok? && r.Ok? ==>
      var m := FourLines(kb, p.points).value;
      |m.names| == 4 &&
      var a1, a2 := Angle(m.names[0], m.names[1]), Angle(m.names[2], m.names[3]);
      forall q :: q in r.value <==> exists a | Grouped(kb.store.eqangleFacts, a2, a) && a !in [a1, a2] :: OnAngle(m.dict, a, front, q)
  {
    if |p.points| != 8 then Fail(MalformedArity)
    else
      var ps := p.points;
      var m :- FourLines(kb, ps);
      GroupStore.LinesHoldAt(m.dict, m.names, GroupStore.Pairs4(ps), 0);
      var a1, a2 := Angle(m.names[0], m.names[1]), Angle(m.names[2], m.names[3]);
      var angles := Mates(kb.store.eqangleFacts, a2, [a1, a2]);
      Gather(angles, (a: Angle) => AngleStep(m.dict, a, front))
  }

  /** D22 as `src/prover.py` writes it: eqangle(A,B,C,D,P,Q,U,V) &
      eqangle(P,Q,U,V,E,F,G,H) gives eqangle(P,Q,U,V,E,F,G,H), the second
      premise over again, where the rule's comment promises
      eqangle(A,B,C,D,E,F,G,H). */
  function D22AsWritten(kb: Kb, p: Pred): (r: Result<seq<Pred>>)
    ensures r == D22With(kb, p, if |p.points| == 8 then p.points[4..] else [])
    ensures r.Ok? ==> forall q | q in r.value :: q.points[..4] == p.points[4..]
  {
    if |p.points| != 8 then D22With(kb, p, [])
    else
      var r := D22With(kb, p, p.points[4..]);
      assert r.Ok? ==> forall q | q in r.value :: q.points[..4] == p.points[4..] by {
        if r.Ok? {
          forall q | q in r.value ensures q.points[..4] == p.points[4..] {
            var m := FourLines(kb, p.points).value;
            var a :| Grouped(kb.store.eqangleFacts, Angle(m.names[2], m.names[3]), a) && OnAngle(m.dict, a, p.points[4..], q);
          }
        }
      }
      r
  }

  /** D22: eqangle(A,B,C,D,P,Q,U,V) & eqangle(P,Q,U,V,E,F,G,H) =>
      eqangle(A,B,C,D,E,F,G,H), for every angle recorded equal to P-Q/U-V
      other than the premise's two. */
  function D22(kb: Kb, p: Pred): (r: Result<seq<Pred>>)
    ensures r == D22With(kb, p, if |p.points| == 8 then p.points[..4] else [])
    ensures r.Ok? ==> forall q | q in r.value :: q.points[..4] == p.points[..4]
  {
    if |p.points| != 8 then D22With(kb, p, [])
    else
      var r := D22With(kb, p, p.points[..4]);
      assert r.Ok? ==> forall q | q in r.value :: q.points[..4] == p.points[..4] by {
        if r.Ok? {
          forall q | q in r.value ensures q.points[..4] == p.points[..4] {
            var m := FourLines(kb, p.points).value;
            var a :| Grouped(kb.store.eqangleFacts, Angle(m.names[2], m.names[3]), a) && OnAngle(m.dict, a, p.points[..4], q);
          }
        }
      }
      r
  }
}

=== FILE: predicates.dfy ===
/** Predicates: a kind name and a list of point names, parsed from one line of
    a problem file such as `coll(A, B, C).` */
module Predicates {
  import opened Common
  import opened Text
  import opened Primitives

  datatype Pred = Pred(kind: string, points: seq<Point>)

  predicate IsDot(c: char) {
    c == '.'
  }

  /** `Predicate.from_line`: drop trailing dots, strip whitespace, then parse
      the cleaned text. */
  function FromLine(line: string): Pred {
    Parse(Clean(line))
  }

  function Clean(line: string): string {
    Strip(StripRight(line, IsDot))
  }

  /** The kind is the text before the first `(`; the points are the pieces of
      the text between the first `(` and the first `)`, split at commas and
      stripped. */
  function Parse(l: string): Pred {
    var open := Find(l, '(');
    var close := Find(l, ')');
    Pred(Slice(l, 0, open), Map(Split(Slice(l, open + 1, close), ','), Strip))
  }

  /** `repr(predicate)`: `(kind, points(A,B,C))`. */
  function Format(p: Pred): string {
    "(" + p.kind + ", points(" + Join(",", p.points) + "))"
  }

  /** The shape of a hypothesis line: `kind(p1,p2,...)`, each piece possibly
      padded with whitespace. */
  function LineText(kind: string, pieces: seq<string>): string {
    kind + "(" + Join(",", pieces) + ")"
  }

  predicate NoChar(s: string, c: char) {
    c !in s
  }

  predicate PiecesClean(pieces: seq<string>) {
    forall i | 0 <= i < |pieces| :: ',' !in pieces[i] && ')' !in pieces[i]
  }

  predicate KindClean(kind: string) {
    '(' !in kind && ')' !in kind && (kind == [] || !IsSpace(kind[0]))
  }

  lemma JoinAvoids(pieces: seq<string>, sep: char, c: char)
    requires c != sep
    requires forall i | 0 <= i < |pieces| :: c !in pieces[i]
    ensures c !in Join([sep], pieces)
  {
    if |pieces| > 1 {
      JoinAvoids(pieces[1..], sep, c);
    }
  }

  /** Parsing text of the shape `kind(body)` yields the kind and the stripped
      comma-separated pieces of the body. */
  lemma ParseShape(kind: string, body: string)
    requires '(' !in kind && ')' !in kind && ')' !in body
    ensures Parse(kind + "(" + body + ")") == Pred(kind, Map(Split(body, ','), Strip))
  {
    var l := kind + "(" + body + ")";
    ShapeFinds(l, kind, body);
    ParseAt(l, |kind|, |kind| + 1 + |body|);
    assert l[..|kind|] == kind;
    assert l[|kind| + 1..|kind| + 1 + |body|] == body;
  }

  lemma ShapeFinds(l: string, kind: string, body: string)
    requires l == kind + "(" + body + ")"
    requires '(' !in kind && ')' !in kind && ')' !in body
    ensures Find(l, '(') == |kind| && Find(l, ')') == |kind| + 1 + |body|
  {
    var pre := kind + "(" + body;
    assert l[..|kind|] == kind && l[|kind|] == '(';
    FindFirst(l, kind, '(');
    assert l[..|pre|] == pre;
    FindFirst(l, pre, ')');
  }

  lemma ParseAt(l: string, open: nat, close: nat)
    requires open < close <= |l|
    requires Find(l, '(') == open && Find(l, ')') == close
    ensures Parse(l) == Pred(l[..open], Map(Split(l[open + 1..close], ','), Strip))
  {
  }

  /** A line that ends in `)` and starts with no whitespace is already clean. */
  lemma CleanShaped(l: string)
    requires l != [] && l[|l| - 1] == ')' && !IsSpace(l[0])
    ensures Clean(l) == l
  {
    assert StripRight(l, IsDot) == l;
    StripTrimmed(l);
  }

  /** Parsing a line of the expected shape recovers the kind and the stripped points. */
  lemma FromLineParses(kind: string, pieces: seq<string>)
    requires KindClean(kind) && PiecesClean(pieces) && pieces != []
    ensures FromLine(LineText(kind, pieces)) == Pred(kind, Map(pieces, Strip))
  {
    var body := Join(",", pieces);
    var l := LineText(kind, pieces);
    JoinAvoids(pieces, ',', ')');
    assert l == kind + "(" + body + ")";
    assert l[0] == if kind == [] then '(' else kind[0];
    CleanShaped(l);
    ParseShape(kind, body);
    SplitJoin(pieces, ',');
  }

  lemma FindFirst(s: string, p: string, c: char)
    requires |p| < |s| && s[..|p|] == p && s[|p|] == c && c !in p
    ensures Find(s, c) == |p|
  {
    if p != [] {
      assert s[1..][..|p| - 1] == p[1..];
      FindFirst(s[1..], p[1..], c);
    }
  }

  /** Whitespace around a line and dots after it do not change what it parses to. */
  lemma FromLinePadding(line: string, lead: string, l: string, trail: string, dots: string)
    requires line == lead + l + trail + dots
    requires forall i | 0 <= i < |lead| :: IsSpace(lead[i])
    requires forall i | 0 <= i < |trail| :: IsSpace(trail[i])
    requires forall i | 0 <= i < |dots| :: dots[i] == '.'
    requires l != [] && !IsSpace(l[0]) && !IsSpace(l[|l| - 1]) && l[|l| - 1] != '.'
    ensures FromLine(line) == FromLine(l)
  {
    CleanPadding(line, lead, l, trail, dots);
    StripTrimmed(l);
    assert StripRight(l, IsDot) == l;
  }

  lemma CleanPadding(line: string, lead: string, l: string, trail: string, dots: string)
    requires line == lead + l + trail + dots
    requires forall i | 0 <= i < |lead| :: IsSpace(lead[i])
    requires forall i | 0 <= i < |trail| :: IsSpace(trail[i])
    requires forall i | 0 <= i < |dots| :: dots[i] == '.'
    requires l != [] && !IsSpace(l[0]) && !IsSpace(l[|l| - 1]) && l[|l| - 1] != '.'
    ensures Clean(line) == l
  {
    var core := lead + l + trail;
    assert line == core + dots;
    StripRightDrops(core, dots, IsDot);
    assert core[|core| - 1] != '.' by {
      if trail == [] {
        assert core[|core| - 1] == l[|l| - 1];
      } else {
        assert core[|core| - 1] == trail[|trail| - 1];
      }
    }
    assert StripRight(core, IsDot) == core;
    var ll := lead + l;
    assert core == ll + trail;
    StripLeftDrops(lead, l + trail);
    assert StripLeft(core) == l + trail by {
      assert core == lead + (l + trail);
    }
    StripRightDrops(l, trail, IsSpace);
    assert StripRight(l, IsSpace) == l;
  }

  /** `rstrip` removes a suffix made only of dropped characters, and stops at
      the first kept one. */
  lemma {:induction false} StripRightDrops(a: string, b: string, drop: char -> bool)
    requires forall i | 0 <= i < |b| :: drop(b[i])
    ensures StripRight(a + b, drop) == StripRight(a, drop)
    decreases |b|
  {
    if b != [] {
      assert (a + b)[..|a + b| - 1] == a + b[..|b| - 1];
      StripRightDrops(a, b[..|b| - 1], drop);
    } else {
      assert a + b == a;
    }
  }

  lemma {:induction false} StripLeftDrops(a: string, b: string)
    requires forall i | 0 <= i < |a| :: IsSpace(a[i])
    requires b != [] && !IsSpace(b[0])
    ensures StripLeft(a + b) == b
    decreases |a|
  {
    if a != [] {
      assert (a + b)[1..] == a[1..] + b;
      StripLeftDrops(a[1..], b);
    } else {
      assert a + b == b;
    }
  }

  /** A predicate written in the line shape parses back to itself. */
  lemma FromLineRoundTrip(p: Pred)
    requires KindClean(p.kind) && PiecesClean(p.points) && p.points != []
    requires forall i | 0 <= i < |p.points| :: Strip(p.points[i]) == p.points[i]
    ensures FromLine(LineText(p.kind, p.points)) == p
  {
    FromLineParses(p.kind, p.points);
    assert Map(p.points, Strip) == p.points;
  }

  /** `repr` loses nothing for predicates whose kind holds no comma and whose
      points hold no comma or parenthesis: the text determines the predicate. */
  lemma FormatInjective(p: Pred, q: Pred)
    requires ',' !in p.kind && ',' !in q.kind
    requires PiecesClean(p.points) && PiecesClean(q.points) && p.points != [] && q.points != []
    requires Format(p) == Format(q)
    ensures p == q
  {
    var s := Format(p);
    var jp, jq := Join(",", p.points), Join(",", q.points);
    assert s == "(" + p.kind + ", points(" + jp + "))";
    assert Format(q) == "(" + q.kind + ", points(" + jq + "))";
    FindFirst(s[1..], p.kind, ',');
    FindFirst(Format(q)[1..], q.kind, ',');
    assert p.kind == s[1..][..|p.kind|] == q.kind;
    assert |jp| == |jq|;
    var off := 1 + |p.kind| + 9;
    assert jp == s[off..off + |jp|] == jq;
    SplitJoin(p.points, ',');
    SplitJoin(q.points, ',');
  }

  /** A point name as the problem files write it: no surrounding whitespace,
      no comma, no closing parenthesis. */
  predicate CleanPoint(a: Point) {
    a != [] && !IsSpace(a[0]) && !IsSpace(a[|a| - 1]) && ',' !in a && ')' !in a
  }

  predicate Spaces(sp: string) {
    forall i | 0 <= i < |sp| :: IsSpace(sp[i])
  }

  lemma StripPadded(sp: string, a: Point)
    requires Spaces(sp) && CleanPoint(a)
    ensures Strip(sp + a) == a
  {
    StripLeftDrops(sp, a);
    StripTrimmed(a);
  }

  /** The predicate test, for any kind such as `coll`, any three point names
      and any run of whitespace: `coll(A,B,C).`, `coll(A,  B,C)`,
      `coll(  A,B,  C)` and `  coll(A,B,C)    .` all parse to the same
      predicate, printed `(coll, points(A,B,C))`. */
  lemma ParsesTestLines(kind: string, a: Point, b: Point, c: Point, sp: string,
                        l1: string, l2: string, l3: string, l4: string)
    requires KindClean(kind) && kind != []
    requires CleanPoint(a) && CleanPoint(b) && CleanPoint(c) && Spaces(sp)
    requires l1 == kind + "(" + a + "," + b + "," + c + ")" + "."
    requires l2 == kind + "(" + a + "," + (sp + b) + "," + c + ")"
    requires l3 == kind + "(" + (sp + a) + "," + b + "," + (sp + c) + ")"
    requires l4 == sp + (kind + "(" + a + "," + b + "," + c + ")") + sp + "."
    ensures FromLine(l1) == FromLine(l2) == FromLine(l3) == FromLine(l4) == Pred(kind, [a, b, c])
    ensures Format(Pred(kind, [a, b, c])) == "(" + kind + ", points(" + (a + "," + b + "," + c) + "))"
  {
    TestLinesPadded(kind, a, b, c, sp, l1, l4);
    TestLinesSpaced(kind, a, b, c, sp, l2, l3);
    JoinThree(a, b, c);
  }

  lemma TestLinesPadded(kind: string, a: Point, b: Point, c: Point, sp: string, l1: string, l4: string)
    requires KindClean(kind) && kind != []
    requires CleanPoint(a) && CleanPoint(b) && CleanPoint(c) && Spaces(sp)
    requires l1 == kind + "(" + a + "," + b + "," + c + ")" + "."
    requires l4 == sp + (kind + "(" + a + "," + b + "," + c + ")") + sp + "."
    ensures FromLine(l1) == FromLine(l4) == Pred(kind, [a, b, c])
  {
    StripTrimmed(a);
    StripTrimmed(b);
    StripTrimmed(c);
    var plain := kind + "(" + a + "," + b + "," + c + ")";
    ParsesThree(plain, kind, a, b, c);
    ThreeTrimmed(kind, a, b, c, plain);
    PaddedLines(plain, sp, l1, l4);
  }

  lemma TestLinesSpaced(kind: string, a: Point, b: Point, c: Point, sp: string, l2: string, l3: string)
    requires KindClean(kind) && kind != []
    requires CleanPoint(a) && CleanPoint(b) && CleanPoint(c) && Spaces(sp)
    requires l2 == kind + "(" + a + "," + (sp + b) + "," + c + ")"
    requires l3 == kind + "(" + (sp + a) + "," + b + "," + (sp + c) + ")"
    ensures FromLine(l2) == FromLine(l3) == Pred(kind, [a, b, c])
  {
    StripPadded(sp, b);
    StripPadded(sp, a);
    StripPadded(sp, c);
    StripTrimmed(a);
    StripTrimmed(b);
    StripTrimmed(c);
    ParsesThree(l2, kind, a, sp + b, c);
    ParsesThree(l3, kind, sp + a, b, sp + c);
  }

  /** A line with no surrounding whitespace and no trailing dot. */
  predicate Trimmed(l: string) {
    l != [] && !IsSpace(l[0]) && !IsSpace(l[|l| - 1]) && l[|l| - 1] != '.'
  }

  lemma PaddedLines(l: string, sp: string, l1: string, l4: string)
    requires Spaces(sp) && Trimmed(l)
    requires l1 == l + "." && l4 == sp + l + sp + "."
    ensures FromLine(l1) == FromLine(l) && FromLine(l4) == FromLine(l)
  {
    assert l1 == "" + l + "" + ".";
    FromLinePadding(l1, "", l, "", ".");
    FromLinePadding(l4, sp, l, sp, ".");
  }

  lemma ThreeTrimmed(kind: string, a: string, b: string, c: string, l: string)
    requires KindClean(kind) && kind != []
    requires l == kind + "(" + a + "," + b + "," + c + ")"
    ensures Trimmed(l)
  {
    assert l[0] == kind[0] && l[|l| - 1] == ')';
  }

  lemma JoinThree(a: string, b: string, c: string)
    ensures Join(",", [a, b, c]) == a + "," + b + "," + c
  {
    JoinHead(",", [c]);
    JoinHead(",", [b, c]);
    assert [b, c][1..] == [c];
    JoinHead(",", [a, b, c]);
    assert [a, b, c][1..] == [b, c];
  }

  lemma ParsesThree(line: string, kind: string, a: string, b: string, c: string)
    requires KindClean(kind) && line == kind + "(" + a + "," + b + "," + c + ")"
    requires ',' !in a && ')' !in a && ',' !in b && ')' !in b && ',' !in c && ')' !in c
    ensures FromLine(line) == Pred(kind, [Strip(a), Strip(b), Strip(c)])
  {
    var pieces := [a, b, c];
    JoinThree(a, b, c);
    assert LineText(kind, pieces) == line;
    assert PiecesClean(pieces);
    FromLineParses(kind, pieces);
    assert Map(pieces, Strip) == [Strip(a), Strip(b), Strip(c)];
  }
}

=== FILE: primitives.dfy ===
/** The geometric value objects: points and keys are plain names; an angle is
    an ordered pair of line names; a segment is an unordered pair of points; a
    ratio is an ordered pair of congruence-class names; a triangle is three
    points. */
module Primitives {
  import opened Order
  import opened Text

  type Point = string
  type LineKey = string
  type CongKey = string

  /** Two angles are equal when both line names agree, in order. */
  datatype Angle = Angle(lk1: LineKey, lk2: LineKey)

  /** The text an angle is hashed by. */
  function AngleHashText(a: Angle): (r: string)
    ensures |r| == |a.lk1| + 2 + |a.lk2|
    ensures r[..|a.lk1|] == a.lk1 && r[|a.lk1| + 2..] == a.lk2
  {
    a.lk1 + ", " + a.lk2
  }

  datatype Segment = Segment(p1: Point, p2: Point)

  /** `sorted([p1, p2])`: the two names swap only when the second is smaller. */
  function Ends(s: Segment): (r: seq<Point>)
    ensures |r| == 2 && multiset(r) == multiset{s.p1, s.p2}
  {
    if StrLt(s.p2, s.p1) then [s.p2, s.p1] else [s.p1, s.p2]
  }

  /** Segment equality: the sorted endpoint lists agree. */
  predicate SegEq(a: Segment, b: Segment) {
    Ends(a) == Ends(b)
  }

  /** The segment written with its endpoints in sorted order. */
  function Canon(s: Segment): (r: Segment)
    ensures r == s || r == Segment(s.p2, s.p1)
    ensures !StrLt(r.p2, r.p1)
  {
    if StrLt(s.p2, s.p1) then
      StrLtAsymmetric(s.p2, s.p1);
      Segment(s.p2, s.p1)
    else Segment(s.p1, s.p2)
  }

  /** `repr(segment)`: the sorted endpoint names run together. */
  function SegRepr(s: Segment): (r: string)
    ensures |r| == |s.p1| + |s.p2|
  {
    var e := Ends(s);
    assert multiset(e) == multiset{s.p1, s.p2};
    assert |e[0]| + |e[1]| == |s.p1| + |s.p2| by {
      assert e[0] in multiset{s.p1, s.p2} && e[1] in multiset{s.p1, s.p2};
      if e[0] == s.p1 {
        assert multiset{e[1]} == multiset{s.p2};
      } else {
        assert multiset{e[1]} == multiset{s.p1};
      }
    }
    e[0] + e[1]
  }

  /** Segment equality means "same two endpoints, in either order". */
  lemma SegEqIffSameEnds(a: Segment, b: Segment)
    ensures SegEq(a, b) <==>
      (a.p1 == b.p1 && a.p2 == b.p2) || (a.p1 == b.p2 && a.p2 == b.p1)
  {
    StrLtStrictTotal();
    if SegEq(a, b) {
      assert multiset{a.p1, a.p2} == multiset{b.p1, b.p2};
      assert a.p1 in multiset{b.p1, b.p2};
      if a.p1 == b.p1 {
        assert multiset{a.p2} == multiset{b.p2};
      } else {
        assert multiset{a.p2} == multiset{b.p1};
      }
    }
  }

  /** Equal segments have the same canonical form, and conversely. */
  lemma SegEqIffCanon(a: Segment, b: Segment)
    ensures SegEq(a, b) <==> Canon(a) == Canon(b)
  {
    assert Ends(a) == [Canon(a).p1, Canon(a).p2];
    assert Ends(b) == [Canon(b).p1, Canon(b).p2];
  }

  /** A segment is equal to its canonical form, which is its own canonical form. */
  lemma CanonEquivalent(s: Segment)
    ensures SegEq(s, Canon(s)) && Canon(Canon(s)) == Canon(s)
  {
    var c := Canon(s);
    SegEqIffSameEnds(s, c);
    SegEqIffCanon(s, c);
    SegEqIffSameEnds(c, Canon(c));
  }

  /** Equal segments print alike, so hashing by `repr` agrees with equality. */
  lemma SegEqSameRepr(a: Segment, b: Segment)
    requires SegEq(a, b)
    ensures SegRepr(a) == SegRepr(b)
  {
  }

  /** The converse fails once names have more than one character. */
  lemma SegReprCollision()
    ensures SegRepr(Segment("A", "BC")) == SegRepr(Segment("AB", "C"))
    ensures !SegEq(Segment("A", "BC"), Segment("AB", "C"))
  {
    SegEqIffSameEnds(Segment("A", "BC"), Segment("AB", "C"));
    assert StrLt("A", "BC");
    assert StrLt("AB", "C");
    assert Ends(Segment("A", "BC")) == ["A", "BC"];
    assert Ends(Segment("AB", "C")) == ["AB", "C"];
  }

  /** A ratio of two congruence classes; equal when both names agree, in order. */
  datatype Ratio = Ratio(c1: CongKey, c2: CongKey)

  datatype Triangle = Triangle(p1: Point, p2: Point, p3: Point)

  /** `sorted([p1, p2, p3])`. */
  function Vertices(t: Triangle): (r: seq<Point>)
    ensures |r| == 3 && multiset(r) == multiset{t.p1, t.p2, t.p3}
  {
    SortBy([t.p1, t.p2, t.p3], StrLt)
  }

  /** Triangle equality as the primitives tests state it: the same three
      vertices, whatever their order. */
  predicate TriEq(a: Triangle, b: Triangle) {
    Vertices(a) == Vertices(b)
  }

  /** The sorted vertex names run together, in the manner of `repr(segment)`. */
  function TriRepr(t: Triangle): string {
    var v := Vertices(t);
    v[0] + v[1] + v[2]
  }

  lemma TriEqIffSameVertices(a: Triangle, b: Triangle)
    ensures TriEq(a, b) <==> multiset{a.p1, a.p2, a.p3} == multiset{b.p1, b.p2, b.p3}
  {
    StrLtStrictTotal();
    if multiset{a.p1, a.p2, a.p3} == multiset{b.p1, b.p2, b.p3} {
      assert multiset([a.p1, a.p2, a.p3]) == multiset([b.p1, b.p2, b.p3]);
      SortByPermutationInvariant([a.p1, a.p2, a.p3], [b.p1, b.p2, b.p3], StrLt);
    }
  }

  /** The first primitives test: triangle ABC equals triangle ACB. */
  lemma TriangleReorderedEqual()
    ensures TriEq(Triangle("A", "B", "C"), Triangle("A", "C", "B"))
  {
    TriEqIffSameVertices(Triangle("A", "B", "C"), Triangle("A", "C", "B"));
  }

  /** ... and differs from triangle ABD. */
  lemma TriangleOtherVertexDiffers()
    ensures !TriEq(Triangle("A", "B", "C"), Triangle("A", "B", "D"))
  {
    TriEqIffSameVertices(Triangle("A", "B", "C"), Triangle("A", "B", "D"));
    assert "D" != "A" && "D" != "B" && "D" != "C";
    assert "D" !in multiset{"A", "B", "C"};
    assert "D" in multiset{"A", "B", "D"};
  }
}

=== FILE: rulekit.dfy ===
/** Building blocks shared by the rule bodies of every revision: rules that
    only rearrange the points of their premise, loops whose body can raise,
    and dictionary reads that can miss. */
module RuleKit {
  import opened Common
  import opened Primitives
  import opened Predicates
  import Snapshot

  /** One conclusion of a rule that only rearranges its premise: the kind it
      produces and, position by position, which premise point it copies. */
  datatype Template = Template(kind: string, picks: seq<nat>)

  predicate Fits(t: Template, n: nat) {
    forall j | 0 <= j < |t.picks| :: t.picks[j] < n
  }

  function Fill(t: Template, ps: seq<Point>): (q: Pred)
    requires Fits(t, |ps|)
    ensures q.kind == t.kind && |q.points| == |t.picks|
    ensures forall j | 0 <= j < |t.picks| :: q.points[j] == ps[t.picks[j]]
  {
    Pred(t.kind, seq(|t.picks|, j requires 0 <= j < |t.picks| => ps[t.picks[j]]))
  }

  /** `A, B, ... = predicate.points` (a `ValueError` for the wrong number of
      points), then one conclusion per template. */
  function Rewrite(n: nat, outs: seq<Template>, p: Pred): (r: Result<seq<Pred>>)
    requires forall k | 0 <= k < |outs| :: Fits(outs[k], n)
    ensures r.Fail? <==> |p.points| != n
    ensures r.Fail? ==> r.error == MalformedArity
    ensures r.Ok? ==> |r.value| == |outs| && forall k | 0 <= k < |outs| :: r.value[k] == Fill(outs[k], p.points)
  {
    if |p.points| != n then Fail(MalformedArity)
    else Ok(seq(|outs|, k requires 0 <= k < |outs| => Fill(outs[k], p.points)))
  }

  /** `0, 1, ..., n - 1`. */
  function Range(n: nat): (r: seq<nat>)
    ensures |r| == n && forall j | 0 <= j < n :: r[j] == j
  {
    seq(n, j => j)
  }

  /** The template uses every one of `n` premise points exactly once. */
  predicate Permutes(t: Template, n: nat) {
    multiset(t.picks) == multiset(Range(n))
  }

  /** Applying the template twice puts every point back in place. */
  predicate SelfInverse(t: Template) {
    forall j | 0 <= j < |t.picks| :: t.picks[j] < |t.picks| && t.picks[t.picks[j]] == j
  }

  lemma PermutesFits(t: Template, n: nat)
    requires Permutes(t, n)
    ensures Fits(t, n) && |t.picks| == n
  {
    assert |multiset(t.picks)| == |multiset(Range(n))|;
    forall j | 0 <= j < |t.picks| ensures t.picks[j] < n {
      assert t.picks[j] in multiset(Range(n));
    }
  }

  /** `|set(s)| == len(s)` for a list without repeats. */
  lemma {:induction false} NoDupCard<T>(s: seq<T>)
    requires NoDup(s)
    ensures |Elems(s)| == |s|
  {
    if s != [] {
      assert NoDup(s[1..]);
      NoDupCard(s[1..]);
      assert Elems(s) == {s[0]} + Elems(s[1..]);
      assert s[0] !in Elems(s[1..]);
    }
  }

  /** In a list without repeats every member occurs once. */
  lemma {:induction false} NoDupCount<T>(s: seq<T>, x: T)
    requires NoDup(s)
    ensures multiset(s)[x] == if x in s then 1 else 0
  {
    if s != [] {
      assert NoDup(s[1..]);
      NoDupCount(s[1..], x);
      assert s == [s[0]] + s[1..];
      assert s[0] !in s[1..];
    }
  }

  /** A self-inverse template names every position below its length exactly
      once, so it is a rearrangement. */
  lemma SelfInversePermutes(t: Template)
    requires SelfInverse(t)
    ensures multiset(t.picks) == multiset(Range(|t.picks|))
  {
    var s, n := t.picks, |t.picks|;
    var all := Elems(Range(n));
    assert NoDup(s) by {
      forall a, b | 0 <= a < b < n ensures s[a] != s[b] {
        assert s[s[a]] == a && s[s[b]] == b;
      }
    }
    assert NoDup(Range(n));
    NoDupCard(s);
    NoDupCard(Range(n));
    assert Elems(s) <= all by {
      forall x | x in Elems(s) ensures x in all {
        var j :| 0 <= j < n && s[j] == x;
        assert Range(n)[x] == x;
      }
    }
    assert |all - Elems(s)| == 0 by {
      assert all == Elems(s) + (all - Elems(s));
    }
    assert Elems(s) == all by {
      assert all - Elems(s) == {};
    }
    forall x ensures multiset(s)[x] == multiset(Range(n))[x] {
      NoDupCount(s, x);
      NoDupCount(Range(n), x);
      assert x in s <==> x in Elems(s);
      assert x in Range(n) <==> x in all;
    }
    assert multiset(s) == multiset(Range(n));
  }

  /** The point at a position, or a filler past the end (never used). */
  function At(ps: seq<Point>): nat -> Point {
    (j: nat) => if j < |ps| then ps[j] else ""
  }

  /** A self-inverse rule concludes about the same points it was given,
      each as often as the premise names it. */
  lemma FillSamePoints(t: Template, ps: seq<Point>)
    requires SelfInverse(t) && |t.picks| == |ps|
    ensures Fits(t, |ps|) && multiset(Fill(t, ps).points) == multiset(ps)
  {
    SelfInversePermutes(t);
    PermutesFits(t, |ps|);
    var f := At(ps);
    assert Fill(t, ps).points == Map(t.picks, f);
    assert ps == Map(Range(|ps|), f);
    MapPermutation(t.picks, Range(|ps|), f);
  }

  /** A self-inverse rearrangement applied to its own conclusion gives back
      the premise's points. */
  lemma FillUndoes(t: Template, ps: seq<Point>)
    requires SelfInverse(t) && |ps| == |t.picks|
    ensures Fits(t, |ps|) && Fits(t, |Fill(t, ps).points|)
    ensures Fill(t, Fill(t, ps).points).points == ps
  {
    var q := Fill(t, ps).points;
    forall j | 0 <= j < |ps| ensures Fill(t, q).points[j] == ps[j] {
      assert q[t.picks[j]] == ps[t.picks[t.picks[j]]];
    }
  }

  /** A `for` loop whose body may raise, its results appended in order; the
      first step that raises ends the loop with that step's error. */
  function Gather<T, U(!new)>(xs: seq<T>, f: T -> Result<seq<U>>): (r: Result<seq<U>>)
    ensures r.Ok? <==> forall i | 0 <= i < |xs| :: f(xs[i]).Ok?
    ensures r.Fail? ==> exists i | 0 <= i < |xs| :: f(xs[i]) == Fail(r.error)
    ensures r.Ok? ==> forall y :: y in r.value <==> exists i | 0 <= i < |xs| :: f(xs[i]).Ok? && y in f(xs[i]).value
    decreases |xs|
  {
    if xs == [] then Ok([])
    else
      match f(xs[0])
      case Fail(e) => Fail(e)
      case Ok(a) =>
        match Gather(xs[1..], f)
        case Fail(e) =>
          assert forall i | 0 <= i < |xs[1..]| :: xs[1..][i] == xs[i + 1];
          Fail(e)
        case Ok(b) =>
          assert forall i | 0 <= i < |xs[1..]| :: xs[1..][i] == xs[i + 1];
          assert forall i | 1 <= i < |xs| :: xs[i] == xs[1..][i - 1];
          Ok(a + b)
  }

  /** What one step of a loop that ran to the end concludes is among the
      loop's conclusions. */
  lemma GatherHas<T, U(!new)>(xs: seq<T>, f: T -> Result<seq<U>>, i: nat, y: U)
    requires Gather(xs, f).Ok? && i < |xs| && f(xs[i]).Ok? && y in f(xs[i]).value
    ensures y in Gather(xs, f).value
  {
  }

  /** Two loop bodies that agree on every element run the same loop. */
  lemma {:induction false} GatherAgree<T, U(!new)>(xs: seq<T>, f: T -> Result<seq<U>>, g: T -> Result<seq<U>>)
    requires forall i | 0 <= i < |xs| :: f(xs[i]) == g(xs[i])
    ensures Gather(xs, f) == Gather(xs, g)
    decreases |xs|
  {
    if xs != [] {
      assert forall i | 0 <= i < |xs[1..]| :: xs[1..][i] == xs[i + 1];
      GatherAgree(xs[1..], f, g);
    }
  }

  /** A loop whose every step concludes nothing concludes nothing. */
  lemma {:induction false} GatherNothing<T, U(!new)>(xs: seq<T>, f: T -> Result<seq<U>>)
    requires forall i | 0 <= i < |xs| :: f(xs[i]) == Ok([])
    ensures Gather(xs, f) == Ok([])
    decreases |xs|
  {
    if xs != [] {
      assert forall i | 0 <= i < |xs[1..]| :: xs[1..][i] == xs[i + 1];
      GatherNothing(xs[1..], f);
      var none: seq<U> := [];
      assert f(xs[0]) == Ok(none) && Gather(xs[1..], f) == Ok(none);
      assert none + none == none;
      assert Gather(xs, f) == Ok(none);
    }
  }

  /** A `for` loop that cannot raise, its results appended in order. */
  function Each<T, U(!new)>(xs: seq<T>, f: T -> seq<U>): (r: seq<U>)
    ensures forall y :: y in r <==> exists i | 0 <= i < |xs| :: y in f(xs[i])
    decreases |xs|
  {
    if xs == [] then []
    else
      assert forall i | 0 <= i < |xs[1..]| :: xs[1..][i] == xs[i + 1];
      assert forall i | 1 <= i < |xs| :: xs[i] == xs[1..][i - 1];
      f(xs[0]) + Each(xs[1..], f)
  }

  /** `d[k]`: a `KeyError` when the dictionary has no such key. */
  function Read<K(==), T>(es: seq<Entry<K, T>>, k: K): (r: Result<seq<T>>)
    ensures r.Ok? <==> k in Keys(es)
    ensures r.Ok? ==> Lookup(es, k) == Some(r.value)
    ensures r.Fail? ==> r.error == KeyMissing
  {
    match Lookup(es, k)
    case Some(m) => Ok(m)
    case None => Fail(KeyMissing)
  }

  /** `[f(E, F) for (E, F) in itertools.combinations(points, 2)]`. */
  function OverPairs<U(!new)>(points: seq<Point>, f: (Point, Point) -> U): (r: seq<U>)
    ensures forall y :: y in r <==> exists i, j | 0 <= i < j < |points| :: y == f(points[i], points[j])
  {
    var r := Map(Snapshot.Pairs(points), (e: (Point, Point)) => f(e.0, e.1));
    OverPairsHas(points, f, r);
    OverPairsFrom(points, f, r);
    r
  }

  lemma OverPairsHas<U>(points: seq<Point>, f: (Point, Point) -> U, r: seq<U>)
    requires r == Map(Snapshot.Pairs(points), (e: (Point, Point)) => f(e.0, e.1))
    ensures forall i, j | 0 <= i < j < |points| :: f(points[i], points[j]) in r
  {
    var ps := Snapshot.Pairs(points);
    forall i, j | 0 <= i < j < |points| ensures f(points[i], points[j]) in r {
      assert (points[i], points[j]) in ps;
      var k :| 0 <= k < |ps| && ps[k] == (points[i], points[j]);
      assert r[k] == f(points[i], points[j]);
    }
  }

  lemma OverPairsFrom<U>(points: seq<Point>, f: (Point, Point) -> U, r: seq<U>)
    requires r == Map(Snapshot.Pairs(points), (e: (Point, Point)) => f(e.0, e.1))
    ensures forall k | 0 <= k < |r| :: exists i, j | 0 <= i < j < |points| :: r[k] == f(points[i], points[j])
  {
    var ps := Snapshot.Pairs(points);
    forall k | 0 <= k < |r| ensures exists i, j | 0 <= i < j < |points| :: r[k] == f(points[i], points[j]) {
      var i, j :| 0 <= i < j < |points| && ps[k] == (points[i], points[j]);
      assert r[k] == f(points[i], points[j]);
    }
  }

  /** `[f(x) for x in xs if keep(x)]`. */
  function Select<T, U(!new)>(xs: seq<T>, keep: T -> bool, f: T -> U): (r: seq<U>)
    ensures forall y :: y in r <==> exists i | 0 <= i < |xs| :: keep(xs[i]) && y == f(xs[i])
  {
    Each(xs, (x: T) => if keep(x) then [f(x)] else [])
  }

  /** A comprehension that keeps distinct elements apart keeps them distinct. */
  lemma {:induction false} SelectNoDup<T, U(!new)>(xs: seq<T>, keep: T -> bool, f: T -> U)
    requires NoDup(xs)
    requires forall a, b :: f(a) == f(b) ==> a == b
    ensures NoDup(Select(xs, keep, f))
    decreases |xs|
  {
    if xs != [] {
      assert NoDup(xs[1..]);
      SelectNoDup(xs[1..], keep, f);
      var a := if keep(xs[0]) then [f(xs[0])] else [];
      var rest := Select(xs[1..], keep, f);
      assert Select(xs, keep, f) == a + rest;
      forall y | y in rest ensures y != f(xs[0]) {
        var i :| 0 <= i < |xs[1..]| && keep(xs[1..][i]) && y == f(xs[1..][i]);
        assert xs[1..][i] == xs[i + 1] && xs[i + 1] != xs[0];
      }
      var s := a + rest;
      forall i, j | 0 <= i < j < |s| ensures s[i] != s[j] {
        if i < |a| {
          assert s[j] == rest[j - |a|] && rest[j - |a|] in rest;
        } else {
          assert s[i] == rest[i - |a|] && s[j] == rest[j - |a|];
        }
      }
    }
  }

  /** `q` is `kind(front + [a, b, c, d])` for a pair `(a, b)` of `xs` and a
      pair `(c, d)` of `ys`. */
  predicate CrossOf(kind: string, front: seq<Point>, xs: seq<(Point, Point)>, ys: seq<(Point, Point)>, q: Pred) {
    var n := |front|;
    q.kind == kind && |q.points| == n + 4 && q.points[..n] == front &&
    (q.points[n], q.points[n + 1]) in xs && (q.points[n + 2], q.points[n + 3]) in ys
  }

  function CrossWith(kind: string, front: seq<Point>, x: (Point, Point), y: (Point, Point)): Pred {
    Pred(kind, front + [x.0, x.1, y.0, y.1])
  }

  /** The inner loop of `Cross`: one pair `x` against every pair of `ys`. */
  function CrossRow(kind: string, front: seq<Point>, x: (Point, Point), ys: seq<(Point, Point)>): (r: seq<Pred>)
    ensures forall q :: q in r <==> exists y | y in ys :: q == CrossWith(kind, front, x, y)
  {
    Map(ys, (y: (Point, Point)) => CrossWith(kind, front, x, y))
  }

  /** Two nested loops, over `xs` outside and `ys` inside, each step writing
      `kind(front + [a, b, c, d])`. */
  function Cross(kind: string, front: seq<Point>, xs: seq<(Point, Point)>, ys: seq<(Point, Point)>): (r: seq<Pred>)
    ensures forall q :: q in r <==> CrossOf(kind, front, xs, ys, q)
  {
    var r := Each(xs, (x: (Point, Point)) => CrossRow(kind, front, x, ys));
    CrossSound(kind, front, xs, ys, r);
    CrossComplete(kind, front, xs, ys, r);
    r
  }

  lemma CrossSound(kind: string, front: seq<Point>, xs: seq<(Point, Point)>, ys: seq<(Point, Point)>, r: seq<Pred>)
    requires r == Each(xs, (x: (Point, Point)) => CrossRow(kind, front, x, ys))
    ensures forall q | q in r :: CrossOf(kind, front, xs, ys, q)
  {
    forall q | q in r ensures CrossOf(kind, front, xs, ys, q) {
      var k :| 0 <= k < |xs| && q in CrossRow(kind, front, xs[k], ys);
      var x := xs[k];
      var y :| y in ys && q == CrossWith(kind, front, x, y);
      var n := |front|;
      assert q.points == front + [x.0, x.1, y.0, y.1];
      assert q.points[..n] == front;
      assert (q.points[n], q.points[n + 1]) == x;
      assert (q.points[n + 2], q.points[n + 3]) == y;
    }
  }

  lemma CrossComplete(kind: string, front: seq<Point>, xs: seq<(Point, Point)>, ys: seq<(Point, Point)>, r: seq<Pred>)
    requires r == Each(xs, (x: (Point, Point)) => CrossRow(kind, front, x, ys))
    ensures forall q | CrossOf(kind, front, xs, ys, q) :: q in r
  {
    forall q | CrossOf(kind, front, xs, ys, q) ensures q in r {
      var n := |front|;
      var x, y := (q.points[n], q.points[n + 1]), (q.points[n + 2], q.points[n + 3]);
      assert q.points == front + [x.0, x.1, y.0, y.1];
      assert q == CrossWith(kind, front, x, y);
      assert q in CrossRow(kind, front, x, ys);
      var k :| 0 <= k < |xs| && xs[k] == x;
    }
  }

  /** The end points of each segment, as pairs. */
  function Tips(segs: seq<Segment>): (r: seq<(Point, Point)>)
    ensures forall a, b :: (a, b) in r <==> Segment(a, b) in segs
  {
    var r := Map(segs, (s: Segment) => (s.p1, s.p2));
    assert forall a, b | Segment(a, b) in segs :: (a, b) in r by {
      forall a, b | Segment(a, b) in segs ensures (a, b) in r {
        var k :| 0 <= k < |segs| && segs[k] == Segment(a, b);
        assert r[k] == (a, b);
      }
    }
    r
  }
}

=== FILE: simsearch.dfy ===
/** D58 of `Prover` in `src/prover.py`: from eqangle(A,B,B,C,P,Q,Q,R) the
    rule finds the corner B where the first two lines meet and the corner Q
    where the last two meet, then tries every A and C on those lines and
    every P and R on the other two, and concludes simtri(A,B,C,P,Q,R)
    whenever angle A-C-B is known equal to angle P-R-Q.  The source also
    asks that the two triangles differ, but compares two fresh `Triangle`
    objects, a test that always passes; `D58AsWritten` keeps that, `D58`
    drops the conclusions that name one triangle twice. */
module SimSearch {
  import opened Common
  import opened Primitives
  import opened Predicates
  import opened Snapshot
  import opened RuleKit
  import GroupStore
  import PointQuery
  import MidSearch

  /** The four lines of the premise, matched in order. */
  function D58Lines(kb: Kb, ps: seq<Point>): Result<GroupStore.Matched<GroupStore.Lines>>
    requires |ps| == 8
  {
    GroupStore.MatchLines(kb.store.lines, [(ps[0], ps[1]), (ps[2], ps[3]), (ps[4], ps[5]), (ps[6], ps[7])])
  }

  /** The points of the `k`-th matched line. */
  function Side(m: GroupStore.Matched<GroupStore.Lines>, k: nat): seq<Point> {
    if k < |m.names| then PointQuery.LineMembers(m.dict, m.names[k]) else []
  }

  /** The knowledge base the candidates are proved against: the one the
      four `matchLine` calls leave behind. */
  function Matching(kb: Kb, m: GroupStore.Matched<GroupStore.Lines>): Kb {
    kb.(store := kb.store.(lines := m.dict))
  }

  /** One choice of the free vertices: A and C of the first triangle,
      P and R of the second. */
  datatype Corners = Corners(a: Point, c: Point, p: Point, r: Point)

  /** `[p for p in s if p != b]`. */
  function Except(s: seq<Point>, b: Point): (r: seq<Point>)
    ensures forall x :: x in r <==> x in s && x != b
  {
    var r := Filter(s, (x: Point) => x != b);
    forall x | x in s && x != b ensures x in r {
      var i :| 0 <= i < |s| && s[i] == x;
    }
    r
  }

  /** The innermost loop: every R of `rs` for fixed A, C and P. */
  function Row(a: Point, c: Point, p: Point, rs: seq<Point>): (r: seq<Corners>)
    ensures forall x :: x in r <==> x.a == a && x.c == c && x.p == p && x.r in rs
  {
    var r := Map(rs, (v: Point) => Corners(a, c, p, v));
    forall x: Corners | x.a == a && x.c == c && x.p == p && x.r in rs ensures x in r {
      var i :| 0 <= i < |rs| && rs[i] == x.r;
      assert r[i] == x;
    }
    r
  }

  /** The two inner loops, over P and R. */
  function Plane(a: Point, c: Point, ps: seq<Point>, rs: seq<Point>): (r: seq<Corners>)
    ensures forall x :: x in r <==> x.a == a && x.c == c && x.p in ps && x.r in rs
  {
    var r := Each(ps, (p: Point) => Row(a, c, p, rs));
    forall x: Corners | x.a == a && x.c == c && x.p in ps && x.r in rs ensures x in r {
      var i :| 0 <= i < |ps| && ps[i] == x.p;
      assert x in Row(a, c, ps[i], rs);
    }
    r
  }

  /** The three inner loops, over C, P and R. */
  function Block(a: Point, cs: seq<Point>, ps: seq<Point>, rs: seq<Point>): (r: seq<Corners>)
    ensures forall x :: x in r <==> x.a == a && x.c in cs && x.p in ps && x.r in rs
  {
    var r := Each(cs, (c: Point) => Plane(a, c, ps, rs));
    forall x: Corners | x.a == a && x.c in cs && x.p in ps && x.r in rs ensures x in r {
      var i :| 0 <= i < |cs| && cs[i] == x.c;
      assert x in Plane(a, cs[i], ps, rs);
    }
    r
  }

  /** The four nested loops, over A, C, P and R in that order. */
  function Grid(as_: seq<Point>, cs: seq<Point>, ps: seq<Point>, rs: seq<Point>): (r: seq<Corners>)
    ensures forall x :: x in r <==> x.a in as_ && x.c in cs && x.p in ps && x.r in rs
  {
    var r := Each(as_, (a: Point) => Block(a, cs, ps, rs));
    forall x: Corners | x.a in as_ && x.c in cs && x.p in ps && x.r in rs ensures x in r {
      var i :| 0 <= i < |as_| && as_[i] == x.a;
      assert x in Block(as_[i], cs, ps, rs);
    }
    r
  }

  /** A and C lie on the first two lines, P and R on the last two, and
      none of them is the corner of its line pair. */
  predicate Candidate(m: GroupStore.Matched<GroupStore.Lines>, b: Point, q: Point, x: Corners) {
    x.a in Side(m, 0) && x.a != b && x.c in Side(m, 1) && x.c != b &&
    x.p in Side(m, 2) && x.p != q && x.r in Side(m, 3) && x.r != q
  }

  /** eqangle(A,C,B,C,P,R,Q,R): angle A-C-B equals angle P-R-Q. */
  function Witness(b: Point, q: Point, x: Corners): Pred {
    Pred("eqangle", [x.a, x.c, b, x.c, x.p, x.r, q, x.r])
  }

  /** `self.prove` of the witness, which takes the eqangle branch of `prove`. */
  function Held(kb: Kb, b: Point, q: Point, x: Corners): (r: Result<bool>)
    ensures r.Fail? ==> r.error == NameExhausted
  {
    PointQuery.ProveEqangle(kb.store, Witness(b, q, x).points)
  }

  /** simtri(A,B,C,P,Q,R). */
  function Conclusion(b: Point, q: Point, x: Corners): Pred {
    Pred("simtri", [x.a, b, x.c, x.p, q, x.r])
  }

  /** The vertex choice a simtri conclusion was made from. */
  function CornersOf(c: Pred): Corners
    requires |c.points| == 6
  {
    Corners(c.points[0], c.points[2], c.points[3], c.points[5])
  }

  /** The two triangles of a candidate are the same three points, which
      is `TriEq` of the two (`SameTriangleIsTriEq`). */
  predicate SameTriangle(b: Point, q: Point, x: Corners) {
    multiset{x.a, b, x.c} == multiset{x.p, q, x.r}
  }

  lemma SameTriangleIsTriEq(b: Point, q: Point, x: Corners)
    ensures SameTriangle(b, q, x) <==> TriEq(Triangle(x.a, b, x.c), Triangle(x.p, q, x.r))
  {
    TriEqIffSameVertices(Triangle(x.a, b, x.c), Triangle(x.p, q, x.r));
  }

  /** One candidate.  With `strict` the triangles are compared by their
      vertices; without it the test always passes, as the source's
      comparison of two fresh `Triangle` objects does. */
  function Check(kb: Kb, b: Point, q: Point, x: Corners, strict: bool): (r: Result<seq<Pred>>)
    ensures r.Fail? <==> Held(kb, b, q, x).Fail?
    ensures r.Fail? ==> r.error == NameExhausted
    ensures r.Ok? ==> (r.value != [] <==> Held(kb, b, q, x) == Ok(true) && !(strict && SameTriangle(b, q, x)))
    ensures r.Ok? ==> forall c | c in r.value :: c == Conclusion(b, q, x)
  {
    var held :- Held(kb, b, q, x);
    Ok(if held && !(strict && SameTriangle(b, q, x)) then [Conclusion(b, q, x)] else [])
  }

  /** `c` is a conclusion the rule may draw: a simtri whose corners are the
      meeting points, whose free vertices are a candidate, whose witnessing
      angles are known equal and, with `strict`, whose triangles differ. */
  predicate Derives(kb: Kb, m: GroupStore.Matched<GroupStore.Lines>, b: Point, q: Point, c: Pred, strict: bool) {
    c.kind == "simtri" && |c.points| == 6 && c.points[1] == b && c.points[4] == q &&
    Candidate(m, b, q, CornersOf(c)) &&
    Held(Matching(kb, m), b, q, CornersOf(c)) == Ok(true) &&
    !(strict && SameTriangle(b, q, CornersOf(c)))
  }

  /** The vertex choices of the four loops, over the matched lines with
      the corners taken out. */
  function Choices(m: GroupStore.Matched<GroupStore.Lines>, b: Point, q: Point): (r: seq<Corners>)
    ensures forall x :: x in r <==> Candidate(m, b, q, x)
  {
    Grid(Except(Side(m, 0), b), Except(Side(m, 1), b), Except(Side(m, 2), q), Except(Side(m, 3), q))
  }

  /** D58: eqangle(A,B,B,C,P,Q,Q,R) & eqangle(A,C,B,C,P,R,Q,R) => simtri(A,B,C,P,Q,R),
      the triangle test chosen by `strict`. */
  function Search(kb: Kb, p: Pred, strict: bool): (r: Result<seq<Pred>>)
    ensures |p.points| != 8 ==> r == Fail(MalformedArity)
    ensures r.Fail? ==> r.error in {MalformedArity, NameExhausted}
    ensures |p.points| == 8 && r.Fail? ==> r.error == NameExhausted
    ensures |p.points| == 8 && D58Lines(kb, p.points).Fail? ==> r == Fail(NameExhausted)
    ensures |p.points| == 8 && D58Lines(kb, p.points).Ok? ==>
      var m := D58Lines(kb, p.points).value;
      var bs := MidSearch.Meet(Side(m, 0), Side(m, 1));
      var qs := MidSearch.Meet(Side(m, 2), Side(m, 3));
      |m.names| == 4 &&
      GroupStore.Through(m.dict, m.names[0], p.points[0], p.points[1]) &&
      GroupStore.Through(m.dict, m.names[1], p.points[2], p.points[3]) &&
      GroupStore.Through(m.dict, m.names[2], p.points[4], p.points[5]) &&
      GroupStore.Through(m.dict, m.names[3], p.points[6], p.points[7]) &&
      (bs.None? || qs.None? ==> r == Ok([])) &&
      (bs.Some? && qs.Some? ==>
        (r.Fail? <==> exists x | Candidate(m, bs.value, qs.value, x) ::
           Held(Matching(kb, m), bs.value, qs.value, x).Fail?) &&
        (r.Ok? ==> forall c :: c in r.value <==> Derives(kb, m, bs.value, qs.value, c, strict)))
  {
    if |p.points| != 8 then Fail(MalformedArity)
    else
      var ps := p.points;
      var m :- D58Lines(kb, ps);
      D58Holds(m, ps);
      var bs := MidSearch.Meet(Side(m, 0), Side(m, 1));
      var qs := MidSearch.Meet(Side(m, 2), Side(m, 3));
      if bs.None? || qs.None? then Ok([])
      else
        var b, q := bs.value, qs.value;
        var xs := Choices(m, b, q);
        var r := Gather(xs, (x: Corners) => Check(Matching(kb, m), b, q, x, strict));
        D58Exactly(kb, m, b, q, xs, r, strict);
        r
  }

  /** The matched lines run through the premise's four pairs. */
  lemma D58Holds(m: GroupStore.Matched<GroupStore.Lines>, ps: seq<Point>)
    requires |ps| == 8
    requires GroupStore.LinesHold(m.dict, m.names, [(ps[0], ps[1]), (ps[2], ps[3]), (ps[4], ps[5]), (ps[6], ps[7])])
    ensures |m.names| == 4
    ensures GroupStore.Through(m.dict, m.names[0], ps[0], ps[1])
    ensures GroupStore.Through(m.dict, m.names[1], ps[2], ps[3])
    ensures GroupStore.Through(m.dict, m.names[2], ps[4], ps[5])
    ensures GroupStore.Through(m.dict, m.names[3], ps[6], ps[7])
  {
    var pairs := [(ps[0], ps[1]), (ps[2], ps[3]), (ps[4], ps[5]), (ps[6], ps[7])];
    GroupStore.LinesHoldAt(m.dict, m.names, pairs, 0);
    GroupStore.LinesHoldAt(m.dict, m.names, pairs, 1);
    GroupStore.LinesHoldAt(m.dict, m.names, pairs, 2);
    GroupStore.LinesHoldAt(m.dict, m.names, pairs, 3);
  }

  /** The gathered candidates are exactly the conclusions `Derives` names. */
  lemma D58Exactly(kb: Kb, m: GroupStore.Matched<GroupStore.Lines>, b: Point, q: Point, xs: seq<Corners>, r: Result<seq<Pred>>, strict: bool)
    requires forall x :: x in xs <==> Candidate(m, b, q, x)
    requires r == Gather(xs, (x: Corners) => Check(Matching(kb, m), b, q, x, strict))
    ensures r.Fail? ==> r.error == NameExhausted
    ensures r.Fail? <==> exists x | Candidate(m, b, q, x) :: Held(Matching(kb, m), b, q, x).Fail?
    ensures r.Ok? ==> forall c :: c in r.value <==> Derives(kb, m, b, q, c, strict)
  {
    D58FailExactly(kb, m, b, q, xs, r, strict);
    if r.Ok? {
      forall c: Pred ensures c in r.value <==> Derives(kb, m, b, q, c, strict) {
        if c in r.value {
          D58Sound(kb, m, b, q, xs, r, c, strict);
        }
        if Derives(kb, m, b, q, c, strict) {
          assert CornersOf(c) in xs;
          D58Complete(Matching(kb, m), b, q, xs, r, c, strict);
        }
      }
    }
  }

  lemma D58FailExactly(kb: Kb, m: GroupStore.Matched<GroupStore.Lines>, b: Point, q: Point, xs: seq<Corners>, r: Result<seq<Pred>>, strict: bool)
    requires forall x :: x in xs <==> Candidate(m, b, q, x)
    requires r == Gather(xs, (x: Corners) => Check(Matching(kb, m), b, q, x, strict))
    ensures r.Fail? ==> r.error == NameExhausted
    ensures r.Fail? <==> exists x | Candidate(m, b, q, x) :: Held(Matching(kb, m), b, q, x).Fail?
  {
    var k := Matching(kb, m);
    if r.Fail? {
      var i :| 0 <= i < |xs| && Check(k, b, q, xs[i], strict) == Fail(r.error);
      assert Candidate(m, b, q, xs[i]);
    } else {
      forall x: Corners | Candidate(m, b, q, x) ensures Held(k, b, q, x).Ok? {
        var i :| 0 <= i < |xs| && xs[i] == x;
        assert Check(k, b, q, xs[i], strict).Ok?;
      }
    }
  }

  lemma D58Sound(kb: Kb, m: GroupStore.Matched<GroupStore.Lines>, b: Point, q: Point, xs: seq<Corners>, r: Result<seq<Pred>>, c: Pred, strict: bool)
    requires forall x :: x in xs ==> Candidate(m, b, q, x)
    requires r == Gather(xs, (x: Corners) => Check(Matching(kb, m), b, q, x, strict))
    requires r.Ok? && c in r.value
    ensures Derives(kb, m, b, q, c, strict)
  {
    var k := Matching(kb, m);
    var i :| 0 <= i < |xs| && Check(k, b, q, xs[i], strict).Ok? && c in Check(k, b, q, xs[i], strict).value;
    var x := xs[i];
    assert c == Conclusion(b, q, x);
    assert CornersOf(c) == x;
  }

  lemma D58Complete(k: Kb, b: Point, q: Point, xs: seq<Corners>, r: Result<seq<Pred>>, c: Pred, strict: bool)
    requires r == Gather(xs, (x: Corners) => Check(k, b, q, x, strict))
    requires c.kind == "simtri" && |c.points| == 6 && c.points[1] == b && c.points[4] == q
    requires Held(k, b, q, CornersOf(c)) == Ok(true) && !(strict && SameTriangle(b, q, CornersOf(c)))
    requires r.Ok? && CornersOf(c) in xs
    ensures c in r.value
  {
    var x := CornersOf(c);
    ConclusionOf(c, b, q);
    var i :| 0 <= i < |xs| && xs[i] == x;
    assert Check(k, b, q, xs[i], strict) == Ok([c]);
  }

  /** A simtri conclusion through B and Q is the one its corners make. */
  lemma ConclusionOf(c: Pred, b: Point, q: Point)
    requires c.kind == "simtri" && |c.points| == 6 && c.points[1] == b && c.points[4] == q
    ensures c == Conclusion(b, q, CornersOf(c))
  {
    var x := CornersOf(c);
    assert c.points == [x.a, b, x.c, x.p, q, x.r];
  }

  /** A simtri conclusion that names one triangle twice. */
  predicate SelfSimilar(c: Pred) {
    |c.points| == 6 && TriEq(Triangle(c.points[0], c.points[1], c.points[2]), Triangle(c.points[3], c.points[4], c.points[5]))
  }

  /** D58 with the triangle test the source evidently intends. */
  function D58(kb: Kb, p: Pred): (r: Result<seq<Pred>>)
    ensures r.Ok? ==> forall c | c in r.value :: c.kind == "simtri" && |c.points| == 6 && !SelfSimilar(c)
  {
    var r := Search(kb, p, true);
    StrictNotSelfSimilar(kb, p);
    r
  }

  lemma StrictNotSelfSimilar(kb: Kb, p: Pred)
    ensures Search(kb, p, true).Ok? ==>
      forall c | c in Search(kb, p, true).value :: c.kind == "simtri" && |c.points| == 6 && !SelfSimilar(c)
  {
    var r := Search(kb, p, true);
    if r.Ok? && |p.points| == 8 && D58Lines(kb, p.points).Ok? {
      var m := D58Lines(kb, p.points).value;
      var bs := MidSearch.Meet(Side(m, 0), Side(m, 1));
      var qs := MidSearch.Meet(Side(m, 2), Side(m, 3));
      if bs.Some? && qs.Some? {
        forall c | c in r.value ensures c.kind == "simtri" && |c.points| == 6 && !SelfSimilar(c) {
          assert Derives(kb, m, bs.value, qs.value, c, true);
          SameTriangleIsTriEq(bs.value, qs.value, CornersOf(c));
        }
      }
    }
  }

  /** D58 as written: the same search with the always-passing triangle
      test.  It fails exactly when `D58` fails and draws what `D58` draws
      plus the conclusions that name one triangle twice. */
  function D58AsWritten(kb: Kb, p: Pred): (r: Result<seq<Pred>>)
    ensures r.Ok? <==> D58(kb, p).Ok?
    ensures r.Fail? ==> r == D58(kb, p)
    ensures r.Ok? ==> forall c :: c in D58(kb, p).value <==> c in r.value && !SelfSimilar(c)
  {
    var r := Search(kb, p, false);
    LooseAddsSelfSimilar(kb, p);
    r
  }

  lemma LooseAddsSelfSimilar(kb: Kb, p: Pred)
    ensures Search(kb, p, false).Ok? <==> Search(kb, p, true).Ok?
    ensures Search(kb, p, false).Fail? ==> Search(kb, p, false) == Search(kb, p, true)
    ensures Search(kb, p, false).Ok? ==>
      forall c :: c in Search(kb, p, true).value <==> c in Search(kb, p, false).value && !SelfSimilar(c)
  {
    var loose, strict := Search(kb, p, false), Search(kb, p, true);
    if |p.points| == 8 && D58Lines(kb, p.points).Ok? {
      var m := D58Lines(kb, p.points).value;
      var bs := MidSearch.Meet(Side(m, 0), Side(m, 1));
      var qs := MidSearch.Meet(Side(m, 2), Side(m, 3));
      if bs.Some? && qs.Some? {
        assert loose.Fail? <==> strict.Fail?;
        if loose.Ok? {
          forall c ensures c in strict.value <==> c in loose.value && !SelfSimilar(c) {
            StrictIsLoose(kb, m, bs.value, qs.value, c);
          }
        }
      }
    }
  }

  /** The two triangle tests differ only on conclusions that name one
      triangle twice. */
  lemma StrictIsLoose(kb: Kb, m: GroupStore.Matched<GroupStore.Lines>, b: Point, q: Point, c: Pred)
    ensures Derives(kb, m, b, q, c, true) <==> Derives(kb, m, b, q, c, false) && !SelfSimilar(c)
  {
    if |c.points| == 6 && c.points[1] == b && c.points[4] == q {
      SameTriangleIsTriEq(b, q, CornersOf(c));
    }
  }

  /** The discrepancy: whenever a candidate's two triangles coincide and
      its witnessing angles are known equal, the source concludes that the
      triangle is similar to itself, and `D58` does not. */
  lemma AsWrittenSelfSimilar(kb: Kb, p: Pred, x: Corners)
    requires |p.points| == 8 && D58Lines(kb, p.points).Ok?
    requires var m := D58Lines(kb, p.points).value;
      var bs := MidSearch.Meet(Side(m, 0), Side(m, 1));
      var qs := MidSearch.Meet(Side(m, 2), Side(m, 3));
      bs.Some? && qs.Some? && Candidate(m, bs.value, qs.value, x) &&
      Held(Matching(kb, m), bs.value, qs.value, x) == Ok(true) && SameTriangle(bs.value, qs.value, x)
    ensures var m := D58Lines(kb, p.points).value;
      var c := Conclusion(MidSearch.Meet(Side(m, 0), Side(m, 1)).value, MidSearch.Meet(Side(m, 2), Side(m, 3)).value, x);
      SelfSimilar(c) &&
      (D58AsWritten(kb, p).Ok? ==> c in D58AsWritten(kb, p).value && c !in D58(kb, p).value)
  {
    var m := D58Lines(kb, p.points).value;
    var b, q := MidSearch.Meet(Side(m, 0), Side(m, 1)).value, MidSearch.Meet(Side(m, 2), Side(m, 3)).value;
    var c := Conclusion(b, q, x);
    assert CornersOf(c) == x;
    SameTriangleIsTriEq(b, q, x);
    assert Derives(kb, m, b, q, c, false);
  }
}

=== FILE: store.dfy ===
/** The group store of `src/database_.py`, the revision the point-level prover
    reads: lines and congruence classes are named sets (of points, of
    segments), parallel lines, equal angles and equal ratios are lists of
    sets, and midpoints are triples.  Every handler is a pure function from
    the old store to the new one; the `ValueError` raised when the 19 names
    run out is the `NameExhausted` failure. */
module GroupStore {
  import opened Common
  import opened Order
  import opened Text
  import opened Primitives
  import opened Util
  import opened Merge
  import opened Groups
  import opened Predicates

  type Lines = seq<Entry<LineKey, Point>>
  type Congs = seq<Entry<CongKey, Segment>>

  datatype Store = Store(
    lines: Lines,
    congs: Congs,
    midpFacts: seq<seq<Point>>,
    paraFacts: seq<seq<LineKey>>,
    eqangleFacts: seq<seq<Angle>>,
    eqratioFacts: seq<seq<Ratio>>)

  const EmptyStore := Store([], [], [], [], [], [])

  /** `range(1, 20)` stops before this. */
  const NameLimit: nat := 20

  /** The first `n >= from` below the limit whose name is not taken, or the
      limit when every one is. */
  function FreeIndex(prefix: string, taken: seq<string>, from: nat): (n: nat)
    requires 1 <= from <= NameLimit
    ensures from <= n <= NameLimit
    ensures n < NameLimit ==> NumberedName(prefix, n) !in taken
    ensures forall k | from <= k < n :: NumberedName(prefix, k) in taken
    decreases NameLimit - from
  {
    if from == NameLimit then NameLimit
    else if NumberedName(prefix, from) !in taken then from
    else FreeIndex(prefix, taken, from + 1)
  }

  /** `newLineName` / `newCongName`: the smallest free `prefix{n}` with
      `1 <= n <= 19`; all nineteen taken is an error. */
  function NewName(prefix: string, taken: seq<string>): (r: Result<string>)
    ensures r.Ok? ==> r.value !in taken
    ensures r.Ok? ==> exists n | 1 <= n < NameLimit ::
      r.value == NumberedName(prefix, n) && forall k | 1 <= k < n :: NumberedName(prefix, k) in taken
    ensures r.Fail? <==> forall n | 1 <= n < NameLimit :: NumberedName(prefix, n) in taken
    ensures r.Fail? ==> r.error == NameExhausted
  {
    var n := FreeIndex(prefix, taken, 1);
    if n == NameLimit then Fail(NameExhausted) else Ok(NumberedName(prefix, n))
  }

  /** A dictionary after a find-or-create, with the name that was found or made. */
  datatype Named<D> = Named(dict: D, name: string)

  /** `set(points)`: one copy of each point, in order of first occurrence. */
  function SetOf<T(==)>(xs: seq<T>): (r: seq<T>)
    ensures NoDup(r) && Elems(r) == Elems(xs)
  {
    Union([], xs)
  }

  /** The first line holding both points, or `|lines|`. */
  function LineWith(lines: Lines, p: Point, q: Point): (i: nat)
    ensures i <= |lines|
    ensures i < |lines| ==> p in lines[i].members && q in lines[i].members
    ensures forall j | 0 <= j < i :: !(p in lines[j].members && q in lines[j].members)
  {
    FirstIndex(lines, (e: Entry<LineKey, Point>) => p in e.members && q in e.members)
  }

  /** `matchLine([p, q])`: the name of the first line through both points;
      otherwise a fresh line holding exactly the two points. */
  function MatchLine(lines: Lines, p: Point, q: Point): (r: Result<Named<Lines>>)
    ensures r.Ok? ==> Through(r.value.dict, r.value.name, p, q) && lines <= r.value.dict
    ensures (exists i | 0 <= i < |lines| :: p in lines[i].members && q in lines[i].members) ==>
      r.Ok? && r.value.dict == lines && r.value.name in Keys(lines)
    ensures r.Ok? && r.value.dict != lines ==>
      r.value.name !in Keys(lines) && r.value.dict == lines + [Entry(r.value.name, SetOf([p, q]))]
    ensures r.Fail? ==> r.error == NameExhausted
  {
    var i := LineWith(lines, p, q);
    if i < |lines| then Ok(Named(lines, lines[i].key))
    else
      var name :- NewName("line", Keys(lines));
      var m := SetOf([p, q]);
      assert p in Elems([p, q]) && q in Elems([p, q]);
      assert p in m && q in m;
      var ls := Put(lines, name, m);
      assert ls[|lines|] == Entry(name, m);
      Ok(Named(ls, name))
  }

  /** The line called `name` passes through `p` and `q`. */
  predicate Through(lines: Lines, name: LineKey, p: Point, q: Point) {
    exists i | 0 <= i < |lines| :: lines[i].key == name && p in lines[i].members && q in lines[i].members
  }

  /** Appending lines keeps every old line where it was. */
  lemma ThroughExtends(lines: Lines, more: Lines, name: LineKey, p: Point, q: Point)
    requires lines <= more && Through(lines, name, p, q)
    ensures Through(more, name, p, q)
  {
    var i :| 0 <= i < |lines| && lines[i].key == name && p in lines[i].members && q in lines[i].members;
    assert more[i] == lines[i];
  }

  /** The names of several lines matched one after another. */
  datatype Matched<D> = Matched(dict: D, names: seq<string>)

  /** `names[k]` names a line through the `k`-th pair, for every `k`. */
  predicate LinesHold(lines: Lines, names: seq<LineKey>, pairs: seq<(Point, Point)>)
    decreases |pairs|
  {
    |names| == |pairs| &&
    (pairs == [] ||
     (Through(lines, names[0], pairs[0].0, pairs[0].1) && LinesHold(lines, names[1..], pairs[1..])))
  }

  /** The `k`-th conjunct of `LinesHold`. */
  lemma {:induction false} LinesHoldAt(lines: Lines, names: seq<LineKey>, pairs: seq<(Point, Point)>, k: nat)
    requires LinesHold(lines, names, pairs) && k < |pairs|
    ensures |names| == |pairs| && Through(lines, names[k], pairs[k].0, pairs[k].1)
    decreases k
  {
    if k > 0 {
      LinesHoldAt(lines, names[1..], pairs[1..], k - 1);
    }
  }

  /** `matchLine` on each pair in order, each call seeing the lines the
      earlier ones created. */
  function MatchLines(lines: Lines, pairs: seq<(Point, Point)>): (r: Result<Matched<Lines>>)
    ensures r.Ok? ==> lines <= r.value.dict && LinesHold(r.value.dict, r.value.names, pairs)
    ensures r.Fail? ==> r.error == NameExhausted
    decreases |pairs|
  {
    if pairs == [] then Ok(Matched(lines, []))
    else
      var m :- MatchLine(lines, pairs[0].0, pairs[0].1);
      var rest :- MatchLines(m.dict, pairs[1..]);
      ThroughExtends(m.dict, rest.dict, m.name, pairs[0].0, pairs[0].1);
      assert ([m.name] + rest.names)[1..] == rest.names;
      Ok(Matched(rest.dict, [m.name] + rest.names))
  }

  /** `s in cong` for a Python set of segments: some member equals `s`. */
  predicate HasSeg(members: seq<Segment>, s: Segment) {
    Canon(s) in Map(members, Canon)
  }

  /** The first class holding a segment equal to `s`, or `|congs|`. */
  function CongWith(congs: Congs, s: Segment): (i: nat)
    ensures i <= |congs|
    ensures i < |congs| ==> HasSeg(congs[i].members, s)
    ensures forall j | 0 <= j < i :: !HasSeg(congs[j].members, s)
  {
    FirstIndex(congs, (e: Entry<CongKey, Segment>) => HasSeg(e.members, s))
  }

  /** The class called `name` holds a segment equal to `s`. */
  predicate ClassHas(congs: Congs, name: CongKey, s: Segment) {
    exists i | 0 <= i < |congs| :: congs[i].key == name && HasSeg(congs[i].members, s)
  }

  lemma ClassHasExtends(congs: Congs, more: Congs, name: CongKey, s: Segment)
    requires congs <= more && ClassHas(congs, name, s)
    ensures ClassHas(more, name, s)
  {
    var i :| 0 <= i < |congs| && congs[i].key == name && HasSeg(congs[i].members, s);
    assert more[i] == congs[i];
  }

  /** `names[k]` names a class holding the `k`-th pair's segment, for every `k`. */
  predicate ClassesHold(congs: Congs, names: seq<CongKey>, pairs: seq<(Point, Point)>)
    decreases |pairs|
  {
    |names| == |pairs| &&
    (pairs == [] ||
     (ClassHas(congs, names[0], Segment(pairs[0].0, pairs[0].1)) && ClassesHold(congs, names[1..], pairs[1..])))
  }

  /** The `k`-th conjunct of `ClassesHold`. */
  lemma {:induction false} ClassesHoldAt(congs: Congs, names: seq<CongKey>, pairs: seq<(Point, Point)>, k: nat)
    requires ClassesHold(congs, names, pairs) && k < |pairs|
    ensures |names| == |pairs| && ClassHas(congs, names[k], Segment(pairs[k].0, pairs[k].1))
    decreases k
  {
    if k > 0 {
      ClassesHoldAt(congs, names[1..], pairs[1..], k - 1);
    }
  }

  /** `matchCong` on each pair in order. */
  function MatchCongs(congs: Congs, pairs: seq<(Point, Point)>): (r: Result<Matched<Congs>>)
    ensures r.Ok? ==> congs <= r.value.dict && ClassesHold(r.value.dict, r.value.names, pairs)
    ensures r.Fail? ==> r.error == NameExhausted
    decreases |pairs|
  {
    if pairs == [] then Ok(Matched(congs, []))
    else
      var m :- MatchCong(congs, pairs[0].0, pairs[0].1);
      var rest :- MatchCongs(m.dict, pairs[1..]);
      ClassHasExtends(m.dict, rest.dict, m.name, Segment(pairs[0].0, pairs[0].1));
      assert ([m.name] + rest.names)[1..] == rest.names;
      Ok(Matched(rest.dict, [m.name] + rest.names))
  }

  /** `matchCong([p, q])`, matching by segment equality: the name of the
      first class holding segment `pq`; otherwise a fresh class holding it. */
  function MatchCong(congs: Congs, p: Point, q: Point): (r: Result<Named<Congs>>)
    ensures r.Ok? ==> ClassHas(r.value.dict, r.value.name, Segment(p, q)) && congs <= r.value.dict
    ensures (exists i | 0 <= i < |congs| :: HasSeg(congs[i].members, Segment(p, q))) ==>
      r.Ok? && r.value.dict == congs && r.value.name in Keys(congs)
    ensures r.Ok? && r.value.dict != congs ==>
      r.value.name !in Keys(congs) && r.value.dict == congs + [Entry(r.value.name, [Segment(p, q)])]
    ensures r.Fail? ==> r.error == NameExhausted
  {
    var i := CongWith(congs, Segment(p, q));
    if i < |congs| then Ok(Named(congs, congs[i].key))
    else
      var name :- NewName("cong", Keys(congs));
      var cs := Put(congs, name, [Segment(p, q)]);
      assert cs[|congs|] == Entry(name, [Segment(p, q)]);
      assert Map(cs[|congs|].members, Canon)[0] == Canon(Segment(p, q));
      Ok(Named(cs, name))
  }

  /** The two outcomes of `matchCong`, by the index of the first class
      holding the segment. */
  lemma MatchCongCases(congs: Congs, p: Point, q: Point)
    ensures CongWith(congs, Segment(p, q)) < |congs| ==>
      MatchCong(congs, p, q) == Ok(Named(congs, congs[CongWith(congs, Segment(p, q))].key))
    ensures CongWith(congs, Segment(p, q)) == |congs| && MatchCong(congs, p, q).Ok? ==>
      MatchCong(congs, p, q).value.dict == congs + [Entry(MatchCong(congs, p, q).value.name, [Segment(p, q)])]
  {
  }

  /** A class holding just `s` holds `s`. */
  lemma HasSegSingle(s: Segment)
    ensures HasSeg([s], s)
  {
    assert Map([s], Canon)[0] == Canon(s);
  }

  /** `collHandler(coll(points))`: the first line sharing at least two of the
      points takes them all and the lines are merged (`_lineMerge`: lines
      sharing at least two points with the first line of a round are folded
      into it); otherwise the points become a new line. */
  function CollHandler(lines: Lines, points: seq<Point>): (r: Result<Lines>)
    ensures r.Fail? ==> r.error == NameExhausted
    ensures r.Fail? ==> forall i | 0 <= i < |lines| :: CountIn(points, lines[i].members) < 2
    ensures r.Ok? ==> |r.value| <= |lines| + 1
  {
    var i := FirstIndex(lines, (e: Entry<LineKey, Point>) => CountIn(points, e.members) >= 2);
    if i < |lines| then
      Ok(MergeBy(lines[i := Entry(lines[i].key, Union(lines[i].members, points))], Id, 2))
    else
      var name :- NewName("line", Keys(lines));
      Ok(Put(lines, name, SetOf(points)))
  }

  /** With plain values as keys, "absorbed" is inclusion of point sets. */
  lemma LineMergeAbsorbs(ls: Lines, e: Entry<LineKey, Point>)
    requires e in ls
    ensures exists j | 0 <= j < |MergeBy(ls, Id, 2)| :: Elems(e.members) <= Elems(MergeBy(ls, Id, 2)[j].members)
  {
    MergeAbsorbs(ls, Id, 2, e);
    var r := MergeBy(ls, Id, 2);
    var j :| 0 <= j < |r| && KeySet(e.members, Id) <= KeySet(r[j].members, Id);
    MapId(e.members);
    MapId(r[j].members);
  }

  /** Every point of `points` is among `members`. */
  predicate AllOn(points: seq<Point>, members: seq<Point>) {
    forall x | x in points :: x in members
  }

  lemma AllOnElems(points: seq<Point>, members: seq<Point>)
    requires Elems(points) <= Elems(members)
    ensures AllOn(points, members)
  {
    forall x | x in points ensures x in members {
      assert x in Elems(points);
    }
  }

  /** After `coll(points)` one line holds every point. */
  lemma CollCovers(lines: Lines, points: seq<Point>)
    requires CollHandler(lines, points).Ok?
    ensures exists j | 0 <= j < |CollHandler(lines, points).value| ::
      AllOn(points, CollHandler(lines, points).value[j].members)
  {
    var i := FirstIndex(lines, (e: Entry<LineKey, Point>) => CountIn(points, e.members) >= 2);
    if i < |lines| {
      var ls := lines[i := Entry(lines[i].key, Union(lines[i].members, points))];
      MergedCovers(ls, i, points);
    } else {
      var r := CollHandler(lines, points).value;
      assert Elems(r[|r| - 1].members) == Elems(points);
      AllOnElems(points, r[|r| - 1].members);
    }
  }

  /** A line that took in every point is absorbed whole by the merge. */
  lemma MergedCovers(ls: Lines, i: nat, points: seq<Point>)
    requires i < |ls| && Elems(points) <= Elems(ls[i].members)
    ensures exists j | 0 <= j < |MergeBy(ls, Id, 2)| :: AllOn(points, MergeBy(ls, Id, 2)[j].members)
  {
    var r := MergeBy(ls, Id, 2);
    LineMergeAbsorbs(ls, ls[i]);
    var j :| 0 <= j < |r| && Elems(ls[i].members) <= Elems(r[j].members);
    AllOnElems(points, r[j].members);
  }

  /** No line loses a point: every old line lies inside some new line. */
  lemma CollKeepsLines(lines: Lines, points: seq<Point>, k: nat)
    requires CollHandler(lines, points).Ok? && k < |lines|
    ensures exists j | 0 <= j < |CollHandler(lines, points).value| ::
      Elems(lines[k].members) <= Elems(CollHandler(lines, points).value[j].members)
  {
    var r := CollHandler(lines, points).value;
    var i := FirstIndex(lines, (e: Entry<LineKey, Point>) => CountIn(points, e.members) >= 2);
    if i < |lines| {
      var e := Entry(lines[i].key, Union(lines[i].members, points));
      var ls := lines[i := e];
      LineMergeAbsorbs(ls, ls[k]);
      var j :| 0 <= j < |r| && Elems(ls[k].members) <= Elems(r[j].members);
      assert Elems(lines[k].members) <= Elems(ls[k].members);
    } else {
      assert r[k] == lines[k];
    }
  }

  /** Line names stay distinct. */
  lemma CollKeysDistinct(lines: Lines, points: seq<Point>)
    requires NoDup(Keys(lines)) && CollHandler(lines, points).Ok?
    ensures NoDup(Keys(CollHandler(lines, points).value))
  {
    var r := CollHandler(lines, points).value;
    var i := FirstIndex(lines, (e: Entry<LineKey, Point>) => CountIn(points, e.members) >= 2);
    if i < |lines| {
      var ls := lines[i := Entry(lines[i].key, Union(lines[i].members, points))];
      KeysUpdate(lines, i, ls[i]);
      MergeKeys(ls, Id, 2);
    } else {
      var name := NewName("line", Keys(lines)).value;
      KeysAppend(lines, name, SetOf(points));
    }
  }

  /** Nothing is invented: a point on a new line was given or was on an old line. */
  lemma CollFromInput(lines: Lines, points: seq<Point>, j: nat, x: Point)
    requires CollHandler(lines, points).Ok?
    requires j < |CollHandler(lines, points).value| && x in CollHandler(lines, points).value[j].members
    ensures x in points || exists k | 0 <= k < |lines| :: x in lines[k].members
  {
    var r := CollHandler(lines, points).value;
    var i := FirstIndex(lines, (e: Entry<LineKey, Point>) => CountIn(points, e.members) >= 2);
    if i < |lines| {
      var e := Entry(lines[i].key, Union(lines[i].members, points));
      var ls := lines[i := e];
      MergeFromInput(ls, Id, 2, j, x);
      UpdatedFromInput(lines, i, e, x);
      if x in e.members {
        UnionFrom(lines[i].members, points, x);
      }
    } else if j == |lines| {
      assert x in Elems(r[j].members);
    } else {
      assert r[j] == lines[j];
    }
  }

  lemma UnionFrom<T>(a: seq<T>, b: seq<T>, x: T)
    requires x in Union(a, b)
    ensures x in a || x in b
  {
    assert x in Elems(Union(a, b));
  }

  /** A member of an entry of `es[i := e]` is a member of `e` or of `es`. */
  lemma UpdatedFromInput<K, T>(es: seq<Entry<K, T>>, i: nat, e: Entry<K, T>, x: T)
    requires i < |es| && exists f | f in es[i := e] :: x in f.members
    ensures x in e.members || exists k | 0 <= k < |es| :: x in es[k].members
  {
    var ls := es[i := e];
    var f :| f in ls && x in f.members;
    var k :| 0 <= k < |ls| && ls[k] == f;
    if k != i {
      assert x in es[k].members;
    }
  }

  /** Overwriting an entry under its own key keeps the keys. */
  lemma KeysUpdate<K, T>(es: seq<Entry<K, T>>, i: nat, e: Entry<K, T>)
    requires i < |es| && e.key == es[i].key
    ensures Keys(es[i := e]) == Keys(es)
  {
    assert forall j | 0 <= j < |es| :: Keys(es[i := e])[j] == Keys(es)[j];
  }

  /** Adding an entry under a fresh key keeps keys distinct. */
  lemma KeysAppend<K, T>(es: seq<Entry<K, T>>, k: K, m: seq<T>)
    requires NoDup(Keys(es)) && k !in Keys(es)
    ensures NoDup(Keys(es + [Entry(k, m)]))
  {
    var ks := Keys(es + [Entry(k, m)]);
    assert ks == Keys(es) + [k] by {
      assert forall j | 0 <= j < |ks| :: ks[j] == (Keys(es) + [k])[j];
    }
  }

  /** `a.union(b)` for sets of segments: a segment equal to one already
      present is not added again. */
  function SegUnion(a: seq<Segment>, b: seq<Segment>): (r: seq<Segment>)
    ensures NoDup(Map(r, Canon))
  {
    FirstByKeyDistinct(a + b, Canon);
    FirstByKey(a + b, Canon)
  }

  /** A segment is in the union exactly when it is in one of the parts. */
  lemma SegUnionHas(a: seq<Segment>, b: seq<Segment>, s: Segment)
    ensures HasSeg(SegUnion(a, b), s) <==> HasSeg(a, s) || HasSeg(b, s)
  {
    FirstByKeyKeys(a + b, Canon, Canon(s));
    MapConcat(a, b, Canon);
  }

  /** The first class holding a segment equal to `s1` or to `s2`. */
  function CongWithEither(congs: Congs, s1: Segment, s2: Segment): (i: nat)
    ensures i <= |congs|
    ensures i < |congs| ==> HasSeg(congs[i].members, s1) || HasSeg(congs[i].members, s2)
    ensures forall j | 0 <= j < i :: !HasSeg(congs[j].members, s1) && !HasSeg(congs[j].members, s2)
  {
    FirstIndex(congs, (e: Entry<CongKey, Segment>) => HasSeg(e.members, s1) || HasSeg(e.members, s2))
  }

  /** The store after `congHandler` has grown or created the class of the two
      segments (the two lines are already matched). */
  function AddCongPair(congs: Congs, s1: Segment, s2: Segment): (r: Result<Congs>)
    ensures r.Fail? ==> r.error == NameExhausted
  {
    var i := CongWithEither(congs, s1, s2);
    if i < |congs| then
      Ok(MergeBy(congs[i := Entry(congs[i].key, SegUnion(congs[i].members, [s1, s2]))], Canon, 1))
    else
      var name :- NewName("cong", Keys(congs));
      Ok(Put(congs, name, SegUnion([], [s1, s2])))
  }

  /** `congHandler(cong(A, B, C, D))`: lines AB and CD are matched, then the
      class of segment AB or CD takes both segments and the classes are
      merged; otherwise the two segments form a new class. */
  function CongHandler(st: Store, points: seq<Point>): (r: Result<Store>)
    ensures |points| != 4 ==> r == Fail(MalformedArity)
    ensures r.Ok? ==> r.value == st.(lines := r.value.lines, congs := r.value.congs)
    ensures r.Ok? ==> AddCongPair(st.congs, Segment(points[0], points[1]), Segment(points[2], points[3])) == Ok(r.value.congs)
    ensures r.Ok? ==> st.lines <= r.value.lines
  {
    if |points| != 4 then Fail(MalformedArity)
    else
      var m1 :- MatchLine(st.lines, points[0], points[1]);
      var m2 :- MatchLine(m1.dict, points[2], points[3]);
      var congs :- AddCongPair(st.congs, Segment(points[0], points[1]), Segment(points[2], points[3]));
      Ok(st.(lines := m2.dict, congs := congs))
  }

  /** After `cong(A, B, C, D)` one class holds both segment AB and segment CD. */
  lemma CongCovers(congs: Congs, s1: Segment, s2: Segment)
    requires AddCongPair(congs, s1, s2).Ok?
    ensures exists j | 0 <= j < |AddCongPair(congs, s1, s2).value| ::
      HasSeg(AddCongPair(congs, s1, s2).value[j].members, s1)
      && HasSeg(AddCongPair(congs, s1, s2).value[j].members, s2)
  {
    var r := AddCongPair(congs, s1, s2).value;
    var i := CongWithEither(congs, s1, s2);
    if i < |congs| {
      var e := Entry(congs[i].key, SegUnion(congs[i].members, [s1, s2]));
      var cs := congs[i := e];
      assert r == MergeBy(cs, Canon, 1);
      PairInUnion(congs[i].members, s1, s2);
      assert e == cs[i];
      CongMergeKeepsPair(cs, e, s1, s2);
    } else {
      PairInUnion([], s1, s2);
      assert r[|r| - 1].members == SegUnion([], [s1, s2]);
    }
  }

  lemma CongMergeKeepsPair(cs: Congs, e: Entry<CongKey, Segment>, s1: Segment, s2: Segment)
    requires e in cs && HasSeg(e.members, s1) && HasSeg(e.members, s2)
    ensures exists j | 0 <= j < |MergeBy(cs, Canon, 1)| ::
      HasSeg(MergeBy(cs, Canon, 1)[j].members, s1) && HasSeg(MergeBy(cs, Canon, 1)[j].members, s2)
  {
    MergeKeepsTogether(cs, Canon, 1, e, Canon(s1), Canon(s2));
  }

  lemma PairInUnion(a: seq<Segment>, s1: Segment, s2: Segment)
    ensures HasSeg(SegUnion(a, [s1, s2]), s1) && HasSeg(SegUnion(a, [s1, s2]), s2)
  {
    SegUnionHas(a, [s1, s2], s1);
    SegUnionHas(a, [s1, s2], s2);
    assert Map([s1, s2], Canon) == [Canon(s1), Canon(s2)];
  }

  /** No class loses a segment: every old class lies inside some new class. */
  lemma CongKeepsClasses(congs: Congs, s1: Segment, s2: Segment, k: nat)
    requires AddCongPair(congs, s1, s2).Ok? && k < |congs|
    ensures exists j | 0 <= j < |AddCongPair(congs, s1, s2).value| ::
      KeySet(congs[k].members, Canon) <= KeySet(AddCongPair(congs, s1, s2).value[j].members, Canon)
  {
    var r := AddCongPair(congs, s1, s2).value;
    var i := CongWithEither(congs, s1, s2);
    if i < |congs| {
      var e := Entry(congs[i].key, SegUnion(congs[i].members, [s1, s2]));
      var cs := congs[i := e];
      MergeAbsorbs(cs, Canon, 1, cs[k]);
      var j :| 0 <= j < |r| && KeySet(cs[k].members, Canon) <= KeySet(r[j].members, Canon);
      if k == i {
        UnionKeeps(congs[i].members, [s1, s2]);
      }
    } else {
      assert r[k] == congs[k];
    }
  }

  lemma UnionKeeps(a: seq<Segment>, b: seq<Segment>)
    ensures KeySet(a, Canon) <= KeySet(SegUnion(a, b), Canon)
  {
    forall k | k in KeySet(a, Canon) ensures k in KeySet(SegUnion(a, b), Canon) {
      FirstByKeyKeys(a + b, Canon, k);
      MapConcat(a, b, Canon);
    }
  }

  /** Class names stay distinct. */
  lemma CongKeysDistinct(congs: Congs, s1: Segment, s2: Segment)
    requires NoDup(Keys(congs)) && AddCongPair(congs, s1, s2).Ok?
    ensures NoDup(Keys(AddCongPair(congs, s1, s2).value))
  {
    var i := CongWithEither(congs, s1, s2);
    if i < |congs| {
      var cs := congs[i := Entry(congs[i].key, SegUnion(congs[i].members, [s1, s2]))];
      KeysUpdate(congs, i, cs[i]);
      MergeKeys(cs, Canon, 1);
    } else {
      KeysAppend(congs, NewName("cong", Keys(congs)).value, SegUnion([], [s1, s2]));
    }
  }

  /** `paraHandler(para(A, B, C, D))`: lines AB and CD are matched, then the
      first group holding either name takes both, or the pair becomes a new
      group. */
  function ParaHandler(st: Store, points: seq<Point>): (r: Result<Store>)
    ensures |points| != 4 ==> r == Fail(MalformedArity)
    ensures r.Fail? ==> r.error == MalformedArity || r.error == NameExhausted
    ensures r.Ok? ==> r.value == st.(lines := r.value.lines, paraFacts := r.value.paraFacts)
    ensures r.Ok? ==> st.lines <= r.value.lines
    ensures r.Ok? ==> exists i, l1, l2 | 0 <= i < |r.value.paraFacts| && l1 in r.value.paraFacts[i] && l2 in r.value.paraFacts[i] ::
      Through(r.value.lines, l1, points[0], points[1]) && Through(r.value.lines, l2, points[2], points[3])
  {
    if |points| != 4 then Fail(MalformedArity)
    else
      var pairs := [(points[0], points[1]), (points[2], points[3])];
      var m :- MatchLines(st.lines, pairs);
      LinesHoldAt(m.dict, m.names, pairs, 0);
      LinesHoldAt(m.dict, m.names, pairs, 1);
      var facts := AddPair(st.paraFacts, m.names[0], m.names[1]);
      Ok(st.(lines := m.dict, paraFacts := facts))
  }

  /** `eqangleHandler(eqangle(A, B, C, D, E, F, G, H))`: the four lines are
      matched, then the first group holding either angle takes both, or the
      two angles become a new group. */
  function EqangleHandler(st: Store, points: seq<Point>): (r: Result<Store>)
    ensures |points| != 8 ==> r == Fail(MalformedArity)
    ensures r.Fail? ==> r.error == MalformedArity || r.error == NameExhausted
    ensures r.Ok? ==> r.value == st.(lines := r.value.lines, eqangleFacts := r.value.eqangleFacts)
    ensures r.Ok? ==> st.lines <= r.value.lines
    ensures r.Ok? ==> exists i, a1, a2 | 0 <= i < |r.value.eqangleFacts| && a1 in r.value.eqangleFacts[i] && a2 in r.value.eqangleFacts[i] ::
      Through(r.value.lines, a1.lk1, points[0], points[1]) && Through(r.value.lines, a1.lk2, points[2], points[3])
      && Through(r.value.lines, a2.lk1, points[4], points[5]) && Through(r.value.lines, a2.lk2, points[6], points[7])
  {
    if |points| != 8 then Fail(MalformedArity)
    else
      var m :- MatchLines(st.lines, Pairs4(points));
      LinesHeld(m.dict, m.names, points);
      var a1, a2 := Angle(m.names[0], m.names[1]), Angle(m.names[2], m.names[3]);
      var facts := AddPair(st.eqangleFacts, a1, a2);
      Ok(st.(lines := m.dict, eqangleFacts := facts))
  }

  /** The four point pairs of an eight-point predicate. */
  function Pairs4(points: seq<Point>): (r: seq<(Point, Point)>)
    requires |points| == 8
    ensures |r| == 4 && forall k | 0 <= k < 4 :: r[k] == (points[2 * k], points[2 * k + 1])
  {
    [(points[0], points[1]), (points[2], points[3]), (points[4], points[5]), (points[6], points[7])]
  }

  /** `eqratioHandler(eqratio(A, B, C, D, E, F, G, H))` as intended: the four
      congruence classes are matched, then the groups holding either ratio
      are merged with the pair (see `MergePair`). */
  function EqratioHandler(st: Store, points: seq<Point>): (r: Result<Store>)
    ensures |points| != 8 ==> r == Fail(MalformedArity)
    ensures r.Fail? ==> r.error in {MalformedArity, NameExhausted, AssertionFailed}
    ensures r.Ok? ==> r.value == st.(congs := r.value.congs, eqratioFacts := r.value.eqratioFacts)
    ensures r.Ok? ==> st.congs <= r.value.congs
    ensures r.Ok? ==> exists i, r1, r2 | 0 <= i < |r.value.eqratioFacts| && r1 in r.value.eqratioFacts[i] && r2 in r.value.eqratioFacts[i] ::
      ClassHas(r.value.congs, r1.c1, Segment(points[0], points[1])) && ClassHas(r.value.congs, r1.c2, Segment(points[2], points[3]))
      && ClassHas(r.value.congs, r2.c1, Segment(points[4], points[5])) && ClassHas(r.value.congs, r2.c2, Segment(points[6], points[7]))
  {
    if |points| != 8 then Fail(MalformedArity)
    else
      var m :- MatchCongs(st.congs, Pairs4(points));
      RatiosHeld(m.dict, m.names, points);
      var r1, r2 := Ratio(m.names[0], m.names[1]), Ratio(m.names[2], m.names[3]);
      var facts :- MergePair(st.eqratioFacts, r1, r2);
      Ok(st.(congs := m.dict, eqratioFacts := facts))
  }

  /** The four classes matched for an eight-point predicate, spelled out. */
  lemma RatiosHeld(congs: Congs, names: seq<CongKey>, points: seq<Point>)
    requires |points| == 8 && ClassesHold(congs, names, Pairs4(points))
    ensures |names| == 4
    ensures ClassHas(congs, names[0], Segment(points[0], points[1])) && ClassHas(congs, names[1], Segment(points[2], points[3]))
    ensures ClassHas(congs, names[2], Segment(points[4], points[5])) && ClassHas(congs, names[3], Segment(points[6], points[7]))
  {
    ClassesHoldAt(congs, names, Pairs4(points), 0);
    ClassesHoldAt(congs, names, Pairs4(points), 1);
    ClassesHoldAt(congs, names, Pairs4(points), 2);
    ClassesHoldAt(congs, names, Pairs4(points), 3);
  }

  /** The four lines matched for an eight-point predicate, spelled out. */
  lemma LinesHeld(lines: Lines, names: seq<LineKey>, points: seq<Point>)
    requires |points| == 8 && LinesHold(lines, names, Pairs4(points))
    ensures |names| == 4
    ensures Through(lines, names[0], points[0], points[1]) && Through(lines, names[1], points[2], points[3])
    ensures Through(lines, names[2], points[4], points[5]) && Through(lines, names[3], points[6], points[7])
  {
    LinesHoldAt(lines, names, Pairs4(points), 0);
    LinesHoldAt(lines, names, Pairs4(points), 1);
    LinesHoldAt(lines, names, Pairs4(points), 2);
    LinesHoldAt(lines, names, Pairs4(points), 3);
  }

  /** `eqratioHandler` as written, where one matching group makes it index
      the list at its length.  Ratios are compared by their two class names
      here; `Ratio` defines no `__eq__`, so the shipped program compares a
      freshly built ratio by identity, finds no group and always appends. */
  function EqratioHandlerAsWritten(st: Store, points: seq<Point>): (r: Result<Store>)
    ensures |points| != 8 ==> r == Fail(MalformedArity)
    ensures r != EqratioHandler(st, points) ==> r == Fail(IndexOutOfRange)
  {
    if |points| != 8 then Fail(MalformedArity)
    else
      var m :- MatchCongs(st.congs, Pairs4(points));
      RatiosHeld(m.dict, m.names, points);
      var r1, r2 := Ratio(m.names[0], m.names[1]), Ratio(m.names[2], m.names[3]);
      var facts :- MergePairAsWritten(st.eqratioFacts, r1, r2);
      Ok(st.(congs := m.dict, eqratioFacts := facts))
  }

  /** With ratio groups kept disjoint, the intended handler never trips its
      `assert` and keeps them disjoint. */
  lemma EqratioKeepsDisjoint(st: Store, points: seq<Point>)
    requires |points| == 8 && MatchCongs(st.congs, Pairs4(points)).Ok?
    requires Disjoint(st.eqratioFacts)
    ensures EqratioHandler(st, points).Ok?
    ensures Disjoint(EqratioHandler(st, points).value.eqratioFacts)
  {
    var m := MatchCongs(st.congs, Pairs4(points)).value;
    RatiosHeld(m.dict, m.names, points);
    MergePairDisjoint(st.eqratioFacts, Ratio(m.names[0], m.names[1]), Ratio(m.names[2], m.names[3]));
  }

  /** As written, a ratio already present in exactly one group makes the
      handler fail where the intended one succeeds.  "Present" compares
      ratios by value, which is what the handler evidently intends; with the
      identity comparison the shipped program uses, no group is ever found
      and this branch is not reached. */
  lemma EqratioOneGroupCrashes(st: Store, points: seq<Point>)
    requires |points| == 8 && MatchCongs(st.congs, Pairs4(points)).Ok?
    requires Disjoint(st.eqratioFacts)
    requires var m := MatchCongs(st.congs, Pairs4(points)).value;
      |Hits(st.eqratioFacts, Ratio(m.names[0], m.names[1]), Ratio(m.names[2], m.names[3]))| == 1
    ensures EqratioHandlerAsWritten(st, points) == Fail(IndexOutOfRange)
    ensures EqratioHandler(st, points).Ok?
  {
    EqratioKeepsDisjoint(st, points);
  }

  /** The triple a midpoint fact is stored as: `[M] + sorted([A, B])`. */
  function MidpTriple(m: Point, a: Point, b: Point): (t: seq<Point>)
    ensures |t| == 3 && t[0] == m && multiset(t[1..]) == multiset{a, b}
  {
    [m] + Ends(Segment(a, b))
  }

  /** `midpHandler(midp(M, A, B))`: `coll(M, A, B)` is added, then the triple
      is recorded unless it already is. */
  function MidpHandler(st: Store, points: seq<Point>): (r: Result<Store>)
    ensures |points| != 3 ==> r == Fail(MalformedArity)
    ensures r.Fail? ==> r.error == MalformedArity || r.error == NameExhausted
    ensures r.Ok? ==> r.value == st.(lines := r.value.lines, midpFacts := r.value.midpFacts)
    ensures r.Ok? ==> Elems(r.value.midpFacts) == Elems(st.midpFacts) + {MidpTriple(points[0], points[1], points[2])}
    ensures r.Ok? && MidpTriple(points[0], points[1], points[2]) in st.midpFacts ==> r.value.midpFacts == st.midpFacts
    ensures r.Ok? && MidpTriple(points[0], points[1], points[2]) !in st.midpFacts ==>
      r.value.midpFacts == st.midpFacts + [MidpTriple(points[0], points[1], points[2])]
    ensures r.Ok? && NoDup(st.midpFacts) ==> NoDup(r.value.midpFacts)
  {
    if |points| != 3 then Fail(MalformedArity)
    else
      var lines :- CollHandler(st.lines, points);
      Ok(st.(lines := lines, midpFacts := Insert(st.midpFacts, MidpTriple(points[0], points[1], points[2]))))
  }

  /** The endpoints' order does not matter to the recorded triples. */
  lemma MidpEndsUnordered(st: Store, m: Point, a: Point, b: Point)
    requires MidpHandler(st, [m, a, b]).Ok? && MidpHandler(st, [m, b, a]).Ok?
    ensures MidpHandler(st, [m, a, b]).value.midpFacts == MidpHandler(st, [m, b, a]).value.midpFacts
  {
    var p, q := [m, a, b], [m, b, a];
    assert p[0] == m && p[1] == a && p[2] == b && q[0] == m && q[1] == b && q[2] == a;
    SegEqIffSameEnds(Segment(a, b), Segment(b, a));
    assert MidpTriple(m, a, b) == MidpTriple(m, b, a);
  }

  /** After `midp(M, A, B)` some line holds M, A and B. */
  lemma MidpCollinear(st: Store, points: seq<Point>)
    requires MidpHandler(st, points).Ok?
    ensures exists j | 0 <= j < |MidpHandler(st, points).value.lines| ::
      AllOn(points, MidpHandler(st, points).value.lines[j].members)
  {
    CollCovers(st.lines, points);
  }

  /** The kinds `add` dispatches on. */
  const HandledKinds: set<string> := {"coll", "midp", "para", "eqangle", "cong", "eqratio"}

  /** `add(predicate)` with the merges rewriting the names they absorb: each
      kind goes to its handler (`coll`, `midp` and `cong` through
      `CollRenamed`, `MidpRenamed` and `CongRenamed`); any other kind leaves
      the store as it is. */
  function Add(st: Store, p: Pred): (r: Result<Store>)
    ensures p.kind !in HandledKinds ==> r == Ok(st)
    ensures r.Ok? && p.kind != "midp" && p.kind != "coll" ==> r.value.midpFacts == st.midpFacts
    ensures r.Ok? && p.kind !in {"para", "coll", "midp"} ==> r.value.paraFacts == st.paraFacts
    ensures r.Ok? && p.kind !in {"eqangle", "coll", "midp"} ==> r.value.eqangleFacts == st.eqangleFacts
    ensures r.Ok? && p.kind != "eqratio" && p.kind != "cong" ==> r.value.eqratioFacts == st.eqratioFacts
    ensures r.Ok? && p.kind != "cong" && p.kind != "eqratio" ==> r.value.congs == st.congs
    ensures r.Fail? <==> AddAsWritten(st, p).Fail?
    ensures r.Ok? ==> r.value.lines == AddAsWritten(st, p).value.lines && r.value.congs == AddAsWritten(st, p).value.congs
  {
    if p.kind == "coll" then CollRenamed(st, p.points)
    else if p.kind == "midp" then MidpRenamed(st, p.points)
    else if p.kind == "cong" then CongRenamed(st, p.points)
    else AddAsWritten(st, p)
  }

  /** Every name a group holds is a key of the store: the parallel groups
      and the angles name lines, the ratios name congruence classes. */
  predicate NamesValid(st: Store) {
    ParasIn(st.paraFacts, st.lines) && AnglesIn(st.eqangleFacts, st.lines) && RatiosIn(st.eqratioFacts, st.congs)
  }

  predicate ParasIn(paras: seq<seq<LineKey>>, lines: Lines) {
    forall i, n | 0 <= i < |paras| && n in paras[i] :: n in Keys(lines)
  }

  predicate AnglesIn(angles: seq<seq<Angle>>, lines: Lines) {
    forall i, a | 0 <= i < |angles| && a in angles[i] :: a.lk1 in Keys(lines) && a.lk2 in Keys(lines)
  }

  predicate RatiosIn(ratios: seq<seq<Ratio>>, congs: Congs) {
    forall i, q | 0 <= i < |ratios| && q in ratios[i] :: q.c1 in Keys(congs) && q.c2 in Keys(congs)
  }

  /** Groups drawn from valid groups and two new names of a grown store stay
      valid. */
  lemma ParasInAfter(paras: seq<seq<LineKey>>, before: seq<seq<LineKey>>, a: LineKey, b: LineKey, lines0: Lines, lines: Lines)
    requires DrawnFrom(paras, before, a, b) && ParasIn(before, lines0) && lines0 <= lines
    requires a in Keys(lines) && b in Keys(lines)
    ensures ParasIn(paras, lines)
  {
    KeysGrow(lines0, lines);
  }

  lemma ParasInGrow(paras: seq<seq<LineKey>>, lines0: Lines, lines: Lines)
    requires ParasIn(paras, lines0) && lines0 <= lines
    ensures ParasIn(paras, lines)
  {
    KeysGrow(lines0, lines);
  }

  lemma AnglesInGrow(angles: seq<seq<Angle>>, lines0: Lines, lines: Lines)
    requires AnglesIn(angles, lines0) && lines0 <= lines
    ensures AnglesIn(angles, lines)
  {
    KeysGrow(lines0, lines);
  }

  lemma AnglesInAfter(angles: seq<seq<Angle>>, before: seq<seq<Angle>>, a: Angle, b: Angle, lines0: Lines, lines: Lines)
    requires DrawnFrom(angles, before, a, b) && AnglesIn(before, lines0) && lines0 <= lines
    requires a.lk1 in Keys(lines) && a.lk2 in Keys(lines) && b.lk1 in Keys(lines) && b.lk2 in Keys(lines)
    ensures AnglesIn(angles, lines)
  {
    KeysGrow(lines0, lines);
  }

  lemma RatiosInAfter(ratios: seq<seq<Ratio>>, before: seq<seq<Ratio>>, a: Ratio, b: Ratio, congs0: Congs, congs: Congs)
    requires DrawnFrom(ratios, before, a, b) && RatiosIn(before, congs0) && congs0 <= congs
    requires a.c1 in Keys(congs) && a.c2 in Keys(congs) && b.c1 in Keys(congs) && b.c2 in Keys(congs)
    ensures RatiosIn(ratios, congs)
  {
    KeysGrow(congs0, congs);
  }

  function RenameAngle(gs: seq<Merge.Group<LineKey, Point>>, a: Angle): Angle {
    Angle(Survivor(gs, a.lk1), Survivor(gs, a.lk2))
  }

  function RenameRatio(gs: seq<Merge.Group<CongKey, Segment>>, q: Ratio): Ratio {
    Ratio(Survivor(gs, q.c1), Survivor(gs, q.c2))
  }

  /** The parallel groups after the merge `gs`, each name replaced by the
      name of the line that absorbed it. */
  function RenameParas(gs: seq<Merge.Group<LineKey, Point>>, paras: seq<seq<LineKey>>): seq<seq<LineKey>> {
    Map(paras, (ls: seq<LineKey>) => Map(ls, (n: LineKey) => Survivor(gs, n)))
  }

  function RenameAngles(gs: seq<Merge.Group<LineKey, Point>>, groups: seq<seq<Angle>>): seq<seq<Angle>> {
    Map(groups, (as1: seq<Angle>) => Map(as1, (a: Angle) => RenameAngle(gs, a)))
  }

  function RenameRatios(gs: seq<Merge.Group<CongKey, Segment>>, groups: seq<seq<Ratio>>): seq<seq<Ratio>> {
    Map(groups, (qs: seq<Ratio>) => Map(qs, (q: Ratio) => RenameRatio(gs, q)))
  }

  /** `collHandler` with the rewrite the list store does in its merge
      (src/database.py:229-235): once the lines are merged, every parallel
      group and every angle that named an absorbed line names the line that
      absorbed it.  It changes the lines as `CollHandler` does. */
  function CollRenamed(st: Store, points: seq<Point>): (r: Result<Store>)
    ensures r.Fail? <==> CollHandler(st.lines, points).Fail?
    ensures r.Ok? ==> r.value.lines == CollHandler(st.lines, points).value
    ensures r.Ok? ==> r.value == st.(lines := r.value.lines, paraFacts := r.value.paraFacts, eqangleFacts := r.value.eqangleFacts)
    ensures r.Ok? ==> |r.value.paraFacts| == |st.paraFacts| && |r.value.eqangleFacts| == |st.eqangleFacts|
  {
    var lines :- CollHandler(st.lines, points);
    var i := FirstIndex(st.lines, (e: Entry<LineKey, Point>) => CountIn(points, e.members) >= 2);
    if i < |st.lines| then
      var grown := st.lines[i := Entry(st.lines[i].key, Union(st.lines[i].members, points))];
      var gs := Merge.Groups(grown, Id, 2);
      Ok(st.(lines := lines, paraFacts := RenameParas(gs, st.paraFacts), eqangleFacts := RenameAngles(gs, st.eqangleFacts)))
    else
      Ok(st.(lines := lines))
  }

  /** When `coll` grows an existing line, every parallel name is replaced by
      the name of the line that absorbed it. */
  lemma CollRenamedParas(st: Store, points: seq<Point>)
    requires CollHandler(st.lines, points).Ok?
    requires FirstIndex(st.lines, (e: Entry<LineKey, Point>) => CountIn(points, e.members) >= 2) == 0 < |st.lines|
    ensures CollRenamed(st, points).value.paraFacts
      == RenameParas(Merge.Groups(st.lines[0 := Entry(st.lines[0].key, Union(st.lines[0].members, points))], Id, 2), st.paraFacts)
  {
  }

  /** `midpHandler` with its `coll` through `CollRenamed`. */
  function MidpRenamed(st: Store, points: seq<Point>): (r: Result<Store>)
    ensures r.Fail? <==> MidpHandler(st, points).Fail?
    ensures r.Ok? ==> r.value.lines == MidpHandler(st, points).value.lines
    ensures r.Ok? ==> r.value.midpFacts == MidpHandler(st, points).value.midpFacts
    ensures r.Ok? ==> r.value.congs == st.congs && r.value.eqratioFacts == st.eqratioFacts
  {
    if |points| != 3 then Fail(MalformedArity)
    else
      var st1 :- CollRenamed(st, points);
      Ok(st1.(midpFacts := Insert(st.midpFacts, MidpTriple(points[0], points[1], points[2]))))
  }

  /** `congHandler` with the same rewrite of the ratios once the classes are
      merged.  It changes the lines and the classes as `CongHandler` does. */
  function CongRenamed(st: Store, points: seq<Point>): (r: Result<Store>)
    ensures r.Fail? <==> CongHandler(st, points).Fail?
    ensures r.Ok? ==> r.value == CongHandler(st, points).value.(eqratioFacts := r.value.eqratioFacts)
    ensures r.Ok? ==> |r.value.eqratioFacts| == |st.eqratioFacts|
  {
    var st1 :- CongHandler(st, points);
    var s1, s2 := Segment(points[0], points[1]), Segment(points[2], points[3]);
    var i := CongWithEither(st.congs, s1, s2);
    if i < |st.congs| then
      var grown := st.congs[i := Entry(st.congs[i].key, SegUnion(st.congs[i].members, [s1, s2]))];
      Ok(st1.(eqratioFacts := RenameRatios(Merge.Groups(grown, Canon, 1), st.eqratioFacts)))
    else
      Ok(st1)
  }

  /** Keys of a prefix are keys of the whole. */
  lemma KeysGrow<K, T>(a: seq<Entry<K, T>>, b: seq<Entry<K, T>>)
    requires a <= b
    ensures forall n | n in Keys(a) :: n in Keys(b)
  {
    forall n | n in Keys(a) ensures n in Keys(b) {
      var j :| 0 <= j < |a| && Keys(a)[j] == n;
      assert Keys(b)[j] == n;
    }
  }

  /** After the merge `Groups(es)`, every name that was a key answers to a
      key of the merged entries, in the parallel groups and in the angles. */
  lemma LineRenameValid(st: Store, es: Lines, lines: Lines)
    requires NamesValid(st) && Keys(es) == Keys(st.lines) && lines == MergeBy(es, Id, 2)
    ensures NamesValid(st.(lines := lines, paraFacts := RenameParas(Merge.Groups(es, Id, 2), st.paraFacts),
      eqangleFacts := RenameAngles(Merge.Groups(es, Id, 2), st.eqangleFacts)))
  {
    var gs := Merge.Groups(es, Id, 2);
    var paras := RenameParas(gs, st.paraFacts);
    var angles := RenameAngles(gs, st.eqangleFacts);
    forall i, n | 0 <= i < |paras| && n in paras[i] ensures n in Keys(lines) {
      var k :| 0 <= k < |paras[i]| && paras[i][k] == n;
      assert st.paraFacts[i][k] in st.paraFacts[i];
      SurvivorKept(es, Id, 2, st.paraFacts[i][k]);
    }
    forall i, a: Angle | 0 <= i < |angles| && a in angles[i] ensures a.lk1 in Keys(lines) && a.lk2 in Keys(lines) {
      var k :| 0 <= k < |angles[i]| && angles[i][k] == a;
      var b := st.eqangleFacts[i][k];
      assert b in st.eqangleFacts[i];
      SurvivorKept(es, Id, 2, b.lk1);
      SurvivorKept(es, Id, 2, b.lk2);
    }
  }

  /** The same for the ratios after a merge of the classes. */
  lemma RatioRenameValid(st: Store, es: Congs, congs: Congs)
    requires NamesValid(st) && Keys(es) == Keys(st.congs) && congs == MergeBy(es, Canon, 1)
    ensures NamesValid(st.(congs := congs, eqratioFacts := RenameRatios(Merge.Groups(es, Canon, 1), st.eqratioFacts)))
  {
    var gs := Merge.Groups(es, Canon, 1);
    var ratios := RenameRatios(gs, st.eqratioFacts);
    forall i, q: Ratio | 0 <= i < |ratios| && q in ratios[i] ensures q.c1 in Keys(congs) && q.c2 in Keys(congs) {
      var k :| 0 <= k < |ratios[i]| && ratios[i][k] == q;
      var b := st.eqratioFacts[i][k];
      assert b in st.eqratioFacts[i];
      SurvivorKept(es, Canon, 1, b.c1);
      SurvivorKept(es, Canon, 1, b.c2);
    }
  }

  /** Growing the lines or the classes at the end keeps every name valid. */
  lemma GrowKeepsNamesValid(st: Store, lines: Lines, congs: Congs)
    requires NamesValid(st) && st.lines <= lines && st.congs <= congs
    ensures NamesValid(st.(lines := lines, congs := congs))
  {
    KeysGrow(st.lines, lines);
    KeysGrow(st.congs, congs);
  }

  /** `coll`, with the rewrite, never leaves a group naming a line that no
      longer exists. */
  lemma {:induction false} CollKeepsNamesValid(st: Store, points: seq<Point>)
    requires NamesValid(st) && CollRenamed(st, points).Ok?
    ensures NamesValid(CollRenamed(st, points).value)
  {
    var lines := CollHandler(st.lines, points).value;
    var r := CollRenamed(st, points).value;
    var i := FirstIndex(st.lines, (e: Entry<LineKey, Point>) => CountIn(points, e.members) >= 2);
    if i < |st.lines| {
      var grown := st.lines[i := Entry(st.lines[i].key, Union(st.lines[i].members, points))];
      var gs := Merge.Groups(grown, Id, 2);
      assert lines == MergeBy(grown, Id, 2);
      assert r == st.(lines := lines, paraFacts := RenameParas(gs, st.paraFacts), eqangleFacts := RenameAngles(gs, st.eqangleFacts));
      KeysUpdate(st.lines, i, grown[i]);
      LineRenameValid(st, grown, lines);
    } else {
      assert r == st.(lines := lines);
      assert st.lines <= lines;
      GrowKeepsNamesValid(st, lines, st.congs);
      assert st.(lines := lines, congs := st.congs) == r;
    }
  }

  /** `cong`, with the rewrite, never leaves a ratio naming a class that no
      longer exists, nor a group naming a line that does not. */
  lemma {:induction false} CongKeepsNamesValid(st: Store, points: seq<Point>)
    requires NamesValid(st) && CongRenamed(st, points).Ok?
    ensures NamesValid(CongRenamed(st, points).value)
  {
    var st1 := CongHandler(st, points).value;
    var r := CongRenamed(st, points).value;
    var s1, s2 := Segment(points[0], points[1]), Segment(points[2], points[3]);
    var i := CongWithEither(st.congs, s1, s2);
    var st0 := st.(lines := st1.lines);
    GrowKeepsNamesValid(st, st1.lines, st.congs);
    assert st.(lines := st1.lines, congs := st.congs) == st0;
    assert AddCongPair(st.congs, s1, s2) == Ok(st1.congs);
    if i < |st.congs| {
      var grown := st.congs[i := Entry(st.congs[i].key, SegUnion(st.congs[i].members, [s1, s2]))];
      assert st1.congs == MergeBy(grown, Canon, 1);
      assert r == st0.(congs := st1.congs, eqratioFacts := RenameRatios(Merge.Groups(grown, Canon, 1), st.eqratioFacts));
      KeysUpdate(st.congs, i, grown[i]);
      RatioRenameValid(st0, grown, st1.congs);
    } else {
      assert r == st1 && st1 == st0.(congs := st1.congs);
      assert st.congs <= st1.congs;
      GrowKeepsNamesValid(st0, st1.lines, st1.congs);
    }
  }

  lemma ThroughKey(lines: Lines, name: LineKey, p: Point, q: Point)
    requires Through(lines, name, p, q)
    ensures name in Keys(lines)
  {
    var i :| 0 <= i < |lines| && lines[i].key == name && p in lines[i].members && q in lines[i].members;
    assert Keys(lines)[i] == name;
  }

  lemma ClassKey(congs: Congs, name: CongKey, s: Segment)
    requires ClassHas(congs, name, s)
    ensures name in Keys(congs)
  {
    var i :| 0 <= i < |congs| && congs[i].key == name && HasSeg(congs[i].members, s);
    assert Keys(congs)[i] == name;
  }

  lemma {:induction false} MidpKeepsNamesValid(st: Store, points: seq<Point>)
    requires NamesValid(st) && MidpRenamed(st, points).Ok?
    ensures NamesValid(MidpRenamed(st, points).value)
  {
    CollKeepsNamesValid(st, points);
    var st1 := CollRenamed(st, points).value;
    assert MidpRenamed(st, points).value == st1.(midpFacts := Insert(st.midpFacts, MidpTriple(points[0], points[1], points[2])));
  }

  lemma {:induction false} ParaKeepsNamesValid(st: Store, points: seq<Point>)
    requires NamesValid(st) && ParaHandler(st, points).Ok?
    ensures NamesValid(ParaHandler(st, points).value)
  {
    var r := ParaHandler(st, points).value;
    var pairs := [(points[0], points[1]), (points[2], points[3])];
    var m := MatchLines(st.lines, pairs).value;
    var n0, n1 := m.names[0], m.names[1];
    assert r == st.(lines := m.dict, paraFacts := AddPair(st.paraFacts, n0, n1));
    LinesHoldAt(m.dict, m.names, pairs, 0);
    LinesHoldAt(m.dict, m.names, pairs, 1);
    ThroughKey(m.dict, n0, points[0], points[1]);
    ThroughKey(m.dict, n1, points[2], points[3]);
    AddPairFrom(st.paraFacts, n0, n1);
    ParasInAfter(r.paraFacts, st.paraFacts, n0, n1, st.lines, m.dict);
    AnglesInGrow(st.eqangleFacts, st.lines, m.dict);
  }

  lemma {:induction false} EqangleKeepsNamesValid(st: Store, points: seq<Point>)
    requires NamesValid(st) && EqangleHandler(st, points).Ok?
    ensures NamesValid(EqangleHandler(st, points).value)
  {
    var r := EqangleHandler(st, points).value;
    var m := MatchLines(st.lines, Pairs4(points)).value;
    var a1, a2 := Angle(m.names[0], m.names[1]), Angle(m.names[2], m.names[3]);
    assert r == st.(lines := m.dict, eqangleFacts := AddPair(st.eqangleFacts, a1, a2));
    LinesHeld(m.dict, m.names, points);
    ThroughKey(m.dict, m.names[0], points[0], points[1]);
    ThroughKey(m.dict, m.names[1], points[2], points[3]);
    ThroughKey(m.dict, m.names[2], points[4], points[5]);
    ThroughKey(m.dict, m.names[3], points[6], points[7]);
    AddPairFrom(st.eqangleFacts, a1, a2);
    AnglesInAfter(r.eqangleFacts, st.eqangleFacts, a1, a2, st.lines, m.dict);
    ParasInGrow(st.paraFacts, st.lines, m.dict);
  }

  lemma {:induction false} EqratioKeepsNamesValid(st: Store, points: seq<Point>)
    requires NamesValid(st) && EqratioHandler(st, points).Ok?
    ensures NamesValid(EqratioHandler(st, points).value)
  {
    var r := EqratioHandler(st, points).value;
    var m := MatchCongs(st.congs, Pairs4(points)).value;
    var r1, r2 := Ratio(m.names[0], m.names[1]), Ratio(m.names[2], m.names[3]);
    assert MergePair(st.eqratioFacts, r1, r2).Ok?;
    assert r == st.(congs := m.dict, eqratioFacts := MergePair(st.eqratioFacts, r1, r2).value);
    RatiosHeld(m.dict, m.names, points);
    ClassKey(m.dict, m.names[0], Segment(points[0], points[1]));
    ClassKey(m.dict, m.names[1], Segment(points[2], points[3]));
    ClassKey(m.dict, m.names[2], Segment(points[4], points[5]));
    ClassKey(m.dict, m.names[3], Segment(points[6], points[7]));
    MergePairFrom(st.eqratioFacts, r1, r2);
    RatiosInAfter(r.eqratioFacts, st.eqratioFacts, r1, r2, st.congs, m.dict);
  }

  /** With the merges rewriting the names they absorb, no predicate added to
      the store leaves a group naming a line or class that does not exist. */
  lemma AddKeepsNamesValid(st: Store, p: Pred)
    requires NamesValid(st) && Add(st, p).Ok?
    ensures NamesValid(Add(st, p).value)
  {
    if p.kind == "coll" {
      CollKeepsNamesValid(st, p.points);
    } else if p.kind == "midp" {
      MidpKeepsNamesValid(st, p.points);
    } else if p.kind == "cong" {
      CongKeepsNamesValid(st, p.points);
    } else if p.kind == "para" {
      ParaKeepsNamesValid(st, p.points);
    } else if p.kind == "eqangle" {
      EqangleKeepsNamesValid(st, p.points);
    } else if p.kind == "eqratio" {
      EqratioKeepsNamesValid(st, p.points);
    }
  }

  /** A store with the lines A-B, C-D and E-F and one parallel group naming
      the last two. */
  function ParaWitness(l1: LineKey, l2: LineKey, l3: LineKey): Store {
    Store([Entry(l1, ["A", "B"]), Entry(l2, ["C", "D"]), Entry(l3, ["E", "F"])], [], [], [[l2, l3]], [], [])
  }

  /** The lines once `coll(A, B, C, D)` has grown line1, before the merge. */
  function ParaGrown(l1: LineKey, l2: LineKey, l3: LineKey): Lines {
    ParaWitness(l1, l2, l3).lines[0 := Entry(l1, ["A", "B", "C", "D"])]
  }

  /** `coll(A, B, C, D)` on the witness store picks line1 to grow. */
  lemma ParaWitnessPicks(l1: LineKey, l2: LineKey, l3: LineKey)
    ensures FirstIndex(ParaWitness(l1, l2, l3).lines, (e: Entry<LineKey, Point>) => CountIn(["A", "B", "C", "D"], e.members) >= 2) == 0
  {
    var xs: seq<Point> := ["A", "B", "C", "D"];
    assert xs[1..] == ["B", "C", "D"];
    assert xs[1..][1..] == ["C", "D"];
    assert CountIn(xs, ParaWitness(l1, l2, l3).lines[0].members) >= 2;
  }

  /** Line1 grown by A, B, C and D holds exactly those points. */
  /** The last two insertions of C and D into A-B. */
  lemma ParaUnionTail()
    ensures Union(["A", "B"], ["C", "D"]) == ["A", "B", "C", "D"]
  {
    var abc: seq<Point> := ["A", "B", "C"];
    var abcd: seq<Point> := ["A", "B", "C", "D"];
    var d: seq<Point> := ["D"];
    assert Union(abcd, []) == abcd;
    assert Union(abc, d) == abcd by {
      assert Insert(abc, "D") == abcd;
      assert d[1..] == [];
    }
    assert Insert(["A", "B"], "C") == abc;
    assert ["C", "D"][1..] == d;
  }

  /** The insertions of B, C and D into A-B. */
  lemma ParaUnionFromB()
    ensures Union(["A", "B"], ["B", "C", "D"]) == ["A", "B", "C", "D"]
  {
    var ab: seq<Point> := ["A", "B"];
    ParaUnionTail();
    assert Insert(ab, "B") == ab;
    assert ["B", "C", "D"][1..] == ["C", "D"];
  }

  lemma ParaWitnessUnion()
    ensures Union(["A", "B"], ["A", "B", "C", "D"]) == ["A", "B", "C", "D"]
  {
    var ab: seq<Point> := ["A", "B"];
    ParaUnionFromB();
    assert ["A", "B", "C", "D"][1..] == ["B", "C", "D"];
    assert Insert(ab, "A") == ab;
  }

  /** Grown line1 shares C and D with line2. */
  lemma ParaGrownJoinsLine2(l1: LineKey, l2: LineKey, l3: LineKey)
    ensures Merge.Joins(ParaGrown(l1, l2, l3)[0], ParaGrown(l1, l2, l3)[1], Id, 2)
  {
    MapId(ParaGrown(l1, l2, l3)[0].members);
    MapId(ParaGrown(l1, l2, l3)[1].members);
    var xs: seq<Point> := ["A", "B", "C", "D"];
    var cd: seq<Point> := ["C", "D"];
    assert xs[1..][1..] == cd;
    assert CountIn(cd, cd) == 2 by {
      assert cd[1..] == ["D"];
    }
    assert "A" !in cd && "B" !in cd;
  }

  /** Grown line1 shares nothing with line3. */
  lemma ParaGrownMissesLine3(l1: LineKey, l2: LineKey, l3: LineKey)
    ensures !Merge.Joins(ParaGrown(l1, l2, l3)[0], ParaGrown(l1, l2, l3)[2], Id, 2)
  {
    MapId(ParaGrown(l1, l2, l3)[0].members);
    MapId(ParaGrown(l1, l2, l3)[2].members);
  }

  /** The first round of the merge absorbs line2 and leaves line3. */
  lemma ParaGrownRound(l1: LineKey, l2: LineKey, l3: LineKey)
    ensures Merge.Absorbed(ParaGrown(l1, l2, l3)[0], ParaGrown(l1, l2, l3)[1..], Id, 2) == [ParaGrown(l1, l2, l3)[1]]
    ensures Merge.Remaining(ParaGrown(l1, l2, l3)[0], ParaGrown(l1, l2, l3)[1..], Id, 2) == [ParaGrown(l1, l2, l3)[2]]
  {
    var g := ParaGrown(l1, l2, l3);
    ParaGrownJoinsLine2(l1, l2, l3);
    ParaGrownMissesLine3(l1, l2, l3);
    assert g[1..] == [g[1], g[2]];
    assert [g[1], g[2]][1..] == [g[2]];
  }

  /** In the merge, line1 absorbs line2 and line3 stays on its own. */
  lemma ParaGrownGroups(l1: LineKey, l2: LineKey, l3: LineKey)
    ensures Merge.Groups(ParaGrown(l1, l2, l3), Id, 2) == [Merge.Group(ParaGrown(l1, l2, l3)[0], [ParaGrown(l1, l2, l3)[1]]), Merge.Group(ParaGrown(l1, l2, l3)[2], [])]
  {
    ParaGrownRound(l1, l2, l3);
    assert Merge.Groups([ParaGrown(l1, l2, l3)[2]], Id, 2) == [Merge.Group(ParaGrown(l1, l2, l3)[2], [])];
  }

  /** `coll(A, B, C, D)` on the witness store merges the grown lines. */
  lemma ParaWitnessHandler(l1: LineKey, l2: LineKey, l3: LineKey)
    ensures CollHandler(ParaWitness(l1, l2, l3).lines, ["A", "B", "C", "D"]) == Ok(Merge.MergeBy(ParaGrown(l1, l2, l3), Id, 2))
  {
    ParaWitnessPicks(l1, l2, l3);
    ParaWitnessUnion();
  }

  /** The merge keeps two lines, line1 and line3. */
  /** A group with one absorbed entry holds both entries' members. */
  lemma GroupOfTwo<N, T>(h: Entry<N, T>, e: Entry<N, T>)
    ensures Merge.GroupMembers(Merge.Group(h, [e])) == h.members + e.members
  {
    assert Map([e], Merge.Members) == [e.members];
    assert Concat([e.members]) == e.members by {
      assert [e.members][1..] == [];
    }
  }

  /** A group with nothing absorbed holds its head's members. */
  lemma GroupOfOne<N, T>(h: Entry<N, T>)
    ensures Merge.GroupMembers(Merge.Group(h, [])) == h.members
  {
    assert Map([], Merge.Members<N, T>) == [];
  }

  lemma ParaGrownMerged(l1: LineKey, l2: LineKey, l3: LineKey)
    ensures var r := Merge.MergeBy(ParaGrown(l1, l2, l3), Id, 2);
      |r| == 2 && r[0].key == l1 && r[1].key == l3
      && r[0].members == FirstByKey(ParaGrown(l1, l2, l3)[0].members + ParaGrown(l1, l2, l3)[1].members, Id)
      && r[1].members == FirstByKey(ParaGrown(l1, l2, l3)[2].members, Id)
  {
    var g := ParaGrown(l1, l2, l3);
    ParaGrownGroups(l1, l2, l3);
    GroupOfTwo(g[0], g[1]);
    GroupOfOne(g[2]);
  }

  /** The merged line1 holds C and D but not E. */
  lemma ParaMergedLine1(l1: LineKey, l2: LineKey, l3: LineKey)
    ensures var m := FirstByKey(ParaGrown(l1, l2, l3)[0].members + ParaGrown(l1, l2, l3)[1].members, Id);
      "C" in m && "D" in m && "E" !in m
  {
    var m0 := ParaGrown(l1, l2, l3)[0].members + ParaGrown(l1, l2, l3)[1].members;
    assert m0 == ["A", "B", "C", "D", "C", "D"];
    var c := FirstByKeyCover(m0, Id, "C");
    var d := FirstByKeyCover(m0, Id, "D");
    FirstByKeyCovers(m0, Id);
    assert "E" !in m0;
  }

  /** The kept line3 holds E and F. */
  lemma ParaMergedLine3(l1: LineKey, l2: LineKey, l3: LineKey)
    ensures var m := FirstByKey(ParaGrown(l1, l2, l3)[2].members, Id);
      "E" in m && "F" in m
  {
    var e := FirstByKeyCover(ParaGrown(l1, l2, l3)[2].members, Id, "E");
    var f := FirstByKeyCover(ParaGrown(l1, l2, l3)[2].members, Id, "F");
  }

  /** After the merge, line2 goes by line1 and line3 keeps its name. */
  lemma ParaSurvivors(l1: LineKey, l2: LineKey, l3: LineKey)
    requires l3 != l1 && l3 != l2
    ensures Survivor(Merge.Groups(ParaGrown(l1, l2, l3), Id, 2), l2) == l1
    ensures Survivor(Merge.Groups(ParaGrown(l1, l2, l3), Id, 2), l3) == l3
  {
    ParaGrownGroups(l1, l2, l3);
    var gs := Merge.Groups(ParaGrown(l1, l2, l3), Id, 2);
    var g0 := Merge.Group(ParaGrown(l1, l2, l3)[0], [ParaGrown(l1, l2, l3)[1]]);
    var g1 := Merge.Group(ParaGrown(l1, l2, l3)[2], []);
    assert gs == [g0, g1];
    assert Keys(g0.joined) == [l2];
    assert Keys(g1.joined) == [];
    assert gs[1..] == [g1];
    assert gs[1..][1..] == [];
  }

  /** Growing line1 of the witness store by A, B, C and D gives `ParaGrown(l1, l2, l3)`. */
  lemma ParaWitnessGrown(l1: LineKey, l2: LineKey, l3: LineKey)
    ensures ParaWitness(l1, l2, l3).lines[0 := Entry(ParaWitness(l1, l2, l3).lines[0].key, Union(ParaWitness(l1, l2, l3).lines[0].members, ["A", "B", "C", "D"]))] == ParaGrown(l1, l2, l3)
  {
    ParaWitnessUnion();
    assert ParaWitness(l1, l2, l3).lines[0].key == l1 && ParaWitness(l1, l2, l3).lines[0].members == ["A", "B"];
  }

  /** Renamed after the merge, the witness's parallel group names line1 and line3. */
  lemma ParaWitnessRenames(l1: LineKey, l2: LineKey, l3: LineKey)
    requires l3 != l1 && l3 != l2
    ensures RenameParas(Merge.Groups(ParaGrown(l1, l2, l3), Id, 2), ParaWitness(l1, l2, l3).paraFacts) == [[l1, l3]]
  {
    ParaSurvivors(l1, l2, l3);
    var gs := Merge.Groups(ParaGrown(l1, l2, l3), Id, 2);
    var ns: seq<LineKey> := [l2, l3];
    assert Map(ns, (n: LineKey) => Survivor(gs, n)) == [l1, l3];
    assert ParaWitness(l1, l2, l3).paraFacts == [ns];
  }

  /** With the rewrite, the witness's parallel group names line1 and line3. */
  lemma ParaWitnessRenamed(l1: LineKey, l2: LineKey, l3: LineKey)
    requires l3 != l1 && l3 != l2
    ensures CollRenamed(ParaWitness(l1, l2, l3), ["A", "B", "C", "D"]).Ok?
    ensures CollRenamed(ParaWitness(l1, l2, l3), ["A", "B", "C", "D"]).value.paraFacts == [[l1, l3]]
  {
    ParaWitnessHandler(l1, l2, l3);
    ParaWitnessPicks(l1, l2, l3);
    ParaWitnessGrown(l1, l2, l3);
    ParaWitnessRenames(l1, l2, l3);
    CollRenamedParas(ParaWitness(l1, l2, l3), ["A", "B", "C", "D"]);
  }

  /** `matchLine` on a pair that lies on a stored line names the first
      such line and adds none. */
  lemma MatchFound(lines: Lines, p: Point, q: Point, i: nat)
    requires i < |lines| && p in lines[i].members && q in lines[i].members
    requires forall k | 0 <= k < i :: !(p in lines[k].members && q in lines[k].members)
    ensures MatchLine(lines, p, q) == Ok(Named(lines, lines[i].key))
  {
    var w := LineWith(lines, p, q);
    if w < i {
      assert false;
    }
  }

  /** Matching a pair that names an existing line, then the rest. */
  lemma MatchLinesStep(lines: Lines, pr: (Point, Point), rest: seq<(Point, Point)>, name: LineKey, tail: seq<LineKey>)
    requires MatchLine(lines, pr.0, pr.1) == Ok(Named(lines, name))
    requires MatchLines(lines, rest) == Ok(Matched(lines, tail))
    ensures MatchLines(lines, [pr] + rest) == Ok(Matched(lines, [name] + tail))
  {
    assert ([pr] + rest)[0] == pr && ([pr] + rest)[1..] == rest;
  }

  /** Matching two pairs that both lie on stored lines names those lines
      and adds none. */
  lemma MatchTwoFound(lines: Lines, p: Point, q: Point, s: Point, t: Point, i: nat, j: nat)
    requires i < |lines| && p in lines[i].members && q in lines[i].members
    requires forall k | 0 <= k < i :: !(p in lines[k].members && q in lines[k].members)
    requires j < |lines| && s in lines[j].members && t in lines[j].members
    requires forall k | 0 <= k < j :: !(s in lines[k].members && t in lines[k].members)
    ensures MatchLines(lines, [(p, q), (s, t)]) == Ok(Matched(lines, [lines[i].key, lines[j].key]))
  {
    MatchFound(lines, p, q, i);
    MatchOneFound(lines, s, t, j);
    MatchBoth(lines, p, q, s, t, lines[i].key, lines[j].key);
  }

  lemma MatchBoth(lines: Lines, p: Point, q: Point, s: Point, t: Point, a: LineKey, b: LineKey)
    requires MatchLine(lines, p, q) == Ok(Named(lines, a))
    requires MatchLines(lines, [(s, t)]) == Ok(Matched(lines, [b]))
    ensures MatchLines(lines, [(p, q), (s, t)]) == Ok(Matched(lines, [a, b]))
  {
    MatchLinesStep(lines, (p, q), [(s, t)], a, [b]);
    assert [(p, q)] + [(s, t)] == [(p, q), (s, t)];
    assert [a] + [b] == [a, b];
  }

  lemma MatchOneFound(lines: Lines, s: Point, t: Point, j: nat)
    requires j < |lines| && s in lines[j].members && t in lines[j].members
    requires forall k | 0 <= k < j :: !(s in lines[k].members && t in lines[k].members)
    ensures MatchLines(lines, [(s, t)]) == Ok(Matched(lines, [lines[j].key]))
  {
    MatchFound(lines, s, t, j);
    assert MatchLines(lines, []) == Ok(Matched(lines, []));
    MatchLinesStep(lines, (s, t), [], lines[j].key, []);
    assert [(s, t)] + [] == [(s, t)];
    assert [lines[j].key] + [] == [lines[j].key];
  }

  /** After `coll(A, B, C, D)` on the witness store, C-D is matched to
      line1 and E-F to line3. */
  lemma ParaMergedMatches(l1: LineKey, l2: LineKey, l3: LineKey)
    ensures CollHandler(ParaWitness(l1, l2, l3).lines, ["A", "B", "C", "D"]).Ok?
    ensures var lines := CollHandler(ParaWitness(l1, l2, l3).lines, ["A", "B", "C", "D"]).value;
      MatchLines(lines, [("C", "D"), ("E", "F")]) == Ok(Matched(lines, [l1, l3]))
  {
    ParaWitnessHandler(l1, l2, l3);
    ParaGrownMerged(l1, l2, l3);
    ParaMergedLine1(l1, l2, l3);
    ParaMergedLine3(l1, l2, l3);
    MatchFirstTwo(Merge.MergeBy(ParaGrown(l1, l2, l3), Id, 2), "C", "D", "E", "F");
  }

  /** Matching a pair on the first line and a pair on the second that
      misses the first names those two lines. */
  lemma MatchFirstTwo(lines: Lines, p: Point, q: Point, s: Point, t: Point)
    requires |lines| >= 2 && p in lines[0].members && q in lines[0].members
    requires s in lines[1].members && t in lines[1].members && s !in lines[0].members
    ensures MatchLines(lines, [(p, q), (s, t)]) == Ok(Matched(lines, [lines[0].key, lines[1].key]))
  {
    MatchTwoFound(lines, p, q, s, t, 0, 1);
  }

  /** As written, `coll(A, B, C, D)` merges the witness's lines but leaves
      its parallel group naming line2 and line3. */
  lemma ParaWitnessKept(l1: LineKey, l2: LineKey, l3: LineKey)
    ensures AddAsWritten(ParaWitness(l1, l2, l3), Pred("coll", ["A", "B", "C", "D"])).Ok?
    ensures AddAsWritten(ParaWitness(l1, l2, l3), Pred("coll", ["A", "B", "C", "D"])).value
      == ParaWitness(l1, l2, l3).(lines := CollHandler(ParaWitness(l1, l2, l3).lines, ["A", "B", "C", "D"]).value)
  {
    ParaWitnessHandler(l1, l2, l3);
  }

  /** With the rewrite, the same `coll` gives the merged lines and a
      parallel group naming line1 and line3. */
  lemma ParaWitnessFixed(l1: LineKey, l2: LineKey, l3: LineKey)
    requires l3 != l1 && l3 != l2
    ensures Add(ParaWitness(l1, l2, l3), Pred("coll", ["A", "B", "C", "D"])).Ok?
    ensures Add(ParaWitness(l1, l2, l3), Pred("coll", ["A", "B", "C", "D"])).value.lines
      == CollHandler(ParaWitness(l1, l2, l3).lines, ["A", "B", "C", "D"]).value
    ensures Add(ParaWitness(l1, l2, l3), Pred("coll", ["A", "B", "C", "D"])).value.paraFacts == [[l1, l3]]
  {
    ParaWitnessRenamed(l1, l2, l3);
  }

  /** As written, after `coll(A, B, C, D)` on the witness store C-D and
      E-F are matched to the first and third lines, and the parallel group
      still names the second and third. */
  lemma ParaAfterAsWritten(l1: LineKey, l2: LineKey, l3: LineKey)
    ensures AddAsWritten(ParaWitness(l1, l2, l3), Pred("coll", ["A", "B", "C", "D"])).Ok?
    ensures var st1 := AddAsWritten(ParaWitness(l1, l2, l3), Pred("coll", ["A", "B", "C", "D"])).value;
      st1.paraFacts == [[l2, l3]] && MatchLines(st1.lines, [("C", "D"), ("E", "F")]) == Ok(Matched(st1.lines, [l1, l3]))
  {
    ParaWitnessKept(l1, l2, l3);
    ParaMergedMatches(l1, l2, l3);
  }

  /** With the rewrite, after the same `coll` C-D and E-F are matched to the
      first and third lines, and the parallel group names those two. */
  lemma ParaAfterFixed(l1: LineKey, l2: LineKey, l3: LineKey)
    requires l3 != l1 && l3 != l2
    ensures Add(ParaWitness(l1, l2, l3), Pred("coll", ["A", "B", "C", "D"])).Ok?
    ensures var st1 := Add(ParaWitness(l1, l2, l3), Pred("coll", ["A", "B", "C", "D"])).value;
      st1.paraFacts == [[l1, l3]] && MatchLines(st1.lines, [("C", "D"), ("E", "F")]) == Ok(Matched(st1.lines, [l1, l3]))
  {
    ParaWitnessFixed(l1, l2, l3);
    ParaMergedMatches(l1, l2, l3);
  }

  /** `add(predicate)` as written: each kind goes to its handler; any other
      kind leaves the store as it is.  `_lineMerge` and `_congMerge` drop the
      names they absorb from the lines and classes but not from the groups,
      so a group can go on naming a line or class that no longer exists. */
  function AddAsWritten(st: Store, p: Pred): (r: Result<Store>)
    ensures p.kind !in HandledKinds ==> r == Ok(st)
    ensures r.Ok? && p.kind != "midp" && p.kind != "coll" ==> r.value.midpFacts == st.midpFacts
    ensures r.Ok? && p.kind != "para" ==> r.value.paraFacts == st.paraFacts
    ensures r.Ok? && p.kind != "eqangle" ==> r.value.eqangleFacts == st.eqangleFacts
    ensures r.Ok? && p.kind != "eqratio" ==> r.value.eqratioFacts == st.eqratioFacts
    ensures r.Ok? && p.kind != "cong" && p.kind != "eqratio" ==> r.value.congs == st.congs
  {
    if p.kind == "coll" then
      var lines :- CollHandler(st.lines, p.points);
      Ok(st.(lines := lines))
    else if p.kind == "midp" then MidpHandler(st, p.points)
    else if p.kind == "para" then ParaHandler(st, p.points)
    else if p.kind == "eqangle" then EqangleHandler(st, p.points)
    else if p.kind == "cong" then CongHandler(st, p.points)
    else if p.kind == "eqratio" then EqratioHandler(st, p.points)
    else Ok(st)
  }
}

=== FILE: text.dfy ===
/** The handful of Python `str` operations the prover relies on, with Python's
    semantics: `strip`, `rstrip(chars)`, `find`, slicing with negative indices,
    `split(sep)`, `sep.join(xs)`, `repr` and decimal formatting. */
module Text {

  /** Python's `str.isspace` for one character (the whitespace `strip()` removes). */
  predicate IsSpace(c: char) {
    var n := c as int;
    n == 32 || 9 <= n <= 13 || 28 <= n <= 31 || n == 0x85 || n == 0xA0 || n == 0x1680
    || 0x2000 <= n <= 0x200A || n == 0x2028 || n == 0x2029 || n == 0x202F
    || n == 0x205F || n == 0x3000
  }

  /** `s.lstrip()`. */
  function StripLeft(s: string): (r: string)
    ensures |r| <= |s|
    ensures r == [] || !IsSpace(r[0])
  {
    if s != [] && IsSpace(s[0]) then StripLeft(s[1..]) else s
  }

  /** `lstrip` removes a prefix made only of whitespace. */
  lemma {:induction false} StripLeftSuffix(s: string)
    ensures StripLeft(s) == s[|s| - |StripLeft(s)|..]
    ensures forall i | 0 <= i < |s| - |StripLeft(s)| :: IsSpace(s[i])
  {
    if s != [] && IsSpace(s[0]) {
      StripLeftSuffix(s[1..]);
    }
  }

  /** `s.rstrip(chars)` where `drop` says which characters are in `chars`. */
  function StripRight(s: string, drop: char -> bool): (r: string)
    ensures |r| <= |s|
    ensures r == [] || !drop(r[|r| - 1])
  {
    if s != [] && drop(s[|s| - 1]) then StripRight(s[..|s| - 1], drop) else s
  }

  /** `rstrip` removes a suffix made only of dropped characters. */
  lemma {:induction false} StripRightPrefix(s: string, drop: char -> bool)
    ensures StripRight(s, drop) == s[..|StripRight(s, drop)|]
    ensures forall i | |StripRight(s, drop)| <= i < |s| :: drop(s[i])
  {
    if s != [] && drop(s[|s| - 1]) {
      StripRightPrefix(s[..|s| - 1], drop);
      assert s[..|s| - 1][..|StripRight(s, drop)|] == s[..|StripRight(s, drop)|];
    }
  }

  /** `s.strip()`. */
  function Strip(s: string): (r: string)
    ensures r == [] || (!IsSpace(r[0]) && !IsSpace(r[|r| - 1]))
  {
    var l := StripLeft(s);
    StripRightPrefix(l, IsSpace);
    StripRight(l, IsSpace)
  }

  /** A string with no surrounding whitespace is its own `strip()`. */
  lemma StripTrimmed(s: string)
    requires s == [] || (!IsSpace(s[0]) && !IsSpace(s[|s| - 1]))
    ensures Strip(s) == s
  {
  }

  /** `strip()` removes only surrounding whitespace: its result is a slice of
      its argument with whitespace on both sides. */
  lemma StripSlice(s: string)
    ensures exists lo, hi | 0 <= lo <= hi <= |s| ::
      Strip(s) == s[lo..hi]
      && (forall i | 0 <= i < lo :: IsSpace(s[i]))
      && (forall i | hi <= i < |s| :: IsSpace(s[i]))
  {
    var l := StripLeft(s);
    var lo := |s| - |l|;
    var r := StripRight(l, IsSpace);
    StripLeftSuffix(s);
    StripRightPrefix(l, IsSpace);
    var hi := lo + |r|;
    assert l == s[lo..];
    assert r == l[..|r|];
    assert r == s[lo..hi];
    assert forall i | |r| <= i < |l| :: IsSpace(l[i]);
    forall i | hi <= i < |s| ensures IsSpace(s[i]) {
      assert s[i] == l[i - lo];
    }
    assert Strip(s) == s[lo..hi];
  }

  /** Stripping twice is stripping once. */
  lemma StripIdempotent(s: string)
    ensures Strip(Strip(s)) == Strip(s)
  {
    StripTrimmed(Strip(s));
  }

  /** `s.find(c)`: the first index of `c`, or -1. */
  function Find(s: string, c: char): (i: int)
    ensures -1 <= i < |s|
    ensures i == -1 <==> c !in s
    ensures i >= 0 ==> s[i] == c && c !in s[..i]
  {
    if s == [] then -1
    else if s[0] == c then 0
    else
      var k := Find(s[1..], c);
      assert s == [s[0]] + s[1..];
      if k == -1 then -1 else k + 1
  }

  /** Python's normalisation of a slice bound: negative counts from the end,
      then clamp into `[0, n]`. */
  function SliceBound(i: int, n: nat): (r: nat)
    ensures r <= n
    ensures 0 <= i <= n ==> r == i
  {
    if i < 0 then (if i + n < 0 then 0 else i + n) else if i > n then n else i
  }

  /** `s[i:j]`. */
  function Slice<T>(s: seq<T>, i: int, j: int): (r: seq<T>)
    ensures |r| <= |s|
    ensures 0 <= i <= j <= |s| ==> r == s[i..j]
  {
    var lo := SliceBound(i, |s|);
    var hi := SliceBound(j, |s|);
    if lo < hi then s[lo..hi] else []
  }

  /** `s.split(c)` for a one-character separator. */
  function Split(s: string, c: char): (r: seq<string>)
    ensures |r| >= 1
    ensures forall k | 0 <= k < |r| :: c !in r[k]
    decreases |s|
  {
    var i := Find(s, c);
    if i == -1 then [s] else [s[..i]] + Split(s[i + 1..], c)
  }

  /** `sep.join(xs)`. */
  function Join(sep: string, xs: seq<string>): (r: string)
  {
    if xs == [] then "" else if |xs| == 1 then xs[0] else xs[0] + sep + Join(sep, xs[1..])
  }

  lemma JoinHead(sep: string, xs: seq<string>)
    requires xs != []
    ensures Join(sep, xs) == xs[0] + (if |xs| == 1 then "" else sep + Join(sep, xs[1..]))
  {
    if |xs| == 1 {
      assert xs[0] + "" == xs[0];
    }
  }

  /** Joining the pieces of a split with the separator gives back the string. */
  lemma {:induction false} JoinSplit(s: string, c: char)
    ensures Join([c], Split(s, c)) == s
    decreases |s|
  {
    var i := Find(s, c);
    if i != -1 {
      JoinSplit(s[i + 1..], c);
      JoinCons([c], s[..i], Split(s[i + 1..], c));
      assert s == s[..i] + [c] + s[i + 1..];
    }
  }

  lemma JoinCons(sep: string, x: string, xs: seq<string>)
    requires xs != []
    ensures Join(sep, [x] + xs) == x + sep + Join(sep, xs)
  {
    assert ([x] + xs)[0] == x && ([x] + xs)[1..] == xs;
  }

  /** Splitting a join of separator-free pieces gives back the pieces. */
  lemma {:induction false} SplitJoin(xs: seq<string>, c: char)
    requires xs != []
    requires forall k | 0 <= k < |xs| :: c !in xs[k]
    ensures Split(Join([c], xs), c) == xs
  {
    if |xs| > 1 {
      var s := Join([c], xs);
      var rest := Join([c], xs[1..]);
      assert s == xs[0] + [c] + rest;
      assert s[..|xs[0]|] == xs[0];
      assert s[|xs[0]|] == c;
      assert Find(s, c) == |xs[0]| by {
        assert c !in s[..|xs[0]|];
      }
      assert s[|xs[0]| + 1..] == rest;
      SplitJoin(xs[1..], c);
    }
  }

  /** One decimal digit. */
  function Digit(d: nat): (c: char)
    requires d < 10
    ensures '0' <= c <= '9'
  {
    (48 + d) as char
  }

  /** `str(n)` for a natural number. */
  function Decimal(n: nat): (r: string)
    ensures 1 <= |r|
    ensures forall i | 0 <= i < |r| :: '0' <= r[i] <= '9'
    ensures n >= 10 <==> |r| >= 2
  {
    if n < 10 then [Digit(n)] else Decimal(n / 10) + [Digit(n % 10)]
  }

  /** Different numbers are written differently. */
  lemma {:induction false} DecimalInjective(a: nat, b: nat)
    requires Decimal(a) == Decimal(b)
    ensures a == b
  {
    if a >= 10 {
      var da, db := Decimal(a), Decimal(b);
      assert da[|da| - 1] == Digit(a % 10) && db[|db| - 1] == Digit(b % 10);
      assert da[..|da| - 1] == Decimal(a / 10) && db[..|db| - 1] == Decimal(b / 10);
      DecimalInjective(a / 10, b / 10);
    }
  }

  /** `prefix + str(n)`, the shape of the store's generated names. */
  function NumberedName(prefix: string, n: nat): (r: string)
    ensures |r| > |prefix| && r[..|prefix|] == prefix
  {
    prefix + Decimal(n)
  }

  lemma NumberedNameInjective(prefix: string, a: nat, b: nat)
    requires NumberedName(prefix, a) == NumberedName(prefix, b)
    ensures a == b
  {
    assert Decimal(a) == NumberedName(prefix, a)[|prefix|..];
    assert Decimal(b) == NumberedName(prefix, b)[|prefix|..];
    DecimalInjective(a, b);
  }

  /** Two hexadecimal digits, as in Python's `\xNN` escapes. */
  function Hex2(n: nat): string
    requires n < 256
  {
    var hex := "0123456789abcdef";
    [hex[n / 16], hex[n % 16]]
  }

  /** One character inside a Python `repr` delimited by `quote`. */
  function EscapeChar(c: char, quote: char): string {
    if c == '\\' then "\\\\"
    else if c == quote then ['\\', c]
    else if c == '\n' then "\\n"
    else if c == '\r' then "\\r"
    else if c == '\t' then "\\t"
    else if (c as int) < 32 || c as int == 127 then "\\x" + Hex2(c as int)
    else [c]
  }

  function Escape(s: string, quote: char): (r: string)
    ensures |r| >= |s|
  {
    if s == [] then "" else EscapeChar(s[0], quote) + Escape(s[1..], quote)
  }

  /** A name Python's `repr` writes verbatim between single quotes. */
  predicate PlainName(s: string) {
    forall i | 0 <= i < |s| :: 32 <= s[i] as int < 127 && s[i] != '\'' && s[i] != '\\'
  }

  /** `repr(s)` for a string: single quotes unless the text holds a single
      quote and no double quote. */
  function Repr(s: string): (r: string)
    ensures PlainName(s) ==> r == "'" + s + "'"
  {
    if '\'' in s && '"' !in s then "\"" + Escape(s, '"') + "\""
    else
      assert PlainName(s) ==> Escape(s, '\'') == s by {
        if PlainName(s) {
          PlainEscape(s);
        }
      }
      "'" + Escape(s, '\'') + "'"
  }

  lemma {:induction false} PlainEscape(s: string)
    requires PlainName(s)
    ensures Escape(s, '\'') == s
  {
    if s != [] {
      PlainEscape(s[1..]);
    }
  }
}

=== FILE: util.dfy ===
/** Reading a problem file into predicates, and removing repeated elements
    from a list while keeping the first of each. */
module Util {
  import opened Common
  import opened Text
  import opened Predicates

  /** `parse_predicates_from_file`, given the lines the file holds: one
      predicate per line, in order. */
  function ParsePredicates(lines: seq<string>): (ps: seq<Pred>)
    ensures |ps| == |lines|
  {
    Map(lines, FromLine)
  }

  /** Text after the closing parenthesis, such as the dot and newline that
      end each line of a problem file, does not change the parse. */
  lemma ParseIgnoresTail(l: string, rest: string, full: string)
    requires full == l + rest
    requires '(' in l && ')' in l && Find(l, '(') < Find(l, ')')
    ensures Parse(full) == Parse(l)
  {
    FindInPrefix(l, rest, '(');
    FindInPrefix(l, rest, ')');
    var o, c := Find(l, '('), Find(l, ')');
    assert full[..o] == l[..o];
    assert full[o + 1..c] == l[o + 1..c];
  }

  lemma FindInPrefix(l: string, rest: string, c: char)
    requires c in l
    ensures Find(l + rest, c) == Find(l, c)
  {
    var i := Find(l, c);
    assert (l + rest)[..i] == l[..i];
    FindFirstIn(l + rest, i, c);
  }

  lemma FindFirstIn(s: string, i: nat, c: char)
    requires i < |s| && s[i] == c && c !in s[..i]
    ensures Find(s, c) == i
  {
    if i > 0 {
      assert s[1..][..i - 1] == s[..i][1..];
      FindFirstIn(s[1..], i - 1, c);
    }
  }

  /** A problem file whose lines read `kind(p1,...,pn).` followed by a newline
      gives the predicates those lines name, in order. */
  lemma ParseProblemFile(lines: seq<string>, ps: seq<Pred>)
    requires |lines| == |ps|
    requires forall i | 0 <= i < |ps| ::
      KindClean(ps[i].kind) && PiecesClean(ps[i].points) && ps[i].points != []
      && (forall j | 0 <= j < |ps[i].points| :: Strip(ps[i].points[j]) == ps[i].points[j])
      && lines[i] == LineText(ps[i].kind, ps[i].points) + ".\n"
    ensures ParsePredicates(lines) == ps
  {
    forall i | 0 <= i < |ps| ensures FromLine(lines[i]) == ps[i] {
      FileLineParses(lines[i], ps[i]);
    }
  }

  lemma FileLineParses(line: string, p: Pred)
    requires KindClean(p.kind) && PiecesClean(p.points) && p.points != []
    requires forall j | 0 <= j < |p.points| :: Strip(p.points[j]) == p.points[j]
    requires line == LineText(p.kind, p.points) + ".\n"
    ensures FromLine(line) == p
  {
    var l := LineText(p.kind, p.points);
    FromLineRoundTrip(p);
    LineTextShape(p.kind, p.points);
    assert Parse(l) == p;
    DottedLine(line, l, p);
  }

  /** A hypothesis line is its own cleaned text, and its first `(` comes
      before its first `)`. */
  lemma LineTextShape(kind: string, pieces: seq<string>)
    requires KindClean(kind) && PiecesClean(pieces)
    ensures var l := LineText(kind, pieces);
      l != [] && !IsSpace(l[0]) && Clean(l) == l
      && '(' in l && ')' in l && Find(l, '(') < Find(l, ')')
  {
    var body := Join(",", pieces);
    var l := kind + "(" + body + ")";
    JoinAvoids(pieces, ',', ')');
    ShapeFinds(l, kind, body);
    assert l[0] == if kind == [] then '(' else kind[0];
    assert l[|l| - 1] == ')';
    CleanShaped(l);
  }

  lemma DottedLine(line: string, l: string, p: Pred)
    requires l != [] && !IsSpace(l[0]) && Parse(l) == p
    requires '(' in l && ')' in l && Find(l, '(') < Find(l, ')')
    requires line == l + ".\n"
    ensures FromLine(line) == p
  {
    var dotted := l + ".";
    assert line == dotted + "\n";
    DottedClean(line, dotted, l);
    ParseIgnoresTail(l, ".", dotted);
  }

  lemma DottedClean(line: string, dotted: string, l: string)
    requires l != [] && !IsSpace(l[0])
    requires dotted == l + "." && line == dotted + "\n"
    ensures Clean(line) == dotted
  {
    assert line[|line| - 1] == '\n';
    assert StripRight(line, IsDot) == line;
    assert line[..|line| - 1] == dotted;
    assert line[0] == l[0];
    assert StripLeft(line) == line;
    assert StripRight(dotted, IsSpace) == dotted;
  }

  function Id<T>(x: T): T {
    x
  }

  /** The reference meaning of `deduplicate`: an element is kept exactly when
      no earlier element has the same key. Python's `e not in res` compares
      with `==`; `key` names what that equality looks at (the value itself for
      names, the rendering for facts). */
  function FirstByKey<T, K(==)>(xs: seq<T>, key: T -> K): (r: seq<T>)
    ensures |r| <= |xs|
    decreases |xs|
  {
    if xs == [] then []
    else
      var init := xs[..|xs| - 1];
      FirstByKey(init, key) + (if key(xs[|xs| - 1]) in Map(init, key) then [] else [xs[|xs| - 1]])
  }

  /** `deduplicate(a_list)`. */
  method Deduplicate<T, K(==)>(xs: seq<T>, key: T -> K) returns (res: seq<T>)
    ensures res == FirstByKey(xs, key)
  {
    res := [];
    for i := 0 to |xs|
      invariant res == FirstByKey(xs[..i], key)
    {
      assert xs[..i + 1][..i] == xs[..i];
      FirstByKeyKeys(xs[..i], key, key(xs[i]));
      if key(xs[i]) !in Map(res, key) {
        res := res + [xs[i]];
      }
    }
    assert xs[..|xs|] == xs;
  }

  /** Deduplicating loses no key and invents none. */
  lemma {:induction false} FirstByKeyKeys<T, K>(xs: seq<T>, key: T -> K, k: K)
    ensures k in Map(FirstByKey(xs, key), key) <==> k in Map(xs, key)
    decreases |xs|
  {
    if xs != [] {
      var init := xs[..|xs| - 1];
      var x := xs[|xs| - 1];
      FirstByKeyKeys(init, key, k);
      FirstByKeyKeys(init, key, key(x));
      assert xs == init + [x];
      MapConcat(init, [x], key);
      var rest := if key(x) in Map(init, key) then [] else [x];
      MapConcat(FirstByKey(init, key), rest, key);
    }
  }

  /** No two kept elements share a key. */
  lemma {:induction false} FirstByKeyDistinct<T, K>(xs: seq<T>, key: T -> K)
    ensures NoDup(Map(FirstByKey(xs, key), key))
    decreases |xs|
  {
    if xs != [] {
      var init := xs[..|xs| - 1];
      var x := xs[|xs| - 1];
      FirstByKeyDistinct(init, key);
      FirstByKeyKeys(init, key, key(x));
      var rest := if key(x) in Map(init, key) then [] else [x];
      MapConcat(FirstByKey(init, key), rest, key);
    }
  }

  /** A list whose keys are already distinct is left as it is. */
  lemma {:induction false} FirstByKeyDistinctUnchanged<T, K>(xs: seq<T>, key: T -> K)
    requires NoDup(Map(xs, key))
    ensures FirstByKey(xs, key) == xs
    decreases |xs|
  {
    if xs != [] {
      var init := xs[..|xs| - 1];
      var x := xs[|xs| - 1];
      assert xs == init + [x];
      MapConcat(init, [x], key);
      var m := Map(xs, key);
      assert Map(init, key) == m[..|xs| - 1];
      assert NoDup(Map(init, key));
      FirstByKeyDistinctUnchanged(init, key);
      assert key(x) !in Map(init, key);
    }
  }

  /** Deduplicating twice is deduplicating once. */
  lemma FirstByKeyIdempotent<T, K>(xs: seq<T>, key: T -> K)
    ensures FirstByKey(FirstByKey(xs, key), key) == FirstByKey(xs, key)
  {
    FirstByKeyDistinct(xs, key);
    FirstByKeyDistinctUnchanged(FirstByKey(xs, key), key);
  }

  /** Order is kept: what survives from a prefix comes first, in the same order. */
  lemma {:induction false} FirstByKeyPrefix<T, K>(xs: seq<T>, ys: seq<T>, key: T -> K)
    ensures FirstByKey(xs, key) <= FirstByKey(xs + ys, key)
    decreases |ys|
  {
    if ys == [] {
      assert xs + ys == xs;
    } else {
      var zs := xs + ys;
      assert zs[..|zs| - 1] == xs + ys[..|ys| - 1];
      FirstByKeyPrefix(xs, ys[..|ys| - 1], key);
    }
  }

  /** Every kept element is an element of the input. */
  lemma {:induction false} FirstByKeyFromInput<T, K>(xs: seq<T>, key: T -> K)
    ensures multiset(FirstByKey(xs, key)) <= multiset(xs)
    decreases |xs|
  {
    if xs != [] {
      var init := xs[..|xs| - 1];
      assert xs == init + [xs[|xs| - 1]];
      FirstByKeyFromInput(init, key);
    }
  }

  /** Deduplicating keeps only input elements, and no two of them share a
      key. */
  lemma FirstByKeyCovers<T, K>(xs: seq<T>, key: T -> K)
    ensures forall x | x in FirstByKey(xs, key) :: x in xs
    ensures forall i, j | 0 <= i < j < |FirstByKey(xs, key)| :: key(FirstByKey(xs, key)[i]) != key(FirstByKey(xs, key)[j])
  {
    var r := FirstByKey(xs, key);
    FirstByKeyFromInput(xs, key);
    forall x | x in r ensures x in xs {
      assert x in multiset(r);
    }
    FirstByKeyDistinct(xs, key);
    assert forall i, j | 0 <= i < j < |r| :: Map(r, key)[i] != Map(r, key)[j];
  }

  /** Deduplicating keeps, for every element of the input, one element with
      its key: `y`. */
  lemma FirstByKeyCover<T, K>(xs: seq<T>, key: T -> K, x: T) returns (y: T)
    requires x in xs
    ensures y in FirstByKey(xs, key) && key(y) == key(x)
  {
    var i :| 0 <= i < |xs| && xs[i] == x;
    assert Map(xs, key)[i] == key(x);
    FirstByKeyKeys(xs, key, key(x));
    var r := FirstByKey(xs, key);
    var j :| 0 <= j < |r| && Map(r, key)[j] == key(x);
    y := r[j];
  }

  /** On plain values (names, line keys) deduplicating keeps one copy of each
      value, so the result is duplicate-free and holds the same values. */
  lemma DedupValues<T>(xs: seq<T>)
    ensures NoDup(FirstByKey(xs, Id)) && Elems(FirstByKey(xs, Id)) == Elems(xs)
  {
    var r := FirstByKey(xs, Id);
    FirstByKeyDistinct(xs, Id);
    MapId(r);
    MapId(xs);
    forall x ensures x in r <==> x in xs {
      FirstByKeyKeys(xs, Id, x);
    }
    assert Elems(r) == Elems(xs);
  }

  lemma MapId<T>(xs: seq<T>)
    ensures Map(xs, Id) == xs
  {
  }

  /** A duplicate-free list holds each value at most once. */
  lemma CountOnce<T>(d: seq<T>, x: T)
    requires NoDup(d)
    ensures multiset(d)[x] <= 1
  {
    if d != [] {
      assert d == [d[0]] + d[1..];
      CountOnce(d[1..], x);
      if d[0] == x {
        assert x !in d[1..];
      }
    }
  }

  /** No two elements of the list share a key. */
  predicate KeysApart<T, K(==)>(xs: seq<T>, key: T -> K) {
    forall i, j | 0 <= i < j < |xs| :: key(xs[i]) != key(xs[j])
  }

  /** Any selection and rearrangement of elements whose keys differ still
      have differing keys. */
  lemma KeysApartWithin<T, K>(r: seq<T>, d: seq<T>, key: T -> K)
    requires KeysApart(d, key) && multiset(r) <= multiset(d)
    ensures KeysApart(r, key)
  {
    assert NoDup(d) by {
      forall i, j | 0 <= i < j < |d| ensures d[i] != d[j] {
        assert key(d[i]) != key(d[j]);
      }
    }
    forall i, j | 0 <= i < j < |r| ensures key(r[i]) != key(r[j]) {
      assert r[i] in multiset(r) && r[j] in multiset(r);
      var p :| 0 <= p < |d| && d[p] == r[i];
      var q :| 0 <= q < |d| && d[q] == r[j];
      if p == q {
        assert multiset(r)[r[i]] >= 2 by {
          assert r == r[..i] + [r[i]] + r[i + 1..j] + [r[j]] + r[j + 1..];
        }
        CountOnce(d, r[i]);
      } else if p < q {
        assert key(d[p]) != key(d[q]);
      } else {
        assert key(d[q]) != key(d[p]);
      }
    }
  }

  /** A rearrangement of a deduplicated list holds an element with the key
      of every element of the list. */
  lemma CoversPermuted<T, K>(xs: seq<T>, q: seq<T>, key: T -> K)
    requires multiset(q) == multiset(FirstByKey(xs, key))
    ensures forall x | x in xs :: exists y | y in q :: key(y) == key(x)
  {
    forall x | x in xs ensures exists y | y in q :: key(y) == key(x) {
      var y := FirstByKeyCover(xs, key, x);
      assert y in multiset(q);
    }
  }
}
